=== FILE: README.md ===
# Raceboat core, modelled in Dafny

Raceboat is a library and a small set of applications that carry byte streams over
pluggable covert channels. An application opens a send, a receive, a dial or a listen
through the `Race` facade. A manager starts one state machine per request. The machine
loads or creates links and connections through channel plugins, and it answers the caller
once its work is done. This project models the core of that system and proves properties
of the model:

- **State engine** (`Engine`). `StateEngine.HandleEvents` drains a context's pending-event queue in a loop. It is proved
  against the specification function `Drain`. States are values with enter, exit and
  prerequisite functions. A context (`Context`) keeps the current state, the queue and the
  machine's data.
- **API state machines.** One module per machine: `ConnMachine`, `SendMachine`, `RecvMachine`,
  `SendReceiveMachine`, `DialMachine`, `ResumeMachine`, `ListenMachine`, `PreConduitMachine`,
  `ConduitMachine`, `BootstrapDialMachine`, `BootstrapListenMachine` and
  `BootstrapPreConduitMachine`. Each declares its states and transitions the way its source
  does. Each state's enter step is modelled as a function from the context data to an outcome:
  the new data, the events it pushes, and the calls it makes on the manager, the core or a
  plugin. `ApiContext` holds the shared hooks and the `shouldCreate` rules.
- **Managers.** `ApiManagement.ApiManagerInternal` keeps the handle, id and package-id
  registries, the active contexts, the buffered unassociated packages and the link-to-connection
  map. `ChannelManagement.ChannelManager` keeps channel properties and activates channels.
- **Package reassembly** (`ReceivePackages`). This covers reading the buffer, batch mode,
  fragment storage and reassembly, and the cleanup decision.
- **Core services.** `CoreModel` covers handle and id generation, entropy and the shutdown
  guard. `PluginWrapping` covers the plugin wrapper's argument checks and its per-connection queues.
- **Plugin loading and configuration.** `PluginDefs`, `Compositions`, `PluginConfig`,
  `DecomposedLoading`, `PluginLoading`, `ChannelProps`, `RaceEnumNames` and `PluginFiles`
  cover these, along with the list printer `StringLists`.
- **Facade** (`RaceApi`). This covers the status names, the conduit's null-core and post-failure
  mapping, receive-respond and the channel parameter store.
- **Applications.**
  - `CommandLine` and `RaceCli` model the option parsing of `race-cli`, including the
    `-p key=value` split and the local-port override.
  - `BridgeDistro` models `bridge-distro`: its options, reading the responses file and the
    passphrase responder.
  - `RacePt3` and `Dispatcher` model the Go pluggable-transport adapter: client and server
    construction, conn read and write, the listener, the dispatcher's parameter marshalling
    and its client reuse.
- **States analysis** (`LinkStates`). This models the link-state exploration script: link
  coverage, `satisfies`, link creation and loading, `step`, and the bounded `run`.

JSON (nlohmann) and base64 are foreign libraries. The model passes them as a `Codecs` value
of functions. Where a proof needs a round-trip law, that law is a `requires` (see `Common`
and `JsonAccess`).

Each machine's state transition tables are checked against what its source declares (the
`*DeclsFollow` lemmas). The callback each API call carries is proved to fire at most once
(the `*KeepsCallbackOnce` lemmas).

## Model

| member | source | states |
|---|---|---|
| Engine.PlainState | source/state-machine/StateMachine.h:109-162 | a state overriding only enter: exit returns SUCCESS unchanged, prerequisites always hold, not final |
| Engine.FinalState | source/state-machine/StateMachine.h:166-171 | a FinalState keeps the defaults but reports finalState() true |
| Engine.Wrapper | source/state-machine/StateMachine.h:118-150 | enterWrapper/exitWrapper: a thrown exception becomes NOT_SUPPORTED, otherwise the body's result; data and pushed events are those the body left |
| Engine.GetDerivedContext | source/state-machine/StateMachine.h:77-91 | a null context gives null; otherwise the context itself exactly when it is of the requested derived class |
| Engine.Declare | source/state-machine/StateMachine.cpp:63-66 | declareStateTransition adds the target to the (from, event) target set and leaves every other table entry unchanged |
| Engine.DeclareAllTargets | source/state-machine/StateMachine.cpp:63-66 | a sequence of declarations adds exactly the targets it names for each (state, event) and declares nothing else |
| Engine.DeclaredTable | source/state-machine/StateMachine.cpp:63-66 | a table declared from scratch holds for each (state, event) exactly the declared targets |
| Engine.NextStateId | source/state-machine/StateMachine.cpp:38-52 | State::nextStateId is the unique target when there is exactly one, else STATE_INVALID |
| Engine.TransitionSpec | source/state-machine/StateMachine.cpp:197-221 | transitionToState moves to the next state only when exit succeeds, its prerequisites hold and enter succeeds; otherwise the state stays; queued events only grow |
| Engine.HandleOne | source/state-machine/StateMachine.cpp:155-173 | one popped event: undeclared gives NOT_SUPPORTED with nothing changed; a move lands only on a declared target |
| Engine.HandleOneMoves | source/state-machine/StateMachine.cpp:161-168 | an event with one declared registered target runs transitionToState to it |
| Engine.TransitionByEnter | source/state-machine/StateMachine.cpp:197-221 | with the default exit and satisfied prerequisites the target's enter alone decides the result and its pushes are queued |
| Engine.FailSpec | source/state-machine/StateMachine.cpp:106-115 | fail always lands in the failed state and never drops queued events |
| Engine.Drain | source/state-machine/StateMachine.cpp:148-180 | handleEvents consumes events strictly FIFO, stops at the first non-SUCCESS result in the failed state, and otherwise empties the queue |
| Engine.FifoStep | source/state-machine/StateMachine.cpp:153-156 | popping the front keeps the handled events a prefix of the queue's order |
| Engine.StartSpec | source/state-machine/StateMachine.cpp:68-92 | start empties the queue; NOT_SUPPORTED with no initial state; a failed initial enter lands in the failed state; SUCCESS implies an initial state exists |
| Engine.HandleEventSpec | source/state-machine/StateMachine.cpp:94-104 | handleEvent on a context in an unregistered state returns NOT_SUPPORTED and queues nothing; an undeclared event fails the context |
| Engine.TransitionKeeps | source/state-machine/StateMachine.cpp:197-221 | a transition keeps any property of the data that every state's enter and exit keep |
| Engine.FailKeeps | source/state-machine/StateMachine.cpp:106-115 | fail keeps such a property |
| Engine.HandleOneKeeps | source/state-machine/StateMachine.cpp:155-173 | handling one event keeps such a property |
| Engine.DrainKeeps | source/state-machine/StateMachine.cpp:148-180 | draining the queue keeps such a property |
| Engine.StartKeeps | source/state-machine/StateMachine.cpp:68-92 | start keeps such a property |
| Engine.HandleEventKeeps | source/state-machine/StateMachine.cpp:94-104 | handleEvent keeps such a property |
| Engine.Context.constructor | source/state-machine/StateMachine.h:97 | a new context is in STATE_INVALID with an empty queue |
| Engine.StateEngine.constructor | source/state-machine/StateMachine.cpp:57 | a new engine has no states or transitions and invalid initial and failed ids |
| Engine.StateEngine.AddState | source/state-machine/StateMachine.cpp:118-124 | addState registers the state under its id, overwriting an earlier one, and changes nothing else |
| Engine.StateEngine.AddInitialState | source/state-machine/StateMachine.h:191-196 | addInitialState registers the state and makes it the initial state |
| Engine.StateEngine.AddFailedState | source/state-machine/StateMachine.h:197-202 | addFailedState registers the state and makes it the failed state |
| Engine.StateEngine.DeclareStateTransition | source/state-machine/StateMachine.cpp:63-66 | the table becomes Declare of the old table; states and ids unchanged |
| Engine.StateEngine.DeclareTransitions | source/state-machine/StateMachine.cpp:63-66 | a constructor's run of declarations leaves DeclareAll of the old table |
| Engine.StateEngine.DeclareInitialTransition | source/state-machine/StateMachine.cpp:59-61 | declares the transition out of the current initial state |
| Engine.StateEngine.Start | source/state-machine/StateMachine.cpp:68-92 | result and new context are those of StartSpec |
| Engine.StateEngine.HandleEvent | source/state-machine/StateMachine.cpp:94-104 | result and new context are those of HandleEventSpec |
| Engine.StateEngine.Fail | source/state-machine/StateMachine.cpp:106-115 | the new context is FailSpec of the old |
| Engine.StateEngine.GetNextStateId | source/state-machine/StateMachine.cpp:223-234 | the result is NextStateId of the declared targets, STATE_INVALID when none are declared |
| Engine.StateEngine.TransitionToState | source/state-machine/StateMachine.cpp:197-221 | result and new context are those of TransitionSpec |
| Engine.StateEngine.ProcessEvent | source/state-machine/StateMachine.cpp:157-173 | result and new context are those of HandleOne |
| Engine.StateEngine.HandleEvents | source/state-machine/StateMachine.cpp:148-180 | the while loop's result and new context are those of Drain |
| ApiContext.Direction | source/state-machine/ApiContext.cpp:29 | an unknown channel's properties have LD_UNDEF direction |
| ApiContext.ShouldCreate | source/state-machine/ApiContext.cpp:28-39 | for sending, create exactly on a creator-to-loader channel; for receiving, exactly otherwise |
| ApiContext.SenderIffCreatorToLoader | source/state-machine/ApiContext.cpp:40-42 | shouldCreateSender holds exactly for creator-to-loader channels |
| ApiContext.ReceiverIsNotSender | source/state-machine/ApiContext.cpp:40-46 | shouldCreateReceiver is the negation of shouldCreateSender |
| ApiContext.BidiActsAsLoaderToCreator | source/state-machine/ApiContext.cpp:31-38 | a bidirectional channel is treated like a loader-to-creator one |
| ApiContext.GetPlugin | source/state-machine/ApiContext.h:168-181 | a channel without a container throws invalid_argument, a container without a plugin throws logic_error, and only a loaded plugin is returned |
| ApiContext.GetContext | source/state-machine/ApiContext.h:158-166 | getContext throws logic_error exactly when the context is not of the machine's own context type, else returns it |
| ApiContext.ConnectedSetsOnlyMatchingSlot | source/state-machine/BootstrapDialStateMachine.cpp:46-62 | a connection report changes no machine handle and no slot with another handle, records the id and address in the first slot with that handle, and in every such slot when handles are distinct |
| ApiContext.SatisfiedIffAllConnected | source/state-machine/BootstrapDialStateMachine.cpp:230-249 | the waiting state's chain of early returns ends in SATISFIED exactly when every started connection machine has reported its connection id |
| ConnMachine.UpdateDependent | source/state-machine/ConnectionStateMachine.cpp:62-66 | the handle joins the dependents and becomes the newest one, no detach is pending, and no other field changes |
| ConnMachine.UpdateDetach | source/state-machine/ConnectionStateMachine.cpp:68-72 | the handle leaves the dependents and becomes the detached one, the newest is cleared, and no other field changes |
| ConnMachine.DropDependent | source/state-machine/ConnectionStateMachine.cpp:74-80 | a finished or failed machine leaves the dependents and nothing else changes |
| ConnMachine.Apply | source/state-machine/ConnectionStateMachine.cpp:34-80 | the context reacts only to the seven hooks it overrides; every other update leaves it unchanged, and no update touches its handle or calls |
| ConnMachine.Initial | source/state-machine/ConnectionStateMachine.cpp:89-114 | registers the newest dependent first and continues exactly when activation answers OK or ALREADY_ACTIVATED |
| ConnMachine.LinkCall | source/state-machine/ConnectionStateMachine.cpp:125-141 | sending with an address loads it, sending without one is refused, receiving creates a link, from the address when one is given |
| ConnMachine.Activated | source/state-machine/ConnectionStateMachine.cpp:120-146 | throws exactly without a plugin or when sending without an address; otherwise makes the LinkCall and succeeds exactly when the plugin accepts it |
| ConnMachine.AddressCheck | source/state-machine/ConnectionStateMachine.cpp:159-172 | a receiving connection whose returned address differs from the requested one fails unless the two parse to equal JSON; an unparsable address throws |
| ConnMachine.ConnLinkType | source/state-machine/ConnectionStateMachine.cpp:175 | LT_SEND exactly for a sending connection, else LT_RECV |
| ConnMachine.LinkEstablished | source/state-machine/ConnectionStateMachine.cpp:152-186 | throws exactly without a plugin or on an unparsable address; a mismatched address is NOT_SUPPORTED; success means the address matched and the connection was opened with the right link type |
| ConnMachine.ConnectionOpen | source/state-machine/ConnectionStateMachine.cpp:192-203 | registers the connection id, reports the connection to the manager and queues ALWAYS |
| ConnMachine.Connected | source/state-machine/ConnectionStateMachine.cpp:209-228 | registers the newest dependent and unregisters the detached one when set, clears both, and queues CONN_CLOSE exactly when no dependent is left |
| ConnMachine.Closing | source/state-machine/ConnectionStateMachine.cpp:234-256 | re-entering from itself does nothing; otherwise success means the connection was closed |
| ConnMachine.ConnectionClosed | source/state-machine/ConnectionStateMachine.cpp:263-278 | success means the link was destroyed, and it succeeds exactly when the plugin accepts that |
| ConnMachine.LinkClosed | source/state-machine/ConnectionStateMachine.cpp:284-290 | reports the machine finished and succeeds |
| ConnMachine.Failed | source/state-machine/ConnectionStateMachine.cpp:296-301 | reports the machine failed and succeeds |
| ConnMachine.ConnDeclsFollow | source/state-machine/ConnectionStateMachine.cpp:345-363 | the declared table is exactly the connection lifecycle, one target per declared (state, event) |
| ConnMachine.NewConnStateEngine | source/state-machine/ConnectionStateMachine.cpp:308-363 | the engine holds the nine states, initial INITIAL, failed FAILED, and the lifecycle table |
| SendMachine.Apply | source/state-machine/SendStateMachine.cpp:34-45 | updateSend sets the options, data and callback; a connection report sets the connection id; every other update changes nothing |
| SendMachine.SendCheck | source/state-machine/SendStateMachine.cpp:60-89 | empty data is INVALID_ARGUMENT, an empty channel CHANNEL_INVALID, an empty role or address INVALID_ARGUMENT, an unknown channel CHANNEL_INVALID, in that order; it passes exactly when all are present |
| SendMachine.Reject | source/state-machine/SendStateMachine.cpp:62-64 | a rejected send fires the callback with the status and clears it; with no callback set the call throws |
| SendMachine.Initial | source/state-machine/SendStateMachine.cpp:53-102 | a failed argument check fires the callback once with its status and fails; otherwise it starts a sending connection machine on the send channel, role and address |
| SendMachine.ConnectionOpen | source/state-machine/SendStateMachine.cpp:108-126 | without a plugin it throws; otherwise the data is moved out and handed to sendPackage, the callback untouched |
| SendMachine.Finished | source/state-machine/SendStateMachine.cpp:132-142 | fires the callback with OK, clears it and reports the machine finished |
| SendMachine.Failed | source/state-machine/SendStateMachine.cpp:148-159 | fires a set callback with INTERNAL_ERROR, clears it and reports the machine failed |
| SendMachine.SendDeclsFollow | source/state-machine/SendStateMachine.cpp:180-181 | the declared table is exactly INITIAL -CONN_STATE_MACHINE_CONNECTED-> CONNECTION_OPEN -PACKAGE_SENT-> FINISHED |
| SendMachine.NewSendStateEngine | source/state-machine/SendStateMachine.cpp:166-183 | the engine holds the four states, its initial and failed states and that table |
| SendMachine.StatesKeepCallbackOnce | source/state-machine/SendStateMachine.cpp:53-159 | every state's enter keeps the invariant that the send callback has fired at most once and is cleared once fired |
| SendMachine.StartFiresCallbackAtMostOnce | source/state-machine/SendStateMachine.cpp:53-159 | starting a send machine fires its callback at most once |
| SendMachine.HandleEventKeepsCallbackOnce | source/state-machine/SendStateMachine.cpp:53-159 | handling any event keeps the callback fired at most once |
| SendMachine.UpdatesKeepCallbackOnce | source/state-machine/SendStateMachine.cpp:41-45 | updates other than updateSend keep that invariant |
| RecvMachine.Apply | source/state-machine/ReceiveStateMachine.cpp:34-59 | getReceiver, receive and close store their options and callbacks, a package is appended to the queue, a connection report sets id and address, and every other update changes nothing |
| ApiContext.ReceiveSideCheck | source/state-machine/ReceiveStateMachine.cpp:72-90 | an empty channel is CHANNEL_INVALID, an empty role INVALID_ARGUMENT, an unknown channel CHANNEL_INVALID; it passes exactly when all are present |
| RecvMachine.Initial | source/state-machine/ReceiveStateMachine.cpp:68-108 | a failed check fires the getReceiver callback once and fails (throws with none set); otherwise it starts a receiving connection machine on the channel, role and address |
| RecvMachine.ConnectionOpen | source/state-machine/ReceiveStateMachine.cpp:114-128 | fires the getReceiver callback with OK, the link address and a new receiver handle, clears it and queues ALWAYS |
| RecvMachine.Waiting | source/state-machine/ReceiveStateMachine.cpp:131-158 | the three waiting states change nothing |
| RecvMachine.Received | source/state-machine/ReceiveStateMachine.cpp:163-180 | pops the front package, hands it to the receive callback with OK, clears it, and queues NO_PACKAGES_REMAINING exactly when the queue is now empty |
| RecvMachine.Finished | source/state-machine/ReceiveStateMachine.cpp:186-201 | fires a pending receive callback with CLOSING, then the close callback with OK, clears both and reports the machine finished |
| RecvMachine.Failed | source/state-machine/ReceiveStateMachine.cpp:207-226 | fires each set callback once with INTERNAL_ERROR, clears all three and reports the machine failed |
| RecvMachine.RecvDeclsFollow | source/state-machine/ReceiveStateMachine.cpp:259-270 | the declared table is exactly the receive lifecycle |
| RecvMachine.NewRecvStateEngine | source/state-machine/ReceiveStateMachine.cpp:233-272 | the engine holds the receive states, its initial and failed states and that table |
| RecvMachine.DeliveryIsFifo | source/state-machine/ReceiveStateMachine.cpp:163-180 | packages reach the application in arrival order: the next delivery is the oldest queued package |
| RecvMachine.PackageWhileWaitingForAppQueues | source/state-machine/ReceiveStateMachine.cpp:264 | a package arriving while the application has not asked only joins the queue |
| RecvMachine.SecondReceiveFails | source/state-machine/ReceiveStateMachine.cpp:259-270 | a second receive request while the first still waits for a package fails the machine |
| RecvMachine.StatesKeepReceiverCbOnce | source/state-machine/ReceiveStateMachine.cpp:68-226 | every state keeps the getReceiver callback fired at most once and cleared once fired |
| RecvMachine.InitialKeepsReceiverCbOnce | source/state-machine/ReceiveStateMachine.cpp:68-108 | the initial state keeps that invariant |
| RecvMachine.ConnectionOpenKeepsReceiverCbOnce | source/state-machine/ReceiveStateMachine.cpp:114-128 | the connection-open state keeps it |
| RecvMachine.ReceivedKeepsReceiverCbOnce | source/state-machine/ReceiveStateMachine.cpp:163-180 | the received state keeps it |
| RecvMachine.FinishedKeepsReceiverCbOnce | source/state-machine/ReceiveStateMachine.cpp:186-201 | the finished state keeps it |
| RecvMachine.FailedKeepsReceiverCbOnce | source/state-machine/ReceiveStateMachine.cpp:207-226 | the failed state keeps it |
| RecvMachine.StartFiresReceiverCbAtMostOnce | source/state-machine/ReceiveStateMachine.cpp:68-226 | starting a receive machine fires its getReceiver callback at most once |
| SendReceiveMachine.Apply | source/state-machine/SendReceiveStateMachine.cpp:35-60 | sendReceive stores options, data and callback; link and connection reports touch only the slot whose machine handle matches (receive first); a package becomes the reply; every other update changes nothing |
| SendReceiveMachine.SendCheck | source/state-machine/SendReceiveStateMachine.cpp:129-158 | an empty send channel is CHANNEL_INVALID, an empty role or address INVALID_ARGUMENT, an unknown channel CHANNEL_INVALID; it passes exactly when all are present |
| SendReceiveMachine.Reject | source/state-machine/SendReceiveStateMachine.cpp:76-78 | a rejection fires the callback with the status and an empty reply and clears it; with none set the call throws |
| SendReceiveMachine.Initial | source/state-machine/SendReceiveStateMachine.cpp:68-107 | a failed receive check is a rejection; otherwise it starts the receiving connection machine and fires nothing |
| SendReceiveMachine.WaitingForSendConnection | source/state-machine/SendReceiveStateMachine.cpp:115-168 | once the send connection id is known it queues SATISFIED; otherwise a failed send check is a rejection and a passing one starts the sending connection machine |
| SendReceiveMachine.Message | source/state-machine/SendReceiveStateMachine.cpp:181-189 | the package body is the bytes of the JSON dump of the link address, reply channel and base64 message, with no package-id prefix |
| SendReceiveMachine.MessageRoundTrip | source/state-machine/SendReceiveStateMachine.cpp:181-189 | under lawful JSON and base64 codecs the receiver parses back the same link address, reply channel and message bytes |
| SendReceiveMachine.SendOpen | source/state-machine/SendReceiveStateMachine.cpp:175-204 | without a usable plugin it throws; otherwise the data is cleared, the message goes to sendPackage on the send connection under a fresh handle, and the state succeeds exactly when the plugin accepts it |
| SendReceiveMachine.PackageSent | source/state-machine/SendReceiveStateMachine.cpp:211-218 | registers the receive connection id once it is known and always succeeds |
| SendReceiveMachine.Finished | source/state-machine/SendReceiveStateMachine.cpp:223-237 | without a reply it is NOT_SUPPORTED; with one, the callback gets OK and the reply, is cleared, and the machine reports finished |
| SendReceiveMachine.Failed | source/state-machine/SendReceiveStateMachine.cpp:242-257 | fires a set callback with INTERNAL_ERROR, clears it and reports the machine failed |
| SendReceiveMachine.SendReceiveDeclsFollow | source/state-machine/SendReceiveStateMachine.cpp:282-289 | the declared table is exactly the send-receive lifecycle |
| SendReceiveMachine.NewSendReceiveStateEngine | source/state-machine/SendReceiveStateMachine.cpp:260-291 | the engine holds the six states, its initial and failed states and that table |
| SendReceiveMachine.SendConnectedLeadsToSendOpen | source/state-machine/SendReceiveStateMachine.cpp:48-56 | the send connection's report records its id, the re-entered waiting state emits SATISFIED and the machine moves on to sending |
| SendReceiveMachine.NoReplyNoFinish | source/state-machine/SendReceiveStateMachine.cpp:223-237 | without a reply the finished state refuses and fires nothing |
| SendReceiveMachine.StatesKeepCallbackOnce | source/state-machine/SendReceiveStateMachine.cpp:68-257 | every state keeps the callback fired at most once and cleared once fired |
| SendReceiveMachine.StartFiresCallbackAtMostOnce | source/state-machine/SendReceiveStateMachine.cpp:68-257 | starting the machine fires the callback at most once |
| SendReceiveMachine.HandleEventKeepsCallbackOnce | source/state-machine/SendReceiveStateMachine.cpp:68-257 | handling any event keeps the callback fired at most once |
| DialMachine.Apply | source/state-machine/DialStateMachine.cpp:32-54 | dial stores options, data and callback; link and connection reports touch only the slot whose machine handle matches (receive first); every other update changes nothing |
| DialMachine.SendCheck | source/state-machine/DialStateMachine.cpp:128-157 | an empty send channel is CHANNEL_INVALID; an empty role, an empty address or an unknown channel is INVALID_ARGUMENT; it passes exactly when all are present |
| DialMachine.Reject | source/state-machine/DialStateMachine.cpp:72-74 | a rejection fires the dial callback with the status and no conduit and clears it; with none set the call throws |
| DialMachine.Initial | source/state-machine/DialStateMachine.cpp:63-107 | a failed receive check is a rejection; otherwise it draws a package id of the fixed length from entropy and starts the receiving connection machine, firing nothing |
| DialMachine.WaitingForSendConnection | source/state-machine/DialStateMachine.cpp:114-167 | once the send connection id is known it queues SATISFIED; otherwise a failed send check is a rejection and a passing one starts the sending connection machine |
| DialMachine.Hello | source/state-machine/DialStateMachine.cpp:183-195 | the hello starts with a package id of zero bytes, followed by the JSON dump |
| DialMachine.HelloRoundTrip | source/state-machine/DialStateMachine.cpp:183-195 | under lawful JSON and base64 codecs, past the zero prefix the listener parses back the link address, reply channel, package id and message |
| DialMachine.SendOpen | source/state-machine/DialStateMachine.cpp:173-208 | without a usable plugin it throws; otherwise it registers a connection handle, clears the data, sends the hello on the send connection under a fresh package handle and succeeds exactly when the plugin accepts it |
| DialMachine.PackageSent | source/state-machine/DialStateMachine.cpp:215-222 | once the receive connection id is known it registers it and queues SATISFIED; before that it waits |
| DialMachine.DialProperties | source/state-machine/DialStateMachine.cpp:244-253 | the reported properties carry the options' channels, roles, send address and timeout, the learned receive address and the base64 package id |
| DialMachine.ReportedPackageIdDecodes | source/state-machine/DialStateMachine.cpp:244-246 | the reported package id decodes back to the package id the hello carried |
| DialMachine.Finished | source/state-machine/DialStateMachine.cpp:229-259 | starts the conduit on both connections with the package id; a refused conduit is NOT_SUPPORTED; otherwise the callback gets OK, the API handle and the properties, is cleared, and the machine reports finished |
| DialMachine.Failed | source/state-machine/DialStateMachine.cpp:265-276 | fires a set callback with INTERNAL_ERROR, clears it and reports the machine failed |
| DialMachine.DialDeclsFollow | source/state-machine/DialStateMachine.cpp:302-307 | the declared table is exactly the dial lifecycle |
| DialMachine.NewDialStateEngine | source/state-machine/DialStateMachine.cpp:283-309 | the engine holds the six states, its initial and failed states and that table |
| DialMachine.RecvConnectedFinishes | source/state-machine/DialStateMachine.cpp:46-54 | after the hello, the receive connection's report records its id, the package-sent state emits SATISFIED, and the dial finishes exactly when the finished state succeeds |
| DialMachine.ConnectedFinishesFrom | source/state-machine/DialStateMachine.cpp:215-259 | from the package-sent state with a known receive connection, the connected event finishes the dial exactly when the finished state succeeds |
| DialMachine.ConnectedQueuesSatisfied | source/state-machine/DialStateMachine.cpp:215-222 | in the package-sent state with a known receive connection, the connected event re-enters the state, which queues SATISFIED |
| DialMachine.SatisfiedFinishes | source/state-machine/DialStateMachine.cpp:307 | SATISFIED in the package-sent state reaches the finished state exactly when its enter succeeds |
| DialMachine.StatesKeepCallbackOnce | source/state-machine/DialStateMachine.cpp:63-276 | every state keeps the dial callback fired at most once and cleared once fired |
| DialMachine.FinishedKeepsCallbackOnce | source/state-machine/DialStateMachine.cpp:254-255 | the finished state fires the callback once and clears it |
| DialMachine.StartFiresCallbackAtMostOnce | source/state-machine/DialStateMachine.cpp:63-276 | starting the machine fires the dial callback at most once |
| DialMachine.HandleEventKeepsCallbackOnce | source/state-machine/DialStateMachine.cpp:63-276 | handling any event keeps the dial callback fired at most once |
| ResumeMachine.Apply | source/state-machine/ResumeStateMachine.cpp:32-48 | resume stores options and callback; a connection report fills the receive slot when the handle is the receive machine's, else the send slot when it is the send machine's, else nothing; other updates change nothing |
| ResumeMachine.ResumeCheck | source/state-machine/ResumeStateMachine.cpp:58-126 | empty send or receive channel is CHANNEL_INVALID; an empty role, address or package id is INVALID_ARGUMENT; an unknown channel CHANNEL_INVALID; it passes exactly when all seven options are present and both channels known |
| ResumeMachine.DecodePackageId | source/state-machine/ResumeStateMachine.cpp:130-136 | a package id that decodes as base64 is replaced by its bytes; one that does not is kept as given |
| ResumeMachine.ReportedPackageIdResumes | source/state-machine/ResumeStateMachine.cpp:130-136 | the base64 package id a dial reports decodes back to the original package id, so resuming reuses it |
| ResumeMachine.Reject | source/state-machine/ResumeStateMachine.cpp:69-71 | a rejection fires the resume callback with the status and no conduit and clears it; with none set the call throws |
| ResumeMachine.Initial | source/state-machine/ResumeStateMachine.cpp:55-164 | a failed check is a rejection; otherwise it stores the decoded package id and starts the sending then the receiving connection machine, firing nothing |
| ResumeMachine.Finished | source/state-machine/ResumeStateMachine.cpp:177-198 | starts the conduit with the package id; a refused conduit is NOT_SUPPORTED; otherwise the callback gets OK and the API handle, is cleared, and the machine reports finished |
| ResumeMachine.Failed | source/state-machine/ResumeStateMachine.cpp:204-215 | fires a set callback with INTERNAL_ERROR, clears it and reports the machine failed |
| ResumeMachine.ResumeDeclsFollow | source/state-machine/ResumeStateMachine.cpp:237-238 | the declared table is exactly the resume lifecycle |
| ResumeMachine.NewResumeStateEngine | source/state-machine/ResumeStateMachine.cpp:222-240 | the engine holds the four states, its initial and failed states and that table |
| ResumeMachine.FirstConnectionWaits | source/state-machine/ResumeStateMachine.cpp:237 | the first connection report moves the machine to wait for the second and changes nothing else |
| ResumeMachine.SecondConnectionFinishes | source/state-machine/ResumeStateMachine.cpp:238 | the second connection report finishes the resume exactly when the finished state succeeds, and fails it otherwise |
| ResumeMachine.StatesKeepCallbackOnce | source/state-machine/ResumeStateMachine.cpp:55-215 | every state keeps the resume callback fired at most once and cleared once fired |
| ResumeMachine.StartFiresCallbackAtMostOnce | source/state-machine/ResumeStateMachine.cpp:55-215 | starting the machine fires the resume callback at most once |
| ResumeMachine.HandleEventKeepsCallbackOnce | source/state-machine/ResumeStateMachine.cpp:55-215 | handling any event keeps the resume callback fired at most once |
| ListenMachine.Apply | source/state-machine/ListenStateMachine.cpp:35-57 | listen stores options and callback; accept appends its callback to the queue; close stores its callback; a package joins the back of the data queue; any connection report sets the receive id and address |
| ListenMachine.ListenCheck | source/state-machine/ListenStateMachine.cpp:70-102 | an empty receive channel is CHANNEL_INVALID; an empty receive role, send channel or send role is INVALID_ARGUMENT; an unknown channel CHANNEL_INVALID; it passes exactly when all are present |
| ListenMachine.Initial | source/state-machine/ListenStateMachine.cpp:66-115 | a failed check fires the listen callback with the status and clears it (throwing when none is set); otherwise it starts the receiving connection machine and succeeds exactly when that gives a handle |
| ListenMachine.ZeroPackageId | source/state-machine/ListenStateMachine.cpp:131 | the listener's package id is PACKAGE_ID_LEN zero bytes |
| ListenMachine.ConnectionOpen | source/state-machine/ListenStateMachine.cpp:121-137 | the listen callback gets OK, the link address and a fresh handle and is cleared; the zero package id is registered on the receive connection and ALWAYS is queued; with no callback the call throws |
| ListenMachine.ReadHello | source/state-machine/ListenStateMachine.cpp:151-177 | a package is a hello only when it parses as JSON with string fields whose package id decodes to PACKAGE_ID_LEN bytes, whose reply channel is the configured send channel and whose message decodes |
| ListenMachine.ReadsDialHello | source/state-machine/ListenStateMachine.cpp:151-177 | a dialer's hello, past its zero prefix, reads back as its address, package id and message exactly when it names this send channel and has a full-length package id |
| ListenMachine.FirstHello | source/state-machine/ListenStateMachine.cpp:147-195 | the index of the first queued package that is a hello, and none is one before it; none when no package is |
| ListenMachine.ScanForHello | source/state-machine/ListenStateMachine.cpp:147-195 | the consuming loop returns the first hello and leaves the packages after it; with none it empties the queue |
| ListenMachine.Handovers | source/state-machine/ListenStateMachine.cpp:197-205 | one onListenAccept per pair of queued accept callback and pre-conduit, in queue order, as many as the shorter queue |
| ListenMachine.Handover | source/state-machine/ListenStateMachine.cpp:202-204 | one pair is handed to the manager, and the callback gets INTERNAL_ERROR exactly when the manager refuses |
| ListenMachine.PairAccepts | source/state-machine/ListenStateMachine.cpp:197-205 | pairing leaves the unpaired tails of both queues, at least one of them empty, and hands over the pairs in order |
| ListenMachine.PairingRejectsOnly | source/state-machine/ListenStateMachine.cpp:202-204 | pairing fires at most one callback per pair, each with INTERNAL_ERROR, after the earlier firings |
| ListenMachine.PairingFiresNoOther | source/state-machine/ListenStateMachine.cpp:197-205 | pairing never fires a callback that is not in the accept queue |
| ListenMachine.PairAcceptsLoop | source/state-machine/ListenStateMachine.cpp:197-205 | the pairing loop computes exactly PairAccepts |
| ListenMachine.Waiting | source/state-machine/ListenStateMachine.cpp:143-208 | without a hello the data queue empties and the pairs are handed over; with one, the packages up to it are consumed, a pre-conduit is started for its address, package id and message, and the state succeeds exactly when that gives a handle, which then joins the pairing |
| ListenMachine.Finished | source/state-machine/ListenStateMachine.cpp:214-228 | every queued accept callback gets CLOSING, the manager is told the machine finished, and the close callback gets OK and is cleared; with none set the call throws |
| ListenMachine.Failed | source/state-machine/ListenStateMachine.cpp:237-258 | the listen, every accept and the close callback each get INTERNAL_ERROR once if set, all are cleared, and the machine reports failed |
| ListenMachine.ListenDeclsFollow | source/state-machine/ListenStateMachine.cpp:277-281 | the declared table is exactly the listen lifecycle |
| ListenMachine.NewListenStateEngine | source/state-machine/ListenStateMachine.cpp:265-283 | the engine holds the five states, its initial and failed states and that table |
| ListenMachine.AcceptKeepsWaiting | source/state-machine/ListenStateMachine.cpp:280 | an accept call while waiting with no package queued stays in WAITING, succeeds, and pairs the new callback with a ready pre-conduit |
| ListenMachine.InitialKeepsListenCbOnce | source/state-machine/ListenStateMachine.cpp:66-115 | the initial state keeps the listen callback fired at most once |
| ListenMachine.ConnectionOpenKeepsListenCbOnce | source/state-machine/ListenStateMachine.cpp:121-137 | the connection-open state keeps the listen callback fired at most once |
| ListenMachine.WaitingKeepsListenCbOnce | source/state-machine/ListenStateMachine.cpp:143-208 | the waiting state keeps the listen callback fired at most once |
| ListenMachine.FinishedKeepsListenCbOnce | source/state-machine/ListenStateMachine.cpp:214-228 | the finished state keeps the listen callback fired at most once |
| ListenMachine.FailedKeepsListenCbOnce | source/state-machine/ListenStateMachine.cpp:237-258 | the failed state keeps the listen callback fired at most once |
| ListenMachine.StatesKeepListenCbOnce | source/state-machine/ListenStateMachine.cpp:66-258 | every state keeps the listen callback fired at most once and cleared once fired |
| ListenMachine.StartFiresListenCbAtMostOnce | source/state-machine/ListenStateMachine.cpp:66-258 | starting the machine fires the listen callback at most once |
| ListenMachine.HandleEventKeepsListenCbOnce | source/state-machine/ListenStateMachine.cpp:66-258 | handling any event keeps the listen callback fired at most once |
| PreConduitMachine.Apply | source/state-machine/PreConduitStateMachine.cpp:34-65 | the start update copies the listener's view (parent, receive connection, channels, reply address, package id, buffered messages); a package joins the back of the queue; a connection report sets the send id; an accept stores its callback; other updates change nothing |
| PreConduitMachine.StartCopiesListenerView | source/state-machine/PreConduitStateMachine.cpp:34-49 | the pre-conduit a listener starts holds exactly the dialer's reply address, package id and hello message, with nothing accepted yet |
| PreConduitMachine.Initial | source/state-machine/PreConduitStateMachine.cpp:74-82 | registers the package id on the receive connection and the parent's handle, and succeeds |
| PreConduitMachine.Accepted | source/state-machine/PreConduitStateMachine.cpp:88-104 | starts a sending connection machine to the reply address; a null handle is NOT_SUPPORTED, otherwise it is registered and ALWAYS is queued; nothing fires |
| PreConduitMachine.Finished | source/state-machine/PreConduitStateMachine.cpp:119-147 | starts a conduit inheriting every buffered package and empties the buffer; a refused conduit or detach is NOT_SUPPORTED without firing; otherwise the accept callback gets OK and the conduit's API handle, is cleared, and the machine reports finished |
| PreConduitMachine.Failed | source/state-machine/PreConduitStateMachine.cpp:154-165 | fires a set accept callback with INTERNAL_ERROR, clears it and reports the machine failed |
| PreConduitMachine.PreConduitDeclsFollow | source/state-machine/PreConduitStateMachine.cpp:181-185 | the declared table is exactly the pre-conduit lifecycle |
| PreConduitMachine.NewPreConduitStateEngine | source/state-machine/PreConduitStateMachine.cpp:172-187 | the engine holds the five states, its initial and failed states and that table |
| PreConduitMachine.AcceptOpensSendConnection | source/state-machine/PreConduitStateMachine.cpp:182-183 | accepting moves the machine through ACCEPTED to OPENING in one call exactly when the sending connection starts, and to FAILED otherwise |
| PreConduitMachine.InitialTakesAccept | source/state-machine/PreConduitStateMachine.cpp:182 | from INITIAL the accept event runs the accepted state, and the run continues from ACCEPTED with ALWAYS queued exactly when it succeeds |
| PreConduitMachine.AcceptedMovesToOpening | source/state-machine/PreConduitStateMachine.cpp:183 | the queued ALWAYS moves ACCEPTED to OPENING with the data unchanged |
| PreConduitMachine.PackageWhileOpeningQueues | source/state-machine/PreConduitStateMachine.cpp:184 | a package arriving while the sending connection opens only joins the queue |
| PreConduitMachine.FinishedKeepsAcceptCbOnce | source/state-machine/PreConduitStateMachine.cpp:142-143 | the finished state fires the accept callback once and clears it |
| PreConduitMachine.StatesKeepAcceptCbOnce | source/state-machine/PreConduitStateMachine.cpp:74-165 | every state keeps the accept callback fired at most once and cleared once fired |
| PreConduitMachine.HandleEventKeepsAcceptCbOnce | source/state-machine/PreConduitStateMachine.cpp:74-165 | handling any event keeps the accept callback fired at most once |
| ConduitMachine.Apply | source/state-machine/ConduitStateMachine.cpp:32-86 | the start update records both connections, channels, package id and API handle and queues the inherited packages in order; a package joins the back of the receive queue; a PACKAGE_SENT status goes to the sent list and any other to the failed list; read and close store their callback; write queues its bytes and callback |
| ConduitMachine.Lookup | source/state-machine/ConduitStateMachine.cpp:180-181 | a parked write is found exactly when its handle is parked |
| ConduitMachine.Put | source/state-machine/ConduitStateMachine.cpp:172 | parking a write under a handle makes that handle map to it and leaves every other handle's entry as it was |
| ConduitMachine.Erase | source/state-machine/ConduitStateMachine.cpp:186 | unparking removes exactly that handle and leaves every other entry |
| ConduitMachine.CallReadCallback | source/state-machine/ConduitStateMachine.cpp:88-100 | reports true exactly when a read callback is set; then that callback gets the status and bytes and is cleared; otherwise nothing changes |
| ConduitMachine.ReadFront | source/state-machine/ConduitStateMachine.cpp:145-152 | a waiting reader takes the front package off the receive queue; without a reader or a package nothing changes |
| ConduitMachine.SendWrites | source/state-machine/ConduitStateMachine.cpp:154-177 | sending the queued writes only appends requests and firings, every firing is an INTERNAL_ERROR for a refused send, and no parked write is lost |
| ConduitMachine.Prefixed | source/state-machine/ConduitStateMachine.cpp:157-161 | every outgoing package is the package id followed by the written bytes |
| ConduitMachine.SendWritesPayloads | source/state-machine/ConduitStateMachine.cpp:154-177 | the packages handed to the plugin are exactly the queued writes, in order, each prefixed with the package id |
| ConduitMachine.SendWritesKeepsEveryWrite | source/state-machine/ConduitStateMachine.cpp:154-177 | with fresh package handles, every queued write ends either failed at once or parked awaiting its status |
| ConduitMachine.SendWritesLoop | source/state-machine/ConduitStateMachine.cpp:154-177 | the send loop computes exactly SendWrites |
| ConduitMachine.Resolve | source/state-machine/ConduitStateMachine.cpp:179-199 | resolving a list of handles fires each parked write among them once with the status, unparks it, skips unknown handles and leaves every other parked write |
| ConduitMachine.ResolveLoop | source/state-machine/ConduitStateMachine.cpp:179-199 | the resolve loop computes exactly Resolve |
| ConduitMachine.Initial | source/state-machine/ConduitStateMachine.cpp:110-133 | an empty send or receive channel is NOT_SUPPORTED; otherwise it registers the API, send and receive handles and the package id, and queues ALWAYS |
| ConduitMachine.Connected | source/state-machine/ConduitStateMachine.cpp:140-202 | a waiting reader gets the front package; every queued write is sent and the queue empties; every handle reported sent or failed is unparked; the sent and failed lists empty; without a usable plugin it throws |
| ConduitMachine.Finished | source/state-machine/ConduitStateMachine.cpp:210-236 | every queued write, then every parked write, gets INTERNAL_ERROR in order; the manager is told; the close callback gets OK last and is cleared; with none set the call throws |
| ConduitMachine.ReadCancelled | source/state-machine/ConduitStateMachine.cpp:243-247 | as written: a waiting reader gets CANCELLED and is cleared, and nothing is queued |
| ConduitMachine.ReadCancelledResumes | source/state-machine/ConduitStateMachine.cpp:243-247 | corrected: as ReadCancelled, and ALWAYS is queued to return to CONNECTED |
| ConduitMachine.Failed | source/state-machine/ConduitStateMachine.cpp:254-292 | the dial callback, every queued and parked write, a waiting reader and a set close callback each get INTERNAL_ERROR exactly once and are cleared; the machine reports failed |
| ConduitMachine.ConduitDeclsFollow | source/state-machine/ConduitStateMachine.cpp:313-324 | the declared table is exactly the conduit lifecycle |
| ConduitMachine.NewConduitStateEngine | source/state-machine/ConduitStateMachine.cpp:299-326 | the engine holds the five states, its initial and failed states and that table |
| ConduitMachine.StartConnects | source/state-machine/ConduitStateMachine.cpp:313 | starting a conduit with both channels and a usable plugin runs the initial state and lands in CONNECTED |
| ConduitMachine.ConnectedReenters | source/state-machine/ConduitStateMachine.cpp:320-324 | read, write, package and package-status events re-enter CONNECTED and run it once |
| ConduitMachine.WriteGoesOutPrefixed | source/state-machine/ConduitStateMachine.cpp:77-81 | a write on an idle conduit sends exactly one package: the package id followed by the bytes |
| ConduitMachine.StatusResolvesParked | source/state-machine/ConduitStateMachine.cpp:57-64 | a status for a parked write fires it once, OK for PACKAGE_SENT and INTERNAL_ERROR otherwise, and unparks only it |
| ConduitMachine.CancelStrandsConduit | source/state-machine/ConduitStateMachine.cpp:315-316 | as written, after a cancelled read the next read or write is undeclared in CANCELLED and fails the conduit |
| ConduitMachine.CancelResumesConduit | source/state-machine/ConduitStateMachine.cpp:315-316 | corrected, a cancelled read handles CANCELLED then ALWAYS and leaves the conduit CONNECTED |
| BootstrapDialMachine.Apply | source/state-machine/BootstrapDialStateMachine.cpp:32-63 | the dial update stores options, hello data and callback; a package joins the back of the response queue; a connection report fills the first of the initial receive, initial send, final receive and final send slots whose machine handle matches, and no other |
| BootstrapDialMachine.WithPackageId | source/state-machine/BootstrapDialStateMachine.cpp:75-82 | a set package id is kept; an empty one is replaced by PACKAGE_ID_LEN bytes of entropy |
| BootstrapDialMachine.Reject | source/state-machine/BootstrapDialStateMachine.cpp:97-101 | a rejection fires the dial callback with the status and no conduit, clears it and is NOT_SUPPORTED; with none set the call throws |
| BootstrapDialMachine.Start | source/state-machine/BootstrapDialStateMachine.cpp:104-111 | starting a link puts the manager's answer into that slot and issues exactly that one start request |
| BootstrapDialMachine.Register | source/state-machine/BootstrapDialStateMachine.cpp:113-117 | a null handle in the slot is NOT_SUPPORTED; otherwise the handle is routed to this context |
| BootstrapDialMachine.InitSendStage | source/state-machine/BootstrapDialStateMachine.cpp:84-117 | the initial send link is loaded from the given address; a missing address is a CHANNEL_INVALID rejection; a link this side would create is not started |
| BootstrapDialMachine.InitRecvStage | source/state-machine/BootstrapDialStateMachine.cpp:120-158 | when its channel is set, the initial receive link is created here or loaded from the given address, and a load without address is a CHANNEL_INVALID rejection |
| BootstrapDialMachine.InitStages | source/state-machine/BootstrapDialStateMachine.cpp:84-158 | both initial links in order, stopping at the first failure |
| BootstrapDialMachine.FinalSendStage | source/state-machine/BootstrapDialStateMachine.cpp:161-185 | the final send link is started with no address only when this side creates it |
| BootstrapDialMachine.FinalRecvStage | source/state-machine/BootstrapDialStateMachine.cpp:187-219 | the final receive link is started with no address only when its channel is set and this side creates it |
| BootstrapDialMachine.FinalStages | source/state-machine/BootstrapDialStateMachine.cpp:161-219 | both final links this side creates, send first, stopping at the first failure |
| BootstrapDialMachine.Initial | source/state-machine/BootstrapDialStateMachine.cpp:71-222 | draws a package id if none is set, then starts the links the options ask for; on success the slots hold exactly the expected machines, nothing fired and ALWAYS is queued; any null handle is NOT_SUPPORTED |
| BootstrapDialMachine.WaitingForConnections | source/state-machine/BootstrapDialStateMachine.cpp:230-250 | queues SATISFIED exactly when every started machine has reported its connection, and changes nothing else |
| BootstrapDialMachine.Hello | source/state-machine/BootstrapDialStateMachine.cpp:268-300 | the hello is PACKAGE_ID_LEN zero bytes followed by the JSON dump |
| BootstrapDialMachine.HelloNamesLinksForListener | source/state-machine/BootstrapDialStateMachine.cpp:268-295 | under lawful codecs the listener reads back the package id, the message, and each known link address under the listener's own name for it, with its channel |
| BootstrapDialMachine.SendHello | source/state-machine/BootstrapDialStateMachine.cpp:256-315 | registers a connection handle, sends the hello on the initial send connection, registers the package handle whatever the plugin answered, clears the hello data, and succeeds exactly when the plugin accepts; without a usable plugin it throws |
| BootstrapDialMachine.HelloSent | source/state-machine/BootstrapDialStateMachine.cpp:322-337 | while either final connection is missing, registers the package id on the initial receive connection and queues NEEDS_RECV; otherwise queues SATISFIED |
| BootstrapDialMachine.LoadFinal | source/state-machine/BootstrapDialStateMachine.cpp:360-386 | loads the final link a response names; a missing key or another channel than the configured one skips the response; a null handle is NOT_SUPPORTED |
| BootstrapDialMachine.HandleResponse | source/state-machine/BootstrapDialStateMachine.cpp:357-420 | one response loads each final link without a connection; unparsable text skips it; a usable one queues SATISFIED |
| BootstrapDialMachine.RecvResponses | source/state-machine/BootstrapDialStateMachine.cpp:353-423 | responses are taken from the front until one is usable; when none is, the queue empties and nothing is queued |
| BootstrapDialMachine.RecvResponseLoop | source/state-machine/BootstrapDialStateMachine.cpp:353-423 | the response loop computes exactly RecvResponses |
| BootstrapDialMachine.MismatchedChannelSkipped | source/state-machine/BootstrapDialStateMachine.cpp:364-367 | a response naming a final send channel other than the configured one is passed over |
| BootstrapDialMachine.WaitingForFinalConnections | source/state-machine/BootstrapDialStateMachine.cpp:430-444 | queues SATISFIED exactly when each started final machine has reported its connection |
| BootstrapDialMachine.Finished | source/state-machine/BootstrapDialStateMachine.cpp:451-472 | starts a conduit on the final connections with the package id and no queued packages; a refused conduit is NOT_SUPPORTED; otherwise the callback gets OK and the API handle, is cleared, and the machine reports finished |
| BootstrapDialMachine.Failed | source/state-machine/BootstrapDialStateMachine.cpp:478-490 | fires a set callback with INTERNAL_ERROR, clears it and reports the machine failed |
| BootstrapDialMachine.BootstrapDialDeclsFollow | source/state-machine/BootstrapDialStateMachine.cpp:519-528 | the declared table is exactly the bootstrap dial lifecycle |
| BootstrapDialMachine.NewBootstrapDialStateEngine | source/state-machine/BootstrapDialStateMachine.cpp:497-530 | the engine holds the nine states, its initial and failed states and that table |
| BootstrapDialMachine.HelloSentAwaitsResponse | source/state-machine/BootstrapDialStateMachine.cpp:322-332 | once the hello is sent, a dial missing a final connection listens under its package id and waits in AWAIT_RESPONSE |
| BootstrapDialMachine.HelloSentFinishesWhenLinked | source/state-machine/BootstrapDialStateMachine.cpp:335 | a dial with both final connections up when the hello is sent finishes at once, exactly when the finished state succeeds |
| BootstrapDialMachine.UnusableResponseParksDial | source/state-machine/BootstrapDialStateMachine.cpp:353-423 | when no queued response is usable the queue empties and the dial stays in RECV_RESPONSE with nothing queued |
| BootstrapDialMachine.LateResponseFailsDial | source/state-machine/BootstrapDialStateMachine.cpp:524-525 | RECV_RESPONSE declares no package event, so a later response fails the dial |
| BootstrapDialMachine.InitialKeepsCallbackOnce | source/state-machine/BootstrapDialStateMachine.cpp:71-222 | the initial state fires the callback at most once, and clears it when it does |
| BootstrapDialMachine.FinishedKeepsCallbackOnce | source/state-machine/BootstrapDialStateMachine.cpp:467-468 | the finished state fires the callback once and clears it |
| BootstrapDialMachine.StateKeepsCallbackOnce | source/state-machine/BootstrapDialStateMachine.cpp:71-490 | each state keeps the callback fired at most once |
| BootstrapDialMachine.StatesKeepCallbackOnce | source/state-machine/BootstrapDialStateMachine.cpp:71-490 | every state of the table keeps the callback fired at most once and cleared once fired |
| BootstrapDialMachine.StartFiresCallbackAtMostOnce | source/state-machine/BootstrapDialStateMachine.cpp:71-490 | starting the machine fires the dial callback at most once |
| BootstrapDialMachine.HandleEventKeepsCallbackOnce | source/state-machine/BootstrapDialStateMachine.cpp:71-490 | handling any event keeps the dial callback fired at most once |
| BootstrapListenMachine.Apply | source/state-machine/BootstrapListenStateMachine.cpp:35-72 | listen stores options and callback; accept calls and packages join the back of their queues; close stores its callback; a connection report fills the first of the four slots whose machine handle matches, and no other |
| BootstrapListenMachine.Reject | source/state-machine/BootstrapListenStateMachine.cpp:151-153 | a rejection fires the listen callback with the status and no listener, clears it and is NOT_SUPPORTED; with none set the call throws |
| BootstrapListenMachine.Start | source/state-machine/BootstrapListenStateMachine.cpp:97-104 | starting a link puts the manager's answer into that slot and issues exactly that one start request |
| BootstrapListenMachine.Register | source/state-machine/BootstrapListenStateMachine.cpp:105-109 | a null handle in the slot is NOT_SUPPORTED; otherwise the handle is routed to this context |
| BootstrapListenMachine.InitSendStage | source/state-machine/BootstrapListenStateMachine.cpp:92-125 | the initial send link is created here when this side creates it, loaded from the given address otherwise, and left alone when there is no address |
| BootstrapListenMachine.InitRecvStage | source/state-machine/BootstrapListenStateMachine.cpp:130-173 | when its channel is set, the initial receive link is created here or loaded from the given address; a load without address is a CHANNEL_INVALID rejection |
| BootstrapListenMachine.Initial | source/state-machine/BootstrapListenStateMachine.cpp:83-226 | opens the initial send link, then the initial receive link, starting no final link; on success ALWAYS is queued |
| BootstrapListenMachine.MultiAddressNamesLinksForDialer | source/state-machine/BootstrapListenStateMachine.cpp:252-265 | under lawful codecs the dialer reads each initial link address under its own name, with the listener's channel for it; a link without address is not mentioned |
| BootstrapListenMachine.WaitingForConnections | source/state-machine/BootstrapListenStateMachine.cpp:234-276 | once every started machine has reported, the listen callback gets OK, the address text and a fresh handle and is cleared, the zero package id is registered on the initial receive connection and SATISFIED is queued; before that nothing changes |
| BootstrapListenMachine.HellosRouteToListener | source/state-machine/BootstrapListenStateMachine.cpp:271-272 | the package id the listener registers is the zero prefix every bootstrap hello carries |
| BootstrapListenMachine.LinkField | source/state-machine/BootstrapListenStateMachine.cpp:301-315 | a link key present in the hello sets that slot's address; a non-text value or a missing or non-text channel throws |
| BootstrapListenMachine.ReadLinks | source/state-machine/BootstrapListenStateMachine.cpp:301-315 | the links a hello names are read in the order initial send, final send, final receive, and only link addresses change |
| BootstrapListenMachine.StartPreConduit | source/state-machine/BootstrapListenStateMachine.cpp:340-352 | starting a bootstrap pre-conduit for a hello: a null handle is NOT_SUPPORTED, otherwise it joins the queue |
| BootstrapListenMachine.HandleHello | source/state-machine/BootstrapListenStateMachine.cpp:290-358 | unparsable text, a missing package id or message, bad base64 or a package id of the wrong length skips the package; a good hello starts a pre-conduit with the dialer's package id and message |
| BootstrapListenMachine.ShortPackageIdSkipped | source/state-machine/BootstrapListenStateMachine.cpp:323-327 | a hello whose package id does not decode to PACKAGE_ID_LEN bytes starts nothing and keeps only its link addresses |
| BootstrapListenMachine.ReadsDialHello | source/state-machine/BootstrapListenStateMachine.cpp:290-354 | a bootstrap dialer's hello, past its zero prefix, starts a pre-conduit that replies under the dialer's package id with the dialer's message, after recording the links it names |
| BootstrapListenMachine.ScanHellos | source/state-machine/BootstrapListenStateMachine.cpp:286-359 | packages are taken from the front until one starts a pre-conduit, starting one fails, or the queue runs out |
| BootstrapListenMachine.ScanHellosLoop | source/state-machine/BootstrapListenStateMachine.cpp:286-359 | the hello loop computes exactly ScanHellos |
| BootstrapListenMachine.WaitingForHellos | source/state-machine/BootstrapListenStateMachine.cpp:282-372 | starts at most one pre-conduit, then pairs accept calls with pre-conduits front with front through onBootstrapListenAccept, failing a refused one with INTERNAL_ERROR |
| BootstrapListenMachine.Finished | source/state-machine/BootstrapListenStateMachine.cpp:378-392 | every unpaired accept call gets CLOSING, the manager is told, and the close callback gets OK and is cleared; with none set the call throws |
| BootstrapListenMachine.Failed | source/state-machine/BootstrapListenStateMachine.cpp:399-420 | the listen, every accept and the close callback each get INTERNAL_ERROR once if set, all are cleared, and the machine reports failed |
| BootstrapListenMachine.BootstrapListenDeclsFollow | source/state-machine/BootstrapListenStateMachine.cpp:442-447 | the declared table is exactly the bootstrap listen lifecycle |
| BootstrapListenMachine.NewBootstrapListenStateEngine | source/state-machine/BootstrapListenStateMachine.cpp:427-449 | the engine holds the five states, its initial and failed states and that table |
| BootstrapListenMachine.AcceptPairsInOrder | source/state-machine/BootstrapListenStateMachine.cpp:361-369 | an accept call while waiting for hellos with no package queued stays there and hands the queued pre-conduits to the accept callbacks in order, the new one last |
| BootstrapListenMachine.CloseFinishes | source/state-machine/BootstrapListenStateMachine.cpp:447 | closing while waiting for hellos finishes the listener: every waiting accept call gets CLOSING, then the close callback gets OK |
| BootstrapListenMachine.InitialKeepsListenCbOnce | source/state-machine/BootstrapListenStateMachine.cpp:83-226 | the initial state keeps the listen callback fired at most once |
| BootstrapListenMachine.WaitingForConnectionsKeepsListenCbOnce | source/state-machine/BootstrapListenStateMachine.cpp:234-276 | the waiting-for-connections state keeps the listen callback fired at most once |
| BootstrapListenMachine.WaitingForHellosKeepsListenCbOnce | source/state-machine/BootstrapListenStateMachine.cpp:282-372 | the waiting-for-hellos state keeps the listen callback fired at most once |
| BootstrapListenMachine.FinishedKeepsListenCbOnce | source/state-machine/BootstrapListenStateMachine.cpp:378-392 | the finished state keeps the listen callback fired at most once |
| BootstrapListenMachine.FailedKeepsListenCbOnce | source/state-machine/BootstrapListenStateMachine.cpp:399-420 | the failed state keeps the listen callback fired at most once |
| BootstrapListenMachine.StateKeepsListenCbOnce | source/state-machine/BootstrapListenStateMachine.cpp:83-420 | each state keeps the listen callback fired at most once |
| BootstrapListenMachine.StatesKeepListenCbOnce | source/state-machine/BootstrapListenStateMachine.cpp:83-420 | every state of the table keeps the listen callback one-shot |
| BootstrapListenMachine.StartFiresListenCbAtMostOnce | source/state-machine/BootstrapListenStateMachine.cpp:83-420 | starting the machine fires the listen callback at most once |
| BootstrapListenMachine.HandleEventKeepsListenCbOnce | source/state-machine/BootstrapListenStateMachine.cpp:83-420 | handling any event keeps the listen callback fired at most once |
| BootstrapPreConduitMachine.Apply | source/state-machine/BootstrapPreConduitStateMachine.cpp:36-99 | the start copies the listener's options and link slots, the dialer's package id and messages; packages join the back of the queue; a connection report fills the first slot whose machine handle matches; an accept stores its callback |
| BootstrapPreConduitMachine.StartCopiesListenerView | source/state-machine/BootstrapPreConduitStateMachine.cpp:36-64 | the pre-conduit a bootstrap listener starts holds the listener's options and slots, the dialer's package id and the hello's message, with nothing accepted yet |
| BootstrapPreConduitMachine.Initial | source/state-machine/BootstrapPreConduitStateMachine.cpp:104-116 | every entry registers the dialer's package id on the initial receive connection and routes the listener's handle here, and nothing else |
| BootstrapPreConduitMachine.Open | source/state-machine/BootstrapPreConduitStateMachine.cpp:143-155 | starting a link machine fills that slot with the manager's answer; a null handle is NOT_SUPPORTED, otherwise the handle is routed here |
| BootstrapPreConduitMachine.InitSendStage | source/state-machine/BootstrapPreConduitStateMachine.cpp:133-157 | a missing initial send link is loaded from the hello's address; one this side should create, or one without address, is NOT_SUPPORTED; a set link is left alone |
| BootstrapPreConduitMachine.FinalSendStage | source/state-machine/BootstrapPreConduitStateMachine.cpp:165-199 | the final send link is created with no address by its creator side, otherwise loaded from the hello's address; the load is refused when the initial send address is empty |
| BootstrapPreConduitMachine.FinalRecvStage | source/state-machine/BootstrapPreConduitStateMachine.cpp:204-240 | the final receive link is created by its creator side, otherwise loaded from the hello's address; the load is refused when the initial receive address is empty |
| BootstrapPreConduitMachine.OpenFinalLinks | source/state-machine/BootstrapPreConduitStateMachine.cpp:165-245 | opens the final send link, then the final receive link, then routes the initial send machine here and queues ALWAYS |
| BootstrapPreConduitMachine.Accepted | source/state-machine/BootstrapPreConduitStateMachine.cpp:118-247 | after accept: the initial send link if missing, then both final links, each stage stopping the state on its first NOT_SUPPORTED |
| BootstrapPreConduitMachine.EmptyFinalSendAddressLoaded | source/state-machine/BootstrapPreConduitStateMachine.cpp:181-191 | with the initial send link in place, an empty final send address is not refused: a machine is started on it, because the guard reads the initial send address |
| BootstrapPreConduitMachine.WaitingForConnections | source/state-machine/BootstrapPreConduitStateMachine.cpp:250-280 | once every started machine has reported, NEEDS_SEND is queued if this side created a final link and SATISFIED otherwise; before that nothing changes |
| BootstrapPreConduitMachine.SendResponse | source/state-machine/BootstrapPreConduitStateMachine.cpp:282-336 | a connection handle is registered, a created final link without address is NOT_SUPPORTED, and the response goes out on the initial send connection under the dialer's package id; as written only when this side creates the final receive link |
| BootstrapPreConduitMachine.ResponseNamesLinksForDialer | source/state-machine/BootstrapPreConduitStateMachine.cpp:296-321 | under lawful codecs the dialer finds the response under its package id and reads, under its own names, the address and channel of each final link this side created, and nothing about a loaded one |
| BootstrapPreConduitMachine.DialLoadsResponse | source/state-machine/BootstrapPreConduitStateMachine.cpp:296-305 | a bootstrap dialer waiting for the response loads its final receive link from the address this side created for its final send link |
| BootstrapPreConduitMachine.Finished | source/state-machine/BootstrapPreConduitStateMachine.cpp:338-378 | starts a conduit over the final links that inherits every buffered package, detaches the initial send and receive machines, hands the accept callback OK with a fresh handle and reports finished; a null conduit or a refused detach is NOT_SUPPORTED |
| BootstrapPreConduitMachine.Failed | source/state-machine/BootstrapPreConduitStateMachine.cpp:383-396 | the accept callback gets INTERNAL_ERROR once if still set, and the machine reports failed |
| BootstrapPreConduitMachine.BootstrapPreConduitDeclsFollow | source/state-machine/BootstrapPreConduitStateMachine.cpp:413-419 | the declared table is exactly the bootstrap pre-conduit lifecycle |
| BootstrapPreConduitMachine.NewBootstrapPreConduitStateEngine | source/state-machine/BootstrapPreConduitStateMachine.cpp:403-421 | the engine holds the six states, its initial and failed states and that table |
| BootstrapPreConduitMachine.PackagesQueueUntilAccepted | source/state-machine/BootstrapPreConduitStateMachine.cpp:413 | before the accept, every package re-enters INITIAL and is kept at the back of the receive queue |
| BootstrapPreConduitMachine.PackageWhileConnectingFails | source/state-machine/BootstrapPreConduitStateMachine.cpp:415-419 | after the accept, a package arriving while the final links open is undeclared and fails the pre-conduit |
| BootstrapPreConduitMachine.LastConnectionQueuesNeedsSend | source/state-machine/BootstrapPreConduitStateMachine.cpp:416 | the connection report that completes the links re-enters WAITING_FOR_CONNECTIONS and queues NEEDS_SEND when this side created a final link |
| BootstrapPreConduitMachine.NeedsSendEntersSendResponse | source/state-machine/BootstrapPreConduitStateMachine.cpp:417 | NEEDS_SEND moves WAITING_FOR_CONNECTIONS to SEND_RESPONSE |
| BootstrapPreConduitMachine.WithheldResponseStrandsPreConduit | source/state-machine/BootstrapPreConduitStateMachine.cpp:306-335 | as written, a listener that creates the final send link but loads the final receive link reaches SEND_RESPONSE without sending, and only PACKAGE_SENT would leave that state |
| BootstrapPreConduitMachine.ResponseSentWhenNeeded | source/state-machine/BootstrapPreConduitStateMachine.cpp:282-336 | with the send outside the final receive branch, the last connection report of a listener that created a final link sends the response on the initial send connection |
| BootstrapPreConduitMachine.SendResponseSucceeds | source/state-machine/BootstrapPreConduitStateMachine.cpp:282-336 | with every address in place and the send accepted, the corrected response state succeeds and issues the send |
| BootstrapPreConduitMachine.SatisfiedHandsOverQueue | source/state-machine/BootstrapPreConduitStateMachine.cpp:338-378 | with every link up and no response needed, the last report finishes: the conduit inherits every buffered package and the accept callback gets its handle |
| BootstrapPreConduitMachine.FinishedKeepsAcceptCbOnce | source/state-machine/BootstrapPreConduitStateMachine.cpp:373-374 | the finished state answers the accept callback at most once |
| BootstrapPreConduitMachine.FailedKeepsAcceptCbOnce | source/state-machine/BootstrapPreConduitStateMachine.cpp:389-391 | the failed state answers the accept callback at most once |
| BootstrapPreConduitMachine.StateKeepsAcceptCbOnce | source/state-machine/BootstrapPreConduitStateMachine.cpp:104-396 | each state keeps the accept callback one-shot |
| BootstrapPreConduitMachine.StatesKeepAcceptCbOnce | source/state-machine/BootstrapPreConduitStateMachine.cpp:104-396 | every state of the table keeps the accept callback one-shot |
| BootstrapPreConduitMachine.HandleEventKeepsAcceptCbOnce | source/state-machine/BootstrapPreConduitStateMachine.cpp:104-396 | the application's accept callback is answered at most once, whatever events follow |
| ApiManagement.Insert | source/api-managers/ApiManager.cpp:1159-1169 | after `m[k].insert(ctx)` the context is in the set at k, the key exists, every other membership is as before, and no empty set appears |
| ApiManagement.Erase | source/api-managers/ApiManager.cpp:1198-1209 | the context leaves the set at k, every other membership is kept, and an entry left empty is erased |
| ApiManagement.Without | source/api-managers/ApiManager.cpp:1341-1370 | one pass of removeContext over a registry: the context is in no set, every other membership is kept, and no empty entry is left |
| ApiManagement.Purge | source/api-managers/ApiManager.cpp:1343-1350 | the erasing loop over one registry computes exactly Without |
| ApiManagement.WithoutAllIsWithoutSet | source/api-managers/ApiManager.cpp:1341-1370 | removing contexts one after another leaves the registry that removing them all at once leaves |
| ApiManagement.RemovingEveryContextEmpties | source/api-managers/ApiManager.cpp:1341-1370 | once every context registered has been removed, the registry is empty: no entry is left behind |
| ApiManagement.RegisterThenRemoveRestores | source/api-managers/ApiManager.cpp:1159-1163 | registering a context that was nowhere and then removing it leaves the registry exactly as it was |
| ApiManagement.ReplayBuffered | source/api-managers/ApiManager.cpp:1183-1192 | the replay loop hands over each buffered package in arrival order without its package-id prefix |
| ApiManagement.DumpByteArray | source/api-managers/ApiManager.cpp:1173-1174 | the JSON dump of a byte array is longer than the array |
| ApiManagement.BufferKey | source/api-managers/ApiManager.cpp:1173-1180 | the key the buffered packages are looked up under: as written the JSON dump of the id, longer than it; corrected, the raw id |
| ApiManagement.Buffer | source/api-managers/ApiManager.cpp:906-913 | an unmatched package is appended to the list under its raw package id, every other list untouched |
| ApiManagement.BufferedPackagesNeverReplayed | source/api-managers/ApiManager.cpp:1171-1196 | as written, registering a PACKAGE_ID_LEN-byte package id replays nothing, because no buffer key is that long |
| ApiManagement.EarlyPackageLost | source/api-managers/ApiManager.cpp:906-913 | as written, a package buffered before its id is registered is never handed to the registering context |
| ApiManagement.EarlyPackageReplayed | source/api-managers/ApiManager.cpp:906-913 | with the raw-id lookup, a package buffered before the registration is replayed without its prefix, after those buffered before it |
| ApiManagement.ChannelStatusEvent | source/api-managers/ApiManager.cpp:809-814 | CHANNEL_ACTIVATED exactly for an available channel, FAILED for every other status |
| ApiManagement.LinkStatusEvent | source/api-managers/ApiManager.cpp:832-839 | LINK_ESTABLISHED exactly for created or loaded, LINK_DESTROYED exactly for destroyed, FAILED otherwise |
| ApiManagement.ConnectionStatusEvent | source/api-managers/ApiManager.cpp:853-860 | CONNECTION_ESTABLISHED exactly for open, CONNECTION_DESTROYED exactly for closed, FAILED otherwise |
| ApiManagement.PackageStatusEvent | source/api-managers/ApiManager.cpp:935-946 | PACKAGE_SENT and PACKAGE_RECEIVED for their statuses, PACKAGE_FAILED for exactly the three failure statuses, FAILED otherwise |
| ApiManagement.PublicCall | source/api-managers/ApiManager.cpp:49-104 | an empty callback is SDK_INVALID_ARGUMENT and posts nothing; otherwise the call is posted and the answer is SDK_OK exactly when the queue accepts it, else SDK_INVALID |
| ApiManagement.DispatchOp | source/api-managers/ApiManager.cpp:434-640 | a handle naming other than exactly one context gets INTERNAL_ERROR on the callback, which is then cleared and still handed to every context (receiveRespond returns instead); cancel fires nothing and passes no callback |
| ApiManagement.DispatchReportsOrPasses | source/api-managers/ApiManager.cpp:434-620 | an operation's callback fires at most once in the dispatch, exactly when the handle does not name one context, and is passed on exactly when it has not fired |
| ApiManagement.RespondWrapper | source/api-managers/ApiManager.cpp:478-514 | a non-OK status is passed on with nothing; an OK answer needs linkAddress, replyChannel and a base64 message, and any other failure is INTERNAL_ERROR |
| ApiManagement.RespondWrapperReadsMessage | source/api-managers/ApiManager.cpp:478-514 | a send-receive message reaches the application with its data and reply address when the reply channel is the receiver's send channel or multi-channel is set, and is INTERNAL_ERROR otherwise |
| ApiManagement.LinkKey | source/api-managers/ApiManager.cpp:964-969 | the reuse key is the channel id with the address re-dumped as JSON, defined exactly when the address parses |
| ApiManagement.ChooseConnection | source/api-managers/ApiManager.cpp:963-986 | an empty address starts a new machine, an unparsable one throws, and one whose key is recorded reuses exactly the recorded machine and connection |
| ApiManagement.RecordConnection | source/api-managers/ApiManager.cpp:732-738 | a connected address is recorded under its key unless the key is already there; an empty address records nothing |
| ApiManagement.ConnectedLinkReused | source/api-managers/ApiManager.cpp:732-738 | after a machine reports a link connected at an address, a request on that channel at any address with the same JSON value reuses it, or the machine recorded for the key before |
| ApiManagement.UnaddressedLinkNeverReused | source/api-managers/ApiManager.cpp:963-966 | a request without an address never reuses a machine |
| ApiManagement.ActivateReported | source/api-managers/ApiManager.cpp:642-660 | a channel the plugin has reported answers directly: ACTIVATED_WITH_DIFFERENT_ROLE exactly for another role, otherwise ALREADY_ACTIVATED when the post is accepted and INVALID_STATE when not |
| ApiManagement.ReportedChannelAnswersDirectly | source/api-managers/ApiManager.cpp:803-807 | once the plugin reports a channel with its current role, asking for that role is ALREADY_ACTIVATED and for any other ACTIVATED_WITH_DIFFERENT_ROLE |
| ApiManagement.ApiManagerInternal.constructor | source/api-managers/ApiManager.h:267-277 | a new manager has empty registries, no active context, no buffered package, no recorded link and no reported channel |
| ApiManagement.ApiManagerInternal.ContextsFor | source/api-managers/ApiManager.cpp:1331-1339 | the contexts of a handle and id are exactly those registered at the handle or at the id |
| ApiManagement.ApiManagerInternal.RegisterHandle | source/api-managers/ApiManager.cpp:1159-1163 | the context joins the set at the handle; every other registry is unchanged |
| ApiManagement.ApiManagerInternal.RegisterId | source/api-managers/ApiManager.cpp:1165-1169 | the context joins the set at the id; every other registry is unchanged |
| ApiManagement.ApiManagerInternal.RegisterPackageId | source/api-managers/ApiManager.cpp:1171-1196 | the context joins the set at package id plus connection id and is handed the packages buffered under the lookup key, without prefix; the buffer is left as it is |
| ApiManagement.ApiManagerInternal.UnregisterHandle | source/api-managers/ApiManager.cpp:1198-1209 | the context leaves the handle's set and an emptied entry is erased; nothing else changes |
| ApiManagement.ApiManagerInternal.NewContext | source/api-managers/ApiManager.cpp:1213-1300 | a new context with a fresh handle becomes active and the registries are untouched |
| ApiManagement.ApiManagerInternal.RemoveContext | source/api-managers/ApiManager.cpp:1341-1376 | the context leaves every set of the three registries, emptied entries are erased, and it stops being active |
| ApiManagement.ApiManagerInternal.ReceiveEncPkg | source/api-managers/ApiManager.cpp:870-928 | a package needs exactly one connection id; a short one goes to the connection's contexts; one whose id is registered with the connection goes without its id to those contexts; any other is buffered under its id and goes whole to the connection's contexts |
| ApiManagement.ApiManagerInternal.OnStateMachineDone | source/api-managers/ApiManager.cpp:685-721 | a context no longer active changes nothing; otherwise it is removed and the contexts still registered at its handle, never itself, are told |
| ApiManagement.ApiManagerInternal.OnConnStateMachineConnected | source/api-managers/ApiManager.cpp:723-746 | a connected address is recorded for reuse (first record kept) and the machine's contexts are told; an unparsable address throws before anything changes |
| ApiManagement.ApiManagerInternal.StartConnStateMachine | source/api-managers/ApiManager.cpp:955-995 | reuses the machine recorded for the address, or creates and starts a connection context, NULL_RACE_HANDLE when its start fails; an unparsable address throws |
| ApiManagement.ApiManagerInternal.OnChannelStatusChanged | source/api-managers/ApiManager.cpp:803-823 | the reported status and properties are kept for later activations and the contexts of the handle and of the channel get the matching event |
| ApiManagement.ApiManagerInternal.ActivateChannel | source/api-managers/ApiManager.cpp:642-663 | a reported channel is answered from the report; an unknown one is CHANNEL_DOES_NOT_EXIST; any other goes to the channel manager's activation |
| ChannelManagement.InsertAll | source/api-managers/ChannelManager.cpp:50-51 | map insert of a range: channels already present keep their record, new ones get the manifest's |
| ChannelManagement.MergeFirst | source/api-managers/ChannelManager.cpp:49-52 | the merged map holds exactly the channels some manifest names |
| ChannelManagement.MergeFirstTakesFirst | source/api-managers/ChannelManager.cpp:49-52 | a channel's merged record is the one of the first manifest that names it |
| ChannelManagement.WithStatus | source/api-managers/ChannelManager.cpp:54-56 | the same channels, each record with the given status and otherwise unchanged |
| ChannelManagement.EnableAll | source/api-managers/ChannelManager.cpp:54-56 | the constructor's second loop marks every channel CHANNEL_ENABLED and changes nothing else |
| ChannelManagement.ChannelManager.constructor | source/api-managers/ChannelManager.cpp:48-57 | the channel table is the manifests' channels, first manifest winning, each CHANNEL_ENABLED |
| ChannelManagement.ConstructedChannelsEnabled | source/api-managers/ChannelManager.cpp:48-57 | every manifest channel starts enabled with the record of the first manifest that names it |
| ChannelManagement.ChannelManager.GetChannelProperties | source/api-managers/ChannelManager.cpp:61-64 | a known channel's record is returned unchanged; an unknown channel is inserted with default properties, which are returned |
| ChannelManagement.ChannelManager.GetAllChannelProperties | source/api-managers/ChannelManager.cpp:66-72 | one record per known channel: exactly the table's records, as many as there are channels |
| ChannelManagement.ChannelManager.OnChannelStatusChanged | source/api-managers/ChannelManager.cpp:74-84 | a known channel takes the new status and nothing else changes; an unknown channel is ignored |
| ChannelManagement.FirstRoleNamed | source/api-managers/ChannelManager.cpp:107-113 | the position of the first role with the name, or the list's length when none has it |
| ChannelManagement.FirstRoleNamedIsFirst | source/api-managers/ChannelManager.cpp:108-113 | the scan that stops at the first match or runs off the end stops where FirstRoleNamed says |
| ChannelManagement.Activate | source/api-managers/ChannelManager.cpp:86-129 | a status other than enabled, starting or available is INVALID_STATE; a started channel answers ALREADY_ACTIVATED for its role and ACTIVATED_WITH_DIFFERENT_ROLE otherwise; an enabled one takes the first role of that name, INVALID_ROLE when there is none, else becomes CHANNEL_STARTING and is OK, or FAILED_TO_GET_CHANNEL without a plugin |
| ChannelManagement.ChannelManager.ActivateChannel | source/api-managers/ChannelManager.cpp:86-135 | an unknown channel is CHANNEL_DOES_NOT_EXIST and changes nothing; otherwise the answer and new record are Activate's, and the plugin is asked exactly when the answer is OK |
| ChannelManagement.ActivateTwice | source/api-managers/ChannelManager.cpp:100-128 | activating an enabled channel in one of its roles starts it; asking again is ALREADY_ACTIVATED for the same role and ACTIVATED_WITH_DIFFERENT_ROLE for another |
| ChannelManagement.UnknownRoleRefused | source/api-managers/ChannelManager.cpp:107-117 | a role name no role carries is INVALID_ROLE and leaves the channel enabled with no current role |
| ChannelManagement.EmptyRoleAccepted | source/api-managers/ChannelManager.cpp:107-119 | the empty role name matches the cleared current role, so an enabled channel starts in the empty role even without a role of that name |
| ChannelProps.DefaultChannelProperties | source/common/ChannelProperties.cpp:26-34 | a default record: every status and type undefined, every flag false, every figure -1 except the interval end time 0, no id, no roles, no hints and no current role |
| ChannelProps.LinkDirectionFromString | source/common/ChannelProperties.cpp:95-108 | exactly the four link-direction names are accepted; any other string throws |
| ChannelProps.LinkDirectionRoundTrip | source/common/ChannelProperties.cpp:76-108 | reading a direction's name gives the direction back, and a name reads as a direction exactly when it is that direction's name |
| ChannelProps.StaticEqualIffSameStaticPart | source/common/ChannelProperties.cpp:110-123 | two records compare static-equal exactly when they agree on every field the comparison lists |
| ChannelProps.StaticEqualIsEquivalence | source/common/ChannelProperties.cpp:110-123 | the static comparison is reflexive, symmetric and transitive |
| ChannelProps.StaticEqualIgnoresRunTimeFields | source/common/ChannelProperties.cpp:110-123 | a change of status, current role, send budget, interval end or link figures leaves a record static-equal to itself |
| ReceivePackages.ReadFromBuffer | source/decomposed/ComponentReceivePackageManager.cpp:28-40 | reading past the buffer's end throws; otherwise the next bytes are returned and the offset moves past them |
| ReceivePackages.EncodeU32 | source/decomposed/ComponentReceivePackageManager.cpp:28-40 | the four little-endian bytes of a 32-bit value read back as that value |
| ReceivePackages.LittleEndian32Inverse | source/decomposed/ComponentReceivePackageManager.cpp:28-40 | four bytes are the only encoding of the value they read as |
| ReceivePackages.ReadU32 | source/decomposed/ComponentReceivePackageManager.cpp:110 | a u32 read fails exactly when fewer than four bytes remain, and moves the offset by four |
| ReceivePackages.ReadU8 | source/decomposed/ComponentReceivePackageManager.cpp:176 | a u8 read fails exactly at the buffer's end and yields the byte there |
| ReceivePackages.ReadFragment | source/decomposed/ComponentReceivePackageManager.cpp:107-122 | a u32 length and exactly that many bytes; a length that overruns the buffer throws |
| ReceivePackages.ReadFragmentRoundTrip | source/decomposed/ComponentReceivePackageManager.cpp:107-122 | whatever surrounds a framed package, reading at its start yields the package and the offset after it |
| ReceivePackages.BatchRoundTrip | source/decomposed/ComponentReceivePackageManager.cpp:133-145 | splitting a batch gives back exactly the packages framed into it, in order |
| ReceivePackages.ReceiveBatch | source/decomposed/ComponentReceivePackageManager.cpp:133-145 | one package per length-prefixed piece, in buffer order; the status is OK exactly when the whole buffer splits |
| ReceivePackages.ReadFragmentHeader | source/decomposed/ComponentReceivePackageManager.cpp:175-176 | a fragment message opens with a u32 id and a u8 flags byte; a buffer shorter than five bytes throws |
| ReceivePackages.ReadFragmentHeaderRoundTrip | source/decomposed/ComponentReceivePackageManager.cpp:175-176 | an encoded id and flags byte read back as themselves |
| ReceivePackages.FragmentMessageLayout | source/decomposed/ComponentReceivePackageManager.cpp:170-200 | a fragment message is its header followed by a batch of pieces |
| ReceivePackages.FragmentMessageRoundTrip | source/decomposed/ComponentReceivePackageManager.cpp:170-200 | a fragment message reads back as its id, its flags and its pieces |
| ReceivePackages.Stamped | source/decomposed/ComponentReceivePackageManager.cpp:187-191 | every piece of one message is stored with the message's flags and the receipt time |
| ReceivePackages.Appended | source/decomposed/ComponentReceivePackageManager.cpp:194 | the pieces are pushed onto the list at their id, every other id untouched |
| ReceivePackages.AppendedTwice | source/decomposed/ComponentReceivePackageManager.cpp:194 | appending two runs of pieces at one id is appending them together |
| ReceivePackages.Feed | source/decomposed/ComponentReceivePackageManager.cpp:228-254 | a piece that does not continue the last package drops the partial bytes; at a package end the pending bytes are delivered if any and cleared, so at most one non-empty package comes out |
| ReceivePackages.FeedAll | source/decomposed/ComponentReceivePackageManager.cpp:222-255 | feeding an id's pieces delivers only non-empty packages |
| ReceivePackages.StandalonePiecesDelivered | source/decomposed/ComponentReceivePackageManager.cpp:222-255 | pieces that neither continue nor are continued come out one package each, empty ones dropped |
| ReceivePackages.NonEmpty | source/decomposed/ComponentReceivePackageManager.cpp:243 | the non-empty pieces, in order, and only those |
| ReceivePackages.Assemble | source/decomposed/ComponentReceivePackageManager.cpp:207-261 | consumes ids after the last one received until one is missing: the next id is never left stored, only consumed ids leave the store, and only non-empty packages come out |
| ReceivePackages.AssembleStep | source/decomposed/ComponentReceivePackageManager.cpp:211-260 | one round consumes the next id: its pieces are fed in arrival order and the rounds after go on from there |
| ReceivePackages.PackageReassembles | source/decomposed/ComponentReceivePackageManager.cpp:207-261 | a package sent as consecutive fragments under chain flags right after the last id comes out whole, whatever was pending, and every one of its ids is consumed |
| ReceivePackages.FirstAvailable | source/decomposed/ComponentReceivePackageManager.cpp:289-297 | the lowest id at or after the expected one that holds pieces, 0 when there is none |
| ReceivePackages.WithoutRange | source/decomposed/ComponentReceivePackageManager.cpp:308-315 | the store without the ids in the range, the rest unchanged |
| ReceivePackages.Skip | source/decomposed/ComponentReceivePackageManager.cpp:276-346 | jumps to just before the first stored id at or after the expected one, dropping the ids passed over, and skips again past an id that continues an earlier package; nothing is added to the store |
| ReceivePackages.SkipLandsOnPackageStart | source/decomposed/ComponentReceivePackageManager.cpp:317-341 | after a skip either nothing is left to skip to, or the next expected id is present and none of its pieces continues an earlier package |
| ReceivePackages.NoLaterFragmentsNoCleanup | source/decomposed/ComponentReceivePackageManager.cpp:439-450 | nothing stored beyond the expected id means no cleanup, however old the pieces |
| ReceivePackages.CleanupResumesReassembly | source/decomposed/ComponentReceivePackageManager.cpp:421-425 | a cleanup that finds a fragment to skip to resumes reassembly at once: the fragment it lands on is consumed |
| ReceivePackages.AnyContinuesLast | source/decomposed/ComponentReceivePackageManager.cpp:320-326 | the search finds a piece flagged CONTINUE_LAST_PACKAGE exactly when there is one |
| ReceivePackages.ProducerQueue.constructor | source/decomposed/ComponentReceivePackageManager.cpp:178 | the queue operator[] creates for a new producer stores nothing, holds no partial bytes and expects fragment id 1 |
| ReceivePackages.ProducerQueue.StorePieces | source/decomposed/ComponentReceivePackageManager.cpp:181-200 | every piece from the offset on is stored under the message's id with its flags, OK exactly when the buffer splits; nothing else changes |
| ReceivePackages.ProducerQueue.FeedPieces | source/decomposed/ComponentReceivePackageManager.cpp:222-255 | the inner loop feeds one id's pieces in arrival order, as FeedAll says |
| ReceivePackages.ProducerQueue.ProcessCompleteSequences | source/decomposed/ComponentReceivePackageManager.cpp:207-261 | the loop leaves the store, partial bytes, last id and deliveries that Assemble describes |
| ReceivePackages.ProducerQueue.FindFirstAvailable | source/decomposed/ComponentReceivePackageManager.cpp:289-297 | the search loop finds FirstAvailable |
| ReceivePackages.ProducerQueue.EraseRange | source/decomposed/ComponentReceivePackageManager.cpp:308-315 | the erase loop removes exactly the ids in the range |
| ReceivePackages.ProducerQueue.SkipMissingFragmentsUntilAvailable | source/decomposed/ComponentReceivePackageManager.cpp:276-346 | the store and last id after the skip are Skip's and the partial bytes are cleared |
| ReceivePackages.ProducerQueue.CleanupExpiredFragments | source/decomposed/ComponentReceivePackageManager.cpp:263-273 | a cleanup is the skip |
| ReceivePackages.ProducerQueue.FindOldestFragmentTime | source/decomposed/ComponentReceivePackageManager.cpp:361-379 | the oldest first-piece time of an id holding pieces, or the epoch when none does |
| ReceivePackages.ProducerQueue.ShouldRunCleanup | source/decomposed/ComponentReceivePackageManager.cpp:435-459 | cleanup is due exactly when an id lies beyond the expected one and the oldest piece is older than the timeout |
| ReceivePackages.ProducerQueue.RunCleanup | source/decomposed/ComponentReceivePackageManager.cpp:416-426 | a queue not due is left alone; a due one is skipped and then reassembled |
| ReceivePackages.FragmentReceipt | source/decomposed/ComponentReceivePackageManager.cpp:170-205 | an unreadable header touches nothing; a piece that overruns the buffer keeps the pieces before it and is ERROR without reassembling; only non-empty packages come out |
| ReceivePackages.ExpectedMessageDelivered | source/decomposed/ComponentReceivePackageManager.cpp:170-205 | the expected id, sent as one message of standalone pieces, is delivered piece by piece and consumed, and the queue then expects the next id |
| ReceivePackages.Link.constructor | source/decomposed/ComponentReceivePackageManager.cpp:84-85 | a new link has its id and no producer queue |
| ReceivePackages.Link.QueueFor | source/decomposed/ComponentReceivePackageManager.cpp:178 | the producer's queue, created empty on first use and the same one afterwards; no two producers share a queue |
| ReceivePackages.Link.ReceiveFragmentProducer | source/decomposed/ComponentReceivePackageManager.cpp:170-205 | the header is read, every piece stored and the queue reassembled, as FragmentReceipt says; every other producer keeps its queue and its queue's state, and an unreadable header touches nothing |
| ReceivePackages.Link.Receive | source/decomposed/ComponentReceivePackageManager.cpp:88-168 | single mode delivers the bytes whole, batch mode splits them, and the fragment modes go through the producer's queue, the multiple-producer mode reading a 16-byte producer first; single, batch and undefined modes and a short producer id leave every queue as it was |
| ReceivePackages.ReceivePackageManager.constructor | source/decomposed/ComponentReceivePackageManager.h:99-101 | no decoding is pending and no handle has been issued |
| ReceivePackages.ReceivePackageManager.OnReceive | source/decomposed/ComponentReceivePackageManager.cpp:46-67 | no matching encoding is ERROR and changes nothing; otherwise a pre-incremented fresh handle records the link |
| ReceivePackages.ReceiveOnLink | source/decomposed/ComponentReceivePackageManager.cpp:84-104 | an unknown link throws and is an ERROR that touches no link; a known link receives the bytes under the encoding mode, and every other link keeps its queues and their state |
| ReceivePackages.ReceivePackageManager.OnBytesDecoded | source/decomposed/ComponentReceivePackageManager.cpp:69-105 | empty bytes are OK and deliver nothing; an unknown handle is ERROR; otherwise the handle is retired and the link receives the bytes under the encoding mode; every link but the addressed one, and every link on the empty-bytes, unknown-handle and unknown-link paths, keeps its queues untouched |
| CoreModel.Spread | source/Core.cpp:76-92 | four bytes per 32-bit draw |
| CoreModel.SpreadAt | source/Core.cpp:83-89 | byte k of the spread is byte k mod 4 of draw k div 4, least significant first |
| CoreModel.GetEntropy | source/Core.cpp:76-92 | the bytes are the random device's draws laid out as little-endian words, cut to the length asked for |
| CoreModel.EntropyUsesWholeDraws | source/Core.cpp:82-89 | nothing of a draw is wasted: every whole group of four bytes reads back as its draw |
| CoreModel.HandleCounterAfterCalls | source/Core.cpp:167-175 | as written, after the first call the rollover static trails the count by one, so the reset never fires and the count runs on, wrapping to 0 after UINT64_MAX |
| CoreModel.HandleReturnedAsWritten | source/Core.cpp:167-175 | as written, call number n returns n modulo 2^64 |
| CoreModel.HandleNeverRollsOver | source/Core.cpp:169-173 | as written, every call after call number UINT64_MAX / 2 returns more than that bound instead of starting again from 1 |
| CoreModel.HandleReachesNull | source/Core.cpp:169-170 | as written, call number 2^64 returns NULL_RACE_HANDLE, the value reserved for no handle |
| CoreModel.GenerateHandleFixed | source/Core.cpp:167-175 | with the bound compared as a constant, a call returns a handle in [1, UINT64_MAX / 2) and the count moves to the next one |
| CoreModel.HandleCountAfter | source/Core.cpp:168-173 | the intended count stays within [1, UINT64_MAX / 2] |
| CoreModel.HandleReturnedFixed | source/Core.cpp:167-175 | with the fix, call number n + 1 returns 1 + n modulo (UINT64_MAX / 2 - 1): handles run through the range in order, start again from 1 and are never 0 |
| CoreModel.HandlesDistinctFixed | source/Core.cpp:167-175 | with the fix, no handle is issued twice within one period of the range |
| CoreModel.CountAfter | source/Core.cpp:158-164 | a static std::atomic int after n increments from 0, with two's complement wrap-around; below 2^31 it is n |
| CoreModel.IntToString | source/Core.cpp:159 | std::to_string of an int has no underscore and starts with a minus sign exactly for a negative number |
| CoreModel.IntToStringInjective | source/Core.cpp:159 | distinct ints print differently |
| CoreModel.TailAfterUnderscore | source/Core.cpp:159-164 | what follows the last underscore holds no underscore |
| CoreModel.CountAfterInjective | source/Core.cpp:158-164 | distinct calls see distinct counter values until the counter has wrapped all the way round |
| CoreModel.SuffixedIdsDistinct | source/Core.cpp:159-164 | ids ending in an underscore and a counter value differ for different counter values |
| CoreModel.ConnectionIdsDistinct | source/Core.cpp:157-160 | the connection ids of two different calls differ, whatever links they were made for, within 2^32 calls |
| CoreModel.LinkIdsDistinct | source/Core.cpp:162-165 | the link ids of two different calls differ, whatever plugin and channel asked for them, within 2^32 calls |
| CoreModel.Dispatch | source/Core.cpp:98-155 | the status, connection, link, channel and package callbacks refuse with SDK_SHUTTING_DOWN once shutting down and otherwise answer the API manager's response; the channel callback also updates the channel manager; asyncError and updateLinkProperties answer SDK_OK |
| CoreModel.Core.constructor | source/Core.cpp:27-30 | a new core is not shutting down, its handle count is 1 and its id counters are 0 |
| CoreModel.Core.Shutdown | source/Core.cpp:31-38 | after destruction starts the guarded callbacks refuse; no counter changes |
| CoreModel.Core.GenerateHandle | source/Core.cpp:167-175 | generateHandle as intended: never NULL_RACE_HANDLE, the count moving as GenerateHandleFixed says |
| CoreModel.Core.GenerateConnectionId | source/Core.cpp:157-160 | the link id, "/Connection_" and the shared counter's old value; the counter moves by one |
| CoreModel.Core.GenerateLinkId | source/Core.cpp:162-165 | the plugin id, the channel, "/LinkID_" and the shared counter's old value; the counter moves by one |
| CoreModel.Core.Callback | source/Core.cpp:104-155 | any plugin callback goes through the shutdown guard in front of the managers |
| PluginWrapping.QueueUtilization | source/PluginWrapper.cpp:464 | the utilization is 0 exactly for an empty queue with a positive maximum, and otherwise the queue size over the maximum |
| PluginWrapping.MakeResponse | source/PluginWrapper.cpp:462-478 | a successful post is SDK_OK; a failed one is SDK_INVALID_ARGUMENT at utilization 0 and SDK_QUEUE_FULL otherwise; the handle and utilization are carried along |
| PluginWrapping.PluginWrapper.constructor | source/PluginWrapper.cpp:24-40 | a new wrapper has the handler's initial queues, nothing posted and post id 0 |
| PluginWrapping.PluginWrapper.Post | source/PluginWrapper.cpp:50-107 | every post takes a post id; a missing queue is SDK_INVALID_ARGUMENT; otherwise the handler's outcome decides whether the work is queued, and MakeResponse gives the answer |
| PluginWrapping.PluginWrapper.Call | source/PluginWrapper.cpp:203-441 | malformed arguments are SDK_INVALID_ARGUMENT and post nothing; a well-formed call is posted to its queue as Post says |
| PluginWrapping.PluginWrapper.OnConnectionStatusChanged | source/PluginWrapper.cpp:443-454 | CONNECTION_OPEN creates the connection's queue and any other status removes it; nothing is posted |
| PluginWrapping.PluginWrapper.UnblockQueue | source/PluginWrapper.cpp:456-460 | unblocking a queue answers SDK_OK |
| PluginWrapping.NullHandleRejected | source/PluginWrapper.cpp:203-441 | no call carrying NULL_RACE_HANDLE passes the argument checks |
| PluginWrapping.SendPackageChecks | source/PluginWrapper.cpp:203-218 | sendPackage is well-formed exactly when its handle is set and its connection id non-empty |
| PluginWrapping.OpenConnectionChecks | source/PluginWrapper.cpp:220-238 | openConnection is well-formed exactly with a handle, a link type other than LT_UNDEF and a link id |
| PluginWrapping.ActivateChannelChecks | source/PluginWrapper.cpp:272-288 | activateChannel is well-formed exactly with a handle, a channel id and a role name |
| PluginWrapping.LoadLinkAddressesChecks | source/PluginWrapper.cpp:352-369 | loadLinkAddresses is well-formed exactly with a handle, a channel id and a non-empty address list |
| PluginWrapping.OnlySendPackageUsesConnectionQueues | source/PluginWrapper.cpp:203-441 | a well-formed sendPackage goes to its connection's queue and every other call to the default queue |
| PluginWrapping.SendOnClosedConnection | source/PluginWrapper.cpp:203-218 | a package for a connection whose queue was never opened, or already closed, is SDK_INVALID_ARGUMENT and reaches no plugin |
| RaceEnumNames.LowerChar | source/common/RaceEnums.cpp:28-33 | only 'A' to 'Z' change, each to its lower-case letter, and the result is never upper-case |
| RaceEnumNames.StringToLowerCase | source/common/RaceEnums.cpp:28-33 | the input with every character lower-cased, nothing added or dropped |
| RaceEnumNames.LowerCaseIdempotent | source/common/RaceEnums.cpp:28-33 | lower-casing leaves no upper-case letter, leaves lower-case text as it is, and is idempotent |
| RaceEnumNames.PluginFileTypeCodeToString | source/common/RaceEnums.cpp:35-45 | the two enumerators print by name; any other value prints as an error text carrying the number |
| RaceEnumNames.PluginFileTypeNamesDistinct | source/common/RaceEnums.cpp:35-45 | the two enumerators print differently, both names starting with PFT |
| RaceEnumNames.InvalidCodesNamedApart | source/common/RaceEnums.cpp:43-44 | distinct invalid values give distinct error texts |
| RaceEnumNames.StringToPluginFileType | source/common/RaceEnums.cpp:52-64 | "shared_library" and "python" in any letter case give their types; every other text is refused |
| RaceEnumNames.ManifestNameRoundTrip | source/common/RaceEnums.cpp:52-64 | parsing a manifest name in any letter case gives the type back |
| RaceEnumNames.ParseIgnoresCase | source/common/RaceEnums.cpp:52-64 | a text and its lower-case form are both refused or both give the same type |
| RaceEnumNames.PrintedNameDoesNotParse | source/common/RaceEnums.cpp:35-64 | the printed enumerator name is not a manifest name: printing and parsing are not inverses |
| StringLists.StringVectorToString | source/helper.cpp:70-81 | the loop builds "[", the elements joined by ", ", then "]" |
| StringLists.EmptyListBrackets | source/helper.cpp:70-81 | an empty list prints as "[]" |
| StringLists.AlwaysBracketed | source/helper.cpp:70-81 | the text always opens with "[" and closes with "]" |
| StringLists.JoinedLength | source/helper.cpp:70-81 | the length is 2 for the brackets, plus the elements, plus 2 for each of the n - 1 separators |
| StringLists.JoinedPrefix | source/helper.cpp:72-77 | joining a prefix of the list gives a prefix of the joined text |
| StringLists.ElementInPlace | source/helper.cpp:72-77 | every element appears unchanged, in order, at its offset, each after the first preceded by ", " |
| PluginFiles.Join | source/FileSystem.cpp:126-134 | std::filesystem's / on POSIX: an absolute right side replaces the left; otherwise one separator is inserted when the left ends in a name |
| PluginFiles.MakePluginFilePath | source/FileSystem.cpp:126-134 | root, usr, the plugin id, then the file path when it is not empty |
| PluginFiles.MakePluginInstallPath | source/FileSystem.cpp:136-144 | the install base, the plugin id, then the file path when it is not empty |
| PluginFiles.PluginFilePathSpelledOut | source/FileSystem.cpp:126-134 | with a root ending in a name and relative names, the plugin file path is root/usr/pluginId[/filePath] |
| PluginFiles.PluginInstallPathSpelledOut | source/FileSystem.cpp:136-177 | likewise the install path is root/plugins/os/arch/pluginId[/filePath] |
| PluginFiles.OtherDirsSpelledOut | source/FileSystem.cpp:146-184 | the shims directory is root/shims/language and a race directory root/prefix/pluginId |
| PluginFiles.AbsoluteFilePathLeavesPluginDir | source/FileSystem.cpp:126-134 | an absolute file path replaces everything before it and is not kept under the plugin's directory |
| PluginFiles.PluginFilePathsDistinct | source/FileSystem.cpp:126-134 | different relative files of one plugin get different paths |
| PluginFiles.ParentPath | source/FileSystem.cpp:116-119 | the directory part of a path is no longer than the path |
| PluginFiles.ParentOfName | source/FileSystem.cpp:116-119 | the parent of dir/name, for a name without "/", is dir |
| PluginFiles.ReadFile | source/FileSystem.cpp:29-34 | readFile reads the plugin's file at its plugin file path |
| PluginFiles.AppendFile | source/FileSystem.cpp:36-42 | appendFile appends the data at the plugin file path |
| PluginFiles.MakeDir | source/FileSystem.cpp:44-49 | makeDir creates the plugin directory path with all its parents |
| PluginFiles.WriteFile | source/FileSystem.cpp:106-124 | writeFile creates the missing parent directory first, when there is one, then writes the data at the plugin file path |
| PluginFiles.FileOperationsAgree | source/FileSystem.cpp:29-124 | readFile, appendFile and writeFile address one and the same storage path |
| PluginFiles.WriteCreatesPluginDir | source/FileSystem.cpp:106-124 | writing a file directly inside a missing plugin directory creates that directory first |
| PluginFiles.Copy | source/FileSystem.cpp:87-104 | a missing source fails; otherwise success is whether the destination exists afterwards |
| JsonAccess.At | source/plugin-loading/Config.cpp:85 | at succeeds exactly on an object holding the key, with that member; a missing key is out_of_range and a non-object a type error |
| JsonAccess.AsString | source/PluginDef.cpp:35 | a string converts to itself; anything else is a type error |
| JsonAccess.AsBool | source/plugin-loading/Config.cpp:108 | only a JSON boolean converts |
| JsonAccess.AsInt | source/plugin-loading/Config.cpp:106 | numbers convert, booleans convert to 1 and 0, anything else is a type error |
| JsonAccess.StringsToJson | source/Composition.cpp:45-50 | a list of strings becomes a JSON array of those strings, in order |
| JsonAccess.AsStrings | source/Composition.cpp:56 | an array of strings converts to those strings in order; anything else is a type error |
| JsonAccess.StringsRoundTrip | source/Composition.cpp:45-57 | a list of strings written as JSON reads back as itself |
| JsonAccess.ValueString | source/PluginDef.cpp:40 | value(key, default) on an object: the default only when the key is absent, else the member as a string; a non-object is a type error |
| JsonAccess.ValueBool | source/plugin-loading/Config.cpp:89 | value(key, default) for a boolean, likewise |
| JsonAccess.ValueStrings | source/PluginDef.cpp:42-45 | value(key, {}) for a list of strings: an absent list is empty, a present one converts as AsStrings |
| PluginDefs.ExactlyOneKind | source/PluginDef.cpp:24-30 | a plugin is unified or decomposed and never both; decomposed exactly when it lists no channels |
| PluginDefs.Rethrown | source/PluginDef.cpp:46-52 | a missing key is rethrown as invalid_argument naming the key, an invalid value as invalid_argument carrying the message; JSON type errors pass through |
| PluginDefs.FileTypeOf | source/PluginDef.cpp:34 | file_type converts exactly when it is a string naming a known plugin file type, and to that type |
| PluginDefs.PythonFields | source/PluginDef.cpp:36-39 | python_module and python_class are read only for Python plugins; a shared library leaves both empty |
| PluginDefs.FromJson | source/PluginDef.cpp:32-53 | a successful parse reads every field as described; out_of_range never escapes; a missing file_type is reported as a missing required key |
| PluginDefs.FromJsonSucceedsIffWellFormed | source/PluginDef.cpp:32-53 | from_json succeeds exactly on objects with a valid file_type, a string file_path, the Python keys when Python, and well-typed optional keys |
| PluginDefs.PythonNeedsModule | source/PluginDef.cpp:36-38 | a Python plugin without python_module is refused as a missing required key |
| PluginDefs.DefRoundTrip | source/PluginDef.cpp:32-53 | every plugin definition written as JSON parses back to itself |
| PluginDefs.OptionalKeysDefault | source/PluginDef.cpp:40-45 | absent shared_library_path, channels, transports, usermodels and encodings default to empty, and a definition without channels is decomposed |
| Compositions.ToJson | source/Composition.cpp:45-50 | to_json writes exactly the keys id, transport, usermodel and encodings with the composition's values |
| Compositions.FromJson | source/Composition.cpp:52-57 | from_json succeeds only on objects holding all four keys, leaves the plugin list empty, and reports a missing id as out_of_range |
| Compositions.JsonRoundTrip | source/Composition.cpp:45-57 | a composition written by to_json reads back as itself, minus its plugin list (which to_json does not write) |
| Compositions.MissingKeyRefused | source/Composition.cpp:52-57 | any of the four keys missing makes from_json fail |
| Compositions.DescriptionFrame | source/Composition.cpp:31-43 | description starts with "Composite plugin: " and the id and ends with the closing brace |
| Compositions.PluginListLength | source/Composition.cpp:38-40 | the plugin list in a description has each file path followed by ", " |
| Compositions.PluginListAppend | source/Composition.cpp:38-40 | one more plugin appends its file path and ", " to the list |
| PluginConfig.ValueTypeOf | source/plugin-loading/Config.cpp:90-100 | "string", "int" and "bool" select the three value types and every other name is invalid_argument |
| PluginConfig.DefaultText | source/plugin-loading/Config.cpp:102-110 | a string default is kept as text, an int default is printed as a decimal, a bool default as 1 or 0; other JSON values fail |
| PluginConfig.ChannelParameterFromJson | source/plugin-loading/Config.cpp:77-111 | a parameter without key fails with out_of_range, and a parsed parameter carries the object's key |
| PluginConfig.ChannelParameterDefaults | source/plugin-loading/Config.cpp:78-88 | an object with only a key yields plugin "", required, string type and empty default |
| PluginConfig.ChannelParameterType | source/plugin-loading/Config.cpp:90-100 | parsing succeeds exactly when type is one of the three names, with that value type |
| PluginConfig.DefaultValueText | source/plugin-loading/Config.cpp:102-110 | a bool or int default is stored as its printed text |
| PluginConfig.IntDefaultsKeepValue | source/plugin-loading/Config.cpp:106 | two integer defaults with the same text are the same integer |
| PluginConfig.PluginDefsFromJson | source/plugin-loading/Config.cpp:115 | the plugins array converts element by element, in order |
| PluginConfig.CompositionsFromJson | source/plugin-loading/Config.cpp:119 | the compositions array converts element by element, in order |
| PluginConfig.ChannelParametersFromJson | source/plugin-loading/Config.cpp:120-121 | the channel_parameters array converts element by element, in order |
| PluginConfig.KnownIds | source/plugin-loading/Config.cpp:124-131 | the accepted plugin ids are exactly "", every plugin file path and every composition id |
| PluginConfig.FirstUnknownPlugin | source/plugin-loading/Config.cpp:133-139 | finds the first channel parameter whose plugin is not a known id, or none when all are known |
| PluginConfig.ManifestFromJson | source/plugin-loading/Config.cpp:113-140 | a parsed manifest had plugins and channel_properties, defaults compositions and channel_parameters to empty, and every parameter names a known plugin |
| PluginConfig.UnknownPluginRefused | source/plugin-loading/Config.cpp:133-139 | a channel parameter naming a plugin that is neither "" nor a plugin file path is refused with invalid_argument |
| PluginConfig.FileName | source/plugin-loading/Config.cpp:32 | a path's file name holds no separator |
| PluginConfig.SomesEmptyIffAllNone | source/plugin-loading/Config.cpp:31-51 | nothing is collected exactly when no directory yields a manifest |
| PluginConfig.Yields | source/plugin-loading/Config.cpp:31-50 | each plugin directory yields the manifest its manifest.json converts to, if any |
| PluginConfig.ParsedEmptyIffNoneYields | source/plugin-loading/Config.cpp:26-51 | no manifest is added exactly when no plugin directory yields one |
| PluginConfig.Config.constructor | source/plugin-loading/Config.h:34-69 | a new configuration holds no manifests |
| PluginConfig.Config.ParsePluginManifests | source/plugin-loading/Config.cpp:26-52 | appends the manifests of the plugin directories in order, and reports success exactly when at least one parsed |
| DecomposedLoading.RegisteredSucceedsIffFresh | source/plugin-loading/DecomposedPluginLoader.cpp:55-90 | registering a plugin's names succeeds exactly when they are distinct and none is registered yet, and then adds every name for that plugin and nothing else |
| DecomposedLoading.RegisteredReportsDuplicate | source/plugin-loading/DecomposedPluginLoader.cpp:56-64 | a failed registration names one of the plugin's own names |
| DecomposedLoading.RegisterNames | source/plugin-loading/DecomposedPluginLoader.cpp:55-66 | the registration loop computes the table and the first duplicate as specified |
| DecomposedLoading.TableGrows | source/plugin-loading/DecomposedPluginLoader.cpp:55-91 | a registration that goes through, followed by keeping the plugin, leaves every name pointing at a plugin that lists it |
| DecomposedLoading.MissingEncoding | source/plugin-loading/DecomposedPluginLoader.cpp:124-126 | finds an encoding name the table lacks, or none when all are registered |
| DecomposedLoading.DecomposedPluginLoader.constructor | source/plugin-loading/DecomposedPluginLoader.cpp:26 | a new loader has no plugins and empty transport, user model and encoding tables |
| DecomposedLoading.DecomposedPluginLoader.LoadComponentsForPlugin | source/plugin-loading/DecomposedPluginLoader.cpp:28-92 | transports, then user models, then encodings are registered; the first duplicate aborts with that name, keeping what was registered before it; on success the plugin is appended and every table stays valid |
| DecomposedLoading.DecomposedPluginLoader.LoadComponents | source/plugin-loading/DecomposedPluginLoader.cpp:94-98 | loading every plugin without a duplicate appends them all in order and keeps the tables valid |
| DecomposedLoading.DecomposedPluginLoader.Compose | source/plugin-loading/DecomposedPluginLoader.cpp:115-135 | compose succeeds exactly when transport, user model and every encoding are registered; a missing transport or user model is out_of_range naming it; the result carries the composition's id, the registered parts and exactly its encodings |
| DecomposedLoading.ComposedPartsDeclared | source/plugin-loading/DecomposedPluginLoader.cpp:115-135 | every part of a composed channel comes from a loaded plugin that declares that name |
| PluginLoading.UnifiedOnly | source/plugin-loading/PluginLoader.cpp:159-168 | the unified list holds exactly the definitions that are unified |
| PluginLoading.DecomposedOnly | source/plugin-loading/PluginLoader.cpp:159-168 | the decomposed list holds exactly the definitions that are decomposed |
| PluginLoading.WithUnifiedValid | source/plugin-loading/PluginLoader.cpp:170-176 | the unified loop maps each channel to a loader that provides it |
| PluginLoading.WithCompositionsValid | source/plugin-loading/PluginLoader.cpp:179-186 | the composition loop maps each composition id to a loader that provides it |
| PluginLoading.LoaderMapOfValid | source/plugin-loading/PluginLoader.cpp:155-189 | the constructed channelPluginLoaderMap sends every channel to a loader that provides it |
| PluginLoading.LastUnifiedWins | source/plugin-loading/PluginLoader.cpp:170-176 | a channel listed by a unified definition and by no later one maps to that definition's loader |
| PluginLoading.LastCompositionWins | source/plugin-loading/PluginLoader.cpp:179-186 | a composition id maps to that composition unless a later one has the same id |
| PluginLoading.CompositionsLeaveOtherIds | source/plugin-loading/PluginLoader.cpp:179-186 | channels that are no composition's id keep the loader the unified plugins gave them |
| PluginLoading.Emplace | source/plugin-loading/PluginLoader.cpp:220-222 | emplace adds each new id with the container and leaves ids already present untouched |
| PluginLoading.CachedChannelReused | source/plugin-loading/PluginLoader.cpp:202-204 | a cached channel is returned as it is, loading nothing |
| PluginLoading.UnknownChannelIsNull | source/plugin-loading/PluginLoader.cpp:212-216 | a channel no manifest names gives null and changes nothing |
| PluginLoading.LoadCachesPluginChannels | source/plugin-loading/PluginLoader.cpp:217-229 | after a load, the channel and all the plugin's uncached channels point at the new container, older entries stay, and asking again returns the same container |
| PluginLoading.GetChannelKeepsStateValid | source/plugin-loading/PluginLoader.cpp:199-231 | with the null check restored, every kept container is non-null and init has run exactly once on each |
| PluginLoading.FailedLoadChangesNothing | source/plugin-loading/PluginLoader.cpp:108-112 | with the null check restored, a plugin that fails to load gives null and leaves the loader unchanged |
| PluginLoading.FailedLoadDereferencesNull | source/plugin-loading/PluginLoader.cpp:217-228 | as written, a failed load caches a null container, calls init through it, and every later call returns the cached null |
| PluginLoading.PluginConfigSpelledOut | source/plugin-loading/PluginLoader.cpp:234-244 | a plugin's etc, logging, aux, tmp and install directories are named after its id under the root |
| PluginLoading.RaceDirSpelledOut | source/plugin-loading/PluginLoader.cpp:236 | a race directory is root/prefix/id |
| PluginLoading.AddChannels | source/plugin-loading/PluginLoader.cpp:172-175 | one definition's channels all map to its shared loader |
| PluginLoading.UnifiedLoaders | source/plugin-loading/PluginLoader.cpp:170-176 | the unified loop builds the map the specification function describes |
| PluginLoading.CompositionLoaders | source/plugin-loading/PluginLoader.cpp:179-186 | the composition loop overwrites each composition id in order |
| PluginLoading.PluginLoader.constructor | source/plugin-loading/PluginLoader.cpp:155-189 | the loader map is built from the manifests, and no plugin is loaded yet |
| PluginLoading.PluginLoader.GetChannel | source/plugin-loading/PluginLoader.cpp:199-231 | getChannel performs exactly the step described by the getChannel function, with the load outcome of the channel's loader |
| PluginLoading.NewPluginLoader | source/plugin-loading/PluginLoader.cpp:155-189 | construction loads the decomposed plugins' components first, then builds the loader map with nothing loaded |
| RaceApi.ApiStatusToString | source/Race.cpp:88-109 | each status prints as its own name, and only CANCELLED falls through to "UNKNOWN" |
| RaceApi.StatusNamesRoundTrip | source/Race.cpp:88-109 | every status but CANCELLED is told apart by its printed name; CANCELLED is not |
| RaceApi.ChannelParamStore.constructor | include/race/Race.h:250-258 | a new store holds no parameters |
| RaceApi.ChannelParamStore.SetChannelParam | source/Race.cpp:360-362 | setting a parameter overwrites that key and changes nothing else |
| RaceApi.LastSetWins | source/Race.cpp:360-362 | after a series of sets, a key holds the value set last for it, and a key never set keeps what it held |
| RaceApi.LastIndexOf | source/Race.cpp:360-362 | finds the last pair setting a key |
| RaceApi.ConduitRead | source/Race.cpp:123-150 | a null core reads (INVALID, nothing), a rejected request (INVALID_ARGUMENT, nothing); otherwise the manager's answer or a timeout |
| RaceApi.ReadOkOnlyFromManager | source/Race.cpp:123-150 | an OK read carries exactly what the manager's callback delivered; a null core ignores the manager; only a non-blocking read can time out |
| RaceApi.ConduitWrite | source/Race.cpp:159-179 | a null core gives INVALID and sends nothing; otherwise the bytes go to the manager, and the status is INVALID_ARGUMENT when it refuses, else its callback's |
| RaceApi.Close | source/Race.cpp:187-202 | a null core gives INVALID_ARGUMENT, a refused close INTERNAL_ERROR, otherwise the callback's status |
| RaceApi.NullCoreStatuses | source/Race.cpp:123-202 | the three operations disagree on a null core: read says INVALID, write INVALID, close INVALID_ARGUMENT; a refused close is INTERNAL_ERROR |
| RaceApi.ConduitReadStr | source/Race.cpp:152-157 | read_str answers exactly when the blocking read does |
| RaceApi.ConduitWriteStr | source/Race.cpp:181-185 | write_str sends one byte per character |
| RaceApi.WriteStrReadStrRoundTrip | source/Race.cpp:152-185 | a byte string written with write_str is read back by read_str as the same string |
| RaceApi.ReceiveRespond | source/Race.cpp:280-312 | a null core gives INVALID and a refused request INVALID_ARGUMENT, both with a null responder; a usable responder comes only with OK |
| RaceApi.ResponderAddressesSender | source/Race.cpp:301-311 | an OK receive returns the data and a responder sending on the receive options' send channel and role to the address the package came from |
| RaceApi.Accept | source/Race.cpp:340-358 | a null core gives INVALID_ARGUMENT, a refused accept INTERNAL_ERROR, both with a null conduit; otherwise the callback's status and a conduit on its handle |
| RaceApi.AcceptedConduitUsable | source/Race.cpp:340-358 | the accepted conduit reads through the same manager under the new handle |
| CommandLine.Find | app/race-cli/main.cpp:227 | find gives the first position of the character, or none exactly when it is absent |
| CommandLine.SplitParam | app/race-cli/main.cpp:225-246 | a successful split gives a non-empty key without "=" and a non-empty value that rebuild the argument |
| CommandLine.SplitParamFailures | app/race-cli/main.cpp:230-243 | an empty key is reported as such; a key with no "=" or nothing after it is an empty value |
| CommandLine.SplitParamRoundTrip | app/race-cli/main.cpp:225-246 | key=value splits back into the key and the value, even when the value holds "=" |
| CommandLine.FindAfterPrefix | app/race-cli/main.cpp:227 | the first "=" after a prefix without one is found at the prefix's length |
| CommandLine.SkipSpace | app/race-cli/main.cpp:265 | leading white space is dropped |
| CommandLine.DigitRun | app/race-cli/main.cpp:265 | the longest run of leading digits |
| CommandLine.Stoi | app/race-cli/main.cpp:265 | stoi yields only values that fit an int |
| CommandLine.DigitRunOfDigits | app/race-cli/main.cpp:265 | a digit run stops at the first non-digit |
| CommandLine.StoiReadsPrinted | app/race-cli/main.cpp:265 | a number printed in decimal reads back as itself whatever non-digit text follows |
| CommandLine.StoiOfDigits | app/race-cli/main.cpp:265 | an optional minus and digits read as their signed decimal value |
| CommandLine.StoiRefusesNonNumbers | app/race-cli/main.cpp:265 | text that does not start with white space, a sign or a digit is refused |
| CommandLine.FoldOptsStops | app/race-cli/main.cpp:158-320 | once the loop returns or aborts, later options change nothing |
| CommandLine.OptionLoop | app/race-cli/main.cpp:158-320 | the while loop over getopt results computes the fold of the option handlers |
| CommandLine.CheckPositional | app/race-cli/main.cpp:325-329 | a left-over argument fails parsing; with none, the loop's result stands |
| CommandLine.GetParams | app/race-cli/main.cpp:334-343 | every parsed pair is set on a fresh store in command-line order |
| RaceCli.ApplyOption | app/race-cli/main.cpp:158-320 | a -p argument parses exactly when it splits, appending the pair; no other option touches the params; a short -d or -w, which the option string gives no argument, builds a std::string from a NULL optarg, and no other short option does |
| RaceCli.BareDirOrTimeoutUndefined | app/race-cli/main.cpp:161-257 | after any options that parse, a short -d or -w ends parsing with a NULL optarg |
| RaceCli.ParseOpts | app/race-cli/main.cpp:96-332 | parseOpts is the option loop followed by the left-over-argument check, and a left-over argument always fails |
| RaceCli.ParamsInCommandLineOrder | app/race-cli/main.cpp:225-246 | when parsing succeeds, the params are the -p pairs in command-line order, duplicates kept |
| RaceCli.BadParamRejected | app/race-cli/main.cpp:230-243 | a -p argument with an empty key or value anywhere makes parsing fail |
| RaceCli.BadParamSpoilsParamArgs | app/race-cli/main.cpp:230-243 | such an argument leaves no param list at all |
| RaceCli.CheckForLocalPortOverride | app/race-cli/main.cpp:889-897 | the loop takes the first "localPort" param read with stoi, else keeps the port it was given |
| RaceCli.FirstLocalPortWins | app/race-cli/main.cpp:889-897 | the first "localPort" decides the port, whatever follows |
| RaceCli.NoOverrideKeepsDefault | app/race-cli/main.cpp:927-928 | without a "localPort" param the default port stands |
| RaceCli.LocalPortAndStoreDisagree | app/race-cli/main.cpp:334-343 | with two "localPort" params the local port is the first value while the channel-parameter store keeps the last |
| BridgeDistro.ApplyOption | app/bridge-distro/bridge-distro.cpp:129-240 | a -p argument parses exactly when it splits, appending the pair; no other option touches the params; a short -d, which the option string gives no argument, builds a std::string from a NULL optarg, and no other short option does |
| BridgeDistro.BareDirUndefined | app/bridge-distro/bridge-distro.cpp:132-170 | after any options that parse, a short -d ends parsing with a NULL optarg |
| BridgeDistro.ParseOpts | app/bridge-distro/bridge-distro.cpp:88-253 | parseOpts is the option loop followed by the left-over-argument check, and a left-over argument always fails |
| BridgeDistro.ParsedParamsSplit | app/bridge-distro/bridge-distro.cpp:180-202 | a successful parse had every -p argument split, so every param has a non-empty key and value |
| BridgeDistro.ParsedStep | app/bridge-distro/bridge-distro.cpp:129-240 | one more getopt result appends a pair only when it is a -p option |
| BridgeDistro.UnrecognisedOptionAborts | app/bridge-distro/bridge-distro.cpp:237-240 | with no '?' case, an unrecognised option ends in abort rather than a usage error |
| BridgeDistro.Lines | app/bridge-distro/bridge-distro.cpp:286-289 | getline splits the file into lines without newlines |
| BridgeDistro.LinesRoundTrip | app/bridge-distro/bridge-distro.cpp:286-289 | lines written one per line read back as the same lines |
| BridgeDistro.ReadBridges | app/bridge-distro/bridge-distro.cpp:277-292 | a file that cannot be opened gives no responses; otherwise one response per line |
| BridgeDistro.HandleRecvRespond | app/bridge-distro/bridge-distro.cpp:295-346 | the loop answers the requests as the serving function describes and never reaches undefined behaviour |
| BridgeDistro.NeverUndefined | app/bridge-distro/bridge-distro.cpp:320-341 | with the empty-list guard, serving never reaches undefined behaviour |
| BridgeDistro.RoundRobin | app/bridge-distro/bridge-distro.cpp:320-331 | the k-th response sent is the response list's entry k places on from the start index, wrapping around |
| BridgeDistro.OnlyPassphraseAnswered | app/bridge-distro/bridge-distro.cpp:324-339 | clients that do not present the passphrase get nothing |
| BridgeDistro.EveryAuthenticatedRequestAnswered | app/bridge-distro/bridge-distro.cpp:320-341 | every request that presents the passphrase gets exactly one response, and the loop keeps listening |
| BridgeDistro.MissingFileThenPassphraseIsUndefined | app/bridge-distro/bridge-distro.cpp:281-284 | as written, a missing responses file followed by the passphrase indexes an empty vector and takes a size modulo zero |
| BridgeDistro.MissingFileThenPassphraseIsIgnored | app/bridge-distro/bridge-distro.cpp:281-284 | with the guard, a missing responses file answers nothing and keeps listening |
| BridgeDistro.NoResponsesSendNothing | app/bridge-distro/bridge-distro.cpp:320-341 | with the guard and no responses, nothing is sent and the loop keeps listening |
| RacePt3.PluginPathOr | pluggable-transport/source/pkg/race_pt3/race_pt3.go:71-74 | an empty plugin path becomes /etc/race/plugins; any other is kept |
| RacePt3.ClientRefusal | pluggable-transport/source/pkg/race_pt3/race_pt3.go:76-79 | a client is refused exactly when both the send and the receive channel ids are empty |
| RacePt3.ServerRefusal | pluggable-transport/source/pkg/race_pt3/race_pt3.go:274-281 | a server is refused when its receive link address is empty, or when both channel ids are empty |
| RacePt3.CopyUserParams | pluggable-transport/source/pkg/race_pt3/race_pt3.go:81-85 | every user parameter is set on a fresh store |
| RacePt3.RaceClient.constructor | pluggable-transport/source/pkg/race_pt3/race_pt3.go:36-47 | a client holds the given settings and a live Race instance |
| RacePt3.RaceClient.Dial | pluggable-transport/source/pkg/race_pt3/race_pt3.go:120-147 | the send options carry the client's channels, roles, timeout and the given address; the dial succeeds exactly when the status is OK, with the returned conduit, else "race_pt3 Dial error" |
| RacePt3.NewRaceClient | pluggable-transport/source/pkg/race_pt3/race_pt3.go:49-101 | NewRaceClient returns nil exactly when both channel ids are empty, and otherwise a fresh live client with the defaulted plugin path, the user parameters and the given settings |
| RacePt3.DestroyRaceClient | pluggable-transport/source/pkg/race_pt3/race_pt3.go:103-113 | destroying a client releases its Race instance and its parameter store |
| RacePt3.FirstDecisive | pluggable-transport/source/pkg/race_pt3/race_pt3.go:183-200 | finds the first answer that ends the read loop: an error or a non-empty package |
| RacePt3.Read | pluggable-transport/source/pkg/race_pt3/race_pt3.go:180-204 | as written, Read skips empty packages, returns the first non-empty package's bytes and size, reports a failed status as "race_pt3 Read error", and panics when the package is longer than the buffer; a conn without a conduit panics before touching the buffer |
| RacePt3.ReadNeverEmptySuccess | pluggable-transport/source/pkg/race_pt3/race_pt3.go:180-204 | a successful read always returns at least one byte and at most the buffer's size; a returned count is the size of the package that ended the loop |
| RacePt3.EmptyPackagesSkipped | pluggable-transport/source/pkg/race_pt3/race_pt3.go:194-199 | empty packages before the first decisive answer do not change the read |
| RacePt3.ReadPanicsOnLongPackage | pluggable-transport/source/pkg/race_pt3/race_pt3.go:194-199 | a two-byte package read into a one-byte buffer panics |
| RacePt3.BufferedReadLosesNothing | pluggable-transport/source/pkg/race_pt3/race_pt3.go:180-204 | with the overflow kept for the next read, what is delivered followed by what is kept is exactly the package, at most a buffer's worth is delivered, and the read never panics |
| RacePt3.ConnReader.constructor | pluggable-transport/source/pkg/race_pt3/race_pt3.go:115-118 | a new connection reader has nothing pending |
| RacePt3.ConnReader.Read | pluggable-transport/source/pkg/race_pt3/race_pt3.go:180-204 | the corrected read copies as much as the buffer holds and keeps the rest for the next read; a conn without a conduit still panics when it has to call ReadSwig |
| RacePt3.FirstDecisiveIs | pluggable-transport/source/pkg/race_pt3/race_pt3.go:183-200 | the first decisive answer is found at its index |
| RacePt3.Write | pluggable-transport/source/pkg/race_pt3/race_pt3.go:206-223 | Write sends the whole buffer; OK reports the full length, anything else 0 and "race_pt3 Write error"; a conn without a conduit panics at the write |
| RacePt3.Close | pluggable-transport/source/pkg/race_pt3/race_pt3.go:225-229 | closing a connection always reports no error |
| RacePt3.RaceServer.constructor | pluggable-transport/source/pkg/race_pt3/race_pt3.go:232-243 | a server holds the given settings and a live Race instance |
| RacePt3.RaceServer.Listen | pluggable-transport/source/pkg/race_pt3/race_pt3.go:323-348 | the receive options carry the server's channels, roles, address and timeout; OK gives a listener with the link address, the accept object and an empty connection vector, anything else "race_pt3 Listen error" |
| RacePt3.NewRaceServer | pluggable-transport/source/pkg/race_pt3/race_pt3.go:245-302 | NewRaceServer returns nil exactly when the receive link address is empty or both channel ids are, and otherwise a fresh live server with the given settings |
| RacePt3.DestroyRaceServer | pluggable-transport/source/pkg/race_pt3/race_pt3.go:304-314 | destroying a server releases its Race instance and its parameter store |
| RacePt3.RaceListener.constructor | pluggable-transport/source/pkg/race_pt3/race_pt3.go:316-321 | a listener holds its link address, accept object and connection vector |
| RacePt3.RaceListener.Accept | pluggable-transport/source/pkg/race_pt3/race_pt3.go:350-365 | a nil listener gives "race_pt3 nil listener", a failed accept "race_pt3 Accept error"; an accepted conduit is returned and added to the connection vector |
| RacePt3.RaceListener.Close | pluggable-transport/source/pkg/race_pt3/race_pt3.go:367-381 | closing closes every accepted conduit in order, empties and deletes the connection vector, and reports no error |
| RacePt3.AcceptThenClose | pluggable-transport/source/pkg/race_pt3/race_pt3.go:350-381 | after a run of accepts, closing the listener closes exactly the conduits that were accepted |
| RacePt3.AcceptedConduits | pluggable-transport/source/pkg/race_pt3/race_pt3.go:350-365 | the conduits kept by a run of accepts are among those offered, at most one per accept |
| Dispatcher.To4 | pluggable-transport/source/cmd/race-dispatcher/Dispatcher.go:89 | To4 gives four bytes: the address itself when it has four, else the last four of an IPv4-mapped sixteen-byte address |
| Dispatcher.FirstUsable | pluggable-transport/source/cmd/race-dispatcher/Dispatcher.go:86-94 | finds the first interface address that is a non-loopback IPv4 network address, or none exactly when there is none |
| Dispatcher.GetLocalIP | pluggable-transport/source/cmd/race-dispatcher/Dispatcher.go:79-97 | the search returns "" when the interfaces cannot be listed or none is usable, else the first usable address printed |
| Dispatcher.FirstUsableIs | pluggable-transport/source/cmd/race-dispatcher/Dispatcher.go:86-94 | the first usable address is found at its index |
| Dispatcher.LocalIPIsFirstUsable | pluggable-transport/source/cmd/race-dispatcher/Dispatcher.go:86-94 | the address returned is the first usable one, printed as a dotted quad |
| Dispatcher.LocalIPEmpty | pluggable-transport/source/cmd/race-dispatcher/Dispatcher.go:79-97 | the address is empty exactly when listing failed or no address is usable |
| Dispatcher.LocalIPNotLoopback | pluggable-transport/source/cmd/race-dispatcher/Dispatcher.go:88 | a loopback address is never returned: the result never starts with "127." |
| Dispatcher.NumberBeforeDot | pluggable-transport/source/cmd/race-dispatcher/Dispatcher.go:88-91 | a printed octet followed by a dot starts "127." only when the octet is 127 |
| Dispatcher.Get | pluggable-transport/source/cmd/race-dispatcher/Dispatcher.go:162-188 | Args.Get gives a key's first value exactly when the key has one |
| Dispatcher.Split | pluggable-transport/source/cmd/race-dispatcher/Dispatcher.go:157 | splitting always yields at least one piece |
| Dispatcher.SplitJoin | pluggable-transport/source/cmd/race-dispatcher/Dispatcher.go:154-159 | values joined with "," split back into the same values when none holds a comma |
| Dispatcher.SplitAfterFirst | pluggable-transport/source/cmd/race-dispatcher/Dispatcher.go:157 | splitting text with a first comma gives the part before it, then the pieces of the rest |
| Dispatcher.HostName | pluggable-transport/source/cmd/race-dispatcher/Dispatcher.go:144-149 | the hostname parameter is the discovered address, or "localhost" when it is empty; never empty |
| Dispatcher.MarshalUserParams | pluggable-transport/source/cmd/race-dispatcher/Dispatcher.go:142-159 | building the parameters in Go's map order gives the specified parameter map |
| Dispatcher.CopyOne | pluggable-transport/source/cmd/race-dispatcher/Dispatcher.go:154-159 | copying one more argument sets its joined values when it has any, and nothing otherwise |
| Dispatcher.AllCopied | pluggable-transport/source/cmd/race-dispatcher/Dispatcher.go:154-159 | once every argument is copied, the parameters are complete |
| Dispatcher.UserParamsContents | pluggable-transport/source/cmd/race-dispatcher/Dispatcher.go:142-159 | the parameters hold the three defaults and every argument with a value; an argument overrides a default, which otherwise stands |
| Dispatcher.DefaultsWithoutArguments | pluggable-transport/source/cmd/race-dispatcher/Dispatcher.go:161-188 | without arguments both ends use twoSixDirectCpp both ways, the client sends to 172.17.0.2:26262 and the server listens on localhost:26262, and neither is refused |
| Dispatcher.ChannelArgumentTwice | pluggable-transport/source/cmd/race-dispatcher/Dispatcher.go:154-170 | a channel argument reaches the client as its first value and, among the parameters, as all its values joined: with two values they differ |
| Dispatcher.ClientSession.constructor | pluggable-transport/source/cmd/race-dispatcher/Dispatcher.go:57-68 | a session starts from the slice and redirect path it is given |
| Dispatcher.ClientSession.HandleConnection | pluggable-transport/source/cmd/race-dispatcher/Dispatcher.go:126-233 | the first connection creates the client from its own arguments, later ones reuse it; a nil client dials nothing; only a successful dial is granted, and only a granted one relays |
| Dispatcher.ConnectionsShareClient | pluggable-transport/source/cmd/race-dispatcher/Dispatcher.go:190-214 | two connections in a row use the same client, created by the first |
| Dispatcher.ClientSetup | pluggable-transport/source/cmd/race-dispatcher/Dispatcher.go:41-77 | clientSetup launches and returns an empty clients slice separate from the one the accept loop fills |
| Dispatcher.ClientLifetimeAsWritten | pluggable-transport/source/cmd/race-dispatcher/Dispatcher.go:469-514 | as written, the client a connection creates is never among those main destroys and stays live |
| Dispatcher.ClientLifetime | pluggable-transport/source/cmd/race-dispatcher/Dispatcher.go:510-514 | when main destroys the clients the accept loop created, the created client is released |
| Dispatcher.ServerSetup | pluggable-transport/source/cmd/race-dispatcher/Dispatcher.go:276-341 | one server slot per bind address, each nil exactly when the adapter refuses its settings and otherwise built from them |
| Dispatcher.AcceptErrorOf | pluggable-transport/source/cmd/race-dispatcher/Dispatcher.go:376-383 | the listener's errors are plain errors, never net errors |
| Dispatcher.AcceptStep | pluggable-transport/source/cmd/race-dispatcher/Dispatcher.go:376-385 | only a permanent net error ends the loop; corrected, a handler runs exactly when Accept succeeded |
| Dispatcher.FailedAcceptServedAsWritten | pluggable-transport/source/cmd/race-dispatcher/Dispatcher.go:376-384 | as written, a failed accept, whatever its error text, still starts a handler on a connection without a conduit |
| Dispatcher.FailedAcceptHandlerPanics | pluggable-transport/source/cmd/race-dispatcher/Dispatcher.go:376-404 | as written, the handler a failed accept starts panics on copyLoop's first read from its conn, leaving the buffer untouched |
| Dispatcher.HandlersGetAcceptedConduits | pluggable-transport/source/cmd/race-dispatcher/Dispatcher.go:376-385 | corrected, every handler gets a connection carrying an accepted conduit |
| LinkStates.OneWayUnlessBidi | states-analysis/states.py:205-217 | a non-BIDI link is one-way at each end and a BIDI link two-way; the loader receives where the creator sends |
| LinkStates.CoversTransitive | states-analysis/states.py:57-64 | a link that covers a ready link covers whatever that link covers |
| LinkStates.NothingReadySatisfiesNothing | states-analysis/states.py:118-121 | without a ready link, only an empty requirement list is met, and the node cannot send |
| LinkStates.SatisfiesGrows | states-analysis/states.py:118-121 | adding a link under a new name keeps every requirement that was met |
| LinkStates.LinkNamesDistinct | states-analysis/states.py:141-142 | different counter values give different link names on the same channel |
| LinkStates.CreatedLinkServesBothEnds | states-analysis/states.py:105-110 | a link created for a creatable one-way requirement, once loaded, covers it at the creator and the mirrored requirement at the loader; for a non-creatable one it never does |
| LinkStates.MarkReady | states-analysis/states.py:137 | marking loaded addresses ready keeps the other node's set of links |
| LinkStates.LoadAll | states-analysis/states.py:94-95 | after loading, every loaded address is a ready link and no other name appears |
| LinkStates.CreateMissing | states-analysis/states.py:104-110 | the creation loop keeps every link and creates at most one per requirement |
| LinkStates.CreatedLinksKept | states-analysis/states.py:104-110 | each created link is kept under its own name, unready and isolated, numbered in creation order |
| LinkStates.CreateMissingStep | states-analysis/states.py:104-110 | the creation loop over one more requirement is one more iteration |
| LinkStates.CreatedForUncovered | states-analysis/states.py:104-110 | every created link answers a creatable requirement that no link covered |
| LinkStates.FinishedOr | states-analysis/states.py:82-86 | the status is "FINISHED" exactly when the requirements are met |
| LinkStates.LinkCounter.constructor | states-analysis/states.py:72-73 | link numbering starts at 1 |
| LinkStates.Numbered | states-analysis/states.py:140-152 | create_link on a list of channels gives unready links on those channels, numbered in order |
| LinkStates.NumberedAppend | states-analysis/states.py:140-152 | numbering two lists in turn is numbering their concatenation |
| LinkStates.StartNumbered | states-analysis/states.py:170-195 | the two branches of start together number the channels start offers |
| LinkStates.AddLinks | states-analysis/states.py:150 | adding links puts exactly their names in the map |
| LinkStates.AddLinksAppend | states-analysis/states.py:150 | adding two lists in turn is adding their concatenation |
| LinkStates.NodeState.constructor | states-analysis/states.py:75-78 | a node starts with no links, no peer and its requirements |
| LinkStates.NodeState.CreateLink | states-analysis/states.py:140-152 | create_link adds an unready link under the next number and advances the counter |
| LinkStates.NodeState.LoadLink | states-analysis/states.py:128-137 | load_link adds this node's ready copy and marks the peer's link of that name ready, changing nothing else |
| LinkStates.NodeState.Start | states-analysis/states.py:170-195 | start creates and offers unisolated links on the channels its role offers, in order |
| LinkStates.NodeState.OfferIf | states-analysis/states.py:173-193 | one branch of start creates one link when asked and none otherwise |
| LinkStates.NodeState.Step | states-analysis/states.py:89-115 | step loads the addresses, marks them ready at the peer, creates links for uncovered creatable requirements only when some ready link can send, and reports FINISHED, CREATED NEW LINKS or STUCK |
| LinkStates.NodeState.CreateIfUncovered | states-analysis/states.py:105-110 | one iteration of the creation loop |
| LinkStates.NodeState.LoadAddresses | states-analysis/states.py:94-95 | the loading loop loads every address and marks each ready at the peer |
| LinkStates.NodeState.CreateForRequirements | states-analysis/states.py:104-110 | the creation loop creates the links described by the creation function |
| LinkStates.Round | states-analysis/states.py:357-374 | one round steps the server, then the client; every address queued for the server is one the client holds |
| LinkStates.Run | states-analysis/states.py:341-379 | run stops after at most six rounds and reports success exactly when both nodes' requirements are met |
| LinkStates.Scenario1 | states-analysis/states.py:238-265 | one link the server creates on a BIDI channel and the client loads leaves both nodes final |
| LinkStates.PruneInvalidParams | states-analysis/states.py:384-404 | the kept combinations are exactly the plausible ones: no creator-to-loader initial client-to-server channel without client out-of-band sharing |
| LinkStates.PruneIdempotent | states-analysis/states.py:384-404 | pruning twice removes nothing more |
| LinkStates.MakeArgs | states-analysis/states.py:268-270 | each node's initial send channel is the other's initial receive channel; the client's final send is the server's final receive |
| LinkStates.MakeRequirements | states-analysis/states.py:273-336 | each node has four ready requirements, each one-way |
| LinkStates.RequirementsMirror | states-analysis/states.py:273-336 | the client's requirements mirror the server's, pair by pair |
| LinkStates.RunParams | states-analysis/states.py:427-440 | a combination's run takes at most six rounds and uses them all when it fails |

## Left out

- StateEngine.HandleEvents: handles at most `fuel` events. The source loop has no bound and need not terminate, so the model says nothing about a queue that is still non-empty when the fuel runs out.
- Worker threads and posting: `ApiManager::post`, `PluginWrapper::post` and their handlers run on threads. The model runs each posted call at once, in posting order. Queue blocking and `waitForCallbacks` are not modelled.
- Promises and futures in `Race.cpp` are not modelled. A callback that answers is a parameter; a read that never gets an answer is the outcome `ReadBlocks`.
- Sockets, files and clocks: the relay and poll loops of `race-cli` are not modelled, and neither are the Android driver, `Storage.cpp`, `Config::parseJson` or `helper::currentTime`. Fragment timestamps are naturals passed in.
- A short `-d` or `-w` ends in the outcome `NullOptarg`, where a std::string is built from a NULL optarg; what the C++ library then does (libstdc++ throws `std::logic_error`) is not modelled.
- Floating point is not modelled: the queue-utilisation ratio in the plugin wrapper's response, and the `-w` timeout's `ceil(stod * 1000)` in `race-cli`, whose parsed value is a parameter.
- JSON (nlohmann) and base64: opaque functions in a `Codecs` value. Their round-trip laws are preconditions, not proved facts.
- Dynamic and Python plugin loading: the dlopen and Python glue (`LoaderWrapper`, `PythonLoaderWrapper`, `CompositeWrapper` and the rest) is not modelled. Whether a library loads is a parameter (`libraryLoads`). `PYTHON_PLUGIN_SUPPORT` builds are not modelled, and neither is the plugin loader's destructor shutdown.
- Logging and log-only string tables (`Events.cpp`, `ChannelStatus.cpp`, the `*OptionsToString` functions and log settings) are not modelled.
- The state-machine validation pass (`validateStateMachine`) is not modelled. The `*DeclsFollow` lemmas state the declared transitions instead.
- Events that this copy of `Events.h` does not define are not part of this model's sources: SATISFIED, NEEDS_RECV, NEEDS_SEND, CANCELLED and CONN_STATE_MACHINE_LINK_ESTABLISHED. The model numbers them 26 to 30, with CANCELLED as 30. The header of state ids is not part of this model either, so each machine's state ids are chosen by the model.
- `ConduitStateMachine.cpp` reads a `resumeCallback` that its context does not declare. The model has no such field.
- The resume machine's callback is declared with a signature its caller does not use. The model keeps the one the manager invokes.
- `startConnStateMachine` is called with five arguments in places. The model keeps the manager's declared form.
- The dial context's constructor leaves its connection handles uninitialised. The model starts them at the null handle.
- The pre-conduit's initial state registers its package id again for each package received. The model keeps that.
- ConduitMachine.Put: the conduit's `sentQueue` is an `unordered_map`. The model keeps it in insertion order, so the order in which leftover callbacks are failed is one the source does not promise.
- `BootstrapPreConnObjStateMachine.cpp` is a stale duplicate that calls APIs the manager does not declare. It is not modelled.
- State enter bodies are modelled as functions on the context's data, not as code that mutates a shared context in place.
- `ComponentManagerTypes.h` is not part of this model. Its `ProducerQueue` and `Link` fields are modelled from how the source uses them:
  - the fragment flags CONTINUE_LAST_PACKAGE and CONTINUE_NEXT_PACKAGE are taken as the bits 1 and 2;
  - fixed-width reads are taken as little-endian;
  - the first `lastFragmentReceived` is taken as 0.
- The fragment cleanup thread, `setup`, `teardown`, `setFragmentTimeout` and `setCleanupCheckInterval` are not modelled. The cleanup step itself is modelled, with the time as a parameter.
- CoreModel.GetEntropy: the random device is a parameter (its sequence of draws).
- The handler's capacity and queue internals in the plugin wrapper are not modelled. A post succeeds or fails as a parameter says.
- Directory creation, removal and listing in `FileSystem.cpp` are not modelled: `removeDir`, `listDir` and `listInstalledPluginDirs`. `getHostArch` and `getHostOsType` are fixed when the library is built, so they are parameters.
- RaceApi.ConduitRead: this copy of `Race.h` has no `ApiStatus::TIMEOUT`, though `Race.cpp` returns and names one. The model reports a timed-out read as the separate outcome `ReadTimedOut`.
- `race_pt3.go` `Resume` is not modelled, and neither is `DestroyRaceClient` called on nil.
- RacePt3.Close: requires a conduit, because closing a conn that has none is a nil dereference in the source.
- RacePt3.RaceListener.Accept: requires a listener with an accept object to hold a connection vector not yet deleted. Listen gives every listener with an accept object a vector, so this excludes only an Accept after Close, which adds to a freed vector in the source.
- RacePt3.RaceListener.Close: requires a vector that was not already deleted, because a second close uses a freed vector in the source.
- Dispatcher concurrency is not modelled: `serverSetup`'s listeners and goroutines, `copyLoop` beyond its first read, the server handler's ORPort relay, WaitGroups, and the signal and stdin-close handling in `main`. SOCKS handling and the managed-transport protocol belong to goptlib, which is not part of this model.
- `states.py` `establish_link` is dead code, called nowhere, whose call arity does not match. It is not modelled.
- `states.py` `generate_scenarios` is not modelled. It enumerates scenarios with `itertools.product`, and the model takes scenarios as parameters.
- `states.py` `scenario1` builds `NodeState()` without its requirements argument, which raises a TypeError as written. The model gives it an empty requirement list.
- `states.py` `make_args` gives the client `final_recv = final_c2s`. That value is never read by `start`, so the model keeps it without consequence.
- `states.py` printing is not modelled.

## Findings

| source | as written | input that shows it | evidently intended | confidence | as-written member | corrected member |
|---|---|---|---|---|---|---|
| source/state-machine/ConduitStateMachine.cpp:239-248 | the cancelled-read state never pushes ALWAYS, although CANCELLED --ALWAYS--> CONNECTED is its only way out | a read that times out, then any read or write on the conduit | the conduit goes back to CONNECTED after reporting CANCELLED | not executed | ConduitMachine.CancelStrandsConduit | ConduitMachine.CancelResumesConduit |
| source/api-managers/ApiManager.cpp:1171-1196 | registerPackageId looks buffered packages up under the JSON dump of the id, but receiveEncPkg stores them under the raw 16-byte prefix | a package that arrives before its 16-byte package id is registered | the buffered package is replayed to the registering context | not executed | ApiManagement.EarlyPackageLost | ApiManagement.EarlyPackageReplayed |
| source/state-machine/BootstrapPreConduitStateMachine.cpp:306-335 | the response is sent only inside the final-receive creation branch | a listener that creates the final send link but loads the final receive link | the response is sent whenever a final link was created | not executed | BootstrapPreConduitMachine.WithheldResponseStrandsPreConduit | BootstrapPreConduitMachine.ResponseSentWhenNeeded |
| source/Core.cpp:167-175 | compare_exchange_strong overwrites `rollover` with the count on every failed compare, so the reset never fires | call number UINT64_MAX / 2 + 1, and call number 2^64, which returns NULL_RACE_HANDLE | handles run through [1, UINT64_MAX / 2) and start again from 1, never 0 | not executed | CoreModel.HandleReachesNull | CoreModel.HandleReturnedFixed |
| source/plugin-loading/PluginLoader.cpp:217-228 | a failed load (null at 108-112) is cached and `init` is called through the null pointer | getChannel on a channel whose library fails to load | a failed load returns null and leaves the loader unchanged | not executed | PluginLoading.FailedLoadDereferencesNull | PluginLoading.FailedLoadChangesNothing |
| app/bridge-distro/bridge-distro.cpp:281-284 | a missing responses file leaves the list empty, and the passphrase then indexes it and takes `% 0` (lines 330-331) | no responses file, then a message equal to the passphrase | an empty list answers nothing | not executed | BridgeDistro.MissingFileThenPassphraseIsUndefined | BridgeDistro.MissingFileThenPassphraseIsIgnored |
| pluggable-transport/source/cmd/race-dispatcher/Dispatcher.go:41-77 | clientSetup returns its own empty slice, so the client a connection creates is never among those main destroys (lines 469-514) | one client connection, then shutdown | every created client is destroyed at shutdown | not executed | Dispatcher.ClientLifetimeAsWritten | Dispatcher.ClientLifetime |
| pluggable-transport/source/cmd/race-dispatcher/Dispatcher.go:376-384 | an accept error is logged and the connection without a conduit is still handed to a handler | an accept that returns an error | a failed accept starts no handler | not executed | Dispatcher.FailedAcceptServedAsWritten | Dispatcher.HandlersGetAcceptedConduits |
| pluggable-transport/source/pkg/race_pt3/race_pt3.go:194-199 | Read copies the whole package into the caller's buffer without checking its length | a two-byte package read into a one-byte buffer | the read fills the buffer and keeps the rest for the next read | not executed | RacePt3.ReadPanicsOnLongPackage | RacePt3.ConnReader.Read |

=== FILE: apicontext.dfy ===
// What every API state machine shares (source/state-machine/ApiContext.h,
// ApiContext.cpp and Events.h): the event ids, the calls a state makes on
// the manager, the core and the plugins, the callbacks it fires, and the
// update hooks through which the manager hands it new information.
//
// A state's enter body runs against an Env: the calls made so far and the
// callbacks fired so far. What a call returns comes from a World, a value
// the model is given: the answer to the n-th call, the channels that have a
// plugin container, each channel's link direction, and the JSON and base64
// codecs.

module ApiContext {
  import opened Common
  import opened Engine

  // Events.h: the ApiManagerEvent enumeration starts at EVENT_FIRST_UNUSED.
  const EVENT_RECEIVE_REQUEST: EventType := 2
  const EVENT_ACCEPT: EventType := 3
  const EVENT_LISTEN_ACCEPTED: EventType := 4
  const EVENT_CHANNEL_ACTIVATED: EventType := 5
  const EVENT_LINK_ESTABLISHED: EventType := 6
  const EVENT_LINK_DESTROYED: EventType := 7
  const EVENT_CONNECTION_ESTABLISHED: EventType := 8
  const EVENT_CONNECTION_DESTROYED: EventType := 9
  const EVENT_RECEIVE_PACKAGE: EventType := 10
  const EVENT_PACKAGE_SENT: EventType := 11
  const EVENT_PACKAGE_RECEIVED: EventType := 12
  const EVENT_PACKAGE_FAILED: EventType := 13
  const EVENT_STATE_MACHINE_FAILED: EventType := 14
  const EVENT_STATE_MACHINE_FINISHED: EventType := 15
  const EVENT_ADD_DEPENDENT: EventType := 16
  const EVENT_DETACH_DEPENDENT: EventType := 17
  const EVENT_CONN_STATE_MACHINE_CONNECTED: EventType := 18
  const EVENT_CONN_CLOSE: EventType := 19
  const EVENT_READ: EventType := 20
  const EVENT_WRITE: EventType := 21
  const EVENT_CLOSE: EventType := 22
  const EVENT_ALWAYS: EventType := 23
  const EVENT_RECV_NO_PACKAGES_REMAINING: EventType := 24
  const EVENT_RECV_PACKAGES_REMAINING: EventType := 25
  // Used by the state machines but absent from this Events.h: numbered after the last one.
  const EVENT_SATISFIED: EventType := 26
  const EVENT_NEEDS_SEND: EventType := 27
  const EVENT_NEEDS_RECV: EventType := 28
  const EVENT_CONN_STATE_MACHINE_LINK_ESTABLISHED: EventType := 29
  const EVENT_CANCELLED: EventType := 30

  /** The identity of a std::function supplied by the application or the manager. */
  type Callback = nat

  /** The arguments a callback is invoked with, after its ApiStatus. */
  datatype Payload =
    | NoPayload
    | PBytes(bytes: Bytes)
    | PHandle(handle: RaceHandle)
    | PAddress(address: LinkAddress, handle: RaceHandle)
    | PProps(handle: RaceHandle, props: ConduitProperties)
    | PReply(bytes: Bytes, address: LinkAddress)

  datatype Fired = Fired(cb: Callback, status: ApiStatus, payload: Payload)

  /** One of the four connection slots of a bootstrap machine. */
  datatype Slot = Slot(connSM: RaceHandle, connId: ConnectionId, linkAddress: LinkAddress)

  const EmptySlot := Slot(NULL_RACE_HANDLE, "", "")

  datatype BootstrapLinks = BootstrapLinks(initSend: Slot, initRecv: Slot, finalSend: Slot, finalRecv: Slot)

  const NoLinks := BootstrapLinks(EmptySlot, EmptySlot, EmptySlot, EmptySlot)

  /** A call a state makes on the manager, the core or a channel's plugin. */
  datatype Request =
    | RegisterHandle(context: RaceHandle, handle: RaceHandle)
    | UnregisterHandle(context: RaceHandle, handle: RaceHandle)
    | RegisterId(context: RaceHandle, id: string)
    | RegisterPackageId(context: RaceHandle, connId: ConnectionId, packageId: string)
    | StateMachineFinished(context: RaceHandle)
    | StateMachineFailed(context: RaceHandle)
    | ActivateChannel(context: RaceHandle, chanHandle: RaceHandle, channel: ChannelId, role: string)
    | ConnStateMachineConnected(context: RaceHandle, connId: ConnectionId, linkAddress: LinkAddress)
    | StartConnStateMachine(context: RaceHandle, channel: ChannelId, role: string,
                            linkAddress: LinkAddress, creating: bool, sending: bool)
    | StartConduit(context: RaceHandle, recvHandle: RaceHandle, recvConnId: ConnectionId,
                   sendHandle: RaceHandle, sendConnId: ConnectionId, sendChannel: ChannelId,
                   recvChannel: ChannelId, packageId: string, messages: seq<Bytes>, apiHandle: RaceHandle)
    | StartPreConduit(context: RaceHandle, recvHandle: RaceHandle, recvConnId: ConnectionId,
                      recvChannel: ChannelId, sendChannel: ChannelId, sendRole: string,
                      sendLinkAddress: LinkAddress, packageId: string, messages: seq<Bytes>)
    | StartBootstrapPreConduit(context: RaceHandle, parentOpts: BootstrapConnectionOptions,
                               parentLinks: BootstrapLinks, packageId: string, messages: seq<Bytes>)
    | DetachConnSM(context: RaceHandle, connSM: RaceHandle)
    | OnListenAccept(preConduit: RaceHandle, cb: Callback, bootstrap: bool)
    | GenerateHandle
    | GetEntropy(n: nat)
    | LoadLinkAddress(channel: ChannelId, handle: RaceHandle, linkAddress: LinkAddress)
    | CreateLink(channel: ChannelId, handle: RaceHandle)
    | CreateLinkFromAddress(channel: ChannelId, handle: RaceHandle, linkAddress: LinkAddress)
    | OpenConnection(channel: ChannelId, handle: RaceHandle, linkType: LinkType, linkId: LinkId)
    | CloseConnection(channel: ChannelId, handle: RaceHandle, connId: ConnectionId)
    | DestroyLink(channel: ChannelId, handle: RaceHandle, linkId: LinkId)
    | SendPackage(channel: ChannelId, handle: RaceHandle, connId: ConnectionId, pkg: Bytes)

  /**
   * What a call returned: a handle (generateHandle and the start* calls),
   * whether it succeeded (plugin calls: SDK_OK; detachConnSM and
   * onListenAccept: true), the activation code, and random bytes.
   */
  datatype Answer = Answer(handle: RaceHandle, ok: bool, activation: ActivateStatus, bytes: Bytes)

  /** What a state machine has done to the world so far. */
  datatype Env = Env(requests: seq<Request>, fired: seq<Fired>)

  const EmptyEnv := Env([], [])

  datatype World = World(
    containers: map<ChannelId, bool>,
    directions: map<ChannelId, LinkDirection>,
    answer: nat -> Answer,
    codecs: Codecs)

  /** Make a call; its answer is the world's answer to the call with that index. */
  function Ask(w: World, env: Env, req: Request): (r: (Env, Answer))
    ensures r.0 == Env(env.requests + [req], env.fired)
    ensures r.1 == w.answer(|env.requests|)
  {
    (Env(env.requests + [req], env.fired), w.answer(|env.requests|))
  }

  /** Make a call whose result is not used. */
  function Tell(env: Env, req: Request): (r: Env)
    ensures r == Env(env.requests + [req], env.fired)
  {
    Env(env.requests + [req], env.fired)
  }

  /** getCore().getEntropy(n): exactly n bytes. */
  function Entropy(w: World, env: Env, n: nat): (r: (Env, Bytes))
    ensures r.0 == Tell(env, GetEntropy(n)) && |r.1| == n
  {
    var a := w.answer(|env.requests|).bytes;
    (Tell(env, GetEntropy(n)), if |a| >= n then a[..n] else a + Zeros(n - |a|))
  }

  /**
   * Invoke a std::function and clear it. Invoking an empty one throws
   * std::bad_function_call, so there is no result then.
   */
  function Invoke(env: Env, cb: Option<Callback>, status: ApiStatus, payload: Payload): (r: Option<Env>)
    ensures r.Some? <==> cb.Some?
    ensures r.Some? ==> r.value == Env(env.requests, env.fired + [Fired(cb.value, status, payload)])
  {
    match cb
    case None => None
    case Some(f) => Some(Env(env.requests, env.fired + [Fired(f, status, payload)]))
  }

  /** `if (cb) { cb(...); }`: fire a callback only when it is set. */
  function InvokeIfSet(env: Env, cb: Option<Callback>, status: ApiStatus, payload: Payload): (r: Env)
    ensures cb.None? ==> r == env
    ensures cb.Some? ==> r == Env(env.requests, env.fired + [Fired(cb.value, status, payload)])
  {
    match cb
    case None => env
    case Some(f) => Env(env.requests, env.fired + [Fired(f, status, payload)])
  }

  /** Invoke each callback in order with the same arguments. */
  function InvokeAll(env: Env, cbs: seq<Callback>, status: ApiStatus, payload: Payload): (r: Env)
    ensures r.requests == env.requests
    ensures |r.fired| == |env.fired| + |cbs|
    ensures r.fired[..|env.fired|] == env.fired
    ensures forall i :: 0 <= i < |cbs| ==> r.fired[|env.fired| + i] == Fired(cbs[i], status, payload)
    decreases |cbs|
  {
    if cbs == [] then env
    else InvokeAll(Env(env.requests, env.fired + [Fired(cbs[0], status, payload)]), cbs[1..], status, payload)
  }

  /** How many times callback cb has fired. */
  function Count(fired: seq<Fired>, cb: Callback): nat
    decreases |fired|
  {
    if fired == [] then 0
    else Count(fired[..|fired| - 1], cb) + (if fired[|fired| - 1].cb == cb then 1 else 0)
  }

  lemma CountSnoc(fired: seq<Fired>, f: Fired, cb: Callback)
    ensures Count(fired + [f], cb) == Count(fired, cb) + (if f.cb == cb then 1 else 0)
  {
    assert (fired + [f])[..|fired|] == fired;
  }

  /**
   * A one-shot callback slot holding cb: while cb is still set it has not
   * fired, and once cleared it has fired at most once.
   */
  ghost predicate OneShot(slot: Option<Callback>, fired: seq<Fired>, cb: Callback) {
    if slot == Some(cb) then Count(fired, cb) == 0 else Count(fired, cb) <= 1
  }

  /** Firing the callback a slot holds and clearing the slot keeps it one-shot. */
  lemma FireAndClear(slot: Option<Callback>, env: Env, cb: Callback, status: ApiStatus, payload: Payload)
    requires OneShot(slot, env.fired, cb)
    ensures OneShot(None, InvokeIfSet(env, slot, status, payload).fired, cb)
  {
    if slot.Some? {
      CountSnoc(env.fired, Fired(slot.value, status, payload), cb);
    }
  }

  /** Firing a callback other than cb leaves cb's count as it was. */
  lemma FireOther(slot: Option<Callback>, env: Env, cb: Callback, status: ApiStatus, payload: Payload)
    requires slot != Some(cb)
    ensures Count(InvokeIfSet(env, slot, status, payload).fired, cb) == Count(env.fired, cb)
  {
    if slot.Some? {
      CountSnoc(env.fired, Fired(slot.value, status, payload), cb);
    }
  }

  // ---------------------------------------------------------------------
  // ApiContext
  // ---------------------------------------------------------------------

  /**
   * The receive-side option checks the receive, send-receive and dial
   * machines each make first (ReceiveStateMachine.cpp, SendReceiveStateMachine.cpp
   * and DialStateMachine.cpp repeat them): an empty channel, then an empty
   * role, then a channel the core has no plugin container for.
   */
  function ReceiveSideCheck(w: World, channel: ChannelId, role: string): (r: Option<ApiStatus>)
    ensures channel == "" ==> r == Some(CHANNEL_INVALID)
    ensures channel != "" && role == "" ==> r == Some(INVALID_ARGUMENT)
    ensures channel != "" && role != "" && channel !in w.containers ==> r == Some(CHANNEL_INVALID)
    ensures r.None? <==> channel != "" && role != "" && channel in w.containers
    ensures r.Some? ==> r.value == INVALID_ARGUMENT || r.value == CHANNEL_INVALID
  {
    if channel == "" then Some(CHANNEL_INVALID)
    else if role == "" then Some(INVALID_ARGUMENT)
    else if channel !in w.containers then Some(CHANNEL_INVALID)
    else None
  }

  /**
   * The link direction getChannelProperties reports: an unknown channel
   * gets default properties, whose direction is LD_UNDEF.
   */
  function Direction(w: World, channel: ChannelId): (d: LinkDirection)
    ensures channel !in w.directions ==> d == LD_UNDEF
  {
    if channel in w.directions then w.directions[channel] else LD_UNDEF
  }

  /**
   * shouldCreate: the sender creates the link exactly for
   * LD_CREATOR_TO_LOADER; the receiver creates it in every other case.
   */
  function ShouldCreate(w: World, channel: ChannelId, useForRecv: bool): (r: bool)
    ensures !useForRecv ==> (r <==> Direction(w, channel) == LD_CREATOR_TO_LOADER)
    ensures useForRecv ==> (r <==> Direction(w, channel) != LD_CREATOR_TO_LOADER)
  {
    var create := Direction(w, channel) == LD_CREATOR_TO_LOADER;
    if useForRecv then !create else create
  }

  function ShouldCreateSender(w: World, channel: ChannelId): bool {
    ShouldCreate(w, channel, false)
  }

  function ShouldCreateReceiver(w: World, channel: ChannelId): bool {
    ShouldCreate(w, channel, true)
  }

  lemma SenderIffCreatorToLoader(w: World, channel: ChannelId)
    ensures ShouldCreateSender(w, channel) <==> Direction(w, channel) == LD_CREATOR_TO_LOADER
  {
  }

  lemma ReceiverIsNotSender(w: World, channel: ChannelId)
    ensures ShouldCreateReceiver(w, channel) == !ShouldCreateSender(w, channel)
  {
  }

  /** LD_BIDI and LD_LOADER_TO_CREATOR make the same create/load decisions. */
  lemma BidiActsAsLoaderToCreator(w: World, channel: ChannelId, useForRecv: bool)
    ensures ShouldCreate(w.(directions := w.directions[channel := LD_BIDI]), channel, useForRecv)
            == ShouldCreate(w.(directions := w.directions[channel := LD_LOADER_TO_CREATOR]), channel, useForRecv)
  {
  }

  // ---------------------------------------------------------------------
  // BaseApiState
  // ---------------------------------------------------------------------

  datatype Exception = InvalidArgument | LogicError

  /**
   * getPlugin: the plugin of the channel's container; invalid_argument when
   * there is no container, logic_error when the container has no plugin.
   */
  function GetPlugin(w: World, channel: ChannelId): (r: Option<Exception>)
    ensures channel !in w.containers ==> r == Some(InvalidArgument)
    ensures channel in w.containers && !w.containers[channel] ==> r == Some(LogicError)
    ensures r.None? <==> channel in w.containers && w.containers[channel]
  {
    if channel !in w.containers then Some(InvalidArgument)
    else if !w.containers[channel] then Some(LogicError)
    else None
  }

  /** getContext: the context as the state's own context type, or logic_error. */
  function GetContext(context: Option<ObjectRef>, contextType: string): (r: Result<ObjectRef, Exception>)
    ensures r.Failure? <==> GetDerivedContext(context, contextType).None?
    ensures r.Failure? ==> r.error == LogicError
    ensures r.Success? ==> Some(r.value) == context
  {
    match GetDerivedContext(context, contextType)
    case None => Failure(LogicError)
    case Some(c) => Success(c)
  }

  /** The manager's calls into a context: the virtual update* members of ApiContext. */
  datatype Update =
    | USend(sendOpts: SendOptions, data: Bytes, cb: Callback)
    | USendReceive(sendOpts: SendOptions, data: Bytes, cb: Callback)
    | UDial(sendOpts: SendOptions, data: Bytes, cb: Callback)
    | UBootstrapDial(bootOpts: BootstrapConnectionOptions, data: Bytes, cb: Callback)
    | UResume(resumeOpts: ResumeOptions, cb: Callback)
    | UListen(recvOpts: ReceiveOptions, cb: Callback)
    | UAccept(handle: RaceHandle, cb: Callback)
    | UBootstrapListen(bootOpts: BootstrapConnectionOptions, cb: Callback)
    | UGetReceiver(recvOpts: ReceiveOptions, cb: Callback)
    | UReceive(handle: RaceHandle, cb: Callback)
    | URead(handle: RaceHandle, cb: Callback)
    | UWrite(handle: RaceHandle, data: Bytes, cb: Callback)
    | UClose(handle: RaceHandle, cb: Callback)
    | UChannelStatusChanged(handle: RaceHandle, channel: ChannelId, channelStatus: ChannelStatus)
    | ULinkStatusChanged(handle: RaceHandle, linkId: LinkId, linkStatus: LinkStatus, linkAddress: LinkAddress)
    | UConnectionStatusChanged(handle: RaceHandle, connId: ConnectionId, connStatus: ConnectionStatus)
    | UReceiveEncPkg(connId: ConnectionId, data: Bytes)
    | UPackageStatusChanged(handle: RaceHandle, packageStatus: PackageStatus)
    | UStateMachineFailed(handle: RaceHandle)
    | UStateMachineFinished(handle: RaceHandle)
    | UDependent(handle: RaceHandle)
    | UDetach(handle: RaceHandle)
    | UConnStateMachineConnected(handle: RaceHandle, connId: ConnectionId, linkAddress: LinkAddress)
    | UConnStateMachineLinkEstablished(handle: RaceHandle, linkId: LinkId, linkAddress: LinkAddress)
    | UConnStateMachineStart(handle: RaceHandle, channel: ChannelId, role: string,
                             linkAddress: LinkAddress, creating: bool, sending: bool)
    | UConduitStart(handle: RaceHandle, recvHandle: RaceHandle, recvConnId: ConnectionId,
                    sendHandle: RaceHandle, sendConnId: ConnectionId, sendChannel: ChannelId,
                    recvChannel: ChannelId, packageId: string, messages: seq<Bytes>, apiHandle: RaceHandle)
    | UPreConduitStart(handle: RaceHandle, recvHandle: RaceHandle, recvConnId: ConnectionId,
                       recvChannel: ChannelId, sendChannel: ChannelId, sendRole: string,
                       sendLinkAddress: LinkAddress, packageId: string, messages: seq<Bytes>)
    | UBootstrapPreConduitStart(handle: RaceHandle, parentOpts: BootstrapConnectionOptions,
                                parentLinks: BootstrapLinks, packageId: string, messages: seq<Bytes>)
    | UListenAccept(cb: Callback)

  // ---------------------------------------------------------------------
  // The four connection slots of the bootstrap machines
  // ---------------------------------------------------------------------

  /** Which of a bootstrap machine's four connections. */
  datatype SlotName = InitSend | InitRecv | FinalSend | FinalRecv

  function GetSlot(l: BootstrapLinks, n: SlotName): Slot {
    match n
    case InitSend => l.initSend
    case InitRecv => l.initRecv
    case FinalSend => l.finalSend
    case FinalRecv => l.finalRecv
  }

  function SetSlot(l: BootstrapLinks, n: SlotName, s: Slot): (r: BootstrapLinks)
    ensures GetSlot(r, n) == s
    ensures forall m :: m != n ==> GetSlot(r, m) == GetSlot(l, m)
  {
    match n
    case InitSend => l.(initSend := s)
    case InitRecv => l.(initRecv := s)
    case FinalSend => l.(finalSend := s)
    case FinalRecv => l.(finalRecv := s)
  }

  /**
   * updateConnStateMachineConnected of the three bootstrap contexts: the
   * first slot, in the order initRecv, initSend, finalRecv, finalSend,
   * whose machine handle is h takes the connection id and the address.
   */
  function SlotConnected(l: BootstrapLinks, h: RaceHandle, connId: ConnectionId, address: LinkAddress)
    : BootstrapLinks
  {
    if l.initRecv.connSM == h then l.(initRecv := Slot(h, connId, address))
    else if l.initSend.connSM == h then l.(initSend := Slot(h, connId, address))
    else if l.finalRecv.connSM == h then l.(finalRecv := Slot(h, connId, address))
    else if l.finalSend.connSM == h then l.(finalSend := Slot(h, connId, address))
    else l
  }

  /** No two slots share a connection machine handle other than NULL. */
  ghost predicate DistinctHandles(l: BootstrapLinks) {
    forall m, n :: m != n && GetSlot(l, m).connSM != NULL_RACE_HANDLE ==> GetSlot(l, m).connSM != GetSlot(l, n).connSM
  }

  /**
   * A connection report changes no machine handle and no slot whose handle
   * differs; some slot with handle h records it, and when handles are
   * distinct every such slot does.
   */
  lemma ConnectedSetsOnlyMatchingSlot(l: BootstrapLinks, h: RaceHandle, connId: ConnectionId, address: LinkAddress)
    ensures var r := SlotConnected(l, h, connId, address);
            && (forall n :: GetSlot(r, n).connSM == GetSlot(l, n).connSM)
            && (forall n :: GetSlot(l, n).connSM != h ==> GetSlot(r, n) == GetSlot(l, n))
            && ((exists n :: GetSlot(l, n).connSM == h) ==>
                  exists n :: GetSlot(l, n).connSM == h && GetSlot(r, n) == Slot(h, connId, address))
            && (DistinctHandles(l) && h != NULL_RACE_HANDLE ==>
                  forall n :: GetSlot(l, n).connSM == h ==> GetSlot(r, n) == Slot(h, connId, address))
  {
    var r := SlotConnected(l, h, connId, address);
    forall n
      ensures GetSlot(r, n).connSM == GetSlot(l, n).connSM
      ensures GetSlot(l, n).connSM != h ==> GetSlot(r, n) == GetSlot(l, n)
    {
    }
    if exists n :: GetSlot(l, n).connSM == h {
      var first := if l.initRecv.connSM == h then InitRecv else if l.initSend.connSM == h then InitSend
                   else if l.finalRecv.connSM == h then FinalRecv else FinalSend;
      assert GetSlot(l, first).connSM == h && GetSlot(r, first) == Slot(h, connId, address);
    }
  }

  /** A slot whose machine was started but has not reported its connection yet. */
  predicate Pending(s: Slot) {
    s.connSM != NULL_RACE_HANDLE && s.connId == ""
  }

  /**
   * The waiting states' early returns: initRecv, initSend, finalRecv,
   * finalSend in that order; none pending means SATISFIED.
   */
  predicate Satisfied(l: BootstrapLinks) {
    if Pending(l.initRecv) then false
    else if Pending(l.initSend) then false
    else if Pending(l.finalRecv) then false
    else !Pending(l.finalSend)
  }

  /** Every slot whose connection machine was started has a connection id. */
  ghost predicate AllConnected(l: BootstrapLinks) {
    forall n :: GetSlot(l, n).connSM != NULL_RACE_HANDLE ==> GetSlot(l, n).connId != ""
  }

  lemma SatisfiedIffAllConnected(l: BootstrapLinks)
    ensures Satisfied(l) <==> AllConnected(l)
  {
    if !Satisfied(l) {
      var n := if Pending(l.initRecv) then InitRecv else if Pending(l.initSend) then InitSend
               else if Pending(l.finalRecv) then FinalRecv else FinalSend;
      assert Pending(GetSlot(l, n));
    }
  }

  /** Both final slots are connected or not expected. */
  predicate FinalSatisfied(l: BootstrapLinks) {
    !Pending(l.finalRecv) && !Pending(l.finalSend)
  }

  /** The connection ids and link addresses of a and b agree slot by slot. */
  predicate SameIds(a: BootstrapLinks, b: BootstrapLinks) {
    forall n :: GetSlot(a, n).connId == GetSlot(b, n).connId && GetSlot(a, n).linkAddress == GetSlot(b, n).linkAddress
  }

  /** startConnStateMachine into slot n: the slot keeps the returned handle. */
  function StartLink(w: World, env: Env, l: BootstrapLinks, context: RaceHandle, n: SlotName, channel: ChannelId,
                     role: string, address: LinkAddress, create: bool, sending: bool): (r: (Env, BootstrapLinks))
    ensures r.0 == Tell(env, StartConnStateMachine(context, channel, role, address, create, sending))
    ensures GetSlot(r.1, n) == GetSlot(l, n).(connSM := w.answer(|env.requests|).handle)
    ensures forall m :: m != n ==> GetSlot(r.1, m) == GetSlot(l, m)
    ensures SameIds(l, r.1)
  {
    var (env1, a) := Ask(w, env, StartConnStateMachine(context, channel, role, address, create, sending));
    (env1, SetSlot(l, n, GetSlot(l, n).(connSM := a.handle)))
  }

  /** How a stage of a long enter body ends: go on, skip to the next input, or return. */
  datatype Stage<D> = Proceed(c: D) | Skip(c: D) | Stop(o: Outcome<D>)
}

=== FILE: apimanager.dfy ===
// The API manager (source/api-managers/ApiManager.cpp): the public entry
// points' argument check, and ApiManagerInternal — the registries that map
// handles, ids and package ids to the contexts waiting on them, the routing
// of plugin callbacks and received packages to those contexts, connection
// reuse, and the channel-activation shortcut.
//
// Contexts are named by their handles. Where the source updates a set of
// contexts and triggers an event on each, the model returns a Route: the
// set of contexts, the update they receive and the event; the state
// machines' own models say what each context then does.

module ApiManagement {
  import opened Common
  import opened Engine
  import opened ApiContext
  import opened ChannelProps
  import opened ChannelManagement
  import SendReceiveMachine

  /** The contexts a callback reaches, the update each receives and the event triggered on each. */
  datatype Route =
    | NoRoute
    | Route(targets: set<RaceHandle>, update: Update, event: EventType)

  // ---------------------------------------------------------------------
  // Registries: maps from a key to a non-empty set of contexts
  // ---------------------------------------------------------------------

  /** map::find: the contexts at a key, none when the key is absent. */
  function Lookup<K>(m: map<K, set<RaceHandle>>, k: K): set<RaceHandle> {
    if k in m then m[k] else {}
  }

  /** Every entry holds at least one context: emptied entries are erased. */
  predicate NoEmptySets<K>(m: map<K, set<RaceHandle>>) {
    forall k :: k in m ==> m[k] != {}
  }

  /** `m[k].insert(ctx)`: operator[] creates the entry when it is missing. */
  function Insert<K(!new)>(m: map<K, set<RaceHandle>>, k: K, ctx: RaceHandle): (r: map<K, set<RaceHandle>>)
    ensures r.Keys == m.Keys + {k}
    ensures ctx in Lookup(r, k)
    ensures forall k', c :: c != ctx || k' != k ==> (c in Lookup(r, k') <==> c in Lookup(m, k'))
    ensures NoEmptySets(m) ==> NoEmptySets(r)
  {
    m[k := Lookup(m, k) + {ctx}]
  }

  /** unregisterHandle: erase the context at one key, and the entry when it becomes empty. */
  function Erase<K(!new)>(m: map<K, set<RaceHandle>>, k: K, ctx: RaceHandle): (r: map<K, set<RaceHandle>>)
    ensures ctx !in Lookup(r, k)
    ensures forall k', c :: c != ctx || k' != k ==> (c in Lookup(r, k') <==> c in Lookup(m, k'))
    ensures NoEmptySets(m) ==> NoEmptySets(r)
    ensures r.Keys <= m.Keys
    ensures k in m && m[k] - {ctx} == {} ==> k !in r
  {
    if k !in m then m
    else if m[k] - {ctx} == {} then m - {k}
    else m[k := m[k] - {ctx}]
  }

  /** One pass of removeContext over a map: the context leaves every set and emptied entries go. */
  function Without<K(!new)>(m: map<K, set<RaceHandle>>, ctx: RaceHandle): (r: map<K, set<RaceHandle>>)
    ensures forall k :: ctx !in Lookup(r, k)
    ensures forall k, c :: c != ctx ==> (c in Lookup(r, k) <==> c in Lookup(m, k))
    ensures NoEmptySets(r)
    ensures r.Keys <= m.Keys
  {
    map k | k in m && m[k] - {ctx} != {} :: m[k] - {ctx}
  }

  /** The removal loop of removeContext for one map, erasing in place. */
  method Purge<K(!new)>(m: map<K, set<RaceHandle>>, ctx: RaceHandle) returns (r: map<K, set<RaceHandle>>)
    ensures r == Without(m, ctx)
  {
    r := m;
    var todo := m.Keys;
    while todo != {}
      invariant todo <= m.Keys
      invariant forall k :: k in r <==> k in m && (k in todo || m[k] - {ctx} != {})
      invariant forall k :: k in r ==> r[k] == if k in todo then m[k] else m[k] - {ctx}
      decreases todo
    {
      var k :| k in todo;
      var rest := r[k] - {ctx};
      if rest == {} {
        r := r - {k};
      } else {
        r := r[k := rest];
      }
      todo := todo - {k};
    }
  }

  /** Removing each context of a list in turn. */
  function WithoutAll<K(!new)>(m: map<K, set<RaceHandle>>, removed: seq<RaceHandle>): map<K, set<RaceHandle>>
    decreases |removed|
  {
    if removed == [] then m else WithoutAll(Without(m, removed[0]), removed[1..])
  }

  /** The registry with every context of a set removed at once. */
  function WithoutSet<K(!new)>(m: map<K, set<RaceHandle>>, removed: set<RaceHandle>): map<K, set<RaceHandle>> {
    map k | k in m && m[k] - removed != {} :: m[k] - removed
  }

  /** Removing contexts one by one is removing all of them at once. */
  lemma {:induction false} WithoutAllIsWithoutSet<K(!new)>(m: map<K, set<RaceHandle>>, removed: seq<RaceHandle>)
    requires NoEmptySets(m)
    ensures WithoutAll(m, removed) == WithoutSet(m, set c | c in removed)
    decreases |removed|
  {
    var all := set c | c in removed;
    if removed == [] {
      assert all == {};
      assert forall k :: k in m ==> m[k] - all == m[k] && m[k] != {};
    } else {
      var m1 := Without(m, removed[0]);
      var rest := set c | c in removed[1..];
      WithoutAllIsWithoutSet(m1, removed[1..]);
      assert removed == [removed[0]] + removed[1..];
      assert all == {removed[0]} + rest;
      forall k | k in m
        ensures m[k] - all == (m[k] - {removed[0]}) - rest
      {
      }
    }
  }

  /**
   * Once every context that was registered has been removed, the registry
   * is empty: no entry is left behind.
   */
  lemma RemovingEveryContextEmpties<K(!new)>(m: map<K, set<RaceHandle>>, removed: seq<RaceHandle>)
    requires NoEmptySets(m)
    requires forall k, c :: k in m && c in m[k] ==> c in removed
    ensures WithoutAll(m, removed) == map[]
  {
    var all := set c | c in removed;
    WithoutAllIsWithoutSet(m, removed);
    forall k | k in m
      ensures m[k] - all == {}
    {
      assert m[k] <= all;
    }
    assert forall k :: k !in WithoutSet(m, all);
  }

  // ---------------------------------------------------------------------
  // Packages received before their package id is registered
  // ---------------------------------------------------------------------

  /**
   * Every buffered package starts with the PACKAGE_ID_LEN bytes of the key
   * it is buffered under.
   */
  predicate Buffered(u: map<string, seq<Bytes>>) {
    forall k :: k in u ==>
      && |k| == PACKAGE_ID_LEN
      && forall p :: p in u[k] ==> |p| >= PACKAGE_ID_LEN && BytesToStr(p[..PACKAGE_ID_LEN]) == k
  }

  /** The packages of a list with their package-id prefix removed. */
  function Stripped(ps: seq<Bytes>): (r: seq<Bytes>)
    requires forall p :: p in ps ==> |p| >= PACKAGE_ID_LEN
    ensures |r| == |ps|
    ensures forall i :: 0 <= i < |ps| ==> r[i] == ps[i][PACKAGE_ID_LEN..]
  {
    seq(|ps|, i requires 0 <= i < |ps| => ps[i][PACKAGE_ID_LEN..])
  }

  /** The replay loop of registerPackageId: each buffered package, in arrival order, without its prefix. */
  method ReplayBuffered(ps: seq<Bytes>) returns (out: seq<Bytes>)
    requires forall p :: p in ps ==> |p| >= PACKAGE_ID_LEN
    ensures out == Stripped(ps)
  {
    out := [];
    var i := 0;
    while i < |ps|
      invariant 0 <= i <= |ps|
      invariant out == Stripped(ps[..i])
    {
      assert ps[..i + 1] == ps[..i] + [ps[i]];
      out := out + [ps[i][PACKAGE_ID_LEN..]];
      i := i + 1;
    }
    assert ps[..|ps|] == ps;
  }

  /** The numbers of a byte array joined by commas. */
  function JoinBytes(b: Bytes): (s: string)
    ensures |b| > 0 ==> |s| >= 2 * |b| - 1
    decreases |b|
  {
    if b == [] then ""
    else if |b| == 1 then Decimal(b[0])
    else Decimal(b[0]) + "," + JoinBytes(b[1..])
  }

  /**
   * json(std::vector<uint8_t>).dump(): nlohmann writes a byte array as a
   * compact array of numbers, "[" then the numbers joined by "," then "]".
   */
  function DumpByteArray(b: Bytes): (s: string)
    ensures |s| > |b|
  {
    "[" + JoinBytes(b) + "]"
  }

  /**
   * The key registerPackageId looks its buffered packages up under. As
   * written it is the JSON dump of the id's bytes; receiveEncPkg buffers
   * under the raw id, which the corrected lookup uses.
   */
  function BufferKey(id: string, asWritten: bool): (k: string)
    ensures !asWritten ==> k == id
    ensures asWritten ==> |k| > |id|
  {
    if asWritten then DumpByteArray(StrToBytes(id)) else id
  }

  /** The buffered packages registerPackageId hands to the context it registers. */
  function Replayed(u: map<string, seq<Bytes>>, id: string, asWritten: bool): seq<Bytes>
    requires Buffered(u)
  {
    var k := BufferKey(id, asWritten);
    if k in u then Stripped(u[k]) else []
  }

  /** receiveEncPkg's buffering: append the package to the list under its package id. */
  function Buffer(u: map<string, seq<Bytes>>, pkg: Bytes): (r: map<string, seq<Bytes>>)
    requires |pkg| >= PACKAGE_ID_LEN
    ensures Buffered(u) ==> Buffered(r)
    ensures var k := BytesToStr(pkg[..PACKAGE_ID_LEN]);
            && r.Keys == u.Keys + {k}
            && r[k] == (if k in u then u[k] else []) + [pkg]
            && forall k' :: k' in u && k' != k ==> r[k'] == u[k']
  {
    var k := BytesToStr(pkg[..PACKAGE_ID_LEN]);
    u[k := (if k in u then u[k] else []) + [pkg]]
  }

  /**
   * As written, registering a PACKAGE_ID_LEN-byte package id never finds
   * the packages buffered for it: the JSON text it looks up is longer than
   * any buffer key.
   */
  lemma BufferedPackagesNeverReplayed(u: map<string, seq<Bytes>>, id: string)
    requires Buffered(u) && |id| == PACKAGE_ID_LEN
    ensures Replayed(u, id, true) == []
  {
    assert BufferKey(id, true) !in u;
  }

  /**
   * A package that arrives before its package id is registered on the
   * connection, then the registration: the corrected lookup hands the
   * context the package without its prefix, after those buffered before
   * it — what the context would have received had it registered first.
   */
  lemma EarlyPackageReplayed(u: map<string, seq<Bytes>>, id: string, pkg: Bytes)
    requires Buffered(u) && |pkg| >= PACKAGE_ID_LEN && BytesToStr(pkg[..PACKAGE_ID_LEN]) == id
    ensures Replayed(Buffer(u, pkg), id, false) == Replayed(u, id, false) + [pkg[PACKAGE_ID_LEN..]]
  {
    var before := if id in u then u[id] else [];
    assert Buffer(u, pkg)[id] == before + [pkg];
    assert Stripped(before + [pkg]) == Stripped(before) + [pkg[PACKAGE_ID_LEN..]];
  }

  /** The same package and registration as written: the context never sees the package. */
  lemma EarlyPackageLost(u: map<string, seq<Bytes>>, id: string, pkg: Bytes)
    requires Buffered(u) && |pkg| >= PACKAGE_ID_LEN && BytesToStr(pkg[..PACKAGE_ID_LEN]) == id
    ensures Replayed(Buffer(u, pkg), id, true) == []
  {
    BufferedPackagesNeverReplayed(Buffer(u, pkg), id);
  }

  // ---------------------------------------------------------------------
  // Status-to-event mappings
  // ---------------------------------------------------------------------

  /** onChannelStatusChanged and onChannelStatusChangedForContext. */
  function ChannelStatusEvent(s: ChannelStatus): (e: EventType)
    ensures e == EVENT_CHANNEL_ACTIVATED <==> s == CHANNEL_AVAILABLE
    ensures e == EVENT_CHANNEL_ACTIVATED || e == EVENT_FAILED
  {
    if s == CHANNEL_AVAILABLE then EVENT_CHANNEL_ACTIVATED else EVENT_FAILED
  }

  /** onLinkStatusChanged. */
  function LinkStatusEvent(s: LinkStatus): (e: EventType)
    ensures e == EVENT_LINK_ESTABLISHED <==> s == LINK_CREATED || s == LINK_LOADED
    ensures e == EVENT_LINK_DESTROYED <==> s == LINK_DESTROYED
    ensures e == EVENT_FAILED <==> s == LINK_UNDEF
  {
    match s
    case LINK_CREATED => EVENT_LINK_ESTABLISHED
    case LINK_LOADED => EVENT_LINK_ESTABLISHED
    case LINK_DESTROYED => EVENT_LINK_DESTROYED
    case LINK_UNDEF => EVENT_FAILED
  }

  /** onConnectionStatusChanged. */
  function ConnectionStatusEvent(s: ConnectionStatus): (e: EventType)
    ensures e == EVENT_CONNECTION_ESTABLISHED <==> s == CONNECTION_OPEN
    ensures e == EVENT_CONNECTION_DESTROYED <==> s == CONNECTION_CLOSED
    ensures e == EVENT_FAILED <==> s != CONNECTION_OPEN && s != CONNECTION_CLOSED
  {
    if s == CONNECTION_OPEN then EVENT_CONNECTION_ESTABLISHED
    else if s == CONNECTION_CLOSED then EVENT_CONNECTION_DESTROYED
    else EVENT_FAILED
  }

  /** onPackageStatusChanged: the three failure statuses share one event. */
  function PackageStatusEvent(s: PackageStatus): (e: EventType)
    ensures e == EVENT_PACKAGE_SENT <==> s == PACKAGE_SENT
    ensures e == EVENT_PACKAGE_RECEIVED <==> s == PACKAGE_RECEIVED
    ensures e == EVENT_PACKAGE_FAILED <==>
              s == PACKAGE_FAILED_GENERIC || s == PACKAGE_FAILED_NETWORK_ERROR || s == PACKAGE_FAILED_TIMEOUT
    ensures e == EVENT_FAILED <==> s == PACKAGE_INVALID
  {
    match s
    case PACKAGE_SENT => EVENT_PACKAGE_SENT
    case PACKAGE_RECEIVED => EVENT_PACKAGE_RECEIVED
    case PACKAGE_FAILED_GENERIC => EVENT_PACKAGE_FAILED
    case PACKAGE_FAILED_NETWORK_ERROR => EVENT_PACKAGE_FAILED
    case PACKAGE_FAILED_TIMEOUT => EVENT_PACKAGE_FAILED
    case PACKAGE_INVALID => EVENT_FAILED
  }

  // ---------------------------------------------------------------------
  // The public entry points
  // ---------------------------------------------------------------------

  /**
   * ApiManager::send, receive, read, write, close and the other calls the
   * application makes: an empty callback is refused before anything is
   * posted; otherwise the call is posted to the manager's queue, and a post
   * the queue refuses gives SDK_INVALID.
   */
  function PublicCall(hasCallback: bool, postAccepted: bool): (r: (SdkStatus, bool))
    ensures !hasCallback ==> r == (SDK_INVALID_ARGUMENT, false)
    ensures hasCallback ==> r.1 && (r.0 == SDK_OK <==> postAccepted) && (r.0 == SDK_OK || r.0 == SDK_INVALID)
  {
    if !hasCallback then (SDK_INVALID_ARGUMENT, false)
    else (if postAccepted then SDK_OK else SDK_INVALID, true)
  }

  /** The operations the application makes on a handle it holds. */
  datatype HandleOp = OpReceive | OpReceiveRespond | OpAccept | OpRead | OpWrite | OpClose | OpCancel

  /** The arguments an operation's callback gets with INTERNAL_ERROR. */
  function ErrorPayload(op: HandleOp): Payload {
    match op
    case OpReceive => PBytes([])
    case OpRead => PBytes([])
    case OpReceiveRespond => PReply([], "")
    case OpAccept => PProps(NULL_RACE_HANDLE, EmptyProperties)
    case _ => NoPayload
  }

  /**
   * What an operation does before the contexts run: the callbacks fired
   * at once, the contexts the operation reaches and the callback they are
   * handed (None once it has been cleared).
   */
  datatype Dispatch = Dispatch(fired: seq<Fired>, targets: set<RaceHandle>, passed: Option<Callback>)

  /**
   * receive, accept, read, write and close on a handle that names anything
   * but exactly one context report INTERNAL_ERROR and clear the callback,
   * then still hand the cleared callback to every context there is;
   * receiveRespond stops after the report; cancelEvent reports nothing and
   * triggers CANCELLED on every context of the handle.
   */
  function DispatchOp(op: HandleOp, contexts: set<RaceHandle>, cb: Callback): (d: Dispatch)
    ensures op != OpCancel && |contexts| != 1 ==> d.fired == [Fired(cb, INTERNAL_ERROR, ErrorPayload(op))] && d.passed.None?
    ensures op == OpCancel || |contexts| == 1 ==> d.fired == []
    ensures |contexts| == 1 && op != OpCancel ==> d == Dispatch([], contexts, Some(cb))
    ensures d.targets == (if op == OpReceiveRespond && |contexts| != 1 then {} else contexts)
    ensures op == OpCancel ==> d.passed.None?
  {
    if op == OpCancel then Dispatch([], contexts, None)
    else if |contexts| != 1 then
      Dispatch([Fired(cb, INTERNAL_ERROR, ErrorPayload(op))], if op == OpReceiveRespond then {} else contexts, None)
    else Dispatch([], contexts, Some(cb))
  }

  /** The callback of an operation fires at most once from the dispatch, and only when it goes to no context. */
  lemma DispatchReportsOrPasses(op: HandleOp, contexts: set<RaceHandle>, cb: Callback)
    requires op != OpCancel
    ensures var d := DispatchOp(op, contexts, cb);
            && |d.fired| <= 1
            && (|d.fired| == 1 <==> d.passed.None?)
            && (|d.fired| == 1 <==> |contexts| != 1)
  {
  }

  /**
   * The wrapper receiveRespond puts around the application's callback: a
   * non-OK status is passed on with nothing; an OK package is read as JSON
   * with linkAddress, replyChannel and a base64 message, and a reply
   * channel other than the expected send channel (unless the receiver is
   * multi-channel) or anything that throws gives INTERNAL_ERROR.
   */
  function RespondWrapper(codecs: Codecs, sendChannel: ChannelId, multiChannel: bool,
                          status: ApiStatus, data: Bytes): (r: (ApiStatus, Payload))
    ensures status != OK ==> r == (status, PReply([], ""))
    ensures r.0 == OK ==> status == OK && r.1.PReply?
    ensures r.0 != OK && r.0 != status ==> r == (INTERNAL_ERROR, PReply([], ""))
  {
    if status != OK then (status, PReply([], ""))
    else
      match codecs.parse(BytesToStr(data))
      case None => (INTERNAL_ERROR, PReply([], ""))
      case Some(j) =>
        var address := AtString(j, "linkAddress");
        var reply := AtString(j, "replyChannel");
        var message := AtString(j, "message");
        if address.None? || reply.None? || message.None? then (INTERNAL_ERROR, PReply([], ""))
        else
          match codecs.b64decode(message.value)
          case None => (INTERNAL_ERROR, PReply([], ""))
          case Some(bytes) =>
            if reply.value != sendChannel && !multiChannel then (INTERNAL_ERROR, PReply([], ""))
            else (OK, PReply(bytes, address.value))
  }

  /**
   * A send-receive message read by the wrapper of a receiver whose send
   * channel is the message's reply channel gives the application the data
   * and the reply address; another reply channel is refused unless the
   * receiver is multi-channel.
   */
  lemma RespondWrapperReadsMessage(codecs: Codecs, sendChannel: ChannelId, replyChannel: ChannelId,
                                   multiChannel: bool, linkAddress: LinkAddress, data: Bytes)
    requires Lawful(codecs)
    requires IsByteString(codecs.dump(SendReceiveMachine.MessageJson(codecs, linkAddress, replyChannel, data)))
    ensures var m := SendReceiveMachine.Message(codecs, linkAddress, replyChannel, data);
            RespondWrapper(codecs, sendChannel, multiChannel, OK, m)
              == if replyChannel == sendChannel || multiChannel then (OK, PReply(data, linkAddress))
                 else (INTERNAL_ERROR, PReply([], ""))
  {
    SendReceiveMachine.MessageRoundTrip(codecs, linkAddress, replyChannel, data);
  }

  // ---------------------------------------------------------------------
  // Connection reuse
  // ---------------------------------------------------------------------

  /**
   * The linkConnMap key of a link address: the channel id followed by the
   * address re-dumped as JSON, so addresses with the same JSON value share
   * a key. None where parsing throws.
   */
  function LinkKey(codecs: Codecs, channelId: ChannelId, linkAddress: LinkAddress): (r: Option<string>)
    ensures r.Some? <==> codecs.parse(linkAddress).Some?
  {
    match codecs.parse(linkAddress)
    case None => None
    case Some(j) => Some(channelId + codecs.dump(j))
  }

  /** What startConnStateMachine does with a request for a link. */
  datatype ConnChoice =
    | StartNew
    | Reuse(connSM: RaceHandle, connId: ConnectionId)
    | AddressThrows

  /**
   * An empty address always starts a new connection machine; an address
   * already connected on the channel reuses its machine.
   */
  function ChooseConnection(linkConnMap: map<string, (RaceHandle, ConnectionId)>, codecs: Codecs,
                            channelId: ChannelId, linkAddress: LinkAddress): (r: ConnChoice)
    ensures linkAddress == "" ==> r == StartNew
    ensures linkAddress != "" && LinkKey(codecs, channelId, linkAddress).None? ==> r == AddressThrows
    ensures r.Reuse? <==> linkAddress != "" && LinkKey(codecs, channelId, linkAddress).Some?
                          && LinkKey(codecs, channelId, linkAddress).value in linkConnMap
    ensures r.Reuse? ==> (r.connSM, r.connId) == linkConnMap[LinkKey(codecs, channelId, linkAddress).value]
  {
    if linkAddress == "" then StartNew
    else
      match LinkKey(codecs, channelId, linkAddress)
      case None => AddressThrows
      case Some(k) => if k in linkConnMap then Reuse(linkConnMap[k].0, linkConnMap[k].1) else StartNew
  }

  /** onConnStateMachineConnected's record: insert, so the first machine for a key is kept. */
  function RecordConnection(linkConnMap: map<string, (RaceHandle, ConnectionId)>, codecs: Codecs,
                            channelId: ChannelId, linkAddress: LinkAddress, connSM: RaceHandle,
                            connId: ConnectionId): (r: map<string, (RaceHandle, ConnectionId)>)
    requires linkAddress != "" ==> codecs.parse(linkAddress).Some?
    ensures linkAddress == "" ==> r == linkConnMap
    ensures linkAddress != "" ==>
              var k := LinkKey(codecs, channelId, linkAddress).value;
              r == if k in linkConnMap then linkConnMap else linkConnMap[k := (connSM, connId)]
  {
    if linkAddress == "" then linkConnMap
    else
      var k := LinkKey(codecs, channelId, linkAddress).value;
      if k in linkConnMap then linkConnMap else linkConnMap[k := (connSM, connId)]
  }

  /**
   * After a connection machine reports its link connected at an address, a
   * request for the same channel at any address with the same JSON value
   * reuses that machine — or the one recorded for the key before it.
   */
  lemma ConnectedLinkReused(linkConnMap: map<string, (RaceHandle, ConnectionId)>, codecs: Codecs,
                            channelId: ChannelId, linkAddress: LinkAddress, sameAddress: LinkAddress,
                            connSM: RaceHandle, connId: ConnectionId)
    requires linkAddress != "" && sameAddress != ""
    requires codecs.parse(linkAddress).Some? && codecs.parse(sameAddress) == codecs.parse(linkAddress)
    ensures var m := RecordConnection(linkConnMap, codecs, channelId, linkAddress, connSM, connId);
            var k := LinkKey(codecs, channelId, linkAddress).value;
            ChooseConnection(m, codecs, channelId, sameAddress)
              == if k in linkConnMap then Reuse(linkConnMap[k].0, linkConnMap[k].1) else Reuse(connSM, connId)
  {
  }

  /** A request without an address never reuses: the address is generated and unique. */
  lemma UnaddressedLinkNeverReused(linkConnMap: map<string, (RaceHandle, ConnectionId)>, codecs: Codecs,
                                   channelId: ChannelId)
    ensures !ChooseConnection(linkConnMap, codecs, channelId, "").Reuse?
  {
  }

  // ---------------------------------------------------------------------
  // Channel activation
  // ---------------------------------------------------------------------

  /**
   * ApiManagerInternal::activateChannel on a channel whose status the
   * plugin has reported: a different current role is refused; otherwise
   * the stored status is posted back to the context and the answer is
   * ALREADY_ACTIVATED, or INVALID_STATE if the post fails. None: the
   * channel was never reported, and the channel manager decides.
   */
  function ActivateReported(activatedChannels: map<ChannelId, (ChannelStatus, ChannelProperties)>,
                            channelId: ChannelId, role: string, postAccepted: bool): (r: Option<ActivateStatus>)
    ensures r.None? <==> channelId !in activatedChannels
    ensures r.Some? ==>
              (r.value == ACTIVATED_WITH_DIFFERENT_ROLE <==> activatedChannels[channelId].1.currentRole.roleName != role)
    ensures r.Some? && r.value != ACTIVATED_WITH_DIFFERENT_ROLE ==>
              r.value == (if postAccepted then ALREADY_ACTIVATED else INVALID_STATE)
  {
    if channelId !in activatedChannels then None
    else if activatedChannels[channelId].1.currentRole.roleName != role then Some(ACTIVATED_WITH_DIFFERENT_ROLE)
    else Some(if postAccepted then ALREADY_ACTIVATED else INVALID_STATE)
  }

  /**
   * Once the plugin reports a channel's status with its current role,
   * asking for that role again is ALREADY_ACTIVATED and asking for any
   * other role is ACTIVATED_WITH_DIFFERENT_ROLE, whatever the status was.
   */
  lemma ReportedChannelAnswersDirectly(activatedChannels: map<ChannelId, (ChannelStatus, ChannelProperties)>,
                                       channelId: ChannelId, status: ChannelStatus, props: ChannelProperties,
                                       other: string)
    requires other != props.currentRole.roleName
    ensures var m := activatedChannels[channelId := (status, props)];
            && ActivateReported(m, channelId, props.currentRole.roleName, true) == Some(ALREADY_ACTIVATED)
            && ActivateReported(m, channelId, other, true) == Some(ACTIVATED_WITH_DIFFERENT_ROLE)
  {
  }

  // ---------------------------------------------------------------------
  // ApiManagerInternal
  // ---------------------------------------------------------------------

  class ApiManagerInternal {
    var handleContextMap: map<RaceHandle, set<RaceHandle>>
    var idContextMap: map<string, set<RaceHandle>>
    var packageIdContextMap: map<string, set<RaceHandle>>
    /** The handles of the contexts that are alive (the keys of activeContexts). */
    var activeContexts: set<RaceHandle>
    var unassociatedPackages: map<string, seq<Bytes>>
    var linkConnMap: map<string, (RaceHandle, ConnectionId)>
    var activatedChannels: map<ChannelId, (ChannelStatus, ChannelProperties)>

    ghost predicate Valid()
      reads this
    {
      && NoEmptySets(handleContextMap) && NoEmptySets(idContextMap) && NoEmptySets(packageIdContextMap)
      && Buffered(unassociatedPackages)
    }

    constructor()
      ensures Valid()
      ensures handleContextMap == map[] && idContextMap == map[] && packageIdContextMap == map[]
      ensures activeContexts == {} && unassociatedPackages == map[] && linkConnMap == map[]
      ensures activatedChannels == map[]
    {
      handleContextMap := map[];
      idContextMap := map[];
      packageIdContextMap := map[];
      activeContexts := {};
      unassociatedPackages := map[];
      linkConnMap := map[];
      activatedChannels := map[];
    }

    /** getContexts(handle, id): the contexts of the handle together with those of the id. */
    function ContextsFor(handle: RaceHandle, id: string): (r: set<RaceHandle>)
      reads this
      ensures forall c :: c in r <==> c in Lookup(handleContextMap, handle) || c in Lookup(idContextMap, id)
    {
      Lookup(handleContextMap, handle) + Lookup(idContextMap, id)
    }

    /** registerHandle: the context joins the set at the handle. */
    method RegisterHandle(ctx: RaceHandle, handle: RaceHandle)
      requires Valid()
      modifies this
      ensures Valid()
      ensures handleContextMap == Insert(old(handleContextMap), handle, ctx)
      ensures unchanged(this`idContextMap, this`packageIdContextMap, this`activeContexts)
      ensures unchanged(this`unassociatedPackages, this`linkConnMap, this`activatedChannels)
    {
      handleContextMap := Insert(handleContextMap, handle, ctx);
    }

    /** registerId: the context joins the set at the id. */
    method RegisterId(ctx: RaceHandle, id: string)
      requires Valid()
      modifies this
      ensures Valid()
      ensures idContextMap == Insert(old(idContextMap), id, ctx)
      ensures unchanged(this`handleContextMap, this`packageIdContextMap, this`activeContexts)
      ensures unchanged(this`unassociatedPackages, this`linkConnMap, this`activatedChannels)
    {
      idContextMap := Insert(idContextMap, id, ctx);
    }

    /**
     * registerPackageId: the context joins the set at package id plus
     * connection id, and is handed the packages buffered for the id,
     * without their prefix; the buffer is left as it is. `asWritten`
     * selects the source's JSON-text lookup key over the raw id.
     */
    method RegisterPackageId(ctx: RaceHandle, connId: ConnectionId, id: string, asWritten: bool)
      returns (replayed: seq<Bytes>)
      requires Valid()
      modifies this
      ensures Valid()
      ensures packageIdContextMap == Insert(old(packageIdContextMap), id + connId, ctx)
      ensures replayed == Replayed(unassociatedPackages, id, asWritten)
      ensures unchanged(this`handleContextMap, this`idContextMap, this`activeContexts)
      ensures unchanged(this`unassociatedPackages, this`linkConnMap, this`activatedChannels)
    {
      packageIdContextMap := Insert(packageIdContextMap, id + connId, ctx);
      var key := BufferKey(id, asWritten);
      if key in unassociatedPackages {
        replayed := ReplayBuffered(unassociatedPackages[key]);
      } else {
        replayed := [];
      }
    }

    /** unregisterHandle: the context leaves the handle's set, and an emptied entry is erased. */
    method UnregisterHandle(ctx: RaceHandle, handle: RaceHandle)
      requires Valid()
      modifies this
      ensures Valid()
      ensures handleContextMap == Erase(old(handleContextMap), handle, ctx)
      ensures unchanged(this`idContextMap, this`packageIdContextMap, this`activeContexts)
      ensures unchanged(this`unassociatedPackages, this`linkConnMap, this`activatedChannels)
    {
      if handle in handleContextMap {
        var rest := handleContextMap[handle] - {ctx};
        if rest == {} {
          handleContextMap := handleContextMap - {handle};
        } else {
          handleContextMap := handleContextMap[handle := rest];
        }
      }
    }

    /** new*Context: a context with a fresh handle becomes active. */
    method NewContext(handle: RaceHandle)
      modifies this
      ensures activeContexts == old(activeContexts) + {handle}
      ensures unchanged(this`handleContextMap, this`idContextMap, this`packageIdContextMap)
      ensures unchanged(this`unassociatedPackages, this`linkConnMap, this`activatedChannels)
    {
      activeContexts := activeContexts + {handle};
    }

    /**
     * removeContext: the context leaves every set of the three registries,
     * emptied entries are erased, and it is no longer active.
     */
    method RemoveContext(ctx: RaceHandle)
      requires Valid()
      modifies this
      ensures Valid()
      ensures handleContextMap == Without(old(handleContextMap), ctx)
      ensures idContextMap == Without(old(idContextMap), ctx)
      ensures packageIdContextMap == Without(old(packageIdContextMap), ctx)
      ensures activeContexts == old(activeContexts) - {ctx}
      ensures unchanged(this`unassociatedPackages, this`linkConnMap, this`activatedChannels)
    {
      handleContextMap := Purge(handleContextMap, ctx);
      idContextMap := Purge(idContextMap, ctx);
      packageIdContextMap := Purge(packageIdContextMap, ctx);
      activeContexts := activeContexts - {ctx};
    }

    /**
     * receiveEncPkg: a package must come with exactly one connection id. A
     * package long enough to carry a package id registered with that
     * connection goes, without the id, to the contexts registered for the
     * pair; any other package goes whole to the connection's contexts, and
     * one with a package id is also buffered under it.
     */
    method ReceiveEncPkg(connIds: seq<ConnectionId>, pkg: Bytes) returns (r: Route)
      requires Valid()
      modifies this
      ensures Valid()
      ensures |connIds| != 1 ==> r == NoRoute && unassociatedPackages == old(unassociatedPackages)
      ensures |connIds| == 1 && |pkg| < PACKAGE_ID_LEN ==>
                && r == Route(Lookup(idContextMap, connIds[0]), UReceiveEncPkg(connIds[0], pkg), EVENT_RECEIVE_PACKAGE)
                && unassociatedPackages == old(unassociatedPackages)
      ensures |connIds| == 1 && |pkg| >= PACKAGE_ID_LEN ==>
                var key := BytesToStr(pkg[..PACKAGE_ID_LEN]) + connIds[0];
                if key in packageIdContextMap then
                  && r == Route(packageIdContextMap[key], UReceiveEncPkg(connIds[0], pkg[PACKAGE_ID_LEN..]),
                                EVENT_RECEIVE_PACKAGE)
                  && unassociatedPackages == old(unassociatedPackages)
                else
                  && r == Route(Lookup(idContextMap, connIds[0]), UReceiveEncPkg(connIds[0], pkg), EVENT_RECEIVE_PACKAGE)
                  && unassociatedPackages == Buffer(old(unassociatedPackages), pkg)
      ensures unchanged(this`handleContextMap, this`idContextMap, this`packageIdContextMap, this`activeContexts)
      ensures unchanged(this`linkConnMap, this`activatedChannels)
    {
      if |connIds| != 1 {
        return NoRoute;
      }
      var connId := connIds[0];
      if |pkg| < PACKAGE_ID_LEN {
        return Route(Lookup(idContextMap, connId), UReceiveEncPkg(connId, pkg), EVENT_RECEIVE_PACKAGE);
      }
      var packageId := BytesToStr(pkg[..PACKAGE_ID_LEN]);
      if packageId + connId in packageIdContextMap {
        r := Route(packageIdContextMap[packageId + connId], UReceiveEncPkg(connId, pkg[PACKAGE_ID_LEN..]),
                   EVENT_RECEIVE_PACKAGE);
      } else {
        unassociatedPackages := Buffer(unassociatedPackages, pkg);
        r := Route(Lookup(idContextMap, connId), UReceiveEncPkg(connId, pkg), EVENT_RECEIVE_PACKAGE);
      }
    }

    /**
     * onStateMachineFailed / onStateMachineFinished: nothing for a context
     * that is no longer active; otherwise the context is removed and the
     * contexts still registered at its handle are told.
     */
    method OnStateMachineDone(ctx: RaceHandle, finished: bool) returns (r: Route)
      requires Valid()
      modifies this
      ensures Valid()
      ensures ctx !in old(activeContexts) ==> r == NoRoute && unchanged(this)
      ensures ctx in old(activeContexts) ==>
                && handleContextMap == Without(old(handleContextMap), ctx)
                && idContextMap == Without(old(idContextMap), ctx)
                && packageIdContextMap == Without(old(packageIdContextMap), ctx)
                && activeContexts == old(activeContexts) - {ctx}
                && r == Route(old(Lookup(handleContextMap, ctx)) - {ctx},
                              if finished then UStateMachineFinished(ctx) else UStateMachineFailed(ctx),
                              if finished then EVENT_STATE_MACHINE_FINISHED else EVENT_STATE_MACHINE_FAILED)
      ensures r.Route? ==> ctx !in r.targets
    {
      if ctx !in activeContexts {
        return NoRoute;
      }
      RemoveContext(ctx);
      var targets := Lookup(handleContextMap, ctx);
      assert targets == old(Lookup(handleContextMap, ctx)) - {ctx};
      r := Route(targets, if finished then UStateMachineFinished(ctx) else UStateMachineFailed(ctx),
                 if finished then EVENT_STATE_MACHINE_FINISHED else EVENT_STATE_MACHINE_FAILED);
    }

    /**
     * onConnStateMachineConnected: a connection with an address is recorded
     * for reuse (the first record of a key is kept); the contexts of the
     * connection machine are told. An address that does not parse throws,
     * which the manager's worker catches: nothing changes.
     */
    method OnConnStateMachineConnected(codecs: Codecs, connSM: RaceHandle, connId: ConnectionId,
                                       linkAddress: LinkAddress, channelId: ChannelId) returns (r: Route)
      modifies this
      ensures linkAddress != "" && codecs.parse(linkAddress).None? ==> r == NoRoute && unchanged(this)
      ensures linkAddress == "" || codecs.parse(linkAddress).Some? ==>
                && linkConnMap == RecordConnection(old(linkConnMap), codecs, channelId, linkAddress, connSM, connId)
                && r == Route(Lookup(handleContextMap, connSM), UConnStateMachineConnected(connSM, connId, linkAddress),
                              EVENT_CONN_STATE_MACHINE_CONNECTED)
      ensures unchanged(this`handleContextMap, this`idContextMap, this`packageIdContextMap, this`activeContexts)
      ensures unchanged(this`unassociatedPackages, this`activatedChannels)
    {
      if linkAddress != "" {
        if codecs.parse(linkAddress).None? {
          return NoRoute;
        }
        var key := channelId + codecs.dump(codecs.parse(linkAddress).value);
        if key !in linkConnMap {
          linkConnMap := linkConnMap[key := (connSM, connId)];
        }
      }
      r := Route(Lookup(handleContextMap, connSM), UConnStateMachineConnected(connSM, connId, linkAddress),
                 EVENT_CONN_STATE_MACHINE_CONNECTED);
    }

    /**
     * startConnStateMachine: reuse the machine already connected at the
     * address, or create a connection context (with handle `newHandle`) and
     * start it; a failed start returns NULL_RACE_HANDLE. None: the address
     * does not parse and the call throws.
     */
    method StartConnStateMachine(codecs: Codecs, channelId: ChannelId, linkAddress: LinkAddress,
                                 newHandle: RaceHandle, started: bool) returns (r: Option<RaceHandle>)
      modifies this
      ensures var choice := ChooseConnection(old(linkConnMap), codecs, channelId, linkAddress);
              && (choice.AddressThrows? ==> r.None? && activeContexts == old(activeContexts))
              && (choice.Reuse? ==> r == Some(choice.connSM) && activeContexts == old(activeContexts))
              && (choice.StartNew? ==>
                    && r == Some(if started then newHandle else NULL_RACE_HANDLE)
                    && activeContexts == old(activeContexts) + {newHandle})
      ensures unchanged(this`handleContextMap, this`idContextMap, this`packageIdContextMap)
      ensures unchanged(this`unassociatedPackages, this`linkConnMap, this`activatedChannels)
    {
      if linkAddress != "" {
        if codecs.parse(linkAddress).None? {
          return None;
        }
        var key := channelId + codecs.dump(codecs.parse(linkAddress).value);
        if key in linkConnMap {
          return Some(linkConnMap[key].0);
        }
      }
      NewContext(newHandle);
      r := Some(if started then newHandle else NULL_RACE_HANDLE);
    }

    /**
     * onChannelStatusChanged: the reported status and properties are kept
     * for later activations, and the contexts of the handle and of the
     * channel are told.
     */
    method OnChannelStatusChanged(handle: RaceHandle, channelId: ChannelId, status: ChannelStatus,
                                  props: ChannelProperties) returns (r: Route)
      modifies this
      ensures activatedChannels == old(activatedChannels)[channelId := (status, props)]
      ensures r == Route(ContextsFor(handle, channelId), UChannelStatusChanged(handle, channelId, status),
                         ChannelStatusEvent(status))
      ensures unchanged(this`handleContextMap, this`idContextMap, this`packageIdContextMap, this`activeContexts)
      ensures unchanged(this`unassociatedPackages, this`linkConnMap)
    {
      activatedChannels := activatedChannels[channelId := (status, props)];
      r := Route(ContextsFor(handle, channelId), UChannelStatusChanged(handle, channelId, status),
                 ChannelStatusEvent(status));
    }

    /**
     * activateChannel: a channel the plugin already reported is answered
     * from that report; any other goes to the channel manager.
     */
    method ActivateChannel(channels: ChannelManager, channelId: ChannelId, role: string,
                           postAccepted: bool, loaded: bool) returns (r: ActivateStatus)
      modifies channels
      ensures channelId in activatedChannels ==>
                Some(r) == ActivateReported(activatedChannels, channelId, role, postAccepted)
                && channels.channelProps == old(channels.channelProps)
      ensures channelId !in activatedChannels && channelId !in old(channels.channelProps) ==>
                r == CHANNEL_DOES_NOT_EXIST && channels.channelProps == old(channels.channelProps)
      ensures channelId !in activatedChannels && channelId in old(channels.channelProps) ==>
                var a := Activate(old(channels.channelProps[channelId]), role, loaded);
                r == a.0 && channels.channelProps == old(channels.channelProps)[channelId := a.1]
    {
      var reported := ActivateReported(activatedChannels, channelId, role, postAccepted);
      if reported.Some? {
        return reported.value;
      }
      var activated;
      r, activated := channels.ActivateChannel(channelId, role, loaded);
    }
  }

  /**
   * A context that registers a handle and is then removed leaves the
   * handle registry as it found it, when it was not registered there
   * before.
   */
  lemma RegisterThenRemoveRestores<K(!new)>(m: map<K, set<RaceHandle>>, k: K, ctx: RaceHandle)
    requires NoEmptySets(m)
    requires forall k' :: ctx !in Lookup(m, k')
    ensures Without(Insert(m, k, ctx), ctx) == m
  {
    var r := Without(Insert(m, k, ctx), ctx);
    forall k' | k' in m
      ensures k' in r && r[k'] == m[k']
    {
      assert ctx !in Lookup(m, k');
      assert forall c :: c in r[k'] <==> c in m[k'];
    }
    forall k' | k' in r
      ensures k' in m
    {
      var c :| c in r[k'];
      assert c in Lookup(m, k');
    }
  }
}

=== FILE: bootstrapdial.dfy ===
// The bootstrap dial state machine (source/state-machine/BootstrapDialStateMachine.cpp):
// open the initial connections to a bootstrap listener and any final link
// this side creates, send a hello that carries the package id and the
// created links' addresses, wait for the listener's response naming the
// final links this side must load, and hand the application a conduit on
// the final connections.

module BootstrapDialMachine {
  import opened Common
  import opened Engine
  import opened ApiContext

  const STATE_BOOTSTRAP_DIAL_INITIAL: StateType := 3
  const STATE_BOOTSTRAP_DIAL_WAITING_FOR_CONNECTIONS: StateType := 4
  const STATE_BOOTSTRAP_DIAL_SEND_HELLO: StateType := 5
  const STATE_BOOTSTRAP_DIAL_HELLO_SENT: StateType := 6
  const STATE_BOOTSTRAP_DIAL_AWAIT_RESPONSE: StateType := 7
  const STATE_BOOTSTRAP_DIAL_RECV_RESPONSE: StateType := 8
  const STATE_BOOTSTRAP_DIAL_WAITING_FOR_FINAL_CONNECTIONS: StateType := 9
  const STATE_BOOTSTRAP_DIAL_FINISHED: StateType := 10
  const STATE_BOOTSTRAP_DIAL_FAILED: StateType := 11

  /** ApiBootstrapDialContext; responseData is the queue of responses, oldest first. */
  datatype BootstrapDialCtx = BootstrapDialCtx(
    handle: RaceHandle,
    opts: BootstrapConnectionOptions,
    helloData: Bytes,
    responseData: seq<Bytes>,
    dialCallback: Option<Callback>,
    links: BootstrapLinks,
    packageId: string,
    env: Env)

  /** What the dial callback receives when there is no conduit. */
  const NoConduit := PHandle(NULL_RACE_HANDLE)

  /** The hooks ApiBootstrapDialContext overrides. */
  function Apply(c: BootstrapDialCtx, u: Update): (r: BootstrapDialCtx)
    ensures u.UBootstrapDial? ==> r == c.(opts := u.bootOpts, helloData := u.data, dialCallback := Some(u.cb))
    ensures u.UReceiveEncPkg? ==> r == c.(responseData := c.responseData + [u.data])
    ensures u.UConnStateMachineConnected? ==> r == c.(links := SlotConnected(c.links, u.handle, u.connId, u.linkAddress))
    ensures !u.UBootstrapDial? && !u.UReceiveEncPkg? && !u.UConnStateMachineConnected? ==> r == c
  {
    match u
    case UBootstrapDial(opts, data, cb) => c.(opts := opts, helloData := data, dialCallback := Some(cb))
    case UReceiveEncPkg(_, data) => c.(responseData := c.responseData + [data])
    case UConnStateMachineConnected(h, connId, address) => c.(links := SlotConnected(c.links, h, connId, address))
    case _ => c
  }

  /**
   * d is c after calls that only start connection machines: the same
   * options, data, queue and package id, the same connection ids and
   * addresses, and the earlier calls kept as a prefix.
   */
  predicate Extends(c: BootstrapDialCtx, d: BootstrapDialCtx) {
    && d == c.(links := d.links, env := d.env, dialCallback := d.dialCallback)
    && SameIds(c.links, d.links)
    && c.env.requests <= d.env.requests
  }

  /** The packageId the dial uses: PACKAGE_ID_LEN random bytes, drawn only when none is set. */
  function WithPackageId(w: World, c: BootstrapDialCtx): (r: BootstrapDialCtx)
    ensures c.packageId != "" ==> r == c
    ensures c.packageId == "" ==>
              && r == c.(packageId := r.packageId, env := Tell(c.env, GetEntropy(PACKAGE_ID_LEN)))
              && |r.packageId| == PACKAGE_ID_LEN && IsByteString(r.packageId)
  {
    if c.packageId != "" then c
    else
      var (env1, bytes) := Entropy(w, c.env, PACKAGE_ID_LEN);
      BytesStrRoundTrip(bytes);
      c.(packageId := BytesToStr(bytes), env := env1)
  }

  /** Report status with no conduit, clear the callback and fail; an empty callback throws. */
  function Reject(c: BootstrapDialCtx, status: ApiStatus): (o: Outcome<BootstrapDialCtx>)
    ensures c.dialCallback.None? ==> o == Threw(c, [])
    ensures c.dialCallback.Some? ==>
              o == Returned(NOT_SUPPORTED, c.(dialCallback := None,
                                              env := InvokeIfSet(c.env, c.dialCallback, status, NoConduit)), [])
  {
    match Invoke(c.env, c.dialCallback, status, NoConduit)
    case None => Threw(c, [])
    case Some(env) => Returned(NOT_SUPPORTED, c.(dialCallback := None, env := env), [])
  }

  /** Start a connection machine into slot n. */
  function Start(w: World, c: BootstrapDialCtx, n: SlotName, channel: ChannelId, role: string,
                 address: LinkAddress, create: bool, sending: bool): (r: BootstrapDialCtx)
    ensures Extends(c, r) && r.dialCallback == c.dialCallback && r.env.fired == c.env.fired
    ensures r.env.requests == c.env.requests + [StartConnStateMachine(c.handle, channel, role, address, create, sending)]
    ensures GetSlot(r.links, n).connSM == w.answer(|c.env.requests|).handle
    ensures forall m :: m != n ==> GetSlot(r.links, m) == GetSlot(c.links, m)
  {
    var (env1, links1) := StartLink(w, c.env, c.links, c.handle, n, channel, role, address, create, sending);
    c.(links := links1, env := env1)
  }

  /** A NULL handle in slot n is NOT_SUPPORTED; otherwise route it to this context. */
  function Register(c: BootstrapDialCtx, n: SlotName): (s: Stage<BootstrapDialCtx>)
    ensures !s.Skip?
    ensures s.Stop? <==> GetSlot(c.links, n).connSM == NULL_RACE_HANDLE
    ensures s.Stop? ==> s.o == Returned(NOT_SUPPORTED, c, [])
    ensures s.Proceed? ==> s.c == c.(env := Tell(c.env, RegisterHandle(c.handle, GetSlot(c.links, n).connSM)))
  {
    if GetSlot(c.links, n).connSM == NULL_RACE_HANDLE then Stop(Returned(NOT_SUPPORTED, c, []))
    else Proceed(c.(env := Tell(c.env, RegisterHandle(c.handle, GetSlot(c.links, n).connSM))))
  }

  /**
   * What StateBootstrapDialInitial leaves the slots with on success: the
   * initial send machine, the initial receive machine when that channel is
   * set, and a machine for each final link this side creates.
   */
  predicate Expects(w: World, opts: BootstrapConnectionOptions, l: BootstrapLinks) {
    && l.initSend.connSM != NULL_RACE_HANDLE
    && (opts.init_recv_channel != "" ==> l.initRecv.connSM != NULL_RACE_HANDLE)
    && (ShouldCreateSender(w, opts.final_send_channel) ==> l.finalSend.connSM != NULL_RACE_HANDLE)
    && (opts.final_recv_channel != "" && ShouldCreateReceiver(w, opts.final_recv_channel) ==>
          l.finalRecv.connSM != NULL_RACE_HANDLE)
  }

  /** d is c after calls that start connection machines and fire nothing. */
  predicate Quiet(c: BootstrapDialCtx, d: BootstrapDialCtx) {
    Extends(c, d) && d.dialCallback == c.dialCallback && d.env.fired == c.env.fired
  }

  /** d is c after calls that start connection machines, and at most a CHANNEL_INVALID report. */
  predicate Reported(c: BootstrapDialCtx, d: BootstrapDialCtx) {
    || Quiet(c, d)
    || (&& Extends(c, d) && c.dialCallback.Some? && d.dialCallback.None?
        && d.env.fired == c.env.fired + [Fired(c.dialCallback.value, CHANNEL_INVALID, NoConduit)])
  }

  lemma QuietThen(a: BootstrapDialCtx, b: BootstrapDialCtx, d: BootstrapDialCtx)
    requires Quiet(a, b)
    ensures Quiet(b, d) ==> Quiet(a, d)
    ensures Reported(b, d) ==> Reported(a, d)
  {
  }

  /**
   * The initial send link: loaded from the address given out of band. A
   * link this side would have to create is not started, so the slot keeps
   * the handle it had.
   */
  function InitSendStage(w: World, c: BootstrapDialCtx): (s: Stage<BootstrapDialCtx>)
    ensures !s.Skip?
    ensures s.Proceed? ==> Quiet(c, s.c) && s.c.links.initSend.connSM != NULL_RACE_HANDLE
                           && s.c.links.(initSend := c.links.initSend) == c.links
    ensures !ShouldCreateSender(w, c.opts.init_send_channel) && c.opts.init_send_address == "" ==>
              s == Stop(Reject(c, CHANNEL_INVALID))
    ensures s.Stop? ==> s.o.pushed == [] && !(s.o.Returned? && s.o.result == SUCCESS) && Reported(c, s.o.data)
  {
    var create := ShouldCreateSender(w, c.opts.init_send_channel);
    if !create && c.opts.init_send_address == "" then Stop(Reject(c, CHANNEL_INVALID))
    else
      var c1 := if create then c
                else Start(w, c, InitSend, c.opts.init_send_channel, c.opts.init_send_role,
                           c.opts.init_send_address, false, true);
      Register(c1, InitSend)
  }

  /** The initial receive link, when its channel is set: created here, or loaded from the given address. */
  function InitRecvStage(w: World, c: BootstrapDialCtx): (s: Stage<BootstrapDialCtx>)
    ensures !s.Skip?
    ensures c.opts.init_recv_channel == "" ==> s == Proceed(c)
    ensures s.Proceed? ==> Quiet(c, s.c)
                           && (c.opts.init_recv_channel != "" ==> s.c.links.initRecv.connSM != NULL_RACE_HANDLE)
                           && s.c.links.(initRecv := c.links.initRecv) == c.links
    ensures (&& c.opts.init_recv_channel != "" && !ShouldCreateReceiver(w, c.opts.init_recv_channel)
             && c.opts.init_recv_address == "") ==> s == Stop(Reject(c, CHANNEL_INVALID))
    ensures s.Stop? ==> s.o.pushed == [] && !(s.o.Returned? && s.o.result == SUCCESS) && Reported(c, s.o.data)
  {
    if c.opts.init_recv_channel == "" then Proceed(c)
    else
      var create := ShouldCreateReceiver(w, c.opts.init_recv_channel);
      if !create && c.opts.init_recv_address == "" then Stop(Reject(c, CHANNEL_INVALID))
      else
        Register(Start(w, c, InitRecv, c.opts.init_recv_channel, c.opts.init_recv_role, c.opts.init_recv_address,
                       create, false), InitRecv)
  }

  /** Both initial links, send first. */
  function InitStages(w: World, c: BootstrapDialCtx): (s: Stage<BootstrapDialCtx>)
    ensures !s.Skip?
    ensures s.Proceed? ==> && Quiet(c, s.c) && s.c.links.initSend.connSM != NULL_RACE_HANDLE
                           && (c.opts.init_recv_channel != "" ==> s.c.links.initRecv.connSM != NULL_RACE_HANDLE)
                           && s.c.links.finalSend == c.links.finalSend && s.c.links.finalRecv == c.links.finalRecv
    ensures !ShouldCreateSender(w, c.opts.init_send_channel) && c.opts.init_send_address == "" ==>
              s == Stop(Reject(c, CHANNEL_INVALID))
    ensures (&& c.opts.init_recv_channel != "" && !ShouldCreateReceiver(w, c.opts.init_recv_channel)
             && c.opts.init_recv_address == "") ==> s.Stop?
    ensures s.Stop? ==> s.o.pushed == [] && !(s.o.Returned? && s.o.result == SUCCESS) && Reported(c, s.o.data)
  {
    var s1 := InitSendStage(w, c);
    if s1.Stop? then s1
    else
      var s2 := InitRecvStage(w, s1.c);
      QuietThen(c, s1.c, if s2.Stop? then s2.o.data else s2.c);
      s2
  }

  /** The final send link, created here with no address when this side is its creator. */
  function FinalSendStage(w: World, c: BootstrapDialCtx): (s: Stage<BootstrapDialCtx>)
    ensures !s.Skip?
    ensures !ShouldCreateSender(w, c.opts.final_send_channel) ==> s == Proceed(c)
    ensures s.Proceed? ==> Quiet(c, s.c)
                           && (ShouldCreateSender(w, c.opts.final_send_channel) ==>
                                 s.c.links.finalSend.connSM != NULL_RACE_HANDLE)
                           && s.c.links.(finalSend := c.links.finalSend) == c.links
    ensures s.Stop? ==> s.o == Returned(NOT_SUPPORTED, s.o.data, []) && Quiet(c, s.o.data)
  {
    if !ShouldCreateSender(w, c.opts.final_send_channel) then Proceed(c)
    else Register(Start(w, c, FinalSend, c.opts.final_send_channel, c.opts.final_send_role, "", true, true), FinalSend)
  }

  /** The final receive link, created here with no address when its channel is set and this side creates it. */
  function FinalRecvStage(w: World, c: BootstrapDialCtx): (s: Stage<BootstrapDialCtx>)
    ensures !s.Skip?
    ensures !(c.opts.final_recv_channel != "" && ShouldCreateReceiver(w, c.opts.final_recv_channel)) ==> s == Proceed(c)
    ensures s.Proceed? ==> Quiet(c, s.c)
                           && (c.opts.final_recv_channel != "" && ShouldCreateReceiver(w, c.opts.final_recv_channel) ==>
                                 s.c.links.finalRecv.connSM != NULL_RACE_HANDLE)
                           && s.c.links.(finalRecv := c.links.finalRecv) == c.links
    ensures s.Stop? ==> s.o == Returned(NOT_SUPPORTED, s.o.data, []) && Quiet(c, s.o.data)
  {
    if !(c.opts.final_recv_channel != "" && ShouldCreateReceiver(w, c.opts.final_recv_channel)) then Proceed(c)
    else Register(Start(w, c, FinalRecv, c.opts.final_recv_channel, c.opts.final_recv_role, "", true, false), FinalRecv)
  }

  /** Both final links this side creates, send first. */
  function FinalStages(w: World, c: BootstrapDialCtx): (s: Stage<BootstrapDialCtx>)
    ensures !s.Skip?
    ensures s.Proceed? ==> && Quiet(c, s.c)
                           && (ShouldCreateSender(w, c.opts.final_send_channel) ==>
                                 s.c.links.finalSend.connSM != NULL_RACE_HANDLE)
                           && (c.opts.final_recv_channel != "" && ShouldCreateReceiver(w, c.opts.final_recv_channel) ==>
                                 s.c.links.finalRecv.connSM != NULL_RACE_HANDLE)
                           && s.c.links.initSend == c.links.initSend && s.c.links.initRecv == c.links.initRecv
    ensures s.Stop? ==> s.o == Returned(NOT_SUPPORTED, s.o.data, []) && Quiet(c, s.o.data)
  {
    var s1 := FinalSendStage(w, c);
    if s1.Stop? then s1
    else
      var s2 := FinalRecvStage(w, s1.c);
      QuietThen(c, s1.c, if s2.Stop? then s2.o.data else s2.c);
      s2
  }

  /**
   * StateBootstrapDialInitial: draw a package id if none is set, then start
   * the initial send, initial receive, final send and final receive
   * machines as the options ask; any NULL handle is NOT_SUPPORTED.
   */
  function Initial(w: World, c: BootstrapDialCtx): (o: Outcome<BootstrapDialCtx>)
    ensures c.packageId != "" ==> o.data.packageId == c.packageId
    ensures c.packageId == "" ==> |o.data.packageId| == PACKAGE_ID_LEN && |o.data.env.requests| > |c.env.requests|
                                  && o.data.env.requests[|c.env.requests|] == GetEntropy(PACKAGE_ID_LEN)
    ensures Reported(WithPackageId(w, c), o.data)
    ensures !ShouldCreateSender(w, c.opts.init_send_channel) && c.opts.init_send_address == "" ==>
              && o.data.links == c.links
              && (c.dialCallback.None? ==> o.Threw?)
              && (c.dialCallback.Some? ==>
                    && o.Returned? && o.result == NOT_SUPPORTED && o.data.dialCallback.None?
                    && o.data.env.fired == c.env.fired + [Fired(c.dialCallback.value, CHANNEL_INVALID, NoConduit)])
    ensures (&& c.opts.init_recv_channel != "" && !ShouldCreateReceiver(w, c.opts.init_recv_channel)
             && c.opts.init_recv_address == "") ==> !(o.Returned? && o.result == SUCCESS)
    ensures o.Returned? && o.result == SUCCESS ==>
              && o.pushed == [EVENT_ALWAYS] && Expects(w, c.opts, o.data.links)
              && o.data.dialCallback == c.dialCallback && o.data.env.fired == c.env.fired
    ensures !(o.Returned? && o.result == SUCCESS) ==> o.pushed == []
  {
    var c0 := WithPackageId(w, c);
    var s1 := InitStages(w, c0);
    if s1.Stop? then s1.o
    else
      var s2 := FinalStages(w, s1.c);
      QuietThen(c0, s1.c, if s2.Stop? then s2.o.data else s2.c);
      if s2.Stop? then s2.o
      else Returned(SUCCESS, s2.c, [EVENT_ALWAYS])
  }

  /**
   * StateBootstrapDialWaitingForConnections: SATISFIED exactly when every
   * started machine has reported its connection; nothing changes.
   */
  function WaitingForConnections(c: BootstrapDialCtx): (o: Outcome<BootstrapDialCtx>)
    ensures o.Returned? && o.result == SUCCESS && o.data == c
    ensures o.pushed == [EVENT_SATISFIED] <==> AllConnected(c.links)
    ensures o.pushed == [] <==> !AllConnected(c.links)
  {
    SatisfiedIffAllConnected(c.links);
    if Satisfied(c.links) then Returned(SUCCESS, c, [EVENT_SATISFIED]) else Returned(SUCCESS, c, [])
  }

  // ---------------------------------------------------------------------
  // The hello
  // ---------------------------------------------------------------------

  /**
   * The hello's fields. Link names are from the listener's point of view:
   * the receive link this side created is the listener's initial send
   * link, this side's final send link is the listener's final receive
   * link, and the other way round.
   */
  function HelloFields(w: World, c: BootstrapDialCtx): map<string, string> {
    var m0 := map["packageId" := w.codecs.b64encode(StrToBytes(c.packageId))];
    var m1 := if ShouldCreateReceiver(w, c.opts.init_recv_channel) && c.links.initRecv.linkAddress != "" then
                m0["initSendLinkAddress" := c.links.initRecv.linkAddress]["initSendChannel" := c.opts.init_recv_channel]
              else m0;
    var m2 := if c.links.finalSend.linkAddress != "" then
                m1["finalRecvLinkAddress" := c.links.finalSend.linkAddress]["finalRecvChannel" := c.opts.final_send_channel]
              else m1;
    var m3 := if c.links.finalRecv.linkAddress != "" then
                m2["finalSendLinkAddress" := c.links.finalRecv.linkAddress]["finalSendChannel" := c.opts.final_recv_channel]
              else m2;
    m3["message" := w.codecs.b64encode(c.helloData)]
  }

  /** The hello package: PACKAGE_ID_LEN NUL bytes, then the JSON text. */
  function Hello(w: World, c: BootstrapDialCtx): (h: Bytes)
    ensures |h| >= PACKAGE_ID_LEN && h[..PACKAGE_ID_LEN] == Zeros(PACKAGE_ID_LEN)
  {
    Zeros(PACKAGE_ID_LEN) + StrToBytes(w.codecs.dump(Object(HelloFields(w, c))))
  }

  /** What the JSON after the NUL prefix holds under key k, if anything. */
  function HelloField(w: World, c: BootstrapDialCtx, k: string): Option<string> {
    match w.codecs.parse(BytesToStr(Hello(w, c)[PACKAGE_ID_LEN..]))
    case None => None
    case Some(j) => AtString(j, k)
  }

  /**
   * The listener reads from the hello the package id and message, and
   * each link address this side knows under the listener's own name for
   * that link, together with its channel; a link with no address is not
   * mentioned.
   */
  lemma HelloNamesLinksForListener(w: World, c: BootstrapDialCtx)
    requires Lawful(w.codecs)
    requires IsByteString(w.codecs.dump(Object(HelloFields(w, c))))
    ensures HelloField(w, c, "packageId").Some?
            && w.codecs.b64decode(HelloField(w, c, "packageId").value) == Some(StrToBytes(c.packageId))
    ensures HelloField(w, c, "message").Some?
            && w.codecs.b64decode(HelloField(w, c, "message").value) == Some(c.helloData)
    ensures HelloField(w, c, "finalRecvLinkAddress")
            == (if c.links.finalSend.linkAddress != "" then Some(c.links.finalSend.linkAddress) else None)
    ensures c.links.finalSend.linkAddress != "" ==> HelloField(w, c, "finalRecvChannel") == Some(c.opts.final_send_channel)
    ensures HelloField(w, c, "finalSendLinkAddress")
            == (if c.links.finalRecv.linkAddress != "" then Some(c.links.finalRecv.linkAddress) else None)
    ensures c.links.finalRecv.linkAddress != "" ==> HelloField(w, c, "finalSendChannel") == Some(c.opts.final_recv_channel)
    ensures HelloField(w, c, "initSendLinkAddress")
            == (if ShouldCreateReceiver(w, c.opts.init_recv_channel) && c.links.initRecv.linkAddress != ""
                then Some(c.links.initRecv.linkAddress) else None)
    ensures HelloField(w, c, "initSendLinkAddress").Some? ==>
              HelloField(w, c, "initSendChannel") == Some(c.opts.init_recv_channel)
  {
    HelloCarriesIdAndMessage(w, c);
    HelloCarriesFinalLinks(w, c);
    HelloCarriesInitLink(w, c);
  }

  lemma HelloCarriesIdAndMessage(w: World, c: BootstrapDialCtx)
    requires Lawful(w.codecs)
    requires IsByteString(w.codecs.dump(Object(HelloFields(w, c))))
    ensures HelloField(w, c, "packageId").Some?
            && w.codecs.b64decode(HelloField(w, c, "packageId").value) == Some(StrToBytes(c.packageId))
    ensures HelloField(w, c, "message").Some?
            && w.codecs.b64decode(HelloField(w, c, "message").value) == Some(c.helloData)
  {
    HelloParsesBack(w, c, "packageId");
    HelloParsesBack(w, c, "message");
    HelloFieldsHold(w, c);
  }

  lemma HelloCarriesFinalLinks(w: World, c: BootstrapDialCtx)
    requires Lawful(w.codecs)
    requires IsByteString(w.codecs.dump(Object(HelloFields(w, c))))
    ensures HelloField(w, c, "finalRecvLinkAddress")
            == (if c.links.finalSend.linkAddress != "" then Some(c.links.finalSend.linkAddress) else None)
    ensures c.links.finalSend.linkAddress != "" ==> HelloField(w, c, "finalRecvChannel") == Some(c.opts.final_send_channel)
    ensures HelloField(w, c, "finalSendLinkAddress")
            == (if c.links.finalRecv.linkAddress != "" then Some(c.links.finalRecv.linkAddress) else None)
    ensures c.links.finalRecv.linkAddress != "" ==> HelloField(w, c, "finalSendChannel") == Some(c.opts.final_recv_channel)
  {
    HelloParsesBack(w, c, "finalRecvLinkAddress");
    HelloParsesBack(w, c, "finalRecvChannel");
    HelloParsesBack(w, c, "finalSendLinkAddress");
    HelloParsesBack(w, c, "finalSendChannel");
    HelloFinalFieldsHold(w, c);
  }

  lemma HelloCarriesInitLink(w: World, c: BootstrapDialCtx)
    requires Lawful(w.codecs)
    requires IsByteString(w.codecs.dump(Object(HelloFields(w, c))))
    ensures HelloField(w, c, "initSendLinkAddress")
            == (if ShouldCreateReceiver(w, c.opts.init_recv_channel) && c.links.initRecv.linkAddress != ""
                then Some(c.links.initRecv.linkAddress) else None)
    ensures HelloField(w, c, "initSendLinkAddress").Some? ==>
              HelloField(w, c, "initSendChannel") == Some(c.opts.init_recv_channel)
  {
    HelloParsesBack(w, c, "initSendLinkAddress");
    HelloParsesBack(w, c, "initSendChannel");
    HelloInitFieldsHold(w, c);
  }

  /** The value a map holds under a key, if any. */
  function Held(m: map<string, string>, k: string): Option<string> {
    if k in m then Some(m[k]) else None
  }

  /** The listener parses back, under each key, what the hello was built with. */
  lemma HelloParsesBack(w: World, c: BootstrapDialCtx, k: string)
    requires Lawful(w.codecs)
    requires IsByteString(w.codecs.dump(Object(HelloFields(w, c))))
    ensures HelloField(w, c, k) == Held(HelloFields(w, c), k)
  {
    var j := Object(HelloFields(w, c));
    assert Hello(w, c)[PACKAGE_ID_LEN..] == StrToBytes(w.codecs.dump(j));
    StrBytesRoundTrip(w.codecs.dump(j));
    assert w.codecs.parse(w.codecs.dump(j)) == Some(j);
  }

  /** The hello's keys that share a length differ in a letter. */
  lemma HelloKeysDistinct()
    ensures "finalRecvLinkAddress" != "finalSendLinkAddress"
    ensures "finalRecvChannel" != "finalSendChannel"
  {
    assert "finalRecvLinkAddress"[5] != "finalSendLinkAddress"[5];
    assert "finalRecvChannel"[5] != "finalSendChannel"[5];
  }

  /** The hello's id and message fields. */
  lemma HelloFieldsHold(w: World, c: BootstrapDialCtx)
    ensures Held(HelloFields(w, c), "packageId") == Some(w.codecs.b64encode(StrToBytes(c.packageId)))
    ensures Held(HelloFields(w, c), "message") == Some(w.codecs.b64encode(c.helloData))
  {
  }

  /** The hello's final-link fields, named from the listener's side. */
  lemma HelloFinalFieldsHold(w: World, c: BootstrapDialCtx)
    ensures Held(HelloFields(w, c), "finalRecvLinkAddress")
            == (if c.links.finalSend.linkAddress != "" then Some(c.links.finalSend.linkAddress) else None)
    ensures c.links.finalSend.linkAddress != "" ==>
              Held(HelloFields(w, c), "finalRecvChannel") == Some(c.opts.final_send_channel)
    ensures Held(HelloFields(w, c), "finalSendLinkAddress")
            == (if c.links.finalRecv.linkAddress != "" then Some(c.links.finalRecv.linkAddress) else None)
    ensures c.links.finalRecv.linkAddress != "" ==>
              Held(HelloFields(w, c), "finalSendChannel") == Some(c.opts.final_recv_channel)
  {
    HelloKeysDistinct();
  }

  /** The hello's initial-link fields, named from the listener's side. */
  lemma HelloInitFieldsHold(w: World, c: BootstrapDialCtx)
    ensures Held(HelloFields(w, c), "initSendLinkAddress")
            == (if ShouldCreateReceiver(w, c.opts.init_recv_channel) && c.links.initRecv.linkAddress != ""
                then Some(c.links.initRecv.linkAddress) else None)
    ensures Held(HelloFields(w, c), "initSendLinkAddress").Some? ==>
              Held(HelloFields(w, c), "initSendChannel") == Some(c.opts.init_recv_channel)
  {
  }

  /**
   * StateBootstrapDialSendHello: register a connection handle, send the
   * hello on the initial send connection, register the package handle
   * whatever the plugin answered, and clear the hello data.
   */
  function SendHello(w: World, c: BootstrapDialCtx): (o: Outcome<BootstrapDialCtx>)
    ensures GetPlugin(w, c.opts.init_send_channel).Some? ==> o == Threw(c, [])
    ensures GetPlugin(w, c.opts.init_send_channel).None? ==>
              var n := |c.env.requests|;
              var pkg := w.answer(n + 2).handle;
              && o.Returned? && o.data == c.(helloData := [], env := o.data.env)
              && o.data.env.fired == c.env.fired
              && o.data.env.requests == c.env.requests
                   + [GenerateHandle, RegisterHandle(c.handle, w.answer(n).handle), GenerateHandle,
                      SendPackage(c.opts.init_send_channel, pkg, c.links.initSend.connId, Hello(w, c)),
                      RegisterHandle(c.handle, pkg)]
              && (o.result == SUCCESS <==> w.answer(n + 3).ok)
    ensures o.pushed == []
  {
    if GetPlugin(w, c.opts.init_send_channel).Some? then Threw(c, [])
    else
      var (env1, conn) := Ask(w, c.env, GenerateHandle);
      var env2 := Tell(env1, RegisterHandle(c.handle, conn.handle));
      var hello := Hello(w, c);
      var (env3, pkg) := Ask(w, env2, GenerateHandle);
      var (env4, sent) := Ask(w, env3, SendPackage(c.opts.init_send_channel, pkg.handle, c.links.initSend.connId, hello));
      var c1 := c.(helloData := [], env := Tell(env4, RegisterHandle(c.handle, pkg.handle)));
      Returned(if sent.ok then SUCCESS else NOT_SUPPORTED, c1, [])
  }

  /**
   * StateBootstrapDialHelloSent: while either final connection is missing,
   * listen for the response under the package id and emit NEEDS_RECV;
   * otherwise SATISFIED.
   */
  function HelloSent(c: BootstrapDialCtx): (o: Outcome<BootstrapDialCtx>)
    ensures o.Returned? && o.result == SUCCESS
    ensures var missing := c.links.finalSend.connId == "" || c.links.finalRecv.connId == "";
            && (missing ==> o.pushed == [EVENT_NEEDS_RECV]
                            && o.data == c.(env := Tell(c.env, RegisterPackageId(c.handle, c.links.initRecv.connId,
                                                                                 c.packageId))))
            && (!missing ==> o.pushed == [EVENT_SATISFIED] && o.data == c)
  {
    if c.links.finalSend.connId == "" || c.links.finalRecv.connId == "" then
      Returned(SUCCESS, c.(env := Tell(c.env, RegisterPackageId(c.handle, c.links.initRecv.connId, c.packageId))),
               [EVENT_NEEDS_RECV])
    else Returned(SUCCESS, c, [EVENT_SATISFIED])
  }

  // ---------------------------------------------------------------------
  // The response
  // ---------------------------------------------------------------------

  /** The JSON keys that name a final link and its channel, from this side's point of view. */
  function AddressKey(sending: bool): string {
    if sending then "finalSendLinkAddress" else "finalRecvLinkAddress"
  }

  function ChannelKey(sending: bool): string {
    if sending then "finalSendChannel" else "finalRecvChannel"
  }

  /**
   * Load the final send (or receive) link the response names. A missing
   * key throws and, like a channel other than the configured one, skips to
   * the next response.
   */
  function LoadFinal(w: World, c: BootstrapDialCtx, j: Json, sending: bool): (s: Stage<BootstrapDialCtx>)
    ensures var channel := if sending then c.opts.final_send_channel else c.opts.final_recv_channel;
            (AtString(j, AddressKey(sending)).None? || AtString(j, ChannelKey(sending)).None?
             || AtString(j, ChannelKey(sending)) != Some(channel)) ==> s == Skip(c)
    ensures s.Stop? ==> s.o == Returned(NOT_SUPPORTED, s.o.data, []) && Extends(c, s.o.data)
                        && s.o.data.dialCallback == c.dialCallback && s.o.data.env.fired == c.env.fired
    ensures s.Proceed? ==>
              var n := if sending then FinalSend else FinalRecv;
              var role := if sending then c.opts.final_send_role else c.opts.final_recv_role;
              var channel := if sending then c.opts.final_send_channel else c.opts.final_recv_channel;
              var h := w.answer(|c.env.requests|).handle;
              && h != NULL_RACE_HANDLE && AtString(j, AddressKey(sending)).Some?
              && Extends(c, s.c) && s.c.dialCallback == c.dialCallback && s.c.env.fired == c.env.fired
              && s.c.links == SetSlot(c.links, n, GetSlot(c.links, n).(connSM := h))
              && s.c.env.requests == c.env.requests
                   + [StartConnStateMachine(c.handle, channel, role, AtString(j, AddressKey(sending)).value, false, sending),
                      RegisterHandle(c.handle, h)]
  {
    var n := if sending then FinalSend else FinalRecv;
    var channel := if sending then c.opts.final_send_channel else c.opts.final_recv_channel;
    var role := if sending then c.opts.final_send_role else c.opts.final_recv_role;
    match (AtString(j, AddressKey(sending)), AtString(j, ChannelKey(sending)))
    case (Some(address), Some(named)) =>
      if named != channel then Skip(c)
      else Register(Start(w, c, n, channel, role, address, false, sending), n)
    case _ => Skip(c)
  }

  /**
   * One response of StateBootstrapDialRecvResponse's loop: load each final
   * link that has no connection yet; text that does not parse skips to the
   * next response, and a response that loads what is missing emits
   * SATISFIED and ends the loop.
   */
  function HandleResponse(w: World, c: BootstrapDialCtx, data: Bytes): (s: Stage<BootstrapDialCtx>)
    ensures !s.Proceed?
    ensures w.codecs.parse(BytesToStr(data)).None? ==> s == Skip(c)
    ensures s.Skip? ==> Extends(c, s.c) && s.c.dialCallback == c.dialCallback && s.c.env.fired == c.env.fired
    ensures s.Stop? ==> s.o.Returned? && Extends(c, s.o.data)
                        && s.o.data.dialCallback == c.dialCallback && s.o.data.env.fired == c.env.fired
                        && (s.o.pushed == [] || s.o.pushed == [EVENT_SATISFIED])
                        && (s.o.pushed == [] <==> s.o.result == NOT_SUPPORTED)
    ensures s.Stop? && s.o.pushed == [EVENT_SATISFIED] ==>
              && (c.links.finalSend.connId == "" ==> s.o.data.links.finalSend.connSM != NULL_RACE_HANDLE)
              && (c.links.finalRecv.connId == "" ==> s.o.data.links.finalRecv.connSM != NULL_RACE_HANDLE)
  {
    match w.codecs.parse(BytesToStr(data))
    case None => Skip(c)
    case Some(j) =>
      var s1 := if c.links.finalSend.connId == "" then LoadFinal(w, c, j, true) else Proceed(c);
      if !s1.Proceed? then s1
      else
        var s2 := if s1.c.links.finalRecv.connId == "" then LoadFinal(w, s1.c, j, false) else Proceed(s1.c);
        if !s2.Proceed? then s2
        else Stop(Returned(SUCCESS, s2.c, [EVENT_SATISFIED]))
  }

  /**
   * StateBootstrapDialRecvResponse: take responses from the front of the
   * queue until one is usable. When none is, the queue is left empty and
   * nothing is emitted, so the machine stays in RECV_RESPONSE.
   */
  function RecvResponses(w: World, c: BootstrapDialCtx): (o: Outcome<BootstrapDialCtx>)
    ensures o.Returned?
    ensures o.data.dialCallback == c.dialCallback && o.data.env.fired == c.env.fired
    ensures Extends(c.(responseData := o.data.responseData), o.data)
    ensures |o.data.responseData| <= |c.responseData|
    ensures o.data.responseData == c.responseData[|c.responseData| - |o.data.responseData|..]
    ensures o.pushed == [] || o.pushed == [EVENT_SATISFIED]
    ensures o.result == SUCCESS && o.pushed == [] ==> o.data.responseData == []
    ensures o.result == NOT_SUPPORTED ==> o.pushed == []
    ensures o.pushed == [EVENT_SATISFIED] ==>
              && o.result == SUCCESS
              && (c.links.finalSend.connId == "" ==> o.data.links.finalSend.connSM != NULL_RACE_HANDLE)
              && (c.links.finalRecv.connId == "" ==> o.data.links.finalRecv.connSM != NULL_RACE_HANDLE)
    decreases |c.responseData|
  {
    if c.responseData == [] then Returned(SUCCESS, c, [])
    else
      var rest := c.(responseData := c.responseData[1..]);
      var s := HandleResponse(w, rest, c.responseData[0]);
      if s.Stop? then s.o
      else
        var o := RecvResponses(w, s.c);
        assert c.responseData[1..][|c.responseData| - 1 - |o.data.responseData|..]
               == c.responseData[|c.responseData| - |o.data.responseData|..];
        o
  }

  /** StateBootstrapDialRecvResponse's loop as the source writes it: pop, try, and continue or return. */
  method RecvResponseLoop(w: World, c: BootstrapDialCtx) returns (o: Outcome<BootstrapDialCtx>)
    ensures o == RecvResponses(w, c)
  {
    var cur := c;
    while cur.responseData != []
      invariant RecvResponses(w, cur) == RecvResponses(w, c)
      decreases |cur.responseData|
    {
      var data := cur.responseData[0];
      cur := cur.(responseData := cur.responseData[1..]);
      var s := HandleResponse(w, cur, data);
      if s.Stop? {
        return s.o;
      }
      cur := s.c;
    }
    return Returned(SUCCESS, cur, []);
  }

  /** A response that names a final send channel other than the configured one is passed over. */
  lemma MismatchedChannelSkipped(w: World, c: BootstrapDialCtx, j: Json)
    requires c.responseData != [] && w.codecs.parse(BytesToStr(c.responseData[0])) == Some(j)
    requires c.links.finalSend.connId == "" && AtString(j, "finalSendChannel").Some?
    requires AtString(j, "finalSendChannel") != Some(c.opts.final_send_channel)
    ensures RecvResponses(w, c) == RecvResponses(w, c.(responseData := c.responseData[1..]))
    ensures RecvResponses(w, c).data.env.requests == RecvResponses(w, c.(responseData := c.responseData[1..])).data.env.requests
  {
    var rest := c.(responseData := c.responseData[1..]);
    assert LoadFinal(w, rest, j, true) == Skip(rest);
    assert HandleResponse(w, rest, c.responseData[0]) == Skip(rest);
  }

  /**
   * StateBootstrapDialWaitingForFinalConnections: SATISFIED exactly when
   * each started final machine has reported its connection.
   */
  function WaitingForFinalConnections(c: BootstrapDialCtx): (o: Outcome<BootstrapDialCtx>)
    ensures o.Returned? && o.result == SUCCESS && o.data == c
    ensures o.pushed == [EVENT_SATISFIED] <==>
              forall n :: (n == FinalSend || n == FinalRecv) && GetSlot(c.links, n).connSM != NULL_RACE_HANDLE ==>
                GetSlot(c.links, n).connId != ""
    ensures o.pushed == [] || o.pushed == [EVENT_SATISFIED]
  {
    if FinalSatisfied(c.links) then Returned(SUCCESS, c, [EVENT_SATISFIED])
    else
      assert Pending(GetSlot(c.links, FinalRecv)) || Pending(GetSlot(c.links, FinalSend));
      Returned(SUCCESS, c, [])
  }

  /**
   * StateBootstrapDialFinished: start a conduit on the final connections
   * with the package id and no queued packages, and give the application
   * its handle; the callback is invoked without a check.
   */
  function Finished(w: World, c: BootstrapDialCtx): (o: Outcome<BootstrapDialCtx>)
    ensures var n := |c.env.requests|;
            var api := w.answer(n).handle;
            var start := StartConduit(c.handle, c.links.finalRecv.connSM, c.links.finalRecv.connId,
                                      c.links.finalSend.connSM, c.links.finalSend.connId, c.opts.final_send_channel,
                                      c.opts.final_recv_channel, c.packageId, [], api);
            && (w.answer(n + 1).handle == NULL_RACE_HANDLE ==>
                  o == Returned(NOT_SUPPORTED, c.(env := Tell(Tell(c.env, GenerateHandle), start)), []))
            && (w.answer(n + 1).handle != NULL_RACE_HANDLE && c.dialCallback.None? ==> o.Threw?)
            && (w.answer(n + 1).handle != NULL_RACE_HANDLE && c.dialCallback.Some? ==>
                  && o.Returned? && o.result == SUCCESS && o.data.dialCallback.None?
                  && o.data.env.fired == c.env.fired + [Fired(c.dialCallback.value, OK, PHandle(api))]
                  && o.data.env.requests == c.env.requests + [GenerateHandle, start, StateMachineFinished(c.handle)])
    ensures o.pushed == []
  {
    var (env1, api) := Ask(w, c.env, GenerateHandle);
    var (env2, conduit) := Ask(w, env1, StartConduit(c.handle, c.links.finalRecv.connSM, c.links.finalRecv.connId,
                                                      c.links.finalSend.connSM, c.links.finalSend.connId,
                                                      c.opts.final_send_channel, c.opts.final_recv_channel,
                                                      c.packageId, [], api.handle));
    if conduit.handle == NULL_RACE_HANDLE then Returned(NOT_SUPPORTED, c.(env := env2), [])
    else
      match Invoke(env2, c.dialCallback, OK, PHandle(api.handle))
      case None => Threw(c.(env := env2), [])
      case Some(env3) =>
        Returned(SUCCESS, c.(dialCallback := None, env := Tell(env3, StateMachineFinished(c.handle))), [])
  }

  /** StateBootstrapDialFailed: INTERNAL_ERROR only if the dial callback is still set. */
  function Failed(c: BootstrapDialCtx): (o: Outcome<BootstrapDialCtx>)
    ensures o.Returned? && o.result == SUCCESS && o.pushed == [] && o.data.dialCallback.None?
    ensures o.data.env.fired == InvokeIfSet(c.env, c.dialCallback, INTERNAL_ERROR, NoConduit).fired
    ensures o.data.env.requests == c.env.requests + [StateMachineFailed(c.handle)]
  {
    var env := InvokeIfSet(c.env, c.dialCallback, INTERNAL_ERROR, NoConduit);
    Returned(SUCCESS, c.(dialCallback := None, env := Tell(env, StateMachineFailed(c.handle))), [])
  }

  // ---------------------------------------------------------------------
  // The engine
  // ---------------------------------------------------------------------

  function BootstrapDialStates(w: World): map<StateType, StateDef<BootstrapDialCtx>> {
    map[STATE_BOOTSTRAP_DIAL_INITIAL := PlainState((cur: StateType, c: BootstrapDialCtx) => Initial(w, c)),
        STATE_BOOTSTRAP_DIAL_WAITING_FOR_CONNECTIONS :=
          PlainState((cur: StateType, c: BootstrapDialCtx) => WaitingForConnections(c)),
        STATE_BOOTSTRAP_DIAL_SEND_HELLO := PlainState((cur: StateType, c: BootstrapDialCtx) => SendHello(w, c)),
        STATE_BOOTSTRAP_DIAL_HELLO_SENT := PlainState((cur: StateType, c: BootstrapDialCtx) => HelloSent(c)),
        STATE_BOOTSTRAP_DIAL_AWAIT_RESPONSE := PlainState((cur: StateType, c: BootstrapDialCtx) => DefaultEnter(cur, c)),
        STATE_BOOTSTRAP_DIAL_RECV_RESPONSE := PlainState((cur: StateType, c: BootstrapDialCtx) => RecvResponses(w, c)),
        STATE_BOOTSTRAP_DIAL_WAITING_FOR_FINAL_CONNECTIONS :=
          PlainState((cur: StateType, c: BootstrapDialCtx) => WaitingForFinalConnections(c)),
        STATE_BOOTSTRAP_DIAL_FINISHED := FinalState((cur: StateType, c: BootstrapDialCtx) => Finished(w, c)),
        STATE_BOOTSTRAP_DIAL_FAILED := PlainState((cur: StateType, c: BootstrapDialCtx) => Failed(c))]
  }

  /** The declarations of BootstrapDialStateEngine's constructor, in order. */
  function BootstrapDialDecls(): seq<Decl> {
    [Decl(STATE_BOOTSTRAP_DIAL_INITIAL, EVENT_ALWAYS, STATE_BOOTSTRAP_DIAL_WAITING_FOR_CONNECTIONS),
     Decl(STATE_BOOTSTRAP_DIAL_WAITING_FOR_CONNECTIONS, EVENT_CONN_STATE_MACHINE_CONNECTED,
          STATE_BOOTSTRAP_DIAL_WAITING_FOR_CONNECTIONS),
     Decl(STATE_BOOTSTRAP_DIAL_WAITING_FOR_CONNECTIONS, EVENT_SATISFIED, STATE_BOOTSTRAP_DIAL_SEND_HELLO),
     Decl(STATE_BOOTSTRAP_DIAL_SEND_HELLO, EVENT_PACKAGE_SENT, STATE_BOOTSTRAP_DIAL_HELLO_SENT),
     Decl(STATE_BOOTSTRAP_DIAL_HELLO_SENT, EVENT_NEEDS_RECV, STATE_BOOTSTRAP_DIAL_AWAIT_RESPONSE),
     Decl(STATE_BOOTSTRAP_DIAL_AWAIT_RESPONSE, EVENT_RECEIVE_PACKAGE, STATE_BOOTSTRAP_DIAL_RECV_RESPONSE),
     Decl(STATE_BOOTSTRAP_DIAL_RECV_RESPONSE, EVENT_SATISFIED, STATE_BOOTSTRAP_DIAL_WAITING_FOR_FINAL_CONNECTIONS),
     Decl(STATE_BOOTSTRAP_DIAL_WAITING_FOR_FINAL_CONNECTIONS, EVENT_CONN_STATE_MACHINE_CONNECTED,
          STATE_BOOTSTRAP_DIAL_WAITING_FOR_FINAL_CONNECTIONS),
     Decl(STATE_BOOTSTRAP_DIAL_WAITING_FOR_FINAL_CONNECTIONS, EVENT_SATISFIED, STATE_BOOTSTRAP_DIAL_FINISHED),
     Decl(STATE_BOOTSTRAP_DIAL_HELLO_SENT, EVENT_SATISFIED, STATE_BOOTSTRAP_DIAL_FINISHED)]
  }

  /**
   * The bootstrap dial lifecycle: initial connections, hello, response (or
   * none needed), final connections.
   */
  function BootstrapDialNext(s: StateType, e: EventType): Option<StateType> {
    if s == STATE_BOOTSTRAP_DIAL_INITIAL && e == EVENT_ALWAYS then Some(STATE_BOOTSTRAP_DIAL_WAITING_FOR_CONNECTIONS)
    else if s == STATE_BOOTSTRAP_DIAL_WAITING_FOR_CONNECTIONS && e == EVENT_CONN_STATE_MACHINE_CONNECTED then
      Some(STATE_BOOTSTRAP_DIAL_WAITING_FOR_CONNECTIONS)
    else if s == STATE_BOOTSTRAP_DIAL_WAITING_FOR_CONNECTIONS && e == EVENT_SATISFIED then
      Some(STATE_BOOTSTRAP_DIAL_SEND_HELLO)
    else if s == STATE_BOOTSTRAP_DIAL_SEND_HELLO && e == EVENT_PACKAGE_SENT then Some(STATE_BOOTSTRAP_DIAL_HELLO_SENT)
    else if s == STATE_BOOTSTRAP_DIAL_HELLO_SENT && e == EVENT_NEEDS_RECV then Some(STATE_BOOTSTRAP_DIAL_AWAIT_RESPONSE)
    else if s == STATE_BOOTSTRAP_DIAL_HELLO_SENT && e == EVENT_SATISFIED then Some(STATE_BOOTSTRAP_DIAL_FINISHED)
    else if s == STATE_BOOTSTRAP_DIAL_AWAIT_RESPONSE && e == EVENT_RECEIVE_PACKAGE then
      Some(STATE_BOOTSTRAP_DIAL_RECV_RESPONSE)
    else if s == STATE_BOOTSTRAP_DIAL_RECV_RESPONSE && e == EVENT_SATISFIED then
      Some(STATE_BOOTSTRAP_DIAL_WAITING_FOR_FINAL_CONNECTIONS)
    else if s == STATE_BOOTSTRAP_DIAL_WAITING_FOR_FINAL_CONNECTIONS && e == EVENT_CONN_STATE_MACHINE_CONNECTED then
      Some(STATE_BOOTSTRAP_DIAL_WAITING_FOR_FINAL_CONNECTIONS)
    else if s == STATE_BOOTSTRAP_DIAL_WAITING_FOR_FINAL_CONNECTIONS && e == EVENT_SATISFIED then
      Some(STATE_BOOTSTRAP_DIAL_FINISHED)
    else None
  }

  lemma BootstrapDialDeclTargets(s: StateType, e: EventType)
    ensures DeclTargets(BootstrapDialDecls(), s, e) == TargetSet(BootstrapDialNext(s, e))
  {
  }

  /** The declared table is the bootstrap dial lifecycle. */
  lemma BootstrapDialDeclsFollow()
    ensures Follows(DeclareAll(map[], BootstrapDialDecls()), BootstrapDialNext)
  {
    forall s, e
      ensures Declares(DeclareAll(map[], BootstrapDialDecls()), s, e) <==> BootstrapDialNext(s, e).Some?
      ensures Targets(DeclareAll(map[], BootstrapDialDecls()), s, e) == TargetSet(BootstrapDialNext(s, e))
    {
      BootstrapDialDeclTargets(s, e);
      DeclaredTable(BootstrapDialDecls(), s, e, BootstrapDialNext(s, e));
    }
  }

  /** What BootstrapDialStateEngine's constructor builds. */
  ghost predicate IsBootstrapDialTable(w: World, t: Table<BootstrapDialCtx>) {
    && t.states == BootstrapDialStates(w)
    && Follows(t.transitions, BootstrapDialNext)
    && t.initStateId == STATE_BOOTSTRAP_DIAL_INITIAL && t.failedStateId == STATE_BOOTSTRAP_DIAL_FAILED
  }

  /** BootstrapDialStateEngine's constructor. */
  method NewBootstrapDialStateEngine(w: World) returns (e: StateEngine<BootstrapDialCtx>)
    ensures IsBootstrapDialTable(w, e.Spec())
  {
    e := new StateEngine();
    e.AddInitialState(STATE_BOOTSTRAP_DIAL_INITIAL, PlainState((cur: StateType, c: BootstrapDialCtx) => Initial(w, c)));
    e.AddState(STATE_BOOTSTRAP_DIAL_WAITING_FOR_CONNECTIONS,
               PlainState((cur: StateType, c: BootstrapDialCtx) => WaitingForConnections(c)));
    e.AddState(STATE_BOOTSTRAP_DIAL_SEND_HELLO, PlainState((cur: StateType, c: BootstrapDialCtx) => SendHello(w, c)));
    e.AddState(STATE_BOOTSTRAP_DIAL_HELLO_SENT, PlainState((cur: StateType, c: BootstrapDialCtx) => HelloSent(c)));
    e.AddState(STATE_BOOTSTRAP_DIAL_AWAIT_RESPONSE,
               PlainState((cur: StateType, c: BootstrapDialCtx) => DefaultEnter(cur, c)));
    e.AddState(STATE_BOOTSTRAP_DIAL_RECV_RESPONSE,
               PlainState((cur: StateType, c: BootstrapDialCtx) => RecvResponses(w, c)));
    e.AddState(STATE_BOOTSTRAP_DIAL_WAITING_FOR_FINAL_CONNECTIONS,
               PlainState((cur: StateType, c: BootstrapDialCtx) => WaitingForFinalConnections(c)));
    e.AddState(STATE_BOOTSTRAP_DIAL_FINISHED, FinalState((cur: StateType, c: BootstrapDialCtx) => Finished(w, c)));
    e.AddFailedState(STATE_BOOTSTRAP_DIAL_FAILED, PlainState((cur: StateType, c: BootstrapDialCtx) => Failed(c)));
    e.DeclareTransitions(BootstrapDialDecls());
    BootstrapDialDeclsFollow();
  }

  // ---------------------------------------------------------------------
  // Properties
  // ---------------------------------------------------------------------

  /**
   * Once the hello is sent, a dial still missing a final connection
   * listens for the response under its package id and waits for it.
   */
  lemma HelloSentAwaitsResponse(w: World, t: Table<BootstrapDialCtx>, c: Config<BootstrapDialCtx>, fuel: nat)
    requires IsBootstrapDialTable(w, t)
    requires c.currentStateId == STATE_BOOTSTRAP_DIAL_SEND_HELLO && c.pendingEvents == [] && fuel >= 2
    requires c.data.links.finalSend.connId == "" || c.data.links.finalRecv.connId == ""
    ensures var r := HandleEventSpec(t, c, EVENT_PACKAGE_SENT, fuel);
            && r.result == SUCCESS
            && r.config.currentStateId == STATE_BOOTSTRAP_DIAL_AWAIT_RESPONSE
            && r.handled == [EVENT_PACKAGE_SENT, EVENT_NEEDS_RECV]
            && r.config.data == c.data.(env := Tell(c.data.env, RegisterPackageId(c.data.handle,
                                                     c.data.links.initRecv.connId, c.data.packageId)))
  {
    AwaitingSteps(w, t, c.data, fuel);
    SentThenAwaiting(t, c, fuel);
  }

  /** The two table steps SentThenAwaiting composes. */
  lemma AwaitingSteps(w: World, t: Table<BootstrapDialCtx>, d: BootstrapDialCtx, fuel: nat)
    requires IsBootstrapDialTable(w, t)
    requires fuel >= 2
    ensures HasFailedState(t)
    ensures Drain(t, Config(STATE_BOOTSTRAP_DIAL_SEND_HELLO, [EVENT_PACKAGE_SENT], d), fuel)
            == Prepend([EVENT_PACKAGE_SENT],
                       Drain(t, Config(STATE_BOOTSTRAP_DIAL_HELLO_SENT, HelloSent(d).pushed, HelloSent(d).data), fuel - 1))
    ensures Drain(t, Config(STATE_BOOTSTRAP_DIAL_HELLO_SENT, [EVENT_NEEDS_RECV], HelloSent(d).data), fuel - 1)
            == Prepend([EVENT_NEEDS_RECV],
                       Drain(t, Config(STATE_BOOTSTRAP_DIAL_AWAIT_RESPONSE, [], HelloSent(d).data), fuel - 2))
  {
    PackageSentStep(w, t, d, fuel);
    NeedsRecvStep(w, t, HelloSent(d).data, fuel - 1);
  }

  /** The two steps of HelloSentAwaitsResponse put together, for any table that takes them. */
  lemma SentThenAwaiting(t: Table<BootstrapDialCtx>, c: Config<BootstrapDialCtx>, fuel: nat)
    requires HasFailedState(t)
    requires c.currentStateId == STATE_BOOTSTRAP_DIAL_SEND_HELLO && c.pendingEvents == [] && fuel >= 2
    requires c.data.links.finalSend.connId == "" || c.data.links.finalRecv.connId == ""
    requires Drain(t, Config(STATE_BOOTSTRAP_DIAL_SEND_HELLO, [EVENT_PACKAGE_SENT], c.data), fuel)
             == Prepend([EVENT_PACKAGE_SENT],
                        Drain(t, Config(STATE_BOOTSTRAP_DIAL_HELLO_SENT, HelloSent(c.data).pushed, HelloSent(c.data).data),
                              fuel - 1))
    requires Drain(t, Config(STATE_BOOTSTRAP_DIAL_HELLO_SENT, [EVENT_NEEDS_RECV], HelloSent(c.data).data), fuel - 1)
             == Prepend([EVENT_NEEDS_RECV],
                        Drain(t, Config(STATE_BOOTSTRAP_DIAL_AWAIT_RESPONSE, [], HelloSent(c.data).data), fuel - 2))
    ensures var r := HandleEventSpec(t, c, EVENT_PACKAGE_SENT, fuel);
            && r.result == SUCCESS
            && r.config.currentStateId == STATE_BOOTSTRAP_DIAL_AWAIT_RESPONSE
            && r.handled == [EVENT_PACKAGE_SENT, EVENT_NEEDS_RECV]
            && r.config.data == c.data.(env := Tell(c.data.env, RegisterPackageId(c.data.handle,
                                                     c.data.links.initRecv.connId, c.data.packageId)))
  {
    assert c.(pendingEvents := c.pendingEvents + [EVENT_PACKAGE_SENT])
           == Config(STATE_BOOTSTRAP_DIAL_SEND_HELLO, [EVENT_PACKAGE_SENT], c.data);
  }

  /**
   * A dial whose final connections are both up when the hello is sent
   * skips the response and finishes at once, exactly when the conduit
   * starts and the callback is set.
   */
  lemma HelloSentFinishesWhenLinked(w: World, t: Table<BootstrapDialCtx>, c: Config<BootstrapDialCtx>, fuel: nat)
    requires IsBootstrapDialTable(w, t)
    requires c.currentStateId == STATE_BOOTSTRAP_DIAL_SEND_HELLO && c.pendingEvents == [] && fuel >= 2
    requires c.data.links.finalSend.connId != "" && c.data.links.finalRecv.connId != ""
    ensures var r := HandleEventSpec(t, c, EVENT_PACKAGE_SENT, fuel);
            var f := Finished(w, c.data);
            && r.handled == [EVENT_PACKAGE_SENT, EVENT_SATISFIED]
            && (r.result == SUCCESS <==> f.Returned? && f.result == SUCCESS)
            && (r.result == SUCCESS ==> r.config.currentStateId == STATE_BOOTSTRAP_DIAL_FINISHED && r.config.data == f.data)
            && (r.result != SUCCESS ==> r.config.currentStateId == STATE_BOOTSTRAP_DIAL_FAILED)
  {
    FinishingSteps(w, t, c.data, fuel);
    SentThenFinished(w, t, c, fuel);
  }

  /** The two table steps SentThenFinished composes. */
  lemma FinishingSteps(w: World, t: Table<BootstrapDialCtx>, d: BootstrapDialCtx, fuel: nat)
    requires IsBootstrapDialTable(w, t)
    requires fuel >= 2
    ensures HasFailedState(t)
    ensures Drain(t, Config(STATE_BOOTSTRAP_DIAL_SEND_HELLO, [EVENT_PACKAGE_SENT], d), fuel)
            == Prepend([EVENT_PACKAGE_SENT],
                       Drain(t, Config(STATE_BOOTSTRAP_DIAL_HELLO_SENT, HelloSent(d).pushed, HelloSent(d).data), fuel - 1))
    ensures FinishesOnSatisfied(w, Drain(t, Config(STATE_BOOTSTRAP_DIAL_HELLO_SENT, [EVENT_SATISFIED], d), fuel - 1), d)
  {
    SatisfiedStep(w, t, d, fuel - 1);
    PackageSentStep(w, t, d, fuel);
  }

  /** The two steps of HelloSentFinishesWhenLinked put together, for any table that takes them. */
  lemma SentThenFinished(w: World, t: Table<BootstrapDialCtx>, c: Config<BootstrapDialCtx>, fuel: nat)
    requires HasFailedState(t)
    requires c.currentStateId == STATE_BOOTSTRAP_DIAL_SEND_HELLO && c.pendingEvents == [] && fuel >= 2
    requires c.data.links.finalSend.connId != "" && c.data.links.finalRecv.connId != ""
    requires Drain(t, Config(STATE_BOOTSTRAP_DIAL_SEND_HELLO, [EVENT_PACKAGE_SENT], c.data), fuel)
             == Prepend([EVENT_PACKAGE_SENT],
                        Drain(t, Config(STATE_BOOTSTRAP_DIAL_HELLO_SENT, HelloSent(c.data).pushed, HelloSent(c.data).data),
                              fuel - 1))
    requires FinishesOnSatisfied(w, Drain(t, Config(STATE_BOOTSTRAP_DIAL_HELLO_SENT, [EVENT_SATISFIED], c.data), fuel - 1),
                                 c.data)
    ensures var r := HandleEventSpec(t, c, EVENT_PACKAGE_SENT, fuel);
            var f := Finished(w, c.data);
            && r.handled == [EVENT_PACKAGE_SENT, EVENT_SATISFIED]
            && (r.result == SUCCESS <==> f.Returned? && f.result == SUCCESS)
            && (r.result == SUCCESS ==> r.config.currentStateId == STATE_BOOTSTRAP_DIAL_FINISHED && r.config.data == f.data)
            && (r.result != SUCCESS ==> r.config.currentStateId == STATE_BOOTSTRAP_DIAL_FAILED)
  {
    assert c.(pendingEvents := c.pendingEvents + [EVENT_PACKAGE_SENT])
           == Config(STATE_BOOTSTRAP_DIAL_SEND_HELLO, [EVENT_PACKAGE_SENT], c.data);
  }

  /** What handling SATISFIED in HELLO_SENT comes to: the dial finishes, or fails as finishing fails. */
  ghost predicate FinishesOnSatisfied(w: World, r: Drained<BootstrapDialCtx>, d: BootstrapDialCtx) {
    var f := Finished(w, d);
    && r.handled == [EVENT_SATISFIED]
    && (r.result == SUCCESS <==> f.Returned? && f.result == SUCCESS)
    && (r.result == SUCCESS ==> r.config.currentStateId == STATE_BOOTSTRAP_DIAL_FINISHED && r.config.data == f.data)
    && (r.result != SUCCESS ==> r.config.currentStateId == STATE_BOOTSTRAP_DIAL_FAILED)
  }

  /** In SEND_HELLO, PACKAGE_SENT enters HELLO_SENT, which queues what HelloSent pushes. */
  lemma PackageSentStep(w: World, t: Table<BootstrapDialCtx>, d: BootstrapDialCtx, fuel: nat)
    requires IsBootstrapDialTable(w, t)
    requires fuel >= 1
    ensures HasFailedState(t)
    ensures Drain(t, Config(STATE_BOOTSTRAP_DIAL_SEND_HELLO, [EVENT_PACKAGE_SENT], d), fuel)
            == Prepend([EVENT_PACKAGE_SENT],
                       Drain(t, Config(STATE_BOOTSTRAP_DIAL_HELLO_SENT, HelloSent(d).pushed, HelloSent(d).data), fuel - 1))
  {
    var c := Config(STATE_BOOTSTRAP_DIAL_SEND_HELLO, [], d);
    assert Targets(t.transitions, STATE_BOOTSTRAP_DIAL_SEND_HELLO, EVENT_PACKAGE_SENT)
           == TargetSet(BootstrapDialNext(STATE_BOOTSTRAP_DIAL_SEND_HELLO, EVENT_PACKAGE_SENT));
    HandleOneMoves(t, c, EVENT_PACKAGE_SENT, STATE_BOOTSTRAP_DIAL_HELLO_SENT);
    assert t.states[STATE_BOOTSTRAP_DIAL_SEND_HELLO].exit(STATE_BOOTSTRAP_DIAL_SEND_HELLO, d) == Returned(SUCCESS, d, []);
    assert t.states[STATE_BOOTSTRAP_DIAL_HELLO_SENT].enter(STATE_BOOTSTRAP_DIAL_SEND_HELLO, d) == HelloSent(d);
    TransitionByEnter(t, c, STATE_BOOTSTRAP_DIAL_HELLO_SENT);
    var c2 := Config(STATE_BOOTSTRAP_DIAL_HELLO_SENT, HelloSent(d).pushed, HelloSent(d).data);
    assert c.pendingEvents + HelloSent(d).pushed == c2.pendingEvents;
    assert HandleOne(t, c, EVENT_PACKAGE_SENT) == (SUCCESS, c2);
  }

  /** In HELLO_SENT, NEEDS_RECV moves to AWAIT_RESPONSE and changes nothing else. */
  lemma NeedsRecvStep(w: World, t: Table<BootstrapDialCtx>, d: BootstrapDialCtx, fuel: nat)
    requires IsBootstrapDialTable(w, t)
    requires fuel >= 1
    ensures HasFailedState(t)
    ensures Drain(t, Config(STATE_BOOTSTRAP_DIAL_HELLO_SENT, [EVENT_NEEDS_RECV], d), fuel)
            == Prepend([EVENT_NEEDS_RECV], Drain(t, Config(STATE_BOOTSTRAP_DIAL_AWAIT_RESPONSE, [], d), fuel - 1))
  {
    var c := Config(STATE_BOOTSTRAP_DIAL_HELLO_SENT, [], d);
    assert Targets(t.transitions, STATE_BOOTSTRAP_DIAL_HELLO_SENT, EVENT_NEEDS_RECV)
           == TargetSet(BootstrapDialNext(STATE_BOOTSTRAP_DIAL_HELLO_SENT, EVENT_NEEDS_RECV));
    HandleOneMoves(t, c, EVENT_NEEDS_RECV, STATE_BOOTSTRAP_DIAL_AWAIT_RESPONSE);
    assert t.states[STATE_BOOTSTRAP_DIAL_HELLO_SENT].exit(STATE_BOOTSTRAP_DIAL_HELLO_SENT, d) == Returned(SUCCESS, d, []);
    assert t.states[STATE_BOOTSTRAP_DIAL_AWAIT_RESPONSE].enter(STATE_BOOTSTRAP_DIAL_HELLO_SENT, d)
           == Returned(SUCCESS, d, []);
    TransitionByEnter(t, c, STATE_BOOTSTRAP_DIAL_AWAIT_RESPONSE);
    var c4 := Config(STATE_BOOTSTRAP_DIAL_AWAIT_RESPONSE, [], d);
    assert c.pendingEvents + [] == c4.pendingEvents;
    assert HandleOne(t, c, EVENT_NEEDS_RECV) == (SUCCESS, c4);
  }

  /** In HELLO_SENT, SATISFIED enters FINISHED: the dial finishes, or fails as finishing fails. */
  lemma SatisfiedStep(w: World, t: Table<BootstrapDialCtx>, d: BootstrapDialCtx, fuel: nat)
    requires IsBootstrapDialTable(w, t)
    requires fuel >= 1
    ensures HasFailedState(t)
    ensures FinishesOnSatisfied(w, Drain(t, Config(STATE_BOOTSTRAP_DIAL_HELLO_SENT, [EVENT_SATISFIED], d), fuel), d)
  {
    var c := Config(STATE_BOOTSTRAP_DIAL_HELLO_SENT, [], d);
    assert Targets(t.transitions, STATE_BOOTSTRAP_DIAL_HELLO_SENT, EVENT_SATISFIED)
           == TargetSet(BootstrapDialNext(STATE_BOOTSTRAP_DIAL_HELLO_SENT, EVENT_SATISFIED));
    HandleOneMoves(t, c, EVENT_SATISFIED, STATE_BOOTSTRAP_DIAL_FINISHED);
    assert t.states[STATE_BOOTSTRAP_DIAL_HELLO_SENT].exit(STATE_BOOTSTRAP_DIAL_HELLO_SENT, d) == Returned(SUCCESS, d, []);
    assert t.states[STATE_BOOTSTRAP_DIAL_FINISHED].enter(STATE_BOOTSTRAP_DIAL_HELLO_SENT, d) == Finished(w, d);
    TransitionByEnter(t, c, STATE_BOOTSTRAP_DIAL_FINISHED);
    var (res, c4) := HandleOne(t, c, EVENT_SATISFIED);
    assert Drain(t, Config(STATE_BOOTSTRAP_DIAL_HELLO_SENT, [EVENT_SATISFIED], d), fuel)
           == if res != SUCCESS then Drained(res, FailSpec(t, c4), [EVENT_SATISFIED])
              else Prepend([EVENT_SATISFIED], Drain(t, c4, fuel - 1));
  }

  /**
   * The first response moves the dial from AWAIT_RESPONSE to RECV_RESPONSE;
   * when no queued response is usable the queue is emptied and the dial
   * stays there with nothing more to do.
   */
  lemma UnusableResponseParksDial(w: World, t: Table<BootstrapDialCtx>, c: Config<BootstrapDialCtx>, pkg: Bytes,
                                  fuel: nat)
    requires IsBootstrapDialTable(w, t)
    requires c.currentStateId == STATE_BOOTSTRAP_DIAL_AWAIT_RESPONSE && c.pendingEvents == [] && fuel > 0
    ensures var d := Apply(c.data, UReceiveEncPkg("", pkg));
            var o := RecvResponses(w, d);
            var r := HandleEventSpec(t, c.(data := d), EVENT_RECEIVE_PACKAGE, fuel);
            && (o.result == SUCCESS && o.pushed == [] ==>
                  && r == Drained(SUCCESS, Config(STATE_BOOTSTRAP_DIAL_RECV_RESPONSE, [], o.data), [EVENT_RECEIVE_PACKAGE])
                  && o.data.responseData == [])
            && (o.result == NOT_SUPPORTED ==>
                  r.result == NOT_SUPPORTED && r.config.currentStateId == STATE_BOOTSTRAP_DIAL_FAILED)
  {
    var d := Apply(c.data, UReceiveEncPkg("", pkg));
    var c0 := c.(data := d);
    var c1 := c0.(pendingEvents := [EVENT_RECEIVE_PACKAGE]);
    assert Targets(t.transitions, STATE_BOOTSTRAP_DIAL_AWAIT_RESPONSE, EVENT_RECEIVE_PACKAGE)
           == TargetSet(BootstrapDialNext(STATE_BOOTSTRAP_DIAL_AWAIT_RESPONSE, EVENT_RECEIVE_PACKAGE));
    HandleOneMoves(t, c0, EVENT_RECEIVE_PACKAGE, STATE_BOOTSTRAP_DIAL_RECV_RESPONSE);
    assert t.states[STATE_BOOTSTRAP_DIAL_AWAIT_RESPONSE].exit(STATE_BOOTSTRAP_DIAL_AWAIT_RESPONSE, d)
           == Returned(SUCCESS, d, []);
    assert t.states[STATE_BOOTSTRAP_DIAL_RECV_RESPONSE].enter(STATE_BOOTSTRAP_DIAL_AWAIT_RESPONSE, d)
           == RecvResponses(w, d);
    TransitionByEnter(t, c0, STATE_BOOTSTRAP_DIAL_RECV_RESPONSE);
    var (res, c2) := HandleOne(t, c0, EVENT_RECEIVE_PACKAGE);
    assert Drain(t, c1, fuel) == if res != SUCCESS then Drained(res, FailSpec(t, c2), [EVENT_RECEIVE_PACKAGE])
                                 else Prepend([EVENT_RECEIVE_PACKAGE], Drain(t, c2, fuel - 1));
  }

  /**
   * RECV_RESPONSE declares no package event: a response that arrives after
   * the dial has parked there fails the dial.
   */
  lemma LateResponseFailsDial(w: World, t: Table<BootstrapDialCtx>, c: Config<BootstrapDialCtx>, pkg: Bytes, fuel: nat)
    requires IsBootstrapDialTable(w, t)
    requires c.currentStateId == STATE_BOOTSTRAP_DIAL_RECV_RESPONSE && c.pendingEvents == [] && fuel > 0
    ensures var r := HandleEventSpec(t, c.(data := Apply(c.data, UReceiveEncPkg("", pkg))), EVENT_RECEIVE_PACKAGE, fuel);
            r.result == NOT_SUPPORTED && r.config.currentStateId == STATE_BOOTSTRAP_DIAL_FAILED
  {
    assert !Declares(t.transitions, STATE_BOOTSTRAP_DIAL_RECV_RESPONSE, EVENT_RECEIVE_PACKAGE);
  }

  ghost predicate CallbackOnce(c: BootstrapDialCtx, cb: Callback) {
    OneShot(c.dialCallback, c.env.fired, cb)
  }

  lemma InitialKeepsCallbackOnce(w: World, c: BootstrapDialCtx, cb: Callback)
    requires CallbackOnce(c, cb)
    ensures CallbackOnce(Initial(w, c).data, cb)
  {
    var d := Initial(w, c).data;
    var c0 := WithPackageId(w, c);
    if d.env.fired != c.env.fired {
      FireAndClear(c.dialCallback, c0.env, cb, CHANNEL_INVALID, NoConduit);
    }
  }

  lemma FinishedKeepsCallbackOnce(w: World, c: BootstrapDialCtx, cb: Callback)
    requires CallbackOnce(c, cb)
    ensures CallbackOnce(Finished(w, c).data, cb)
  {
    var n := |c.env.requests|;
    var api := w.answer(n).handle;
    var start := StartConduit(c.handle, c.links.finalRecv.connSM, c.links.finalRecv.connId,
                              c.links.finalSend.connSM, c.links.finalSend.connId, c.opts.final_send_channel,
                              c.opts.final_recv_channel, c.packageId, [], api);
    FireAndClear(c.dialCallback, Tell(Tell(c.env, GenerateHandle), start), cb, OK, PHandle(api));
  }

  lemma StateKeepsCallbackOnce(w: World, s: StateType, cur: StateType, c: BootstrapDialCtx, cb: Callback)
    requires s in BootstrapDialStates(w) && CallbackOnce(c, cb)
    ensures CallbackOnce(BootstrapDialStates(w)[s].enter(cur, c).data, cb)
    ensures CallbackOnce(BootstrapDialStates(w)[s].exit(cur, c).data, cb)
  {
    var st := BootstrapDialStates(w);
    if s == STATE_BOOTSTRAP_DIAL_INITIAL {
      assert st[s].enter(cur, c) == Initial(w, c);
      InitialKeepsCallbackOnce(w, c, cb);
    } else if s == STATE_BOOTSTRAP_DIAL_FINISHED {
      assert st[s].enter(cur, c) == Finished(w, c);
      FinishedKeepsCallbackOnce(w, c, cb);
    } else if s == STATE_BOOTSTRAP_DIAL_FAILED {
      assert st[s].enter(cur, c) == Failed(c);
      FireAndClear(c.dialCallback, c.env, cb, INTERNAL_ERROR, NoConduit);
    } else if s == STATE_BOOTSTRAP_DIAL_SEND_HELLO {
      assert st[s].enter(cur, c) == SendHello(w, c);
    } else if s == STATE_BOOTSTRAP_DIAL_RECV_RESPONSE {
      assert st[s].enter(cur, c) == RecvResponses(w, c);
    }
  }

  /** Every state that fires the dial callback clears it. */
  lemma StatesKeepCallbackOnce(w: World, t: Table<BootstrapDialCtx>, cb: Callback)
    requires IsBootstrapDialTable(w, t)
    ensures Keeps(t, (c: BootstrapDialCtx) => CallbackOnce(c, cb))
  {
    forall s, cur, c | s in t.states && CallbackOnce(c, cb)
      ensures CallbackOnce(t.states[s].enter(cur, c).data, cb)
      ensures CallbackOnce(t.states[s].exit(cur, c).data, cb)
    {
      StateKeepsCallbackOnce(w, s, cur, c, cb);
    }
  }

  /** A bootstrap dial started with cb set and nothing fired fires cb at most once. */
  lemma StartFiresCallbackAtMostOnce(w: World, t: Table<BootstrapDialCtx>, c: Config<BootstrapDialCtx>, fuel: nat,
                                     cb: Callback)
    requires IsBootstrapDialTable(w, t)
    requires c.data.dialCallback == Some(cb) && c.data.env.fired == []
    ensures Count(StartSpec(t, c, fuel).config.data.env.fired, cb) <= 1
  {
    StatesKeepCallbackOnce(w, t, cb);
    StartKeeps(t, c, fuel, (d: BootstrapDialCtx) => CallbackOnce(d, cb));
  }

  /** ... and keeps firing it at most once on every later event. */
  lemma HandleEventKeepsCallbackOnce(w: World, t: Table<BootstrapDialCtx>, c: Config<BootstrapDialCtx>, e: EventType,
                                     fuel: nat, cb: Callback)
    requires IsBootstrapDialTable(w, t)
    requires CallbackOnce(c.data, cb)
    ensures Count(HandleEventSpec(t, c, e, fuel).config.data.env.fired, cb) <= 1
  {
    StatesKeepCallbackOnce(w, t, cb);
    HandleEventKeeps(t, c, e, fuel, (d: BootstrapDialCtx) => CallbackOnce(d, cb));
  }
}

=== FILE: bootstraplisten.dfy ===
// The bootstrap listen state machine (source/state-machine/BootstrapListenStateMachine.cpp):
// open the initial links, report their addresses to the application as one
// JSON text named for the dialer, then turn each dial hello into a
// bootstrap pre-conduit and hand the pre-conduits to the application's
// accept calls, first come first served.

module BootstrapListenMachine {
  import opened Common
  import opened Engine
  import opened ApiContext
  import ListenMachine
  import BootstrapDialMachine

  const STATE_BOOTSTRAP_LISTEN_INITIAL: StateType := 3
  const STATE_BOOTSTRAP_LISTEN_WAITING_FOR_CONNECTIONS: StateType := 4
  const STATE_BOOTSTRAP_LISTEN_WAITING_FOR_HELLOS: StateType := 5
  const STATE_BOOTSTRAP_LISTEN_FINISHED: StateType := 6
  const STATE_BOOTSTRAP_LISTEN_FAILED: StateType := 7

  /**
   * ApiBootstrapListenContext. `data` is the queue of received packages and
   * `preBootstrapConduitSM` the queue of started pre-conduits, fronts
   * first; `acceptCb` is the deque of accept callbacks. The four slots
   * start out NULL and empty.
   */
  datatype BootstrapListenCtx = BootstrapListenCtx(
    handle: RaceHandle,
    opts: BootstrapConnectionOptions,
    listenCb: Option<Callback>,
    acceptCb: seq<Callback>,
    closeCb: Option<Callback>,
    data: seq<Bytes>,
    preBootstrapConduitSM: seq<RaceHandle>,
    links: BootstrapLinks,
    env: Env)

  /** What the listen callback receives when there is no listener. */
  const NoAddress := PAddress("", NULL_RACE_HANDLE)
  /** What an accept callback receives when there is no conduit. */
  const NoConduit := PHandle(NULL_RACE_HANDLE)

  /** The hooks ApiBootstrapListenContext overrides; accept calls and packages queue up at the back. */
  function Apply(c: BootstrapListenCtx, u: Update): (r: BootstrapListenCtx)
    ensures u.UBootstrapListen? ==> r == c.(opts := u.bootOpts, listenCb := Some(u.cb))
    ensures u.UAccept? ==> r == c.(acceptCb := c.acceptCb + [u.cb])
    ensures u.UClose? ==> r == c.(closeCb := Some(u.cb))
    ensures u.UReceiveEncPkg? ==> r == c.(data := c.data + [u.data])
    ensures u.UConnStateMachineConnected? ==> r == c.(links := SlotConnected(c.links, u.handle, u.connId, u.linkAddress))
    ensures (&& !u.UBootstrapListen? && !u.UAccept? && !u.UClose? && !u.UReceiveEncPkg?
             && !u.UConnStateMachineConnected?) ==> r == c
  {
    match u
    case UBootstrapListen(opts, cb) => c.(opts := opts, listenCb := Some(cb))
    case UAccept(_, cb) => c.(acceptCb := c.acceptCb + [cb])
    case UClose(_, cb) => c.(closeCb := Some(cb))
    case UReceiveEncPkg(_, pkg) => c.(data := c.data + [pkg])
    case UConnStateMachineConnected(h, connId, address) => c.(links := SlotConnected(c.links, h, connId, address))
    case _ => c
  }

  // ---------------------------------------------------------------------
  // The initial links
  // ---------------------------------------------------------------------

  /** d is c after calls that only start connection machines, with nothing fired. */
  predicate Quiet(c: BootstrapListenCtx, d: BootstrapListenCtx) {
    && d == c.(links := d.links, env := d.env)
    && SameIds(c.links, d.links)
    && c.env.requests <= d.env.requests && d.env.fired == c.env.fired
  }

  /** d is c after calls that start connection machines, and at most a CHANNEL_INVALID report. */
  predicate Reported(c: BootstrapListenCtx, d: BootstrapListenCtx) {
    || Quiet(c, d)
    || (&& d == c.(links := d.links, env := d.env, listenCb := None)
        && SameIds(c.links, d.links) && c.env.requests <= d.env.requests && c.listenCb.Some?
        && d.env.fired == c.env.fired + [Fired(c.listenCb.value, CHANNEL_INVALID, NoAddress)])
  }

  /** Report status with no listener, clear the callback and fail; an empty callback throws. */
  function Reject(c: BootstrapListenCtx, status: ApiStatus): (o: Outcome<BootstrapListenCtx>)
    ensures c.listenCb.None? ==> o == Threw(c, [])
    ensures c.listenCb.Some? ==>
              o == Returned(NOT_SUPPORTED, c.(listenCb := None,
                                              env := InvokeIfSet(c.env, c.listenCb, status, NoAddress)), [])
  {
    match Invoke(c.env, c.listenCb, status, NoAddress)
    case None => Threw(c, [])
    case Some(env) => Returned(NOT_SUPPORTED, c.(listenCb := None, env := env), [])
  }

  /** Start a connection machine into slot n. */
  function Start(w: World, c: BootstrapListenCtx, n: SlotName, channel: ChannelId, role: string,
                 address: LinkAddress, create: bool, sending: bool): (r: BootstrapListenCtx)
    ensures Quiet(c, r)
    ensures r.env.requests == c.env.requests + [StartConnStateMachine(c.handle, channel, role, address, create, sending)]
    ensures GetSlot(r.links, n).connSM == w.answer(|c.env.requests|).handle
    ensures forall m :: m != n ==> GetSlot(r.links, m) == GetSlot(c.links, m)
  {
    var (env1, links1) := StartLink(w, c.env, c.links, c.handle, n, channel, role, address, create, sending);
    c.(links := links1, env := env1)
  }

  /** A NULL handle in slot n is NOT_SUPPORTED; otherwise route it to this context. */
  function Register(c: BootstrapListenCtx, n: SlotName): (s: Stage<BootstrapListenCtx>)
    ensures !s.Skip?
    ensures s.Stop? <==> GetSlot(c.links, n).connSM == NULL_RACE_HANDLE
    ensures s.Stop? ==> s.o == Returned(NOT_SUPPORTED, c, [])
    ensures s.Proceed? ==> s.c == c.(env := Tell(c.env, RegisterHandle(c.handle, GetSlot(c.links, n).connSM)))
  {
    if GetSlot(c.links, n).connSM == NULL_RACE_HANDLE then Stop(Returned(NOT_SUPPORTED, c, []))
    else Proceed(c.(env := Tell(c.env, RegisterHandle(c.handle, GetSlot(c.links, n).connSM))))
  }

  /** Whether the listener opens its initial send link: it creates it, or it was given an address to load. */
  predicate OpensInitSend(w: World, opts: BootstrapConnectionOptions) {
    ShouldCreateSender(w, opts.init_send_channel) || opts.init_send_address != ""
  }

  /**
   * The initial send link: created here when this side is its creator,
   * loaded from the given address otherwise, and left alone when there is
   * no address to load.
   */
  function InitSendStage(w: World, c: BootstrapListenCtx): (s: Stage<BootstrapListenCtx>)
    ensures !s.Skip?
    ensures !OpensInitSend(w, c.opts) ==> s == Proceed(c)
    ensures s.Proceed? ==> Quiet(c, s.c) && s.c.links.(initSend := c.links.initSend) == c.links
    ensures s.Proceed? && OpensInitSend(w, c.opts) ==>
              var create := ShouldCreateSender(w, c.opts.init_send_channel);
              var h := w.answer(|c.env.requests|).handle;
              && s.c.links.initSend.connSM == h && h != NULL_RACE_HANDLE
              && s.c.env.requests == c.env.requests
                   + [StartConnStateMachine(c.handle, c.opts.init_send_channel, c.opts.init_send_role,
                                            c.opts.init_send_address, create, true),
                      RegisterHandle(c.handle, h)]
    ensures s.Stop? ==> s.o == Returned(NOT_SUPPORTED, s.o.data, []) && Quiet(c, s.o.data)
  {
    var create := ShouldCreateSender(w, c.opts.init_send_channel);
    if !create && c.opts.init_send_address == "" then Proceed(c)
    else
      Register(Start(w, c, InitSend, c.opts.init_send_channel, c.opts.init_send_role, c.opts.init_send_address,
                     create, true), InitSend)
  }

  /**
   * The initial receive link, when its channel is set: created here, or
   * loaded from the given address; a link to load with no address is
   * reported to the listen callback as CHANNEL_INVALID.
   */
  function InitRecvStage(w: World, c: BootstrapListenCtx): (s: Stage<BootstrapListenCtx>)
    ensures !s.Skip?
    ensures c.opts.init_recv_channel == "" ==> s == Proceed(c)
    ensures (&& c.opts.init_recv_channel != "" && !ShouldCreateReceiver(w, c.opts.init_recv_channel)
             && c.opts.init_recv_address == "") ==> s == Stop(Reject(c, CHANNEL_INVALID))
    ensures s.Proceed? ==> Quiet(c, s.c) && s.c.links.(initRecv := c.links.initRecv) == c.links
                           && (c.opts.init_recv_channel != "" ==> s.c.links.initRecv.connSM != NULL_RACE_HANDLE)
    ensures s.Stop? ==> s.o.pushed == [] && !(s.o.Returned? && s.o.result == SUCCESS) && Reported(c, s.o.data)
  {
    if c.opts.init_recv_channel == "" then Proceed(c)
    else
      var create := ShouldCreateReceiver(w, c.opts.init_recv_channel);
      if !create && c.opts.init_recv_address == "" then Stop(Reject(c, CHANNEL_INVALID))
      else
        Register(Start(w, c, InitRecv, c.opts.init_recv_channel, c.opts.init_recv_role, c.opts.init_recv_address,
                       create, false), InitRecv)
  }

  /**
   * What StateBootstrapListenInitial leaves the slots with on success: an
   * initial send machine when that link is opened, an initial receive
   * machine when that channel is set, and the final slots untouched.
   */
  predicate Expects(w: World, opts: BootstrapConnectionOptions, l: BootstrapLinks, before: BootstrapLinks) {
    && (OpensInitSend(w, opts) ==> l.initSend.connSM != NULL_RACE_HANDLE)
    && (opts.init_recv_channel != "" ==> l.initRecv.connSM != NULL_RACE_HANDLE)
    && l.finalSend == before.finalSend && l.finalRecv == before.finalRecv
  }

  /**
   * StateBootstrapListenInitial: open the initial send link, then the
   * initial receive link; the final links wait for the dialer.
   */
  function Initial(w: World, c: BootstrapListenCtx): (o: Outcome<BootstrapListenCtx>)
    ensures Reported(c, o.data)
    ensures (&& !OpensInitSend(w, c.opts) && c.opts.init_recv_channel != ""
             && !ShouldCreateReceiver(w, c.opts.init_recv_channel) && c.opts.init_recv_address == "") ==>
              o == Reject(c, CHANNEL_INVALID)
    ensures (&& c.opts.init_recv_channel != "" && !ShouldCreateReceiver(w, c.opts.init_recv_channel)
             && c.opts.init_recv_address == "") ==> !(o.Returned? && o.result == SUCCESS)
    ensures o.Returned? && o.result == SUCCESS ==>
              && o.pushed == [EVENT_ALWAYS] && Expects(w, c.opts, o.data.links, c.links)
              && o.data.listenCb == c.listenCb && o.data.env.fired == c.env.fired
    ensures !(o.Returned? && o.result == SUCCESS) ==> o.pushed == []
  {
    var s1 := InitSendStage(w, c);
    if s1.Stop? then s1.o
    else
      var s2 := InitRecvStage(w, s1.c);
      if s2.Stop? then s2.o
      else Returned(SUCCESS, s2.c, [EVENT_ALWAYS])
  }

  // ---------------------------------------------------------------------
  // The listen address
  // ---------------------------------------------------------------------

  /**
   * The fields of the address the application hands the dialer, named
   * from the dialer's point of view: this side's initial send link is the
   * dialer's initial receive link, and the other way round.
   */
  function AddressFields(c: BootstrapListenCtx): map<string, string> {
    var m0: map<string, string> := map[];
    var m1 := if c.links.initSend.linkAddress != "" then
                m0["initRecvLinkAddress" := c.links.initSend.linkAddress]["initRecvChannel" := c.opts.init_send_channel]
              else m0;
    if c.links.initRecv.linkAddress != "" then
      m1["initSendLinkAddress" := c.links.initRecv.linkAddress]["initSendChannel" := c.opts.init_recv_channel]
    else m1
  }

  /** The JSON text the listen callback receives as the link address. */
  function MultiAddress(w: World, c: BootstrapListenCtx): LinkAddress {
    w.codecs.dump(Assigned(AddressFields(c)))
  }

  /**
   * The dialer reads each initial link address under its own name, with
   * the listener's channel for it; a link with no address is not
   * mentioned, and with neither the text is JSON null.
   */
  lemma MultiAddressNamesLinksForDialer(w: World, c: BootstrapListenCtx)
    requires Lawful(w.codecs)
    ensures var j := w.codecs.parse(MultiAddress(w, c));
            && j.Some?
            && AtString(j.value, "initRecvLinkAddress")
               == (if c.links.initSend.linkAddress != "" then Some(c.links.initSend.linkAddress) else None)
            && AtString(j.value, "initSendLinkAddress")
               == (if c.links.initRecv.linkAddress != "" then Some(c.links.initRecv.linkAddress) else None)
            && (c.links.initSend.linkAddress != "" ==> AtString(j.value, "initRecvChannel") == Some(c.opts.init_send_channel))
            && (c.links.initRecv.linkAddress != "" ==> AtString(j.value, "initSendChannel") == Some(c.opts.init_recv_channel))
            && (c.links.initSend.linkAddress == "" && c.links.initRecv.linkAddress == "" ==> j.value == JNull)
  {
    var f := AddressFields(c);
    assert w.codecs.parse(w.codecs.dump(Assigned(f))) == Some(Assigned(f));
    if c.links.initSend.linkAddress != "" || c.links.initRecv.linkAddress != "" {
      assert f != map[] by {
        if c.links.initRecv.linkAddress != "" {
          assert "initSendLinkAddress" in f;
        } else {
          assert "initRecvLinkAddress" in f;
        }
      }
    }
  }

  /**
   * StateBootstrapListenWaitingForConnections: once every started machine
   * has reported its connection, give the application the address and a
   * fresh listener handle, and route hellos (the all-zero package id) on
   * the initial receive connection to this context.
   */
  function WaitingForConnections(w: World, c: BootstrapListenCtx): (o: Outcome<BootstrapListenCtx>)
    ensures !AllConnected(c.links) ==> o == Returned(SUCCESS, c, [])
    ensures AllConnected(c.links) && c.listenCb.None? ==> o.Threw?
    ensures AllConnected(c.links) && c.listenCb.Some? ==>
              var listener := w.answer(|c.env.requests|).handle;
              && o.Returned? && o.result == SUCCESS && o.pushed == [EVENT_SATISFIED]
              && o.data == c.(listenCb := None, env := o.data.env)
              && o.data.env.fired == c.env.fired + [Fired(c.listenCb.value, OK, PAddress(MultiAddress(w, c), listener))]
              && o.data.env.requests
                 == c.env.requests + [GenerateHandle, RegisterHandle(c.handle, listener),
                                      RegisterPackageId(c.handle, c.links.initRecv.connId,
                                                        ListenMachine.ZeroPackageId())]
  {
    SatisfiedIffAllConnected(c.links);
    if !Satisfied(c.links) then Returned(SUCCESS, c, [])
    else
      var (env1, a) := Ask(w, c.env, GenerateHandle);
      match Invoke(env1, c.listenCb, OK, PAddress(MultiAddress(w, c), a.handle))
      case None => Threw(c.(env := env1), [])
      case Some(env2) =>
        var env3 := Tell(Tell(env2, RegisterHandle(c.handle, a.handle)),
                         RegisterPackageId(c.handle, c.links.initRecv.connId, ListenMachine.ZeroPackageId()));
        Returned(SUCCESS, c.(listenCb := None, env := env3), [EVENT_SATISFIED])
  }

  /** The package id the listener routes hellos under is the prefix every bootstrap hello carries. */
  lemma HellosRouteToListener(w: World, dc: BootstrapDialMachine.BootstrapDialCtx)
    ensures StrToBytes(ListenMachine.ZeroPackageId()) == BootstrapDialMachine.Hello(w, dc)[..PACKAGE_ID_LEN]
  {
  }

  // ---------------------------------------------------------------------
  // Hellos
  // ---------------------------------------------------------------------

  /**
   * One link a hello may name: when the key is present its value becomes
   * the slot's link address; a value that is not text, or a missing or
   * non-text channel next to it, throws and skips the hello (the address
   * already taken is kept).
   */
  function LinkField(c: BootstrapListenCtx, j: Json, n: SlotName, addressKey: string, channelKey: string)
    : (s: Stage<BootstrapListenCtx>)
    ensures !s.Stop?
    ensures !(j.JObject? && addressKey in j.fields) ==> s == Proceed(c)
    ensures (j.JObject? && addressKey in j.fields) ==>
              match AtString(j, addressKey)
              case None => s == Skip(c)
              case Some(a) =>
                && s.c == c.(links := SetSlot(c.links, n, GetSlot(c.links, n).(linkAddress := a)))
                && (s.Proceed? <==> AtString(j, channelKey).Some?)
  {
    if !(j.JObject? && addressKey in j.fields) then Proceed(c)
    else
      match AtString(j, addressKey)
      case None => Skip(c)
      case Some(a) =>
        var c1 := c.(links := SetSlot(c.links, n, GetSlot(c.links, n).(linkAddress := a)));
        if AtString(j, channelKey).None? then Skip(c1) else Proceed(c1)
  }

  /** The address a hello gives slot n, if it names that link with its channel. */
  function Named(j: Json, addressKey: string, channelKey: string, old_: LinkAddress): LinkAddress {
    if AtString(j, addressKey).Some? && AtString(j, channelKey).Some? then AtString(j, addressKey).value else old_
  }

  /**
   * The links a hello names, read in the source's order: initial send,
   * final send, final receive. Only link addresses change.
   */
  function ReadLinks(c: BootstrapListenCtx, j: Json): (s: Stage<BootstrapListenCtx>)
    ensures !s.Stop?
    ensures s.c == c.(links := s.c.links)
    ensures s.c.links.initRecv == c.links.initRecv
    ensures forall n :: GetSlot(s.c.links, n) == GetSlot(c.links, n).(linkAddress := GetSlot(s.c.links, n).linkAddress)
    ensures s.Proceed? ==>
              && s.c.links.initSend.linkAddress
                 == Named(j, "initSendLinkAddress", "initSendChannel", c.links.initSend.linkAddress)
              && s.c.links.finalSend.linkAddress
                 == Named(j, "finalSendLinkAddress", "finalSendChannel", c.links.finalSend.linkAddress)
              && s.c.links.finalRecv.linkAddress
                 == Named(j, "finalRecvLinkAddress", "finalRecvChannel", c.links.finalRecv.linkAddress)
  {
    var s1 := LinkField(c, j, InitSend, "initSendLinkAddress", "initSendChannel");
    if !s1.Proceed? then s1
    else
      var s2 := LinkField(s1.c, j, FinalSend, "finalSendLinkAddress", "finalSendChannel");
      if !s2.Proceed? then s2
      else LinkField(s2.c, j, FinalRecv, "finalRecvLinkAddress", "finalRecvChannel")
  }

  /** Start a bootstrap pre-conduit for a hello: a NULL handle is NOT_SUPPORTED, otherwise it queues up. */
  function StartPreConduit(w: World, c: BootstrapListenCtx, packageId: Bytes, message: Bytes)
    : (s: Stage<BootstrapListenCtx>)
    ensures !s.Skip?
    ensures var h := w.answer(|c.env.requests|).handle;
            var req := StartBootstrapPreConduit(c.handle, c.opts, c.links, BytesToStr(packageId), [message]);
            && (h == NULL_RACE_HANDLE ==> s == Stop(Returned(NOT_SUPPORTED, c.(env := Tell(c.env, req)), [])))
            && (h != NULL_RACE_HANDLE ==>
                  s == Proceed(c.(env := Tell(c.env, req), preBootstrapConduitSM := c.preBootstrapConduitSM + [h])))
  {
    var (env1, a) := Ask(w, c.env, StartBootstrapPreConduit(c.handle, c.opts, c.links, BytesToStr(packageId),
                                                            [message]));
    if a.handle == NULL_RACE_HANDLE then Stop(Returned(NOT_SUPPORTED, c.(env := env1), []))
    else Proceed(c.(env := env1, preBootstrapConduitSM := c.preBootstrapConduitSM + [a.handle]))
  }

  /**
   * One package of StateBootstrapListenWaitingForHellos's loop. Text that
   * is not JSON, a missing or non-text packageId or message, undecodable
   * base64 and a package id that is not PACKAGE_ID_LEN bytes skip to the
   * next package, keeping the link addresses already read; a hello that
   * passes starts a pre-conduit and ends the loop.
   */
  function HandleHello(w: World, c: BootstrapListenCtx, pkg: Bytes): (s: Stage<BootstrapListenCtx>)
    ensures w.codecs.parse(BytesToStr(pkg)).None? ==> s == Skip(c)
    ensures (s.Skip? || s.Proceed?) ==> s.c == c.(links := s.c.links, env := s.c.env,
                                                   preBootstrapConduitSM := s.c.preBootstrapConduitSM)
    ensures s.Skip? ==> s.c.env == c.env && s.c.preBootstrapConduitSM == c.preBootstrapConduitSM
    ensures s.Stop? ==> s.o == Returned(NOT_SUPPORTED, s.o.data, []) && s.o.data.env.fired == c.env.fired
                        && s.o.data == c.(links := s.o.data.links, env := s.o.data.env)
    ensures s.Proceed? ==>
              && s.c.env.fired == c.env.fired && |s.c.env.requests| == |c.env.requests| + 1
              && s.c.env.requests[..|c.env.requests|] == c.env.requests
              && s.c.preBootstrapConduitSM == c.preBootstrapConduitSM + [w.answer(|c.env.requests|).handle]
    ensures s.Proceed? || s.Stop? ==>
              var j := w.codecs.parse(BytesToStr(pkg)).value;
              && AtString(j, "packageId").Some? && AtString(j, "message").Some?
              && w.codecs.b64decode(AtString(j, "packageId").value).Some?
              && |w.codecs.b64decode(AtString(j, "packageId").value).value| == PACKAGE_ID_LEN
              && w.codecs.b64decode(AtString(j, "message").value).Some?
  {
    match w.codecs.parse(BytesToStr(pkg))
    case None => Skip(c)
    case Some(j) =>
      var s := ReadLinks(c, j);
      if s.Skip? then s
      else
        var c1 := s.c;
        match (AtString(j, "packageId"), AtString(j, "message"))
        case (Some(id), Some(message)) =>
          (match w.codecs.b64decode(id)
           case None => Skip(c1)
           case Some(idBytes) =>
             if |idBytes| != PACKAGE_ID_LEN then Skip(c1)
             else
               match w.codecs.b64decode(message)
               case None => Skip(c1)
               case Some(m) => StartPreConduit(w, c1, idBytes, m))
        case _ => Skip(c1)
  }

  /** A hello whose package id does not decode to PACKAGE_ID_LEN bytes starts nothing: only its link addresses are kept. */
  lemma ShortPackageIdSkipped(w: World, c: BootstrapListenCtx, pkg: Bytes, j: Json)
    requires w.codecs.parse(BytesToStr(pkg)) == Some(j) && ReadLinks(c, j).Proceed?
    requires AtString(j, "packageId").Some? && AtString(j, "message").Some?
    requires w.codecs.b64decode(AtString(j, "packageId").value).Some?
    requires |w.codecs.b64decode(AtString(j, "packageId").value).value| != PACKAGE_ID_LEN
    ensures HandleHello(w, c, pkg) == Skip(ReadLinks(c, j).c)
  {
  }

  /**
   * A bootstrap dialer's hello, once the manager has stripped its all-zero
   * prefix, starts a pre-conduit that replies under the dialer's package
   * id with the dialer's message, after the listener has taken every link
   * address the dialer named.
   */
  lemma ReadsDialHello(w: World, dc: BootstrapDialMachine.BootstrapDialCtx, c: BootstrapListenCtx)
    requires Lawful(w.codecs)
    requires IsByteString(w.codecs.dump(Object(BootstrapDialMachine.HelloFields(w, dc))))
    requires IsByteString(dc.packageId) && |dc.packageId| == PACKAGE_ID_LEN
    ensures var s := HandleHello(w, c, BootstrapDialMachine.Hello(w, dc)[PACKAGE_ID_LEN..]);
            var l := BootstrapLinks(
              c.links.initSend.(linkAddress := if ShouldCreateReceiver(w, dc.opts.init_recv_channel)
                                                  && dc.links.initRecv.linkAddress != ""
                                               then dc.links.initRecv.linkAddress else c.links.initSend.linkAddress),
              c.links.initRecv,
              c.links.finalSend.(linkAddress := if dc.links.finalRecv.linkAddress != "" then dc.links.finalRecv.linkAddress
                                                else c.links.finalSend.linkAddress),
              c.links.finalRecv.(linkAddress := if dc.links.finalSend.linkAddress != "" then dc.links.finalSend.linkAddress
                                                else c.links.finalRecv.linkAddress));
            && !s.Skip?
            && var d := if s.Stop? then s.o.data else s.c;
               && d.links == l
               && d.env.requests == c.env.requests + [StartBootstrapPreConduit(c.handle, c.opts, l, dc.packageId,
                                                                               [dc.helloData])]
  {
    BootstrapDialMachine.HelloNamesLinksForListener(w, dc);
    var h := BootstrapDialMachine.Hello(w, dc);
    var fields := BootstrapDialMachine.HelloFields(w, dc);
    assert h[PACKAGE_ID_LEN..] == StrToBytes(w.codecs.dump(Object(fields)));
    StrBytesRoundTrip(w.codecs.dump(Object(fields)));
    assert w.codecs.parse(w.codecs.dump(Object(fields))) == Some(Object(fields));
    var j := Object(fields);
    StrBytesRoundTrip(dc.packageId);
    var r := ReadLinks(c, j);
    assert r.Proceed? by {
      var s1 := LinkField(c, j, InitSend, "initSendLinkAddress", "initSendChannel");
      assert s1.Proceed?;
      var s2 := LinkField(s1.c, j, FinalSend, "finalSendLinkAddress", "finalSendChannel");
      assert s2.Proceed?;
    }
    forall n ensures GetSlot(r.c.links, n) == GetSlot(c.links, n).(linkAddress := GetSlot(r.c.links, n).linkAddress) {
    }
    assert r.c.links == BootstrapLinks(r.c.links.initSend, r.c.links.initRecv, r.c.links.finalSend, r.c.links.finalRecv);
  }

  /**
   * The first loop of StateBootstrapListenWaitingForHellos: take packages
   * from the front of the queue until one starts a pre-conduit (Proceed),
   * starting one fails (Stop), or the queue runs out (Proceed).
   */
  function ScanHellos(w: World, c: BootstrapListenCtx): (s: Stage<BootstrapListenCtx>)
    ensures !s.Skip?
    ensures s.Proceed? ==>
              && s.c == c.(links := s.c.links, env := s.c.env, data := s.c.data,
                           preBootstrapConduitSM := s.c.preBootstrapConduitSM)
              && s.c.env.fired == c.env.fired && c.env.requests <= s.c.env.requests
              && |s.c.data| <= |c.data| && s.c.data == c.data[|c.data| - |s.c.data|..]
              && (s.c.preBootstrapConduitSM == c.preBootstrapConduitSM
                  || (&& |s.c.preBootstrapConduitSM| == |c.preBootstrapConduitSM| + 1
                      && s.c.preBootstrapConduitSM[..|c.preBootstrapConduitSM|] == c.preBootstrapConduitSM))
              && (s.c.preBootstrapConduitSM == c.preBootstrapConduitSM ==> s.c.data == [])
    ensures s.Stop? ==> s.o == Returned(NOT_SUPPORTED, s.o.data, []) && s.o.data.env.fired == c.env.fired
                        && s.o.data == c.(links := s.o.data.links, env := s.o.data.env, data := s.o.data.data)
    decreases |c.data|
  {
    if c.data == [] then Proceed(c)
    else
      var rest := c.(data := c.data[1..]);
      var s := HandleHello(w, rest, c.data[0]);
      if s.Skip? then
        var r := ScanHellos(w, s.c);
        assert r.Proceed? ==> c.data[1..][|c.data| - 1 - |r.c.data|..] == c.data[|c.data| - |r.c.data|..];
        r
      else if s.Proceed? then
        assert s.c.data == c.data[1..] && c.data[|c.data| - |s.c.data|..] == c.data[1..];
        s
      else s
  }

  /** The hello loop as the source writes it: pop, try, and continue, break or return. */
  method ScanHellosLoop(w: World, c: BootstrapListenCtx) returns (s: Stage<BootstrapListenCtx>)
    ensures s == ScanHellos(w, c)
  {
    var cur := c;
    while cur.data != []
      invariant ScanHellos(w, cur) == ScanHellos(w, c)
      decreases |cur.data|
    {
      var pkg := cur.data[0];
      cur := cur.(data := cur.data[1..]);
      var t := HandleHello(w, cur, pkg);
      if !t.Skip? {
        return t;
      }
      cur := t.c;
    }
    return Proceed(cur);
  }

  /**
   * StateBootstrapListenWaitingForHellos: start at most one pre-conduit,
   * then pair accept calls with pre-conduits, front with front, through
   * onBootstrapListenAccept.
   */
  function WaitingForHellos(w: World, c: BootstrapListenCtx): (o: Outcome<BootstrapListenCtx>)
    ensures o.Returned? && o.pushed == []
    ensures o.result != SUCCESS ==> o.result == NOT_SUPPORTED && ScanHellos(w, c).Stop?
    ensures o.result == SUCCESS ==> ScanHellos(w, c).Proceed?
    ensures o.result == SUCCESS && ScanHellos(w, c).Proceed? ==>
              var s := ScanHellos(w, c).c;
              var k := Min(|c.acceptCb|, |s.preBootstrapConduitSM|);
              && o.data.acceptCb == c.acceptCb[k..] && o.data.preBootstrapConduitSM == s.preBootstrapConduitSM[k..]
              && (o.data.acceptCb == [] || o.data.preBootstrapConduitSM == [])
              && o.data.env.requests
                 == s.env.requests + ListenMachine.Handovers(c.acceptCb, s.preBootstrapConduitSM, true)
              && o.data.listenCb == c.listenCb && o.data.closeCb == c.closeCb
  {
    var s := ScanHellos(w, c);
    if s.Stop? then s.o
    else
      var p := ListenMachine.PairAccepts(w, s.c.env, s.c.acceptCb, s.c.preBootstrapConduitSM, true);
      Returned(SUCCESS, s.c.(acceptCb := p.acceptCb, preBootstrapConduitSM := p.preConnObjSM, env := p.env), [])
  }

  // ---------------------------------------------------------------------
  // Closing and failing
  // ---------------------------------------------------------------------

  /**
   * StateBootstrapListenFinished: every unpaired accept call gets CLOSING,
   * the manager is told, and the close callback gets OK without a check.
   */
  function Finished(c: BootstrapListenCtx): (o: Outcome<BootstrapListenCtx>)
    ensures c.closeCb.None? ==> o.Threw?
    ensures c.closeCb.Some? ==>
              && o.Returned? && o.result == SUCCESS && o.pushed == []
              && o.data == c.(acceptCb := [], closeCb := None, env := o.data.env)
              && o.data.env.fired == InvokeAll(c.env, c.acceptCb, CLOSING, NoConduit).fired
                                     + [Fired(c.closeCb.value, OK, NoPayload)]
              && o.data.env.requests == c.env.requests + [StateMachineFinished(c.handle)]
  {
    var env1 := Tell(InvokeAll(c.env, c.acceptCb, CLOSING, NoConduit), StateMachineFinished(c.handle));
    match Invoke(env1, c.closeCb, OK, NoPayload)
    case None => Threw(c.(acceptCb := [], env := env1), [])
    case Some(env2) => Returned(SUCCESS, c.(acceptCb := [], closeCb := None, env := env2), [])
  }

  /** StateBootstrapListenFailed: every callback still waiting gets INTERNAL_ERROR once. */
  function Failed(c: BootstrapListenCtx): (o: Outcome<BootstrapListenCtx>)
    ensures o.Returned? && o.result == SUCCESS && o.pushed == []
    ensures o.data == c.(listenCb := None, acceptCb := [], closeCb := None, env := o.data.env)
    ensures o.data.env.fired ==
              InvokeIfSet(InvokeAll(InvokeIfSet(c.env, c.listenCb, INTERNAL_ERROR, NoAddress),
                                    c.acceptCb, INTERNAL_ERROR, NoConduit),
                          c.closeCb, INTERNAL_ERROR, NoPayload).fired
    ensures o.data.env.requests == c.env.requests + [StateMachineFailed(c.handle)]
  {
    var env1 := InvokeIfSet(c.env, c.listenCb, INTERNAL_ERROR, NoAddress);
    var env2 := InvokeAll(env1, c.acceptCb, INTERNAL_ERROR, NoConduit);
    var env3 := InvokeIfSet(env2, c.closeCb, INTERNAL_ERROR, NoPayload);
    Returned(SUCCESS, c.(listenCb := None, acceptCb := [], closeCb := None,
                         env := Tell(env3, StateMachineFailed(c.handle))), [])
  }

  // ---------------------------------------------------------------------
  // The engine
  // ---------------------------------------------------------------------

  function BootstrapListenStates(w: World): map<StateType, StateDef<BootstrapListenCtx>> {
    map[STATE_BOOTSTRAP_LISTEN_INITIAL := PlainState((cur: StateType, c: BootstrapListenCtx) => Initial(w, c)),
        STATE_BOOTSTRAP_LISTEN_WAITING_FOR_CONNECTIONS :=
          PlainState((cur: StateType, c: BootstrapListenCtx) => WaitingForConnections(w, c)),
        STATE_BOOTSTRAP_LISTEN_WAITING_FOR_HELLOS :=
          PlainState((cur: StateType, c: BootstrapListenCtx) => WaitingForHellos(w, c)),
        STATE_BOOTSTRAP_LISTEN_FINISHED := FinalState((cur: StateType, c: BootstrapListenCtx) => Finished(c)),
        STATE_BOOTSTRAP_LISTEN_FAILED := PlainState((cur: StateType, c: BootstrapListenCtx) => Failed(c))]
  }

  /** The declarations of BootstrapListenStateEngine's constructor, in order. */
  function BootstrapListenDecls(): seq<Decl> {
    [Decl(STATE_BOOTSTRAP_LISTEN_INITIAL, EVENT_ALWAYS, STATE_BOOTSTRAP_LISTEN_WAITING_FOR_CONNECTIONS),
     Decl(STATE_BOOTSTRAP_LISTEN_WAITING_FOR_CONNECTIONS, EVENT_CONN_STATE_MACHINE_CONNECTED,
          STATE_BOOTSTRAP_LISTEN_WAITING_FOR_CONNECTIONS),
     Decl(STATE_BOOTSTRAP_LISTEN_WAITING_FOR_CONNECTIONS, EVENT_SATISFIED, STATE_BOOTSTRAP_LISTEN_WAITING_FOR_HELLOS),
     Decl(STATE_BOOTSTRAP_LISTEN_WAITING_FOR_HELLOS, EVENT_RECEIVE_PACKAGE, STATE_BOOTSTRAP_LISTEN_WAITING_FOR_HELLOS),
     Decl(STATE_BOOTSTRAP_LISTEN_WAITING_FOR_HELLOS, EVENT_ACCEPT, STATE_BOOTSTRAP_LISTEN_WAITING_FOR_HELLOS),
     Decl(STATE_BOOTSTRAP_LISTEN_WAITING_FOR_HELLOS, EVENT_CLOSE, STATE_BOOTSTRAP_LISTEN_FINISHED)]
  }

  /**
   * The bootstrap listen lifecycle: connections re-enter WAITING_FOR_CONNECTIONS,
   * packages and accept calls re-enter WAITING_FOR_HELLOS, close finishes.
   */
  function BootstrapListenNext(s: StateType, e: EventType): Option<StateType> {
    if s == STATE_BOOTSTRAP_LISTEN_INITIAL && e == EVENT_ALWAYS then Some(STATE_BOOTSTRAP_LISTEN_WAITING_FOR_CONNECTIONS)
    else if s == STATE_BOOTSTRAP_LISTEN_WAITING_FOR_CONNECTIONS && e == EVENT_CONN_STATE_MACHINE_CONNECTED then
      Some(STATE_BOOTSTRAP_LISTEN_WAITING_FOR_CONNECTIONS)
    else if s == STATE_BOOTSTRAP_LISTEN_WAITING_FOR_CONNECTIONS && e == EVENT_SATISFIED then
      Some(STATE_BOOTSTRAP_LISTEN_WAITING_FOR_HELLOS)
    else if s == STATE_BOOTSTRAP_LISTEN_WAITING_FOR_HELLOS && (e == EVENT_RECEIVE_PACKAGE || e == EVENT_ACCEPT) then
      Some(STATE_BOOTSTRAP_LISTEN_WAITING_FOR_HELLOS)
    else if s == STATE_BOOTSTRAP_LISTEN_WAITING_FOR_HELLOS && e == EVENT_CLOSE then Some(STATE_BOOTSTRAP_LISTEN_FINISHED)
    else None
  }

  lemma BootstrapListenDeclTargets(s: StateType, e: EventType)
    ensures DeclTargets(BootstrapListenDecls(), s, e) == TargetSet(BootstrapListenNext(s, e))
  {
  }

  /** The declared table is the bootstrap listen lifecycle. */
  lemma BootstrapListenDeclsFollow()
    ensures Follows(DeclareAll(map[], BootstrapListenDecls()), BootstrapListenNext)
  {
    forall s, e
      ensures Declares(DeclareAll(map[], BootstrapListenDecls()), s, e) <==> BootstrapListenNext(s, e).Some?
      ensures Targets(DeclareAll(map[], BootstrapListenDecls()), s, e) == TargetSet(BootstrapListenNext(s, e))
    {
      BootstrapListenDeclTargets(s, e);
      DeclaredTable(BootstrapListenDecls(), s, e, BootstrapListenNext(s, e));
    }
  }

  /** What BootstrapListenStateEngine's constructor builds. */
  ghost predicate IsBootstrapListenTable(w: World, t: Table<BootstrapListenCtx>) {
    && t.states == BootstrapListenStates(w)
    && Follows(t.transitions, BootstrapListenNext)
    && t.initStateId == STATE_BOOTSTRAP_LISTEN_INITIAL && t.failedStateId == STATE_BOOTSTRAP_LISTEN_FAILED
  }

  /** BootstrapListenStateEngine's constructor. */
  method NewBootstrapListenStateEngine(w: World) returns (e: StateEngine<BootstrapListenCtx>)
    ensures IsBootstrapListenTable(w, e.Spec())
  {
    e := new StateEngine();
    e.AddInitialState(STATE_BOOTSTRAP_LISTEN_INITIAL,
                      PlainState((cur: StateType, c: BootstrapListenCtx) => Initial(w, c)));
    e.AddState(STATE_BOOTSTRAP_LISTEN_WAITING_FOR_CONNECTIONS,
               PlainState((cur: StateType, c: BootstrapListenCtx) => WaitingForConnections(w, c)));
    e.AddState(STATE_BOOTSTRAP_LISTEN_WAITING_FOR_HELLOS,
               PlainState((cur: StateType, c: BootstrapListenCtx) => WaitingForHellos(w, c)));
    e.AddState(STATE_BOOTSTRAP_LISTEN_FINISHED, FinalState((cur: StateType, c: BootstrapListenCtx) => Finished(c)));
    e.AddFailedState(STATE_BOOTSTRAP_LISTEN_FAILED, PlainState((cur: StateType, c: BootstrapListenCtx) => Failed(c)));
    e.DeclareTransitions(BootstrapListenDecls());
    BootstrapListenDeclsFollow();
  }

  // ---------------------------------------------------------------------
  // Properties
  // ---------------------------------------------------------------------

  /**
   * An accept call while waiting for hellos, with no package queued,
   * re-enters WAITING_FOR_HELLOS and hands the queued pre-conduits to the
   * accept callbacks, the new one last, in order.
   */
  lemma AcceptPairsInOrder(w: World, t: Table<BootstrapListenCtx>, c: Config<BootstrapListenCtx>, cb: Callback,
                           fuel: nat)
    requires IsBootstrapListenTable(w, t)
    requires c.currentStateId == STATE_BOOTSTRAP_LISTEN_WAITING_FOR_HELLOS && c.pendingEvents == [] && c.data.data == []
    requires fuel > 0
    ensures var c' := c.(data := Apply(c.data, UAccept(c.data.handle, cb)));
            var r := HandleEventSpec(t, c', EVENT_ACCEPT, fuel);
            var p := ListenMachine.PairAccepts(w, c.data.env, c.data.acceptCb + [cb], c.data.preBootstrapConduitSM, true);
            && r.result == SUCCESS
            && r.config.currentStateId == STATE_BOOTSTRAP_LISTEN_WAITING_FOR_HELLOS
            && r.config.data.acceptCb == p.acceptCb && r.config.data.preBootstrapConduitSM == p.preConnObjSM
            && r.config.data.env == p.env
  {
    var c' := c.(data := Apply(c.data, UAccept(c.data.handle, cb)));
    assert Targets(t.transitions, STATE_BOOTSTRAP_LISTEN_WAITING_FOR_HELLOS, EVENT_ACCEPT)
           == TargetSet(BootstrapListenNext(STATE_BOOTSTRAP_LISTEN_WAITING_FOR_HELLOS, EVENT_ACCEPT));
    HandleOneMoves(t, c', EVENT_ACCEPT, STATE_BOOTSTRAP_LISTEN_WAITING_FOR_HELLOS);
    assert t.states[STATE_BOOTSTRAP_LISTEN_WAITING_FOR_HELLOS].exit(STATE_BOOTSTRAP_LISTEN_WAITING_FOR_HELLOS, c'.data)
           == Returned(SUCCESS, c'.data, []);
    assert t.states[STATE_BOOTSTRAP_LISTEN_WAITING_FOR_HELLOS].enter(STATE_BOOTSTRAP_LISTEN_WAITING_FOR_HELLOS, c'.data)
           == WaitingForHellos(w, c'.data);
    assert ScanHellos(w, c'.data) == Proceed(c'.data);
    TransitionByEnter(t, c', STATE_BOOTSTRAP_LISTEN_WAITING_FOR_HELLOS);
    var c1 := c'.(pendingEvents := [EVENT_ACCEPT]);
    var (res, c2) := HandleOne(t, c', EVENT_ACCEPT);
    assert res == SUCCESS;
    assert Drain(t, c1, fuel) == Prepend([EVENT_ACCEPT], Drain(t, c2, fuel - 1));
  }

  /**
   * Closing while waiting for hellos finishes the listener: every accept
   * call still waiting gets CLOSING, then the close callback gets OK.
   */
  lemma CloseFinishes(w: World, t: Table<BootstrapListenCtx>, c: Config<BootstrapListenCtx>, cb: Callback, fuel: nat)
    requires IsBootstrapListenTable(w, t)
    requires c.currentStateId == STATE_BOOTSTRAP_LISTEN_WAITING_FOR_HELLOS && c.pendingEvents == [] && fuel > 0
    ensures var c' := c.(data := Apply(c.data, UClose(c.data.handle, cb)));
            var r := HandleEventSpec(t, c', EVENT_CLOSE, fuel);
            && r.result == SUCCESS
            && r.config.currentStateId == STATE_BOOTSTRAP_LISTEN_FINISHED
            && r.config.data.acceptCb == [] && r.config.data.closeCb.None?
            && r.config.data.env.fired == InvokeAll(c.data.env, c.data.acceptCb, CLOSING, NoConduit).fired
                                          + [Fired(cb, OK, NoPayload)]
  {
    var c' := c.(data := Apply(c.data, UClose(c.data.handle, cb)));
    assert Targets(t.transitions, STATE_BOOTSTRAP_LISTEN_WAITING_FOR_HELLOS, EVENT_CLOSE)
           == TargetSet(BootstrapListenNext(STATE_BOOTSTRAP_LISTEN_WAITING_FOR_HELLOS, EVENT_CLOSE));
    HandleOneMoves(t, c', EVENT_CLOSE, STATE_BOOTSTRAP_LISTEN_FINISHED);
    assert t.states[STATE_BOOTSTRAP_LISTEN_WAITING_FOR_HELLOS].exit(STATE_BOOTSTRAP_LISTEN_WAITING_FOR_HELLOS, c'.data)
           == Returned(SUCCESS, c'.data, []);
    assert t.states[STATE_BOOTSTRAP_LISTEN_FINISHED].enter(STATE_BOOTSTRAP_LISTEN_WAITING_FOR_HELLOS, c'.data)
           == Finished(c'.data);
    TransitionByEnter(t, c', STATE_BOOTSTRAP_LISTEN_FINISHED);
    var c1 := c'.(pendingEvents := [EVENT_CLOSE]);
    var (res, c2) := HandleOne(t, c', EVENT_CLOSE);
    assert res == SUCCESS;
    assert Drain(t, c1, fuel) == Prepend([EVENT_CLOSE], Drain(t, c2, fuel - 1));
  }

  /** The listen callback cb is one-shot; no accept or close callback is cb. */
  ghost predicate ListenCbOnce(c: BootstrapListenCtx, cb: Callback) {
    OneShot(c.listenCb, c.env.fired, cb) && cb !in c.acceptCb && c.closeCb != Some(cb)
  }

  lemma InitialKeepsListenCbOnce(w: World, c: BootstrapListenCtx, cb: Callback)
    requires ListenCbOnce(c, cb)
    ensures ListenCbOnce(Initial(w, c).data, cb)
  {
    if Initial(w, c).data.env.fired != c.env.fired {
      FireAndClear(c.listenCb, c.env, cb, CHANNEL_INVALID, NoAddress);
    }
  }

  lemma WaitingForConnectionsKeepsListenCbOnce(w: World, c: BootstrapListenCtx, cb: Callback)
    requires ListenCbOnce(c, cb)
    ensures ListenCbOnce(WaitingForConnections(w, c).data, cb)
  {
    if AllConnected(c.links) {
      var env1 := Tell(c.env, GenerateHandle);
      FireAndClear(c.listenCb, env1, cb, OK, PAddress(MultiAddress(w, c), w.answer(|c.env.requests|).handle));
    }
  }

  lemma WaitingForHellosKeepsListenCbOnce(w: World, c: BootstrapListenCtx, cb: Callback)
    requires ListenCbOnce(c, cb)
    ensures ListenCbOnce(WaitingForHellos(w, c).data, cb)
  {
    var s := ScanHellos(w, c);
    if s.Proceed? {
      ListenMachine.PairingFiresNoOther(w, s.c.env, s.c.acceptCb, s.c.preBootstrapConduitSM, cb, true);
    }
  }

  lemma FinishedKeepsListenCbOnce(c: BootstrapListenCtx, cb: Callback)
    requires ListenCbOnce(c, cb)
    ensures ListenCbOnce(Finished(c).data, cb)
  {
    ListenMachine.InvokeAllOther(c.env, c.acceptCb, CLOSING, NoConduit, cb);
    var env1 := Tell(InvokeAll(c.env, c.acceptCb, CLOSING, NoConduit), StateMachineFinished(c.handle));
    FireOther(c.closeCb, env1, cb, OK, NoPayload);
  }

  lemma FailedKeepsListenCbOnce(c: BootstrapListenCtx, cb: Callback)
    requires ListenCbOnce(c, cb)
    ensures ListenCbOnce(Failed(c).data, cb)
  {
    var env1 := InvokeIfSet(c.env, c.listenCb, INTERNAL_ERROR, NoAddress);
    FireAndClear(c.listenCb, c.env, cb, INTERNAL_ERROR, NoAddress);
    ListenMachine.InvokeAllOther(env1, c.acceptCb, INTERNAL_ERROR, NoConduit, cb);
    FireOther(c.closeCb, InvokeAll(env1, c.acceptCb, INTERNAL_ERROR, NoConduit), cb, INTERNAL_ERROR, NoPayload);
  }

  lemma StateKeepsListenCbOnce(w: World, s: StateType, cur: StateType, c: BootstrapListenCtx, cb: Callback)
    requires s in BootstrapListenStates(w) && ListenCbOnce(c, cb)
    ensures ListenCbOnce(BootstrapListenStates(w)[s].enter(cur, c).data, cb)
    ensures ListenCbOnce(BootstrapListenStates(w)[s].exit(cur, c).data, cb)
  {
    var st := BootstrapListenStates(w);
    if s == STATE_BOOTSTRAP_LISTEN_INITIAL {
      assert st[s].enter(cur, c) == Initial(w, c);
      InitialKeepsListenCbOnce(w, c, cb);
    } else if s == STATE_BOOTSTRAP_LISTEN_WAITING_FOR_CONNECTIONS {
      assert st[s].enter(cur, c) == WaitingForConnections(w, c);
      WaitingForConnectionsKeepsListenCbOnce(w, c, cb);
    } else if s == STATE_BOOTSTRAP_LISTEN_WAITING_FOR_HELLOS {
      assert st[s].enter(cur, c) == WaitingForHellos(w, c);
      WaitingForHellosKeepsListenCbOnce(w, c, cb);
    } else if s == STATE_BOOTSTRAP_LISTEN_FINISHED {
      assert st[s].enter(cur, c) == Finished(c);
      FinishedKeepsListenCbOnce(c, cb);
    } else {
      assert st[s].enter(cur, c) == Failed(c);
      FailedKeepsListenCbOnce(c, cb);
    }
  }

  /** Every state keeps the listen callback one-shot. */
  lemma StatesKeepListenCbOnce(w: World, t: Table<BootstrapListenCtx>, cb: Callback)
    requires IsBootstrapListenTable(w, t)
    ensures Keeps(t, (c: BootstrapListenCtx) => ListenCbOnce(c, cb))
  {
    forall s, cur, c | s in t.states && ListenCbOnce(c, cb)
      ensures ListenCbOnce(t.states[s].enter(cur, c).data, cb)
      ensures ListenCbOnce(t.states[s].exit(cur, c).data, cb)
    {
      StateKeepsListenCbOnce(w, s, cur, c, cb);
    }
  }

  /** A bootstrap listener started with cb set and nothing fired reports to cb at most once. */
  lemma StartFiresListenCbAtMostOnce(w: World, t: Table<BootstrapListenCtx>, c: Config<BootstrapListenCtx>, fuel: nat,
                                     cb: Callback)
    requires IsBootstrapListenTable(w, t)
    requires c.data.listenCb == Some(cb) && c.data.env.fired == [] && cb !in c.data.acceptCb && c.data.closeCb != Some(cb)
    ensures Count(StartSpec(t, c, fuel).config.data.env.fired, cb) <= 1
  {
    StatesKeepListenCbOnce(w, t, cb);
    StartKeeps(t, c, fuel, (d: BootstrapListenCtx) => ListenCbOnce(d, cb));
  }

  /** ... and keeps reporting to it at most once on every later event. */
  lemma HandleEventKeepsListenCbOnce(w: World, t: Table<BootstrapListenCtx>, c: Config<BootstrapListenCtx>,
                                     e: EventType, fuel: nat, cb: Callback)
    requires IsBootstrapListenTable(w, t)
    requires ListenCbOnce(c.data, cb)
    ensures Count(HandleEventSpec(t, c, e, fuel).config.data.env.fired, cb) <= 1
  {
    StatesKeepListenCbOnce(w, t, cb);
    HandleEventKeeps(t, c, e, fuel, (d: BootstrapListenCtx) => ListenCbOnce(d, cb));
  }
}

=== FILE: bootstrappreconduit.dfy ===
// The bootstrap pre-conduit state machine
// (source/state-machine/BootstrapPreConduitStateMachine.cpp): what a
// bootstrap listener keeps for one dialer between the dialer's hello and
// the application's accept call. Once accepted it opens the final links,
// tells the dialer the addresses of the links it created, and turns
// itself into a conduit that inherits the buffered packages.

module BootstrapPreConduitMachine {
  import opened Common
  import opened Engine
  import opened ApiContext
  import BootstrapDialMachine

  const STATE_BOOTSTRAP_PRE_CONN_OBJ_INITIAL: StateType := 3
  const STATE_BOOTSTRAP_PRE_CONN_OBJ_ACCEPTED: StateType := 4
  const STATE_BOOTSTRAP_PRE_CONN_OBJ_WAITING_FOR_CONNECTIONS: StateType := 5
  const STATE_BOOTSTRAP_PRE_CONN_OBJ_SEND_RESPONSE: StateType := 6
  const STATE_BOOTSTRAP_PRE_CONN_OBJ_FINISHED: StateType := 7
  const STATE_BOOTSTRAP_PRE_CONN_OBJ_FAILED: StateType := 8

  /**
   * BootstrapPreConduitContext. `links` are the four connection slots
   * inherited from the listener; `recvQueue` holds the packages received
   * so far, oldest first.
   */
  datatype BootstrapPreConduitCtx = BootstrapPreConduitCtx(
    handle: RaceHandle,
    parentHandle: RaceHandle,
    opts: BootstrapConnectionOptions,
    links: BootstrapLinks,
    packageId: string,
    recvQueue: seq<Bytes>,
    acceptCb: Option<Callback>,
    env: Env)

  /** What the accept callback receives when there is no conduit. */
  const NoConduit := PHandle(NULL_RACE_HANDLE)

  /**
   * The hooks BootstrapPreConduitContext overrides: the start copies the
   * listener's options and slots, packages queue up at the back, a
   * connection report fills the matching slot, and accept stores the
   * application's callback.
   */
  function Apply(c: BootstrapPreConduitCtx, u: Update): (r: BootstrapPreConduitCtx)
    ensures u.UBootstrapPreConduitStart? ==>
              r == c.(parentHandle := u.handle, opts := u.parentOpts, links := u.parentLinks,
                      packageId := u.packageId, recvQueue := u.messages)
    ensures u.UReceiveEncPkg? ==> r == c.(recvQueue := c.recvQueue + [u.data])
    ensures u.UConnStateMachineConnected? ==> r == c.(links := SlotConnected(c.links, u.handle, u.connId, u.linkAddress))
    ensures u.UListenAccept? ==> r == c.(acceptCb := Some(u.cb))
    ensures (&& !u.UBootstrapPreConduitStart? && !u.UReceiveEncPkg? && !u.UConnStateMachineConnected?
             && !u.UListenAccept?) ==> r == c
  {
    match u
    case UBootstrapPreConduitStart(parent, opts, links, packageId, messages) =>
      c.(parentHandle := parent, opts := opts, links := links, packageId := packageId, recvQueue := messages)
    case UReceiveEncPkg(_, pkg) => c.(recvQueue := c.recvQueue + [pkg])
    case UConnStateMachineConnected(h, connId, address) => c.(links := SlotConnected(c.links, h, connId, address))
    case UListenAccept(cb) => c.(acceptCb := Some(cb))
    case _ => c
  }

  /**
   * The pre-conduit a bootstrap listener's start call asks for holds the
   * listener's options and slots, the dialer's package id and the hello's
   * message, and nothing is accepted yet.
   */
  lemma StartCopiesListenerView(c: BootstrapPreConduitCtx, req: Request)
    requires req.StartBootstrapPreConduit? && c.acceptCb.None?
    ensures var r := Apply(c, UBootstrapPreConduitStart(req.context, req.parentOpts, req.parentLinks, req.packageId,
                                                        req.messages));
            && r.parentHandle == req.context && r.opts == req.parentOpts && r.links == req.parentLinks
            && r.packageId == req.packageId && r.recvQueue == req.messages
            && r.acceptCb.None? && r.handle == c.handle && r.env == c.env
  {
  }

  /**
   * StateBootstrapPreConduitInitial (entered again for every package):
   * route the dialer's package id on the initial receive connection, and
   * the parent listener's handle, to this context.
   */
  function Initial(c: BootstrapPreConduitCtx): (o: Outcome<BootstrapPreConduitCtx>)
    ensures o == Returned(SUCCESS, c.(env := Tell(Tell(c.env, RegisterPackageId(c.handle, c.links.initRecv.connId,
                                                                                c.packageId)),
                                                  RegisterHandle(c.handle, c.parentHandle))), [])
  {
    var env1 := Tell(c.env, RegisterPackageId(c.handle, c.links.initRecv.connId, c.packageId));
    Returned(SUCCESS, c.(env := Tell(env1, RegisterHandle(c.handle, c.parentHandle))), [])
  }

  // ---------------------------------------------------------------------
  // Opening the links
  // ---------------------------------------------------------------------

  /**
   * Start a connection machine into slot n and route its handle to this
   * context; a NULL handle is NOT_SUPPORTED and stays in the slot.
   */
  function Open(w: World, c: BootstrapPreConduitCtx, n: SlotName, channel: ChannelId, role: string,
                address: LinkAddress, create: bool, sending: bool): (s: Stage<BootstrapPreConduitCtx>)
    ensures !s.Skip?
    ensures var h := w.answer(|c.env.requests|).handle;
            var c1 := c.(links := SetSlot(c.links, n, GetSlot(c.links, n).(connSM := h)),
                         env := Tell(c.env, StartConnStateMachine(c.handle, channel, role, address, create, sending)));
            && (h == NULL_RACE_HANDLE ==> s == Stop(Returned(NOT_SUPPORTED, c1, [])))
            && (h != NULL_RACE_HANDLE ==> s == Proceed(c1.(env := Tell(c1.env, RegisterHandle(c.handle, h)))))
  {
    var (env1, a) := Ask(w, c.env, StartConnStateMachine(c.handle, channel, role, address, create, sending));
    var c1 := c.(links := SetSlot(c.links, n, GetSlot(c.links, n).(connSM := a.handle)), env := env1);
    if a.handle == NULL_RACE_HANDLE then Stop(Returned(NOT_SUPPORTED, c1, []))
    else Proceed(c1.(env := Tell(env1, RegisterHandle(c.handle, a.handle))))
  }

  /** d is c after calls that only start connection machines. */
  predicate Opened(c: BootstrapPreConduitCtx, d: BootstrapPreConduitCtx) {
    && d == c.(links := d.links, env := d.env)
    && SameIds(c.links, d.links)
    && d.env.fired == c.env.fired && c.env.requests <= d.env.requests
  }

  lemma OpenedThen(a: BootstrapPreConduitCtx, b: BootstrapPreConduitCtx, d: BootstrapPreConduitCtx)
    requires Opened(a, b) && Opened(b, d)
    ensures Opened(a, d)
  {
  }

  /**
   * The initial send link, when its channel is set and the listener had
   * no machine for it: loaded from the address the hello gave. A link this
   * side should have created, or a missing address, is NOT_SUPPORTED.
   */
  function InitSendStage(w: World, c: BootstrapPreConduitCtx): (s: Stage<BootstrapPreConduitCtx>)
    ensures !s.Skip?
    ensures c.opts.init_send_channel == "" || c.links.initSend.connSM != NULL_RACE_HANDLE ==> s == Proceed(c)
    ensures (&& c.opts.init_send_channel != "" && c.links.initSend.connSM == NULL_RACE_HANDLE
             && (ShouldCreateSender(w, c.opts.init_send_channel) || c.links.initSend.linkAddress == "")) ==>
              s == Stop(Returned(NOT_SUPPORTED, c, []))
    ensures s.Proceed? ==> Opened(c, s.c) && s.c.links.(initSend := c.links.initSend) == c.links
                           && (c.opts.init_send_channel != "" ==> s.c.links.initSend.connSM != NULL_RACE_HANDLE)
    ensures s.Proceed? && s.c != c ==>
              s.c.env.requests == c.env.requests
                + [StartConnStateMachine(c.handle, c.opts.init_send_channel, c.opts.init_send_role,
                                         c.links.initSend.linkAddress, false, true),
                   RegisterHandle(c.handle, s.c.links.initSend.connSM)]
    ensures s.Stop? ==> s.o.Returned? && s.o.result == NOT_SUPPORTED && s.o.pushed == [] && Opened(c, s.o.data)
  {
    if c.opts.init_send_channel == "" || c.links.initSend.connSM != NULL_RACE_HANDLE then Proceed(c)
    else if ShouldCreateSender(w, c.opts.init_send_channel) then Stop(Returned(NOT_SUPPORTED, c, []))
    else if c.links.initSend.linkAddress == "" then Stop(Returned(NOT_SUPPORTED, c, []))
    else
      Open(w, c, InitSend, c.opts.init_send_channel, c.opts.init_send_role, c.links.initSend.linkAddress, false, true)
  }

  /** The address a final link is opened with: none when this side creates it, the hello's otherwise. */
  function FinalAddress(create: bool, s: Slot): LinkAddress {
    if create then "" else s.linkAddress
  }

  /**
   * The final send link: created with no address when this side is its
   * creator, otherwise loaded from the address the hello gave. As written,
   * the load is refused when the initial send address is empty, whatever
   * the final send address.
   */
  function FinalSendStage(w: World, c: BootstrapPreConduitCtx): (s: Stage<BootstrapPreConduitCtx>)
    ensures !s.Skip?
    ensures !ShouldCreateSender(w, c.opts.final_send_channel) && c.links.initSend.linkAddress == "" ==>
              s == Stop(Returned(NOT_SUPPORTED, c, []))
    ensures s.Proceed? ==>
              var create := ShouldCreateSender(w, c.opts.final_send_channel);
              var h := w.answer(|c.env.requests|).handle;
              && Opened(c, s.c) && h != NULL_RACE_HANDLE
              && s.c.links == c.links.(finalSend := c.links.finalSend.(connSM := h))
              && s.c.env.requests == c.env.requests
                   + [StartConnStateMachine(c.handle, c.opts.final_send_channel, c.opts.final_send_role,
                                            FinalAddress(create, c.links.finalSend), create, true),
                      RegisterHandle(c.handle, h)]
    ensures s.Stop? ==> s.o.Returned? && s.o.result == NOT_SUPPORTED && s.o.pushed == [] && Opened(c, s.o.data)
  {
    var create := ShouldCreateSender(w, c.opts.final_send_channel);
    if !create && c.links.initSend.linkAddress == "" then Stop(Returned(NOT_SUPPORTED, c, []))
    else
      Open(w, c, FinalSend, c.opts.final_send_channel, c.opts.final_send_role, FinalAddress(create, c.links.finalSend),
           create, true)
  }

  /**
   * The final receive link: created with no address when this side is its
   * creator, otherwise loaded from the address the hello gave. As written,
   * the load is refused when the initial receive address is empty.
   */
  function FinalRecvStage(w: World, c: BootstrapPreConduitCtx): (s: Stage<BootstrapPreConduitCtx>)
    ensures !s.Skip?
    ensures !ShouldCreateReceiver(w, c.opts.final_recv_channel) && c.links.initRecv.linkAddress == "" ==>
              s == Stop(Returned(NOT_SUPPORTED, c, []))
    ensures s.Proceed? ==>
              var create := ShouldCreateReceiver(w, c.opts.final_recv_channel);
              var h := w.answer(|c.env.requests|).handle;
              && Opened(c, s.c) && h != NULL_RACE_HANDLE
              && s.c.links == c.links.(finalRecv := c.links.finalRecv.(connSM := h))
              && s.c.env.requests == c.env.requests
                   + [StartConnStateMachine(c.handle, c.opts.final_recv_channel, c.opts.final_recv_role,
                                            FinalAddress(create, c.links.finalRecv), create, false),
                      RegisterHandle(c.handle, h)]
    ensures s.Stop? ==> s.o.Returned? && s.o.result == NOT_SUPPORTED && s.o.pushed == [] && Opened(c, s.o.data)
  {
    var create := ShouldCreateReceiver(w, c.opts.final_recv_channel);
    if !create && c.links.initRecv.linkAddress == "" then Stop(Returned(NOT_SUPPORTED, c, []))
    else
      Open(w, c, FinalRecv, c.opts.final_recv_channel, c.opts.final_recv_role, FinalAddress(create, c.links.finalRecv),
           create, false)
  }

  /** The calls that open both final links, then route the initial send machine. */
  function FinalCalls(w: World, c: BootstrapPreConduitCtx, l: BootstrapLinks): seq<Request> {
    var createSend := ShouldCreateSender(w, c.opts.final_send_channel);
    var createRecv := ShouldCreateReceiver(w, c.opts.final_recv_channel);
    [StartConnStateMachine(c.handle, c.opts.final_send_channel, c.opts.final_send_role,
                           FinalAddress(createSend, c.links.finalSend), createSend, true),
     RegisterHandle(c.handle, l.finalSend.connSM),
     StartConnStateMachine(c.handle, c.opts.final_recv_channel, c.opts.final_recv_role,
                           FinalAddress(createRecv, c.links.finalRecv), createRecv, false),
     RegisterHandle(c.handle, l.finalRecv.connSM),
     RegisterHandle(c.handle, l.initSend.connSM)]
  }

  /**
   * The final send link, then the final receive link, then the initial
   * send machine is routed to this context (NULL included) and ALWAYS is
   * queued.
   */
  function OpenFinalLinks(w: World, c: BootstrapPreConduitCtx): (o: Outcome<BootstrapPreConduitCtx>)
    ensures o.Returned? && Opened(c, o.data)
    ensures o.result != SUCCESS ==> o.result == NOT_SUPPORTED && o.pushed == []
    ensures !ShouldCreateSender(w, c.opts.final_send_channel) && c.links.initSend.linkAddress == "" ==>
              o == Returned(NOT_SUPPORTED, c, [])
    ensures o.result == SUCCESS ==>
              var n := |c.env.requests|;
              var hs := w.answer(n).handle;
              var hr := w.answer(n + 2).handle;
              && o.pushed == [EVENT_ALWAYS] && hs != NULL_RACE_HANDLE && hr != NULL_RACE_HANDLE
              && o.data.links == c.links.(finalSend := c.links.finalSend.(connSM := hs),
                                          finalRecv := c.links.finalRecv.(connSM := hr))
              && o.data.env.requests == c.env.requests + FinalCalls(w, c, o.data.links)
  {
    var s2 := FinalSendStage(w, c);
    if s2.Stop? then s2.o
    else
      var s3 := FinalRecvStage(w, s2.c);
      if s3.Stop? then
        OpenedThen(c, s2.c, s3.o.data);
        s3.o
      else
        var d := s3.c.(env := Tell(s3.c.env, RegisterHandle(c.handle, s3.c.links.initSend.connSM)));
        OpenedThen(c, s2.c, s3.c);
        OpenedThen(c, s3.c, d);
        Returned(SUCCESS, d, [EVENT_ALWAYS])
  }

  /**
   * StateBootstrapPreConduitAccepted: open the initial send link if it is
   * still missing, then the final send and final receive links, route the
   * initial send machine to this context and move on. Each final link is
   * created when this side is its creator and otherwise loaded from the
   * address the dialer's hello gave.
   */
  function Accepted(w: World, c: BootstrapPreConduitCtx): (o: Outcome<BootstrapPreConduitCtx>)
    ensures o.Returned? && Opened(c, o.data) && o.data.links.initRecv == c.links.initRecv
    ensures o.result != SUCCESS ==> o.result == NOT_SUPPORTED && o.pushed == []
    ensures (&& c.opts.init_send_channel != "" && c.links.initSend.connSM == NULL_RACE_HANDLE
             && (ShouldCreateSender(w, c.opts.init_send_channel) || c.links.initSend.linkAddress == "")) ==>
              o == Returned(NOT_SUPPORTED, c, [])
    ensures (&& (c.opts.init_send_channel == "" || c.links.initSend.connSM != NULL_RACE_HANDLE)
             && !ShouldCreateSender(w, c.opts.final_send_channel) && c.links.initSend.linkAddress == "") ==>
              o == Returned(NOT_SUPPORTED, c, [])
    ensures o.result == SUCCESS ==>
              var l := o.data.links;
              var k := |o.data.env.requests|;
              && o.pushed == [EVENT_ALWAYS]
              && (c.opts.init_send_channel != "" ==> l.initSend.connSM != NULL_RACE_HANDLE)
              && l.finalSend.connSM != NULL_RACE_HANDLE && l.finalRecv.connSM != NULL_RACE_HANDLE
              && k >= |c.env.requests| + 5
              && o.data.env.requests[k - 5..] == FinalCalls(w, c, l)
  {
    var s1 := InitSendStage(w, c);
    if s1.Stop? then s1.o
    else
      var o := OpenFinalLinks(w, s1.c);
      assert s1.c.links.finalSend == c.links.finalSend && s1.c.links.finalRecv == c.links.finalRecv;
      assert s1.c.links.initSend.linkAddress == c.links.initSend.linkAddress by {
        assert GetSlot(s1.c.links, InitSend).linkAddress == GetSlot(c.links, InitSend).linkAddress;
      }
      OpenedThen(c, s1.c, o.data);
      assert FinalCalls(w, s1.c, o.data.links) == FinalCalls(w, c, o.data.links);
      assert o.result == SUCCESS ==>
        o.data.env.requests[|o.data.env.requests| - 5..] == FinalCalls(w, c, o.data.links);
      o
  }

  /**
   * With no initial send link to open and a final send link to load, an
   * empty final send address is not refused: a machine is started on the
   * empty address, because the test looks at the initial send address.
   */
  lemma EmptyFinalSendAddressLoaded(w: World, c: BootstrapPreConduitCtx)
    requires c.opts.init_send_channel == "" || c.links.initSend.connSM != NULL_RACE_HANDLE
    requires !ShouldCreateSender(w, c.opts.final_send_channel)
    requires c.links.initSend.linkAddress != "" && c.links.finalSend.linkAddress == ""
    ensures var o := Accepted(w, c);
            var n := |c.env.requests|;
            && |o.data.env.requests| > n
            && o.data.env.requests[n]
               == StartConnStateMachine(c.handle, c.opts.final_send_channel, c.opts.final_send_role, "", false, true)
            && (o.result == SUCCESS ==> o.data.links.finalSend.connSM != NULL_RACE_HANDLE)
  {
    assert InitSendStage(w, c) == Proceed(c);
    assert FinalAddress(false, c.links.finalSend) == "";
  }

  // ---------------------------------------------------------------------
  // Waiting for the links and answering the dialer
  // ---------------------------------------------------------------------

  /** This side created a final link, so the dialer needs its address in a response. */
  predicate NeedsResponse(w: World, opts: BootstrapConnectionOptions) {
    ShouldCreateSender(w, opts.final_send_channel) || ShouldCreateReceiver(w, opts.final_recv_channel)
  }

  /**
   * StateBootstrapPreConduitWaitingForConnections: once every started
   * machine has reported its connection, answer the dialer if this side
   * created a final link (NEEDS_SEND), otherwise finish (SATISFIED).
   */
  function WaitingForConnections(w: World, c: BootstrapPreConduitCtx): (o: Outcome<BootstrapPreConduitCtx>)
    ensures !AllConnected(c.links) ==> o == Returned(SUCCESS, c, [])
    ensures AllConnected(c.links) ==>
              o == Returned(SUCCESS, c, if NeedsResponse(w, c.opts) then [EVENT_NEEDS_SEND] else [EVENT_SATISFIED])
  {
    SatisfiedIffAllConnected(c.links);
    if !Satisfied(c.links) then Returned(SUCCESS, c, [])
    else if NeedsResponse(w, c.opts) then Returned(SUCCESS, c, [EVENT_NEEDS_SEND])
    else Returned(SUCCESS, c, [EVENT_SATISFIED])
  }

  /**
   * The response's fields. Names are from the dialer's point of view: this
   * side's final send link is the dialer's final receive link, and the
   * other way round.
   */
  function ResponseFields(w: World, c: BootstrapPreConduitCtx): map<string, string> {
    var m0: map<string, string> := map[];
    var m1 := if ShouldCreateSender(w, c.opts.final_send_channel) then
                m0["finalRecvLinkAddress" := c.links.finalSend.linkAddress]
                  ["finalRecvChannel" := c.opts.final_send_channel]
              else m0;
    if ShouldCreateReceiver(w, c.opts.final_recv_channel) then
      m1["finalSendLinkAddress" := c.links.finalRecv.linkAddress]["finalSendChannel" := c.opts.final_recv_channel]
    else m1
  }

  /** The response package: the dialer's package id, then the JSON text. */
  function Response(w: World, c: BootstrapPreConduitCtx): Bytes {
    StrToBytes(c.packageId) + StrToBytes(w.codecs.dump(Assigned(ResponseFields(w, c))))
  }

  /** A final link this side should have created has no address. */
  predicate MissingAddress(w: World, c: BootstrapPreConduitCtx) {
    || (ShouldCreateSender(w, c.opts.final_send_channel) && c.links.finalSend.linkAddress == "")
    || (ShouldCreateReceiver(w, c.opts.final_recv_channel) && c.links.finalRecv.linkAddress == "")
  }

  /**
   * Whether the response is sent once both addresses are in place. As
   * written, the send sits inside the final receive branch, so it happens
   * only when this side created the final receive link; corrected, it
   * always happens.
   */
  predicate Sends(w: World, c: BootstrapPreConduitCtx, asWritten: bool) {
    !asWritten || ShouldCreateReceiver(w, c.opts.final_recv_channel)
  }

  /**
   * StateBootstrapPreConduitSendResponse: register a connection handle,
   * then send the response on the initial send connection and register
   * the package handle; a created final link with no address is
   * NOT_SUPPORTED. `asWritten` places the send as the source does.
   */
  function SendResponse(w: World, c: BootstrapPreConduitCtx, asWritten: bool): (o: Outcome<BootstrapPreConduitCtx>)
    ensures o.pushed == []
    ensures GetPlugin(w, c.opts.init_send_channel).Some? ==> o == Threw(c, [])
    ensures GetPlugin(w, c.opts.init_send_channel).None? ==>
              var n := |c.env.requests|;
              var head := c.env.requests + [GenerateHandle, RegisterHandle(c.handle, w.answer(n).handle)];
              && o.Returned? && o.data == c.(env := o.data.env) && o.data.env.fired == c.env.fired
              && (MissingAddress(w, c) ==> o.result == NOT_SUPPORTED && o.data.env.requests == head)
              && (!MissingAddress(w, c) && !Sends(w, c, asWritten) ==>
                    o.result == SUCCESS && o.data.env.requests == head)
              && (!MissingAddress(w, c) && Sends(w, c, asWritten) ==>
                    var pkg := w.answer(n + 2).handle;
                    && o.data.env.requests
                       == head + [GenerateHandle,
                                  SendPackage(c.opts.init_send_channel, pkg, c.links.initSend.connId, Response(w, c)),
                                  RegisterHandle(c.handle, pkg)]
                    && (o.result == SUCCESS <==> w.answer(n + 3).ok))
  {
    if GetPlugin(w, c.opts.init_send_channel).Some? then Threw(c, [])
    else
      var (env1, conn) := Ask(w, c.env, GenerateHandle);
      var env2 := Tell(env1, RegisterHandle(c.handle, conn.handle));
      if MissingAddress(w, c) then Returned(NOT_SUPPORTED, c.(env := env2), [])
      else if !Sends(w, c, asWritten) then Returned(SUCCESS, c.(env := env2), [])
      else
        var (env3, pkg) := Ask(w, env2, GenerateHandle);
        var (env4, sent) := Ask(w, env3, SendPackage(c.opts.init_send_channel, pkg.handle, c.links.initSend.connId,
                                                     Response(w, c)));
        var env5 := Tell(env4, RegisterHandle(c.handle, pkg.handle));
        Returned(if sent.ok then SUCCESS else NOT_SUPPORTED, c.(env := env5), [])
  }

  /**
   * The dialer finds the response under its package id and reads, under
   * its own names, the address and channel of each final link this side
   * created; a link this side loaded is not mentioned.
   */
  lemma ResponseNamesLinksForDialer(w: World, c: BootstrapPreConduitCtx)
    requires Lawful(w.codecs)
    requires |c.packageId| == PACKAGE_ID_LEN
    requires IsByteString(w.codecs.dump(Assigned(ResponseFields(w, c))))
    ensures var r := Response(w, c);
            && |r| >= PACKAGE_ID_LEN && r[..PACKAGE_ID_LEN] == StrToBytes(c.packageId)
            && var j := w.codecs.parse(BytesToStr(r[PACKAGE_ID_LEN..]));
               && j.Some?
               && AtString(j.value, "finalRecvLinkAddress")
                  == (if ShouldCreateSender(w, c.opts.final_send_channel) then Some(c.links.finalSend.linkAddress)
                      else None)
               && AtString(j.value, "finalSendLinkAddress")
                  == (if ShouldCreateReceiver(w, c.opts.final_recv_channel) then Some(c.links.finalRecv.linkAddress)
                      else None)
               && (ShouldCreateSender(w, c.opts.final_send_channel) ==>
                     AtString(j.value, "finalRecvChannel") == Some(c.opts.final_send_channel))
               && (ShouldCreateReceiver(w, c.opts.final_recv_channel) ==>
                     AtString(j.value, "finalSendChannel") == Some(c.opts.final_recv_channel))
  {
    var f := ResponseFields(w, c);
    var text := w.codecs.dump(Assigned(f));
    var r := Response(w, c);
    assert r[PACKAGE_ID_LEN..] == StrToBytes(text);
    StrBytesRoundTrip(text);
    assert w.codecs.parse(text) == Some(Assigned(f));
    if ShouldCreateSender(w, c.opts.final_send_channel) {
      assert "finalRecvLinkAddress" in f;
    } else if ShouldCreateReceiver(w, c.opts.final_recv_channel) {
      assert "finalSendLinkAddress" in f;
    }
  }

  /**
   * A bootstrap dialer whose final send link is up and whose final receive
   * link waits for the response loads that link from the address this side
   * created for its final send link, when both sides name the channel alike.
   */
  lemma DialLoadsResponse(w: World, c: BootstrapPreConduitCtx, dc: BootstrapDialMachine.BootstrapDialCtx)
    requires Lawful(w.codecs)
    requires |c.packageId| == PACKAGE_ID_LEN
    requires IsByteString(w.codecs.dump(Assigned(ResponseFields(w, c))))
    requires ShouldCreateSender(w, c.opts.final_send_channel)
    requires dc.opts.final_recv_channel == c.opts.final_send_channel
    requires dc.links.finalSend.connId != "" && dc.links.finalRecv.connId == ""
    ensures var s := BootstrapDialMachine.HandleResponse(w, dc, Response(w, c)[PACKAGE_ID_LEN..]);
            && s.Stop?
            && |s.o.data.env.requests| > |dc.env.requests|
            && s.o.data.env.requests[|dc.env.requests|]
               == StartConnStateMachine(dc.handle, dc.opts.final_recv_channel, dc.opts.final_recv_role,
                                        c.links.finalSend.linkAddress, false, false)
            && (s.o.result == SUCCESS ==> s.o.pushed == [EVENT_SATISFIED])
  {
    ResponseNamesLinksForDialer(w, c);
    var j := w.codecs.parse(BytesToStr(Response(w, c)[PACKAGE_ID_LEN..])).value;
    assert BootstrapDialMachine.AddressKey(false) == "finalRecvLinkAddress";
    assert BootstrapDialMachine.ChannelKey(false) == "finalRecvChannel";
    var s2 := BootstrapDialMachine.LoadFinal(w, dc, j, false);
    assert !s2.Skip?;
  }

  // ---------------------------------------------------------------------
  // Finishing and failing
  // ---------------------------------------------------------------------

  /**
   * StateBootstrapPreConduitFinished: start a conduit over the final links
   * that inherits every buffered package, detach the initial send and
   * receive machines, and hand the application the conduit's handle.
   */
  function Finished(w: World, c: BootstrapPreConduitCtx): (o: Outcome<BootstrapPreConduitCtx>)
    ensures o.pushed == [] && o.data.recvQueue == []
    ensures var n := |c.env.requests|;
            var api := w.answer(n).handle;
            var l := c.links;
            var start := StartConduit(c.handle, l.finalRecv.connSM, l.finalRecv.connId, l.finalSend.connSM,
                                      l.finalSend.connId, c.opts.final_send_channel, c.opts.final_recv_channel,
                                      c.packageId, c.recvQueue, api);
            && |o.data.env.requests| >= n + 2
            && o.data.env.requests[..n + 2] == c.env.requests + [GenerateHandle, start]
            && o.data == c.(recvQueue := [], acceptCb := o.data.acceptCb, env := o.data.env)
            && (w.answer(n + 1).handle == NULL_RACE_HANDLE ==> o.Returned? && o.result == NOT_SUPPORTED)
            && (w.answer(n + 1).handle != NULL_RACE_HANDLE && !(w.answer(n + 3).ok && w.answer(n + 5).ok) ==>
                  o.Returned? && o.result == NOT_SUPPORTED && o.data.env.fired == c.env.fired)
            && (w.answer(n + 1).handle != NULL_RACE_HANDLE && w.answer(n + 3).ok && w.answer(n + 5).ok ==>
                  && (c.acceptCb.None? ==> o.Threw?)
                  && (c.acceptCb.Some? ==>
                        && o.Returned? && o.result == SUCCESS && o.data.acceptCb.None?
                        && o.data.env.fired == c.env.fired + [Fired(c.acceptCb.value, OK, PHandle(api))]
                        && o.data.env.requests
                           == c.env.requests + [GenerateHandle, start,
                                                UnregisterHandle(c.handle, l.initSend.connSM),
                                                DetachConnSM(c.handle, l.initSend.connSM),
                                                UnregisterHandle(c.handle, l.initRecv.connSM),
                                                DetachConnSM(c.handle, l.initRecv.connSM),
                                                StateMachineFinished(c.handle)]))
  {
    var l := c.links;
    var (env1, api) := Ask(w, c.env, GenerateHandle);
    var (env2, conduit) := Ask(w, env1, StartConduit(c.handle, l.finalRecv.connSM, l.finalRecv.connId,
                                                      l.finalSend.connSM, l.finalSend.connId,
                                                      c.opts.final_send_channel, c.opts.final_recv_channel,
                                                      c.packageId, c.recvQueue, api.handle));
    var c1 := c.(recvQueue := [], env := env2);
    if conduit.handle == NULL_RACE_HANDLE then Returned(NOT_SUPPORTED, c1, [])
    else
      var (env4, detachedSend) := Ask(w, Tell(env2, UnregisterHandle(c.handle, l.initSend.connSM)),
                                      DetachConnSM(c.handle, l.initSend.connSM));
      if !detachedSend.ok then Returned(NOT_SUPPORTED, c1.(env := env4), [])
      else
        var (env6, detachedRecv) := Ask(w, Tell(env4, UnregisterHandle(c.handle, l.initRecv.connSM)),
                                        DetachConnSM(c.handle, l.initRecv.connSM));
        if !detachedRecv.ok then Returned(NOT_SUPPORTED, c1.(env := env6), [])
        else
          match Invoke(env6, c.acceptCb, OK, PHandle(api.handle))
          case None => Threw(c1.(env := env6), [])
          case Some(env7) =>
            Returned(SUCCESS, c1.(acceptCb := None, env := Tell(env7, StateMachineFinished(c.handle))), [])
  }

  /** StateBootstrapPreConduitFailed: INTERNAL_ERROR only if the accept callback is still set. */
  function Failed(c: BootstrapPreConduitCtx): (o: Outcome<BootstrapPreConduitCtx>)
    ensures o.Returned? && o.result == SUCCESS && o.pushed == []
    ensures o.data == c.(acceptCb := None, env := o.data.env)
    ensures o.data.env.fired == InvokeIfSet(c.env, c.acceptCb, INTERNAL_ERROR, NoConduit).fired
    ensures o.data.env.requests == c.env.requests + [StateMachineFailed(c.handle)]
  {
    var env := InvokeIfSet(c.env, c.acceptCb, INTERNAL_ERROR, NoConduit);
    Returned(SUCCESS, c.(acceptCb := None, env := Tell(env, StateMachineFailed(c.handle))), [])
  }

  // ---------------------------------------------------------------------
  // The engine
  // ---------------------------------------------------------------------

  /** The registered states; `asWritten` picks the send-response enter as the source has it. */
  function BootstrapPreConduitStates(w: World, asWritten: bool)
    : map<StateType, StateDef<BootstrapPreConduitCtx>>
  {
    map[STATE_BOOTSTRAP_PRE_CONN_OBJ_INITIAL :=
          PlainState((cur: StateType, c: BootstrapPreConduitCtx) => Initial(c)),
        STATE_BOOTSTRAP_PRE_CONN_OBJ_ACCEPTED :=
          PlainState((cur: StateType, c: BootstrapPreConduitCtx) => Accepted(w, c)),
        STATE_BOOTSTRAP_PRE_CONN_OBJ_WAITING_FOR_CONNECTIONS :=
          PlainState((cur: StateType, c: BootstrapPreConduitCtx) => WaitingForConnections(w, c)),
        STATE_BOOTSTRAP_PRE_CONN_OBJ_SEND_RESPONSE :=
          PlainState((cur: StateType, c: BootstrapPreConduitCtx) => SendResponse(w, c, asWritten)),
        STATE_BOOTSTRAP_PRE_CONN_OBJ_FINISHED :=
          FinalState((cur: StateType, c: BootstrapPreConduitCtx) => Finished(w, c)),
        STATE_BOOTSTRAP_PRE_CONN_OBJ_FAILED :=
          PlainState((cur: StateType, c: BootstrapPreConduitCtx) => Failed(c))]
  }

  /** The declarations of BootstrapPreConduitStateEngine's constructor, in order. */
  function BootstrapPreConduitDecls(): seq<Decl> {
    [Decl(STATE_BOOTSTRAP_PRE_CONN_OBJ_INITIAL, EVENT_RECEIVE_PACKAGE, STATE_BOOTSTRAP_PRE_CONN_OBJ_INITIAL),
     Decl(STATE_BOOTSTRAP_PRE_CONN_OBJ_INITIAL, EVENT_LISTEN_ACCEPTED, STATE_BOOTSTRAP_PRE_CONN_OBJ_ACCEPTED),
     Decl(STATE_BOOTSTRAP_PRE_CONN_OBJ_ACCEPTED, EVENT_ALWAYS, STATE_BOOTSTRAP_PRE_CONN_OBJ_WAITING_FOR_CONNECTIONS),
     Decl(STATE_BOOTSTRAP_PRE_CONN_OBJ_WAITING_FOR_CONNECTIONS, EVENT_CONN_STATE_MACHINE_CONNECTED,
          STATE_BOOTSTRAP_PRE_CONN_OBJ_WAITING_FOR_CONNECTIONS),
     Decl(STATE_BOOTSTRAP_PRE_CONN_OBJ_WAITING_FOR_CONNECTIONS, EVENT_NEEDS_SEND,
          STATE_BOOTSTRAP_PRE_CONN_OBJ_SEND_RESPONSE),
     Decl(STATE_BOOTSTRAP_PRE_CONN_OBJ_WAITING_FOR_CONNECTIONS, EVENT_SATISFIED, STATE_BOOTSTRAP_PRE_CONN_OBJ_FINISHED),
     Decl(STATE_BOOTSTRAP_PRE_CONN_OBJ_SEND_RESPONSE, EVENT_PACKAGE_SENT, STATE_BOOTSTRAP_PRE_CONN_OBJ_FINISHED)]
  }

  /**
   * The bootstrap pre-conduit lifecycle: packages re-enter INITIAL until
   * accepted, connections re-enter WAITING_FOR_CONNECTIONS, and the sent
   * response (or no need for one) finishes.
   */
  function BootstrapPreConduitNext(s: StateType, e: EventType): Option<StateType> {
    if s == STATE_BOOTSTRAP_PRE_CONN_OBJ_INITIAL && e == EVENT_RECEIVE_PACKAGE then
      Some(STATE_BOOTSTRAP_PRE_CONN_OBJ_INITIAL)
    else if s == STATE_BOOTSTRAP_PRE_CONN_OBJ_INITIAL && e == EVENT_LISTEN_ACCEPTED then
      Some(STATE_BOOTSTRAP_PRE_CONN_OBJ_ACCEPTED)
    else if s == STATE_BOOTSTRAP_PRE_CONN_OBJ_ACCEPTED && e == EVENT_ALWAYS then
      Some(STATE_BOOTSTRAP_PRE_CONN_OBJ_WAITING_FOR_CONNECTIONS)
    else if s == STATE_BOOTSTRAP_PRE_CONN_OBJ_WAITING_FOR_CONNECTIONS && e == EVENT_CONN_STATE_MACHINE_CONNECTED then
      Some(STATE_BOOTSTRAP_PRE_CONN_OBJ_WAITING_FOR_CONNECTIONS)
    else if s == STATE_BOOTSTRAP_PRE_CONN_OBJ_WAITING_FOR_CONNECTIONS && e == EVENT_NEEDS_SEND then
      Some(STATE_BOOTSTRAP_PRE_CONN_OBJ_SEND_RESPONSE)
    else if s == STATE_BOOTSTRAP_PRE_CONN_OBJ_WAITING_FOR_CONNECTIONS && e == EVENT_SATISFIED then
      Some(STATE_BOOTSTRAP_PRE_CONN_OBJ_FINISHED)
    else if s == STATE_BOOTSTRAP_PRE_CONN_OBJ_SEND_RESPONSE && e == EVENT_PACKAGE_SENT then
      Some(STATE_BOOTSTRAP_PRE_CONN_OBJ_FINISHED)
    else None
  }

  lemma BootstrapPreConduitDeclTargets(s: StateType, e: EventType)
    ensures DeclTargets(BootstrapPreConduitDecls(), s, e) == TargetSet(BootstrapPreConduitNext(s, e))
  {
  }

  /** The declared table is the bootstrap pre-conduit lifecycle. */
  lemma BootstrapPreConduitDeclsFollow()
    ensures Follows(DeclareAll(map[], BootstrapPreConduitDecls()), BootstrapPreConduitNext)
  {
    forall s, e
      ensures Declares(DeclareAll(map[], BootstrapPreConduitDecls()), s, e) <==> BootstrapPreConduitNext(s, e).Some?
      ensures Targets(DeclareAll(map[], BootstrapPreConduitDecls()), s, e) == TargetSet(BootstrapPreConduitNext(s, e))
    {
      BootstrapPreConduitDeclTargets(s, e);
      DeclaredTable(BootstrapPreConduitDecls(), s, e, BootstrapPreConduitNext(s, e));
    }
  }

  /** What BootstrapPreConduitStateEngine's constructor builds. */
  ghost predicate IsBootstrapPreConduitTable(w: World, t: Table<BootstrapPreConduitCtx>, asWritten: bool) {
    && t.states == BootstrapPreConduitStates(w, asWritten)
    && Follows(t.transitions, BootstrapPreConduitNext)
    && t.initStateId == STATE_BOOTSTRAP_PRE_CONN_OBJ_INITIAL && t.failedStateId == STATE_BOOTSTRAP_PRE_CONN_OBJ_FAILED
  }

  /** BootstrapPreConduitStateEngine's constructor. */
  method NewBootstrapPreConduitStateEngine(w: World, asWritten: bool) returns (e: StateEngine<BootstrapPreConduitCtx>)
    ensures IsBootstrapPreConduitTable(w, e.Spec(), asWritten)
  {
    e := new StateEngine();
    e.AddInitialState(STATE_BOOTSTRAP_PRE_CONN_OBJ_INITIAL,
                      PlainState((cur: StateType, c: BootstrapPreConduitCtx) => Initial(c)));
    e.AddState(STATE_BOOTSTRAP_PRE_CONN_OBJ_ACCEPTED,
               PlainState((cur: StateType, c: BootstrapPreConduitCtx) => Accepted(w, c)));
    e.AddState(STATE_BOOTSTRAP_PRE_CONN_OBJ_WAITING_FOR_CONNECTIONS,
               PlainState((cur: StateType, c: BootstrapPreConduitCtx) => WaitingForConnections(w, c)));
    e.AddState(STATE_BOOTSTRAP_PRE_CONN_OBJ_SEND_RESPONSE,
               PlainState((cur: StateType, c: BootstrapPreConduitCtx) => SendResponse(w, c, asWritten)));
    e.AddState(STATE_BOOTSTRAP_PRE_CONN_OBJ_FINISHED,
               FinalState((cur: StateType, c: BootstrapPreConduitCtx) => Finished(w, c)));
    e.AddFailedState(STATE_BOOTSTRAP_PRE_CONN_OBJ_FAILED,
                     PlainState((cur: StateType, c: BootstrapPreConduitCtx) => Failed(c)));
    e.DeclareTransitions(BootstrapPreConduitDecls());
    BootstrapPreConduitDeclsFollow();
  }

  // ---------------------------------------------------------------------
  // Properties
  // ---------------------------------------------------------------------

  /**
   * Before the accept call, every package for the dialer re-enters INITIAL
   * and is kept at the back of the receive queue.
   */
  lemma PackagesQueueUntilAccepted(w: World, t: Table<BootstrapPreConduitCtx>, c: Config<BootstrapPreConduitCtx>,
                                   connId: ConnectionId, pkg: Bytes, fuel: nat, asWritten: bool)
    requires IsBootstrapPreConduitTable(w, t, asWritten)
    requires c.currentStateId == STATE_BOOTSTRAP_PRE_CONN_OBJ_INITIAL && c.pendingEvents == [] && fuel > 0
    ensures var c' := c.(data := Apply(c.data, UReceiveEncPkg(connId, pkg)));
            var r := HandleEventSpec(t, c', EVENT_RECEIVE_PACKAGE, fuel);
            && r.result == SUCCESS && r.handled == [EVENT_RECEIVE_PACKAGE]
            && r.config.currentStateId == STATE_BOOTSTRAP_PRE_CONN_OBJ_INITIAL
            && r.config.data.recvQueue == c.data.recvQueue + [pkg]
            && r.config.data.acceptCb == c.data.acceptCb && r.config.data.env.fired == c.data.env.fired
  {
    var c' := c.(data := Apply(c.data, UReceiveEncPkg(connId, pkg)));
    assert Targets(t.transitions, STATE_BOOTSTRAP_PRE_CONN_OBJ_INITIAL, EVENT_RECEIVE_PACKAGE)
           == TargetSet(BootstrapPreConduitNext(STATE_BOOTSTRAP_PRE_CONN_OBJ_INITIAL, EVENT_RECEIVE_PACKAGE));
    HandleOneMoves(t, c', EVENT_RECEIVE_PACKAGE, STATE_BOOTSTRAP_PRE_CONN_OBJ_INITIAL);
    assert t.states[STATE_BOOTSTRAP_PRE_CONN_OBJ_INITIAL].exit(STATE_BOOTSTRAP_PRE_CONN_OBJ_INITIAL, c'.data)
           == Returned(SUCCESS, c'.data, []);
    assert t.states[STATE_BOOTSTRAP_PRE_CONN_OBJ_INITIAL].enter(STATE_BOOTSTRAP_PRE_CONN_OBJ_INITIAL, c'.data)
           == Initial(c'.data);
    TransitionByEnter(t, c', STATE_BOOTSTRAP_PRE_CONN_OBJ_INITIAL);
    var c1 := c'.(pendingEvents := [EVENT_RECEIVE_PACKAGE]);
    var (res, c2) := HandleOne(t, c', EVENT_RECEIVE_PACKAGE);
    assert res == SUCCESS && c2.pendingEvents == [];
    assert Drain(t, c1, fuel) == Prepend([EVENT_RECEIVE_PACKAGE], Drain(t, c2, fuel - 1));
  }

  /**
   * Once accepted, a package for the dialer is not declared in the states
   * that open and wait for the final links: it fails the pre-conduit.
   */
  lemma PackageWhileConnectingFails(w: World, t: Table<BootstrapPreConduitCtx>, c: Config<BootstrapPreConduitCtx>,
                                    fuel: nat, asWritten: bool)
    requires IsBootstrapPreConduitTable(w, t, asWritten)
    requires c.currentStateId == STATE_BOOTSTRAP_PRE_CONN_OBJ_WAITING_FOR_CONNECTIONS
             || c.currentStateId == STATE_BOOTSTRAP_PRE_CONN_OBJ_SEND_RESPONSE
    requires c.pendingEvents == [] && fuel > 0
    ensures var r := HandleEventSpec(t, c, EVENT_RECEIVE_PACKAGE, fuel);
            && r.result == NOT_SUPPORTED && r.handled == [EVENT_RECEIVE_PACKAGE]
            && r.config.currentStateId == STATE_BOOTSTRAP_PRE_CONN_OBJ_FAILED
  {
    assert !Declares(t.transitions, c.currentStateId, EVENT_RECEIVE_PACKAGE);
  }

  /**
   * The connection report that completes the links, in
   * WAITING_FOR_CONNECTIONS with nothing queued, re-enters that state and
   * queues NEEDS_SEND when this side created a final link.
   */
  lemma LastConnectionQueuesNeedsSend(w: World, t: Table<BootstrapPreConduitCtx>, c: Config<BootstrapPreConduitCtx>,
                                      fuel: nat, asWritten: bool)
    requires IsBootstrapPreConduitTable(w, t, asWritten)
    requires c.currentStateId == STATE_BOOTSTRAP_PRE_CONN_OBJ_WAITING_FOR_CONNECTIONS && c.pendingEvents == []
    requires AllConnected(c.data.links) && NeedsResponse(w, c.data.opts) && fuel > 0
    ensures HandleEventSpec(t, c, EVENT_CONN_STATE_MACHINE_CONNECTED, fuel)
            == Prepend([EVENT_CONN_STATE_MACHINE_CONNECTED],
                       Drain(t, Config(STATE_BOOTSTRAP_PRE_CONN_OBJ_WAITING_FOR_CONNECTIONS, [EVENT_NEEDS_SEND], c.data),
                             fuel - 1))
  {
    var s := STATE_BOOTSTRAP_PRE_CONN_OBJ_WAITING_FOR_CONNECTIONS;
    assert Targets(t.transitions, s, EVENT_CONN_STATE_MACHINE_CONNECTED)
           == TargetSet(BootstrapPreConduitNext(s, EVENT_CONN_STATE_MACHINE_CONNECTED));
    HandleOneMoves(t, c, EVENT_CONN_STATE_MACHINE_CONNECTED, s);
    assert t.states[s].exit(s, c.data) == Returned(SUCCESS, c.data, []);
    assert t.states[s].enter(s, c.data) == WaitingForConnections(w, c.data);
    TransitionByEnter(t, c, s);
    var c1 := c.(pendingEvents := [EVENT_CONN_STATE_MACHINE_CONNECTED]);
    var (res, c2) := HandleOne(t, c, EVENT_CONN_STATE_MACHINE_CONNECTED);
    assert res == SUCCESS && c2 == Config(s, [EVENT_NEEDS_SEND], c.data);
    assert Drain(t, c1, fuel) == Prepend([EVENT_CONN_STATE_MACHINE_CONNECTED], Drain(t, c2, fuel - 1));
  }

  /** NEEDS_SEND moves WAITING_FOR_CONNECTIONS to SEND_RESPONSE, whose enter decides. */
  lemma NeedsSendEntersSendResponse(w: World, t: Table<BootstrapPreConduitCtx>, d: BootstrapPreConduitCtx,
                                    fuel: nat, asWritten: bool)
    requires IsBootstrapPreConduitTable(w, t, asWritten)
    requires SendResponse(w, d, asWritten) == Returned(SUCCESS, SendResponse(w, d, asWritten).data, [])
    requires fuel > 0
    ensures Drain(t, Config(STATE_BOOTSTRAP_PRE_CONN_OBJ_WAITING_FOR_CONNECTIONS, [EVENT_NEEDS_SEND], d), fuel)
            == Drained(SUCCESS, Config(STATE_BOOTSTRAP_PRE_CONN_OBJ_SEND_RESPONSE, [],
                                       SendResponse(w, d, asWritten).data), [EVENT_NEEDS_SEND])
  {
    var s := STATE_BOOTSTRAP_PRE_CONN_OBJ_WAITING_FOR_CONNECTIONS;
    var c := Config(s, [], d);
    assert Targets(t.transitions, s, EVENT_NEEDS_SEND) == TargetSet(BootstrapPreConduitNext(s, EVENT_NEEDS_SEND));
    HandleOneMoves(t, c, EVENT_NEEDS_SEND, STATE_BOOTSTRAP_PRE_CONN_OBJ_SEND_RESPONSE);
    assert t.states[s].exit(s, d) == Returned(SUCCESS, d, []);
    assert t.states[STATE_BOOTSTRAP_PRE_CONN_OBJ_SEND_RESPONSE].enter(s, d) == SendResponse(w, d, asWritten);
    TransitionByEnter(t, c, STATE_BOOTSTRAP_PRE_CONN_OBJ_SEND_RESPONSE);
    var (res, c2) := HandleOne(t, c, EVENT_NEEDS_SEND);
    assert res == SUCCESS && c2.pendingEvents == [];
  }

  /**
   * As written, a listener that creates the final send link but loads the
   * final receive link never sends its response: the last connection
   * report moves it to SEND_RESPONSE without a SendPackage call, and only
   * PACKAGE_SENT leaves that state.
   */
  lemma WithheldResponseStrandsPreConduit(w: World, t: Table<BootstrapPreConduitCtx>, c: Config<BootstrapPreConduitCtx>,
                                          fuel: nat)
    requires IsBootstrapPreConduitTable(w, t, true)
    requires c.currentStateId == STATE_BOOTSTRAP_PRE_CONN_OBJ_WAITING_FOR_CONNECTIONS && c.pendingEvents == []
    requires AllConnected(c.data.links) && fuel > 1
    requires ShouldCreateSender(w, c.data.opts.final_send_channel)
    requires !ShouldCreateReceiver(w, c.data.opts.final_recv_channel)
    requires c.data.links.finalSend.linkAddress != "" && GetPlugin(w, c.data.opts.init_send_channel).None?
    ensures var r := HandleEventSpec(t, c, EVENT_CONN_STATE_MACHINE_CONNECTED, fuel);
            var n := |c.data.env.requests|;
            && r.result == SUCCESS && r.handled == [EVENT_CONN_STATE_MACHINE_CONNECTED, EVENT_NEEDS_SEND]
            && r.config.currentStateId == STATE_BOOTSTRAP_PRE_CONN_OBJ_SEND_RESPONSE
            && r.config.data.env.requests
               == c.data.env.requests + [GenerateHandle, RegisterHandle(c.data.handle, w.answer(n).handle)]
    ensures forall e :: HandlesEvent(t, STATE_BOOTSTRAP_PRE_CONN_OBJ_SEND_RESPONSE, e) ==> e == EVENT_PACKAGE_SENT
  {
    assert !MissingAddress(w, c.data) && !Sends(w, c.data, true);
    LastConnectionQueuesNeedsSend(w, t, c, fuel, true);
    NeedsSendEntersSendResponse(w, t, c.data, fuel - 1, true);
    forall e | HandlesEvent(t, STATE_BOOTSTRAP_PRE_CONN_OBJ_SEND_RESPONSE, e)
      ensures e == EVENT_PACKAGE_SENT
    {
      assert BootstrapPreConduitNext(STATE_BOOTSTRAP_PRE_CONN_OBJ_SEND_RESPONSE, e).Some?;
    }
  }

  /**
   * With the send outside the final receive branch, the last connection
   * report of a listener that created a final link sends the dialer the
   * response on the initial send connection.
   */
  lemma ResponseSentWhenNeeded(w: World, t: Table<BootstrapPreConduitCtx>, c: Config<BootstrapPreConduitCtx>, fuel: nat)
    requires IsBootstrapPreConduitTable(w, t, false)
    requires c.currentStateId == STATE_BOOTSTRAP_PRE_CONN_OBJ_WAITING_FOR_CONNECTIONS && c.pendingEvents == []
    requires AllConnected(c.data.links) && NeedsResponse(w, c.data.opts) && !MissingAddress(w, c.data) && fuel > 1
    requires GetPlugin(w, c.data.opts.init_send_channel).None? && w.answer(|c.data.env.requests| + 3).ok
    ensures var r := HandleEventSpec(t, c, EVENT_CONN_STATE_MACHINE_CONNECTED, fuel);
            var d := c.data;
            var n := |d.env.requests|;
            var pkg := w.answer(n + 2).handle;
            && r.result == SUCCESS && r.handled == [EVENT_CONN_STATE_MACHINE_CONNECTED, EVENT_NEEDS_SEND]
            && r.config.currentStateId == STATE_BOOTSTRAP_PRE_CONN_OBJ_SEND_RESPONSE
            && r.config.data.env.requests
               == d.env.requests + [GenerateHandle, RegisterHandle(d.handle, w.answer(n).handle), GenerateHandle,
                                    SendPackage(d.opts.init_send_channel, pkg, d.links.initSend.connId, Response(w, d)),
                                    RegisterHandle(d.handle, pkg)]
  {
    SendResponseSucceeds(w, c.data);
    LastConnectionQueuesNeedsSend(w, t, c, fuel, false);
    NeedsSendEntersSendResponse(w, t, c.data, fuel - 1, false);
  }

  /** The response state, corrected, with every address in place and the send accepted. */
  lemma SendResponseSucceeds(w: World, d: BootstrapPreConduitCtx)
    requires GetPlugin(w, d.opts.init_send_channel).None? && !MissingAddress(w, d)
    requires w.answer(|d.env.requests| + 3).ok
    ensures var o := SendResponse(w, d, false);
            var n := |d.env.requests|;
            var pkg := w.answer(n + 2).handle;
            && o == Returned(SUCCESS, o.data, [])
            && o.data.env.requests
               == d.env.requests + [GenerateHandle, RegisterHandle(d.handle, w.answer(n).handle), GenerateHandle,
                                    SendPackage(d.opts.init_send_channel, pkg, d.links.initSend.connId, Response(w, d)),
                                    RegisterHandle(d.handle, pkg)]
  {
    assert Sends(w, d, false);
  }

  /**
   * With every link up and no response needed, the last connection report
   * finishes the pre-conduit: the conduit it starts inherits every
   * buffered package, and the accept callback gets the conduit's handle.
   */
  lemma SatisfiedHandsOverQueue(w: World, t: Table<BootstrapPreConduitCtx>, c: Config<BootstrapPreConduitCtx>,
                                fuel: nat, asWritten: bool)
    requires IsBootstrapPreConduitTable(w, t, asWritten)
    requires c.currentStateId == STATE_BOOTSTRAP_PRE_CONN_OBJ_WAITING_FOR_CONNECTIONS && c.pendingEvents == []
    requires AllConnected(c.data.links) && !NeedsResponse(w, c.data.opts) && fuel > 1
    requires c.data.acceptCb.Some?
    requires var n := |c.data.env.requests|;
             w.answer(n + 1).handle != NULL_RACE_HANDLE && w.answer(n + 3).ok && w.answer(n + 5).ok
    ensures var r := HandleEventSpec(t, c, EVENT_CONN_STATE_MACHINE_CONNECTED, fuel);
            var d := c.data;
            var n := |d.env.requests|;
            var l := d.links;
            && r.result == SUCCESS && r.handled == [EVENT_CONN_STATE_MACHINE_CONNECTED, EVENT_SATISFIED]
            && r.config.currentStateId == STATE_BOOTSTRAP_PRE_CONN_OBJ_FINISHED
            && r.config.data.recvQueue == [] && r.config.data.acceptCb.None?
            && |r.config.data.env.requests| > n + 1
            && r.config.data.env.requests[n + 1]
               == StartConduit(d.handle, l.finalRecv.connSM, l.finalRecv.connId, l.finalSend.connSM, l.finalSend.connId,
                               d.opts.final_send_channel, d.opts.final_recv_channel, d.packageId, d.recvQueue,
                               w.answer(n).handle)
            && r.config.data.env.fired == d.env.fired + [Fired(d.acceptCb.value, OK, PHandle(w.answer(n).handle))]
  {
    var s := STATE_BOOTSTRAP_PRE_CONN_OBJ_WAITING_FOR_CONNECTIONS;
    var f := STATE_BOOTSTRAP_PRE_CONN_OBJ_FINISHED;
    assert Targets(t.transitions, s, EVENT_CONN_STATE_MACHINE_CONNECTED)
           == TargetSet(BootstrapPreConduitNext(s, EVENT_CONN_STATE_MACHINE_CONNECTED));
    HandleOneMoves(t, c, EVENT_CONN_STATE_MACHINE_CONNECTED, s);
    assert t.states[s].exit(s, c.data) == Returned(SUCCESS, c.data, []);
    assert t.states[s].enter(s, c.data) == WaitingForConnections(w, c.data);
    TransitionByEnter(t, c, s);
    var c1 := c.(pendingEvents := [EVENT_CONN_STATE_MACHINE_CONNECTED]);
    var (res, c2) := HandleOne(t, c, EVENT_CONN_STATE_MACHINE_CONNECTED);
    assert res == SUCCESS && c2 == Config(s, [EVENT_SATISFIED], c.data);
    assert Drain(t, c1, fuel) == Prepend([EVENT_CONN_STATE_MACHINE_CONNECTED], Drain(t, c2, fuel - 1));
    var c3 := c2.(pendingEvents := []);
    assert Targets(t.transitions, s, EVENT_SATISFIED) == TargetSet(BootstrapPreConduitNext(s, EVENT_SATISFIED));
    HandleOneMoves(t, c3, EVENT_SATISFIED, f);
    assert t.states[f].enter(s, c.data) == Finished(w, c.data);
    TransitionByEnter(t, c3, f);
    var (res2, c4) := HandleOne(t, c3, EVENT_SATISFIED);
    assert res2 == SUCCESS && c4.pendingEvents == [];
    assert Drain(t, c2, fuel - 1) == Prepend([EVENT_SATISFIED], Drain(t, c4, fuel - 2));
  }

  /** The accept callback cb is one-shot. */
  ghost predicate AcceptCbOnce(c: BootstrapPreConduitCtx, cb: Callback) {
    OneShot(c.acceptCb, c.env.fired, cb)
  }

  lemma FinishedKeepsAcceptCbOnce(w: World, c: BootstrapPreConduitCtx, cb: Callback)
    requires AcceptCbOnce(c, cb)
    ensures AcceptCbOnce(Finished(w, c).data, cb)
  {
    var o := Finished(w, c);
    if o.data.env.fired != c.env.fired {
      FireAndClear(c.acceptCb, c.env, cb, OK, PHandle(w.answer(|c.env.requests|).handle));
    }
  }

  lemma FailedKeepsAcceptCbOnce(c: BootstrapPreConduitCtx, cb: Callback)
    requires AcceptCbOnce(c, cb)
    ensures AcceptCbOnce(Failed(c).data, cb)
  {
    FireAndClear(c.acceptCb, c.env, cb, INTERNAL_ERROR, NoConduit);
  }

  lemma StateKeepsAcceptCbOnce(w: World, asWritten: bool, s: StateType, cur: StateType, c: BootstrapPreConduitCtx,
                               cb: Callback)
    requires s in BootstrapPreConduitStates(w, asWritten) && AcceptCbOnce(c, cb)
    ensures AcceptCbOnce(BootstrapPreConduitStates(w, asWritten)[s].enter(cur, c).data, cb)
    ensures AcceptCbOnce(BootstrapPreConduitStates(w, asWritten)[s].exit(cur, c).data, cb)
  {
    var st := BootstrapPreConduitStates(w, asWritten);
    if s == STATE_BOOTSTRAP_PRE_CONN_OBJ_INITIAL {
      assert st[s].enter(cur, c) == Initial(c);
    } else if s == STATE_BOOTSTRAP_PRE_CONN_OBJ_ACCEPTED {
      assert st[s].enter(cur, c) == Accepted(w, c);
    } else if s == STATE_BOOTSTRAP_PRE_CONN_OBJ_WAITING_FOR_CONNECTIONS {
      assert st[s].enter(cur, c) == WaitingForConnections(w, c);
    } else if s == STATE_BOOTSTRAP_PRE_CONN_OBJ_SEND_RESPONSE {
      assert st[s].enter(cur, c) == SendResponse(w, c, asWritten);
    } else if s == STATE_BOOTSTRAP_PRE_CONN_OBJ_FINISHED {
      assert st[s].enter(cur, c) == Finished(w, c);
      FinishedKeepsAcceptCbOnce(w, c, cb);
    } else {
      assert st[s].enter(cur, c) == Failed(c);
      FailedKeepsAcceptCbOnce(c, cb);
    }
  }

  /** Every state keeps the accept callback one-shot. */
  lemma StatesKeepAcceptCbOnce(w: World, t: Table<BootstrapPreConduitCtx>, asWritten: bool, cb: Callback)
    requires IsBootstrapPreConduitTable(w, t, asWritten)
    ensures Keeps(t, (c: BootstrapPreConduitCtx) => AcceptCbOnce(c, cb))
  {
    forall s, cur, c | s in t.states && AcceptCbOnce(c, cb)
      ensures AcceptCbOnce(t.states[s].enter(cur, c).data, cb)
      ensures AcceptCbOnce(t.states[s].exit(cur, c).data, cb)
    {
      StateKeepsAcceptCbOnce(w, asWritten, s, cur, c, cb);
    }
  }

  /** The application's accept callback is answered at most once, whatever events follow. */
  lemma HandleEventKeepsAcceptCbOnce(w: World, t: Table<BootstrapPreConduitCtx>, asWritten: bool,
                                     c: Config<BootstrapPreConduitCtx>, e: EventType, fuel: nat, cb: Callback)
    requires IsBootstrapPreConduitTable(w, t, asWritten)
    requires AcceptCbOnce(c.data, cb)
    ensures Count(HandleEventSpec(t, c, e, fuel).config.data.env.fired, cb) <= 1
  {
    StatesKeepAcceptCbOnce(w, t, asWritten, cb);
    HandleEventKeeps(t, c, e, fuel, (d: BootstrapPreConduitCtx) => AcceptCbOnce(d, cb));
  }
}

=== FILE: bridgedistro.dfy ===
// The bridge-distro tool (app/bridge-distro/bridge-distro.cpp): option
// parsing, the responses file, and the receive-respond loop that answers
// each client presenting the passphrase with the next response, in turn.

module BridgeDistro {
  import opened Common
  import opened CommandLine

  datatype BridgeOptions = BridgeOptions(
    params: seq<(string, string)>,
    pluginPath: string,
    passphrase: string,
    responsesFile: string,
    initRecvChannel: string,
    initRecvRole: string,
    initSendChannel: string,
    initSendRole: string,
    initSendAddress: string,
    initRecvAddress: string,
    multiChannel: bool)

  const Defaults := BridgeOptions([], "/etc/race", "", "", "", "default", "", "default", "", "", false)

  /**
   * One pass of the switch in parseOpts. There is no '?' case, so an
   * unrecognised option reaches `default: abort()`, as do the letters the
   * short-option string accepts but the switch does not handle. That
   * string, "R:r:S:s:T:t:a:e:p:c:f:mdhwn:", gives `d` no argument, so `-d`
   * hands a NULL optarg to a std::string.
   */
  function ApplyOption(o: BridgeOptions, r: GetoptResult): (out: ParseOutcome<BridgeOptions>)
    ensures r.Opt? && r.code == 'p' ==> (out.Parsed? <==> SplitParam(r.arg).Success?)
    ensures r.Opt? && r.code == 'p' && out.Parsed? ==> out.options.params == o.params + [SplitParam(r.arg).value]
    ensures !(r.Opt? && r.code == 'p') && out.Parsed? ==> out.options.params == o.params
    ensures r.BareOpt? ==> (out == NullOptarg <==> r.code == 'd')
    ensures r.BareOpt? && r.code == 'm' ==> out == Parsed(o.(multiChannel := true))
  {
    match r
    case FlagSet => Parsed(o)
    case Unrecognised => Aborted
    case BareOpt(c) =>
      if c == 'd' then NullOptarg
      else if c == 'm' then Parsed(o.(multiChannel := true))
      else if c == 'h' then Rejected
      else Aborted
    case Opt(c, arg) =>
      if c == 'R' then Parsed(o.(initRecvChannel := arg))
      else if c == 'r' then Parsed(o.(initRecvRole := arg))
      else if c == 'S' then Parsed(o.(initSendChannel := arg))
      else if c == 's' then Parsed(o.(initSendRole := arg))
      else if c == 'a' then Parsed(o.(initSendAddress := arg))
      else if c == 'e' then Parsed(o.(initRecvAddress := arg))
      else if c == 'd' then Parsed(o.(pluginPath := arg))
      else if c == 'c' then Parsed(o.(passphrase := arg))
      else if c == 'f' then Parsed(o.(responsesFile := arg))
      else if c == 'p' then
        match SplitParam(arg)
        case Success(kv) => Parsed(o.(params := o.params + [kv]))
        case Failure(_) => Rejected
      else if c == 'm' then Parsed(o.(multiChannel := true))
      else if c == 'h' then Rejected
      else Aborted
  }

  const Step: (BridgeOptions, GetoptResult) -> ParseOutcome<BridgeOptions> := (o, r) => ApplyOption(o, r)

  /** parseOpts: the option loop, then the test for a leftover positional argument. */
  method ParseOpts(args: seq<GetoptResult>, positional: seq<string>) returns (r: ParseOutcome<BridgeOptions>)
    ensures r == CheckPositional(FoldOpts(Defaults, Step, args), positional)
    ensures positional != [] ==> !r.Parsed?
  {
    r := OptionLoop(Defaults, Step, args);
    r := CheckPositional(r, positional);
  }

  /** Parsing succeeds only if every `-p` argument splits into a non-empty key and value. */
  lemma {:induction false} ParsedParamsSplit(args: seq<GetoptResult>)
    requires FoldOpts(Defaults, Step, args).Parsed?
    ensures forall i :: 0 <= i < |args| && args[i].Opt? && args[i].code == 'p' ==> SplitParam(args[i].arg).Success?
    ensures var ps := FoldOpts(Defaults, Step, args).options.params;
      forall i :: 0 <= i < |ps| ==> ps[i].0 != "" && ps[i].1 != ""
    decreases |args|
  {
    if args != [] {
      var init := args[..|args| - 1];
      var last := args[|args| - 1];
      ParsedStep(args);
      ParsedParamsSplit(init);
      forall i | 0 <= i < |args| && args[i].Opt? && args[i].code == 'p'
        ensures SplitParam(args[i].arg).Success?
      {
        if i < |init| {
          assert args[i] == init[i];
        } else {
          assert i == |args| - 1;
        }
      }
      var ps0 := FoldOpts(Defaults, Step, init).options.params;
      var ps := FoldOpts(Defaults, Step, args).options.params;
      forall i | 0 <= i < |ps|
        ensures ps[i].0 != "" && ps[i].1 != ""
      {
        if i < |ps0| {
          assert ps[i] == ps0[i];
        }
      }
    }
  }

  /** One more getopt result: what it does to the params, said without the rest of the switch. */
  lemma ParsedStep(args: seq<GetoptResult>)
    requires args != [] && FoldOpts(Defaults, Step, args).Parsed?
    ensures FoldOpts(Defaults, Step, args[..|args| - 1]).Parsed?
    ensures var last := args[|args| - 1];
      var before := FoldOpts(Defaults, Step, args[..|args| - 1]).options.params;
      var after := FoldOpts(Defaults, Step, args).options.params;
      if last.Opt? && last.code == 'p'
      then SplitParam(last.arg).Success? && after == before + [SplitParam(last.arg).value]
      else after == before
  {
  }

  /** An option getopt does not recognise ends the program through abort(), not a usage error. */
  lemma UnrecognisedOptionAborts(args: seq<GetoptResult>)
    requires FoldOpts(Defaults, Step, args).Parsed?
    ensures FoldOpts(Defaults, Step, args + [Unrecognised]) == Aborted
  {
    assert (args + [Unrecognised])[..|args|] == args;
  }

  /** A short `-d` leaves the outcome undefined, whatever the options before it. */
  lemma BareDirUndefined(args: seq<GetoptResult>)
    requires FoldOpts(Defaults, Step, args).Parsed?
    ensures FoldOpts(Defaults, Step, args + [BareOpt('d')]) == NullOptarg
  {
    assert (args + [BareOpt('d')])[..|args|] == args;
  }

  // ---- the responses file ----

  /** std::getline over the whole text: lines split at '\n'; a final '\n' does not open another line. */
  function Lines(text: string): (r: seq<string>)
    ensures forall i :: 0 <= i < |r| ==> '\n' !in r[i]
    decreases |text|
  {
    if text == [] then []
    else match Find(text, '\n')
      case None => [text]
      case Some(i) => [text[..i]] + Lines(text[i + 1..])
  }

  /** The text of lines each ended by '\n'. */
  function Terminated(lines: seq<string>): string
    decreases |lines|
  {
    if lines == [] then "" else lines[0] + "\n" + Terminated(lines[1..])
  }

  /** Reading back lines written one per line gives them again. */
  lemma {:induction false} LinesRoundTrip(lines: seq<string>)
    requires forall i :: 0 <= i < |lines| ==> '\n' !in lines[i]
    ensures Lines(Terminated(lines)) == lines
    decreases |lines|
  {
    if lines != [] {
      var text := Terminated(lines);
      var rest := Terminated(lines[1..]);
      assert text == lines[0] + ("\n" + rest);
      FindAfterPrefix(lines[0], '\n', "\n" + rest);
      assert text[..|lines[0]|] == lines[0];
      assert text[|lines[0]| + 1..] == rest;
      LinesRoundTrip(lines[1..]);
    }
  }

  /** readBridges: the file's lines as bytes; a file that cannot be opened gives no responses. */
  function ReadBridges(file: Option<string>): (r: seq<Bytes>)
    ensures file.None? ==> r == []
    ensures file.Some? ==> |r| == |Lines(file.value)|
  {
    match file
    case None => []
    case Some(text) =>
      var lines := Lines(text);
      seq(|lines|, i requires 0 <= i < |lines| => StrToBytes(lines[i]))
  }

  // ---- handle_recv_respond ----

  /** One request the listener delivers: the receive status, the message, and what responding to it would return. */
  datatype Request = Request(status: ApiStatus, message: string, respondStatus: ApiStatus)

  /**
   * How the loop stands after the requests seen: still listening, returned
   * 1 (a receive or a respond failed), or undefined behaviour (indexing an
   * empty response list).
   */
  datatype LoopEnd = Listening | Failed | Undefined

  /**
   * The responses sent while serving `reqs` from position `idx` of the
   * response list, and how the loop stands after them. A request with the
   * passphrase gets responses[idx] and idx moves on modulo the list's size;
   * any other message gets nothing. As written, a passphrase with no
   * responses reads responses[0] of an empty vector and takes the size
   * modulo zero; corrected, it is answered with nothing.
   */
  function Serve(reqs: seq<Request>, passphrase: string, responses: seq<Bytes>, idx: nat, asWritten: bool): (r: (seq<Bytes>, LoopEnd))
    requires responses == [] || idx < |responses|
    decreases |reqs|
  {
    if reqs == [] then ([], Listening)
    else if reqs[0].status != OK then ([], Failed)
    else if reqs[0].message != passphrase then Serve(reqs[1..], passphrase, responses, idx, asWritten)
    else if responses == [] then
      if asWritten then ([], Undefined) else Serve(reqs[1..], passphrase, responses, idx, asWritten)
    else if reqs[0].respondStatus != OK then ([responses[idx]], Failed)
    else
      var rest := Serve(reqs[1..], passphrase, responses, (idx + 1) % |responses|, asWritten);
      ([responses[idx]] + rest.0, rest.1)
  }

  /** handle_recv_respond's loop over the requests received (corrected: no response when there are none). */
  method HandleRecvRespond(reqs: seq<Request>, passphrase: string, responses: seq<Bytes>)
    returns (sent: seq<Bytes>, end: LoopEnd)
    ensures (sent, end) == Serve(reqs, passphrase, responses, 0, false)
    ensures end != Undefined
  {
    sent := [];
    var respIdx: nat := 0;
    var i := 0;
    while i < |reqs|
      invariant 0 <= i <= |reqs|
      invariant responses == [] || respIdx < |responses|
      invariant Serve(reqs, passphrase, responses, 0, false).0 == sent + Serve(reqs[i..], passphrase, responses, respIdx, false).0
      invariant Serve(reqs, passphrase, responses, 0, false).1 == Serve(reqs[i..], passphrase, responses, respIdx, false).1
    {
      var req := reqs[i];
      assert reqs[i..][1..] == reqs[i + 1..];
      if req.status != OK {
        assert sent + [] == sent;
        return sent, Failed;
      }
      if req.message == passphrase && responses != [] {
        var response := responses[respIdx];
        respIdx := (respIdx + 1) % |responses|;
        sent := sent + [response];
        if req.respondStatus != OK {
          return sent, Failed;
        }
      }
      i := i + 1;
    }
    assert reqs[i..] == [];
    NeverUndefined(reqs, passphrase, responses, 0);
    assert sent + [] == sent;
    return sent, Listening;
  }

  /** Corrected serving never reaches undefined behaviour. */
  lemma {:induction false} NeverUndefined(reqs: seq<Request>, passphrase: string, responses: seq<Bytes>, idx: nat)
    requires responses == [] || idx < |responses|
    ensures Serve(reqs, passphrase, responses, idx, false).1 != Undefined
    decreases |reqs|
  {
    if reqs != [] {
      NeverUndefined(reqs[1..], passphrase, responses, idx);
      if responses != [] {
        NeverUndefined(reqs[1..], passphrase, responses, (idx + 1) % |responses|);
      }
    }
  }

  /** Responses go out round-robin: the k-th one sent is responses[(idx + k) mod size], in file order. */
  lemma {:induction false} RoundRobin(reqs: seq<Request>, passphrase: string, responses: seq<Bytes>, idx: nat, asWritten: bool, k: nat)
    requires idx < |responses|
    requires k < |Serve(reqs, passphrase, responses, idx, asWritten).0|
    ensures Serve(reqs, passphrase, responses, idx, asWritten).0[k] == responses[(idx + k) % |responses|]
    decreases |reqs|
  {
    var n := |responses|;
    var sent := Serve(reqs, passphrase, responses, idx, asWritten).0;
    if reqs[0].message != passphrase {
      RoundRobin(reqs[1..], passphrase, responses, idx, asWritten, k);
    } else if k == 0 {
      assert sent[0] == responses[idx];
      ModUnique(idx, 0, idx, n);
    } else {
      var next := (idx + 1) % n;
      var rest := Serve(reqs[1..], passphrase, responses, next, asWritten).0;
      assert sent == [responses[idx]] + rest;
      RoundRobin(reqs[1..], passphrase, responses, next, asWritten, k - 1);
      assert sent[k] == responses[(next + (k - 1)) % n];
      NextIndexStep(idx, k, n);
    }
  }

  /** Stepping the index once and then k - 1 times is stepping it k times. */
  lemma NextIndexStep(idx: nat, k: nat, n: nat)
    requires idx < n && k >= 1
    ensures ((idx + 1) % n + (k - 1)) % n == (idx + k) % n
  {
    if idx + 1 < n {
      ModUnique(idx + 1, 0, idx + 1, n);
    } else {
      ModUnique(idx + 1, 1, 0, n);
      ModPlusSize(k - 1, n);
      assert k - 1 + n == idx + k;
    }
  }

  lemma MulAtLeast(a: int, n: int)
    requires a >= 1 && n > 0
    ensures a * n >= n
    decreases a
  {
    if a > 1 {
      MulAtLeast(a - 1, n);
      assert a * n == (a - 1) * n + n;
    }
  }

  /** The remainder is the one r with y == q * n + r and 0 <= r < n. */
  lemma ModUnique(y: int, q: int, r: int, n: int)
    requires n > 0 && 0 <= r < n && y == q * n + r
    ensures y % n == r
  {
    var q' := y / n;
    var r' := y % n;
    assert y == q' * n + r';
    if q' > q {
      assert q' * n - q * n == (q' - q) * n;
      MulAtLeast(q' - q, n);
    } else if q' < q {
      assert q * n - q' * n == (q - q') * n;
      MulAtLeast(q - q', n);
    }
  }

  lemma ModPlusSize(x: nat, n: nat)
    requires n > 0
    ensures (x + n) % n == x % n
  {
    var q := x / n;
    assert x == q * n + x % n;
    assert x + n == (q + 1) * n + x % n;
    ModUnique(x + n, q + 1, x % n, n);
  }

  /** Only the passphrase gets a response: if no request carries it, nothing is sent. */
  lemma {:induction false} OnlyPassphraseAnswered(reqs: seq<Request>, passphrase: string, responses: seq<Bytes>, idx: nat, asWritten: bool)
    requires responses == [] || idx < |responses|
    requires forall i :: 0 <= i < |reqs| ==> reqs[i].message != passphrase
    ensures Serve(reqs, passphrase, responses, idx, asWritten).0 == []
    ensures Serve(reqs, passphrase, responses, idx, asWritten).1 != Undefined
    decreases |reqs|
  {
    if reqs != [] {
      OnlyPassphraseAnswered(reqs[1..], passphrase, responses, idx, asWritten);
    }
  }

  /** With every request authenticated and every respond succeeding, each request gets exactly one response. */
  lemma {:induction false} EveryAuthenticatedRequestAnswered(reqs: seq<Request>, passphrase: string, responses: seq<Bytes>, idx: nat, asWritten: bool)
    requires idx < |responses|
    requires forall i :: 0 <= i < |reqs| ==> reqs[i] == Request(OK, passphrase, OK)
    ensures |Serve(reqs, passphrase, responses, idx, asWritten).0| == |reqs|
    ensures Serve(reqs, passphrase, responses, idx, asWritten).1 == Listening
    decreases |reqs|
  {
    if reqs != [] {
      EveryAuthenticatedRequestAnswered(reqs[1..], passphrase, responses, (idx + 1) % |responses|, asWritten);
    }
  }

  /**
   * As written: when the responses file is missing (so there are no
   * responses), the first client to present the passphrase sends the loop
   * into undefined behaviour.
   */
  lemma MissingFileThenPassphraseIsUndefined(passphrase: string, rest: seq<Request>)
    ensures Serve([Request(OK, passphrase, OK)] + rest, passphrase, ReadBridges(None), 0, true) == ([], Undefined)
  {
  }

  /** Corrected: the same requests are served without a response and the loop keeps listening. */
  lemma MissingFileThenPassphraseIsIgnored(passphrase: string, n: nat)
    ensures var reqs := seq(n, _ => Request(OK, passphrase, OK));
      Serve(reqs, passphrase, ReadBridges(None), 0, false) == ([], Listening)
  {
    var reqs := seq(n, _ => Request(OK, passphrase, OK));
    NoResponsesSendNothing(reqs, passphrase);
  }

  lemma {:induction false} NoResponsesSendNothing(reqs: seq<Request>, passphrase: string)
    requires forall i :: 0 <= i < |reqs| ==> reqs[i].status == OK
    ensures Serve(reqs, passphrase, [], 0, false) == ([], Listening)
    decreases |reqs|
  {
    if reqs != [] {
      NoResponsesSendNothing(reqs[1..], passphrase);
    }
  }
}

=== FILE: channelmanager.dfy ===
// The channel manager (source/api-managers/ChannelManager.cpp): the
// properties of every channel the manifests describe, and the rules that
// decide whether a channel may be activated in a role.

module ChannelManagement {
  import opened Common
  import opened ChannelProps

  /**
   * map::insert of a range: the entries of `m` whose channel is not yet in
   * `acc` are added; those already there are kept.
   */
  function InsertAll(acc: map<ChannelId, ChannelProperties>, m: map<ChannelId, ChannelProperties>)
    : (r: map<ChannelId, ChannelProperties>)
    ensures r.Keys == acc.Keys + m.Keys
    ensures forall id :: id in acc ==> r[id] == acc[id]
    ensures forall id :: id in m && id !in acc ==> r[id] == m[id]
  {
    map id | id in acc.Keys + m.Keys :: if id in acc then acc[id] else m[id]
  }

  /** The channels of the manifests, inserted manifest by manifest. */
  function MergeFirst(manifests: seq<map<ChannelId, ChannelProperties>>): (m: map<ChannelId, ChannelProperties>)
    ensures forall id :: id in m <==> exists i :: 0 <= i < |manifests| && id in manifests[i]
    decreases |manifests|
  {
    if manifests == [] then map[]
    else
      var init := manifests[..|manifests| - 1];
      var r := InsertAll(MergeFirst(init), manifests[|manifests| - 1]);
      assert forall id :: id in r <==> exists i :: 0 <= i < |manifests| && id in manifests[i] by {
        forall id | id in r
          ensures exists i :: 0 <= i < |manifests| && id in manifests[i]
        {
          if id in MergeFirst(init) {
            var i :| 0 <= i < |init| && id in init[i];
            assert id in manifests[i];
          } else {
            assert id in manifests[|manifests| - 1];
          }
        }
        forall id, i | 0 <= i < |manifests| && id in manifests[i]
          ensures id in r
        {
          if i < |manifests| - 1 {
            assert id in init[i];
          }
        }
      }
      r
  }

  /** The record a channel has after construction: the first manifest's, marked enabled. */
  lemma {:induction false} MergeFirstTakesFirst(manifests: seq<map<ChannelId, ChannelProperties>>, i: nat,
                                                id: ChannelId)
    requires i < |manifests| && id in manifests[i]
    requires forall j :: 0 <= j < i ==> id !in manifests[j]
    ensures id in MergeFirst(manifests) && MergeFirst(manifests)[id] == manifests[i][id]
    decreases |manifests|
  {
    var init := manifests[..|manifests| - 1];
    if i < |manifests| - 1 {
      assert init[i] == manifests[i];
      forall j | 0 <= j < i
        ensures id !in init[j]
      {
        assert init[j] == manifests[j];
      }
      MergeFirstTakesFirst(init, i, id);
    } else {
      assert forall j :: 0 <= j < |init| ==> id !in init[j];
    }
  }

  /** Every channel's record with its status set. */
  function WithStatus(m: map<ChannelId, ChannelProperties>, status: ChannelStatus)
    : (r: map<ChannelId, ChannelProperties>)
    ensures r.Keys == m.Keys
    ensures forall id :: id in r ==> r[id] == m[id].(channelStatus := status)
  {
    map id | id in m :: m[id].(channelStatus := status)
  }

  /**
   * The position of the first role in the list with the given name, or
   * the list's length when no role has it.
   */
  function FirstRoleNamed(roles: seq<ChannelRole>, roleName: string): (k: nat)
    ensures k <= |roles|
    ensures k < |roles| ==> roles[k].roleName == roleName
    ensures forall j :: 0 <= j < k ==> roles[j].roleName != roleName
    decreases |roles|
  {
    if roles == [] then 0
    else if roles[0].roleName == roleName then 0
    else 1 + FirstRoleNamed(roles[1..], roleName)
  }

  /** The scan that stops at the first match, or runs off the end, stops where FirstRoleNamed says. */
  lemma {:induction false} FirstRoleNamedIsFirst(roles: seq<ChannelRole>, roleName: string, k: nat)
    requires k <= |roles|
    requires k < |roles| ==> roles[k].roleName == roleName
    requires forall j :: 0 <= j < k ==> roles[j].roleName != roleName
    ensures FirstRoleNamed(roles, roleName) == k
    decreases |roles|
  {
    if roles != [] && roles[0].roleName != roleName {
      assert k > 0;
      FirstRoleNamedIsFirst(roles[1..], roleName, k - 1);
    }
  }

  /** The role currentRole takes when an enabled channel is activated: the first of that name, or none. */
  function RoleNamed(roles: seq<ChannelRole>, roleName: string): ChannelRole {
    var k := FirstRoleNamed(roles, roleName);
    if k < |roles| then roles[k] else NoRole
  }

  /** Statuses from which activateChannel proceeds. */
  predicate Activatable(s: ChannelStatus) {
    s == CHANNEL_ENABLED || s == CHANNEL_STARTING || s == CHANNEL_AVAILABLE
  }

  /**
   * activateChannel on a known channel's record: the result code and the
   * record afterwards. `loaded` says whether the core has a plugin
   * container for the channel.
   */
  function Activate(p: ChannelProperties, roleName: string, loaded: bool): (r: (ActivateStatus, ChannelProperties))
    ensures !Activatable(p.channelStatus) ==> r == (INVALID_STATE, p)
    ensures Activatable(p.channelStatus) && p.channelStatus != CHANNEL_ENABLED ==>
              r == (if p.currentRole.roleName == roleName then ALREADY_ACTIVATED else ACTIVATED_WITH_DIFFERENT_ROLE, p)
    ensures p.channelStatus == CHANNEL_ENABLED ==>
              && r.1 == p.(currentRole := r.1.currentRole, channelStatus := r.1.channelStatus)
              && (r.0 == INVALID_ROLE <==> r.1.currentRole.roleName != roleName)
              && (r.0 == INVALID_ROLE ==> r.1.channelStatus == CHANNEL_ENABLED)
              && (r.0 != INVALID_ROLE ==>
                    && r.1.channelStatus == CHANNEL_STARTING
                    && r.0 == (if loaded then OK_ACTIVATED else FAILED_TO_GET_CHANNEL))
              && r.1.currentRole == RoleNamed(p.roles, roleName)
  {
    if !Activatable(p.channelStatus) then (INVALID_STATE, p)
    else if p.channelStatus != CHANNEL_ENABLED then
      (if p.currentRole.roleName == roleName then ALREADY_ACTIVATED else ACTIVATED_WITH_DIFFERENT_ROLE, p)
    else
      var role := RoleNamed(p.roles, roleName);
      var p1 := p.(currentRole := role);
      if role.roleName != roleName then (INVALID_ROLE, p1)
      else (if loaded then OK_ACTIVATED else FAILED_TO_GET_CHANNEL, p1.(channelStatus := CHANNEL_STARTING))
  }

  /** The constructor's second loop: every channel's status set to CHANNEL_ENABLED. */
  method EnableAll(m: map<ChannelId, ChannelProperties>) returns (r: map<ChannelId, ChannelProperties>)
    ensures r == WithStatus(m, CHANNEL_ENABLED)
  {
    r := m;
    var todo := m.Keys;
    while todo != {}
      invariant todo <= m.Keys && r.Keys == m.Keys
      invariant forall id :: id in r ==> r[id] == (if id in todo then m[id] else m[id].(channelStatus := CHANNEL_ENABLED))
      decreases todo
    {
      var id :| id in todo;
      r := r[id := m[id].(channelStatus := CHANNEL_ENABLED)];
      todo := todo - {id};
    }
  }

  class ChannelManager {
    var channelProps: map<ChannelId, ChannelProperties>

    /**
     * ChannelManager(core): the channels of every manifest, the first
     * manifest's record winning, each marked CHANNEL_ENABLED.
     */
    constructor(manifests: seq<map<ChannelId, ChannelProperties>>)
      ensures channelProps == WithStatus(MergeFirst(manifests), CHANNEL_ENABLED)
    {
      var props: map<ChannelId, ChannelProperties> := map[];
      var i := 0;
      while i < |manifests|
        invariant 0 <= i <= |manifests|
        invariant props == MergeFirst(manifests[..i])
      {
        assert manifests[..i + 1][..i] == manifests[..i];
        props := InsertAll(props, manifests[i]);
        i := i + 1;
      }
      assert manifests[..|manifests|] == manifests;
      props := EnableAll(props);
      channelProps := props;
    }

    /**
     * getChannelProperties: operator[] — an unknown channel is inserted
     * with default properties, and those are returned.
     */
    method GetChannelProperties(channelId: ChannelId) returns (p: ChannelProperties)
      modifies this
      ensures old(channelId in channelProps) ==> p == old(channelProps[channelId]) && channelProps == old(channelProps)
      ensures old(channelId !in channelProps) ==>
                p == DefaultChannelProperties() && channelProps == old(channelProps)[channelId := p]
    {
      if channelId !in channelProps {
        channelProps := channelProps[channelId := DefaultChannelProperties()];
      }
      p := channelProps[channelId];
    }

    /**
     * getAllChannelProperties: one record per known channel, in the map's
     * iteration order (left open here).
     */
    method GetAllChannelProperties() returns (props: seq<ChannelProperties>)
      ensures |props| == |channelProps|
      ensures forall p :: p in props <==> p in channelProps.Values
    {
      props := [];
      var todo := channelProps.Keys;
      ghost var done: set<ChannelId> := {};
      while todo != {}
        invariant todo !! done && todo + done == channelProps.Keys
        invariant |props| == |done|
        invariant forall p :: p in props <==> exists id :: id in done && channelProps[id] == p
        decreases todo
      {
        var id :| id in todo;
        props := props + [channelProps[id]];
        todo := todo - {id};
        done := done + {id};
      }
      assert done == channelProps.Keys;
      assert |channelProps.Keys| == |channelProps|;
    }

    /** onChannelStatusChanged: a known channel takes the new status; an unknown one is ignored. */
    method OnChannelStatusChanged(channelId: ChannelId, status: ChannelStatus)
      modifies this
      ensures old(channelId in channelProps) ==>
                channelProps == old(channelProps)[channelId := old(channelProps[channelId]).(channelStatus := status)]
      ensures old(channelId !in channelProps) ==> channelProps == old(channelProps)
    {
      if channelId in channelProps {
        channelProps := channelProps[channelId := channelProps[channelId].(channelStatus := status)];
      }
    }

    /**
     * activateChannel: CHANNEL_DOES_NOT_EXIST for an unknown channel;
     * otherwise the rules of Activate, the role found by scanning the
     * channel's roles in order. `activated` says whether the plugin's
     * activateChannel was called.
     */
    method ActivateChannel(channelId: ChannelId, roleName: string, loaded: bool)
      returns (r: ActivateStatus, activated: bool)
      modifies this
      ensures old(channelId !in channelProps) ==>
                r == CHANNEL_DOES_NOT_EXIST && !activated && channelProps == old(channelProps)
      ensures old(channelId in channelProps) ==>
                var a := Activate(old(channelProps[channelId]), roleName, loaded);
                && r == a.0 && channelProps == old(channelProps)[channelId := a.1]
                && (activated <==> r == OK_ACTIVATED)
    {
      if channelId !in channelProps {
        return CHANNEL_DOES_NOT_EXIST, false;
      }
      var props := channelProps[channelId];
      if !Activatable(props.channelStatus) {
        return INVALID_STATE, false;
      }
      if props.channelStatus != CHANNEL_ENABLED {
        r := if props.currentRole.roleName == roleName then ALREADY_ACTIVATED else ACTIVATED_WITH_DIFFERENT_ROLE;
        return r, false;
      }
      var current := NoRole;
      var k := 0;
      while k < |props.roles|
        invariant 0 <= k <= |props.roles|
        invariant forall j :: 0 <= j < k ==> props.roles[j].roleName != roleName
        invariant current == NoRole
      {
        if props.roles[k].roleName == roleName {
          current := props.roles[k];
          break;
        }
        k := k + 1;
      }
      FirstRoleNamedIsFirst(props.roles, roleName, k);
      props := props.(currentRole := current);
      if current.roleName != roleName {
        channelProps := channelProps[channelId := props];
        return INVALID_ROLE, false;
      }
      props := props.(channelStatus := CHANNEL_STARTING);
      channelProps := channelProps[channelId := props];
      if !loaded {
        return FAILED_TO_GET_CHANNEL, false;
      }
      return OK_ACTIVATED, true;
    }
  }

  /** Every manifest channel starts enabled, with the record of the first manifest that names it. */
  lemma ConstructedChannelsEnabled(manifests: seq<map<ChannelId, ChannelProperties>>, i: nat, id: ChannelId)
    requires i < |manifests| && id in manifests[i]
    requires forall j :: 0 <= j < i ==> id !in manifests[j]
    ensures var m := WithStatus(MergeFirst(manifests), CHANNEL_ENABLED);
            id in m && m[id] == manifests[i][id].(channelStatus := CHANNEL_ENABLED)
  {
    MergeFirstTakesFirst(manifests, i, id);
  }

  /**
   * Activating an enabled channel in one of its roles starts it; asking
   * again for the same role is ALREADY_ACTIVATED and for another role
   * ACTIVATED_WITH_DIFFERENT_ROLE, with no further change.
   */
  lemma ActivateTwice(p: ChannelProperties, roleName: string, other: string, loaded: bool, loaded2: bool)
    requires p.channelStatus == CHANNEL_ENABLED
    requires exists k :: 0 <= k < |p.roles| && p.roles[k].roleName == roleName
    ensures var a := Activate(p, roleName, loaded);
            && a.0 == (if loaded then OK_ACTIVATED else FAILED_TO_GET_CHANNEL)
            && a.1.channelStatus == CHANNEL_STARTING
            && Activate(a.1, roleName, loaded2) == (ALREADY_ACTIVATED, a.1)
            && (other != roleName ==> Activate(a.1, other, loaded2) == (ACTIVATED_WITH_DIFFERENT_ROLE, a.1))
  {
  }

  /** A role name no role carries is INVALID_ROLE and leaves the channel enabled, with no current role. */
  lemma UnknownRoleRefused(p: ChannelProperties, roleName: string, loaded: bool)
    requires p.channelStatus == CHANNEL_ENABLED && roleName != ""
    requires forall k :: 0 <= k < |p.roles| ==> p.roles[k].roleName != roleName
    ensures Activate(p, roleName, loaded) == (INVALID_ROLE, p.(currentRole := NoRole))
  {
  }

  /**
   * As written, the empty role name matches the cleared current role: an
   * enabled channel is started in the empty role even when it has no role
   * of that name.
   */
  lemma EmptyRoleAccepted(p: ChannelProperties, loaded: bool)
    requires p.channelStatus == CHANNEL_ENABLED
    requires forall k :: 0 <= k < |p.roles| ==> p.roles[k].roleName != ""
    ensures Activate(p, "", loaded).0 != INVALID_ROLE
    ensures Activate(p, "", loaded).1 == p.(currentRole := NoRole, channelStatus := CHANNEL_STARTING)
  {
  }
}

=== FILE: channelprops.dfy ===
// Channel properties (source/common/ChannelProperties.cpp): the record a
// channel's manifest describes, its default values, the link-direction
// names, and the comparison that ignores what changes while a channel runs.

module ChannelProps {
  import opened Common

  datatype TransmissionType = TT_UNDEF | TT_UNICAST | TT_MULTICAST
  datatype ConnectionType = CT_UNDEF | CT_DIRECT | CT_INDIRECT | CT_MIXED | CT_LOCAL
  datatype SendType = ST_UNDEF | ST_STORED_ASYNC | ST_EPHEM_SYNC
  datatype LinkSide = LS_UNDEF | LS_CREATOR | LS_LOADER | LS_BOTH

  datatype ChannelRole = ChannelRole(
    roleName: string,
    mechanicalTags: seq<string>,
    behavioralTags: seq<string>,
    linkSide: LinkSide)

  /** A default-constructed ChannelRole ({} in the source). */
  const NoRole := ChannelRole("", [], [], LS_UNDEF)

  datatype LinkPropertySet = LinkPropertySet(bandwidth_bps: int, latency_ms: int, loss: real)

  datatype LinkPropertyPair = LinkPropertyPair(send: LinkPropertySet, receive: LinkPropertySet)

  /** A default-constructed LinkPropertyPair: every figure unknown. */
  const UnsetPair := LinkPropertyPair(LinkPropertySet(-1, -1, -1.0), LinkPropertySet(-1, -1, -1.0))

  datatype ChannelProperties = ChannelProperties(
    channelGid: ChannelId,
    channelStatus: ChannelStatus,
    linkDirection: LinkDirection,
    transmissionType: TransmissionType,
    connectionType: ConnectionType,
    sendType: SendType,
    multiAddressable: bool,
    reliable: bool,
    bootstrap: bool,
    isFlushable: bool,
    duration_s: int,
    period_s: int,
    mtu: int,
    creatorExpected: LinkPropertyPair,
    loaderExpected: LinkPropertyPair,
    supported_hints: seq<string>,
    maxLinks: int,
    creatorsPerLoader: int,
    loadersPerCreator: int,
    roles: seq<ChannelRole>,
    currentRole: ChannelRole,
    maxSendsPerInterval: int,
    secondsPerInterval: int,
    intervalEndTime: int,
    sendsRemainingInInterval: int)

  /**
   * ChannelProperties(): status and every enumeration undefined, every flag
   * false, every limit -1 and the interval end time 0.
   */
  function DefaultChannelProperties(): (p: ChannelProperties)
    ensures p.channelStatus == CHANNEL_UNDEF && p.linkDirection == LD_UNDEF
    ensures p.transmissionType == TT_UNDEF && p.connectionType == CT_UNDEF && p.sendType == ST_UNDEF
    ensures !p.multiAddressable && !p.reliable && !p.bootstrap && !p.isFlushable
    ensures p.duration_s == -1 && p.period_s == -1 && p.mtu == -1 && p.maxLinks == -1
    ensures p.creatorsPerLoader == -1 && p.loadersPerCreator == -1
    ensures p.maxSendsPerInterval == -1 && p.secondsPerInterval == -1 && p.sendsRemainingInInterval == -1
    ensures p.intervalEndTime == 0
    ensures p.channelGid == "" && p.roles == [] && p.supported_hints == [] && p.currentRole == NoRole
  {
    ChannelProperties("", CHANNEL_UNDEF, LD_UNDEF, TT_UNDEF, CT_UNDEF, ST_UNDEF, false, false, false, false,
                      -1, -1, -1, UnsetPair, UnsetPair, [], -1, -1, -1, [], NoRole, -1, -1, 0, -1)
  }

  function LinkDirectionToString(d: LinkDirection): string {
    match d
    case LD_UNDEF => "LD_UNDEF"
    case LD_CREATOR_TO_LOADER => "LD_CREATOR_TO_LOADER"
    case LD_LOADER_TO_CREATOR => "LD_LOADER_TO_CREATOR"
    case LD_BIDI => "LD_BIDI"
  }

  /** linkDirectionFromString: None where the source throws invalid_argument. */
  function LinkDirectionFromString(s: string): (r: Option<LinkDirection>)
    ensures r.None? <==> s !in {"LD_UNDEF", "LD_CREATOR_TO_LOADER", "LD_LOADER_TO_CREATOR", "LD_BIDI"}
  {
    if s == "LD_UNDEF" then Some(LD_UNDEF)
    else if s == "LD_CREATOR_TO_LOADER" then Some(LD_CREATOR_TO_LOADER)
    else if s == "LD_LOADER_TO_CREATOR" then Some(LD_LOADER_TO_CREATOR)
    else if s == "LD_BIDI" then Some(LD_BIDI)
    else None
  }

  /** The names and the parser are inverse: each direction reads back from its name, and only names parse. */
  lemma LinkDirectionRoundTrip(d: LinkDirection, s: string)
    ensures LinkDirectionFromString(LinkDirectionToString(d)) == Some(d)
    ensures LinkDirectionFromString(s) == Some(d) <==> s == LinkDirectionToString(d)
  {
  }

  /** channelStaticPropertiesEqual: every field a manifest fixes, and none that changes at run time. */
  predicate ChannelStaticPropertiesEqual(a: ChannelProperties, b: ChannelProperties) {
    && a.channelGid == b.channelGid && a.linkDirection == b.linkDirection
    && a.transmissionType == b.transmissionType && a.connectionType == b.connectionType
    && a.sendType == b.sendType && a.multiAddressable == b.multiAddressable
    && a.reliable == b.reliable && a.bootstrap == b.bootstrap
    && a.isFlushable == b.isFlushable && a.duration_s == b.duration_s
    && a.period_s == b.period_s && a.supported_hints == b.supported_hints
    && a.mtu == b.mtu && a.creatorExpected == b.creatorExpected
    && a.loaderExpected == b.loaderExpected && a.maxLinks == b.maxLinks
    && a.creatorsPerLoader == b.creatorsPerLoader && a.loadersPerCreator == b.loadersPerCreator
    && a.roles == b.roles
  }

  /** The static part of a record: the run-time fields (status, current role, send interval) reset. */
  function StaticPart(p: ChannelProperties): ChannelProperties {
    p.(channelStatus := CHANNEL_UNDEF, currentRole := NoRole, maxSendsPerInterval := -1, secondsPerInterval := -1,
       intervalEndTime := 0, sendsRemainingInInterval := -1)
  }

  /**
   * Two records are statically equal exactly when they agree once the
   * run-time fields are reset, so the comparison is an equivalence.
   */
  lemma StaticEqualIffSameStaticPart(a: ChannelProperties, b: ChannelProperties)
    ensures ChannelStaticPropertiesEqual(a, b) <==> StaticPart(a) == StaticPart(b)
  {
  }

  lemma StaticEqualIsEquivalence(a: ChannelProperties, b: ChannelProperties, c: ChannelProperties)
    ensures ChannelStaticPropertiesEqual(a, a)
    ensures ChannelStaticPropertiesEqual(a, b) ==> ChannelStaticPropertiesEqual(b, a)
    ensures ChannelStaticPropertiesEqual(a, b) && ChannelStaticPropertiesEqual(b, c) ==>
              ChannelStaticPropertiesEqual(a, c)
  {
  }

  /** A change of status, current role or send interval leaves a record statically equal to itself. */
  lemma StaticEqualIgnoresRunTimeFields(p: ChannelProperties, status: ChannelStatus, role: ChannelRole,
                                        maxSends: int, seconds: int, endTime: int, remaining: int)
    ensures ChannelStaticPropertiesEqual(p, p.(channelStatus := status, currentRole := role,
                                               maxSendsPerInterval := maxSends, secondsPerInterval := seconds,
                                               intervalEndTime := endTime, sendsRemainingInInterval := remaining))
  {
  }
}

=== FILE: cmdline.dfy ===
// What the two command-line tools (app/race-cli/main.cpp and
// app/bridge-distro/bridge-distro.cpp) share: the `-p key=value` split,
// std::stoi, the option loop over what getopt_long returns, and getParams.

module CommandLine {
  import opened Common
  import CoreModel
  import RaceApi

  // ---- the -p key=value split ----

  /** std::string::find of one character: the first position, if any. */
  function Find(s: string, c: char): (r: Option<nat>)
    ensures r.None? <==> c !in s
    ensures r.Some? ==> r.value < |s| && s[r.value] == c && c !in s[..r.value]
    decreases |s|
  {
    if s == [] then None
    else if s[0] == c then Some(0)
    else match Find(s[1..], c)
      case None => None
      case Some(i) =>
        assert s[..i + 1] == [s[0]] + s[1..][..i];
        Some(i + 1)
  }

  /**
   * The `-p` split: the key is the text before the first "=" (all of it if
   * there is none) and must not be empty; there must be a "=" with at least
   * one character after it, and the value is everything after it.
   */
  function SplitParam(keyValue: string): (r: Result<(string, string), string>)
    ensures r.Success? ==> keyValue == r.value.0 + "=" + r.value.1
    ensures r.Success? ==> r.value.0 != "" && r.value.1 != "" && '=' !in r.value.0
  {
    var split := Find(keyValue, '=');
    var key := if split.None? then keyValue else keyValue[..split.value];
    if key == [] then Failure("received empty key for param")
    else if split.None? || split.value + 1 >= |keyValue| then Failure("received empty value for param")
    else
      var value := keyValue[split.value + 1..];
      assert keyValue == key + "=" + value;
      Success((key, value))
  }

  /** The split fails exactly when the key is empty, there is no "=", or nothing follows the first one. */
  lemma SplitParamFailures(keyValue: string)
    ensures keyValue == [] || keyValue[0] == '=' ==> SplitParam(keyValue) == Failure("received empty key for param")
    ensures keyValue != [] && keyValue[0] != '=' && ('=' !in keyValue || (keyValue[|keyValue| - 1] == '=' && '=' !in keyValue[..|keyValue| - 1]))
      ==> SplitParam(keyValue) == Failure("received empty value for param")
  {
    var split := Find(keyValue, '=');
    if keyValue != [] && keyValue[0] == '=' {
      assert split == Some(0);
    }
    if keyValue != [] && keyValue[0] != '=' && '=' in keyValue && keyValue[|keyValue| - 1] == '=' && '=' !in keyValue[..|keyValue| - 1] {
      assert split.value == |keyValue| - 1;
    }
  }

  /**
   * Writing `key=value` and splitting it gives the pair back whenever the
   * key is non-empty without "=" and the value is non-empty: the value may
   * itself contain "=".
   */
  lemma SplitParamRoundTrip(key: string, value: string)
    requires key != "" && '=' !in key && value != ""
    ensures SplitParam(key + "=" + value) == Success((key, value))
  {
    var kv := key + "=" + value;
    assert kv[..|key|] == key && kv[|key|] == '=';
    FindAfterPrefix(key, '=', "=" + value);
    assert kv[|key| + 1..] == value;
  }

  lemma {:induction false} FindAfterPrefix(prefix: string, c: char, rest: string)
    requires c !in prefix && rest != [] && rest[0] == c
    ensures Find(prefix + rest, c) == Some(|prefix|)
    decreases |prefix|
  {
    if prefix != [] {
      assert (prefix + rest)[1..] == prefix[1..] + rest;
      FindAfterPrefix(prefix[1..], c, rest);
    }
  }

  // ---- std::stoi ----

  /** The characters isspace accepts in the C locale. */
  predicate IsSpace(c: char) {
    c == ' ' || c == '\t' || c == '\n' || c == '\r' || c == 11 as char || c == 12 as char
  }

  predicate IsDigit(c: char) {
    '0' <= c <= '9'
  }

  /** Leading white space dropped. */
  function SkipSpace(s: string): (r: string)
    ensures |r| <= |s| && (r != [] ==> !IsSpace(r[0]))
    decreases |s|
  {
    if s != [] && IsSpace(s[0]) then SkipSpace(s[1..]) else s
  }

  /** The longest run of digits at the front. */
  function DigitRun(s: string): (r: string)
    ensures |r| <= |s| && r == s[..|r|]
    ensures forall i :: 0 <= i < |r| ==> IsDigit(r[i])
    ensures |r| < |s| ==> !IsDigit(s[|r|])
    decreases |s|
  {
    if s != [] && IsDigit(s[0]) then [s[0]] + DigitRun(s[1..]) else []
  }

  predicate InInt32(x: int) {
    -0x8000_0000 <= x < 0x8000_0000
  }

  /**
   * std::stoi in base 10: leading white space, an optional sign, then at
   * least one digit (invalid_argument otherwise); the rest of the text is
   * ignored; a value outside int gives out_of_range. Both exceptions are None.
   */
  function Stoi(s: string): (r: Option<int>)
    ensures r.Some? ==> InInt32(r.value)
  {
    var t := SkipSpace(s);
    var negative := t != [] && t[0] == '-';
    var u := if t != [] && (t[0] == '-' || t[0] == '+') then t[1..] else t;
    var digits := DigitRun(u);
    if digits == [] then None
    else
      var v := Signed(negative, DecimalValue(digits));
      if InInt32(v) then Some(v) else None
  }

  /** A magnitude with its sign applied. */
  function Signed(negative: bool, magnitude: nat): int {
    if negative then -(magnitude as int) else magnitude as int
  }

  /** Digits followed by a non-digit: the run stops at the boundary. */
  lemma {:induction false} DigitRunOfDigits(d: string, rest: string)
    requires forall i :: 0 <= i < |d| ==> IsDigit(d[i])
    requires rest == [] || !IsDigit(rest[0])
    ensures DigitRun(d + rest) == d
    decreases |d|
  {
    if d != [] {
      assert (d + rest)[1..] == d[1..] + rest;
      DigitRunOfDigits(d[1..], rest);
    } else {
      assert d + rest == rest;
    }
  }

  /**
   * A number printed with std::to_string and read back with std::stoi is
   * itself, whatever non-digit text follows it.
   */
  lemma StoiReadsPrinted(n: int, rest: string)
    requires InInt32(n) && (rest == [] || !IsDigit(rest[0]))
    ensures Stoi(CoreModel.IntToString(n) + rest) == Some(n)
  {
    var m: nat := if n < 0 then -n else n;
    var digits := Decimal(m);
    DecimalRoundTrip(m);
    DigitRunOfDigits(digits, rest);
    if n < 0 {
      assert CoreModel.IntToString(n) == "-" + digits;
      StoiOfDigits("-", digits, rest);
      assert CoreModel.IntToString(n) + rest == "-" + digits + rest;
      assert Signed(true, DecimalValue(digits)) == n;
    } else {
      assert CoreModel.IntToString(n) == digits;
      StoiOfDigits("", digits, rest);
      assert CoreModel.IntToString(n) + rest == "" + digits + rest;
      assert Signed(false, DecimalValue(digits)) == n;
    }
  }

  lemma StoiOfDigits(sign: string, digits: string, rest: string)
    requires sign == "" || sign == "-"
    requires digits != [] && IsDigit(digits[0]) && DigitRun(digits + rest) == digits
    requires InInt32(Signed(sign == "-", DecimalValue(digits)))
    ensures Stoi(sign + digits + rest) == Some(Signed(sign == "-", DecimalValue(digits)))
  {
    var s := sign + digits + rest;
    assert SkipSpace(s) == s;
    if sign == "-" {
      assert s[0] == '-' && s[1..] == digits + rest;
    } else {
      assert s == digits + rest;
    }
  }

  /** Text without a digit after the optional sign is refused. */
  lemma StoiRefusesNonNumbers(s: string)
    requires s == [] || (!IsSpace(s[0]) && !IsDigit(s[0]) && s[0] != '-' && s[0] != '+')
    ensures Stoi(s) == None
  {
  }

  // ---- the getopt_long loop ----

  /**
   * What one call of getopt_long returns: a long flag (0), an option with
   * its argument, a short option whose letter the option string lists
   * without a ':' (optarg is then NULL), or '?'.
   */
  datatype GetoptResult = FlagSet | Opt(code: char, arg: string) | BareOpt(code: char) | Unrecognised

  /**
   * How the loop ends: options parsed, std::nullopt returned, abort()
   * called, or a std::string built from a NULL optarg, which the C++
   * standard leaves undefined.
   */
  datatype ParseOutcome<O> = Parsed(options: O) | Rejected | Aborted | NullOptarg

  /** The options after handling each getopt result in order; the first non-Parsed outcome is final. */
  function FoldOpts<O>(init: O, apply: (O, GetoptResult) -> ParseOutcome<O>, args: seq<GetoptResult>): ParseOutcome<O>
    decreases |args|
  {
    if args == [] then Parsed(init)
    else match FoldOpts(init, apply, args[..|args| - 1])
      case Parsed(o) => apply(o, args[|args| - 1])
      case other => other
  }

  /** An outcome other than Parsed stays whatever follows. */
  lemma {:induction false} FoldOptsStops<O>(init: O, apply: (O, GetoptResult) -> ParseOutcome<O>, args: seq<GetoptResult>, more: seq<GetoptResult>)
    requires !FoldOpts(init, apply, args).Parsed?
    ensures FoldOpts(init, apply, args + more) == FoldOpts(init, apply, args)
    decreases |more|
  {
    if more == [] {
      assert args + more == args;
    } else {
      assert (args + more)[..|args + more| - 1] == args + more[..|more| - 1];
      FoldOptsStops(init, apply, args, more[..|more| - 1]);
    }
  }

  /** The `while (1)` loop of parseOpts: one switch per getopt result until the loop ends or returns. */
  method OptionLoop<O>(init: O, apply: (O, GetoptResult) -> ParseOutcome<O>, args: seq<GetoptResult>) returns (r: ParseOutcome<O>)
    ensures r == FoldOpts(init, apply, args)
  {
    var opts := init;
    var i := 0;
    while i < |args|
      invariant 0 <= i <= |args|
      invariant FoldOpts(init, apply, args[..i]) == Parsed(opts)
    {
      assert args[..i + 1][..i] == args[..i];
      var step := apply(opts, args[i]);
      if !step.Parsed? {
        FoldOptsStops(init, apply, args[..i + 1], args[i + 1..]);
        assert args[..i + 1] + args[i + 1..] == args;
        return step;
      }
      opts := step.options;
      i := i + 1;
    }
    assert args[..i] == args;
    return Parsed(opts);
  }

  /** After the loop: an argument getopt left over makes parsing fail. */
  function CheckPositional<O>(loop: ParseOutcome<O>, positional: seq<string>): (r: ParseOutcome<O>)
    ensures positional != [] && loop.Parsed? ==> r == Rejected
    ensures positional == [] ==> r == loop
  {
    if loop.Parsed? && positional != [] then Rejected else loop
  }

  /** getParams: every parsed pair set on a fresh store, in command-line order. */
  method GetParams(params: seq<(string, string)>) returns (store: RaceApi.ChannelParamStore)
    ensures fresh(store)
    ensures store.params == RaceApi.ParamsAfter(map[], params)
  {
    store := new RaceApi.ChannelParamStore();
    var i := 0;
    while i < |params|
      invariant 0 <= i <= |params|
      invariant store.params == RaceApi.ParamsAfter(map[], params[..i])
    {
      var (key, value) := params[i];
      store.SetChannelParam(key, value);
      assert params[..i + 1][..i] == params[..i];
      i := i + 1;
    }
    assert params[..i] == params;
  }
}

=== FILE: common.dfy ===
// Types shared by every part of the raceboat model: handles, byte strings,
// API status codes, the option records of the public API, and the JSON and
// base64 codecs the library borrows from foreign code.

module Common {

  datatype Option<T> = None | Some(value: T)

  datatype Result<T, E> = Success(value: T) | Failure(error: E) {
    predicate IsFailure() {
      Failure?
    }

    function PropagateFailure<U>(): Result<U, E>
      requires Failure?
    {
      Failure(error)
    }

    function Extract(): T
      requires Success?
    {
      value
    }
  }

  /** An octet: the element type of std::vector<uint8_t>. */
  type byte = b: int | 0 <= b < 256
  type Bytes = seq<byte>

  /** RaceHandle is a uint64_t; 0 is NULL_RACE_HANDLE. */
  type RaceHandle = nat
  const NULL_RACE_HANDLE: RaceHandle := 0

  type ChannelId = string
  type ConnectionId = string
  type LinkId = string
  type LinkAddress = string

  /** Length of the package-id prefix that routes a package to a conduit. */
  const PACKAGE_ID_LEN: nat := 16

  datatype ApiStatus =
    | INVALID
    | OK
    | CLOSING
    | CHANNEL_INVALID
    | INVALID_ARGUMENT
    | PLUGIN_ERROR
    | INTERNAL_ERROR
    | CANCELLED

  datatype SdkStatus =
    | SDK_INVALID
    | SDK_OK
    | SDK_SHUTTING_DOWN
    | SDK_PLUGIN_MISSING
    | SDK_INVALID_ARGUMENT
    | SDK_QUEUE_FULL

  datatype LinkDirection = LD_UNDEF | LD_CREATOR_TO_LOADER | LD_LOADER_TO_CREATOR | LD_BIDI

  datatype LinkType = LT_UNDEF | LT_SEND | LT_RECV | LT_BIDI

  datatype ChannelStatus =
    | CHANNEL_UNDEF
    | CHANNEL_AVAILABLE
    | CHANNEL_UNAVAILABLE
    | CHANNEL_ENABLED
    | CHANNEL_DISABLED
    | CHANNEL_STARTING
    | CHANNEL_FAILED
    | CHANNEL_UNSUPPORTED

  datatype LinkStatus = LINK_UNDEF | LINK_CREATED | LINK_LOADED | LINK_DESTROYED

  datatype ConnectionStatus =
    | CONNECTION_INVALID
    | CONNECTION_OPEN
    | CONNECTION_CLOSED
    | CONNECTION_AWAITING_CONTACT
    | CONNECTION_INIT_FAILED
    | CONNECTION_AVAILABLE
    | CONNECTION_UNAVAILABLE

  /** ChannelManager's ActivateChannelStatusCode. */
  datatype ActivateStatus =
    | OK_ACTIVATED
    | ALREADY_ACTIVATED
    | ACTIVATED_WITH_DIFFERENT_ROLE
    | INVALID_STATE
    | INVALID_ROLE
    | FAILED_TO_GET_CHANNEL
    | CHANNEL_DOES_NOT_EXIST

  /** include/race/common/PackageStatus.h */
  datatype PackageStatus =
    | PACKAGE_INVALID
    | PACKAGE_SENT
    | PACKAGE_RECEIVED
    | PACKAGE_FAILED_GENERIC
    | PACKAGE_FAILED_NETWORK_ERROR
    | PACKAGE_FAILED_TIMEOUT

  datatype SendOptions = SendOptions(
    recv_channel: ChannelId,
    send_channel: ChannelId,
    alt_channel: ChannelId,
    send_address: LinkAddress,
    send_role: string,
    recv_role: string,
    timeout_ms: int)

  datatype ReceiveOptions = ReceiveOptions(
    recv_channel: ChannelId,
    send_channel: ChannelId,
    alt_channel: ChannelId,
    recv_address: LinkAddress,
    send_role: string,
    recv_role: string,
    timeout_ms: int,
    multi_channel: bool)

  datatype ResumeOptions = ResumeOptions(
    recv_channel: ChannelId,
    send_channel: ChannelId,
    send_address: LinkAddress,
    send_role: string,
    recv_address: LinkAddress,
    recv_role: string,
    package_id: string,
    timeout_ms: int)

  datatype BootstrapConnectionOptions = BootstrapConnectionOptions(
    init_send_channel: ChannelId,
    init_recv_channel: ChannelId,
    final_send_channel: ChannelId,
    final_recv_channel: ChannelId,
    init_send_address: LinkAddress,
    init_recv_address: LinkAddress,
    init_send_role: string,
    init_recv_role: string,
    final_send_role: string,
    final_recv_role: string,
    timeout_ms: int)

  datatype ConduitProperties = ConduitProperties(
    package_id: string,
    recv_channel: ChannelId,
    recv_role: string,
    recv_address: LinkAddress,
    send_channel: ChannelId,
    send_role: string,
    send_address: LinkAddress,
    timeout_ms: int)

  /** A default-constructed ConduitProperties ({} in the source). */
  const EmptyProperties := ConduitProperties("", "", "", "", "", "", "", 0)

  /**
   * A std::string holds bytes; the model keeps text as Dafny strings and
   * converts character by character where the source copies a string into
   * a byte vector or back.
   */
  function StrToBytes(s: string): (b: Bytes)
    ensures |b| == |s|
    ensures forall i :: 0 <= i < |s| && (s[i] as int) < 256 ==> b[i] == s[i] as int
  {
    seq(|s|, i requires 0 <= i < |s| => (s[i] as int) % 256)
  }

  function BytesToStr(b: Bytes): (s: string)
    ensures |s| == |b|
    ensures forall i :: 0 <= i < |b| ==> s[i] as int == b[i]
  {
    seq(|b|, i requires 0 <= i < |b| => b[i] as char)
  }

  /** Text every character of which fits in one byte, as a C++ string does. */
  predicate IsByteString(s: string) {
    forall i :: 0 <= i < |s| ==> (s[i] as int) < 256
  }

  lemma BytesStrRoundTrip(b: Bytes)
    ensures StrToBytes(BytesToStr(b)) == b
    ensures IsByteString(BytesToStr(b))
  {
  }

  lemma StrBytesRoundTrip(s: string)
    requires IsByteString(s)
    ensures BytesToStr(StrToBytes(s)) == s
  {
  }

  /** n zero bytes, e.g. the all-NUL package-id prefix of a hello package. */
  function Zeros(n: nat): (z: Bytes)
    ensures |z| == n
    ensures forall i :: 0 <= i < n ==> z[i] == 0
  {
    seq(n, i => 0)
  }

  /** The JSON values the library builds and reads (RFC 8259). */
  datatype Json =
    | JNull
    | JBool(b: bool)
    | JNumber(n: int)
    | JString(s: string)
    | JArray(items: seq<Json>)
    | JObject(fields: map<string, Json>)

  /**
   * nlohmann::json and the base64 library (RFC 4648 section 4) are foreign
   * code: the model receives them as functions. `parse` and `b64decode`
   * return None where the foreign code throws.
   */
  datatype Codecs = Codecs(
    dump: Json -> string,
    parse: string -> Option<Json>,
    b64encode: Bytes -> string,
    b64decode: string -> Option<Bytes>)

  /** The round-trip laws the library relies on. */
  ghost predicate Lawful(c: Codecs) {
    && (forall j :: c.parse(c.dump(j)) == Some(j))
    && (forall b :: c.b64decode(c.b64encode(b)) == Some(b))
  }

  /** json.at(key) read as a string; None where nlohmann throws. */
  function AtString(j: Json, key: string): (r: Option<string>)
    ensures r.Some? <==> j.JObject? && key in j.fields && j.fields[key].JString?
    ensures r.Some? ==> r.value == j.fields[key].s
  {
    if j.JObject? && key in j.fields && j.fields[key].JString? then Some(j.fields[key].s) else None
  }

  /** An object with the given string-valued fields. */
  function Object(fields: map<string, string>): (j: Json)
    ensures j.JObject? && j.fields.Keys == fields.Keys
    ensures forall k :: k in fields ==> AtString(j, k) == Some(fields[k])
  {
    JObject(map k | k in fields :: JString(fields[k]))
  }

  /**
   * A json value declared `= {}`, which nlohmann makes null, and then given
   * the string fields: it stays null when no field was assigned.
   */
  function Assigned(fields: map<string, string>): (j: Json)
    ensures fields == map[] ==> j == JNull
    ensures fields != map[] ==> j.JObject? && forall k :: AtString(j, k) == if k in fields then Some(fields[k]) else None
  {
    if fields == map[] then JNull else Object(fields)
  }

  /** The character of a decimal digit. */
  function DigitChar(d: nat): (ch: char)
    requires d < 10
    ensures '0' <= ch <= '9' && (ch as int) - ('0' as int) == d
  {
    (('0' as int) + d) as char
  }

  /** std::to_string of a non-negative number: its decimal digits, most significant first. */
  function Decimal(n: nat): (s: string)
    ensures |s| >= 1
    ensures forall i | 0 <= i < |s| :: '0' <= s[i] <= '9'
    decreases n
  {
    if n < 10 then [DigitChar(n)] else Decimal(n / 10) + [DigitChar(n % 10)]
  }

  /** The value of a string of decimal digits. */
  function DecimalValue(s: string): nat
    decreases |s|
  {
    if s == [] then 0
    else
      var d := (s[|s| - 1] as int) - ('0' as int);
      DecimalValue(s[..|s| - 1]) * 10 + (if 0 <= d < 10 then d else 0)
  }

  /** Reading the digits back gives the number, so distinct numbers print differently. */
  lemma {:induction false} DecimalRoundTrip(n: nat)
    ensures DecimalValue(Decimal(n)) == n
    decreases n
  {
    var s := Decimal(n);
    if n < 10 {
      assert s == [DigitChar(n)] && s[..0] == [];
    } else {
      DecimalRoundTrip(n / 10);
      assert s == Decimal(n / 10) + [DigitChar(n % 10)];
      assert s[..|s| - 1] == Decimal(n / 10);
      assert DecimalValue(s) == (n / 10) * 10 + n % 10;
    }
  }

  lemma DecimalInjective(m: nat, n: nat)
    requires Decimal(m) == Decimal(n)
    ensures m == n
  {
    DecimalRoundTrip(m);
    DecimalRoundTrip(n);
  }
}

=== FILE: composition.dfy ===
// A composition (source/Composition.cpp): a channel assembled from one
// transport, one user model and a list of encodings, each provided by some
// decomposed plugin.

module Compositions {
  import opened Common
  import opened JsonAccess
  import opened PluginDefs

  /** The plugins a composition draws on are filled in by the loader; JSON carries only the four names. */
  datatype Composition = Composition(
    id: string,
    transport: string,
    usermodel: string,
    encodings: seq<string>,
    plugins: seq<PluginDef>)

  /** to_json: an object with exactly id, transport, usermodel and encodings. */
  function ToJson(c: Composition): (j: Json)
    ensures j.JObject? && j.fields.Keys == {"id", "transport", "usermodel", "encodings"}
    ensures j.fields["id"] == JString(c.id) && j.fields["transport"] == JString(c.transport)
    ensures j.fields["usermodel"] == JString(c.usermodel) && j.fields["encodings"] == StringsToJson(c.encodings)
  {
    JObject(map[
      "id" := JString(c.id),
      "transport" := JString(c.transport),
      "usermodel" := JString(c.usermodel),
      "encodings" := StringsToJson(c.encodings)])
  }

  /** from_json: all four keys are required, read in order; plugins stay empty. */
  function FromJson(j: Json): (r: Result<Composition, JsonError>)
    ensures r.Success? ==> r.value.plugins == []
    ensures r.Success? ==> j.JObject? && {"id", "transport", "usermodel", "encodings"} <= j.fields.Keys
    ensures j.JObject? && "id" !in j.fields ==> r == Failure(OutOfRange("id"))
  {
    var id :- At(j, "id");
    var idStr :- AsString(id);
    var transport :- At(j, "transport");
    var transportStr :- AsString(transport);
    var usermodel :- At(j, "usermodel");
    var usermodelStr :- AsString(usermodel);
    var encodings :- At(j, "encodings");
    var encodingList :- AsStrings(encodings);
    Success(Composition(idStr, transportStr, usermodelStr, encodingList, []))
  }

  /** Reading a written composition keeps id, transport, usermodel and encodings; the plugins are not written. */
  lemma JsonRoundTrip(c: Composition)
    ensures FromJson(ToJson(c)) == Success(c.(plugins := []))
  {
    StringsRoundTrip(c.encodings);
  }

  /** Any missing key is refused as out_of_range. */
  lemma MissingKeyRefused(j: Json, key: string)
    requires j.JObject? && key in {"id", "transport", "usermodel", "encodings"} && key !in j.fields
    ensures FromJson(j).Failure?
  {
  }

  /** The file paths of the plugins, each followed by ", ". */
  function PluginList(plugins: seq<PluginDef>): (s: string)
    decreases |plugins|
  {
    if plugins == [] then ""
    else PluginList(plugins[..|plugins| - 1]) + plugins[|plugins| - 1].filePath + ", "
  }

  /**
   * description(): names the composition and its parts; the encodings are
   * printed by the JSON library (`json{encodings}` wraps the list in a
   * one-element array), then the plugins' file paths inside "{...}".
   */
  function Description(c: Composition, dump: Json -> string): (s: string)
  {
    "Composite plugin: " + c.id + Parts(c, dump)
  }

  /** What follows the id in the description. */
  function Parts(c: Composition, dump: Json -> string): string {
    ", transport: " + c.transport
      + ", usermodel: " + c.usermodel
      + ", encodings: " + dump(JArray([StringsToJson(c.encodings)]))
      + ", from plugins {" + PluginList(c.plugins) + "}"
  }

  /** The description starts with "Composite plugin: " and the id, and ends with "}". */
  lemma DescriptionFrame(c: Composition, dump: Json -> string)
    ensures var s := Description(c, dump);
      && |s| > 18 + |c.id|
      && s[..18 + |c.id|] == "Composite plugin: " + c.id
      && s[|s| - 1] == '}'
  {
    var head := "Composite plugin: " + c.id;
    var tail := Parts(c, dump);
    assert tail[|tail| - 1] == '}';
    assert |head| == 18 + |c.id|;
    assert (head + tail)[..|head|] == head;
    assert (head + tail)[|head + tail| - 1] == tail[|tail| - 1];
  }

  /** Each plugin's file path appears in order, followed by ", ": the list's length adds up. */
  lemma {:induction false} PluginListLength(plugins: seq<PluginDef>)
    ensures |PluginList(plugins)| == |plugins| * 2 + SumPathLengths(plugins)
    decreases |plugins|
  {
    if plugins != [] {
      PluginListLength(plugins[..|plugins| - 1]);
    }
  }

  function SumPathLengths(plugins: seq<PluginDef>): nat
    decreases |plugins|
  {
    if plugins == [] then 0 else SumPathLengths(plugins[..|plugins| - 1]) + |plugins[|plugins| - 1].filePath|
  }

  /** Appending a plugin appends its path and ", " to the list: earlier entries are kept in place. */
  lemma PluginListAppend(plugins: seq<PluginDef>, p: PluginDef)
    ensures PluginList(plugins + [p]) == PluginList(plugins) + p.filePath + ", "
  {
    assert (plugins + [p])[..|plugins|] == plugins;
  }
}

=== FILE: conduit.dfy ===
// The conduit state machine (source/state-machine/ConduitStateMachine.cpp):
// an open, two-way connection object. Writes are queued, sent with the
// package id in front and parked until the plugin reports their fate;
// received packages wait in a queue for the application's read calls.

module ConduitMachine {
  import opened Common
  import opened Engine
  import opened ApiContext

  const STATE_CONNECTION_OBJECT_INITIAL: StateType := 3
  const STATE_CONNECTION_OBJECT_CONNECTED: StateType := 4
  const STATE_CONNECTION_OBJECT_FINISHED: StateType := 5
  const STATE_CONNECTION_OBJECT_CANCELLED: StateType := 6
  const STATE_CONNECTION_OBJECT_FAILED: StateType := 7

  /** An entry of sendQueue: the write's callback and its bytes. */
  datatype Write = Write(cb: Callback, bytes: Bytes)

  /** An entry of sentQueue: a package handle and the write callback waiting for it. */
  datatype Parked = Parked(handle: RaceHandle, cb: Callback)

  /**
   * ConduitContext. sentQueue is an unordered_map in the source; the model
   * keeps its entries in insertion order, one per handle.
   */
  datatype ConduitCtx = ConduitCtx(
    handle: RaceHandle,
    apiHandle: RaceHandle,
    sendConnSMHandle: RaceHandle,
    sendConnId: ConnectionId,
    recvConnSMHandle: RaceHandle,
    recvConnId: ConnectionId,
    sendChannel: ChannelId,
    recvChannel: ChannelId,
    packageId: string,
    sendQueue: seq<Write>,
    sentQueue: seq<Parked>,
    sentList: seq<RaceHandle>,
    failedList: seq<RaceHandle>,
    recvQueue: seq<Bytes>,
    readCb: Option<Callback>,
    closeCb: Option<Callback>,
    dialCb: Option<Callback>,
    env: Env)

  /**
   * The hooks ConduitContext overrides. The start appends the inherited
   * packages to recvQueue in order; a package status goes to sentList when
   * it is PACKAGE_SENT and to failedList otherwise.
   */
  function Apply(c: ConduitCtx, u: Update): (r: ConduitCtx)
    ensures u.UConduitStart? ==>
              r == c.(recvConnSMHandle := u.recvHandle, recvConnId := u.recvConnId, sendConnSMHandle := u.sendHandle,
                      sendConnId := u.sendConnId, apiHandle := u.apiHandle, sendChannel := u.sendChannel,
                      recvChannel := u.recvChannel, packageId := u.packageId, recvQueue := c.recvQueue + u.messages)
    ensures u.UReceiveEncPkg? ==> r == c.(recvQueue := c.recvQueue + [u.data])
    ensures u.UPackageStatusChanged? && u.packageStatus == PACKAGE_SENT ==> r == c.(sentList := c.sentList + [u.handle])
    ensures u.UPackageStatusChanged? && u.packageStatus != PACKAGE_SENT ==> r == c.(failedList := c.failedList + [u.handle])
    ensures u.URead? ==> r == c.(readCb := Some(u.cb))
    ensures u.UWrite? ==> r == c.(sendQueue := c.sendQueue + [Write(u.cb, u.data)])
    ensures u.UClose? ==> r == c.(closeCb := Some(u.cb))
    ensures (!u.UConduitStart? && !u.UReceiveEncPkg? && !u.UPackageStatusChanged? && !u.URead? && !u.UWrite?
             && !u.UClose?) ==> r == c
  {
    match u
    case UConduitStart(_, recvHandle, recvConnId, sendHandle, sendConnId, sendChannel, recvChannel, packageId,
                       messages, apiHandle) =>
      c.(recvConnSMHandle := recvHandle, recvConnId := recvConnId, sendConnSMHandle := sendHandle,
         sendConnId := sendConnId, apiHandle := apiHandle, sendChannel := sendChannel, recvChannel := recvChannel,
         packageId := packageId, recvQueue := c.recvQueue + messages)
    case UReceiveEncPkg(_, pkg) => c.(recvQueue := c.recvQueue + [pkg])
    case UPackageStatusChanged(pkgHandle, status) =>
      if status == PACKAGE_SENT then c.(sentList := c.sentList + [pkgHandle])
      else c.(failedList := c.failedList + [pkgHandle])
    case URead(_, cb) => c.(readCb := Some(cb))
    case UWrite(_, bytes, cb) => c.(sendQueue := c.sendQueue + [Write(cb, bytes)])
    case UClose(_, cb) => c.(closeCb := Some(cb))
    case _ => c
  }

  // ---------------------------------------------------------------------
  // sentQueue: one parked callback per package handle
  // ---------------------------------------------------------------------

  function Handles(q: seq<Parked>): set<RaceHandle>
    decreases |q|
  {
    if q == [] then {} else {q[0].handle} + Handles(q[1..])
  }

  /** No handle is parked twice, as in a map. */
  ghost predicate UniqueHandles(q: seq<Parked>)
    decreases |q|
  {
    q == [] || (q[0].handle !in Handles(q[1..]) && UniqueHandles(q[1..]))
  }

  /** sentQueue.find(h). */
  function Lookup(q: seq<Parked>, h: RaceHandle): (r: Option<Callback>)
    ensures r.Some? <==> h in Handles(q)
    decreases |q|
  {
    if q == [] then None
    else if q[0].handle == h then Some(q[0].cb)
    else Lookup(q[1..], h)
  }

  /** sentQueue[h] = cb: insert, or overwrite the callback already parked at h. */
  function Put(q: seq<Parked>, h: RaceHandle, cb: Callback): (r: seq<Parked>)
    ensures Handles(r) == Handles(q) + {h}
    ensures Lookup(r, h) == Some(cb)
    ensures forall k :: k != h ==> Lookup(r, k) == Lookup(q, k)
    ensures UniqueHandles(q) ==> UniqueHandles(r)
    decreases |q|
  {
    if q == [] then [Parked(h, cb)]
    else if q[0].handle == h then [Parked(h, cb)] + q[1..]
    else [q[0]] + Put(q[1..], h, cb)
  }

  /** sentQueue.erase(h). */
  function Erase(q: seq<Parked>, h: RaceHandle): (r: seq<Parked>)
    ensures Handles(r) == Handles(q) - {h}
    ensures Lookup(r, h).None?
    ensures forall k :: k != h ==> Lookup(r, k) == Lookup(q, k)
    ensures UniqueHandles(q) ==> UniqueHandles(r)
    decreases |q|
  {
    if q == [] then []
    else if q[0].handle == h then Erase(q[1..], h)
    else [q[0]] + Erase(q[1..], h)
  }

  /** With one entry per handle, there are as many entries as parked handles. */
  lemma {:induction false} UniqueHandlesCount(q: seq<Parked>)
    requires UniqueHandles(q)
    ensures |Handles(q)| == |q|
    decreases |q|
  {
    if q != [] {
      UniqueHandlesCount(q[1..]);
    }
  }

  function WriteCbs(ws: seq<Write>): (r: seq<Callback>)
    ensures |r| == |ws| && forall i :: 0 <= i < |ws| ==> r[i] == ws[i].cb
  {
    seq(|ws|, i requires 0 <= i < |ws| => ws[i].cb)
  }

  function ParkedCbs(q: seq<Parked>): (r: seq<Callback>)
    ensures |r| == |q| && forall i :: 0 <= i < |q| ==> r[i] == q[i].cb
  {
    seq(|q|, i requires 0 <= i < |q| => q[i].cb)
  }

  // ---------------------------------------------------------------------
  // The connected state's three loops
  // ---------------------------------------------------------------------

  /**
   * callReadCallback: a set read callback is invoked once, cleared, and
   * true is returned; otherwise nothing happens and false is returned.
   */
  function CallReadCallback(c: ConduitCtx, status: ApiStatus, bytes: Bytes): (r: (ConduitCtx, bool))
    ensures r.1 <==> c.readCb.Some?
    ensures r.1 ==> r.0 == c.(readCb := None,
                              env := Env(c.env.requests, c.env.fired + [Fired(c.readCb.value, status, PBytes(bytes))]))
    ensures !r.1 ==> r.0 == c
  {
    (c.(readCb := None, env := InvokeIfSet(c.env, c.readCb, status, PBytes(bytes))), c.readCb.Some?)
  }

  /** The connected state's read step: the front package leaves the queue only when a reader took it. */
  function ReadFront(c: ConduitCtx): (r: ConduitCtx)
    ensures c.recvQueue != [] && c.readCb.Some? ==>
              r == c.(recvQueue := c.recvQueue[1..], readCb := None,
                      env := Env(c.env.requests, c.env.fired + [Fired(c.readCb.value, OK, PBytes(c.recvQueue[0]))]))
    ensures c.recvQueue == [] || c.readCb.None? ==> r == c
  {
    if c.recvQueue == [] then c
    else
      var (c1, called) := CallReadCallback(c, OK, c.recvQueue[0]);
      if called then c1.(recvQueue := c1.recvQueue[1..]) else c1
  }

  /**
   * The send loop over sendQueue: each write gets a fresh package handle
   * and is sent on the sending connection as the package id's bytes
   * followed by its own bytes; a refused send fails the write's callback
   * with INTERNAL_ERROR at once, an accepted one is registered and parked
   * under its handle.
   */
  function SendWrites(w: World, ctx: RaceHandle, env: Env, channel: ChannelId, connId: ConnectionId,
                      pid: Bytes, writes: seq<Write>, q: seq<Parked>): (r: (Env, seq<Parked>))
    ensures env.requests <= r.0.requests && env.fired <= r.0.fired
    ensures forall i :: |env.fired| <= i < |r.0.fired| ==>
              r.0.fired[i].status == INTERNAL_ERROR && r.0.fired[i].payload == NoPayload
    ensures Handles(q) <= Handles(r.1)
    ensures UniqueHandles(q) ==> UniqueHandles(r.1)
    decreases |writes|
  {
    if writes == [] then (env, q)
    else
      var (env1, h) := Ask(w, env, GenerateHandle);
      var (env2, a) := Ask(w, env1, SendPackage(channel, h.handle, connId, pid + writes[0].bytes));
      if !a.ok then
        SendWrites(w, ctx, Env(env2.requests, env2.fired + [Fired(writes[0].cb, INTERNAL_ERROR, NoPayload)]),
                   channel, connId, pid, writes[1..], q)
      else
        SendWrites(w, ctx, Tell(env2, RegisterHandle(ctx, h.handle)), channel, connId, pid, writes[1..],
                   Put(q, h.handle, writes[0].cb))
  }

  /** The packages handed to sendPackage in reqs, in call order. */
  function Sends(reqs: seq<Request>): seq<Bytes>
    decreases |reqs|
  {
    if reqs == [] then []
    else Sends(reqs[..|reqs| - 1]) + (if reqs[|reqs| - 1].SendPackage? then [reqs[|reqs| - 1].pkg] else [])
  }

  lemma SendsSnoc(reqs: seq<Request>, x: Request)
    ensures Sends(reqs + [x]) == Sends(reqs) + (if x.SendPackage? then [x.pkg] else [])
  {
    assert (reqs + [x])[..|reqs|] == reqs;
  }

  /** What goes on the wire for each write: the package id, then the write's bytes. */
  function Prefixed(pid: Bytes, writes: seq<Write>): (r: seq<Bytes>)
    ensures |r| == |writes| && forall i :: 0 <= i < |writes| ==> r[i] == pid + writes[i].bytes
  {
    seq(|writes|, i requires 0 <= i < |writes| => pid + writes[i].bytes)
  }

  /** Every queued write goes out, in queue order, as the package id followed by its bytes. */
  lemma {:induction false} SendWritesPayloads(w: World, ctx: RaceHandle, env: Env, channel: ChannelId,
                                              connId: ConnectionId, pid: Bytes, writes: seq<Write>, q: seq<Parked>)
    ensures Sends(SendWrites(w, ctx, env, channel, connId, pid, writes, q).0.requests)
            == Sends(env.requests) + Prefixed(pid, writes)
    decreases |writes|
  {
    if writes != [] {
      var (env1, h) := Ask(w, env, GenerateHandle);
      var send := SendPackage(channel, h.handle, connId, pid + writes[0].bytes);
      var (env2, a) := Ask(w, env1, send);
      SendsSnoc(env.requests, GenerateHandle);
      SendsSnoc(env1.requests, send);
      assert Sends(env2.requests) == Sends(env.requests) + [pid + writes[0].bytes];
      assert Prefixed(pid, writes) == [pid + writes[0].bytes] + Prefixed(pid, writes[1..]);
      if !a.ok {
        var env3 := Env(env2.requests, env2.fired + [Fired(writes[0].cb, INTERNAL_ERROR, NoPayload)]);
        SendWritesPayloads(w, ctx, env3, channel, connId, pid, writes[1..], q);
      } else {
        var env3 := Tell(env2, RegisterHandle(ctx, h.handle));
        SendsSnoc(env2.requests, RegisterHandle(ctx, h.handle));
        SendWritesPayloads(w, ctx, env3, channel, connId, pid, writes[1..], Put(q, h.handle, writes[0].cb));
      }
    }
  }

  /**
   * No write is lost: when handles are never reissued (a fresh one for
   * every call, none already parked), every write's callback has either
   * failed at once or is parked under its own handle.
   */
  lemma {:induction false} SendWritesKeepsEveryWrite(w: World, ctx: RaceHandle, env: Env, channel: ChannelId,
                                                     connId: ConnectionId, pid: Bytes, writes: seq<Write>,
                                                     q: seq<Parked>)
    requires forall m: nat, n: nat :: m < n ==> w.answer(m).handle != w.answer(n).handle
    requires forall n: nat :: n >= |env.requests| ==> w.answer(n).handle !in Handles(q)
    ensures var r := SendWrites(w, ctx, env, channel, connId, pid, writes, q);
            |r.0.fired| - |env.fired| + |Handles(r.1)| == |Handles(q)| + |writes|
    decreases |writes|
  {
    if writes != [] {
      var n0 := |env.requests|;
      var (env1, h) := Ask(w, env, GenerateHandle);
      var (env2, a) := Ask(w, env1, SendPackage(channel, h.handle, connId, pid + writes[0].bytes));
      if !a.ok {
        var env3 := Env(env2.requests, env2.fired + [Fired(writes[0].cb, INTERNAL_ERROR, NoPayload)]);
        SendWritesKeepsEveryWrite(w, ctx, env3, channel, connId, pid, writes[1..], q);
      } else {
        var env3 := Tell(env2, RegisterHandle(ctx, h.handle));
        var q3 := Put(q, h.handle, writes[0].cb);
        assert h.handle !in Handles(q);
        forall n: nat | n >= |env3.requests|
          ensures w.answer(n).handle !in Handles(q3)
        {
          assert w.answer(n0).handle != w.answer(n).handle;
        }
        SendWritesKeepsEveryWrite(w, ctx, env3, channel, connId, pid, writes[1..], q3);
      }
    }
  }

  /** The send loop of StateConduitConnected::enter. */
  method SendWritesLoop(w: World, ctx: RaceHandle, env: Env, channel: ChannelId, connId: ConnectionId,
                        pid: Bytes, writes: seq<Write>, q: seq<Parked>) returns (env': Env, q': seq<Parked>)
    ensures (env', q') == SendWrites(w, ctx, env, channel, connId, pid, writes, q)
  {
    env', q' := env, q;
    var i := 0;
    while i < |writes|
      invariant 0 <= i <= |writes|
      invariant SendWrites(w, ctx, env', channel, connId, pid, writes[i..], q')
                == SendWrites(w, ctx, env, channel, connId, pid, writes, q)
    {
      assert writes[i..][0] == writes[i] && writes[i..][1..] == writes[i + 1..];
      var (envH, pkgHandle) := Ask(w, env', GenerateHandle);
      var (envS, response) := Ask(w, envH, SendPackage(channel, pkgHandle.handle, connId, pid + writes[i].bytes));
      if !response.ok {
        env' := Env(envS.requests, envS.fired + [Fired(writes[i].cb, INTERNAL_ERROR, NoPayload)]);
      } else {
        env' := Tell(envS, RegisterHandle(ctx, pkgHandle.handle));
        q' := Put(q', pkgHandle.handle, writes[i].cb);
      }
      i := i + 1;
    }
    assert writes[i..] == [];
  }

  /**
   * The sentList and failedList loops: each listed handle that has a parked
   * callback resolves it with `status` and unparks it; other handles are
   * skipped.
   */
  function Resolve(env: Env, q: seq<Parked>, handles: seq<RaceHandle>, status: ApiStatus): (r: (Env, seq<Parked>))
    ensures r.0.requests == env.requests && env.fired <= r.0.fired
    ensures forall i :: |env.fired| <= i < |r.0.fired| ==>
              r.0.fired[i].status == status && r.0.fired[i].payload == NoPayload
    ensures forall k :: k in handles ==> Lookup(r.1, k).None?
    ensures forall k :: k !in handles ==> Lookup(r.1, k) == Lookup(q, k)
    ensures |r.0.fired| - |env.fired| + |Handles(r.1)| == |Handles(q)|
    ensures UniqueHandles(q) ==> UniqueHandles(r.1)
    decreases |handles|
  {
    if handles == [] then (env, q)
    else
      match Lookup(q, handles[0])
      case None => Resolve(env, q, handles[1..], status)
      case Some(cb) =>
        Resolve(Env(env.requests, env.fired + [Fired(cb, status, NoPayload)]), Erase(q, handles[0]), handles[1..],
                status)
  }

  /** The sentList/failedList loops of StateConduitConnected::enter. */
  method ResolveLoop(env: Env, q: seq<Parked>, handles: seq<RaceHandle>, status: ApiStatus)
    returns (env': Env, q': seq<Parked>)
    ensures (env', q') == Resolve(env, q, handles, status)
  {
    env', q' := env, q;
    var i := 0;
    while i < |handles|
      invariant 0 <= i <= |handles|
      invariant Resolve(env', q', handles[i..], status) == Resolve(env, q, handles, status)
    {
      assert handles[i..][0] == handles[i] && handles[i..][1..] == handles[i + 1..];
      var found := Lookup(q', handles[i]);
      if found.Some? {
        env' := Env(env'.requests, env'.fired + [Fired(found.value, status, NoPayload)]);
        q' := Erase(q', handles[i]);
      }
      i := i + 1;
    }
    assert handles[i..] == [];
  }

  // ---------------------------------------------------------------------
  // States
  // ---------------------------------------------------------------------

  /**
   * StateConduitInitial: refuse empty channels; otherwise register the
   * application's handle, both connection machines and the package id on
   * the receiving connection, and move on.
   */
  function Initial(c: ConduitCtx): (o: Outcome<ConduitCtx>)
    ensures c.sendChannel == "" || c.recvChannel == "" ==> o == Returned(NOT_SUPPORTED, c, [])
    ensures c.sendChannel != "" && c.recvChannel != "" ==>
              o == Returned(SUCCESS, c.(env := Env(c.env.requests + [RegisterHandle(c.handle, c.apiHandle),
                                                                    RegisterHandle(c.handle, c.sendConnSMHandle),
                                                                    RegisterHandle(c.handle, c.recvConnSMHandle),
                                                                    RegisterPackageId(c.handle, c.recvConnId, c.packageId)],
                                                   c.env.fired)), [EVENT_ALWAYS])
  {
    if c.sendChannel == "" || c.recvChannel == "" then Returned(NOT_SUPPORTED, c, [])
    else
      var env1 := Tell(Tell(c.env, RegisterHandle(c.handle, c.apiHandle)), RegisterHandle(c.handle, c.sendConnSMHandle));
      var env2 := Tell(Tell(env1, RegisterHandle(c.handle, c.recvConnSMHandle)),
                       RegisterPackageId(c.handle, c.recvConnId, c.packageId));
      assert env2.requests == c.env.requests + [RegisterHandle(c.handle, c.apiHandle),
                                                RegisterHandle(c.handle, c.sendConnSMHandle),
                                                RegisterHandle(c.handle, c.recvConnSMHandle),
                                                RegisterPackageId(c.handle, c.recvConnId, c.packageId)];
      Returned(SUCCESS, c.(env := env2), [EVENT_ALWAYS])
  }

  /**
   * StateConduitConnected, entered again on every read, write, package and
   * package status: deliver the front package to a waiting reader, send
   * every queued write, then resolve the reported sent and failed packages.
   */
  function Connected(w: World, c: ConduitCtx): (o: Outcome<ConduitCtx>)
    ensures GetPlugin(w, c.sendChannel).Some? ==> o.Threw?
    ensures GetPlugin(w, c.sendChannel).None? ==>
              && o.Returned? && o.result == SUCCESS && o.pushed == []
              && o.data.sendQueue == [] && o.data.sentList == [] && o.data.failedList == []
              && o.data.recvQueue == (if c.recvQueue != [] && c.readCb.Some? then c.recvQueue[1..] else c.recvQueue)
              && o.data.readCb == (if c.recvQueue != [] then None else c.readCb)
              && (c.recvQueue != [] && c.readCb.Some? ==>
                    |o.data.env.fired| > |c.env.fired|
                    && o.data.env.fired[|c.env.fired|] == Fired(c.readCb.value, OK, PBytes(c.recvQueue[0])))
              && (forall k :: k in c.sentList || k in c.failedList ==> Lookup(o.data.sentQueue, k).None?)
              && (UniqueHandles(c.sentQueue) ==> UniqueHandles(o.data.sentQueue))
              && o.data.closeCb == c.closeCb && o.data.packageId == c.packageId
              && o.data.sendChannel == c.sendChannel
    ensures o.pushed == []
  {
    if GetPlugin(w, c.sendChannel).Some? then Threw(c, [])
    else
      var c1 := ReadFront(c);
      var (env2, q2) := SendWrites(w, c.handle, c1.env, c.sendChannel, c.sendConnId, StrToBytes(c.packageId),
                                   c1.sendQueue, c1.sentQueue);
      var (env3, q3) := Resolve(env2, q2, c1.sentList, OK);
      var (env4, q4) := Resolve(env3, q3, c1.failedList, INTERNAL_ERROR);
      Returned(SUCCESS, c1.(sendQueue := [], sentQueue := q4, sentList := [], failedList := [], env := env4), [])
  }

  /**
   * StateConduitFinished: fail every write still queued or parked with
   * INTERNAL_ERROR, queued ones first, report the machine finished, then
   * give the close callback OK.
   */
  function Finished(c: ConduitCtx): (o: Outcome<ConduitCtx>)
    ensures c.closeCb.None? ==> o.Threw?
    ensures c.closeCb.Some? ==>
              var n := |c.env.fired|;
              var s := |c.sendQueue|;
              && o.Returned? && o.result == SUCCESS
              && o.data == c.(sendQueue := [], sentQueue := [], closeCb := None, env := o.data.env)
              && o.data.env.requests == c.env.requests + [StateMachineFinished(c.handle)]
              && |o.data.env.fired| == n + s + |c.sentQueue| + 1
              && o.data.env.fired[..n] == c.env.fired
              && (forall i :: 0 <= i < s ==> o.data.env.fired[n + i] == Fired(c.sendQueue[i].cb, INTERNAL_ERROR, NoPayload))
              && (forall j :: 0 <= j < |c.sentQueue| ==>
                    o.data.env.fired[n + s + j] == Fired(c.sentQueue[j].cb, INTERNAL_ERROR, NoPayload))
              && o.data.env.fired[n + s + |c.sentQueue|] == Fired(c.closeCb.value, OK, NoPayload)
    ensures o.pushed == []
  {
    var env1 := InvokeAll(c.env, WriteCbs(c.sendQueue), INTERNAL_ERROR, NoPayload);
    var env2 := InvokeAll(env1, ParkedCbs(c.sentQueue), INTERNAL_ERROR, NoPayload);
    var env3 := Tell(env2, StateMachineFinished(c.handle));
    match Invoke(env3, c.closeCb, OK, NoPayload)
    case None => Threw(c.(sendQueue := [], sentQueue := [], env := env3), [])
    case Some(env4) => Returned(SUCCESS, c.(sendQueue := [], sentQueue := [], closeCb := None, env := env4), [])
  }

  /**
   * StateConduitReadCancelled as written: give a waiting reader CANCELLED
   * and stay, without queueing the ALWAYS event its one declared way out
   * needs.
   */
  function ReadCancelled(c: ConduitCtx): (o: Outcome<ConduitCtx>)
    ensures o.Returned? && o.result == SUCCESS && o.pushed == []
    ensures o.data == c.(readCb := None, env := InvokeIfSet(c.env, c.readCb, CANCELLED, PBytes([])))
  {
    Returned(SUCCESS, CallReadCallback(c, CANCELLED, []).0, [])
  }

  /** StateConduitReadCancelled as intended: the same, then return to CONNECTED through ALWAYS. */
  function ReadCancelledResumes(c: ConduitCtx): (o: Outcome<ConduitCtx>)
    ensures o.Returned? && o.result == SUCCESS && o.pushed == [EVENT_ALWAYS]
    ensures o.data == c.(readCb := None, env := InvokeIfSet(c.env, c.readCb, CANCELLED, PBytes([])))
  {
    Returned(SUCCESS, CallReadCallback(c, CANCELLED, []).0, [EVENT_ALWAYS])
  }

  /**
   * StateConduitFailed: INTERNAL_ERROR to the dial callback if set, to every
   * queued and parked write, to a waiting reader and to a set close
   * callback; then report the machine failed.
   */
  function Failed(c: ConduitCtx): (o: Outcome<ConduitCtx>)
    ensures o.Returned? && o.result == SUCCESS && o.pushed == []
    ensures o.data == c.(dialCb := None, sendQueue := [], sentQueue := [], readCb := None, closeCb := None,
                         env := o.data.env)
    ensures o.data.env.requests == c.env.requests + [StateMachineFailed(c.handle)]
    ensures c.env.fired <= o.data.env.fired
    ensures |o.data.env.fired| == |c.env.fired| + |c.sendQueue| + |c.sentQueue|
                                  + (if c.dialCb.Some? then 1 else 0) + (if c.readCb.Some? then 1 else 0)
                                  + (if c.closeCb.Some? then 1 else 0)
    ensures forall i :: |c.env.fired| <= i < |o.data.env.fired| ==> o.data.env.fired[i].status == INTERNAL_ERROR
  {
    var env1 := InvokeIfSet(c.env, c.dialCb, INTERNAL_ERROR, PHandle(NULL_RACE_HANDLE));
    var env2 := InvokeAll(env1, WriteCbs(c.sendQueue), INTERNAL_ERROR, NoPayload);
    var env3 := InvokeAll(env2, ParkedCbs(c.sentQueue), INTERNAL_ERROR, NoPayload);
    var env4 := InvokeIfSet(env3, c.readCb, INTERNAL_ERROR, PBytes([]));
    var env5 := InvokeIfSet(env4, c.closeCb, INTERNAL_ERROR, NoPayload);
    var base := c.env.fired;
    InvokeIfSetFailsSince(c.env, c.dialCb, PHandle(NULL_RACE_HANDLE), base);
    InvokeAllFailsSince(env1, WriteCbs(c.sendQueue), NoPayload, base);
    InvokeAllFailsSince(env2, ParkedCbs(c.sentQueue), NoPayload, base);
    InvokeIfSetFailsSince(env3, c.readCb, PBytes([]), base);
    InvokeIfSetFailsSince(env4, c.closeCb, NoPayload, base);
    Returned(SUCCESS, c.(dialCb := None, sendQueue := [], sentQueue := [], readCb := None, closeCb := None,
                         env := Tell(env5, StateMachineFailed(c.handle))), [])
  }

  /** Every callback fired from index n on was given INTERNAL_ERROR. */
  ghost predicate FailedSince(env: Env, base: seq<Fired>) {
    base <= env.fired && forall i :: |base| <= i < |env.fired| ==> env.fired[i].status == INTERNAL_ERROR
  }

  lemma InvokeIfSetFailsSince(env: Env, cb: Option<Callback>, payload: Payload, base: seq<Fired>)
    requires FailedSince(env, base)
    ensures FailedSince(InvokeIfSet(env, cb, INTERNAL_ERROR, payload), base)
  {
  }

  lemma InvokeAllFailsSince(env: Env, cbs: seq<Callback>, payload: Payload, base: seq<Fired>)
    requires FailedSince(env, base)
    ensures FailedSince(InvokeAll(env, cbs, INTERNAL_ERROR, payload), base)
  {
    var r := InvokeAll(env, cbs, INTERNAL_ERROR, payload);
    assert base <= r.fired by {
      assert r.fired[..|env.fired|] == env.fired;
    }
    forall i | |base| <= i < |r.fired|
      ensures r.fired[i].status == INTERNAL_ERROR
    {
      if i < |env.fired| {
        assert r.fired[..|env.fired|][i] == env.fired[i];
      } else {
        assert r.fired[|env.fired| + (i - |env.fired|)] == Fired(cbs[i - |env.fired|], INTERNAL_ERROR, payload);
      }
    }
  }

  // ---------------------------------------------------------------------
  // The engine
  // ---------------------------------------------------------------------

  /** The registered states; `asWritten` picks the cancelled state's enter as the source has it. */
  function ConduitStates(w: World, asWritten: bool): map<StateType, StateDef<ConduitCtx>> {
    map[STATE_CONNECTION_OBJECT_INITIAL := PlainState((cur: StateType, c: ConduitCtx) => Initial(c)),
        STATE_CONNECTION_OBJECT_CONNECTED := PlainState((cur: StateType, c: ConduitCtx) => Connected(w, c)),
        STATE_CONNECTION_OBJECT_FINISHED := PlainState((cur: StateType, c: ConduitCtx) => Finished(c)),
        STATE_CONNECTION_OBJECT_CANCELLED :=
          if asWritten then PlainState((cur: StateType, c: ConduitCtx) => ReadCancelled(c))
          else PlainState((cur: StateType, c: ConduitCtx) => ReadCancelledResumes(c)),
        STATE_CONNECTION_OBJECT_FAILED := PlainState((cur: StateType, c: ConduitCtx) => Failed(c))]
  }

  /** The declarations of ConduitStateEngine's constructor, in order. */
  function ConduitDecls(): seq<Decl> {
    [Decl(STATE_CONNECTION_OBJECT_INITIAL, EVENT_ALWAYS, STATE_CONNECTION_OBJECT_CONNECTED),
     Decl(STATE_CONNECTION_OBJECT_CONNECTED, EVENT_CLOSE, STATE_CONNECTION_OBJECT_FINISHED),
     Decl(STATE_CONNECTION_OBJECT_CONNECTED, EVENT_CANCELLED, STATE_CONNECTION_OBJECT_CANCELLED),
     Decl(STATE_CONNECTION_OBJECT_CANCELLED, EVENT_ALWAYS, STATE_CONNECTION_OBJECT_CONNECTED),
     Decl(STATE_CONNECTION_OBJECT_CONNECTED, EVENT_READ, STATE_CONNECTION_OBJECT_CONNECTED),
     Decl(STATE_CONNECTION_OBJECT_CONNECTED, EVENT_WRITE, STATE_CONNECTION_OBJECT_CONNECTED),
     Decl(STATE_CONNECTION_OBJECT_CONNECTED, EVENT_RECEIVE_PACKAGE, STATE_CONNECTION_OBJECT_CONNECTED),
     Decl(STATE_CONNECTION_OBJECT_CONNECTED, EVENT_PACKAGE_SENT, STATE_CONNECTION_OBJECT_CONNECTED),
     Decl(STATE_CONNECTION_OBJECT_CONNECTED, EVENT_PACKAGE_FAILED, STATE_CONNECTION_OBJECT_CONNECTED)]
  }

  /** The events that make the connected state run again. */
  predicate Reenters(e: EventType) {
    e == EVENT_READ || e == EVENT_WRITE || e == EVENT_RECEIVE_PACKAGE || e == EVENT_PACKAGE_SENT
    || e == EVENT_PACKAGE_FAILED
  }

  /** The conduit lifecycle. */
  function ConduitNext(s: StateType, e: EventType): Option<StateType> {
    if s == STATE_CONNECTION_OBJECT_INITIAL && e == EVENT_ALWAYS then Some(STATE_CONNECTION_OBJECT_CONNECTED)
    else if s == STATE_CONNECTION_OBJECT_CONNECTED && e == EVENT_CLOSE then Some(STATE_CONNECTION_OBJECT_FINISHED)
    else if s == STATE_CONNECTION_OBJECT_CONNECTED && e == EVENT_CANCELLED then Some(STATE_CONNECTION_OBJECT_CANCELLED)
    else if s == STATE_CONNECTION_OBJECT_CANCELLED && e == EVENT_ALWAYS then Some(STATE_CONNECTION_OBJECT_CONNECTED)
    else if s == STATE_CONNECTION_OBJECT_CONNECTED && Reenters(e) then Some(STATE_CONNECTION_OBJECT_CONNECTED)
    else None
  }

  lemma ConduitDeclTargets(s: StateType, e: EventType)
    ensures DeclTargets(ConduitDecls(), s, e) == TargetSet(ConduitNext(s, e))
  {
  }

  /** The declared table is the conduit lifecycle. */
  lemma ConduitDeclsFollow()
    ensures Follows(DeclareAll(map[], ConduitDecls()), ConduitNext)
  {
    forall s, e
      ensures Declares(DeclareAll(map[], ConduitDecls()), s, e) <==> ConduitNext(s, e).Some?
      ensures Targets(DeclareAll(map[], ConduitDecls()), s, e) == TargetSet(ConduitNext(s, e))
    {
      ConduitDeclTargets(s, e);
      DeclaredTable(ConduitDecls(), s, e, ConduitNext(s, e));
    }
  }

  /** What ConduitStateEngine's constructor builds. */
  ghost predicate IsConduitTable(w: World, t: Table<ConduitCtx>, asWritten: bool) {
    && t.states == ConduitStates(w, asWritten)
    && Follows(t.transitions, ConduitNext)
    && t.initStateId == STATE_CONNECTION_OBJECT_INITIAL && t.failedStateId == STATE_CONNECTION_OBJECT_FAILED
  }

  /** ConduitStateEngine's constructor. */
  method NewConduitStateEngine(w: World, asWritten: bool) returns (e: StateEngine<ConduitCtx>)
    ensures IsConduitTable(w, e.Spec(), asWritten)
  {
    e := new StateEngine();
    e.AddInitialState(STATE_CONNECTION_OBJECT_INITIAL, PlainState((cur: StateType, c: ConduitCtx) => Initial(c)));
    e.AddState(STATE_CONNECTION_OBJECT_CONNECTED, PlainState((cur: StateType, c: ConduitCtx) => Connected(w, c)));
    e.AddState(STATE_CONNECTION_OBJECT_FINISHED, PlainState((cur: StateType, c: ConduitCtx) => Finished(c)));
    if asWritten {
      e.AddState(STATE_CONNECTION_OBJECT_CANCELLED, PlainState((cur: StateType, c: ConduitCtx) => ReadCancelled(c)));
    } else {
      e.AddState(STATE_CONNECTION_OBJECT_CANCELLED,
                 PlainState((cur: StateType, c: ConduitCtx) => ReadCancelledResumes(c)));
    }
    e.AddFailedState(STATE_CONNECTION_OBJECT_FAILED, PlainState((cur: StateType, c: ConduitCtx) => Failed(c)));
    e.DeclareTransitions(ConduitDecls());
    ConduitDeclsFollow();
  }

  // ---------------------------------------------------------------------
  // Properties
  // ---------------------------------------------------------------------

  /** Starting a conduit with both channels set and a plugin behind the send channel connects it. */
  lemma StartConnects(w: World, t: Table<ConduitCtx>, asWritten: bool, c: Config<ConduitCtx>, fuel: nat)
    requires IsConduitTable(w, t, asWritten)
    requires c.data.sendChannel != "" && c.data.recvChannel != "" && GetPlugin(w, c.data.sendChannel).None?
    requires fuel > 0
    ensures var r := StartSpec(t, c, fuel);
            && r.result == SUCCESS && r.config.currentStateId == STATE_CONNECTION_OBJECT_CONNECTED
            && r.handled == [EVENT_ALWAYS]
            && r.config.data == Connected(w, Initial(c.data).data).data
  {
    var c0 := c.(pendingEvents := []);
    assert t.states[STATE_CONNECTION_OBJECT_INITIAL].enter(c0.currentStateId, c0.data) == Initial(c.data);
    var d1 := Initial(c.data).data;
    var c1 := Config(STATE_CONNECTION_OBJECT_INITIAL, [EVENT_ALWAYS], d1);
    assert StartSpec(t, c, fuel) == Drain(t, c1, fuel);
    var c2 := c1.(pendingEvents := []);
    assert Targets(t.transitions, STATE_CONNECTION_OBJECT_INITIAL, EVENT_ALWAYS)
           == TargetSet(ConduitNext(STATE_CONNECTION_OBJECT_INITIAL, EVENT_ALWAYS));
    HandleOneMoves(t, c2, EVENT_ALWAYS, STATE_CONNECTION_OBJECT_CONNECTED);
    assert t.states[STATE_CONNECTION_OBJECT_INITIAL].exit(STATE_CONNECTION_OBJECT_INITIAL, d1)
           == Returned(SUCCESS, d1, []);
    assert t.states[STATE_CONNECTION_OBJECT_CONNECTED].enter(STATE_CONNECTION_OBJECT_INITIAL, d1) == Connected(w, d1);
    TransitionByEnter(t, c2, STATE_CONNECTION_OBJECT_CONNECTED);
    var (res, c3) := HandleOne(t, c2, EVENT_ALWAYS);
    assert res == SUCCESS;
    assert Drain(t, c1, fuel) == Prepend([EVENT_ALWAYS], Drain(t, c3, fuel - 1));
  }

  /** A read, write, package or package status runs the connected state once more and stays there. */
  lemma ConnectedReenters(w: World, t: Table<ConduitCtx>, asWritten: bool, c: Config<ConduitCtx>, e: EventType,
                          fuel: nat)
    requires IsConduitTable(w, t, asWritten)
    requires c.currentStateId == STATE_CONNECTION_OBJECT_CONNECTED && c.pendingEvents == [] && fuel > 0
    requires Reenters(e) && GetPlugin(w, c.data.sendChannel).None?
    ensures HandleEventSpec(t, c, e, fuel)
            == Drained(SUCCESS, Config(STATE_CONNECTION_OBJECT_CONNECTED, [], Connected(w, c.data).data), [e])
  {
    assert Targets(t.transitions, STATE_CONNECTION_OBJECT_CONNECTED, e)
           == TargetSet(ConduitNext(STATE_CONNECTION_OBJECT_CONNECTED, e));
    HandleOneMoves(t, c, e, STATE_CONNECTION_OBJECT_CONNECTED);
    assert t.states[STATE_CONNECTION_OBJECT_CONNECTED].exit(STATE_CONNECTION_OBJECT_CONNECTED, c.data)
           == Returned(SUCCESS, c.data, []);
    assert t.states[STATE_CONNECTION_OBJECT_CONNECTED].enter(STATE_CONNECTION_OBJECT_CONNECTED, c.data)
           == Connected(w, c.data);
    TransitionByEnter(t, c, STATE_CONNECTION_OBJECT_CONNECTED);
    var c1 := c.(pendingEvents := [e]);
    var (res, c2) := HandleOne(t, c, e);
    assert res == SUCCESS;
    assert Drain(t, c1, fuel) == Prepend([e], Drain(t, c2, fuel - 1));
  }

  /** A write on an idle conduit goes out on the sending connection as the package id followed by the data. */
  lemma WriteGoesOutPrefixed(w: World, c: ConduitCtx, data: Bytes, cb: Callback)
    requires c.sendQueue == [] && GetPlugin(w, c.sendChannel).None?
    ensures var o := Connected(w, Apply(c, UWrite(c.apiHandle, data, cb)));
            Sends(o.data.env.requests) == Sends(c.env.requests) + [StrToBytes(c.packageId) + data]
  {
    var c' := Apply(c, UWrite(c.apiHandle, data, cb));
    var c1 := ReadFront(c');
    SendWritesPayloads(w, c.handle, c1.env, c.sendChannel, c.sendConnId, StrToBytes(c.packageId), c1.sendQueue,
                       c1.sentQueue);
    assert Prefixed(StrToBytes(c.packageId), [Write(cb, data)]) == [StrToBytes(c.packageId) + data];
  }

  /**
   * A package status for a parked write resolves that write's callback,
   * OK for PACKAGE_SENT and INTERNAL_ERROR for any other status, and
   * unparks it; every other parked write stays.
   */
  lemma StatusResolvesParked(w: World, c: ConduitCtx, h: RaceHandle, status: PackageStatus)
    requires c.sendQueue == [] && c.sentList == [] && c.failedList == [] && c.recvQueue == []
    requires GetPlugin(w, c.sendChannel).None? && Lookup(c.sentQueue, h).Some?
    ensures var o := Connected(w, Apply(c, UPackageStatusChanged(h, status)));
            && o.data.env.fired
               == c.env.fired + [Fired(Lookup(c.sentQueue, h).value, if status == PACKAGE_SENT then OK else INTERNAL_ERROR,
                                       NoPayload)]
            && o.data.env.requests == c.env.requests
            && Lookup(o.data.sentQueue, h).None?
            && forall k :: k != h ==> Lookup(o.data.sentQueue, k) == Lookup(c.sentQueue, k)
  {
    var c' := Apply(c, UPackageStatusChanged(h, status));
    var cb := Lookup(c.sentQueue, h).value;
    var fired := Env(c.env.requests, c.env.fired + [Fired(cb, if status == PACKAGE_SENT then OK else INTERNAL_ERROR,
                                                            NoPayload)]);
    assert ReadFront(c') == c';
    assert SendWrites(w, c.handle, c.env, c.sendChannel, c.sendConnId, StrToBytes(c.packageId), [], c.sentQueue)
           == (c.env, c.sentQueue);
    assert [h][0] == h && [h][1..] == [];
    assert forall e: Env, q: seq<Parked>, st: ApiStatus :: Resolve(e, q, [], st) == (e, q);
    if status == PACKAGE_SENT {
      assert c'.sentList == [h] && c'.failedList == [];
      assert Resolve(c.env, c.sentQueue, [h], OK) == Resolve(fired, Erase(c.sentQueue, h), [], OK);
    } else {
      assert c'.sentList == [] && c'.failedList == [h];
      assert Resolve(c.env, c.sentQueue, [h], INTERNAL_ERROR)
             == Resolve(fired, Erase(c.sentQueue, h), [], INTERNAL_ERROR);
    }
  }

  /** As written, a cancelled read strands the conduit: the next read or write fails it. */
  lemma CancelStrandsConduit(w: World, t: Table<ConduitCtx>, c: Config<ConduitCtx>, e: EventType, fuel: nat)
    requires IsConduitTable(w, t, true)
    requires c.currentStateId == STATE_CONNECTION_OBJECT_CONNECTED && c.pendingEvents == [] && fuel > 0
    requires e == EVENT_READ || e == EVENT_WRITE
    ensures var r1 := HandleEventSpec(t, c, EVENT_CANCELLED, fuel);
            var r2 := HandleEventSpec(t, r1.config, e, fuel);
            && r1.result == SUCCESS && r1.config.currentStateId == STATE_CONNECTION_OBJECT_CANCELLED
            && r2.result == NOT_SUPPORTED && r2.config.currentStateId == STATE_CONNECTION_OBJECT_FAILED
  {
    assert Targets(t.transitions, STATE_CONNECTION_OBJECT_CONNECTED, EVENT_CANCELLED)
           == TargetSet(ConduitNext(STATE_CONNECTION_OBJECT_CONNECTED, EVENT_CANCELLED));
    HandleOneMoves(t, c, EVENT_CANCELLED, STATE_CONNECTION_OBJECT_CANCELLED);
    assert t.states[STATE_CONNECTION_OBJECT_CONNECTED].exit(STATE_CONNECTION_OBJECT_CONNECTED, c.data)
           == Returned(SUCCESS, c.data, []);
    assert t.states[STATE_CONNECTION_OBJECT_CANCELLED].enter(STATE_CONNECTION_OBJECT_CONNECTED, c.data)
           == ReadCancelled(c.data);
    TransitionByEnter(t, c, STATE_CONNECTION_OBJECT_CANCELLED);
    var c1 := c.(pendingEvents := [EVENT_CANCELLED]);
    var (res, c2) := HandleOne(t, c, EVENT_CANCELLED);
    assert res == SUCCESS && c2.pendingEvents == [];
    assert Drain(t, c1, fuel) == Prepend([EVENT_CANCELLED], Drain(t, c2, fuel - 1));
    assert !Declares(t.transitions, STATE_CONNECTION_OBJECT_CANCELLED, e);
  }

  /** With the cancelled state queueing ALWAYS, a cancelled read returns the conduit to CONNECTED. */
  lemma CancelResumesConduit(w: World, t: Table<ConduitCtx>, c: Config<ConduitCtx>, fuel: nat)
    requires IsConduitTable(w, t, false)
    requires c.currentStateId == STATE_CONNECTION_OBJECT_CONNECTED && c.pendingEvents == [] && fuel > 1
    requires GetPlugin(w, c.data.sendChannel).None?
    ensures var r := HandleEventSpec(t, c, EVENT_CANCELLED, fuel);
            && r.result == SUCCESS && r.config.currentStateId == STATE_CONNECTION_OBJECT_CONNECTED
            && r.handled == [EVENT_CANCELLED, EVENT_ALWAYS]
            && r.config.data == Connected(w, ReadCancelledResumes(c.data).data).data
  {
    assert Targets(t.transitions, STATE_CONNECTION_OBJECT_CONNECTED, EVENT_CANCELLED)
           == TargetSet(ConduitNext(STATE_CONNECTION_OBJECT_CONNECTED, EVENT_CANCELLED));
    HandleOneMoves(t, c, EVENT_CANCELLED, STATE_CONNECTION_OBJECT_CANCELLED);
    assert t.states[STATE_CONNECTION_OBJECT_CONNECTED].exit(STATE_CONNECTION_OBJECT_CONNECTED, c.data)
           == Returned(SUCCESS, c.data, []);
    assert t.states[STATE_CONNECTION_OBJECT_CANCELLED].enter(STATE_CONNECTION_OBJECT_CONNECTED, c.data)
           == ReadCancelledResumes(c.data);
    TransitionByEnter(t, c, STATE_CONNECTION_OBJECT_CANCELLED);
    var c1 := c.(pendingEvents := [EVENT_CANCELLED]);
    var (res, c2) := HandleOne(t, c, EVENT_CANCELLED);
    var d1 := ReadCancelledResumes(c.data).data;
    assert res == SUCCESS && c2 == Config(STATE_CONNECTION_OBJECT_CANCELLED, [EVENT_ALWAYS], d1);
    assert Drain(t, c1, fuel) == Prepend([EVENT_CANCELLED], Drain(t, c2, fuel - 1));
    var c3 := c2.(pendingEvents := []);
    assert Targets(t.transitions, STATE_CONNECTION_OBJECT_CANCELLED, EVENT_ALWAYS)
           == TargetSet(ConduitNext(STATE_CONNECTION_OBJECT_CANCELLED, EVENT_ALWAYS));
    HandleOneMoves(t, c3, EVENT_ALWAYS, STATE_CONNECTION_OBJECT_CONNECTED);
    assert t.states[STATE_CONNECTION_OBJECT_CANCELLED].exit(STATE_CONNECTION_OBJECT_CANCELLED, d1)
           == Returned(SUCCESS, d1, []);
    assert t.states[STATE_CONNECTION_OBJECT_CONNECTED].enter(STATE_CONNECTION_OBJECT_CANCELLED, d1)
           == Connected(w, d1);
    TransitionByEnter(t, c3, STATE_CONNECTION_OBJECT_CONNECTED);
    var (res2, c4) := HandleOne(t, c3, EVENT_ALWAYS);
    assert res2 == SUCCESS && c4.pendingEvents == [];
    assert Drain(t, c2, fuel - 1) == Prepend([EVENT_ALWAYS], Drain(t, c4, fuel - 2));
  }
}

=== FILE: config.dfy ===
// Plugin manifests (source/plugin-loading/Config.cpp): each installed
// plugin directory may hold a manifest.json naming its plugins, the
// channels' properties, compositions and channel parameters.

module PluginConfig {
  import opened Common
  import opened JsonAccess
  import opened PluginDefs
  import opened Compositions
  import CoreModel
  import PluginFiles

  datatype ValueType = STRING | INTEGER | BOOLEAN

  /** A parameter a plugin accepts, with its default value already printed as text. */
  datatype ChannelParameter = ChannelParameter(
    key: string,
    plugin: string,
    required: bool,
    valueType: ValueType,
    defaultValue: string)

  /** The "type" names a manifest may use; anything else is refused. */
  function ValueTypeOf(name: string): (r: Result<ValueType, JsonError>)
    ensures r == Success(STRING) <==> name == "string"
    ensures r == Success(INTEGER) <==> name == "int"
    ensures r == Success(BOOLEAN) <==> name == "bool"
    ensures r.Failure? <==> name !in {"string", "int", "bool"}
    ensures r.Failure? ==> r.error.InvalidArgument?
  {
    if name == "string" then Success(STRING)
    else if name == "int" then Success(INTEGER)
    else if name == "bool" then Success(BOOLEAN)
    else Failure(InvalidArgument("invalid 'type' " + name + ". Supported types: [string, int, bool]"))
  }

  /** std::to_string of a bool (promoted to int): "1" or "0". */
  function BoolText(b: bool): string {
    if b then "1" else "0"
  }

  /** The "default" value stored as text according to the parameter's type. */
  function DefaultText(t: ValueType, j: Json): (r: Result<string, JsonError>)
    ensures t == STRING ==> r == AsString(j)
    ensures t == INTEGER ==> (r.Success? <==> j.JNumber? || j.JBool?)
    ensures t == INTEGER && j.JNumber? ==> r == Success(CoreModel.IntToString(j.n))
    ensures t == BOOLEAN ==> (r.Success? <==> j.JBool?)
    ensures t == BOOLEAN && j.JBool? ==> r == Success(BoolText(j.b))
  {
    match t
    case STRING => AsString(j)
    case INTEGER =>
      var n :- AsInt(j);
      Success(CoreModel.IntToString(n))
    case BOOLEAN =>
      var b :- AsBool(j);
      Success(BoolText(b))
  }

  /**
   * from_json(json, ChannelParameter): "key" is mandatory; "plugin",
   * "required" and "type" default to "", true and "string"; a "default"
   * that is present is printed according to the type.
   */
  function ChannelParameterFromJson(j: Json): (r: Result<ChannelParameter, JsonError>)
    ensures j.JObject? && "key" !in j.fields ==> r == Failure(OutOfRange("key"))
    ensures r.Success? ==> j.JObject? && "key" in j.fields && j.fields["key"] == JString(r.value.key)
  {
    var k :- At(j, "key");
    var key :- AsString(k);
    var plugin :- ValueString(j, "plugin", "");
    var required :- ValueBool(j, "required", true);
    var typeName :- ValueString(j, "type", "string");
    var valueType :- ValueTypeOf(typeName);
    var defaultValue :- if Contains(j, "default") then DefaultText(valueType, j.fields["default"]) else Success("");
    Success(ChannelParameter(key, plugin, required, valueType, defaultValue))
  }

  /** A parameter object naming only its key reads with every default. */
  lemma ChannelParameterDefaults(key: string)
    ensures ChannelParameterFromJson(JObject(map["key" := JString(key)]))
      == Success(ChannelParameter(key, "", true, STRING, ""))
  {
  }

  /** The parameter type follows the "type" text exactly; an unknown type refuses the parameter. */
  lemma ChannelParameterType(j: Json, name: string)
    requires j.JObject? && "key" in j.fields && j.fields["key"].JString?
    requires "plugin" !in j.fields && "required" !in j.fields && "default" !in j.fields
    requires "type" in j.fields && j.fields["type"] == JString(name)
    ensures ChannelParameterFromJson(j).Success? <==> name in {"string", "int", "bool"}
    ensures ChannelParameterFromJson(j).Success? ==>
      ChannelParameterFromJson(j).value.valueType == ValueTypeOf(name).value
  {
  }

  /** A bool default is stored as "1" or "0", an int default as its decimal text. */
  lemma DefaultValueText(key: string, d: Json)
    ensures d.JBool? ==>
      var j := JObject(map["key" := JString(key), "type" := JString("bool"), "default" := d]);
      ChannelParameterFromJson(j) == Success(ChannelParameter(key, "", true, BOOLEAN, BoolText(d.b)))
    ensures d.JNumber? ==>
      var j := JObject(map["key" := JString(key), "type" := JString("int"), "default" := d]);
      ChannelParameterFromJson(j) == Success(ChannelParameter(key, "", true, INTEGER, CoreModel.IntToString(d.n)))
  {
    var jb := JObject(map["key" := JString(key), "type" := JString("bool"), "default" := d]);
    var ji := JObject(map["key" := JString(key), "type" := JString("int"), "default" := d]);
    assert Contains(jb, "default") && Contains(ji, "default");
  }

  /** Distinct int defaults print differently, so the text keeps the value. */
  lemma IntDefaultsKeepValue(m: int, n: int)
    requires DefaultText(INTEGER, JNumber(m)) == DefaultText(INTEGER, JNumber(n))
    ensures m == n
  {
    CoreModel.IntToStringInjective(m, n);
  }

  datatype PluginManifest = PluginManifest(
    plugins: seq<PluginDef>,
    channelProperties: map<string, Json>,
    compositions: seq<Composition>,
    channelParameters: seq<ChannelParameter>)

  /** get<std::vector<PluginDef>>(): every item read; the first failure wins. */
  function PluginDefsFromJson(items: seq<Json>): (r: Result<seq<PluginDef>, JsonError>)
    ensures r.Success? ==> |r.value| == |items|
    ensures r.Success? ==> forall i :: 0 <= i < |items| ==> PluginDefs.FromJson(items[i]) == Success(r.value[i])
    decreases |items|
  {
    if items == [] then Success([])
    else
      var d :- PluginDefs.FromJson(items[0]);
      var rest :- PluginDefsFromJson(items[1..]);
      Success([d] + rest)
  }

  /** get<std::vector<Composition>>(). */
  function CompositionsFromJson(items: seq<Json>): (r: Result<seq<Composition>, JsonError>)
    ensures r.Success? ==> |r.value| == |items|
    ensures r.Success? ==> forall i :: 0 <= i < |items| ==> Compositions.FromJson(items[i]) == Success(r.value[i])
    decreases |items|
  {
    if items == [] then Success([])
    else
      var c :- Compositions.FromJson(items[0]);
      var rest :- CompositionsFromJson(items[1..]);
      Success([c] + rest)
  }

  /** get<std::vector<ChannelParameter>>(). */
  function ChannelParametersFromJson(items: seq<Json>): (r: Result<seq<ChannelParameter>, JsonError>)
    ensures r.Success? ==> |r.value| == |items|
    ensures r.Success? ==> forall i :: 0 <= i < |items| ==> ChannelParameterFromJson(items[i]) == Success(r.value[i])
    decreases |items|
  {
    if items == [] then Success([])
    else
      var p :- ChannelParameterFromJson(items[0]);
      var rest :- ChannelParametersFromJson(items[1..]);
      Success([p] + rest)
  }

  /** An array's items, or a type error. */
  function Items(j: Json): (r: Result<seq<Json>, JsonError>)
    ensures r.Success? <==> j.JArray?
  {
    if j.JArray? then Success(j.items) else Failure(TypeError)
  }

  /** The optional list under `key`: empty when absent, otherwise the array's items. */
  function OptionalItems(j: Json, key: string): (r: Result<seq<Json>, JsonError>)
    requires j.JObject?
    ensures key !in j.fields ==> r == Success([])
  {
    if key !in j.fields then Success([]) else Items(j.fields[key])
  }

  /** The ids a channel parameter may name: "" (no plugin), a plugin file_path or a composition id. */
  function KnownIds(plugins: seq<PluginDef>, compositions: seq<Composition>): (ids: set<string>)
    ensures "" in ids
    ensures forall i :: 0 <= i < |plugins| ==> plugins[i].filePath in ids
    ensures forall i :: 0 <= i < |compositions| ==> compositions[i].id in ids
    ensures forall s :: s in ids ==>
      s == "" || (exists i :: 0 <= i < |plugins| && plugins[i].filePath == s)
              || (exists i :: 0 <= i < |compositions| && compositions[i].id == s)
  {
    {""} + (set i | 0 <= i < |plugins| :: plugins[i].filePath)
      + (set i | 0 <= i < |compositions| :: compositions[i].id)
  }

  /** The first parameter whose plugin is unknown, if any. */
  function FirstUnknownPlugin(params: seq<ChannelParameter>, ids: set<string>): (r: Option<nat>)
    ensures r.None? <==> forall i :: 0 <= i < |params| ==> params[i].plugin in ids
    ensures r.Some? ==> r.value < |params| && params[r.value].plugin !in ids
    ensures r.Some? ==> forall i :: 0 <= i < r.value ==> params[i].plugin in ids
    decreases |params|
  {
    if params == [] then None
    else if params[0].plugin !in ids then Some(0)
    else match FirstUnknownPlugin(params[1..], ids)
      case None => None
      case Some(k) => Some(k + 1)
  }

  /**
   * from_json(json, PluginManifest): plugins and channel_properties are
   * required, compositions and channel_parameters optional; then every
   * parameter's plugin must be a known id.
   */
  function ManifestFromJson(j: Json): (r: Result<PluginManifest, JsonError>)
    ensures r.Success? ==> forall i :: 0 <= i < |r.value.channelParameters| ==>
      r.value.channelParameters[i].plugin in KnownIds(r.value.plugins, r.value.compositions)
    ensures r.Success? ==> j.JObject? && "plugins" in j.fields && "channel_properties" in j.fields
    ensures r.Success? && "compositions" !in j.fields ==> r.value.compositions == []
    ensures r.Success? && "channel_parameters" !in j.fields ==> r.value.channelParameters == []
  {
    var p :- At(j, "plugins");
    var pluginItems :- Items(p);
    var plugins :- PluginDefsFromJson(pluginItems);
    var cp :- At(j, "channel_properties");
    var channelProperties :- if cp.JObject? then Success(cp.fields) else Failure(TypeError);
    var compositionItems :- OptionalItems(j, "compositions");
    var compositions :- CompositionsFromJson(compositionItems);
    var paramItems :- OptionalItems(j, "channel_parameters");
    var params :- ChannelParametersFromJson(paramItems);
    var ids := KnownIds(plugins, compositions);
    match FirstUnknownPlugin(params, ids)
    case Some(k) =>
      Failure(InvalidArgument("no corresponding plugins.file_path in channel_parameters.plugin " + params[k].plugin))
    case None => Success(PluginManifest(plugins, channelProperties, compositions, params))
  }

  /** A manifest whose parameters all read but one names an unknown plugin is refused. */
  lemma UnknownPluginRefused(j: Json, i: nat)
    requires j.JObject? && "plugins" in j.fields && j.fields["plugins"].JArray?
    requires PluginDefsFromJson(j.fields["plugins"].items).Success?
    requires "channel_properties" in j.fields && j.fields["channel_properties"].JObject?
    requires "compositions" !in j.fields
    requires "channel_parameters" in j.fields && j.fields["channel_parameters"].JArray?
    requires ChannelParametersFromJson(j.fields["channel_parameters"].items).Success?
    requires var params := ChannelParametersFromJson(j.fields["channel_parameters"].items).value;
      i < |params| && params[i].plugin != "" &&
      forall d :: d in PluginDefsFromJson(j.fields["plugins"].items).value ==> d.filePath != params[i].plugin
    ensures ManifestFromJson(j).Failure? && ManifestFromJson(j).error.InvalidArgument?
  {
    var plugins := PluginDefsFromJson(j.fields["plugins"].items).value;
    var params := ChannelParametersFromJson(j.fields["channel_parameters"].items).value;
    var ids := KnownIds(plugins, []);
  }

  /** A manifest.json read from an installed plugin directory: None when missing or not JSON. */
  type ManifestReader = PluginFiles.Path -> Option<Json>

  /** The last element of a path: its file name. */
  function FileName(p: PluginFiles.Path): (name: string)
    ensures '/' !in name
    decreases |p|
  {
    if p == [] then ""
    else if p[|p| - 1] == '/' then ""
    else FileName(p[..|p| - 1]) + [p[|p| - 1]]
  }

  /** Where a plugin directory's manifest is looked for. */
  function ManifestPath(root: PluginFiles.Path, host: PluginFiles.Host, pluginDir: PluginFiles.Path): PluginFiles.Path {
    PluginFiles.MakePluginInstallPath(root, host, "manifest.json", FileName(pluginDir))
  }

  /** The manifest a plugin directory yields, if its file exists, parses and converts. */
  function ManifestOf(root: PluginFiles.Path, host: PluginFiles.Host, read: ManifestReader, pluginDir: PluginFiles.Path): Option<PluginManifest> {
    match read(ManifestPath(root, host, pluginDir))
    case None => None
    case Some(j) =>
      match ManifestFromJson(j)
      case Success(m) => Some(m)
      case Failure(_) => None
  }

  /** The values present in a sequence of options, in order. */
  function Somes<T>(xs: seq<Option<T>>): (r: seq<T>)
    ensures |r| <= |xs|
    decreases |xs|
  {
    if xs == [] then []
    else match xs[|xs| - 1]
      case Some(v) => Somes(xs[..|xs| - 1]) + [v]
      case None => Somes(xs[..|xs| - 1])
  }

  /** No value is present exactly when every option is None. */
  lemma {:induction false} SomesEmptyIffAllNone<T>(xs: seq<Option<T>>)
    ensures Somes(xs) == [] <==> forall i :: 0 <= i < |xs| ==> xs[i].None?
    decreases |xs|
  {
    if xs != [] {
      var init := xs[..|xs| - 1];
      SomesEmptyIffAllNone(init);
      assert forall i :: 0 <= i < |init| ==> init[i] == xs[i];
    }
  }

  /** What each directory yields. */
  function Yields(root: PluginFiles.Path, host: PluginFiles.Host, read: ManifestReader, dirs: seq<PluginFiles.Path>): (ys: seq<Option<PluginManifest>>)
    ensures |ys| == |dirs|
    ensures forall i :: 0 <= i < |dirs| ==> ys[i] == ManifestOf(root, host, read, dirs[i])
  {
    seq(|dirs|, i requires 0 <= i < |dirs| => ManifestOf(root, host, read, dirs[i]))
  }

  /** The manifests of the directories in order, skipping those that yield none. */
  function Parsed(root: PluginFiles.Path, host: PluginFiles.Host, read: ManifestReader, dirs: seq<PluginFiles.Path>): seq<PluginManifest> {
    Somes(Yields(root, host, read, dirs))
  }

  /** Nothing parses exactly when no directory yields a manifest. */
  lemma ParsedEmptyIffNoneYields(root: PluginFiles.Path, host: PluginFiles.Host, read: ManifestReader, dirs: seq<PluginFiles.Path>)
    ensures Parsed(root, host, read, dirs) == [] <==>
      forall i :: 0 <= i < |dirs| ==> ManifestOf(root, host, read, dirs[i]).None?
  {
    SomesEmptyIffAllNone(Yields(root, host, read, dirs));
  }

  /** One more directory adds its manifest, if it yields one, at the end. */
  lemma ParsedStep(root: PluginFiles.Path, host: PluginFiles.Host, read: ManifestReader, dirs: seq<PluginFiles.Path>, i: nat)
    requires i < |dirs|
    ensures Parsed(root, host, read, dirs[..i + 1]) ==
      Parsed(root, host, read, dirs[..i]) + OptionToSeq(ManifestOf(root, host, read, dirs[i]))
  {
    var ys := Yields(root, host, read, dirs[..i + 1]);
    assert ys[..i] == Yields(root, host, read, dirs[..i]);
  }

  function OptionToSeq<T>(o: Option<T>): seq<T> {
    if o.Some? then [o.value] else []
  }

  /** The manifests the library has read. */
  class Config {
    var manifests: seq<PluginManifest>

    constructor()
      ensures manifests == []
    {
      manifests := [];
    }

    /**
     * parsePluginManifests: reads each installed plugin directory's
     * manifest, keeping those that convert and skipping the rest; succeeds
     * when at least one was read.
     */
    method ParsePluginManifests(root: PluginFiles.Path, host: PluginFiles.Host, read: ManifestReader,
                                pluginDirs: seq<PluginFiles.Path>) returns (success: bool)
      modifies this
      ensures manifests == old(manifests) + Parsed(root, host, read, pluginDirs)
      ensures success <==> exists i :: 0 <= i < |pluginDirs| && ManifestOf(root, host, read, pluginDirs[i]).Some?
    {
      success := false;
      var i := 0;
      while i < |pluginDirs|
        invariant 0 <= i <= |pluginDirs|
        invariant manifests == old(manifests) + Parsed(root, host, read, pluginDirs[..i])
        invariant success <==> Parsed(root, host, read, pluginDirs[..i]) != []
      {
        ParsedStep(root, host, read, pluginDirs, i);
        var path := ManifestPath(root, host, pluginDirs[i]);
        match read(path) {
          case None =>
          case Some(json) =>
            match ManifestFromJson(json) {
              case Success(m) =>
                manifests := manifests + [m];
                success := true;
              case Failure(_) =>
            }
        }
        i := i + 1;
      }
      assert pluginDirs[..|pluginDirs|] == pluginDirs;
      ParsedEmptyIffNoneYields(root, host, read, pluginDirs);
    }
  }
}

=== FILE: conn.dfy ===
// The connection state machine (source/state-machine/ConnectionStateMachine.cpp):
// activates a channel, creates or loads a link on it, opens a connection,
// then stays connected while other machines depend on it, and closes the
// connection and destroys the link once the last dependent has gone.

module ConnMachine {
  import opened Common
  import opened Engine
  import opened ApiContext

  const STATE_CONN_INITIAL: StateType := 3
  const STATE_CONN_ACTIVATED: StateType := 4
  const STATE_CONN_LINK_ESTABLISHED: StateType := 5
  const STATE_CONN_CONNECTION_OPEN: StateType := 6
  const STATE_CONN_CONNECTED: StateType := 7
  const STATE_CONN_CLOSING: StateType := 8
  const STATE_CONN_CONNECTION_CLOSED: StateType := 9
  const STATE_CONN_LINK_CLOSED: StateType := 10
  const STATE_CONN_FAILED: StateType := 11

  /** ApiConnContext. */
  datatype ConnCtx = ConnCtx(
    handle: RaceHandle,
    dependents: set<RaceHandle>,
    newestDependent: RaceHandle,
    detachedDependent: RaceHandle,
    send: bool,
    channelId: ChannelId,
    channelRole: string,
    linkAddress: LinkAddress,
    updatedLinkAddress: LinkAddress,
    linkId: LinkId,
    connId: ConnectionId,
    env: Env)

  // ---------------------------------------------------------------------
  // Context updates
  // ---------------------------------------------------------------------

  /** updateDependent: h becomes a dependent and the newest one; no detach is pending. */
  function UpdateDependent(c: ConnCtx, h: RaceHandle): (r: ConnCtx)
    ensures h in r.dependents && r.dependents - {h} == c.dependents - {h}
    ensures r.newestDependent == h && r.detachedDependent == NULL_RACE_HANDLE
    ensures r.(dependents := c.dependents, newestDependent := c.newestDependent,
               detachedDependent := c.detachedDependent) == c
  {
    c.(dependents := c.dependents + {h}, newestDependent := h, detachedDependent := NULL_RACE_HANDLE)
  }

  /** updateDetach: h is no longer a dependent; it is recorded as the detached one. */
  function UpdateDetach(c: ConnCtx, h: RaceHandle): (r: ConnCtx)
    ensures h !in r.dependents && r.dependents + {h} >= c.dependents && r.dependents <= c.dependents
    ensures r.newestDependent == NULL_RACE_HANDLE && r.detachedDependent == h
    ensures r.(dependents := c.dependents, newestDependent := c.newestDependent,
               detachedDependent := c.detachedDependent) == c
  {
    c.(dependents := c.dependents - {h}, newestDependent := NULL_RACE_HANDLE, detachedDependent := h)
  }

  /** A dependent that finished or failed is no longer a dependent. */
  function DropDependent(c: ConnCtx, h: RaceHandle): (r: ConnCtx)
    ensures h !in r.dependents && r.dependents + {h} >= c.dependents && r.dependents <= c.dependents
    ensures r.(dependents := c.dependents) == c
  {
    c.(dependents := c.dependents - {h})
  }

  /** The hooks ApiConnContext overrides; every other update leaves the context as it is. */
  function Apply(c: ConnCtx, u: Update): (r: ConnCtx)
    ensures (!u.UConnStateMachineStart? && !u.ULinkStatusChanged? && !u.UConnectionStatusChanged?
             && !u.UDependent? && !u.UDetach? && !u.UStateMachineFinished? && !u.UStateMachineFailed?) ==> r == c
    ensures r.handle == c.handle && r.env == c.env
  {
    match u
    case UConnStateMachineStart(h, channel, role, address, _, sending) =>
      c.(dependents := c.dependents + {h}, newestDependent := h, channelId := channel,
         channelRole := role, linkAddress := address, send := sending)
    case ULinkStatusChanged(_, linkId, _, address) => c.(linkId := linkId, updatedLinkAddress := address)
    case UConnectionStatusChanged(_, connId, _) => c.(connId := connId)
    case UDependent(h) => UpdateDependent(c, h)
    case UDetach(h) => UpdateDetach(c, h)
    case UStateMachineFinished(h) => DropDependent(c, h)
    case UStateMachineFailed(h) => DropDependent(c, h)
    case _ => c
  }

  // ---------------------------------------------------------------------
  // States
  // ---------------------------------------------------------------------

  /**
   * StateConnInitial: listen to the parent, activate the channel; only OK
   * and ALREADY_ACTIVATED let it continue.
   */
  function Initial(w: World, c: ConnCtx): (o: Outcome<ConnCtx>)
    ensures o.Returned? && o.pushed == []
    ensures var activation := w.answer(|c.env.requests| + 2).activation;
            o.result == SUCCESS <==> activation == OK_ACTIVATED || activation == ALREADY_ACTIVATED
    ensures |o.data.env.requests| > |c.env.requests| && o.data.env.requests[..|c.env.requests|] == c.env.requests
    ensures o.data.env.requests[|c.env.requests|] == RegisterHandle(c.handle, c.newestDependent)
  {
    var env1 := Tell(c.env, RegisterHandle(c.handle, c.newestDependent));
    var (env2, a) := Ask(w, env1, GenerateHandle);
    var chanHandle := a.handle;
    var (env3, b) := Ask(w, env2, ActivateChannel(c.handle, chanHandle, c.channelId, c.channelRole));
    if b.activation != OK_ACTIVATED && b.activation != ALREADY_ACTIVATED then
      Returned(NOT_SUPPORTED, c.(env := env3), [])
    else
      var env4 := Tell(Tell(env3, RegisterHandle(c.handle, chanHandle)), RegisterId(c.handle, c.channelId));
      Returned(SUCCESS, c.(env := env4), [])
  }

  /**
   * The plugin call that makes the link: load the given address when
   * sending, create a link when receiving without an address, create one
   * at the given address otherwise. Sending without an address has none.
   */
  function LinkCall(c: ConnCtx, linkHandle: RaceHandle): (r: Option<Request>)
    ensures c.send && c.linkAddress == "" ==> r.None?
    ensures c.send && c.linkAddress != "" ==> r == Some(LoadLinkAddress(c.channelId, linkHandle, c.linkAddress))
    ensures !c.send && c.linkAddress == "" ==> r == Some(CreateLink(c.channelId, linkHandle))
    ensures !c.send && c.linkAddress != "" ==> r == Some(CreateLinkFromAddress(c.channelId, linkHandle, c.linkAddress))
  {
    if c.send && c.linkAddress == "" then None
    else if c.send then Some(LoadLinkAddress(c.channelId, linkHandle, c.linkAddress))
    else if c.linkAddress == "" then Some(CreateLink(c.channelId, linkHandle))
    else Some(CreateLinkFromAddress(c.channelId, linkHandle, c.linkAddress))
  }

  /** StateConnActivated: make the link the context asks for. */
  function Activated(w: World, c: ConnCtx): (o: Outcome<ConnCtx>)
    ensures o.Threw? <==> GetPlugin(w, c.channelId).Some? || (c.send && c.linkAddress == "")
    ensures o.Returned? ==>
              |o.data.env.requests| > |c.env.requests| + 1
              && Some(o.data.env.requests[|c.env.requests| + 1])
                 == LinkCall(c, w.answer(|c.env.requests|).handle)
              && (o.result == SUCCESS <==> w.answer(|c.env.requests| + 1).ok)
    ensures o.pushed == []
  {
    var (env1, a) := Ask(w, c.env, GenerateHandle);
    var linkHandle := a.handle;
    if GetPlugin(w, c.channelId).Some? then Threw(c.(env := env1), [])
    else
      match LinkCall(c, linkHandle)
      case None => Threw(c.(env := env1), [])
      case Some(call) =>
        var (env2, b) := Ask(w, env1, call);
        if !b.ok then Returned(NOT_SUPPORTED, c.(env := env2), [])
        else Returned(SUCCESS, c.(env := Tell(env2, RegisterHandle(c.handle, linkHandle))), [])
  }

  /**
   * A receiving connection given an address must get that address back:
   * the reported one must be equal to it as text or as parsed JSON; either
   * failing to parse throws.
   */
  function AddressCheck(w: World, c: ConnCtx): (r: Option<bool>)
    ensures c.send || c.linkAddress == "" || c.updatedLinkAddress == c.linkAddress ==> r == Some(true)
    ensures !c.send && c.linkAddress != "" && c.updatedLinkAddress != c.linkAddress ==>
              (r.None? <==> w.codecs.parse(c.updatedLinkAddress).None? || w.codecs.parse(c.linkAddress).None?)
              && (r.Some? ==> (r.value <==> w.codecs.parse(c.updatedLinkAddress) == w.codecs.parse(c.linkAddress)))
  {
    if !c.send && c.linkAddress != "" && c.updatedLinkAddress != c.linkAddress then
      match (w.codecs.parse(c.updatedLinkAddress), w.codecs.parse(c.linkAddress))
      case (Some(updated), Some(original)) => Some(updated == original)
      case _ => None
    else
      Some(true)
  }

  /** The link type of the connection: LT_SEND when sending, LT_RECV otherwise. */
  function ConnLinkType(c: ConnCtx): (t: LinkType)
    ensures t == LT_SEND <==> c.send
    ensures t == LT_RECV <==> !c.send
  {
    if c.send then LT_SEND else LT_RECV
  }

  /** StateConnLinkEstablished: check the address, open the connection. */
  function LinkEstablished(w: World, c: ConnCtx): (o: Outcome<ConnCtx>)
    ensures o.Threw? <==> GetPlugin(w, c.channelId).Some? || AddressCheck(w, c).None?
    ensures AddressCheck(w, c) == Some(false) && GetPlugin(w, c.channelId).None? ==>
              o.Returned? && o.result == NOT_SUPPORTED
    ensures o.Returned? && o.result == SUCCESS ==>
              AddressCheck(w, c) == Some(true)
              && OpenConnection(c.channelId, w.answer(|c.env.requests|).handle, ConnLinkType(c), c.linkId)
                 in o.data.env.requests
    ensures o.pushed == []
  {
    if GetPlugin(w, c.channelId).Some? then Threw(c, [])
    else
      var (env1, a) := Ask(w, c.env, GenerateHandle);
      var openHandle := a.handle;
      var env2 := Tell(env1, RegisterId(c.handle, c.linkId));
      match AddressCheck(w, c)
      case None => Threw(c.(env := env2), [])
      case Some(false) => Returned(NOT_SUPPORTED, c.(env := env2), [])
      case Some(true) =>
        var (env3, b) := Ask(w, env2, OpenConnection(c.channelId, openHandle, ConnLinkType(c), c.linkId));
        assert env3.requests[|env3.requests| - 1] == OpenConnection(c.channelId, openHandle, ConnLinkType(c), c.linkId);
        if !b.ok then Returned(NOT_SUPPORTED, c.(env := env3), [])
        else Returned(SUCCESS, c.(env := Tell(env3, RegisterHandle(c.handle, openHandle))), [])
  }

  /** StateConnConnectionOpen: tell the manager, then always move on. */
  function ConnectionOpen(c: ConnCtx): (o: Outcome<ConnCtx>)
    ensures o.Returned? && o.result == SUCCESS && o.pushed == [EVENT_ALWAYS]
    ensures o.data.env.requests == c.env.requests + [RegisterId(c.handle, c.connId),
              ConnStateMachineConnected(c.handle, c.connId, c.updatedLinkAddress)]
  {
    var env := Tell(Tell(c.env, RegisterId(c.handle, c.connId)),
                    ConnStateMachineConnected(c.handle, c.connId, c.updatedLinkAddress));
    Returned(SUCCESS, c.(env := env), [EVENT_ALWAYS])
  }

  /**
   * StateConnConnected: listen to a new dependent, stop listening to a
   * detached one, and close once nobody depends on the connection.
   */
  function Connected(c: ConnCtx): (o: Outcome<ConnCtx>)
    ensures o.Returned? && o.result == SUCCESS
    ensures o.pushed == (if c.dependents == {} then [EVENT_CONN_CLOSE] else [])
    ensures o.data.newestDependent == NULL_RACE_HANDLE && o.data.detachedDependent == NULL_RACE_HANDLE
    ensures o.data.dependents == c.dependents
    ensures o.data.env.requests == c.env.requests
              + (if c.newestDependent != NULL_RACE_HANDLE then [RegisterHandle(c.handle, c.newestDependent)] else [])
              + (if c.detachedDependent != NULL_RACE_HANDLE then [UnregisterHandle(c.handle, c.detachedDependent)] else [])
  {
    var env1 := if c.newestDependent != NULL_RACE_HANDLE then Tell(c.env, RegisterHandle(c.handle, c.newestDependent)) else c.env;
    var env2 := if c.detachedDependent != NULL_RACE_HANDLE then Tell(env1, UnregisterHandle(c.handle, c.detachedDependent)) else env1;
    var pushed := if c.dependents == {} then [EVENT_CONN_CLOSE] else [];
    Returned(SUCCESS, c.(newestDependent := NULL_RACE_HANDLE, detachedDependent := NULL_RACE_HANDLE, env := env2), pushed)
  }

  /** StateConnClosing: re-entering from itself does nothing; otherwise close the connection. */
  function Closing(w: World, current: StateType, c: ConnCtx): (o: Outcome<ConnCtx>)
    ensures current == STATE_CONN_CLOSING ==> o == Returned(SUCCESS, c, [])
    ensures current != STATE_CONN_CLOSING && o.Returned? && o.result == SUCCESS ==>
              CloseConnection(c.channelId, w.answer(|c.env.requests|).handle, c.connId) in o.data.env.requests
  {
    if current == STATE_CONN_CLOSING then Returned(SUCCESS, c, [])
    else if GetPlugin(w, c.channelId).Some? then Threw(c, [])
    else
      var (env1, a) := Ask(w, c.env, GenerateHandle);
      var (env2, b) := Ask(w, env1, CloseConnection(c.channelId, a.handle, c.connId));
      assert env2.requests[|env2.requests| - 1] == CloseConnection(c.channelId, a.handle, c.connId);
      if !b.ok then Returned(NOT_SUPPORTED, c.(env := env2), [])
      else Returned(SUCCESS, c.(env := Tell(env2, RegisterHandle(c.handle, a.handle))), [])
  }

  /** StateConnConnectionClosed: destroy the link. */
  function ConnectionClosed(w: World, c: ConnCtx): (o: Outcome<ConnCtx>)
    ensures o.Returned? && o.result == SUCCESS ==>
              DestroyLink(c.channelId, w.answer(|c.env.requests|).handle, c.linkId) in o.data.env.requests
    ensures o.Returned? ==> (o.result == SUCCESS <==> w.answer(|c.env.requests| + 1).ok)
  {
    if GetPlugin(w, c.channelId).Some? then Threw(c, [])
    else
      var (env1, a) := Ask(w, c.env, GenerateHandle);
      var (env2, b) := Ask(w, env1, DestroyLink(c.channelId, a.handle, c.linkId));
      assert env2.requests[|env2.requests| - 1] == DestroyLink(c.channelId, a.handle, c.linkId);
      if !b.ok then Returned(NOT_SUPPORTED, c.(env := env2), [])
      else Returned(SUCCESS, c.(env := Tell(env2, RegisterHandle(c.handle, a.handle))), [])
  }

  function LinkClosed(c: ConnCtx): (o: Outcome<ConnCtx>)
    ensures o == Returned(SUCCESS, c.(env := Tell(c.env, StateMachineFinished(c.handle))), [])
  {
    Returned(SUCCESS, c.(env := Tell(c.env, StateMachineFinished(c.handle))), [])
  }

  function Failed(c: ConnCtx): (o: Outcome<ConnCtx>)
    ensures o == Returned(SUCCESS, c.(env := Tell(c.env, StateMachineFailed(c.handle))), [])
  {
    Returned(SUCCESS, c.(env := Tell(c.env, StateMachineFailed(c.handle))), [])
  }

  // ---------------------------------------------------------------------
  // The engine
  // ---------------------------------------------------------------------

  function InitialState(w: World): StateDef<ConnCtx> { PlainState((cur: StateType, c: ConnCtx) => Initial(w, c)) }
  function ActivatedState(w: World): StateDef<ConnCtx> { PlainState((cur: StateType, c: ConnCtx) => Activated(w, c)) }
  function LinkEstablishedState(w: World): StateDef<ConnCtx> { PlainState((cur: StateType, c: ConnCtx) => LinkEstablished(w, c)) }
  function ConnectionOpenState(): StateDef<ConnCtx> { PlainState((cur: StateType, c: ConnCtx) => ConnectionOpen(c)) }
  function ConnectedState(): StateDef<ConnCtx> { PlainState((cur: StateType, c: ConnCtx) => Connected(c)) }
  function ClosingState(w: World): StateDef<ConnCtx> { PlainState((cur: StateType, c: ConnCtx) => Closing(w, cur, c)) }
  function ConnectionClosedState(w: World): StateDef<ConnCtx> { PlainState((cur: StateType, c: ConnCtx) => ConnectionClosed(w, c)) }
  function LinkClosedState(): StateDef<ConnCtx> { FinalState((cur: StateType, c: ConnCtx) => LinkClosed(c)) }
  function FailedState(): StateDef<ConnCtx> { PlainState((cur: StateType, c: ConnCtx) => Failed(c)) }

  function ConnStates(w: World): map<StateType, StateDef<ConnCtx>> {
    map[STATE_CONN_INITIAL := InitialState(w),
        STATE_CONN_ACTIVATED := ActivatedState(w),
        STATE_CONN_LINK_ESTABLISHED := LinkEstablishedState(w),
        STATE_CONN_CONNECTION_OPEN := ConnectionOpenState(),
        STATE_CONN_CONNECTED := ConnectedState(),
        STATE_CONN_CLOSING := ClosingState(w),
        STATE_CONN_CONNECTION_CLOSED := ConnectionClosedState(w),
        STATE_CONN_LINK_CLOSED := LinkClosedState(),
        STATE_CONN_FAILED := FailedState()]
  }

  /** The declarations of ConnStateEngine's constructor, in order. */
  function ConnDecls(): seq<Decl> {
    [Decl(STATE_CONN_INITIAL, EVENT_CHANNEL_ACTIVATED, STATE_CONN_ACTIVATED),
     Decl(STATE_CONN_ACTIVATED, EVENT_LINK_ESTABLISHED, STATE_CONN_LINK_ESTABLISHED),
     Decl(STATE_CONN_LINK_ESTABLISHED, EVENT_CONNECTION_ESTABLISHED, STATE_CONN_CONNECTION_OPEN),
     Decl(STATE_CONN_CONNECTION_OPEN, EVENT_ALWAYS, STATE_CONN_CONNECTED),
     Decl(STATE_CONN_CONNECTED, EVENT_ADD_DEPENDENT, STATE_CONN_CONNECTED),
     Decl(STATE_CONN_CONNECTED, EVENT_DETACH_DEPENDENT, STATE_CONN_CONNECTED),
     Decl(STATE_CONN_CONNECTED, EVENT_STATE_MACHINE_FINISHED, STATE_CONN_CONNECTED),
     Decl(STATE_CONN_CONNECTED, EVENT_STATE_MACHINE_FAILED, STATE_CONN_CONNECTED),
     Decl(STATE_CONN_CONNECTED, EVENT_CONN_CLOSE, STATE_CONN_CLOSING),
     Decl(STATE_CONN_CLOSING, EVENT_CONNECTION_DESTROYED, STATE_CONN_CONNECTION_CLOSED),
     Decl(STATE_CONN_CONNECTION_CLOSED, EVENT_LINK_DESTROYED, STATE_CONN_LINK_CLOSED),
     Decl(STATE_CONN_CONNECTED, EVENT_RECEIVE_PACKAGE, STATE_CONN_CONNECTED),
     Decl(STATE_CONN_CLOSING, EVENT_RECEIVE_PACKAGE, STATE_CONN_CLOSING)]
  }

  /** The connection lifecycle as a reference: the one target of each declared (state, event). */
  function ConnNext(s: StateType, e: EventType): Option<StateType> {
    if s == STATE_CONN_INITIAL && e == EVENT_CHANNEL_ACTIVATED then Some(STATE_CONN_ACTIVATED)
    else if s == STATE_CONN_ACTIVATED && e == EVENT_LINK_ESTABLISHED then Some(STATE_CONN_LINK_ESTABLISHED)
    else if s == STATE_CONN_LINK_ESTABLISHED && e == EVENT_CONNECTION_ESTABLISHED then Some(STATE_CONN_CONNECTION_OPEN)
    else if s == STATE_CONN_CONNECTION_OPEN && e == EVENT_ALWAYS then Some(STATE_CONN_CONNECTED)
    else if s == STATE_CONN_CONNECTED && e in {EVENT_ADD_DEPENDENT, EVENT_DETACH_DEPENDENT, EVENT_STATE_MACHINE_FINISHED,
                                               EVENT_STATE_MACHINE_FAILED, EVENT_RECEIVE_PACKAGE} then Some(STATE_CONN_CONNECTED)
    else if s == STATE_CONN_CONNECTED && e == EVENT_CONN_CLOSE then Some(STATE_CONN_CLOSING)
    else if s == STATE_CONN_CLOSING && e == EVENT_CONNECTION_DESTROYED then Some(STATE_CONN_CONNECTION_CLOSED)
    else if s == STATE_CONN_CLOSING && e == EVENT_RECEIVE_PACKAGE then Some(STATE_CONN_CLOSING)
    else if s == STATE_CONN_CONNECTION_CLOSED && e == EVENT_LINK_DESTROYED then Some(STATE_CONN_LINK_CLOSED)
    else None
  }

  /** The declared table is the reference lifecycle, one target per declared event. */
  lemma ConnDeclsFollow()
    ensures Follows(DeclareAll(map[], ConnDecls()), ConnNext)
  {
    forall s, e
      ensures Declares(DeclareAll(map[], ConnDecls()), s, e) <==> ConnNext(s, e).Some?
      ensures Targets(DeclareAll(map[], ConnDecls()), s, e) == TargetSet(ConnNext(s, e))
    {
      ConnDeclTargets(s, e);
      DeclaredTable(ConnDecls(), s, e, ConnNext(s, e));
    }
  }

  lemma ConnDeclTargets(s: StateType, e: EventType)
    ensures DeclTargets(ConnDecls(), s, e) == TargetSet(ConnNext(s, e))
  {
  }

  /** What ConnStateEngine's constructor builds. */
  ghost predicate IsConnTable(w: World, t: Table<ConnCtx>) {
    && t.states == ConnStates(w)
    && Follows(t.transitions, ConnNext)
    && t.initStateId == STATE_CONN_INITIAL && t.failedStateId == STATE_CONN_FAILED
  }

  /** ConnStateEngine's constructor. */
  method NewConnStateEngine(w: World) returns (e: StateEngine<ConnCtx>)
    ensures IsConnTable(w, e.Spec())
  {
    e := new StateEngine();
    e.AddInitialState(STATE_CONN_INITIAL, InitialState(w));
    e.AddState(STATE_CONN_ACTIVATED, ActivatedState(w));
    e.AddState(STATE_CONN_LINK_ESTABLISHED, LinkEstablishedState(w));
    e.AddState(STATE_CONN_CONNECTION_OPEN, ConnectionOpenState());
    e.AddState(STATE_CONN_CONNECTED, ConnectedState());
    e.AddState(STATE_CONN_CLOSING, ClosingState(w));
    e.AddState(STATE_CONN_CONNECTION_CLOSED, ConnectionClosedState(w));
    e.AddState(STATE_CONN_LINK_CLOSED, LinkClosedState());
    e.AddFailedState(STATE_CONN_FAILED, FailedState());
    e.DeclareTransitions(ConnDecls());
    ConnDeclsFollow();
  }
}

=== FILE: core.dfy ===
// The SDK core (source/Core.cpp): the entropy it hands to plugins, the
// identifiers it generates for links, connections and requests, and the
// shutdown guard in front of every plugin callback.

module CoreModel {
  import opened Common
  import ReceivePackages

  type u32 = ReceivePackages.u32

  /* ---------------- getEntropy ---------------- */

  /** The bytes of a run of 32-bit draws, each least significant byte first. */
  function Spread(draws: seq<u32>): (r: Bytes)
    ensures |r| == 4 * |draws|
  {
    if draws == [] then [] else ReceivePackages.EncodeU32(draws[0]) + Spread(draws[1..])
  }

  /** A draw after `j` right shifts by eight bits. */
  function Shifted(d: u32, j: nat): nat {
    if j == 0 then d else Shifted(d, j - 1) / 0x100
  }

  lemma EncodeU32Byte(d: u32, j: nat)
    requires j < 4
    ensures ReceivePackages.EncodeU32(d)[j] == Shifted(d, j) % 0x100
  {
    var q1 := d / 0x100;
    var q2 := q1 / 0x100;
    assert Shifted(d, 1) == q1 && Shifted(d, 2) == q2 && Shifted(d, 3) == q2 / 0x100;
    assert q2 < 0x1_0000;
  }

  lemma {:induction false} SpreadAt(draws: seq<u32>, k: nat)
    requires k < 4 * |draws|
    ensures Spread(draws)[k] == Shifted(draws[k / 4], k % 4) % 0x100
    decreases |draws|
  {
    if k < 4 {
      EncodeU32Byte(draws[0], k);
    } else {
      SpreadAt(draws[1..], k - 4);
      assert (k - 4) / 4 == k / 4 - 1 && (k - 4) % 4 == k % 4;
    }
  }

  /**
   * Core::getEntropy: the random device is the sequence of its draws. One
   * draw feeds four consecutive bytes, least significant first, so the result
   * is the draws laid out as little-endian words, cut to the length asked for.
   */
  method GetEntropy(numBytes: u32, draws: seq<u32>) returns (randomness: Bytes)
    requires numBytes <= 4 * |draws|
    ensures randomness == Spread(draws)[..numBytes]
  {
    randomness := [];
    var value: nat := 0;
    var index: nat := 0;
    while index < numBytes
      invariant index <= numBytes
      invariant |randomness| == index
      invariant forall k | 0 <= k < index :: randomness[k] == Spread(draws)[k]
      invariant index % 4 != 0 ==> value == Shifted(draws[index / 4], index % 4)
    {
      if index % 4 == 0 {
        value := draws[index / 4];
      }
      SpreadAt(draws, index);
      randomness := randomness + [value % 0x100];
      value := value / 0x100;
      index := index + 1;
    }
  }

  lemma {:induction false} SpreadGroup(draws: seq<u32>, g: nat)
    requires g < |draws|
    ensures Spread(draws)[4 * g..4 * g + 4] == ReceivePackages.EncodeU32(draws[g])
    decreases g
  {
    var rest := Spread(draws[1..]);
    assert Spread(draws) == ReceivePackages.EncodeU32(draws[0]) + rest;
    if g > 0 {
      SpreadGroup(draws[1..], g - 1);
      assert Spread(draws)[4 * g..4 * g + 4] == rest[4 * (g - 1)..4 * (g - 1) + 4];
    }
  }

  lemma SliceOfPrefix<T>(s: seq<T>, n: nat, from: nat, to: nat)
    requires from <= to <= n <= |s|
    ensures s[..n][from..to] == s[from..to]
  {
  }

  /** Nothing of a draw is wasted: every whole group of four bytes reads back as its draw. */
  lemma EntropyUsesWholeDraws(draws: seq<u32>, numBytes: nat, g: nat)
    requires numBytes <= 4 * |draws| && 4 * g + 4 <= numBytes
    ensures ReceivePackages.LittleEndian32(Spread(draws)[..numBytes][4 * g..4 * g + 4]) == draws[g]
  {
    SpreadGroup(draws, g);
    SliceOfPrefix(Spread(draws), numBytes, 4 * g, 4 * g + 4);
  }

  /* ---------------- generateHandle ---------------- */

  const UINT64_LIMIT: nat := 0x1_0000_0000_0000_0000
  type u64 = n: nat | n < 0x1_0000_0000_0000_0000

  /** UINT64_MAX / 2, the value at which handles are meant to start again from 1. */
  const ROLLOVER: u64 := 0x7FFF_FFFF_FFFF_FFFF

  /** The two statics of Core::generateHandle. */
  datatype HandleCounter = HandleCounter(count: u64, rollover: u64)

  const InitialHandleCounter := HandleCounter(1, ROLLOVER)

  /**
   * One call as written: compare_exchange_strong(rollover, 1) resets the
   * count when it equals rollover, and otherwise overwrites rollover with the
   * count; then the count is returned and incremented modulo 2^64.
   */
  function GenerateHandleAsWritten(s: HandleCounter): (HandleCounter, RaceHandle) {
    var exchanged := if s.count == s.rollover then s.(count := 1) else s.(rollover := s.count);
    (exchanged.(count := (exchanged.count + 1) % UINT64_LIMIT), exchanged.count)
  }

  /** The statics after `n` calls. */
  function HandleCounterAfter(n: nat): HandleCounter {
    if n == 0 then InitialHandleCounter else GenerateHandleAsWritten(HandleCounterAfter(n - 1)).0
  }

  /**
   * After the first call the rollover static trails the count by one, so the
   * reset never fires and the count simply runs on, wrapping to 0 after
   * UINT64_MAX.
   */
  lemma {:induction false} HandleCounterAfterCalls(n: nat)
    requires 0 < n < UINT64_LIMIT
    ensures HandleCounterAfter(n) == HandleCounter(if n + 1 == UINT64_LIMIT then 0 else n + 1, n)
  {
    var prev := HandleCounterAfter(n - 1);
    if n > 1 {
      HandleCounterAfterCalls(n - 1);
    }
    assert prev.count == n && prev.rollover != n;
    assert HandleCounterAfter(n) == GenerateHandleAsWritten(prev).0;
  }

  /** Call number n returns n, modulo 2^64. */
  lemma HandleReturnedAsWritten(n: nat)
    requires 0 < n < UINT64_LIMIT
    ensures GenerateHandleAsWritten(HandleCounterAfter(n - 1)).1 == n
  {
    if n > 1 {
      HandleCounterAfterCalls(n - 1);
    }
  }

  /**
   * Every call after call number ROLLOVER returns more than ROLLOVER instead
   * of starting again from 1, outside the range the source documents.
   */
  lemma HandleNeverRollsOver(n: nat)
    requires ROLLOVER < n < UINT64_LIMIT
    ensures GenerateHandleAsWritten(HandleCounterAfter(n - 1)).1 > ROLLOVER
  {
    HandleReturnedAsWritten(n);
  }

  /** Call number 2^64 returns NULL_RACE_HANDLE, the value reserved for "no handle". */
  lemma HandleReachesNull(n: nat)
    requires n + 1 == UINT64_LIMIT
    ensures GenerateHandleAsWritten(HandleCounterAfter(n)).1 == NULL_RACE_HANDLE
  {
    HandleCounterAfterCalls(n);
  }

  /** One call as intended: the count is compared against the fixed ROLLOVER. */
  function GenerateHandleFixed(count: u64): (r: (u64, RaceHandle))
    requires 1 <= count <= ROLLOVER
    ensures 1 <= r.1 < ROLLOVER && 1 <= r.0 <= ROLLOVER
    ensures r.0 == r.1 + 1
  {
    var c := if count == ROLLOVER then 1 else count;
    (c + 1, c)
  }

  /** The count after `n` intended calls. */
  function HandleCountAfter(n: nat): (c: u64)
    ensures 1 <= c <= ROLLOVER
  {
    if n == 0 then 1 else GenerateHandleFixed(HandleCountAfter(n - 1)).0
  }

  /**
   * Call number n + 1 returns 1 + n modulo ROLLOVER - 1: handles run through
   * [1, ROLLOVER - 1] in order and start again from 1, never returning 0.
   */
  lemma {:induction false} HandleReturnedFixed(n: nat)
    ensures HandleCountAfter(n) == if n == 0 then 1 else (n - 1) % (ROLLOVER - 1) + 2
    ensures GenerateHandleFixed(HandleCountAfter(n)).1 == n % (ROLLOVER - 1) + 1
  {
    if n > 0 {
      HandleReturnedFixed(n - 1);
      NextResidue(n - 1);
      assert HandleCountAfter(n) == GenerateHandleFixed(HandleCountAfter(n - 1)).1 + 1;
    }
  }

  lemma NextResidue(k: nat)
    ensures (k + 1) % (ROLLOVER - 1) == if k % (ROLLOVER - 1) == ROLLOVER - 2 then 0 else k % (ROLLOVER - 1) + 1
  {
    var p := ROLLOVER - 1;
    var q, r := k / p, k % p;
    assert k == q * p + r;
    if r == p - 1 {
      assert k + 1 == (q + 1) * p;
    } else {
      assert k + 1 == q * p + (r + 1);
    }
  }

  /** Within one period of ROLLOVER - 1 calls, no handle is issued twice. */
  lemma HandlesDistinctFixed(m: nat, n: nat)
    requires m < n < m + (ROLLOVER - 1)
    ensures GenerateHandleFixed(HandleCountAfter(m)).1 != GenerateHandleFixed(HandleCountAfter(n)).1
  {
    HandleReturnedFixed(m);
    HandleReturnedFixed(n);
  }

  /* ---------------- generateConnectionId / generateLinkId ---------------- */

  const INT32_LIMIT: nat := 0x1_0000_0000
  type int32 = x: int | -0x8000_0000 <= x < 0x8000_0000

  /** A static std::atomic<int> after `n` increments from 0: two's complement wrap-around. */
  function CountAfter(n: nat): (c: int32)
    ensures n < 0x8000_0000 ==> c == n
  {
    (n + 0x8000_0000) % INT32_LIMIT - 0x8000_0000
  }

  /** std::to_string of an int: a minus sign before the digits of a negative number. */
  function IntToString(x: int): (s: string)
    ensures '_' !in s
    ensures |s| >= 1 && (s[0] == '-' <==> x < 0)
  {
    var digits := Decimal(if x < 0 then -x else x);
    assert forall i | 0 <= i < |digits| :: digits[i] != '_';
    if x < 0 then "-" + digits else digits
  }

  lemma IntToStringInjective(x: int, y: int)
    requires IntToString(x) == IntToString(y)
    ensures x == y
  {
    if x >= 0 && y >= 0 {
      assert Decimal(x) == IntToString(x) == IntToString(y) == Decimal(y);
      DecimalInjective(x, y);
    } else if x < 0 && y < 0 {
      assert Decimal(-x) == IntToString(x)[1..] == IntToString(y)[1..] == Decimal(-y);
      DecimalInjective(-x, -y);
    }
  }

  /** What follows the last '_' of a string (all of it when there is none). */
  function TailAfterUnderscore(x: string): (t: string)
    ensures '_' !in t
    decreases |x|
  {
    if x == [] || x[|x| - 1] == '_' then []
    else TailAfterUnderscore(x[..|x| - 1]) + [x[|x| - 1]]
  }

  lemma {:induction false} TailAfterUnderscoreOf(a: string, s: string)
    requires '_' !in s
    ensures TailAfterUnderscore(a + "_" + s) == s
    decreases |s|
  {
    var x := a + "_" + s;
    if s != [] {
      var init := s[..|s| - 1];
      assert x[..|x| - 1] == a + "_" + init;
      TailAfterUnderscoreOf(a, init);
      assert s == init + [s[|s| - 1]];
    }
  }

  function ConnectionIdFor(linkId: LinkId, count: int32): ConnectionId {
    linkId + "/Connection_" + IntToString(count)
  }

  function LinkIdFor(pluginId: string, channelGid: ChannelId, count: int32): LinkId {
    pluginId + "/" + channelGid + "/LinkID_" + IntToString(count)
  }

  /** Distinct calls see distinct counter values until the counter has wrapped all the way round. */
  lemma CountAfterInjective(m: nat, n: nat)
    requires m < n < INT32_LIMIT
    ensures CountAfter(m) != CountAfter(n)
  {
    if m >= 0x8000_0000 {
      assert CountAfter(m) == m - INT32_LIMIT && CountAfter(n) == n - INT32_LIMIT;
    } else if n >= 0x8000_0000 {
      assert CountAfter(m) == m && CountAfter(n) == n - INT32_LIMIT;
    }
  }

  /** Ids that end in '_' and a counter value are distinct for distinct counter values. */
  lemma SuffixedIdsDistinct(a: string, b: string, x: int, y: int)
    requires x != y
    ensures a + "_" + IntToString(x) != b + "_" + IntToString(y)
  {
    TailAfterUnderscoreOf(a, IntToString(x));
    TailAfterUnderscoreOf(b, IntToString(y));
    if IntToString(x) == IntToString(y) {
      IntToStringInjective(x, y);
    }
  }

  /**
   * The connection ids the m-th and n-th calls produce differ, whatever links
   * they were made for, as long as the shared counter has not wrapped all the
   * way round (2^32 calls).
   */
  lemma ConnectionIdsDistinct(linkA: LinkId, linkB: LinkId, m: nat, n: nat)
    requires m < n < INT32_LIMIT
    ensures ConnectionIdFor(linkA, CountAfter(m)) != ConnectionIdFor(linkB, CountAfter(n))
  {
    CountAfterInjective(m, n);
    SuffixedIdsDistinct(linkA + "/Connection", linkB + "/Connection", CountAfter(m), CountAfter(n));
    assert ConnectionIdFor(linkA, CountAfter(m)) == (linkA + "/Connection") + "_" + IntToString(CountAfter(m));
    assert ConnectionIdFor(linkB, CountAfter(n)) == (linkB + "/Connection") + "_" + IntToString(CountAfter(n));
  }

  /** Likewise for link ids, whatever plugin and channel asked for them. */
  lemma LinkIdsDistinct(pluginA: string, channelA: ChannelId, pluginB: string, channelB: ChannelId, m: nat, n: nat)
    requires m < n < INT32_LIMIT
    ensures LinkIdFor(pluginA, channelA, CountAfter(m)) != LinkIdFor(pluginB, channelB, CountAfter(n))
  {
    CountAfterInjective(m, n);
    var a, b := pluginA + "/" + channelA + "/LinkID", pluginB + "/" + channelB + "/LinkID";
    SuffixedIdsDistinct(a, b, CountAfter(m), CountAfter(n));
    assert LinkIdFor(pluginA, channelA, CountAfter(m)) == a + "_" + IntToString(CountAfter(m));
    assert LinkIdFor(pluginB, channelB, CountAfter(n)) == b + "_" + IntToString(CountAfter(n));
  }

  /* ---------------- callbacks and the shutdown guard ---------------- */

  /** The plugin-facing callbacks of the core. */
  datatype CoreCallback =
    | OnPackageStatusChanged
    | OnConnectionStatusChanged
    | OnLinkStatusChanged
    | OnChannelStatusChanged
    | ReceiveEncPkg
    | UpdateLinkProperties
    | AsyncError

  /** The callbacks that answer SDK_SHUTTING_DOWN once the core is being destroyed. */
  predicate Guarded(cb: CoreCallback) {
    !(cb.UpdateLinkProperties? || cb.AsyncError?)
  }

  /** What a callback did: its answer and which managers it reached. */
  datatype Dispatched = Dispatched(status: SdkStatus, toChannelManager: bool, toApiManager: bool)

  /**
   * A callback's answer: guarded callbacks refuse during shutdown; otherwise
   * the channel-status callback updates the channel manager first and every
   * guarded callback answers with the API manager's response; the other two
   * answer SDK_OK and reach nobody.
   */
  function Dispatch(shuttingDown: bool, cb: CoreCallback, apiResponse: SdkStatus): (d: Dispatched)
    ensures d.toApiManager <==> Guarded(cb) && !shuttingDown
    ensures d.toChannelManager <==> cb.OnChannelStatusChanged? && !shuttingDown
    ensures d.toApiManager ==> d.status == apiResponse
    ensures !Guarded(cb) ==> d.status == SDK_OK
    ensures Guarded(cb) && shuttingDown ==> d.status == SDK_SHUTTING_DOWN
  {
    if !Guarded(cb) then Dispatched(SDK_OK, false, false)
    else if shuttingDown then Dispatched(SDK_SHUTTING_DOWN, false, false)
    else Dispatched(apiResponse, cb.OnChannelStatusChanged?, true)
  }

  /** getActivePersona: every plugin is told the same fixed persona. */
  const ACTIVE_PERSONA: string := "race-client-00001"

  /** The core's own mutable statics and its shutdown flag. */
  class Core {
    var shuttingDown: bool
    var handleCount: u64
    var connectionCalls: nat
    var linkCalls: nat

    predicate Valid()
      reads this
    {
      1 <= handleCount <= ROLLOVER
    }

    constructor ()
      ensures Valid() && !shuttingDown
      ensures handleCount == 1 && connectionCalls == 0 && linkCalls == 0
    {
      shuttingDown := false;
      handleCount := 1;
      connectionCalls := 0;
      linkCalls := 0;
    }

    /** ~Core: from here on the guarded callbacks refuse. */
    method Shutdown()
      modifies this
      ensures shuttingDown
      ensures handleCount == old(handleCount) && connectionCalls == old(connectionCalls) && linkCalls == old(linkCalls)
    {
      shuttingDown := true;
    }

    /** generateHandle as intended (the fixed rollover comparison). */
    method GenerateHandle() returns (handle: RaceHandle)
      requires Valid()
      modifies this
      ensures Valid()
      ensures (handleCount, handle) == GenerateHandleFixed(old(handleCount))
      ensures handle != NULL_RACE_HANDLE
      ensures shuttingDown == old(shuttingDown) && connectionCalls == old(connectionCalls) && linkCalls == old(linkCalls)
    {
      if handleCount == ROLLOVER {
        handleCount := 1;
      }
      handle := handleCount;
      handleCount := handleCount + 1;
    }

    /** generateConnectionId: the link id, "/Connection_", and the shared counter's old value. */
    method GenerateConnectionId(linkId: LinkId) returns (connId: ConnectionId)
      modifies this
      ensures connId == ConnectionIdFor(linkId, CountAfter(old(connectionCalls)))
      ensures connectionCalls == old(connectionCalls) + 1
      ensures shuttingDown == old(shuttingDown) && handleCount == old(handleCount) && linkCalls == old(linkCalls)
    {
      connId := linkId + "/Connection_" + IntToString(CountAfter(connectionCalls));
      connectionCalls := connectionCalls + 1;
    }

    /** generateLinkId: the plugin id, the channel, "/LinkID_", and the shared counter's old value. */
    method GenerateLinkId(pluginId: string, channelGid: ChannelId) returns (linkId: LinkId)
      modifies this
      ensures linkId == LinkIdFor(pluginId, channelGid, CountAfter(old(linkCalls)))
      ensures linkCalls == old(linkCalls) + 1
      ensures shuttingDown == old(shuttingDown) && handleCount == old(handleCount)
      ensures connectionCalls == old(connectionCalls)
    {
      linkId := pluginId + "/" + channelGid + "/LinkID_" + IntToString(CountAfter(linkCalls));
      linkCalls := linkCalls + 1;
    }

    /** Any plugin callback: the shutdown guard in front of the managers. */
    method Callback(cb: CoreCallback, apiResponse: SdkStatus) returns (d: Dispatched)
      ensures d == Dispatch(shuttingDown, cb, apiResponse)
      ensures shuttingDown && Guarded(cb) ==> d.status == SDK_SHUTTING_DOWN && !d.toApiManager
    {
      d := Dispatch(shuttingDown, cb, apiResponse);
    }
  }
}

=== FILE: decomposedloader.dfy ===
// The decomposed plugin loader (source/plugin-loading/DecomposedPluginLoader.cpp):
// component plugins register their transports, user models and encodings
// by name, and a composition is assembled by looking those names up.
// A component plugin is identified by its position in `plugins`.

module DecomposedLoading {
  import opened Common
  import opened JsonAccess
  import opened PluginDefs
  import opened Compositions

  /** A name table: component name to the index of the plugin supplying it. */
  type NameTable = map<string, nat>

  /**
   * Registering names in order for plugin `idx`: the first name already
   * present stops the registration (runtime_error "Multiple definitions"),
   * keeping the names registered before it. Returns the table and the
   * offending name, if any.
   */
  function Registered(m: NameTable, names: seq<string>, idx: nat): (r: (NameTable, Option<string>))
    decreases |names|
  {
    if names == [] then (m, None)
    else if names[0] in m then (m, Some(names[0]))
    else Registered(m[names[0] := idx], names[1..], idx)
  }

  /** The names, each distinct from the others. */
  predicate Distinct(names: seq<string>) {
    forall i, j :: 0 <= i < j < |names| ==> names[i] != names[j]
  }

  /**
   * Registration succeeds exactly when the names are distinct and none is
   * registered yet, and then adds every name for `idx`, nothing else.
   */
  lemma {:induction false} RegisteredSucceedsIffFresh(m: NameTable, names: seq<string>, idx: nat)
    ensures Registered(m, names, idx).1.None? <==>
      Distinct(names) && forall i :: 0 <= i < |names| ==> names[i] !in m
    ensures Registered(m, names, idx).1.None? ==>
      Registered(m, names, idx).0 == m + map n | n in names :: idx
    decreases |names|
  {
    if names != [] {
      var m' := m[names[0] := idx];
      var rest := names[1..];
      RegisteredSucceedsIffFresh(m', rest, idx);
      assert forall i :: 0 <= i < |rest| ==> rest[i] == names[i + 1];
      if Registered(m, names, idx).1.None? {
        assert names[0] !in m;
        assert m' + (map n | n in rest :: idx) == m + map n | n in names :: idx;
      }
      if Distinct(names) && forall i :: 0 <= i < |names| ==> names[i] !in m {
        assert names[0] !in m;
        assert forall i :: 0 <= i < |rest| ==> rest[i] !in m';
      }
    }
  }

  /** A name already registered, or listed twice, stops registration at that name. */
  lemma {:induction false} RegisteredReportsDuplicate(m: NameTable, names: seq<string>, idx: nat)
    ensures Registered(m, names, idx).1.Some? ==>
      Registered(m, names, idx).1.value in names
    decreases |names|
  {
    if names != [] && names[0] !in m {
      RegisteredReportsDuplicate(m[names[0] := idx], names[1..], idx);
    }
  }

  /** The loop that registers one kind of component name. */
  method RegisterNames(table: NameTable, names: seq<string>, idx: nat) returns (result: NameTable, duplicate: Option<string>)
    ensures (result, duplicate) == Registered(table, names, idx)
  {
    result := table;
    var i := 0;
    while i < |names|
      invariant 0 <= i <= |names|
      invariant Registered(table, names, idx) == Registered(result, names[i..], idx)
    {
      if names[i] in result {
        return result, Some(names[i]);
      }
      assert names[i..][1..] == names[i + 1..];
      result := result[names[i] := idx];
      i := i + 1;
    }
    duplicate := None;
  }

  /** The three kinds of component a decomposed plugin supplies. */
  datatype ComponentKind = ComponentTransport | ComponentUsermodel | ComponentEncoding

  /** The names of one kind a plugin definition lists. */
  function Listed(d: PluginDef, kind: ComponentKind): seq<string> {
    match kind
    case ComponentTransport => d.transports
    case ComponentUsermodel => d.usermodels
    case ComponentEncoding => d.encodings
  }

  /** Every name in the table refers to a loaded plugin that lists it. */
  ghost predicate TableValid(table: NameTable, plugins: seq<PluginDef>, kind: ComponentKind) {
    forall n :: n in table ==> table[n] < |plugins| && n in Listed(plugins[table[n]], kind)
  }

  /** A registration that goes through, followed by appending the plugin, keeps the table valid. */
  lemma TableGrows(table: NameTable, plugins: seq<PluginDef>, def: PluginDef, kind: ComponentKind)
    requires TableValid(table, plugins, kind)
    requires Registered(table, Listed(def, kind), |plugins|).1.None?
    ensures TableValid(Registered(table, Listed(def, kind), |plugins|).0, plugins + [def], kind)
  {
    var names := Listed(def, kind);
    RegisteredSucceedsIffFresh(table, names, |plugins|);
    var t := Registered(table, names, |plugins|).0;
    var ps := plugins + [def];
    forall n | n in t
      ensures t[n] < |ps| && n in Listed(ps[t[n]], kind)
    {
      if n !in table {
        assert n in names && ps[|plugins|] == def;
      } else {
        assert ps[table[n]] == plugins[table[n]];
      }
    }
  }

  /** A composed channel: the plugins chosen for each part. */
  datatype Composite = Composite(id: string, transport: nat, usermodel: nat, encodings: map<string, nat>)

  /** The first encoding name not registered, if any. */
  function MissingEncoding(table: NameTable, names: seq<string>): (r: Option<string>)
    ensures r.None? <==> forall i :: 0 <= i < |names| ==> names[i] in table
    ensures r.Some? ==> r.value in names && r.value !in table
    decreases |names|
  {
    if names == [] then None
    else if names[0] !in table then Some(names[0])
    else MissingEncoding(table, names[1..])
  }

  class DecomposedPluginLoader {
    var plugins: seq<PluginDef>
    var transports: NameTable
    var usermodels: NameTable
    var encodings: NameTable

    /** Every registered name refers to a loaded plugin that lists it. */
    ghost predicate Valid()
      reads this
    {
      && TableValid(transports, plugins, ComponentTransport)
      && TableValid(usermodels, plugins, ComponentUsermodel)
      && TableValid(encodings, plugins, ComponentEncoding)
    }

    constructor()
      ensures plugins == [] && transports == map[] && usermodels == map[] && encodings == map[]
      ensures Valid()
    {
      plugins := [];
      transports := map[];
      usermodels := map[];
      encodings := map[];
    }

    /**
     * loadComponentsForPlugin: registers the plugin's transports, then user
     * models, then encodings under its index, and appends it to `plugins`.
     * A name registered twice aborts with the offending name; the names
     * registered before it stay.
     */
    method LoadComponentsForPlugin(def: PluginDef) returns (duplicate: Option<string>)
      modifies this
      requires Valid()
      ensures duplicate.None? ==> Valid()
      ensures var idx := old(|plugins|);
        var (t, dt) := Registered(old(transports), def.transports, idx);
        var (u, du) := Registered(old(usermodels), def.usermodels, idx);
        var (e, de) := Registered(old(encodings), def.encodings, idx);
        && transports == t
        && (dt.Some? ==> duplicate == dt && usermodels == old(usermodels) && encodings == old(encodings)
                         && plugins == old(plugins))
        && (dt.None? ==> usermodels == u)
        && (dt.None? && du.Some? ==> duplicate == du && encodings == old(encodings) && plugins == old(plugins))
        && (dt.None? && du.None? ==> encodings == e && duplicate == de)
        && (duplicate.None? ==> plugins == old(plugins) + [def])
        && (duplicate.Some? ==> plugins == old(plugins))
    {
      var idx := |plugins|;
      var dup;
      transports, dup := RegisterNames(transports, def.transports, idx);
      if dup.Some? {
        return dup;
      }
      usermodels, dup := RegisterNames(usermodels, def.usermodels, idx);
      if dup.Some? {
        return dup;
      }
      encodings, dup := RegisterNames(encodings, def.encodings, idx);
      if dup.Some? {
        return dup;
      }
      plugins := plugins + [def];
      duplicate := None;
      TableGrows(old(transports), old(plugins), def, ComponentTransport);
      TableGrows(old(usermodels), old(plugins), def, ComponentUsermodel);
      TableGrows(old(encodings), old(plugins), def, ComponentEncoding);
    }

    /** loadComponents: loads each plugin in turn; the first duplicate aborts the rest. */
    method LoadComponents(defs: seq<PluginDef>) returns (duplicate: Option<string>)
      modifies this
      requires Valid()
      ensures duplicate.None? ==> plugins == old(plugins) + defs && Valid()
    {
      var i := 0;
      while i < |defs|
        invariant 0 <= i <= |defs|
        invariant plugins == old(plugins) + defs[..i]
        invariant Valid()
      {
        duplicate := LoadComponentsForPlugin(defs[i]);
        if duplicate.Some? {
          return;
        }
        assert defs[..i + 1] == defs[..i] + [defs[i]];
        i := i + 1;
      }
      assert defs[..i] == defs;
      duplicate := None;
    }

    /**
     * compose: looks up the transport, the user model and every encoding
     * (out_of_range for the first name missing) and builds a container with
     * the composition's id and exactly its encodings.
     */
    function Compose(c: Composition): (r: Result<Composite, JsonError>)
      reads this
      ensures r.Success? <==>
        c.transport in transports && c.usermodel in usermodels &&
        forall i :: 0 <= i < |c.encodings| ==> c.encodings[i] in encodings
      ensures c.transport !in transports ==> r == Failure(OutOfRange(c.transport))
      ensures c.transport in transports && c.usermodel !in usermodels ==> r == Failure(OutOfRange(c.usermodel))
      ensures r.Success? ==> r.value.id == c.id
      ensures r.Success? ==> r.value.transport == transports[c.transport] && r.value.usermodel == usermodels[c.usermodel]
      ensures r.Success? ==> r.value.encodings.Keys == set e | e in c.encodings
      ensures r.Success? ==> forall e :: e in r.value.encodings ==> r.value.encodings[e] == encodings[e]
    {
      if c.transport !in transports then Failure(OutOfRange(c.transport))
      else if c.usermodel !in usermodels then Failure(OutOfRange(c.usermodel))
      else match MissingEncoding(encodings, c.encodings)
        case Some(e) => Failure(OutOfRange(e))
        case None =>
          Success(Composite(c.id, transports[c.transport], usermodels[c.usermodel],
                            map e | e in c.encodings :: encodings[e]))
    }
  }

  /** Every part of a composed channel comes from a plugin that declares it. */
  lemma ComposedPartsDeclared(l: DecomposedPluginLoader, c: Composition)
    requires l.Valid() && l.Compose(c).Success?
    ensures var k := l.Compose(c).value;
      && k.transport < |l.plugins| && c.transport in l.plugins[k.transport].transports
      && k.usermodel < |l.plugins| && c.usermodel in l.plugins[k.usermodel].usermodels
      && forall e :: e in k.encodings ==> k.encodings[e] < |l.plugins| && e in l.plugins[k.encodings[e]].encodings
  {
  }
}

=== FILE: dial.dfy ===
// The dial state machine (source/state-machine/DialStateMachine.cpp): open a
// receiving connection, then a sending one, send a hello package that
// carries a fresh package id and the reply address, and hand the
// application a conduit once the peer's connection is up.

module DialMachine {
  import opened Common
  import opened Engine
  import opened ApiContext

  const STATE_DIAL_INITIAL: StateType := 3
  const STATE_DIAL_WAITING_FOR_SEND_CONNECTION: StateType := 4
  const STATE_DIAL_SEND_OPEN: StateType := 5
  const STATE_DIAL_PACKAGE_SENT: StateType := 6
  const STATE_DIAL_FINISHED: StateType := 7
  const STATE_DIAL_FAILED: StateType := 8

  /** ApiDialContext; packageId holds the raw entropy bytes the std::string is built from. */
  datatype DialCtx = DialCtx(
    handle: RaceHandle,
    opts: SendOptions,
    data: Bytes,
    dialCallback: Option<Callback>,
    recvConnSMHandle: RaceHandle,
    sendConnSMHandle: RaceHandle,
    recvConnId: ConnectionId,
    sendConnId: ConnectionId,
    recvLinkAddress: LinkAddress,
    packageId: Bytes,
    env: Env)

  /** What the dial callback receives when the dial cannot complete. */
  const NoConduit := PProps(NULL_RACE_HANDLE, EmptyProperties)

  /**
   * The hooks ApiDialContext overrides; connection news is told apart by
   * the connection machine's handle, as in the send-receive machine.
   */
  function Apply(c: DialCtx, u: Update): (r: DialCtx)
    ensures u.UDial? ==> r == c.(opts := u.sendOpts, data := u.data, dialCallback := Some(u.cb))
    ensures u.UConnStateMachineLinkEstablished? && u.handle == c.recvConnSMHandle ==>
              r == c.(recvLinkAddress := u.linkAddress)
    ensures u.UConnStateMachineConnected? && u.handle == c.recvConnSMHandle ==>
              r == c.(recvConnId := u.connId, recvLinkAddress := u.linkAddress)
    ensures u.UConnStateMachineConnected? && u.handle != c.recvConnSMHandle && u.handle == c.sendConnSMHandle ==>
              r == c.(sendConnId := u.connId)
    ensures ((u.UConnStateMachineConnected? || u.UConnStateMachineLinkEstablished?)
             && u.handle != c.recvConnSMHandle && u.handle != c.sendConnSMHandle) ==> r == c
    ensures (!u.UDial? && !u.UConnStateMachineLinkEstablished? && !u.UConnStateMachineConnected?) ==> r == c
  {
    match u
    case UDial(opts, data, cb) => c.(opts := opts, data := data, dialCallback := Some(cb))
    case UConnStateMachineLinkEstablished(h, _, address) =>
      if c.recvConnSMHandle == h then c.(recvLinkAddress := address) else c
    case UConnStateMachineConnected(h, connId, address) =>
      if c.recvConnSMHandle == h then c.(recvConnId := connId, recvLinkAddress := address)
      else if c.sendConnSMHandle == h then c.(sendConnId := connId)
      else c
    case _ => c
  }

  /** StateDialInitial's checks: the receive-side checks on its receive options. */
  function RecvCheck(w: World, opts: SendOptions): Option<ApiStatus> {
    ReceiveSideCheck(w, opts.recv_channel, opts.recv_role)
  }

  /**
   * StateDialWaitingForSendConnection's checks, in order: send channel,
   * send role, send address, known channel. Unlike the other machines, an
   * unknown send channel is reported as INVALID_ARGUMENT.
   */
  function SendCheck(w: World, opts: SendOptions): (r: Option<ApiStatus>)
    ensures opts.send_channel == "" ==> r == Some(CHANNEL_INVALID)
    ensures opts.send_channel != "" && (opts.send_role == "" || opts.send_address == ""
                                        || opts.send_channel !in w.containers) ==>
              r == Some(INVALID_ARGUMENT)
    ensures r.None? <==> opts.send_channel != "" && opts.send_role != "" && opts.send_address != ""
                         && opts.send_channel in w.containers
  {
    if opts.send_channel == "" then Some(CHANNEL_INVALID)
    else if opts.send_role == "" then Some(INVALID_ARGUMENT)
    else if opts.send_address == "" then Some(INVALID_ARGUMENT)
    else if opts.send_channel !in w.containers then Some(INVALID_ARGUMENT)
    else None
  }

  /** Report status with no conduit, clear the callback and fail; an empty callback throws. */
  function Reject(c: DialCtx, status: ApiStatus): (o: Outcome<DialCtx>)
    ensures c.dialCallback.None? ==> o.Threw? && o.data == c
    ensures c.dialCallback.Some? ==> o == Returned(NOT_SUPPORTED,
              c.(dialCallback := None, env := InvokeIfSet(c.env, c.dialCallback, status, NoConduit)), [])
  {
    match Invoke(c.env, c.dialCallback, status, NoConduit)
    case None => Threw(c, [])
    case Some(env) => Returned(NOT_SUPPORTED, c.(dialCallback := None, env := env), [])
  }

  /**
   * StateDialInitial: check the receive side, draw a package id of
   * PACKAGE_ID_LEN random bytes, and start a receiving connection that
   * creates its own link.
   */
  function Initial(w: World, c: DialCtx): (o: Outcome<DialCtx>)
    ensures RecvCheck(w, c.opts).Some? ==> o == Reject(c, RecvCheck(w, c.opts).value)
    ensures RecvCheck(w, c.opts).None? ==>
              && o.Returned? && o.data.dialCallback == c.dialCallback && o.data.env.fired == c.env.fired
              && |o.data.packageId| == PACKAGE_ID_LEN
              && |o.data.env.requests| > |c.env.requests| + 1
              && o.data.env.requests[|c.env.requests|] == GetEntropy(PACKAGE_ID_LEN)
              && o.data.env.requests[|c.env.requests| + 1]
                 == StartConnStateMachine(c.handle, c.opts.recv_channel, c.opts.recv_role, "", true, false)
              && o.data.recvConnSMHandle == w.answer(|c.env.requests| + 1).handle
              && (o.result == SUCCESS <==> o.data.recvConnSMHandle != NULL_RACE_HANDLE)
    ensures o.pushed == []
  {
    match RecvCheck(w, c.opts)
    case Some(status) => Reject(c, status)
    case None =>
      var (env1, id) := Entropy(w, c.env, PACKAGE_ID_LEN);
      var (env2, a) := Ask(w, env1, StartConnStateMachine(c.handle, c.opts.recv_channel, c.opts.recv_role,
                                                            "", true, false));
      var c1 := c.(packageId := id, recvConnSMHandle := a.handle, env := env2);
      if a.handle == NULL_RACE_HANDLE then Returned(NOT_SUPPORTED, c1, [])
      else Returned(SUCCESS, c1.(env := Tell(env2, RegisterHandle(c.handle, a.handle))), [])
  }

  /**
   * StateDialWaitingForSendConnection: once the send connection id is known,
   * move on; otherwise check the send side and start a sending connection.
   */
  function WaitingForSendConnection(w: World, c: DialCtx): (o: Outcome<DialCtx>)
    ensures c.sendConnId != "" ==> o == Returned(SUCCESS, c, [EVENT_SATISFIED])
    ensures c.sendConnId == "" ==> o.pushed == []
    ensures c.sendConnId == "" && SendCheck(w, c.opts).Some? ==> o == Reject(c, SendCheck(w, c.opts).value)
    ensures c.sendConnId == "" && SendCheck(w, c.opts).None? ==>
              && o.Returned? && o.data.dialCallback == c.dialCallback && o.data.env.fired == c.env.fired
              && |o.data.env.requests| > |c.env.requests|
              && o.data.env.requests[|c.env.requests|]
                 == StartConnStateMachine(c.handle, c.opts.send_channel, c.opts.send_role, c.opts.send_address, false, true)
              && o.data.sendConnSMHandle == w.answer(|c.env.requests|).handle
              && (o.result == SUCCESS <==> o.data.sendConnSMHandle != NULL_RACE_HANDLE)
  {
    if c.sendConnId != "" then Returned(SUCCESS, c, [EVENT_SATISFIED])
    else
      match SendCheck(w, c.opts)
      case Some(status) => Reject(c, status)
      case None =>
        var (env1, a) := Ask(w, c.env, StartConnStateMachine(c.handle, c.opts.send_channel, c.opts.send_role,
                                                               c.opts.send_address, false, true));
        var c1 := c.(sendConnSMHandle := a.handle, env := env1);
        if a.handle == NULL_RACE_HANDLE then Returned(NOT_SUPPORTED, c1, [])
        else Returned(SUCCESS, c1.(env := Tell(env1, RegisterHandle(c.handle, a.handle))), [])
  }

  /** The JSON object of a hello. */
  function HelloJson(codecs: Codecs, linkAddress: LinkAddress, replyChannel: ChannelId,
                     packageId: Bytes, data: Bytes): Json {
    Object(map["linkAddress" := linkAddress, "replyChannel" := replyChannel,
               "packageId" := codecs.b64encode(packageId), "message" := codecs.b64encode(data)])
  }

  /** A hello package: PACKAGE_ID_LEN NUL bytes, then the JSON text. */
  function Hello(codecs: Codecs, linkAddress: LinkAddress, replyChannel: ChannelId,
                 packageId: Bytes, data: Bytes): (h: Bytes)
    ensures |h| >= PACKAGE_ID_LEN && h[..PACKAGE_ID_LEN] == Zeros(PACKAGE_ID_LEN)
  {
    Zeros(PACKAGE_ID_LEN) + StrToBytes(codecs.dump(HelloJson(codecs, linkAddress, replyChannel, packageId, data)))
  }

  /**
   * A listener that strips the all-zero prefix and parses the rest gets
   * back the reply address, the reply channel, the package id and the data.
   */
  lemma HelloRoundTrip(codecs: Codecs, linkAddress: LinkAddress, replyChannel: ChannelId,
                       packageId: Bytes, data: Bytes)
    requires Lawful(codecs)
    requires IsByteString(codecs.dump(HelloJson(codecs, linkAddress, replyChannel, packageId, data)))
    ensures var h := Hello(codecs, linkAddress, replyChannel, packageId, data);
            var j := codecs.parse(BytesToStr(h[PACKAGE_ID_LEN..]));
            && j.Some?
            && AtString(j.value, "linkAddress") == Some(linkAddress)
            && AtString(j.value, "replyChannel") == Some(replyChannel)
            && AtString(j.value, "packageId").Some?
            && codecs.b64decode(AtString(j.value, "packageId").value) == Some(packageId)
            && AtString(j.value, "message").Some?
            && codecs.b64decode(AtString(j.value, "message").value) == Some(data)
  {
    var j := HelloJson(codecs, linkAddress, replyChannel, packageId, data);
    var h := Hello(codecs, linkAddress, replyChannel, packageId, data);
    assert h[PACKAGE_ID_LEN..] == StrToBytes(codecs.dump(j));
    StrBytesRoundTrip(codecs.dump(j));
    assert codecs.parse(codecs.dump(j)) == Some(j);
  }

  /**
   * StateDialSendOpen: register a connection handle, then send the hello on
   * the send connection and register the package handle; the data is moved
   * out either way.
   */
  function SendOpen(w: World, c: DialCtx): (o: Outcome<DialCtx>)
    ensures GetPlugin(w, c.opts.send_channel).Some? ==> o == Threw(c, [])
    ensures GetPlugin(w, c.opts.send_channel).None? ==>
              var n := |c.env.requests|;
              && o.Returned? && o.data.data == [] && o.data.dialCallback == c.dialCallback
              && o.data.env.fired == c.env.fired
              && |o.data.env.requests| == n + 5
              && o.data.env.requests[n + 3]
                 == SendPackage(c.opts.send_channel, w.answer(n + 2).handle, c.sendConnId,
                                Hello(w.codecs, c.recvLinkAddress, c.opts.recv_channel, c.packageId, c.data))
              && (o.result == SUCCESS <==> w.answer(n + 3).ok)
    ensures o.pushed == []
  {
    if GetPlugin(w, c.opts.send_channel).Some? then Threw(c, [])
    else
      var (env1, conn) := Ask(w, c.env, GenerateHandle);
      var env2 := Tell(env1, RegisterHandle(c.handle, conn.handle));
      var hello := Hello(w.codecs, c.recvLinkAddress, c.opts.recv_channel, c.packageId, c.data);
      var (env3, pkg) := Ask(w, env2, GenerateHandle);
      var (env4, b) := Ask(w, env3, SendPackage(c.opts.send_channel, pkg.handle, c.sendConnId, hello));
      var c1 := c.(data := [], env := Tell(env4, RegisterHandle(c.handle, pkg.handle)));
      Returned(if b.ok then SUCCESS else NOT_SUPPORTED, c1, [])
  }

  /** StateDialPackageSent: once the receive connection is up, listen on it and move on. */
  function PackageSent(c: DialCtx): (o: Outcome<DialCtx>)
    ensures o.Returned? && o.result == SUCCESS
    ensures c.recvConnId == "" ==> o.data == c && o.pushed == []
    ensures c.recvConnId != "" ==> o.data == c.(env := Tell(c.env, RegisterId(c.handle, c.recvConnId)))
                                   && o.pushed == [EVENT_SATISFIED]
  {
    if c.recvConnId != "" then
      Returned(SUCCESS, c.(env := Tell(c.env, RegisterId(c.handle, c.recvConnId))), [EVENT_SATISFIED])
    else Returned(SUCCESS, c, [])
  }

  /** The conduit properties the dial callback reports. */
  function DialProperties(codecs: Codecs, c: DialCtx): (p: ConduitProperties)
    ensures p.recv_channel == c.opts.recv_channel && p.recv_role == c.opts.recv_role
    ensures p.recv_address == c.recvLinkAddress
    ensures p.send_channel == c.opts.send_channel && p.send_role == c.opts.send_role
    ensures p.send_address == c.opts.send_address && p.timeout_ms == c.opts.timeout_ms
    ensures p.package_id == codecs.b64encode(c.packageId)
  {
    ConduitProperties(codecs.b64encode(c.packageId), c.opts.recv_channel, c.opts.recv_role, c.recvLinkAddress,
                      c.opts.send_channel, c.opts.send_role, c.opts.send_address, c.opts.timeout_ms)
  }

  /** The reported package id decodes to the package id the hello carried. */
  lemma ReportedPackageIdDecodes(codecs: Codecs, c: DialCtx)
    requires Lawful(codecs)
    ensures codecs.b64decode(DialProperties(codecs, c).package_id) == Some(c.packageId)
  {
  }

  /**
   * StateDialFinished: start a conduit on both connections with the package
   * id, and report it with its properties.
   */
  function Finished(w: World, c: DialCtx): (o: Outcome<DialCtx>)
    ensures var n := |c.env.requests|;
            var api := w.answer(n).handle;
            var start := StartConduit(c.handle, c.recvConnSMHandle, c.recvConnId, c.sendConnSMHandle, c.sendConnId,
                                      c.opts.send_channel, c.opts.recv_channel, BytesToStr(c.packageId), [], api);
            && (w.answer(n + 1).handle == NULL_RACE_HANDLE ==>
                  o == Returned(NOT_SUPPORTED, c.(env := Tell(Tell(c.env, GenerateHandle), start)), []))
            && (w.answer(n + 1).handle != NULL_RACE_HANDLE && c.dialCallback.None? ==> o.Threw?)
            && (w.answer(n + 1).handle != NULL_RACE_HANDLE && c.dialCallback.Some? ==>
                  && o.Returned? && o.result == SUCCESS && o.data.dialCallback.None?
                  && o.data.env.fired == c.env.fired
                                         + [Fired(c.dialCallback.value, OK, PProps(api, DialProperties(w.codecs, c)))]
                  && o.data.env.requests == c.env.requests + [GenerateHandle, start, StateMachineFinished(c.handle)])
    ensures o.pushed == []
  {
    var (env1, api) := Ask(w, c.env, GenerateHandle);
    var (env2, conduit) := Ask(w, env1, StartConduit(c.handle, c.recvConnSMHandle, c.recvConnId, c.sendConnSMHandle,
                                                      c.sendConnId, c.opts.send_channel, c.opts.recv_channel,
                                                      BytesToStr(c.packageId), [], api.handle));
    if conduit.handle == NULL_RACE_HANDLE then Returned(NOT_SUPPORTED, c.(env := env2), [])
    else
      match Invoke(env2, c.dialCallback, OK, PProps(api.handle, DialProperties(w.codecs, c)))
      case None => Threw(c.(env := env2), [])
      case Some(env3) =>
        Returned(SUCCESS, c.(dialCallback := None, env := Tell(env3, StateMachineFinished(c.handle))), [])
  }

  /** StateDialFailed: INTERNAL_ERROR only if the dial callback is still set; tell the manager. */
  function Failed(c: DialCtx): (o: Outcome<DialCtx>)
    ensures o.Returned? && o.result == SUCCESS && o.data.dialCallback.None?
    ensures o.data.env.fired == InvokeIfSet(c.env, c.dialCallback, INTERNAL_ERROR, NoConduit).fired
    ensures o.data.env.requests == c.env.requests + [StateMachineFailed(c.handle)]
  {
    var env := InvokeIfSet(c.env, c.dialCallback, INTERNAL_ERROR, NoConduit);
    Returned(SUCCESS, c.(dialCallback := None, env := Tell(env, StateMachineFailed(c.handle))), [])
  }

  // ---------------------------------------------------------------------
  // The engine
  // ---------------------------------------------------------------------

  function DialStates(w: World): map<StateType, StateDef<DialCtx>> {
    map[STATE_DIAL_INITIAL := PlainState((cur: StateType, c: DialCtx) => Initial(w, c)),
        STATE_DIAL_WAITING_FOR_SEND_CONNECTION := PlainState((cur: StateType, c: DialCtx) => WaitingForSendConnection(w, c)),
        STATE_DIAL_SEND_OPEN := PlainState((cur: StateType, c: DialCtx) => SendOpen(w, c)),
        STATE_DIAL_PACKAGE_SENT := PlainState((cur: StateType, c: DialCtx) => PackageSent(c)),
        STATE_DIAL_FINISHED := FinalState((cur: StateType, c: DialCtx) => Finished(w, c)),
        STATE_DIAL_FAILED := PlainState((cur: StateType, c: DialCtx) => Failed(c))]
  }

  /** The declarations of DialStateEngine's constructor, in order. */
  function DialDecls(): seq<Decl> {
    [Decl(STATE_DIAL_INITIAL, EVENT_CONN_STATE_MACHINE_LINK_ESTABLISHED, STATE_DIAL_WAITING_FOR_SEND_CONNECTION),
     Decl(STATE_DIAL_WAITING_FOR_SEND_CONNECTION, EVENT_CONN_STATE_MACHINE_CONNECTED, STATE_DIAL_WAITING_FOR_SEND_CONNECTION),
     Decl(STATE_DIAL_WAITING_FOR_SEND_CONNECTION, EVENT_SATISFIED, STATE_DIAL_SEND_OPEN),
     Decl(STATE_DIAL_SEND_OPEN, EVENT_PACKAGE_SENT, STATE_DIAL_PACKAGE_SENT),
     Decl(STATE_DIAL_PACKAGE_SENT, EVENT_CONN_STATE_MACHINE_CONNECTED, STATE_DIAL_PACKAGE_SENT),
     Decl(STATE_DIAL_PACKAGE_SENT, EVENT_SATISFIED, STATE_DIAL_FINISHED)]
  }

  /**
   * The dial lifecycle: receive link up, send connection up, hello sent,
   * receive connection up.
   */
  function DialNext(s: StateType, e: EventType): Option<StateType> {
    if s == STATE_DIAL_INITIAL && e == EVENT_CONN_STATE_MACHINE_LINK_ESTABLISHED then
      Some(STATE_DIAL_WAITING_FOR_SEND_CONNECTION)
    else if s == STATE_DIAL_WAITING_FOR_SEND_CONNECTION && e == EVENT_CONN_STATE_MACHINE_CONNECTED then
      Some(STATE_DIAL_WAITING_FOR_SEND_CONNECTION)
    else if s == STATE_DIAL_WAITING_FOR_SEND_CONNECTION && e == EVENT_SATISFIED then Some(STATE_DIAL_SEND_OPEN)
    else if s == STATE_DIAL_SEND_OPEN && e == EVENT_PACKAGE_SENT then Some(STATE_DIAL_PACKAGE_SENT)
    else if s == STATE_DIAL_PACKAGE_SENT && e == EVENT_CONN_STATE_MACHINE_CONNECTED then Some(STATE_DIAL_PACKAGE_SENT)
    else if s == STATE_DIAL_PACKAGE_SENT && e == EVENT_SATISFIED then Some(STATE_DIAL_FINISHED)
    else None
  }

  lemma DialDeclTargets(s: StateType, e: EventType)
    ensures DeclTargets(DialDecls(), s, e) == TargetSet(DialNext(s, e))
  {
  }

  /** The declared table is the dial lifecycle. */
  lemma DialDeclsFollow()
    ensures Follows(DeclareAll(map[], DialDecls()), DialNext)
  {
    forall s, e
      ensures Declares(DeclareAll(map[], DialDecls()), s, e) <==> DialNext(s, e).Some?
      ensures Targets(DeclareAll(map[], DialDecls()), s, e) == TargetSet(DialNext(s, e))
    {
      DialDeclTargets(s, e);
      DeclaredTable(DialDecls(), s, e, DialNext(s, e));
    }
  }

  /** What DialStateEngine's constructor builds. */
  ghost predicate IsDialTable(w: World, t: Table<DialCtx>) {
    && t.states == DialStates(w)
    && Follows(t.transitions, DialNext)
    && t.initStateId == STATE_DIAL_INITIAL && t.failedStateId == STATE_DIAL_FAILED
  }

  /** DialStateEngine's constructor. */
  method NewDialStateEngine(w: World) returns (e: StateEngine<DialCtx>)
    ensures IsDialTable(w, e.Spec())
  {
    e := new StateEngine();
    e.AddInitialState(STATE_DIAL_INITIAL, PlainState((cur: StateType, c: DialCtx) => Initial(w, c)));
    e.AddState(STATE_DIAL_WAITING_FOR_SEND_CONNECTION,
               PlainState((cur: StateType, c: DialCtx) => WaitingForSendConnection(w, c)));
    e.AddState(STATE_DIAL_SEND_OPEN, PlainState((cur: StateType, c: DialCtx) => SendOpen(w, c)));
    e.AddState(STATE_DIAL_PACKAGE_SENT, PlainState((cur: StateType, c: DialCtx) => PackageSent(c)));
    e.AddState(STATE_DIAL_FINISHED, FinalState((cur: StateType, c: DialCtx) => Finished(w, c)));
    e.AddFailedState(STATE_DIAL_FAILED, PlainState((cur: StateType, c: DialCtx) => Failed(c)));
    e.DeclareTransitions(DialDecls());
    DialDeclsFollow();
  }

  // ---------------------------------------------------------------------
  // Properties
  // ---------------------------------------------------------------------

  /**
   * After the hello, a report from the receive connection finishes the
   * dial: the report records the receive id, the re-entered package-sent
   * state emits SATISFIED, and the machine finishes when the conduit starts
   * and the callback is set.
   */
  lemma RecvConnectedFinishes(w: World, t: Table<DialCtx>, c: Config<DialCtx>,
                              connId: ConnectionId, address: LinkAddress, fuel: nat)
    requires IsDialTable(w, t)
    requires c.currentStateId == STATE_DIAL_PACKAGE_SENT && c.pendingEvents == []
    requires connId != "" && fuel >= 2
    ensures var d := Apply(c.data, UConnStateMachineConnected(c.data.recvConnSMHandle, connId, address));
            var d' := d.(env := Tell(d.env, RegisterId(d.handle, connId)));
            var r := HandleEventSpec(t, c.(data := d), EVENT_CONN_STATE_MACHINE_CONNECTED, fuel);
            && d.recvConnId == connId
            && |r.handled| >= 2 && r.handled[..2] == [EVENT_CONN_STATE_MACHINE_CONNECTED, EVENT_SATISFIED]
            && (r.result == SUCCESS <==> Finished(w, d').Returned? && Finished(w, d').result == SUCCESS)
            && (r.result == SUCCESS ==> r.config.currentStateId == STATE_DIAL_FINISHED)
  {
    var d := Apply(c.data, UConnStateMachineConnected(c.data.recvConnSMHandle, connId, address));
    var d' := d.(env := Tell(d.env, RegisterId(d.handle, connId)));
    assert d.recvConnId == connId;
    ConnectedFinishesFrom(w, t, c, d, fuel);
  }

  /** RecvConnectedFinishes for any context whose receive connection is known. */
  lemma ConnectedFinishesFrom(w: World, t: Table<DialCtx>, c: Config<DialCtx>, d: DialCtx, fuel: nat)
    requires IsDialTable(w, t)
    requires c.currentStateId == STATE_DIAL_PACKAGE_SENT && c.pendingEvents == []
    requires d.recvConnId != "" && fuel >= 2
    ensures var d' := d.(env := Tell(d.env, RegisterId(d.handle, d.recvConnId)));
            var r := HandleEventSpec(t, c.(data := d), EVENT_CONN_STATE_MACHINE_CONNECTED, fuel);
            && |r.handled| >= 2 && r.handled[..2] == [EVENT_CONN_STATE_MACHINE_CONNECTED, EVENT_SATISFIED]
            && (r.result == SUCCESS <==> Finished(w, d').Returned? && Finished(w, d').result == SUCCESS)
            && (r.result == SUCCESS ==> r.config.currentStateId == STATE_DIAL_FINISHED)
  {
    ConnectedSteps(w, t, d, fuel);
    ConnectedThenSatisfied(w, t, c, d, RecvRegistered(d), fuel);
  }

  /** The two table steps ConnectedThenSatisfied composes: the connected event queues SATISFIED, which finishes. */
  lemma ConnectedSteps(w: World, t: Table<DialCtx>, d: DialCtx, fuel: nat)
    requires IsDialTable(w, t)
    requires d.recvConnId != "" && fuel >= 2
    ensures HasFailedState(t) && STATE_DIAL_PACKAGE_SENT in t.states
    ensures FinishesOnSatisfied(w, Drain(t, Config(STATE_DIAL_PACKAGE_SENT, [EVENT_SATISFIED], RecvRegistered(d)), fuel - 1),
                                RecvRegistered(d))
    ensures Drain(t, Config(STATE_DIAL_PACKAGE_SENT, [EVENT_CONN_STATE_MACHINE_CONNECTED], d), fuel)
            == Prepend([EVENT_CONN_STATE_MACHINE_CONNECTED],
                       Drain(t, Config(STATE_DIAL_PACKAGE_SENT, [EVENT_SATISFIED], RecvRegistered(d)), fuel - 1))
  {
    SatisfiedFinishes(w, t, RecvRegistered(d), fuel - 1);
    ConnectedQueuesSatisfied(w, t, d, fuel);
  }

  /** The context once the receive connection's id is registered with the manager. */
  function RecvRegistered(d: DialCtx): DialCtx {
    d.(env := Tell(d.env, RegisterId(d.handle, d.recvConnId)))
  }

  /** The two steps of RecvConnectedFinishes put together, for any table that takes them. */
  lemma ConnectedThenSatisfied(w: World, t: Table<DialCtx>, c: Config<DialCtx>, d: DialCtx, d': DialCtx, fuel: nat)
    requires HasFailedState(t) && STATE_DIAL_PACKAGE_SENT in t.states
    requires c.currentStateId == STATE_DIAL_PACKAGE_SENT && c.pendingEvents == [] && fuel >= 2
    requires Drain(t, Config(STATE_DIAL_PACKAGE_SENT, [EVENT_CONN_STATE_MACHINE_CONNECTED], d), fuel)
             == Prepend([EVENT_CONN_STATE_MACHINE_CONNECTED],
                        Drain(t, Config(STATE_DIAL_PACKAGE_SENT, [EVENT_SATISFIED], d'), fuel - 1))
    requires FinishesOnSatisfied(w, Drain(t, Config(STATE_DIAL_PACKAGE_SENT, [EVENT_SATISFIED], d'), fuel - 1), d')
    ensures var r := HandleEventSpec(t, c.(data := d), EVENT_CONN_STATE_MACHINE_CONNECTED, fuel);
            && |r.handled| >= 2 && r.handled[..2] == [EVENT_CONN_STATE_MACHINE_CONNECTED, EVENT_SATISFIED]
            && (r.result == SUCCESS <==> Finished(w, d').Returned? && Finished(w, d').result == SUCCESS)
            && (r.result == SUCCESS ==> r.config.currentStateId == STATE_DIAL_FINISHED)
  {
    var r2 := Drain(t, Config(STATE_DIAL_PACKAGE_SENT, [EVENT_SATISFIED], d'), fuel - 1);
    assert c.(data := d).(pendingEvents := c.pendingEvents + [EVENT_CONN_STATE_MACHINE_CONNECTED])
           == Config(STATE_DIAL_PACKAGE_SENT, [EVENT_CONN_STATE_MACHINE_CONNECTED], d);
    assert HandleEventSpec(t, c.(data := d), EVENT_CONN_STATE_MACHINE_CONNECTED, fuel).handled
           == [EVENT_CONN_STATE_MACHINE_CONNECTED] + r2.handled;
  }

  /** In STATE_DIAL_PACKAGE_SENT with the receive connection known, the connected event queues EVENT_SATISFIED. */
  lemma ConnectedQueuesSatisfied(w: World, t: Table<DialCtx>, d: DialCtx, fuel: nat)
    requires IsDialTable(w, t)
    requires d.recvConnId != "" && fuel >= 1
    ensures HasFailedState(t) && STATE_DIAL_PACKAGE_SENT in t.states
    ensures Drain(t, Config(STATE_DIAL_PACKAGE_SENT, [EVENT_CONN_STATE_MACHINE_CONNECTED], d), fuel)
            == Prepend([EVENT_CONN_STATE_MACHINE_CONNECTED],
                       Drain(t, Config(STATE_DIAL_PACKAGE_SENT, [EVENT_SATISFIED], RecvRegistered(d)), fuel - 1))
  {
    var c0 := Config(STATE_DIAL_PACKAGE_SENT, [], d);
    assert Targets(t.transitions, STATE_DIAL_PACKAGE_SENT, EVENT_CONN_STATE_MACHINE_CONNECTED)
           == TargetSet(DialNext(STATE_DIAL_PACKAGE_SENT, EVENT_CONN_STATE_MACHINE_CONNECTED));
    HandleOneMoves(t, c0, EVENT_CONN_STATE_MACHINE_CONNECTED, STATE_DIAL_PACKAGE_SENT);
    assert t.states[STATE_DIAL_PACKAGE_SENT].exit(STATE_DIAL_PACKAGE_SENT, d) == Returned(SUCCESS, d, []);
    assert t.states[STATE_DIAL_PACKAGE_SENT].enter(STATE_DIAL_PACKAGE_SENT, d) == PackageSent(d);
    TransitionByEnter(t, c0, STATE_DIAL_PACKAGE_SENT);
    assert c0.pendingEvents + [EVENT_SATISFIED] == [EVENT_SATISFIED];
  }

  /** A run that handled EVENT_SATISFIED first and finished exactly when the finished state's enter succeeded. */
  ghost predicate FinishesOnSatisfied(w: World, r: Drained<DialCtx>, d: DialCtx) {
    && |r.handled| >= 1 && r.handled[0] == EVENT_SATISFIED
    && (r.result == SUCCESS <==> Finished(w, d).Returned? && Finished(w, d).result == SUCCESS)
    && (r.result == SUCCESS ==> r.config.currentStateId == STATE_DIAL_FINISHED)
  }

  /** EVENT_SATISFIED in STATE_DIAL_PACKAGE_SENT finishes the dial exactly when the finished state's enter succeeds. */
  lemma SatisfiedFinishes(w: World, t: Table<DialCtx>, d: DialCtx, fuel: nat)
    requires IsDialTable(w, t)
    requires fuel >= 1
    ensures FinishesOnSatisfied(w, Drain(t, Config(STATE_DIAL_PACKAGE_SENT, [EVENT_SATISFIED], d), fuel), d)
  {
    var c3 := Config(STATE_DIAL_PACKAGE_SENT, [], d);
    assert Targets(t.transitions, STATE_DIAL_PACKAGE_SENT, EVENT_SATISFIED)
           == TargetSet(DialNext(STATE_DIAL_PACKAGE_SENT, EVENT_SATISFIED));
    HandleOneMoves(t, c3, EVENT_SATISFIED, STATE_DIAL_FINISHED);
    assert t.states[STATE_DIAL_PACKAGE_SENT].exit(STATE_DIAL_PACKAGE_SENT, d) == Returned(SUCCESS, d, []);
    assert t.states[STATE_DIAL_FINISHED].enter(STATE_DIAL_PACKAGE_SENT, d) == Finished(w, d);
    TransitionByEnter(t, c3, STATE_DIAL_FINISHED);
    var (res, c4) := HandleOne(t, c3, EVENT_SATISFIED);
    assert Drain(t, Config(STATE_DIAL_PACKAGE_SENT, [EVENT_SATISFIED], d), fuel)
           == if res != SUCCESS then Drained(res, FailSpec(t, c4), [EVENT_SATISFIED])
              else Prepend([EVENT_SATISFIED], Drain(t, c4, fuel - 1));
  }

  ghost predicate CallbackOnce(c: DialCtx, cb: Callback) {
    OneShot(c.dialCallback, c.env.fired, cb)
  }

  /** Every state that fires the dial callback clears it, and none fires anything else. */
  lemma StatesKeepCallbackOnce(w: World, t: Table<DialCtx>, cb: Callback)
    requires IsDialTable(w, t)
    ensures Keeps(t, (c: DialCtx) => CallbackOnce(c, cb))
  {
    forall s, cur, c | s in t.states && CallbackOnce(c, cb)
      ensures CallbackOnce(t.states[s].enter(cur, c).data, cb)
      ensures CallbackOnce(t.states[s].exit(cur, c).data, cb)
    {
      if s == STATE_DIAL_INITIAL {
        if RecvCheck(w, c.opts).Some? {
          FireAndClear(c.dialCallback, c.env, cb, RecvCheck(w, c.opts).value, NoConduit);
        }
      } else if s == STATE_DIAL_WAITING_FOR_SEND_CONNECTION {
        if c.sendConnId == "" && SendCheck(w, c.opts).Some? {
          FireAndClear(c.dialCallback, c.env, cb, SendCheck(w, c.opts).value, NoConduit);
        }
      } else if s == STATE_DIAL_FINISHED {
        FinishedKeepsCallbackOnce(w, c, cb);
      } else if s == STATE_DIAL_FAILED {
        FireAndClear(c.dialCallback, c.env, cb, INTERNAL_ERROR, NoConduit);
      }
    }
  }

  lemma FinishedKeepsCallbackOnce(w: World, c: DialCtx, cb: Callback)
    requires CallbackOnce(c, cb)
    ensures CallbackOnce(Finished(w, c).data, cb)
  {
    var n := |c.env.requests|;
    var api := w.answer(n).handle;
    var start := StartConduit(c.handle, c.recvConnSMHandle, c.recvConnId, c.sendConnSMHandle, c.sendConnId,
                              c.opts.send_channel, c.opts.recv_channel, BytesToStr(c.packageId), [], api);
    FireAndClear(c.dialCallback, Tell(Tell(c.env, GenerateHandle), start), cb, OK,
                 PProps(api, DialProperties(w.codecs, c)));
  }

  /** A dial started with cb set and nothing fired fires cb at most once. */
  lemma StartFiresCallbackAtMostOnce(w: World, t: Table<DialCtx>, c: Config<DialCtx>, fuel: nat, cb: Callback)
    requires IsDialTable(w, t)
    requires c.data.dialCallback == Some(cb) && c.data.env.fired == []
    ensures Count(StartSpec(t, c, fuel).config.data.env.fired, cb) <= 1
  {
    StatesKeepCallbackOnce(w, t, cb);
    StartKeeps(t, c, fuel, (d: DialCtx) => CallbackOnce(d, cb));
  }

  /** ... and keeps firing it at most once on every later event. */
  lemma HandleEventKeepsCallbackOnce(w: World, t: Table<DialCtx>, c: Config<DialCtx>, e: EventType,
                                     fuel: nat, cb: Callback)
    requires IsDialTable(w, t)
    requires CallbackOnce(c.data, cb)
    ensures Count(HandleEventSpec(t, c, e, fuel).config.data.env.fired, cb) <= 1
  {
    StatesKeepCallbackOnce(w, t, cb);
    HandleEventKeeps(t, c, e, fuel, (d: DialCtx) => CallbackOnce(d, cb));
  }
}

=== FILE: dispatcher.dfy ===
// The race-dispatcher managed transport
// (pluggable-transport/source/cmd/race-dispatcher/Dispatcher.go): which
// local address it advertises, the channel parameters it builds from a
// SOCKS request's or a bind address's arguments, how client connections
// share one RaceClient, and what each connection does before relaying.
// Sockets, goroutines, the SOCKS handshake and the copy loops are not
// modelled; goptlib's Args are a map from a key to its values, and
// Args.Get gives the first value of a key that has any.

module Dispatcher {
  import opened Common
  import CommandLine
  import RaceApi
  import RacePt3

  // ---- GetLocalIP ----

  /** A net.IP: four bytes, or sixteen (an IPv4 address may come mapped into IPv6). */
  type IP = seq<byte>

  /** What net.InterfaceAddrs lists: an address with a mask, or some other kind of address. */
  datatype InterfaceAddr = IPNet(ip: IP) | OtherAddr

  const V4_IN_V6_PREFIX: IP := [0, 0, 0, 0, 0, 0, 0, 0, 0, 0, 255, 255]
  const IPV6_LOOPBACK: IP := [0, 0, 0, 0, 0, 0, 0, 0, 0, 0, 0, 0, 0, 0, 0, 1]

  /** net.IP.To4: the four bytes of an IPv4 address, plain or mapped; none otherwise. */
  function To4(ip: IP): (r: Option<IP>)
    ensures r.Some? ==> |r.value| == 4
    ensures |ip| == 4 ==> r == Some(ip)
    ensures r.Some? && |ip| != 4 ==> |ip| == 16 && ip == V4_IN_V6_PREFIX + r.value
  {
    if |ip| == 4 then Some(ip)
    else if |ip| == 16 && ip[..12] == V4_IN_V6_PREFIX then
      assert ip == ip[..12] + ip[12..];
      Some(ip[12..])
    else None
  }

  /** net.IP.IsLoopback: 127/8 for IPv4, ::1 otherwise. */
  predicate IsLoopback(ip: IP) {
    match To4(ip)
    case Some(v4) => v4[0] == 127
    case None => ip == IPV6_LOOPBACK
  }

  /** An address GetLocalIP will take: an IPNet that is not loopback and is IPv4. */
  predicate Usable(a: InterfaceAddr) {
    a.IPNet? && !IsLoopback(a.ip) && To4(a.ip).Some?
  }

  /** net.IP.String of an IPv4 address: four decimal numbers joined by dots. */
  function DottedQuad(v4: IP): string
    requires |v4| == 4
  {
    Decimal(v4[0]) + "." + Decimal(v4[1]) + "." + Decimal(v4[2]) + "." + Decimal(v4[3])
  }

  /** The first usable address in enumeration order. */
  function FirstUsable(addrs: seq<InterfaceAddr>): (r: Option<nat>)
    ensures r.Some? ==> r.value < |addrs| && Usable(addrs[r.value])
    ensures r.Some? ==> forall j :: 0 <= j < r.value ==> !Usable(addrs[j])
    ensures r.None? <==> forall j :: 0 <= j < |addrs| ==> !Usable(addrs[j])
    decreases |addrs|
  {
    if addrs == [] then None
    else if Usable(addrs[0]) then Some(0)
    else match FirstUsable(addrs[1..])
      case None => None
      case Some(i) => Some(i + 1)
  }

  /**
   * What GetLocalIP gives: "" when the interfaces cannot be listed (None)
   * or none is usable, else the first usable address, printed.
   */
  function LocalIP(addrs: Option<seq<InterfaceAddr>>): string {
    match addrs
    case None => ""
    case Some(as_) =>
      match FirstUsable(as_)
      case None => ""
      case Some(i) => DottedQuad(To4(as_[i].ip).value)
  }

  /** GetLocalIP: the search over net.InterfaceAddrs. */
  method GetLocalIP(addrs: Option<seq<InterfaceAddr>>) returns (ip: string)
    ensures ip == LocalIP(addrs)
  {
    if addrs.None? {
      return "";
    }
    var as_ := addrs.value;
    var i := 0;
    while i < |as_|
      invariant 0 <= i <= |as_|
      invariant forall j :: 0 <= j < i ==> !Usable(as_[j])
    {
      var a := as_[i];
      if a.IPNet? && !IsLoopback(a.ip) {
        var v4 := To4(a.ip);
        if v4.Some? {
          FirstUsableIs(as_, i);
          return DottedQuad(v4.value);
        }
      }
      i := i + 1;
    }
    return "";
  }

  lemma {:induction false} FirstUsableIs(addrs: seq<InterfaceAddr>, k: nat)
    requires k < |addrs| && Usable(addrs[k])
    requires forall j :: 0 <= j < k ==> !Usable(addrs[j])
    ensures FirstUsable(addrs) == Some(k)
    decreases k
  {
    if k > 0 {
      FirstUsableIs(addrs[1..], k - 1);
    }
  }

  /**
   * The advertised address is empty exactly when no address is usable, and
   * otherwise it is the first usable one.
   */
  lemma LocalIPIsFirstUsable(addrs: seq<InterfaceAddr>, i: nat)
    requires i < |addrs| && Usable(addrs[i]) && forall j :: 0 <= j < i ==> !Usable(addrs[j])
    ensures LocalIP(Some(addrs)) == DottedQuad(To4(addrs[i].ip).value)
  {
    FirstUsableIs(addrs, i);
  }

  lemma LocalIPEmpty(addrs: Option<seq<InterfaceAddr>>)
    ensures LocalIP(addrs) == "" <==> addrs.None? || forall j :: 0 <= j < |addrs.value| ==> !Usable(addrs.value[j])
  {
    if addrs.Some? && FirstUsable(addrs.value).Some? {
      var v4 := To4(addrs.value[FirstUsable(addrs.value).value].ip).value;
      assert |Decimal(v4[0])| >= 1;
    }
  }

  /** A loopback address is never advertised: the address given never starts "127.". */
  lemma LocalIPNotLoopback(addrs: Option<seq<InterfaceAddr>>)
    ensures var r := LocalIP(addrs); !(|r| >= 4 && r[..4] == "127.")
  {
    if addrs.Some? && FirstUsable(addrs.value).Some? {
      var v4 := To4(addrs.value[FirstUsable(addrs.value).value].ip).value;
      var d := Decimal(v4[0]);
      var tail := "." + Decimal(v4[1]) + "." + Decimal(v4[2]) + "." + Decimal(v4[3]);
      assert DottedQuad(v4) == d + tail;
      NumberBeforeDot(d, tail);
      if d == "127" {
        Decimal127();
        DecimalInjective(v4[0], 127);
      }
    }
  }

  /** Digits followed by a dot start "127." only when the digits are "127". */
  lemma NumberBeforeDot(d: string, tail: string)
    requires forall i :: 0 <= i < |d| ==> '0' <= d[i] <= '9'
    requires tail != [] && tail[0] == '.'
    ensures var r := d + tail; |r| >= 4 && r[..4] == "127." ==> d == "127"
  {
    var r := d + tail;
    if |r| >= 4 && r[..4] == "127." {
      assert r[3] == '.' && r[|d|] == '.';
      assert |d| == 3;
      assert d == r[..3];
    }
  }

  lemma Decimal127()
    ensures Decimal(127) == "127"
  {
    assert Decimal(1) == "1";
    assert Decimal(12) == Decimal(1) + "2";
    assert Decimal(127) == Decimal(12) + "7";
  }

  // ---- the channel parameters ----

  /** goptlib's Args: each key with its values, in the order given. */
  type Args = map<string, seq<string>>

  /** Args.Get: the first value of a key that has any. */
  function Get(args: Args, key: string): (r: Option<string>)
    ensures r.Some? <==> key in args && args[key] != []
    ensures r.Some? ==> r.value == args[key][0]
  {
    if key in args && args[key] != [] then Some(args[key][0]) else None
  }

  const HOSTNAME_KEY := "hostname"
  const START_PORT_KEY := "PluginCommsTwoSixStub.startPort"
  const END_PORT_KEY := "PluginCommsTwoSixStub.endPort"
  const DEFAULT_HOSTNAME := "localhost"
  const DEFAULT_START_PORT := "26265"
  const DEFAULT_END_PORT := "26267"
  const DEFAULT_CHANNEL := "twoSixDirectCpp"
  const DEFAULT_ROLE := "default"
  /** The client's send address when the request names none. */
  const DEFAULT_SEND_LINK_ADDRESS := "{\"hostname\":\"172.17.0.2\",\"port\":26262}"
  /** The server's receive address when the bind address names none. */
  const DEFAULT_RECV_LINK_ADDRESS := "{\"hostname\":\"localhost\",\"port\":26262}"

  /** strings.Join. */
  function Join(values: seq<string>, sep: string): string
    decreases |values|
  {
    if values == [] then ""
    else if |values| == 1 then values[0]
    else values[0] + sep + Join(values[1..], sep)
  }

  /** strings.Split at one character. */
  function Split(s: string, sep: char): (r: seq<string>)
    ensures |r| >= 1
    decreases |s|
  {
    match CommandLine.Find(s, sep)
    case None => [s]
    case Some(i) => [s[..i]] + Split(s[i + 1..], sep)
  }

  /**
   * Values joined with "," split back into the same values when none of
   * them holds a comma: a parameter keeps all of a key's values.
   */
  lemma {:induction false} SplitJoin(values: seq<string>)
    requires values != [] && forall i :: 0 <= i < |values| ==> ',' !in values[i]
    ensures Split(Join(values, ","), ',') == values
    decreases |values|
  {
    if |values| > 1 {
      SplitJoin(values[1..]);
      SplitAfterFirst(values[0], Join(values[1..], ","));
      assert values == [values[0]] + values[1..];
    }
  }

  /** Splitting text with no comma, a comma, and more: the text, then the pieces of the rest. */
  lemma SplitAfterFirst(first: string, rest: string)
    requires ',' !in first
    ensures Split(first + "," + rest, ',') == [first] + Split(rest, ',')
  {
    var s := first + "," + rest;
    assert s == first + ("," + rest);
    CommandLine.FindAfterPrefix(first, ',', "," + rest);
    assert s[..|first|] == first;
    assert s[|first| + 1..] == rest;
  }

  /** The hostname parameter: the discovered address, or "localhost" when there is none. */
  function HostName(localIP: string): (r: string)
    ensures r != ""
    ensures localIP != "" ==> r == localIP
  {
    if localIP != "" then localIP else DEFAULT_HOSTNAME
  }

  /** The parameters set before the arguments are copied. */
  function BaseParams(localIP: string): map<string, string> {
    map[HOSTNAME_KEY := HostName(localIP), START_PORT_KEY := DEFAULT_START_PORT, END_PORT_KEY := DEFAULT_END_PORT]
  }

  /** userParams: the defaults, then every argument with at least one value, its values joined by ",". */
  function UserParams(localIP: string, args: Args): map<string, string> {
    BaseParams(localIP) + map k | k in args && args[k] != [] :: Join(args[k], ",")
  }

  /**
   * Building userParams: three defaults, then the `range` over the
   * arguments, in whatever order Go visits them.
   */
  method MarshalUserParams(localIP: string, args: Args) returns (params: map<string, string>)
    ensures params == UserParams(localIP, args)
  {
    params := map[];
    var host := DEFAULT_HOSTNAME;
    if localIP != "" {
      host := localIP;
    }
    params := params[HOSTNAME_KEY := host];
    params := params[START_PORT_KEY := DEFAULT_START_PORT];
    params := params[END_PORT_KEY := DEFAULT_END_PORT];
    var todo := args.Keys;
    while todo != {}
      invariant todo <= args.Keys
      invariant params == ParamsCopied(localIP, args, args.Keys - todo)
      decreases todo
    {
      var key :| key in todo;
      CopyOne(localIP, args, args.Keys - todo, key);
      if |args[key]| > 0 {
        params := params[key := Join(args[key], ",")];
      }
      assert args.Keys - (todo - {key}) == (args.Keys - todo) + {key};
      todo := todo - {key};
    }
    assert args.Keys - todo == args.Keys;
    AllCopied(localIP, args);
  }

  /** userParams once the arguments in `done` have been copied. */
  function ParamsCopied(localIP: string, args: Args, done: set<string>): map<string, string> {
    BaseParams(localIP) + map k | k in done && k in args && args[k] != [] :: Join(args[k], ",")
  }

  /** Copying one more argument sets its joined values, if it has any. */
  lemma CopyOne(localIP: string, args: Args, done: set<string>, key: string)
    requires key in args && key !in done
    ensures ParamsCopied(localIP, args, done + {key}) ==
      if args[key] != [] then ParamsCopied(localIP, args, done)[key := Join(args[key], ",")] else ParamsCopied(localIP, args, done)
  {
  }

  /** All the arguments copied is userParams. */
  lemma AllCopied(localIP: string, args: Args)
    ensures ParamsCopied(localIP, args, args.Keys) == UserParams(localIP, args)
  {
  }

  /**
   * What userParams holds: a key is there when it is one of the three
   * defaults or an argument with values; an argument's values win over a
   * default, and a default stands when no argument gives that key.
   */
  lemma UserParamsContents(localIP: string, args: Args, key: string)
    ensures key in UserParams(localIP, args) <==>
      key == HOSTNAME_KEY || key == START_PORT_KEY || key == END_PORT_KEY || Get(args, key).Some?
    ensures Get(args, key).Some? ==> UserParams(localIP, args)[key] == Join(args[key], ",")
    ensures Get(args, key).None? && key == HOSTNAME_KEY ==> UserParams(localIP, args)[key] == HostName(localIP)
    ensures Get(args, key).None? && key == START_PORT_KEY ==> UserParams(localIP, args)[key] == DEFAULT_START_PORT
    ensures Get(args, key).None? && key == END_PORT_KEY ==> UserParams(localIP, args)[key] == DEFAULT_END_PORT
  {
  }

  /** What a client connection is set up with. */
  datatype ClientConfig = ClientConfig(
    sendChannel: ChannelId,
    recvChannel: ChannelId,
    sendLinkAddress: LinkAddress,
    recvLinkAddress: LinkAddress,
    introMessage: string,
    userParams: map<string, string>)

  /** An argument's first value, or a default. */
  function ArgOr(args: Args, key: string, default: string): string {
    match Get(args, key)
    case Some(v) => v
    case None => default
  }

  /** The SOCKS request's arguments read into a client's settings. */
  function ClientConfigOf(localIP: string, args: Args): ClientConfig {
    ClientConfig(ArgOr(args, "send", DEFAULT_CHANNEL), ArgOr(args, "recv", DEFAULT_CHANNEL),
                 ArgOr(args, "sendLinkAddress", DEFAULT_SEND_LINK_ADDRESS), ArgOr(args, "recvLinkAddress", ""),
                 ArgOr(args, "introMessage", ""), UserParams(localIP, args))
  }

  /** What a server is set up with. */
  datatype ServerConfig = ServerConfig(
    sendChannel: ChannelId,
    recvChannel: ChannelId,
    recvLinkAddress: LinkAddress,
    userParams: map<string, string>)

  /** A bind address's options read into a server's settings. */
  function ServerConfigOf(localIP: string, options: Args): ServerConfig {
    ServerConfig(ArgOr(options, "send", DEFAULT_CHANNEL), ArgOr(options, "recv", DEFAULT_CHANNEL),
                 ArgOr(options, "recvLinkAddress", DEFAULT_RECV_LINK_ADDRESS), UserParams(localIP, options))
  }

  /**
   * Without arguments both ends use the direct channel both ways; the
   * client sends to 172.17.0.2:26262 and the server listens on
   * localhost:26262. Neither is then refused by the adapter.
   */
  lemma DefaultsWithoutArguments(localIP: string)
    ensures var c := ClientConfigOf(localIP, map[]);
      c.sendChannel == DEFAULT_CHANNEL && c.recvChannel == DEFAULT_CHANNEL
      && c.sendLinkAddress == DEFAULT_SEND_LINK_ADDRESS && c.introMessage == ""
      && c.userParams == BaseParams(localIP)
      && RacePt3.ClientRefusal(c.sendChannel, c.recvChannel).None?
    ensures var s := ServerConfigOf(localIP, map[]);
      s.sendChannel == DEFAULT_CHANNEL && s.recvChannel == DEFAULT_CHANNEL
      && s.recvLinkAddress == DEFAULT_RECV_LINK_ADDRESS && s.userParams == BaseParams(localIP)
      && RacePt3.ServerRefusal(s.recvLinkAddress, s.sendChannel, s.recvChannel).None?
  {
    var none: Args := map[];
    assert (map k | k in none && none[k] != [] :: Join(none[k], ",")) == map[];
  }

  /**
   * A channel argument reaches the client twice: as its channel, only its
   * first value; and among the parameters, all its values joined. With one
   * value the two agree; with two they do not.
   */
  lemma ChannelArgumentTwice(localIP: string, args: Args, key: string, a: string, b: string)
    requires key == "send" || key == "recv"
    requires key in args && args[key] == [a]
    ensures var c := ClientConfigOf(localIP, args);
      (if key == "send" then c.sendChannel else c.recvChannel) == a && c.userParams[key] == a
    ensures var c := ClientConfigOf(localIP, args[key := [a, b]]);
      (if key == "send" then c.sendChannel else c.recvChannel) == a && c.userParams[key] == a + "," + b
  {
    var args2 := args[key := [a, b]];
    assert Join(args2[key], ",") == a + "," + b by {
      assert args2[key][1..] == [b];
    }
  }

  // ---- client connections ----

  /** How a client connection's handler ends. */
  datatype ConnOutcome =
    | NilClient          // NewRaceClient gave nil: calling Dial on it panics
    | DialFailed         // returns before the SOCKS grant
    | GrantFailed        // the SOCKS reply failed
    | Relaying(conn: RacePt3.RaceConn)

  /**
   * The state the handlers of clientSocksAcceptLoop share: its `clients`
   * slice, which the first connection fills and later ones read.
   */
  class ClientSession {
    var clients: seq<RacePt3.RaceClient?>
    const redirectPath: string

    constructor(clients: seq<RacePt3.RaceClient?>, redirectPath: string)
      ensures this.clients == clients && this.redirectPath == redirectPath
    {
      this.clients := clients;
      this.redirectPath := redirectPath;
    }

    /**
     * One SOCKS connection: build the settings from its arguments; the
     * first connection creates the client (with no plugin path, so the
     * default, and the DEBUG log level), a later one takes clients[0];
     * dial the send address; only a successful dial is granted.
     * `dialAnswer` is what the core's dial gave, `granted` whether the
     * SOCKS reply went out.
     */
    method HandleConnection(localIP: string, args: Args, dialAnswer: (ApiStatus, RaceApi.ApiObject), granted: bool)
      returns (o: ConnOutcome, client: RacePt3.RaceClient?, dialed: Option<SendOptions>)
      modifies this
      ensures var cfg := ClientConfigOf(localIP, args);
        old(clients) == [] ==> clients == [client] && (client == null <==> RacePt3.ClientRefusal(cfg.sendChannel, cfg.recvChannel).Some?)
      ensures var cfg := ClientConfigOf(localIP, args);
        old(clients) == [] && client != null ==>
          && fresh(client) && client.raceLive && client.params != null && client.params.params == cfg.userParams
          && client.sendChannelId == cfg.sendChannel && client.recvChannelId == cfg.recvChannel
          && client.sendChannelRole == DEFAULT_ROLE && client.recvChannelRole == DEFAULT_ROLE
          && client.pluginPath == RacePt3.DEFAULT_PLUGIN_PATH && client.introduction == cfg.introMessage
      ensures old(clients) != [] ==> clients == old(clients) && client == old(clients)[0]
      ensures client == null ==> o == NilClient && dialed.None?
      ensures client != null ==> dialed == Some(client.Dial(ClientConfigOf(localIP, args).sendLinkAddress, dialAnswer).0)
      ensures client != null ==> (o == DialFailed <==> dialAnswer.0 != OK)
      ensures client != null && dialAnswer.0 == OK ==> o == (if granted then Relaying(RacePt3.RaceConn(Some(dialAnswer.1))) else GrantFailed)
    {
      var params := MarshalUserParams(localIP, args);
      var cfg := ClientConfigOf(localIP, args);
      if |clients| == 0 {
        client := RacePt3.NewRaceClient(cfg.sendChannel, DEFAULT_ROLE, cfg.recvChannel, DEFAULT_ROLE, "", "", "", 0,
                                        RacePt3.DEBUG, cfg.introMessage, redirectPath, params);
        clients := clients + [client];
      } else {
        client := clients[0];
      }
      if client == null {
        return NilClient, client, None;
      }
      var (opts, conn) := client.Dial(cfg.sendLinkAddress, dialAnswer);
      dialed := Some(opts);
      if conn.Failure? {
        return DialFailed, client, dialed;
      }
      if !granted {
        return GrantFailed, client, dialed;
      }
      return Relaying(conn.value), client, dialed;
    }
  }

  /**
   * Two connections in a row use one client: the second reuses what the
   * first created, whatever its own arguments say.
   */
  method ConnectionsShareClient(s: ClientSession, ip: string, args1: Args, args2: Args,
                                d1: (ApiStatus, RaceApi.ApiObject), d2: (ApiStatus, RaceApi.ApiObject), g1: bool, g2: bool)
    returns (c1: RacePt3.RaceClient?, c2: RacePt3.RaceClient?)
    requires s.clients == []
    modifies s
    ensures c1 == c2 && s.clients == [c1]
  {
    var o1, d;
    o1, c1, d := s.HandleConnection(ip, args1, d1, g1);
    var o2;
    o2, c2, d := s.HandleConnection(ip, args2, d2, g2);
  }

  /**
   * clientSetup as written: it makes its own empty `clients` slice, hands
   * the accept loop a copy and returns the original, which nothing ever
   * appends to.
   */
  method ClientSetup(redirectPath: string) returns (launched: bool, clients: seq<RacePt3.RaceClient?>, session: ClientSession)
    ensures fresh(session) && session.clients == [] && session.redirectPath == redirectPath
    ensures launched && clients == []
  {
    clients := [];
    session := new ClientSession(clients, redirectPath);
    launched := true;
  }

  /**
   * The client's life as written: set up, one connection that creates a
   * client, then main destroys the clients clientSetup returned: none. The
   * created client is never destroyed.
   */
  method ClientLifetimeAsWritten(ip: string, args: Args, d: (ApiStatus, RaceApi.ApiObject), g: bool)
    returns (created: RacePt3.RaceClient?, destroyed: seq<RacePt3.RaceClient?>)
    ensures created != null ==> created !in destroyed && created.raceLive
    ensures RacePt3.ClientRefusal(ClientConfigOf(ip, args).sendChannel, ClientConfigOf(ip, args).recvChannel).None? ==> created != null
  {
    var launched, clients, session := ClientSetup("");
    var o, dialed;
    o, created, dialed := session.HandleConnection(ip, args, d, g);
    destroyed := clients;
  }

  /**
   * The client's life as intended: main destroys the clients the accept
   * loop created, so the one created is destroyed.
   */
  method ClientLifetime(ip: string, args: Args, d: (ApiStatus, RaceApi.ApiObject), g: bool)
    returns (created: RacePt3.RaceClient?, destroyed: seq<RacePt3.RaceClient?>)
    ensures created != null ==> created in destroyed && !created.raceLive && created.params == null
  {
    var launched, clients, session := ClientSetup("");
    var o, dialed;
    o, created, dialed := session.HandleConnection(ip, args, d, g);
    destroyed := session.clients;
    if created != null {
      RacePt3.DestroyRaceClient(created);
    }
  }

  // ---- the server side ----

  /** A bind address the transport is told to serve, with its options. */
  datatype Bindaddr = Bindaddr(methodName: string, options: Args)

  /**
   * The loop of serverSetup that creates a server per bind address, with
   * the default role both ways and the DEBUG log level. A nil server is
   * kept in its slot.
   */
  method ServerSetup(localIP: string, bindaddrs: seq<Bindaddr>, redirectPath: string) returns (servers: seq<RacePt3.RaceServer?>)
    ensures |servers| == |bindaddrs|
    ensures forall i :: 0 <= i < |servers| ==> BuiltFrom(servers[i], ServerConfigOf(localIP, bindaddrs[i].options))
  {
    servers := [];
    for index := 0 to |bindaddrs|
      invariant |servers| == index
      invariant forall i :: 0 <= i < index ==> BuiltFrom(servers[i], ServerConfigOf(localIP, bindaddrs[i].options))
    {
      var params := MarshalUserParams(localIP, bindaddrs[index].options);
      var cfg := ServerConfigOf(localIP, bindaddrs[index].options);
      var server := RacePt3.NewRaceServer(cfg.sendChannel, DEFAULT_ROLE, cfg.recvChannel, DEFAULT_ROLE, "", "",
                                          cfg.recvLinkAddress, "", 0, RacePt3.DEBUG, "", redirectPath, params);
      servers := servers + [server];
    }
  }

  /** A server slot filled from a configuration: nil exactly when the adapter refuses it, else its settings. */
  predicate BuiltFrom(server: RacePt3.RaceServer?, cfg: ServerConfig) {
    && (server == null <==> RacePt3.ServerRefusal(cfg.recvLinkAddress, cfg.sendChannel, cfg.recvChannel).Some?)
    && (server != null ==>
          && server.receiveLinkAddress == cfg.recvLinkAddress
          && server.sendChannelId == cfg.sendChannel && server.recvChannelId == cfg.recvChannel
          && server.sendChannelRole == DEFAULT_ROLE && server.recvChannelRole == DEFAULT_ROLE
          && server.pluginPath == RacePt3.DEFAULT_PLUGIN_PATH)
  }

  /** What an Accept error is, as the accept loop tells them apart. */
  datatype AcceptError = NoError | NetError(temporary: bool) | OtherError

  /** What the accept loop does next. */
  datatype LoopAction = Serve(conn: RacePt3.RaceConn) | Next | ReturnError

  /** How RaceListener.Accept's error looks to the loop: its errors are plain errors, not net.Errors. */
  function AcceptErrorOf(err: Option<string>): (r: AcceptError)
    ensures err.None? <==> r == NoError
  {
    if err.None? then NoError else OtherError
  }

  /**
   * One pass of serverAcceptLoop after Accept. As written, only a
   * permanent net.Error ends the loop, and every other outcome, errors
   * included, starts a handler on the connection Accept returned.
   * Corrected, an error never reaches a handler: a permanent net.Error
   * ends the loop and any other error goes on to the next Accept.
   */
  function AcceptStep(conn: RacePt3.RaceConn, err: AcceptError, asWritten: bool): (r: LoopAction)
    ensures !asWritten ==> (r.Serve? <==> err == NoError)
    ensures r == ReturnError <==> err == NetError(false)
  {
    if err == NetError(false) then ReturnError
    else if asWritten || err == NoError then Serve(conn)
    else Next
  }

  /**
   * As written, a failed Accept, whatever its error text, hands the handler
   * the zero RaceConn, which has no conduit.
   */
  lemma FailedAcceptServedAsWritten(err: string)
    ensures var step := AcceptStep(RacePt3.RaceConn(None), AcceptErrorOf(Some(err)), true);
      step.Serve? && step.conn.conduit.None?
  {
  }

  /**
   * What that handler then does, as written: copyLoop's first read from the
   * conn it was given panics, since there is no conduit to read from.
   */
  method FailedAcceptHandlerPanics(err: string, buffer: array<byte>, answers: seq<RacePt3.ReadAnswer>)
    returns (r: RacePt3.ReadResult)
    modifies buffer
    ensures r == RacePt3.Panicked && buffer[..] == old(buffer[..])
  {
    var step := AcceptStep(RacePt3.RaceConn(None), AcceptErrorOf(Some(err)), true);
    FailedAcceptServedAsWritten(err);
    r := RacePt3.Read(step.conn, buffer, answers);
  }

  /** Corrected, every connection a handler gets carries the conduit Accept returned. */
  lemma HandlersGetAcceptedConduits(conn: RacePt3.RaceConn, err: Option<string>)
    requires err.None? ==> conn.conduit.Some?
    ensures var step := AcceptStep(conn, AcceptErrorOf(err), false);
      step.Serve? ==> step.conn.conduit.Some? && err.None?
  {
  }
}

=== FILE: engine.dfy ===
// The generic event-driven state engine every API operation runs on
// (source/state-machine/StateMachine.h and StateMachine.cpp).
//
// A context holds the id of its current state and a FIFO of pending events.
// The engine holds the registered states and the declared transitions
// from-state -> event -> {to-states}. States are stateless: all they do is
// read and change the context they are entered with. A state's enter/exit
// body is modelled as a function from the current state id and the context's
// data to an Outcome: the value it returned or the fact that it threw, with
// the context data it left behind and the events it pushed.

module Engine {
  import opened Common

  type StateType = nat
  type EventType = nat

  const STATE_INVALID: StateType := 0
  const STATE_FAILED: StateType := 1
  const STATE_INIT: StateType := 2
  const STATE_FIRST_UNUSED: StateType := 3

  const EVENT_INVALID: EventType := 0
  const EVENT_FAILED: EventType := 1
  const EVENT_FIRST_UNUSED: EventType := 2

  datatype EventResult = NOT_SUPPORTED | SUCCESS

  /** What running an enter or exit body did. */
  datatype Outcome<D> =
    | Returned(result: EventResult, data: D, pushed: seq<EventType>)
    | Threw(data: D, pushed: seq<EventType>)

  /** The effect of a wrapped call: a result, the new data, the pushed events. */
  datatype Step<D> = Step(result: EventResult, data: D, pushed: seq<EventType>)

  /** A registered State: its virtual members as function values. */
  datatype StateDef<!D> = StateDef(
    enter: (StateType, D) -> Outcome<D>,
    exit: (StateType, D) -> Outcome<D>,
    prerequisitesSatisfied: D -> bool,
    finalState: bool)

  function DefaultExit<D>(current: StateType, d: D): Outcome<D> {
    Returned(SUCCESS, d, [])
  }

  function DefaultPrerequisites<D>(d: D): bool {
    true
  }

  /** A State that overrides only enter: exit succeeds, prerequisites hold, not final. */
  function PlainState<D(!new)>(enter: (StateType, D) -> Outcome<D>): (s: StateDef<D>)
    ensures s.enter == enter && !s.finalState
    ensures forall cur, d :: s.exit(cur, d) == Returned(SUCCESS, d, [])
    ensures forall d :: s.prerequisitesSatisfied(d)
  {
    StateDef(enter, DefaultExit, DefaultPrerequisites, false)
  }

  /** A FinalState: like PlainState but finalState() is true. */
  function FinalState<D(!new)>(enter: (StateType, D) -> Outcome<D>): (s: StateDef<D>)
    ensures s.enter == enter && s.finalState
    ensures forall cur, d :: s.exit(cur, d) == Returned(SUCCESS, d, [])
    ensures forall d :: s.prerequisitesSatisfied(d)
  {
    StateDef(enter, DefaultExit, DefaultPrerequisites, true)
  }

  /** The base State::enter: succeed and change nothing. */
  function DefaultEnter<D>(current: StateType, d: D): Outcome<D> {
    Returned(SUCCESS, d, [])
  }

  /** enterWrapper/exitWrapper: any exception becomes NOT_SUPPORTED, otherwise the body's result. */
  function Wrapper<D>(o: Outcome<D>): (s: Step<D>)
    ensures s.data == o.data && s.pushed == o.pushed
    ensures o.Threw? ==> s.result == NOT_SUPPORTED
    ensures o.Returned? ==> s.result == o.result
  {
    match o
    case Returned(r, d, p) => Step(r, d, p)
    case Threw(d, p) => Step(NOT_SUPPORTED, d, p)
  }

  function EnterWrapper<D>(s: StateDef<D>, current: StateType, d: D): Step<D> {
    Wrapper(s.enter(current, d))
  }

  function ExitWrapper<D>(s: StateDef<D>, current: StateType, d: D): Step<D> {
    Wrapper(s.exit(current, d))
  }

  /** getDerivedContext: a dynamic_cast of a possibly null context pointer. */
  datatype ObjectRef = ObjectRef(address: nat, classes: set<string>)

  function GetDerivedContext(context: Option<ObjectRef>, target: string): (r: Option<ObjectRef>)
    ensures context.None? ==> r.None?
    ensures r.Some? <==> context.Some? && target in context.value.classes
    ensures r.Some? ==> r == context
  {
    if context.Some? && target in context.value.classes then context else None
  }

  // ---------------------------------------------------------------------
  // The transition table
  // ---------------------------------------------------------------------

  type Transitions = map<StateType, map<EventType, set<StateType>>>

  /** validTransitions[s][e], or the empty set when nothing was declared. */
  function Targets(t: Transitions, s: StateType, e: EventType): set<StateType> {
    if s in t && e in t[s] then t[s][e] else {}
  }

  /** Some transition was declared for event e out of state s. */
  predicate Declares(t: Transitions, s: StateType, e: EventType) {
    s in t && e in t[s]
  }

  /** declareStateTransition: validTransitions[from][e].insert(to). */
  function Declare(t: Transitions, from: StateType, e: EventType, to: StateType): (r: Transitions)
    ensures Declares(r, from, e)
    ensures Targets(r, from, e) == Targets(t, from, e) + {to}
    ensures forall s, e' :: s != from || e' != e ==>
              (Declares(r, s, e') <==> Declares(t, s, e')) && Targets(r, s, e') == Targets(t, s, e')
  {
    var row: map<EventType, set<StateType>> := if from in t then t[from] else map[];
    var old_targets := if e in row then row[e] else {};
    t[from := row[e := old_targets + {to}]]
  }

  /** One declareStateTransition(from, event, to) call of an engine's constructor. */
  datatype Decl = Decl(from: StateType, event: EventType, to: StateType)

  /** The table built by declaring ds in order, starting from t. */
  function DeclareAll(t: Transitions, ds: seq<Decl>): Transitions
    decreases |ds|
  {
    if ds == [] then t else DeclareAll(Declare(t, ds[0].from, ds[0].event, ds[0].to), ds[1..])
  }

  /** The targets the declarations ds give to event e out of state s. */
  function DeclTargets(ds: seq<Decl>, s: StateType, e: EventType): set<StateType> {
    set d | d in ds && d.from == s && d.event == e :: d.to
  }

  /** Declaring ds adds exactly the targets ds names for each (state, event), and declares nothing else. */
  lemma {:induction false} DeclareAllTargets(t: Transitions, ds: seq<Decl>, s: StateType, e: EventType)
    ensures Targets(DeclareAll(t, ds), s, e) == Targets(t, s, e) + DeclTargets(ds, s, e)
    ensures Declares(DeclareAll(t, ds), s, e) <==> Declares(t, s, e) || DeclTargets(ds, s, e) != {}
    decreases |ds|
  {
    if ds != [] {
      var t1 := Declare(t, ds[0].from, ds[0].event, ds[0].to);
      DeclareAllTargets(t1, ds[1..], s, e);
      assert forall d :: d in ds <==> d == ds[0] || d in ds[1..];
      if ds[0].from == s && ds[0].event == e {
        assert ds[0].to in DeclTargets(ds, s, e);
      }
    }
  }

  /** A table declared from scratch holds, for each (state, event), exactly the targets its declarations name. */
  lemma DeclaredTable(ds: seq<Decl>, s: StateType, e: EventType, expected: Option<StateType>)
    requires DeclTargets(ds, s, e) == TargetSet(expected)
    ensures Targets(DeclareAll(map[], ds), s, e) == TargetSet(expected)
    ensures Declares(DeclareAll(map[], ds), s, e) <==> expected.Some?
  {
    DeclareAllTargets(map[], ds, s, e);
  }

  /**
   * The transitions t declare are those of the reference lifecycle next:
   * exactly its (state, event) pairs are declared, each with its one target.
   */
  ghost predicate Follows(t: Transitions, next: (StateType, EventType) -> Option<StateType>) {
    forall s, e :: (Declares(t, s, e) <==> next(s, e).Some?) && Targets(t, s, e) == TargetSet(next(s, e))
  }

  /** Declaring one more transition after ds. */
  lemma {:induction false} DeclareAllSnoc(t: Transitions, ds: seq<Decl>, d: Decl)
    ensures DeclareAll(t, ds + [d]) == Declare(DeclareAll(t, ds), d.from, d.event, d.to)
    decreases |ds|
  {
    if ds != [] {
      assert (ds + [d])[1..] == ds[1..] + [d];
      DeclareAllSnoc(Declare(t, ds[0].from, ds[0].event, ds[0].to), ds[1..], d);
    }
  }

  /** The target set of a table lookup that yields at most one state. */
  function TargetSet(next: Option<StateType>): (r: set<StateType>)
    ensures next.None? <==> r == {}
    ensures next.Some? ==> r == {next.value}
  {
    if next.Some? then {next.value} else {}
  }

  /** State::nextStateId: the unique target, or STATE_INVALID when there are zero or several. */
  ghost function NextStateId(targets: set<StateType>): (r: StateType)
    ensures |targets| == 1 ==> targets == {r}
    ensures |targets| != 1 ==> r == STATE_INVALID
  {
    if |targets| == 1 then
      var x :| x in targets;
      SingletonIs(targets, x);
      x
    else
      STATE_INVALID
  }

  lemma SingletonIs<T>(s: set<T>, x: T)
    requires |s| == 1 && x in s
    ensures s == {x}
  {
    assert |s - {x}| == |s| - 1 == 0;
  }

  // ---------------------------------------------------------------------
  // Specification of the engine's behaviour on a context
  // ---------------------------------------------------------------------

  /** The state of one Context: its current state, its queue and the derived context's fields. */
  datatype Config<D> = Config(currentStateId: StateType, pendingEvents: seq<EventType>, data: D)

  /** The registered states, the declared transitions, and the initial and failed state ids. */
  datatype Table<!D> = Table(
    states: map<StateType, StateDef<D>>,
    transitions: Transitions,
    initStateId: StateType,
    failedStateId: StateType)

  /** Every machine declares a failed state; fail() dereferences it unconditionally. */
  ghost predicate HasFailedState<D>(t: Table<D>) {
    t.failedStateId in t.states
  }

  /** stateHandlesEvent: the state exists and some transition is declared for the event. */
  predicate HandlesEvent<D>(t: Table<D>, s: StateType, e: EventType) {
    s in t.states && Declares(t.transitions, s, e)
  }

  /** Apply a step's data and pushed events to a configuration. */
  function Apply<D>(c: Config<D>, data: D, pushed: seq<EventType>): (r: Config<D>)
    ensures r.currentStateId == c.currentStateId
    ensures r.pendingEvents == c.pendingEvents + pushed && r.data == data
  {
    Config(c.currentStateId, c.pendingEvents + pushed, data)
  }

  /**
   * transitionToState: exit the current state, check the next state's
   * prerequisites, enter it; the current state id changes only when all
   * three succeed.
   */
  ghost function TransitionSpec<D>(t: Table<D>, c: Config<D>, next: StateType): (r: (EventResult, Config<D>))
    requires c.currentStateId in t.states && next in t.states
    ensures c.pendingEvents <= r.1.pendingEvents
    ensures
      var x := ExitWrapper(t.states[c.currentStateId], c.currentStateId, c.data);
      var moves := x.result == SUCCESS
                   && t.states[next].prerequisitesSatisfied(x.data)
                   && EnterWrapper(t.states[next], c.currentStateId, x.data).result == SUCCESS;
      && (r.0 == SUCCESS <==> moves)
      && r.1.currentStateId == (if moves then next else c.currentStateId)
  {
    var x := ExitWrapper(t.states[c.currentStateId], c.currentStateId, c.data);
    var c1 := Apply(c, x.data, x.pushed);
    if x.result == NOT_SUPPORTED then (NOT_SUPPORTED, c1)
    else if !t.states[next].prerequisitesSatisfied(c1.data) then (NOT_SUPPORTED, c1)
    else
      var y := EnterWrapper(t.states[next], c1.currentStateId, c1.data);
      var c2 := Apply(c1, y.data, y.pushed);
      if y.result == NOT_SUPPORTED then (NOT_SUPPORTED, c2)
      else (y.result, c2.(currentStateId := next))
  }

  /**
   * The body of handleEvents' loop for one popped event, before any fail():
   * an undeclared event is NOT_SUPPORTED; a declared one whose next state id
   * is not a registered state is consumed without effect.
   */
  ghost function HandleOne<D>(t: Table<D>, c: Config<D>, e: EventType): (r: (EventResult, Config<D>))
    ensures c.pendingEvents <= r.1.pendingEvents
    ensures !HandlesEvent(t, c.currentStateId, e) ==> r == (NOT_SUPPORTED, c)
    ensures r.1.currentStateId != c.currentStateId ==>
              r.1.currentStateId in Targets(t.transitions, c.currentStateId, e) + {STATE_INVALID}
  {
    if HandlesEvent(t, c.currentStateId, e) then
      var next := NextStateId(Targets(t.transitions, c.currentStateId, e));
      if next in t.states then TransitionSpec(t, c, next) else (SUCCESS, c)
    else
      (NOT_SUPPORTED, c)
  }

  /** An event with one declared, registered target runs the transition to it. */
  lemma HandleOneMoves<D>(t: Table<D>, c: Config<D>, e: EventType, next: StateType)
    requires c.currentStateId in t.states && next in t.states
    requires Targets(t.transitions, c.currentStateId, e) == {next}
    ensures HandleOne(t, c, e) == TransitionSpec(t, c, next)
  {
    assert next in Targets(t.transitions, c.currentStateId, e);
  }

  /**
   * A transition out of a state whose exit is the default one into a state
   * whose prerequisites hold: the target's enter decides, its pushes are queued.
   */
  lemma TransitionByEnter<D>(t: Table<D>, c: Config<D>, next: StateType)
    requires c.currentStateId in t.states && next in t.states
    requires t.states[c.currentStateId].exit(c.currentStateId, c.data) == Returned(SUCCESS, c.data, [])
    requires t.states[next].prerequisitesSatisfied(c.data)
    ensures var o := t.states[next].enter(c.currentStateId, c.data);
            var moves := o.Returned? && o.result == SUCCESS;
            TransitionSpec(t, c, next)
            == (if moves then SUCCESS else NOT_SUPPORTED,
                Config(if moves then next else c.currentStateId, c.pendingEvents + o.pushed, o.data))
  {
    assert c.pendingEvents + [] == c.pendingEvents;
  }

  /**
   * fail: run the current state's exit (when that state exists), enter the
   * failed state through enterWrapper, and always land in the failed state.
   */
  ghost function FailSpec<D>(t: Table<D>, c: Config<D>): (r: Config<D>)
    requires HasFailedState(t)
    ensures r.currentStateId == t.failedStateId
    ensures c.pendingEvents <= r.pendingEvents
  {
    var c1 := if c.currentStateId in t.states then
                var o := t.states[c.currentStateId].exit(c.currentStateId, c.data);
                Apply(c, o.data, o.pushed)
              else c;
    var s := EnterWrapper(t.states[t.failedStateId], c1.currentStateId, c1.data);
    Config(t.failedStateId, c1.pendingEvents + s.pushed, s.data)
  }

  /** The result of draining the queue: the result, the final configuration, the events popped in order. */
  datatype Drained<D> = Drained(result: EventResult, config: Config<D>, handled: seq<EventType>)

  function Min(a: nat, b: nat): nat {
    if a < b then a else b
  }

  /** Events handled before d's events, in order. */
  function Prepend<D>(h: seq<EventType>, d: Drained<D>): Drained<D> {
    d.(handled := h + d.handled)
  }

  /**
   * handleEvents, bounded by fuel events: pop the front event, handle it,
   * and on the first non-SUCCESS result fail the context and stop.
   */
  ghost function Drain<D>(t: Table<D>, c: Config<D>, fuel: nat): (r: Drained<D>)
    requires HasFailedState(t)
    ensures |r.handled| <= fuel
    ensures r.result == NOT_SUPPORTED ==> r.config.currentStateId == t.failedStateId
    ensures r.result == SUCCESS ==> r.config.pendingEvents == [] || |r.handled| == fuel
    ensures var k := Min(|c.pendingEvents|, |r.handled|);
            r.handled[..k] == c.pendingEvents[..k]
    decreases fuel
  {
    if c.pendingEvents == [] || fuel == 0 then
      Drained(SUCCESS, c, [])
    else
      var e := c.pendingEvents[0];
      var rest := c.(pendingEvents := c.pendingEvents[1..]);
      var (res, c1) := HandleOne(t, rest, e);
      if res != SUCCESS then
        Drained(res, FailSpec(t, c1), [e])
      else
        var d := Drain(t, c1, fuel - 1);
        FifoStep(c.pendingEvents, c1.pendingEvents, d.handled);
        Prepend([e], d)
  }

  /** One step of the FIFO argument: q' extends the tail of q, and h agrees with q' on their common prefix. */
  lemma FifoStep(q: seq<EventType>, q': seq<EventType>, h: seq<EventType>)
    requires |q| > 0 && q[1..] <= q'
    requires var k := Min(|q'|, |h|); h[..k] == q'[..k]
    ensures var k := Min(|q|, 1 + |h|); ([q[0]] + h)[..k] == q[..k]
  {
    var k := Min(|q|, 1 + |h|);
    var k' := Min(|q'|, |h|);
    forall i | 0 <= i < k
      ensures ([q[0]] + h)[i] == q[i]
    {
      if i > 0 {
        assert i - 1 < k';
        assert h[..k'][i - 1] == q'[..k'][i - 1];
      }
    }
  }

  /** start: clear the queue, enter the initial state, then drain the queue. */
  ghost function StartSpec<D>(t: Table<D>, c: Config<D>, fuel: nat): (r: Drained<D>)
    requires HasFailedState(t)
    ensures t.initStateId !in t.states ==>
              r == Drained(NOT_SUPPORTED, c.(pendingEvents := []), [])
    ensures t.initStateId in t.states && r.result == NOT_SUPPORTED
            && t.states[t.initStateId].prerequisitesSatisfied(c.data) ==>
              r.config.currentStateId == t.failedStateId
    ensures r.result == SUCCESS ==> t.initStateId in t.states
  {
    var c0 := c.(pendingEvents := []);
    if t.initStateId !in t.states then
      Drained(NOT_SUPPORTED, c0, [])
    else if !t.states[t.initStateId].prerequisitesSatisfied(c0.data) then
      Drained(NOT_SUPPORTED, c0, [])
    else
      var s := EnterWrapper(t.states[t.initStateId], c0.currentStateId, c0.data);
      var c1 := Apply(c0, s.data, s.pushed);
      if s.result == SUCCESS then
        Drain(t, c1.(currentStateId := t.initStateId), fuel)
      else
        Drained(s.result, FailSpec(t, c1), [])
  }

  /** handleEvent: refuse a context in an unregistered state, otherwise queue the event and drain. */
  ghost function HandleEventSpec<D>(t: Table<D>, c: Config<D>, e: EventType, fuel: nat): (r: Drained<D>)
    requires HasFailedState(t)
    ensures c.currentStateId !in t.states ==> r == Drained(NOT_SUPPORTED, c, [])
    ensures c.currentStateId in t.states && c.pendingEvents == [] && fuel > 0
            && !HandlesEvent(t, c.currentStateId, e) ==>
              r.result == NOT_SUPPORTED && r.config.currentStateId == t.failedStateId && r.handled == [e]
  {
    if c.currentStateId !in t.states then
      Drained(NOT_SUPPORTED, c, [])
    else
      Drain(t, c.(pendingEvents := c.pendingEvents + [e]), fuel)
  }

  // ---------------------------------------------------------------------
  // Invariants of the context data
  // ---------------------------------------------------------------------

  /** Every registered state's enter and exit keep P of the context data. */
  ghost predicate Keeps<D(!new)>(t: Table<D>, P: D -> bool) {
    forall s, cur, d :: s in t.states && P(d) ==>
      P(t.states[s].enter(cur, d).data) && P(t.states[s].exit(cur, d).data)
  }

  lemma TransitionKeeps<D(!new)>(t: Table<D>, c: Config<D>, next: StateType, P: D -> bool)
    requires c.currentStateId in t.states && next in t.states
    requires Keeps(t, P) && P(c.data)
    ensures P(TransitionSpec(t, c, next).1.data)
  {
  }

  lemma FailKeeps<D(!new)>(t: Table<D>, c: Config<D>, P: D -> bool)
    requires HasFailedState(t) && Keeps(t, P) && P(c.data)
    ensures P(FailSpec(t, c).data)
  {
  }

  lemma HandleOneKeeps<D(!new)>(t: Table<D>, c: Config<D>, e: EventType, P: D -> bool)
    requires Keeps(t, P) && P(c.data)
    ensures P(HandleOne(t, c, e).1.data)
  {
    if HandlesEvent(t, c.currentStateId, e) {
      var next := NextStateId(Targets(t.transitions, c.currentStateId, e));
      if next in t.states {
        TransitionKeeps(t, c, next, P);
      }
    }
  }

  /** Draining the queue keeps every property all registered states keep. */
  lemma {:induction false} DrainKeeps<D(!new)>(t: Table<D>, c: Config<D>, fuel: nat, P: D -> bool)
    requires HasFailedState(t) && Keeps(t, P) && P(c.data)
    ensures P(Drain(t, c, fuel).config.data)
    decreases fuel
  {
    if c.pendingEvents != [] && fuel > 0 {
      var e := c.pendingEvents[0];
      var rest := c.(pendingEvents := c.pendingEvents[1..]);
      HandleOneKeeps(t, rest, e, P);
      var (res, c1) := HandleOne(t, rest, e);
      if res != SUCCESS {
        FailKeeps(t, c1, P);
      } else {
        DrainKeeps(t, c1, fuel - 1, P);
      }
    }
  }

  lemma StartKeeps<D(!new)>(t: Table<D>, c: Config<D>, fuel: nat, P: D -> bool)
    requires HasFailedState(t) && Keeps(t, P) && P(c.data)
    ensures P(StartSpec(t, c, fuel).config.data)
  {
    var c0 := c.(pendingEvents := []);
    if t.initStateId in t.states && t.states[t.initStateId].prerequisitesSatisfied(c0.data) {
      var s := EnterWrapper(t.states[t.initStateId], c0.currentStateId, c0.data);
      var c1 := Apply(c0, s.data, s.pushed);
      if s.result == SUCCESS {
        DrainKeeps(t, c1.(currentStateId := t.initStateId), fuel, P);
      } else {
        FailKeeps(t, c1, P);
      }
    }
  }

  lemma HandleEventKeeps<D(!new)>(t: Table<D>, c: Config<D>, e: EventType, fuel: nat, P: D -> bool)
    requires HasFailedState(t) && Keeps(t, P) && P(c.data)
    ensures P(HandleEventSpec(t, c, e, fuel).config.data)
  {
    if c.currentStateId in t.states {
      DrainKeeps(t, c.(pendingEvents := c.pendingEvents + [e]), fuel, P);
    }
  }

  // ---------------------------------------------------------------------
  // The objects
  // ---------------------------------------------------------------------

  /** Context: the state a machine keeps between events. */
  class Context<D> {
    var currentStateId: StateType
    var pendingEvents: seq<EventType>
    var data: D

    constructor (d: D)
      ensures currentStateId == STATE_INVALID && pendingEvents == [] && data == d
    {
      currentStateId := STATE_INVALID;
      pendingEvents := [];
      data := d;
    }

    ghost function Snapshot(): Config<D>
      reads this
    {
      Config(currentStateId, pendingEvents, data)
    }
  }

  class StateEngine<D> {
    var idToInstanceMap: map<StateType, StateDef<D>>
    var validTransitions: Transitions
    var initStateId: StateType
    var failedStateId: StateType

    ghost function Spec(): Table<D>
      reads this
    {
      Table(idToInstanceMap, validTransitions, initStateId, failedStateId)
    }

    constructor ()
      ensures idToInstanceMap == map[] && validTransitions == map[]
      ensures initStateId == STATE_INVALID && failedStateId == STATE_INVALID
    {
      idToInstanceMap := map[];
      validTransitions := map[];
      initStateId := STATE_INVALID;
      failedStateId := STATE_INVALID;
    }

    /** addState: a later registration under the same id overwrites the earlier one. */
    method AddState(id: StateType, s: StateDef<D>)
      modifies this
      ensures idToInstanceMap == old(idToInstanceMap)[id := s]
      ensures validTransitions == old(validTransitions)
      ensures initStateId == old(initStateId) && failedStateId == old(failedStateId)
    {
      idToInstanceMap := idToInstanceMap[id := s];
    }

    method AddInitialState(id: StateType, s: StateDef<D>)
      modifies this
      ensures idToInstanceMap == old(idToInstanceMap)[id := s]
      ensures validTransitions == old(validTransitions)
      ensures initStateId == id && failedStateId == old(failedStateId)
    {
      initStateId := id;
      AddState(id, s);
    }

    method AddFailedState(id: StateType, s: StateDef<D>)
      modifies this
      ensures idToInstanceMap == old(idToInstanceMap)[id := s]
      ensures validTransitions == old(validTransitions)
      ensures failedStateId == id && initStateId == old(initStateId)
    {
      failedStateId := id;
      AddState(id, s);
    }

    method DeclareStateTransition(from: StateType, e: EventType, to: StateType)
      modifies this
      ensures validTransitions == Declare(old(validTransitions), from, e, to)
      ensures idToInstanceMap == old(idToInstanceMap)
      ensures initStateId == old(initStateId) && failedStateId == old(failedStateId)
    {
      var row: map<EventType, set<StateType>> := if from in validTransitions then validTransitions[from] else map[];
      var targets := if e in row then row[e] else {};
      validTransitions := validTransitions[from := row[e := targets + {to}]];
    }

    /** The constructor's sequence of declareStateTransition calls. */
    method DeclareTransitions(ds: seq<Decl>)
      modifies this
      ensures validTransitions == DeclareAll(old(validTransitions), ds)
      ensures idToInstanceMap == old(idToInstanceMap)
      ensures initStateId == old(initStateId) && failedStateId == old(failedStateId)
    {
      ghost var t0 := validTransitions;
      for i := 0 to |ds|
        invariant validTransitions == DeclareAll(t0, ds[..i])
        invariant idToInstanceMap == old(idToInstanceMap)
        invariant initStateId == old(initStateId) && failedStateId == old(failedStateId)
      {
        DeclareAllSnoc(t0, ds[..i], ds[i]);
        assert ds[..i + 1] == ds[..i] + [ds[i]];
        DeclareStateTransition(ds[i].from, ds[i].event, ds[i].to);
      }
      assert ds[..|ds|] == ds;
    }

    method DeclareInitialTransition(e: EventType, to: StateType)
      modifies this
      ensures validTransitions == Declare(old(validTransitions), old(initStateId), e, to)
      ensures idToInstanceMap == old(idToInstanceMap)
      ensures initStateId == old(initStateId) && failedStateId == old(failedStateId)
    {
      DeclareStateTransition(initStateId, e, to);
    }

    method Start(ctx: Context<D>, fuel: nat) returns (r: EventResult)
      requires HasFailedState(Spec())
      modifies ctx
      ensures r == StartSpec(Spec(), old(ctx.Snapshot()), fuel).result
      ensures ctx.Snapshot() == StartSpec(Spec(), old(ctx.Snapshot()), fuel).config
    {
      ctx.pendingEvents := [];
      if initStateId !in idToInstanceMap {
        return NOT_SUPPORTED;
      }
      var initState := idToInstanceMap[initStateId];
      r := NOT_SUPPORTED;
      if initState.prerequisitesSatisfied(ctx.data) {
        var s := EnterWrapper(initState, ctx.currentStateId, ctx.data);
        ctx.data := s.data;
        ctx.pendingEvents := ctx.pendingEvents + s.pushed;
        r := s.result;
        if r == SUCCESS {
          ctx.currentStateId := initStateId;
          r := HandleEvents(ctx, fuel);
        } else {
          Fail(ctx);
        }
      }
    }

    method HandleEvent(ctx: Context<D>, e: EventType, fuel: nat) returns (r: EventResult)
      requires HasFailedState(Spec())
      modifies ctx
      ensures r == HandleEventSpec(Spec(), old(ctx.Snapshot()), e, fuel).result
      ensures ctx.Snapshot() == HandleEventSpec(Spec(), old(ctx.Snapshot()), e, fuel).config
    {
      if ctx.currentStateId !in idToInstanceMap {
        return NOT_SUPPORTED;
      }
      ctx.pendingEvents := ctx.pendingEvents + [e];
      r := HandleEvents(ctx, fuel);
    }

    method Fail(ctx: Context<D>)
      requires HasFailedState(Spec())
      modifies ctx
      ensures ctx.Snapshot() == FailSpec(Spec(), old(ctx.Snapshot()))
    {
      if ctx.currentStateId in idToInstanceMap {
        var o := idToInstanceMap[ctx.currentStateId].exit(ctx.currentStateId, ctx.data);
        ctx.data := o.data;
        ctx.pendingEvents := ctx.pendingEvents + o.pushed;
      }
      var s := EnterWrapper(idToInstanceMap[failedStateId], ctx.currentStateId, ctx.data);
      ctx.data := s.data;
      ctx.pendingEvents := ctx.pendingEvents + s.pushed;
      ctx.currentStateId := failedStateId;
    }

    method GetNextStateId(ctx: Context<D>, e: EventType) returns (next: StateType)
      ensures next == NextStateId(Targets(validTransitions, ctx.currentStateId, e))
    {
      next := STATE_INVALID;
      if ctx.currentStateId in validTransitions && e in validTransitions[ctx.currentStateId] {
        var targets := validTransitions[ctx.currentStateId][e];
        if |targets| == 1 {
          var x :| x in targets;
          SingletonIs(targets, x);
          next := x;
        }
      }
    }

    method TransitionToState(ctx: Context<D>, next: StateType) returns (r: EventResult)
      requires ctx.currentStateId in idToInstanceMap && next in idToInstanceMap
      modifies ctx
      ensures (r, ctx.Snapshot()) == TransitionSpec(Spec(), old(ctx.Snapshot()), next)
    {
      var curr := idToInstanceMap[ctx.currentStateId];
      var x := ExitWrapper(curr, ctx.currentStateId, ctx.data);
      ctx.data := x.data;
      ctx.pendingEvents := ctx.pendingEvents + x.pushed;
      if x.result == NOT_SUPPORTED {
        return NOT_SUPPORTED;
      }
      var nextState := idToInstanceMap[next];
      if !nextState.prerequisitesSatisfied(ctx.data) {
        return NOT_SUPPORTED;
      }
      var y := EnterWrapper(nextState, ctx.currentStateId, ctx.data);
      ctx.data := y.data;
      ctx.pendingEvents := ctx.pendingEvents + y.pushed;
      r := y.result;
      if r != NOT_SUPPORTED {
        ctx.currentStateId := next;
      }
    }

    /** The body of handleEvents' loop for one event already popped from the queue. */
    method ProcessEvent(ctx: Context<D>, e: EventType) returns (result: EventResult)
      modifies ctx
      ensures (result, ctx.Snapshot()) == HandleOne(Spec(), old(ctx.Snapshot()), e)
    {
      result := SUCCESS;
      if ctx.currentStateId in idToInstanceMap && ctx.currentStateId in validTransitions
         && e in validTransitions[ctx.currentStateId] {
        var next := GetNextStateId(ctx, e);
        if next in idToInstanceMap {
          result := TransitionToState(ctx, next);
        }
      } else {
        result := NOT_SUPPORTED;
      }
    }

    /** handleEvents: drain the queue in FIFO order, failing the context at the first non-SUCCESS result. */
    method HandleEvents(ctx: Context<D>, fuel: nat) returns (r: EventResult)
      requires HasFailedState(Spec())
      modifies ctx
      ensures r == Drain(Spec(), old(ctx.Snapshot()), fuel).result
      ensures ctx.Snapshot() == Drain(Spec(), old(ctx.Snapshot()), fuel).config
    {
      ghost var t := Spec();
      ghost var c0 := ctx.Snapshot();
      ghost var handled: seq<EventType> := [];
      var n: nat := 0;
      r := SUCCESS;
      while ctx.pendingEvents != [] && n < fuel
        invariant n <= fuel && t == Spec()
        invariant Drain(t, c0, fuel) == Prepend(handled, Drain(t, ctx.Snapshot(), fuel - n))
        decreases fuel - n
      {
        ghost var before := ctx.Snapshot();
        var e := ctx.pendingEvents[0];
        assert e == before.pendingEvents[0];
        ctx.pendingEvents := ctx.pendingEvents[1..];
        assert ctx.Snapshot() == before.(pendingEvents := before.pendingEvents[1..]);
        var result := ProcessEvent(ctx, e);
        ghost var after := ctx.Snapshot();
        if result != SUCCESS {
          LoopFails(t, c0, fuel, handled, before, n, result, after);
          Fail(ctx);
          r := result;
          return;
        }
        LoopContinues(t, c0, fuel, handled, before, n, after);
        handled := handled + [e];
        n := n + 1;
      }
      PrependAssoc(handled, [], Drained(SUCCESS, ctx.Snapshot(), []));
    }
  }

  /** One unfolding of Drain, for the loop of handleEvents. */
  lemma DrainStep<D>(t: Table<D>, c: Config<D>, fuel: nat, res: EventResult, c1: Config<D>)
    requires HasFailedState(t) && c.pendingEvents != [] && fuel > 0
    requires (res, c1) == HandleOne(t, c.(pendingEvents := c.pendingEvents[1..]), c.pendingEvents[0])
    ensures res != SUCCESS ==> Drain(t, c, fuel) == Drained(res, FailSpec(t, c1), [c.pendingEvents[0]])
    ensures res == SUCCESS ==> Drain(t, c, fuel) == Prepend([c.pendingEvents[0]], Drain(t, c1, fuel - 1))
  {
  }

  /** The loop of handleEvents keeps its invariant when the front event succeeds. */
  lemma LoopContinues<D>(t: Table<D>, c0: Config<D>, fuel: nat, handled: seq<EventType>,
                         before: Config<D>, n: nat, after: Config<D>)
    requires HasFailedState(t) && before.pendingEvents != [] && n < fuel
    requires Drain(t, c0, fuel) == Prepend(handled, Drain(t, before, fuel - n))
    requires (SUCCESS, after) == HandleOne(t, before.(pendingEvents := before.pendingEvents[1..]), before.pendingEvents[0])
    ensures Drain(t, c0, fuel) == Prepend(handled + [before.pendingEvents[0]], Drain(t, after, fuel - (n + 1)))
  {
    DrainStep(t, before, fuel - n, SUCCESS, after);
    PrependAssoc(handled, [before.pendingEvents[0]], Drain(t, after, fuel - n - 1));
  }

  /** The loop of handleEvents ends with the failed configuration when the front event fails. */
  lemma LoopFails<D>(t: Table<D>, c0: Config<D>, fuel: nat, handled: seq<EventType>,
                     before: Config<D>, n: nat, res: EventResult, after: Config<D>)
    requires HasFailedState(t) && before.pendingEvents != [] && n < fuel && res != SUCCESS
    requires Drain(t, c0, fuel) == Prepend(handled, Drain(t, before, fuel - n))
    requires (res, after) == HandleOne(t, before.(pendingEvents := before.pendingEvents[1..]), before.pendingEvents[0])
    ensures Drain(t, c0, fuel) == Drained(res, FailSpec(t, after), handled + [before.pendingEvents[0]])
  {
    DrainStep(t, before, fuel - n, res, after);
    PrependAssoc(handled, [before.pendingEvents[0]], Drained(res, FailSpec(t, after), []));
  }

  lemma PrependAssoc<D>(h1: seq<EventType>, h2: seq<EventType>, d: Drained<D>)
    ensures Prepend(h1, Prepend(h2, d)) == Prepend(h1 + h2, d)
  {
    assert h1 + (h2 + d.handled) == (h1 + h2) + d.handled;
  }
}

=== FILE: filesystem.dfy ===
// Plugin file locations (source/FileSystem.cpp). Every path is built from
// the plugins root with std::filesystem's `/`; plugin storage requests go to
// root/usr/<pluginId>/<file>. The storage back end and the directory
// operations themselves are outside the model: a request is returned as the
// effect it asks for.

module PluginFiles {
  import opened Common

  type Path = string

  /** A path beginning with the root directory "/". */
  predicate IsAbsolute(p: Path) {
    |p| > 0 && p[0] == '/'
  }

  /** A path whose last element is a file name (it is non-empty and does not end in "/"). */
  predicate HasFilename(p: Path) {
    |p| > 0 && p[|p| - 1] != '/'
  }

  /**
   * std::filesystem::path::operator/ on POSIX: an absolute right-hand side
   * replaces the left; otherwise one separator is inserted when the left
   * ends in a file name.
   */
  function Join(lhs: Path, rhs: Path): (r: Path)
    ensures IsAbsolute(rhs) ==> r == rhs
    ensures !IsAbsolute(rhs) && HasFilename(lhs) ==> r == lhs + "/" + rhs
    ensures !IsAbsolute(rhs) && !HasFilename(lhs) ==> r == lhs + rhs
  {
    if IsAbsolute(rhs) then rhs
    else if HasFilename(lhs) then lhs + "/" + rhs
    else lhs + rhs
  }

  /** A relative path element: non-empty, no "/" anywhere. */
  predicate IsName(s: string) {
    |s| > 0 && '/' !in s
  }

  /** The host OS and architecture names the build was compiled for. */
  datatype Host = Host(os: string, arch: string)

  /** makePluginFilePath: root/usr/pluginId, then filePath when it is not empty. */
  function MakePluginFilePath(root: Path, filePath: Path, pluginId: string): (p: Path)
    ensures filePath == "" ==> p == Join(Join(root, "usr"), pluginId)
    ensures filePath != "" ==> p == Join(Join(Join(root, "usr"), pluginId), filePath)
  {
    var dir := Join(Join(root, "usr"), pluginId);
    if filePath == "" then dir else Join(dir, filePath)
  }

  /** makePluginInstallBasePath: root/plugins/<os>/<arch>. */
  function MakePluginInstallBasePath(root: Path, host: Host): Path {
    Join(Join(Join(root, "plugins"), host.os), host.arch)
  }

  /** makePluginInstallPath: the install base, pluginId, then filePath when it is not empty. */
  function MakePluginInstallPath(root: Path, host: Host, filePath: Path, pluginId: string): (p: Path)
    ensures filePath == "" ==> p == Join(MakePluginInstallBasePath(root, host), pluginId)
    ensures filePath != "" ==> p == Join(Join(MakePluginInstallBasePath(root, host), pluginId), filePath)
  {
    var dir := Join(MakePluginInstallBasePath(root, host), pluginId);
    if filePath == "" then dir else Join(dir, filePath)
  }

  /** makeShimsPath: root/shims/language. */
  function MakeShimsPath(root: Path, language: string): Path {
    Join(Join(root, "shims"), language)
  }

  /** makeRaceDir: root/prefix/pluginId. */
  function MakeRaceDir(root: Path, prefix: Path, pluginId: string): Path {
    Join(Join(root, prefix), pluginId)
  }

  /** With a root that ends in a name and relative one-element names, the plugin file path is the plain concatenation. */
  lemma PluginFilePathSpelledOut(root: Path, filePath: Path, pluginId: string)
    requires HasFilename(root) && IsName(pluginId) && !IsAbsolute(filePath)
    ensures filePath == "" ==> MakePluginFilePath(root, filePath, pluginId) == root + "/usr/" + pluginId
    ensures filePath != "" ==>
      MakePluginFilePath(root, filePath, pluginId) == root + "/usr/" + pluginId + "/" + filePath
  {
    assert HasFilename(root + "/usr");
    assert (root + "/usr/" + pluginId)[|root + "/usr/" + pluginId| - 1] == pluginId[|pluginId| - 1];
  }

  /** Likewise the install path is root/plugins/os/arch/pluginId[/filePath]. */
  lemma PluginInstallPathSpelledOut(root: Path, host: Host, filePath: Path, pluginId: string)
    requires HasFilename(root) && IsName(host.os) && IsName(host.arch) && IsName(pluginId)
    requires !IsAbsolute(filePath)
    ensures filePath == "" ==>
      MakePluginInstallPath(root, host, filePath, pluginId)
        == root + "/plugins/" + host.os + "/" + host.arch + "/" + pluginId
    ensures filePath != "" ==>
      MakePluginInstallPath(root, host, filePath, pluginId)
        == root + "/plugins/" + host.os + "/" + host.arch + "/" + pluginId + "/" + filePath
  {
    JoinName(root, "plugins");
    var a := root + "/" + "plugins";
    JoinName(a, host.os);
    var b := a + "/" + host.os;
    JoinName(b, host.arch);
    var c := b + "/" + host.arch;
    JoinName(c, pluginId);
    var d := c + "/" + pluginId;
    assert d == root + "/plugins/" + host.os + "/" + host.arch + "/" + pluginId;
  }

  /** Joining a relative name onto a path that ends in a name inserts one separator and ends in a name again. */
  lemma JoinName(lhs: Path, name: string)
    requires HasFilename(lhs) && IsName(name)
    ensures Join(lhs, name) == lhs + "/" + name && HasFilename(lhs + "/" + name)
  {
    assert (lhs + "/" + name)[|lhs + "/" + name| - 1] == name[|name| - 1];
  }

  /** The shims and race directories spelled out the same way. */
  lemma OtherDirsSpelledOut(root: Path, language: string, prefix: Path, pluginId: string)
    requires HasFilename(root) && IsName(language) && IsName(prefix) && IsName(pluginId)
    ensures MakeShimsPath(root, language) == root + "/shims/" + language
    ensures MakeRaceDir(root, prefix, pluginId) == root + "/" + prefix + "/" + pluginId
  {
    var r := root + "/" + prefix;
    assert r[|r| - 1] == prefix[|prefix| - 1];
  }

  /**
   * An absolute file path is not kept under the plugin's directory: `/`
   * lets it replace everything before it.
   */
  lemma AbsoluteFilePathLeavesPluginDir(root: Path, filePath: Path, pluginId: string)
    requires IsAbsolute(filePath)
    ensures MakePluginFilePath(root, filePath, pluginId) == filePath
  {
  }

  /** Different relative files of the same plugin get different paths. */
  lemma PluginFilePathsDistinct(root: Path, pluginId: string, f: Path, g: Path)
    requires HasFilename(root) && IsName(pluginId)
    requires f != "" && g != "" && !IsAbsolute(f) && !IsAbsolute(g) && f != g
    ensures MakePluginFilePath(root, f, pluginId) != MakePluginFilePath(root, g, pluginId)
  {
    PluginFilePathSpelledOut(root, f, pluginId);
    PluginFilePathSpelledOut(root, g, pluginId);
    var d := root + "/usr/" + pluginId + "/";
    assert MakePluginFilePath(root, f, pluginId)[|d|..] == f;
    assert MakePluginFilePath(root, g, pluginId)[|d|..] == g;
  }

  /** What a FileSystem call asks of the storage back end or of the directory tree. */
  datatype FsEffect =
    | StorageRead(path: Path)
    | StorageAppend(path: Path, data: Bytes)
    | StorageWrite(path: Path, data: Bytes)
    | CreateDirectories(path: Path)

  /** The directory part of a path: everything before its last "/" ("/" itself for a top-level entry). */
  function ParentPath(p: Path): (q: Path)
    ensures |q| <= |p|
    decreases |p|
  {
    if |p| == 0 then ""
    else if p[|p| - 1] == '/' then (if |p| == 1 then "/" else p[..|p| - 1])
    else ParentPath(p[..|p| - 1])
  }

  /** The plugins root and the file system's view of which directories exist. */
  datatype FileSystem = FileSystem(root: Path, existing: set<Path>)

  /** readFile: reads the plugin's file from storage. */
  function ReadFile(fs: FileSystem, filePath: Path, pluginId: string): (e: FsEffect)
    ensures e.StorageRead? && e.path == MakePluginFilePath(fs.root, filePath, pluginId)
  {
    StorageRead(MakePluginFilePath(fs.root, filePath, pluginId))
  }

  /** appendFile: appends the data to the plugin's file. */
  function AppendFile(fs: FileSystem, filePath: Path, pluginId: string, data: Bytes): (e: FsEffect)
    ensures e.StorageAppend? && e.data == data
    ensures e.path == MakePluginFilePath(fs.root, filePath, pluginId)
  {
    StorageAppend(MakePluginFilePath(fs.root, filePath, pluginId), data)
  }

  /** makeDir: creates the plugin's directory with all its parents. */
  function MakeDir(fs: FileSystem, directoryPath: Path, pluginId: string): (e: FsEffect)
    ensures e == CreateDirectories(MakePluginFilePath(fs.root, directoryPath, pluginId))
  {
    CreateDirectories(MakePluginFilePath(fs.root, directoryPath, pluginId))
  }

  /**
   * writeFile: creates the parent directory first when it has one that does
   * not exist yet, then writes the data to the plugin's file.
   */
  function WriteFile(fs: FileSystem, filePath: Path, pluginId: string, data: Bytes): (effects: seq<FsEffect>)
    ensures |effects| >= 1
    ensures effects[|effects| - 1] == StorageWrite(MakePluginFilePath(fs.root, filePath, pluginId), data)
    ensures |effects| == 2 <==>
      ParentPath(MakePluginFilePath(fs.root, filePath, pluginId)) != "" &&
      ParentPath(MakePluginFilePath(fs.root, filePath, pluginId)) !in fs.existing
    ensures |effects| == 2 ==>
      effects[0] == CreateDirectories(ParentPath(MakePluginFilePath(fs.root, filePath, pluginId)))
    ensures |effects| <= 2
  {
    var path := MakePluginFilePath(fs.root, filePath, pluginId);
    var parent := ParentPath(path);
    var write := StorageWrite(path, data);
    if parent != "" && parent !in fs.existing then [CreateDirectories(parent), write] else [write]
  }

  /** The path a storage request addresses. */
  function StoragePath(e: FsEffect): Path {
    e.path
  }

  /** readFile, appendFile and writeFile address one and the same storage path. */
  lemma FileOperationsAgree(fs: FileSystem, filePath: Path, pluginId: string, data: Bytes)
    ensures StoragePath(ReadFile(fs, filePath, pluginId)) == StoragePath(AppendFile(fs, filePath, pluginId, data))
    ensures var w := WriteFile(fs, filePath, pluginId, data);
      StoragePath(w[|w| - 1]) == StoragePath(ReadFile(fs, filePath, pluginId))
  {
  }

  /** A file directly inside a plugin's directory: writeFile creates that directory when it is missing. */
  lemma WriteCreatesPluginDir(fs: FileSystem, name: string, pluginId: string, data: Bytes)
    requires HasFilename(fs.root) && IsName(pluginId) && IsName(name)
    requires fs.root + "/usr/" + pluginId !in fs.existing
    ensures WriteFile(fs, name, pluginId, data)[0] == CreateDirectories(fs.root + "/usr/" + pluginId)
  {
    PluginFilePathSpelledOut(fs.root, name, pluginId);
    var dir := fs.root + "/usr/" + pluginId;
    var path := dir + "/" + name;
    ParentOfName(dir, name);
  }

  /** The parent of dir/name, for a name without "/", is dir. */
  lemma {:induction false} ParentOfName(dir: Path, name: string)
    requires IsName(name)
    requires |dir| > 1
    ensures ParentPath(dir + "/" + name) == dir
    decreases |name|
  {
    var p := dir + "/" + name;
    assert p[|p| - 1] == name[|name| - 1] != '/';
    if |name| == 1 {
      assert p[..|p| - 1] == dir + "/";
    } else {
      assert p[..|p| - 1] == dir + "/" + name[..|name| - 1];
      assert name[|name| - 2] in name;
      ParentOfName(dir, name[..|name| - 1]);
    }
  }

  /** copy: a missing source fails; otherwise success is whether the destination exists afterwards. */
  function Copy(srcExists: bool, destExistsAfter: bool): (ok: bool)
    ensures !srcExists ==> !ok
    ensures srcExists ==> (ok <==> destExistsAfter)
  {
    if !srcExists then false else destExistsAfter
  }
}

=== FILE: helper.dfy ===
// stringVectorToString (source/helper.cpp): a list of strings printed as
// "[a, b, c]" for log messages.

module StringLists {

  /** The elements joined with ", " between neighbours. */
  function Joined(v: seq<string>): string
    decreases |v|
  {
    if |v| == 0 then ""
    else if |v| == 1 then v[0]
    else Joined(v[..|v| - 1]) + ", " + v[|v| - 1]
  }

  /** The text stringVectorToString produces. */
  function Bracketed(v: seq<string>): string {
    "[" + Joined(v) + "]"
  }

  /** Total length of the elements. */
  function TotalLength(v: seq<string>): nat
    decreases |v|
  {
    if |v| == 0 then 0 else TotalLength(v[..|v| - 1]) + |v[|v| - 1]|
  }

  /** Where element i starts in Bracketed(v): after "[" and each earlier element with its ", ". */
  function Offset(v: seq<string>, i: nat): nat
    requires i <= |v|
  {
    1 + TotalLength(v[..i]) + 2 * i
  }

  /**
   * stringVectorToString: starts from "[", appends ", " before every
   * element but the first, then the element, and closes with "]".
   */
  method StringVectorToString(vec: seq<string>) returns (s: string)
    ensures s == Bracketed(vec)
  {
    s := "[";
    var i := 0;
    while i < |vec|
      invariant 0 <= i <= |vec|
      invariant s == "[" + Joined(vec[..i])
    {
      if i > 0 {
        s := s + ", ";
      }
      s := s + vec[i];
      assert vec[..i + 1][..i] == vec[..i];
      i := i + 1;
    }
    assert vec[..|vec|] == vec;
    s := s + "]";
  }

  /** An empty list prints as "[]". */
  lemma EmptyListBrackets()
    ensures Bracketed([]) == "[]"
  {
  }

  /** The text always opens with "[" and closes with "]". */
  lemma AlwaysBracketed(v: seq<string>)
    ensures |Bracketed(v)| >= 2
    ensures Bracketed(v)[0] == '[' && Bracketed(v)[|Bracketed(v)| - 1] == ']'
  {
  }

  /** Length: 2 for the brackets, the elements, and 2 for each of the n - 1 separators. */
  lemma {:induction false} JoinedLength(v: seq<string>)
    ensures |v| > 0 ==> |Joined(v)| == TotalLength(v) + 2 * (|v| - 1)
    ensures |v| > 0 ==> |Bracketed(v)| == 2 + TotalLength(v) + 2 * (|v| - 1)
    decreases |v|
  {
    if |v| > 1 {
      JoinedLength(v[..|v| - 1]);
    }
  }

  /** Joining a prefix gives a prefix of the joined text. */
  lemma {:induction false} JoinedPrefix(v: seq<string>, i: nat)
    requires 0 < i <= |v|
    ensures |Joined(v[..i])| <= |Joined(v)|
    ensures Joined(v)[..|Joined(v[..i])|] == Joined(v[..i])
    decreases |v|
  {
    if i < |v| {
      var w := v[..|v| - 1];
      assert w[..i] == v[..i];
      JoinedPrefix(w, i);
      assert Joined(v) == Joined(w) + ", " + v[|v| - 1];
    } else {
      assert v[..i] == v;
    }
  }

  /**
   * Elements appear in order: element i sits at Offset(v, i), and every
   * element after the first is preceded by ", ".
   */
  lemma ElementInPlace(v: seq<string>, i: nat)
    requires i < |v|
    ensures Offset(v, i) + |v[i]| <= |Bracketed(v)|
    ensures Bracketed(v)[Offset(v, i)..Offset(v, i) + |v[i]|] == v[i]
    ensures i > 0 ==> Bracketed(v)[Offset(v, i) - 2..Offset(v, i)] == ", "
  {
    var p := v[..i + 1];
    assert p[..i] == v[..i];
    JoinedPrefix(v, i + 1);
    var jv, jp := Joined(v), Joined(p);
    var b := Bracketed(v);
    assert jv[..|jp|] == jp;
    // k: where v[i] starts inside jp (and so inside jv)
    var k := Offset(v, i) - 1;
    if i > 0 {
      JoinedLength(v[..i]);
      assert jp == Joined(v[..i]) + ", " + v[i];
      assert k == |Joined(v[..i])| + 2;
      assert jp[k - 2..k] == ", ";
      assert jp[k..] == v[i];
    } else {
      assert jp == v[0];
      assert k == 0;
    }
    assert |jp| == k + |v[i]|;
    assert b[1..1 + |jv|] == jv;
    assert b[k + 1..k + 1 + |v[i]|] == jv[k..|jp|] == jp[k..];
    if i > 0 {
      assert b[k - 1..k + 1] == jv[k - 2..k] == jp[k - 2..k];
    }
  }
}

=== FILE: jsonaccess.dfy ===
// How the plugin configuration reads nlohmann::json values: `at` on a
// missing key throws out_of_range, a value of the wrong type throws
// type_error, `value` falls back to a default only when the key is absent.
// The exceptions become the Failure side of a Result.

module JsonAccess {
  import opened Common

  /** The exceptions configuration parsing can raise. */
  datatype JsonError =
    | OutOfRange(key: string)       // json::out_of_range from at()
    | TypeError                     // json::type_error from a conversion
    | InvalidArgument(msg: string)  // std::invalid_argument from the library's own checks

  /** j.at(key). */
  function At(j: Json, key: string): (r: Result<Json, JsonError>)
    ensures r.Success? <==> j.JObject? && key in j.fields
    ensures r.Success? ==> r.value == j.fields[key]
    ensures j.JObject? && key !in j.fields ==> r == Failure(OutOfRange(key))
    ensures !j.JObject? ==> r == Failure(TypeError)
  {
    if !j.JObject? then Failure(TypeError)
    else if key !in j.fields then Failure(OutOfRange(key))
    else Success(j.fields[key])
  }

  /** get<std::string>(). */
  function AsString(j: Json): (r: Result<string, JsonError>)
    ensures r.Success? <==> j.JString?
    ensures r.Success? ==> r.value == j.s
    ensures r.Failure? ==> r.error == TypeError
  {
    if j.JString? then Success(j.s) else Failure(TypeError)
  }

  /** get<bool>(): only a JSON boolean converts. */
  function AsBool(j: Json): (r: Result<bool, JsonError>)
    ensures r.Success? <==> j.JBool?
    ensures r.Success? ==> r.value == j.b
    ensures r.Failure? ==> r.error == TypeError
  {
    if j.JBool? then Success(j.b) else Failure(TypeError)
  }

  /** get<int>(): numbers convert, and so do booleans (as 1 and 0). */
  function AsInt(j: Json): (r: Result<int, JsonError>)
    ensures r.Success? <==> j.JNumber? || j.JBool?
    ensures j.JNumber? ==> r == Success(j.n)
    ensures j.JBool? ==> r == Success(if j.b then 1 else 0)
    ensures r.Failure? ==> r.error == TypeError
  {
    if j.JNumber? then Success(j.n)
    else if j.JBool? then Success(if j.b then 1 else 0)
    else Failure(TypeError)
  }

  /** Whether every item of an array is a string. */
  predicate AllStrings(items: seq<Json>) {
    forall i :: 0 <= i < |items| ==> items[i].JString?
  }

  /** A list of strings as JSON. */
  function StringsToJson(v: seq<string>): (j: Json)
    ensures j.JArray? && |j.items| == |v|
    ensures forall i :: 0 <= i < |v| ==> j.items[i] == JString(v[i])
  {
    JArray(seq(|v|, i requires 0 <= i < |v| => JString(v[i])))
  }

  /** get<std::vector<std::string>>(). */
  function AsStrings(j: Json): (r: Result<seq<string>, JsonError>)
    ensures r.Success? <==> j.JArray? && AllStrings(j.items)
    ensures r.Success? ==> |r.value| == |j.items| && forall i :: 0 <= i < |j.items| ==> r.value[i] == j.items[i].s
    ensures r.Failure? ==> r.error == TypeError
  {
    if j.JArray? && AllStrings(j.items) then
      Success(seq(|j.items|, i requires 0 <= i < |j.items| => j.items[i].s))
    else Failure(TypeError)
  }

  lemma StringsRoundTrip(v: seq<string>)
    ensures AsStrings(StringsToJson(v)) == Success(v)
  {
    var j := StringsToJson(v);
    assert AllStrings(j.items);
    assert AsStrings(j).value == v;
  }

  /** j.value(key, default) for a string: the default only when the key is absent. */
  function ValueString(j: Json, key: string, default: string): (r: Result<string, JsonError>)
    ensures !j.JObject? ==> r == Failure(TypeError)
    ensures j.JObject? && key !in j.fields ==> r == Success(default)
    ensures j.JObject? && key in j.fields ==> r == AsString(j.fields[key])
  {
    if !j.JObject? then Failure(TypeError)
    else if key !in j.fields then Success(default)
    else AsString(j.fields[key])
  }

  /** j.value(key, default) for a bool. */
  function ValueBool(j: Json, key: string, default: bool): (r: Result<bool, JsonError>)
    ensures !j.JObject? ==> r == Failure(TypeError)
    ensures j.JObject? && key !in j.fields ==> r == Success(default)
    ensures j.JObject? && key in j.fields ==> r == AsBool(j.fields[key])
  {
    if !j.JObject? then Failure(TypeError)
    else if key !in j.fields then Success(default)
    else AsBool(j.fields[key])
  }

  /** j.value(key, std::vector<std::string>{}): an absent list is empty. */
  function ValueStrings(j: Json, key: string): (r: Result<seq<string>, JsonError>)
    ensures !j.JObject? ==> r == Failure(TypeError)
    ensures j.JObject? && key !in j.fields ==> r == Success([])
    ensures j.JObject? && key in j.fields ==> r == AsStrings(j.fields[key])
  {
    if !j.JObject? then Failure(TypeError)
    else if key !in j.fields then Success([])
    else AsStrings(j.fields[key])
  }

  /** j.contains(key). */
  predicate Contains(j: Json, key: string) {
    j.JObject? && key in j.fields
  }
}

=== FILE: listen.dfy ===
// The listen state machine (source/state-machine/ListenStateMachine.cpp):
// open a receiving connection, report its address, then turn each dial
// hello that arrives on it into a pre-conduit and hand the pre-conduits to
// the application's accept calls, first come first served.

module ListenMachine {
  import opened Common
  import opened Engine
  import opened ApiContext
  import DialMachine

  const STATE_LISTEN_INITIAL: StateType := 3
  const STATE_LISTEN_CONNECTION_OPEN: StateType := 4
  const STATE_LISTEN_WAITING: StateType := 5
  const STATE_LISTEN_FINISHED: StateType := 6
  const STATE_LISTEN_FAILED: StateType := 7

  /**
   * ApiListenContext. `data` is the queue of received packages and
   * `preConnObjSM` the queue of started pre-conduits, fronts first;
   * `acceptCb` is the deque of accept callbacks.
   */
  datatype ListenCtx = ListenCtx(
    handle: RaceHandle,
    opts: ReceiveOptions,
    listenCb: Option<Callback>,
    acceptCb: seq<Callback>,
    closeCb: Option<Callback>,
    data: seq<Bytes>,
    preConnObjSM: seq<RaceHandle>,
    recvConnSMHandle: RaceHandle,
    recvConnId: ConnectionId,
    recvLinkAddress: LinkAddress,
    env: Env)

  const NoAddress := PAddress("", NULL_RACE_HANDLE)
  const NoConduit := PHandle(NULL_RACE_HANDLE)

  /** The hooks ApiListenContext overrides; accept calls and packages queue up at the back. */
  function Apply(c: ListenCtx, u: Update): (r: ListenCtx)
    ensures u.UListen? ==> r == c.(opts := u.recvOpts, listenCb := Some(u.cb))
    ensures u.UAccept? ==> r == c.(acceptCb := c.acceptCb + [u.cb])
    ensures u.UClose? ==> r == c.(closeCb := Some(u.cb))
    ensures u.UReceiveEncPkg? ==> r == c.(data := c.data + [u.data])
    ensures u.UConnStateMachineConnected? ==> r == c.(recvConnId := u.connId, recvLinkAddress := u.linkAddress)
    ensures (!u.UListen? && !u.UAccept? && !u.UClose? && !u.UReceiveEncPkg?
             && !u.UConnStateMachineConnected?) ==> r == c
  {
    match u
    case UListen(opts, cb) => c.(opts := opts, listenCb := Some(cb))
    case UAccept(_, cb) => c.(acceptCb := c.acceptCb + [cb])
    case UClose(_, cb) => c.(closeCb := Some(cb))
    case UReceiveEncPkg(_, pkg) => c.(data := c.data + [pkg])
    case UConnStateMachineConnected(_, connId, address) => c.(recvConnId := connId, recvLinkAddress := address)
    case _ => c
  }

  /**
   * StateListenInitial's checks, in order: receive channel, receive role,
   * send channel, send role, then whether the core knows the receive
   * channel. The send channel is not looked up.
   */
  function ListenCheck(w: World, o: ReceiveOptions): (r: Option<ApiStatus>)
    ensures o.recv_channel == "" ==> r == Some(CHANNEL_INVALID)
    ensures (o.recv_channel != "" && (o.recv_role == "" || o.send_channel == "" || o.send_role == ""))
            ==> r == Some(INVALID_ARGUMENT)
    ensures (o.recv_channel != "" && o.recv_role != "" && o.send_channel != "" && o.send_role != ""
             && o.recv_channel !in w.containers) ==> r == Some(CHANNEL_INVALID)
    ensures r.None? <==> && o.recv_channel != "" && o.recv_role != "" && o.send_channel != "" && o.send_role != ""
                         && o.recv_channel in w.containers
    ensures r.Some? ==> r.value == INVALID_ARGUMENT || r.value == CHANNEL_INVALID
  {
    if o.recv_channel == "" then Some(CHANNEL_INVALID)
    else if o.recv_role == "" then Some(INVALID_ARGUMENT)
    else if o.send_channel == "" then Some(INVALID_ARGUMENT)
    else if o.send_role == "" then Some(INVALID_ARGUMENT)
    else if o.recv_channel !in w.containers then Some(CHANNEL_INVALID)
    else None
  }

  /** StateListenInitial: reject bad options, otherwise start a receiving connection. */
  function Initial(w: World, c: ListenCtx): (o: Outcome<ListenCtx>)
    ensures ListenCheck(w, c.opts).Some? && c.listenCb.None? ==> o.Threw?
    ensures ListenCheck(w, c.opts).Some? && c.listenCb.Some? ==>
              o == Returned(NOT_SUPPORTED, c.(listenCb := None,
                     env := InvokeIfSet(c.env, c.listenCb, ListenCheck(w, c.opts).value, NoAddress)), [])
    ensures ListenCheck(w, c.opts).None? ==>
              var n := |c.env.requests|;
              var a := w.answer(n).handle;
              && o.Returned? && o.data.listenCb == c.listenCb && o.data.env.fired == c.env.fired
              && o.data.recvConnSMHandle == a
              && (o.result == SUCCESS <==> a != NULL_RACE_HANDLE)
              && o.data.env.requests
                 == c.env.requests + [StartConnStateMachine(c.handle, c.opts.recv_channel, c.opts.recv_role,
                                                            c.opts.recv_address, false, false)]
                    + (if a == NULL_RACE_HANDLE then [] else [RegisterHandle(c.handle, a)])
    ensures o.pushed == []
  {
    match ListenCheck(w, c.opts)
    case Some(status) =>
      (match Invoke(c.env, c.listenCb, status, NoAddress)
       case None => Threw(c, [])
       case Some(env) => Returned(NOT_SUPPORTED, c.(listenCb := None, env := env), []))
    case None =>
      var (env1, a) := Ask(w, c.env, StartConnStateMachine(c.handle, c.opts.recv_channel, c.opts.recv_role,
                                                             c.opts.recv_address, false, false));
      var c1 := c.(recvConnSMHandle := a.handle, env := env1);
      if a.handle == NULL_RACE_HANDLE then Returned(NOT_SUPPORTED, c1, [])
      else Returned(SUCCESS, c1.(env := Tell(env1, RegisterHandle(c.handle, a.handle))), [])
  }

  /** The package id a dialer's hello travels under: PACKAGE_ID_LEN NUL characters. */
  function ZeroPackageId(): (id: string)
    ensures |id| == PACKAGE_ID_LEN && StrToBytes(id) == Zeros(PACKAGE_ID_LEN)
  {
    BytesToStr(Zeros(PACKAGE_ID_LEN))
  }

  /**
   * StateListenConnectionOpen: report the link address and a fresh
   * listener handle, then route hellos (the all-zero package id) on the
   * receiving connection to this context.
   */
  function ConnectionOpen(w: World, c: ListenCtx): (o: Outcome<ListenCtx>)
    ensures c.listenCb.None? ==> o.Threw?
    ensures c.listenCb.Some? ==>
              var listener := w.answer(|c.env.requests|).handle;
              && o.Returned? && o.result == SUCCESS && o.pushed == [EVENT_ALWAYS]
              && o.data.listenCb.None?
              && o.data.env.fired == c.env.fired + [Fired(c.listenCb.value, OK, PAddress(c.recvLinkAddress, listener))]
              && o.data.env.requests == c.env.requests + [GenerateHandle, RegisterHandle(c.handle, listener),
                                                          RegisterPackageId(c.handle, c.recvConnId, ZeroPackageId())]
  {
    var (env1, a) := Ask(w, c.env, GenerateHandle);
    match Invoke(env1, c.listenCb, OK, PAddress(c.recvLinkAddress, a.handle))
    case None => Threw(c.(env := env1), [])
    case Some(env2) =>
      var env3 := Tell(Tell(env2, RegisterHandle(c.handle, a.handle)),
                       RegisterPackageId(c.handle, c.recvConnId, ZeroPackageId()));
      Returned(SUCCESS, c.(listenCb := None, env := env3), [EVENT_ALWAYS])
  }

  // ---------------------------------------------------------------------
  // Hellos
  // ---------------------------------------------------------------------

  /** What a dialer's hello tells the listener. */
  datatype DialHello = DialHello(linkAddress: LinkAddress, packageId: Bytes, message: Bytes)

  /**
   * A received package read as a hello for this listener, or None where
   * StateListenWaiting skips it: text that is not JSON, a missing or
   * non-string field, undecodable base64, a package id that is not
   * PACKAGE_ID_LEN bytes, or a reply channel other than the configured
   * send channel.
   */
  function ReadHello(codecs: Codecs, sendChannel: ChannelId, pkg: Bytes): (r: Option<DialHello>)
    ensures codecs.parse(BytesToStr(pkg)).None? ==> r.None?
    ensures r.Some? ==>
              var j := codecs.parse(BytesToStr(pkg)).value;
              && |r.value.packageId| == PACKAGE_ID_LEN
              && AtString(j, "replyChannel") == Some(sendChannel)
              && AtString(j, "linkAddress") == Some(r.value.linkAddress)
              && AtString(j, "packageId").Some?
              && codecs.b64decode(AtString(j, "packageId").value) == Some(r.value.packageId)
              && AtString(j, "message").Some?
              && codecs.b64decode(AtString(j, "message").value) == Some(r.value.message)
  {
    match codecs.parse(BytesToStr(pkg))
    case None => None
    case Some(j) =>
      match (AtString(j, "linkAddress"), AtString(j, "replyChannel"), AtString(j, "packageId"), AtString(j, "message"))
      case (Some(address), Some(reply), Some(id), Some(message)) =>
        (match codecs.b64decode(id)
         case None => None
         case Some(idBytes) =>
           if |idBytes| != PACKAGE_ID_LEN || reply != sendChannel then None
           else
             match codecs.b64decode(message)
             case None => None
             case Some(m) => Some(DialHello(address, idBytes, m)))
      case _ => None
  }

  /**
   * A dialer's hello, once the manager has stripped its all-zero prefix,
   * reads back as the dialer's reply address, package id and message
   * exactly when it names this listener's send channel and its package id
   * has PACKAGE_ID_LEN bytes.
   */
  lemma ReadsDialHello(codecs: Codecs, sendChannel: ChannelId, linkAddress: LinkAddress, replyChannel: ChannelId,
                       packageId: Bytes, data: Bytes)
    requires Lawful(codecs)
    requires IsByteString(codecs.dump(DialMachine.HelloJson(codecs, linkAddress, replyChannel, packageId, data)))
    ensures var h := DialMachine.Hello(codecs, linkAddress, replyChannel, packageId, data);
            var r := ReadHello(codecs, sendChannel, h[PACKAGE_ID_LEN..]);
            && (r.Some? <==> replyChannel == sendChannel && |packageId| == PACKAGE_ID_LEN)
            && (r.Some? ==> r.value == DialHello(linkAddress, packageId, data))
  {
    DialMachine.HelloRoundTrip(codecs, linkAddress, replyChannel, packageId, data);
  }

  /** The index of the first package in q that is a hello for this listener. */
  function FirstHello(codecs: Codecs, sendChannel: ChannelId, q: seq<Bytes>): (k: Option<nat>)
    ensures k.Some? ==> && k.value < |q| && ReadHello(codecs, sendChannel, q[k.value]).Some?
                        && forall i :: 0 <= i < k.value ==> ReadHello(codecs, sendChannel, q[i]).None?
    ensures k.None? ==> forall i :: 0 <= i < |q| ==> ReadHello(codecs, sendChannel, q[i]).None?
    decreases |q|
  {
    if q == [] then None
    else if ReadHello(codecs, sendChannel, q[0]).Some? then Some(0)
    else
      match FirstHello(codecs, sendChannel, q[1..])
      case None => None
      case Some(k) => Some(k + 1)
  }

  /**
   * The first loop of StateListenWaiting: pop packages until one is a hello
   * for this listener. Returns that hello and the packages left behind it.
   */
  method ScanForHello(codecs: Codecs, sendChannel: ChannelId, q: seq<Bytes>) returns (hello: Option<DialHello>, rest: seq<Bytes>)
    ensures FirstHello(codecs, sendChannel, q).None? ==> hello.None? && rest == []
    ensures FirstHello(codecs, sendChannel, q).Some? ==>
              var k := FirstHello(codecs, sendChannel, q).value;
              hello == ReadHello(codecs, sendChannel, q[k]) && rest == q[k + 1..]
  {
    rest := q;
    hello := None;
    while rest != []
      invariant |rest| <= |q| && rest == q[|q| - |rest|..]
      invariant forall i :: 0 <= i < |q| - |rest| ==> ReadHello(codecs, sendChannel, q[i]).None?
      invariant hello.None?
      decreases |rest|
    {
      var pkg := rest[0];
      rest := rest[1..];
      hello := ReadHello(codecs, sendChannel, pkg);
      if hello.Some? {
        ghost var k := |q| - |rest| - 1;
        assert pkg == q[k];
        assert FirstHello(codecs, sendChannel, q) == Some(k);
        return;
      }
    }
  }

  // ---------------------------------------------------------------------
  // Accept pairing
  // ---------------------------------------------------------------------

  /** The accept callbacks and pre-conduits left after pairing, and the world after it. */
  datatype Pairing = Pairing(env: Env, acceptCb: seq<Callback>, preConnObjSM: seq<RaceHandle>)

  /**
   * The handovers pairing asks the manager for: front with front, as long
   * as both last. `bootstrap` picks onBootstrapListenAccept over
   * onListenAccept; the bootstrap listener pairs the same way.
   */
  function Handovers(cbs: seq<Callback>, pres: seq<RaceHandle>, bootstrap: bool): (r: seq<Request>)
    ensures |r| == Min(|cbs|, |pres|)
    ensures forall i {:trigger r[i]} :: 0 <= i < |r| ==> r[i] == OnListenAccept(pres[i], cbs[i], bootstrap)
    decreases |cbs|
  {
    if cbs == [] || pres == [] then []
    else [OnListenAccept(pres[0], cbs[0], bootstrap)] + Handovers(cbs[1..], pres[1..], bootstrap)
  }

  /** One handover: a callback the manager could not hand its pre-conduit to gets INTERNAL_ERROR. */
  function Handover(w: World, env: Env, pre: RaceHandle, cb: Callback, bootstrap: bool): (r: Env)
    ensures r.requests == env.requests + [OnListenAccept(pre, cb, bootstrap)]
    ensures r.fired == if w.answer(|env.requests|).ok then env.fired
                       else env.fired + [Fired(cb, INTERNAL_ERROR, NoConduit)]
  {
    var env1 := Tell(env, OnListenAccept(pre, cb, bootstrap));
    if w.answer(|env.requests|).ok then env1 else InvokeIfSet(env1, Some(cb), INTERNAL_ERROR, NoConduit)
  }

  lemma DropAfterFirst<T>(s: seq<T>, m: nat)
    requires 1 <= m <= |s|
    ensures s[1..][m - 1..] == s[m..]
  {
  }

  /**
   * The second loop of StateListenWaiting: while both queues are
   * non-empty, hand the front pre-conduit to the front accept callback; a
   * callback the manager could not hand over gets INTERNAL_ERROR.
   */
  function PairAccepts(w: World, env: Env, cbs: seq<Callback>, pres: seq<RaceHandle>, bootstrap: bool): (r: Pairing)
    ensures r.acceptCb == cbs[Min(|cbs|, |pres|)..] && r.preConnObjSM == pres[Min(|cbs|, |pres|)..]
    ensures |r.acceptCb| == 0 || |r.preConnObjSM| == 0
    ensures r.env.requests == env.requests + Handovers(cbs, pres, bootstrap)
    decreases |cbs|
  {
    if cbs == [] || pres == [] then Pairing(env, cbs, pres)
    else
      var r := PairAccepts(w, Handover(w, env, pres[0], cbs[0], bootstrap), cbs[1..], pres[1..], bootstrap);
      PairStep(w, env, cbs, pres, bootstrap, r);
      r
  }

  /** One pairing step: what holds of the rest of the pairing holds of the whole. */
  lemma PairStep(w: World, env: Env, cbs: seq<Callback>, pres: seq<RaceHandle>, bootstrap: bool, r: Pairing)
    requires cbs != [] && pres != []
    requires var m := Min(|cbs| - 1, |pres| - 1);
             && r.acceptCb == cbs[1..][m..] && r.preConnObjSM == pres[1..][m..]
             && r.env.requests == Handover(w, env, pres[0], cbs[0], bootstrap).requests
                                  + Handovers(cbs[1..], pres[1..], bootstrap)
    ensures r.acceptCb == cbs[Min(|cbs|, |pres|)..] && r.preConnObjSM == pres[Min(|cbs|, |pres|)..]
    ensures r.env.requests == env.requests + Handovers(cbs, pres, bootstrap)
  {
    DropAfterFirst(cbs, Min(|cbs|, |pres|));
    DropAfterFirst(pres, Min(|cbs|, |pres|));
    AppendAssoc(env.requests, OnListenAccept(pres[0], cbs[0], bootstrap), Handovers(cbs[1..], pres[1..], bootstrap));
  }

  lemma AppendAssoc<T>(s: seq<T>, x: T, t: seq<T>)
    ensures (s + [x]) + t == s + ([x] + t)
  {
  }

  /**
   * Pairing only adds callbacks: each is one of the paired accept
   * callbacks, reporting INTERNAL_ERROR.
   */
  lemma {:induction false} PairingRejectsOnly(w: World, env: Env, cbs: seq<Callback>, pres: seq<RaceHandle>,
                                              bootstrap: bool)
    ensures var r := PairAccepts(w, env, cbs, pres, bootstrap);
            && |env.fired| <= |r.env.fired| <= |env.fired| + Min(|cbs|, |pres|)
            && r.env.fired[..|env.fired|] == env.fired
            && forall i :: |env.fired| <= i < |r.env.fired| ==>
                 r.env.fired[i].status == INTERNAL_ERROR && r.env.fired[i].cb in cbs[..Min(|cbs|, |pres|)]
    decreases |cbs|
  {
    if cbs != [] && pres != [] {
      var accepted := w.answer(|env.requests|).ok;
      var env1 := Tell(env, OnListenAccept(pres[0], cbs[0], bootstrap));
      var env2 := Handover(w, env, pres[0], cbs[0], bootstrap);
      PairingRejectsOnly(w, env2, cbs[1..], pres[1..], bootstrap);
      var r := PairAccepts(w, env2, cbs[1..], pres[1..], bootstrap);
      assert r.env.fired[..|env.fired|] == env2.fired[..|env.fired|];
      forall i | |env.fired| <= i < |r.env.fired|
        ensures r.env.fired[i].status == INTERNAL_ERROR && r.env.fired[i].cb in cbs[..Min(|cbs|, |pres|)]
      {
        if i < |env2.fired| {
          assert r.env.fired[i] == env2.fired[i] == Fired(cbs[0], INTERNAL_ERROR, NoConduit);
        } else {
          assert r.env.fired[i].cb in cbs[1..][..Min(|cbs| - 1, |pres| - 1)];
        }
      }
    }
  }

  /** A callback that is not paired is not fired by pairing. */
  lemma {:induction false} PairingFiresNoOther(w: World, env: Env, cbs: seq<Callback>, pres: seq<RaceHandle>,
                                               cb: Callback, bootstrap: bool)
    requires cb !in cbs
    ensures Count(PairAccepts(w, env, cbs, pres, bootstrap).env.fired, cb) == Count(env.fired, cb)
    ensures cb !in PairAccepts(w, env, cbs, pres, bootstrap).acceptCb
    decreases |cbs|
  {
    if cbs != [] && pres != [] {
      var accepted := w.answer(|env.requests|).ok;
      var env1 := Tell(env, OnListenAccept(pres[0], cbs[0], bootstrap));
      var env2 := Handover(w, env, pres[0], cbs[0], bootstrap);
      FireOther(if accepted then None else Some(cbs[0]), env1, cb, INTERNAL_ERROR, NoConduit);
      assert cb !in cbs[1..];
      PairingFiresNoOther(w, env2, cbs[1..], pres[1..], cb, bootstrap);
    }
  }

  /** The pairing loop as the source runs it, one pair per iteration. */
  method PairAcceptsLoop(w: World, env: Env, cbs: seq<Callback>, pres: seq<RaceHandle>, bootstrap: bool)
    returns (r: Pairing)
    ensures r == PairAccepts(w, env, cbs, pres, bootstrap)
  {
    var e, cs, ps := env, cbs, pres;
    while cs != [] && ps != []
      invariant PairAccepts(w, e, cs, ps, bootstrap) == PairAccepts(w, env, cbs, pres, bootstrap)
      decreases |cs|
    {
      var cb, pre := cs[0], ps[0];
      cs, ps := cs[1..], ps[1..];
      var accepted := w.answer(|e.requests|).ok;
      e := Tell(e, OnListenAccept(pre, cb, bootstrap));
      if !accepted {
        e := Env(e.requests, e.fired + [Fired(cb, INTERNAL_ERROR, NoConduit)]);
      }
    }
    r := Pairing(e, cs, ps);
  }

  // ---------------------------------------------------------------------
  // Waiting, closing, failing
  // ---------------------------------------------------------------------

  /**
   * StateListenWaiting: consume packages up to and including the first
   * hello for this listener and start a pre-conduit for it (at most one per
   * entry), then pair accept calls with pre-conduits.
   */
  function Waiting(w: World, c: ListenCtx): (o: Outcome<ListenCtx>)
    ensures o.Returned? && o.pushed == []
    ensures var k := FirstHello(w.codecs, c.opts.send_channel, c.data);
            var n := |c.env.requests|;
            && (k.None? ==>
                  && o.result == SUCCESS && o.data.data == []
                  && o.data.env.requests == c.env.requests + Handovers(c.acceptCb, c.preConnObjSM, false))
            && (k.Some? ==>
                  var h := ReadHello(w.codecs, c.opts.send_channel, c.data[k.value]).value;
                  && o.data.data == c.data[k.value + 1..]
                  && |o.data.env.requests| > n
                  && o.data.env.requests[n]
                     == StartPreConduit(c.handle, c.recvConnSMHandle, c.recvConnId, c.opts.recv_channel,
                                        c.opts.send_channel, c.opts.send_role, h.linkAddress,
                                        BytesToStr(h.packageId), [h.message])
                  && (o.result == SUCCESS <==> w.answer(n).handle != NULL_RACE_HANDLE)
                  && (o.result == SUCCESS ==>
                        o.data.env.requests == c.env.requests + [o.data.env.requests[n]]
                                               + Handovers(c.acceptCb, c.preConnObjSM + [w.answer(n).handle], false)))
    ensures o.result == SUCCESS ==> o.data.acceptCb == [] || o.data.preConnObjSM == []
    ensures o.result == SUCCESS ==> o.data.listenCb == c.listenCb && o.data.closeCb == c.closeCb
  {
    match FirstHello(w.codecs, c.opts.send_channel, c.data)
    case None =>
      var p := PairAccepts(w, c.env, c.acceptCb, c.preConnObjSM, false);
      Returned(SUCCESS, c.(data := [], acceptCb := p.acceptCb, preConnObjSM := p.preConnObjSM, env := p.env), [])
    case Some(k) =>
      var h := ReadHello(w.codecs, c.opts.send_channel, c.data[k]).value;
      var (env1, a) := Ask(w, c.env, StartPreConduit(c.handle, c.recvConnSMHandle, c.recvConnId, c.opts.recv_channel,
                                                      c.opts.send_channel, c.opts.send_role, h.linkAddress,
                                                      BytesToStr(h.packageId), [h.message]));
      var c1 := c.(data := c.data[k + 1..], env := env1);
      if a.handle == NULL_RACE_HANDLE then Returned(NOT_SUPPORTED, c1, [])
      else
        var p := PairAccepts(w, env1, c.acceptCb, c.preConnObjSM + [a.handle], false);
        Returned(SUCCESS, c1.(acceptCb := p.acceptCb, preConnObjSM := p.preConnObjSM, env := p.env), [])
  }

  /**
   * StateListenFinished: every unpaired accept call gets CLOSING, the
   * manager is told, and the close callback gets OK.
   */
  function Finished(c: ListenCtx): (o: Outcome<ListenCtx>)
    ensures c.closeCb.None? ==> o.Threw?
    ensures c.closeCb.Some? ==>
              && o.Returned? && o.result == SUCCESS && o.pushed == []
              && o.data.acceptCb == [] && o.data.closeCb.None?
              && o.data.env.fired == InvokeAll(c.env, c.acceptCb, CLOSING, NoConduit).fired
                                     + [Fired(c.closeCb.value, OK, NoPayload)]
              && o.data.env.requests == c.env.requests + [StateMachineFinished(c.handle)]
  {
    var env1 := Tell(InvokeAll(c.env, c.acceptCb, CLOSING, NoConduit), StateMachineFinished(c.handle));
    match Invoke(env1, c.closeCb, OK, NoPayload)
    case None => Threw(c.(acceptCb := [], env := env1), [])
    case Some(env2) => Returned(SUCCESS, c.(acceptCb := [], closeCb := None, env := env2), [])
  }

  /** StateListenFailed: every callback still waiting gets INTERNAL_ERROR once. */
  function Failed(c: ListenCtx): (o: Outcome<ListenCtx>)
    ensures o.Returned? && o.result == SUCCESS && o.pushed == []
    ensures o.data.listenCb.None? && o.data.acceptCb == [] && o.data.closeCb.None?
    ensures o.data.env.fired ==
              InvokeIfSet(InvokeAll(InvokeIfSet(c.env, c.listenCb, INTERNAL_ERROR, NoAddress),
                                    c.acceptCb, INTERNAL_ERROR, NoConduit),
                          c.closeCb, INTERNAL_ERROR, NoPayload).fired
    ensures o.data.env.requests == c.env.requests + [StateMachineFailed(c.handle)]
  {
    var env1 := InvokeIfSet(c.env, c.listenCb, INTERNAL_ERROR, NoAddress);
    var env2 := InvokeAll(env1, c.acceptCb, INTERNAL_ERROR, NoConduit);
    var env3 := InvokeIfSet(env2, c.closeCb, INTERNAL_ERROR, NoPayload);
    Returned(SUCCESS, c.(listenCb := None, acceptCb := [], closeCb := None,
                         env := Tell(env3, StateMachineFailed(c.handle))), [])
  }

  // ---------------------------------------------------------------------
  // The engine
  // ---------------------------------------------------------------------

  function ListenStates(w: World): map<StateType, StateDef<ListenCtx>> {
    map[STATE_LISTEN_INITIAL := PlainState((cur: StateType, c: ListenCtx) => Initial(w, c)),
        STATE_LISTEN_CONNECTION_OPEN := PlainState((cur: StateType, c: ListenCtx) => ConnectionOpen(w, c)),
        STATE_LISTEN_WAITING := PlainState((cur: StateType, c: ListenCtx) => Waiting(w, c)),
        STATE_LISTEN_FINISHED := FinalState((cur: StateType, c: ListenCtx) => Finished(c)),
        STATE_LISTEN_FAILED := PlainState((cur: StateType, c: ListenCtx) => Failed(c))]
  }

  /** The declarations of ListenStateEngine's constructor, in order. */
  function ListenDecls(): seq<Decl> {
    [Decl(STATE_LISTEN_INITIAL, EVENT_CONN_STATE_MACHINE_CONNECTED, STATE_LISTEN_CONNECTION_OPEN),
     Decl(STATE_LISTEN_CONNECTION_OPEN, EVENT_ALWAYS, STATE_LISTEN_WAITING),
     Decl(STATE_LISTEN_WAITING, EVENT_RECEIVE_PACKAGE, STATE_LISTEN_WAITING),
     Decl(STATE_LISTEN_WAITING, EVENT_ACCEPT, STATE_LISTEN_WAITING),
     Decl(STATE_LISTEN_WAITING, EVENT_CLOSE, STATE_LISTEN_FINISHED)]
  }

  /** The listen lifecycle: packages and accept calls re-enter WAITING; close finishes. */
  function ListenNext(s: StateType, e: EventType): Option<StateType> {
    if s == STATE_LISTEN_INITIAL && e == EVENT_CONN_STATE_MACHINE_CONNECTED then Some(STATE_LISTEN_CONNECTION_OPEN)
    else if s == STATE_LISTEN_CONNECTION_OPEN && e == EVENT_ALWAYS then Some(STATE_LISTEN_WAITING)
    else if s == STATE_LISTEN_WAITING && (e == EVENT_RECEIVE_PACKAGE || e == EVENT_ACCEPT) then Some(STATE_LISTEN_WAITING)
    else if s == STATE_LISTEN_WAITING && e == EVENT_CLOSE then Some(STATE_LISTEN_FINISHED)
    else None
  }

  lemma ListenDeclTargets(s: StateType, e: EventType)
    ensures DeclTargets(ListenDecls(), s, e) == TargetSet(ListenNext(s, e))
  {
  }

  /** The declared table is the listen lifecycle. */
  lemma ListenDeclsFollow()
    ensures Follows(DeclareAll(map[], ListenDecls()), ListenNext)
  {
    forall s, e
      ensures Declares(DeclareAll(map[], ListenDecls()), s, e) <==> ListenNext(s, e).Some?
      ensures Targets(DeclareAll(map[], ListenDecls()), s, e) == TargetSet(ListenNext(s, e))
    {
      ListenDeclTargets(s, e);
      DeclaredTable(ListenDecls(), s, e, ListenNext(s, e));
    }
  }

  /** What ListenStateEngine's constructor builds. */
  ghost predicate IsListenTable(w: World, t: Table<ListenCtx>) {
    && t.states == ListenStates(w)
    && Follows(t.transitions, ListenNext)
    && t.initStateId == STATE_LISTEN_INITIAL && t.failedStateId == STATE_LISTEN_FAILED
  }

  /** ListenStateEngine's constructor. */
  method NewListenStateEngine(w: World) returns (e: StateEngine<ListenCtx>)
    ensures IsListenTable(w, e.Spec())
  {
    e := new StateEngine();
    e.AddInitialState(STATE_LISTEN_INITIAL, PlainState((cur: StateType, c: ListenCtx) => Initial(w, c)));
    e.AddState(STATE_LISTEN_CONNECTION_OPEN, PlainState((cur: StateType, c: ListenCtx) => ConnectionOpen(w, c)));
    e.AddState(STATE_LISTEN_WAITING, PlainState((cur: StateType, c: ListenCtx) => Waiting(w, c)));
    e.AddState(STATE_LISTEN_FINISHED, FinalState((cur: StateType, c: ListenCtx) => Finished(c)));
    e.AddFailedState(STATE_LISTEN_FAILED, PlainState((cur: StateType, c: ListenCtx) => Failed(c)));
    e.DeclareTransitions(ListenDecls());
    ListenDeclsFollow();
  }

  // ---------------------------------------------------------------------
  // Properties
  // ---------------------------------------------------------------------

  /**
   * An accept call while waiting, with no package queued, re-enters
   * WAITING, pairs the callback if a pre-conduit is ready, and succeeds.
   */
  lemma AcceptKeepsWaiting(w: World, t: Table<ListenCtx>, c: Config<ListenCtx>, cb: Callback, fuel: nat)
    requires IsListenTable(w, t)
    requires c.currentStateId == STATE_LISTEN_WAITING && c.pendingEvents == [] && c.data.data == [] && fuel > 0
    ensures var c' := c.(data := Apply(c.data, UAccept(c.data.handle, cb)));
            var r := HandleEventSpec(t, c', EVENT_ACCEPT, fuel);
            var p := PairAccepts(w, c.data.env, c.data.acceptCb + [cb], c.data.preConnObjSM, false);
            && r.result == SUCCESS
            && r.config.currentStateId == STATE_LISTEN_WAITING
            && r.config.data.acceptCb == p.acceptCb && r.config.data.preConnObjSM == p.preConnObjSM
            && r.config.data.env == p.env
  {
    var c' := c.(data := Apply(c.data, UAccept(c.data.handle, cb)));
    assert Targets(t.transitions, STATE_LISTEN_WAITING, EVENT_ACCEPT)
           == TargetSet(ListenNext(STATE_LISTEN_WAITING, EVENT_ACCEPT));
    HandleOneMoves(t, c', EVENT_ACCEPT, STATE_LISTEN_WAITING);
    assert t.states[STATE_LISTEN_WAITING].exit(STATE_LISTEN_WAITING, c'.data) == Returned(SUCCESS, c'.data, []);
    assert t.states[STATE_LISTEN_WAITING].enter(STATE_LISTEN_WAITING, c'.data) == Waiting(w, c'.data);
    TransitionByEnter(t, c', STATE_LISTEN_WAITING);
    var c1 := c'.(pendingEvents := [EVENT_ACCEPT]);
    var (res, c2) := HandleOne(t, c', EVENT_ACCEPT);
    assert res == SUCCESS;
    assert Drain(t, c1, fuel) == Prepend([EVENT_ACCEPT], Drain(t, c2, fuel - 1));
  }

  /** The listen callback cb is one-shot; no accept or close callback is cb. */
  ghost predicate ListenCbOnce(c: ListenCtx, cb: Callback) {
    OneShot(c.listenCb, c.env.fired, cb) && cb !in c.acceptCb && c.closeCb != Some(cb)
  }

  lemma {:induction false} InvokeAllOther(env: Env, cbs: seq<Callback>, status: ApiStatus, payload: Payload, cb: Callback)
    requires cb !in cbs
    ensures Count(InvokeAll(env, cbs, status, payload).fired, cb) == Count(env.fired, cb)
    decreases |cbs|
  {
    if cbs != [] {
      CountSnoc(env.fired, Fired(cbs[0], status, payload), cb);
      assert cb !in cbs[1..];
      InvokeAllOther(Env(env.requests, env.fired + [Fired(cbs[0], status, payload)]), cbs[1..], status, payload, cb);
    }
  }

  lemma InitialKeepsListenCbOnce(w: World, c: ListenCtx, cb: Callback)
    requires ListenCbOnce(c, cb)
    ensures ListenCbOnce(Initial(w, c).data, cb)
  {
    if ListenCheck(w, c.opts).Some? {
      FireAndClear(c.listenCb, c.env, cb, ListenCheck(w, c.opts).value, NoAddress);
    }
  }

  lemma ConnectionOpenKeepsListenCbOnce(w: World, c: ListenCtx, cb: Callback)
    requires ListenCbOnce(c, cb)
    ensures ListenCbOnce(ConnectionOpen(w, c).data, cb)
  {
    var env1 := Tell(c.env, GenerateHandle);
    FireAndClear(c.listenCb, env1, cb, OK, PAddress(c.recvLinkAddress, w.answer(|c.env.requests|).handle));
  }

  lemma WaitingKeepsListenCbOnce(w: World, c: ListenCtx, cb: Callback)
    requires ListenCbOnce(c, cb)
    ensures ListenCbOnce(Waiting(w, c).data, cb)
  {
    match FirstHello(w.codecs, c.opts.send_channel, c.data)
    case None =>
      PairingFiresNoOther(w, c.env, c.acceptCb, c.preConnObjSM, cb, false);
    case Some(k) =>
      var h := ReadHello(w.codecs, c.opts.send_channel, c.data[k]).value;
      var (env1, a) := Ask(w, c.env, StartPreConduit(c.handle, c.recvConnSMHandle, c.recvConnId, c.opts.recv_channel,
                                                      c.opts.send_channel, c.opts.send_role, h.linkAddress,
                                                      BytesToStr(h.packageId), [h.message]));
      PairingFiresNoOther(w, env1, c.acceptCb, c.preConnObjSM + [a.handle], cb, false);
  }

  lemma FinishedKeepsListenCbOnce(c: ListenCtx, cb: Callback)
    requires ListenCbOnce(c, cb)
    ensures ListenCbOnce(Finished(c).data, cb)
  {
    InvokeAllOther(c.env, c.acceptCb, CLOSING, NoConduit, cb);
    var env1 := Tell(InvokeAll(c.env, c.acceptCb, CLOSING, NoConduit), StateMachineFinished(c.handle));
    FireOther(c.closeCb, env1, cb, OK, NoPayload);
  }

  lemma FailedKeepsListenCbOnce(c: ListenCtx, cb: Callback)
    requires ListenCbOnce(c, cb)
    ensures ListenCbOnce(Failed(c).data, cb)
  {
    var env1 := InvokeIfSet(c.env, c.listenCb, INTERNAL_ERROR, NoAddress);
    FireAndClear(c.listenCb, c.env, cb, INTERNAL_ERROR, NoAddress);
    InvokeAllOther(env1, c.acceptCb, INTERNAL_ERROR, NoConduit, cb);
    FireOther(c.closeCb, InvokeAll(env1, c.acceptCb, INTERNAL_ERROR, NoConduit), cb, INTERNAL_ERROR, NoPayload);
  }

  /** Every state keeps the listen callback one-shot. */
  lemma StatesKeepListenCbOnce(w: World, t: Table<ListenCtx>, cb: Callback)
    requires IsListenTable(w, t)
    ensures Keeps(t, (c: ListenCtx) => ListenCbOnce(c, cb))
  {
    forall s, cur, c | s in t.states && ListenCbOnce(c, cb)
      ensures ListenCbOnce(t.states[s].enter(cur, c).data, cb)
      ensures ListenCbOnce(t.states[s].exit(cur, c).data, cb)
    {
      if s == STATE_LISTEN_INITIAL {
        InitialKeepsListenCbOnce(w, c, cb);
      } else if s == STATE_LISTEN_CONNECTION_OPEN {
        ConnectionOpenKeepsListenCbOnce(w, c, cb);
      } else if s == STATE_LISTEN_WAITING {
        WaitingKeepsListenCbOnce(w, c, cb);
      } else if s == STATE_LISTEN_FINISHED {
        FinishedKeepsListenCbOnce(c, cb);
      } else {
        FailedKeepsListenCbOnce(c, cb);
      }
    }
  }

  /** A listen started with cb set and nothing fired reports to cb at most once. */
  lemma StartFiresListenCbAtMostOnce(w: World, t: Table<ListenCtx>, c: Config<ListenCtx>, fuel: nat, cb: Callback)
    requires IsListenTable(w, t)
    requires c.data.listenCb == Some(cb) && c.data.env.fired == [] && cb !in c.data.acceptCb && c.data.closeCb != Some(cb)
    ensures Count(StartSpec(t, c, fuel).config.data.env.fired, cb) <= 1
  {
    StatesKeepListenCbOnce(w, t, cb);
    StartKeeps(t, c, fuel, (d: ListenCtx) => ListenCbOnce(d, cb));
  }

  /** ... and keeps reporting to it at most once on every later event. */
  lemma HandleEventKeepsListenCbOnce(w: World, t: Table<ListenCtx>, c: Config<ListenCtx>, e: EventType,
                                     fuel: nat, cb: Callback)
    requires IsListenTable(w, t)
    requires ListenCbOnce(c.data, cb)
    ensures Count(HandleEventSpec(t, c, e, fuel).config.data.env.fired, cb) <= 1
  {
    StatesKeepListenCbOnce(w, t, cb);
    HandleEventKeeps(t, c, e, fuel, (d: ListenCtx) => ListenCbOnce(d, cb));
  }
}

=== FILE: plugindef.dfy ===
// A plugin definition from a manifest (source/PluginDef.cpp): which file to
// load and, for a unified plugin, which channels it provides, or, for a
// decomposed one, which transports, user models and encodings.

module PluginDefs {
  import opened Common
  import opened JsonAccess
  import opened RaceEnumNames

  datatype PluginDef = PluginDef(
    fileType: PluginFileType,
    filePath: string,
    pythonModule: string,
    pythonClass: string,
    sharedLibraryPath: string,
    channels: seq<string>,
    transports: seq<string>,
    usermodels: seq<string>,
    encodings: seq<string>)

  /** is_unified_plugin: the definition lists channels. */
  predicate IsUnifiedPlugin(d: PluginDef) {
    d.channels != []
  }

  /** is_decomposed_plugin: the negation of is_unified_plugin. */
  predicate IsDecomposedPlugin(d: PluginDef) {
    !IsUnifiedPlugin(d)
  }

  /** Every definition is exactly one of the two kinds. */
  lemma ExactlyOneKind(d: PluginDef)
    ensures IsUnifiedPlugin(d) != IsDecomposedPlugin(d)
    ensures IsDecomposedPlugin(d) <==> d.channels == []
  {
  }

  /** The catch clauses of from_json: each exception re-thrown as invalid_argument with a prefix. */
  function Rethrown(e: JsonError): (r: JsonError)
    ensures e.OutOfRange? ==> r == InvalidArgument("plugin definition missing required key: " + e.key)
    ensures e.InvalidArgument? ==> r == InvalidArgument("plugin definition invalid value: " + e.msg)
    ensures e.TypeError? ==> r == TypeError
  {
    match e
    case OutOfRange(key) => InvalidArgument("plugin definition missing required key: " + key)
    case InvalidArgument(msg) => InvalidArgument("plugin definition invalid value: " + msg)
    case TypeError => TypeError
  }

  /** The file type named by a JSON value. */
  function FileTypeOf(j: Json): (r: Result<PluginFileType, JsonError>)
    ensures r.Success? <==> j.JString? && StringToPluginFileType(j.s).Success?
    ensures r.Success? ==> r == Success(StringToPluginFileType(j.s).value)
  {
    if !j.JString? then Failure(TypeError)
    else match StringToPluginFileType(j.s)
      case Success(t) => Success(t)
      case Failure(msg) => Failure(InvalidArgument(msg))
  }

  /** The python fields: required for a Python plugin, left empty for a shared library. */
  function PythonFields(j: Json, t: PluginFileType): (r: Result<(string, string), JsonError>)
    requires j.JObject?
    ensures t == PFT_SHARED_LIB ==> r == Success(("", ""))
  {
    if t == PFT_SHARED_LIB then Success(("", ""))
    else
      var m :- At(j, "python_module");
      var module_ :- AsString(m);
      var c :- At(j, "python_class");
      var class_ :- AsString(c);
      Success((module_, class_))
  }

  /** The fields read in the try block, in the source's order; the first exception wins. */
  function ReadPluginDef(j: Json): (r: Result<PluginDef, JsonError>)
  {
    var ft :- At(j, "file_type");
    var fileType :- FileTypeOf(ft);
    var fp :- At(j, "file_path");
    var filePath :- AsString(fp);
    var python :- PythonFields(j, fileType);
    var sharedLibraryPath :- ValueString(j, "shared_library_path", "");
    var channels :- ValueStrings(j, "channels");
    var transports :- ValueStrings(j, "transports");
    var usermodels :- ValueStrings(j, "usermodels");
    var encodings :- ValueStrings(j, "encodings");
    Success(PluginDef(fileType, filePath, python.0, python.1, sharedLibraryPath,
                      channels, transports, usermodels, encodings))
  }

  /** from_json(json, PluginDef). */
  function FromJson(j: Json): (r: Result<PluginDef, JsonError>)
    ensures r.Failure? ==> !r.error.OutOfRange?
    ensures j.JObject? && "file_type" !in j.fields ==>
      r == Failure(InvalidArgument("plugin definition missing required key: " + "file_type"))
    ensures r.Success? ==> r == ReadPluginDef(j)
  {
    match ReadPluginDef(j)
    case Success(d) => Success(d)
    case Failure(e) => Failure(Rethrown(e))
  }

  /** A well-formed definition object: what FromJson accepts. */
  predicate WellFormed(j: Json) {
    && j.JObject?
    && "file_type" in j.fields && FileTypeOf(j.fields["file_type"]).Success?
    && "file_path" in j.fields && j.fields["file_path"].JString?
    && (FileTypeOf(j.fields["file_type"]).value == PFT_PYTHON ==>
          && "python_module" in j.fields && j.fields["python_module"].JString?
          && "python_class" in j.fields && j.fields["python_class"].JString?)
    && ("shared_library_path" in j.fields ==> j.fields["shared_library_path"].JString?)
    && (forall k | k in {"channels", "transports", "usermodels", "encodings"} && k in j.fields ::
          AsStrings(j.fields[k]).Success?)
  }

  /** A definition is read exactly when the object is well formed. */
  lemma FromJsonSucceedsIffWellFormed(j: Json)
    ensures FromJson(j).Success? <==> WellFormed(j)
  {
    if WellFormed(j) {
      assert "channels" in {"channels", "transports", "usermodels", "encodings"};
      assert "transports" in {"channels", "transports", "usermodels", "encodings"};
      assert "usermodels" in {"channels", "transports", "usermodels", "encodings"};
      assert "encodings" in {"channels", "transports", "usermodels", "encodings"};
    }
  }

  /**
   * A Python plugin without python_module is refused as a missing key,
   * while a shared-library plugin never needs the python fields.
   */
  lemma PythonNeedsModule(j: Json)
    requires j.JObject? && "file_type" in j.fields && FileTypeOf(j.fields["file_type"]) == Success(PFT_PYTHON)
    requires "file_path" in j.fields && j.fields["file_path"].JString?
    requires "python_module" !in j.fields
    ensures FromJson(j) == Failure(InvalidArgument("plugin definition missing required key: " + "python_module"))
  {
  }

  /** The JSON a manifest would hold for a definition (a shared library lists no python fields). */
  function DefToJson(d: PluginDef): (j: Json) {
    var base := map[
      "file_type" := JString(ManifestName(d.fileType)),
      "file_path" := JString(d.filePath),
      "shared_library_path" := JString(d.sharedLibraryPath),
      "channels" := StringsToJson(d.channels),
      "transports" := StringsToJson(d.transports),
      "usermodels" := StringsToJson(d.usermodels),
      "encodings" := StringsToJson(d.encodings)];
    if d.fileType == PFT_PYTHON then
      JObject(base["python_module" := JString(d.pythonModule)]["python_class" := JString(d.pythonClass)])
    else JObject(base)
  }

  /** The fields of the written JSON, key by key. */
  lemma DefJsonFields(d: PluginDef)
    ensures var j := DefToJson(d);
      && j.JObject?
      && "file_type" in j.fields && j.fields["file_type"] == JString(ManifestName(d.fileType))
      && "file_path" in j.fields && j.fields["file_path"] == JString(d.filePath)
      && "shared_library_path" in j.fields && j.fields["shared_library_path"] == JString(d.sharedLibraryPath)
      && "channels" in j.fields && j.fields["channels"] == StringsToJson(d.channels)
      && "transports" in j.fields && j.fields["transports"] == StringsToJson(d.transports)
      && "usermodels" in j.fields && j.fields["usermodels"] == StringsToJson(d.usermodels)
      && "encodings" in j.fields && j.fields["encodings"] == StringsToJson(d.encodings)
      && (d.fileType == PFT_PYTHON ==>
            && "python_module" in j.fields && j.fields["python_module"] == JString(d.pythonModule)
            && "python_class" in j.fields && j.fields["python_class"] == JString(d.pythonClass))
  {
  }

  /** Reading back a written definition gives it again (a shared library's python fields are empty). */
  lemma DefRoundTrip(d: PluginDef)
    requires d.fileType == PFT_SHARED_LIB ==> d.pythonModule == "" && d.pythonClass == ""
    ensures FromJson(DefToJson(d)) == Success(d)
  {
    LowerCaseIdempotent(ManifestName(d.fileType));
    assert IsLowerCase(ManifestName(d.fileType));
    ManifestNameRoundTrip(d.fileType, ManifestName(d.fileType));
    DefJsonFields(d);
    StringsRoundTrip(d.channels);
    StringsRoundTrip(d.transports);
    StringsRoundTrip(d.usermodels);
    StringsRoundTrip(d.encodings);
  }

  /** Absent optional keys read as empty. */
  lemma OptionalKeysDefault(j: Json)
    requires FromJson(j).Success?
    ensures "shared_library_path" !in j.fields ==> FromJson(j).value.sharedLibraryPath == ""
    ensures "channels" !in j.fields ==> FromJson(j).value.channels == [] && IsDecomposedPlugin(FromJson(j).value)
    ensures "transports" !in j.fields ==> FromJson(j).value.transports == []
    ensures "usermodels" !in j.fields ==> FromJson(j).value.usermodels == []
    ensures "encodings" !in j.fields ==> FromJson(j).value.encodings == []
  {
  }
}

=== FILE: pluginloader.dfy ===
// The plugin loader (source/plugin-loading/PluginLoader.cpp): maps every
// channel id named by the manifests to the loader that can provide it, and
// loads a channel's plugin the first time the channel is asked for,
// initialising it once and caching it for all of that plugin's channels.
// A loaded container is identified by its position in `loaded`.

module PluginLoading {
  import opened Common
  import opened JsonAccess
  import opened PluginDefs
  import opened Compositions
  import opened PluginConfig
  import opened DecomposedLoading
  import PluginFiles

  /** What channelPluginLoaderMap holds: a unified plugin or a composition to assemble. */
  datatype Loadable = Unified(def: PluginDef) | Composed(composition: Composition)

  /** channelIdsForPlugin: the unified plugin's channels, or the composition's id. */
  function ChannelIdsFor(l: Loadable): seq<ChannelId> {
    match l
    case Unified(d) => d.channels
    case Composed(c) => [c.id]
  }

  /** A loaded plugin: a unified one (its id is its file path) or a composed channel. */
  datatype Container = UnifiedContainer(id: string, def: PluginDef) | CompositeContainer(composite: Composite)

  // ---- the channel-to-loader map built by the constructor ----

  /** Every plugin definition of every manifest, in order. */
  function AllPlugins(ms: seq<PluginManifest>): seq<PluginDef>
    decreases |ms|
  {
    if ms == [] then [] else AllPlugins(ms[..|ms| - 1]) + ms[|ms| - 1].plugins
  }

  /** Every composition of every manifest, in order. */
  function AllCompositions(ms: seq<PluginManifest>): seq<Composition>
    decreases |ms|
  {
    if ms == [] then [] else AllCompositions(ms[..|ms| - 1]) + ms[|ms| - 1].compositions
  }

  /** The definitions of one kind, in order. */
  function UnifiedOnly(defs: seq<PluginDef>): (r: seq<PluginDef>)
    ensures forall d :: d in r <==> d in defs && IsUnifiedPlugin(d)
    decreases |defs|
  {
    if defs == [] then []
    else UnifiedOnly(defs[..|defs| - 1]) + (if IsUnifiedPlugin(defs[|defs| - 1]) then [defs[|defs| - 1]] else [])
  }

  function DecomposedOnly(defs: seq<PluginDef>): (r: seq<PluginDef>)
    ensures forall d :: d in r <==> d in defs && IsDecomposedPlugin(d)
    decreases |defs|
  {
    if defs == [] then []
    else DecomposedOnly(defs[..|defs| - 1]) + (if IsDecomposedPlugin(defs[|defs| - 1]) then [defs[|defs| - 1]] else [])
  }

  /** One unified definition claims each of its channels. */
  function WithChannels(m: map<ChannelId, Loadable>, d: PluginDef): map<ChannelId, Loadable> {
    m + map ch | ch in d.channels :: Unified(d)
  }

  /** Unified definitions in order: a later one takes over a channel an earlier one claimed. */
  function WithUnified(m: map<ChannelId, Loadable>, defs: seq<PluginDef>): map<ChannelId, Loadable>
    decreases |defs|
  {
    if defs == [] then m else WithChannels(WithUnified(m, defs[..|defs| - 1]), defs[|defs| - 1])
  }

  /** Compositions in order, each overwriting whatever its id mapped to. */
  function WithCompositions(m: map<ChannelId, Loadable>, cs: seq<Composition>): map<ChannelId, Loadable>
    decreases |cs|
  {
    if cs == [] then m else WithCompositions(m, cs[..|cs| - 1])[cs[|cs| - 1].id := Composed(cs[|cs| - 1])]
  }

  /** channelPluginLoaderMap after construction. */
  function LoaderMapOf(ms: seq<PluginManifest>): map<ChannelId, Loadable> {
    WithCompositions(WithUnified(map[], UnifiedOnly(AllPlugins(ms))), AllCompositions(ms))
  }

  /** Each key maps to a loader that provides that channel. */
  ghost predicate LoaderMapValid(m: map<ChannelId, Loadable>) {
    forall ch :: ch in m ==> ch in ChannelIdsFor(m[ch])
  }

  lemma {:induction false} WithUnifiedValid(m: map<ChannelId, Loadable>, defs: seq<PluginDef>)
    requires LoaderMapValid(m)
    ensures LoaderMapValid(WithUnified(m, defs))
    decreases |defs|
  {
    if defs != [] {
      WithUnifiedValid(m, defs[..|defs| - 1]);
    }
  }

  lemma {:induction false} WithCompositionsValid(m: map<ChannelId, Loadable>, cs: seq<Composition>)
    requires LoaderMapValid(m)
    ensures LoaderMapValid(WithCompositions(m, cs))
    decreases |cs|
  {
    if cs != [] {
      WithCompositionsValid(m, cs[..|cs| - 1]);
    }
  }

  /** The constructed map sends every channel to a loader that provides it. */
  lemma LoaderMapOfValid(ms: seq<PluginManifest>)
    ensures LoaderMapValid(LoaderMapOf(ms))
  {
    WithUnifiedValid(map[], UnifiedOnly(AllPlugins(ms)));
    WithCompositionsValid(WithUnified(map[], UnifiedOnly(AllPlugins(ms))), AllCompositions(ms));
  }

  /**
   * A channel listed by a unified definition, and by no later one, maps to
   * that definition's loader, which it shares with all the definition's
   * other channels.
   */
  lemma {:induction false} LastUnifiedWins(m: map<ChannelId, Loadable>, defs: seq<PluginDef>, i: nat, ch: ChannelId)
    requires i < |defs| && ch in defs[i].channels
    requires forall j :: i < j < |defs| ==> ch !in defs[j].channels
    ensures ch in WithUnified(m, defs) && WithUnified(m, defs)[ch] == Unified(defs[i])
    decreases |defs|
  {
    if i < |defs| - 1 {
      var init := defs[..|defs| - 1];
      assert forall j :: i < j < |init| ==> init[j] == defs[j];
      LastUnifiedWins(m, init, i, ch);
    }
  }

  /** A composition, unless a later one has the same id, is what its id maps to. */
  lemma {:induction false} LastCompositionWins(m: map<ChannelId, Loadable>, cs: seq<Composition>, i: nat)
    requires i < |cs|
    requires forall j :: i < j < |cs| ==> cs[j].id != cs[i].id
    ensures cs[i].id in WithCompositions(m, cs) && WithCompositions(m, cs)[cs[i].id] == Composed(cs[i])
    decreases |cs|
  {
    if i < |cs| - 1 {
      var init := cs[..|cs| - 1];
      assert forall j :: i < j < |init| ==> init[j] == cs[j];
      LastCompositionWins(m, init, i);
    }
  }

  /** A channel id that is no composition's id keeps the loader the unified definitions gave it. */
  lemma {:induction false} CompositionsLeaveOtherIds(m: map<ChannelId, Loadable>, cs: seq<Composition>, ch: ChannelId)
    requires forall j :: 0 <= j < |cs| ==> cs[j].id != ch
    ensures (ch in WithCompositions(m, cs)) == (ch in m)
    ensures ch in m ==> WithCompositions(m, cs)[ch] == m[ch]
    decreases |cs|
  {
    if cs != [] {
      CompositionsLeaveOtherIds(m, cs[..|cs| - 1], ch);
    }
  }

  // ---- getChannel ----

  /** The loaders' bookkeeping: channelMap, loadedPlugins and the init calls made so far. */
  datatype LoaderState = LoaderState(channelMap: map<ChannelId, nat>, loaded: seq<Option<Container>>, inits: seq<nat>)

  /** What loading a plugin produced: a container, a null one (the library failed to load), or an exception. */
  datatype LoadOutcome = LoadedContainer(c: Container) | NullContainer | LoadThrew(e: JsonError)

  /** What getChannel hands back; NullDereference marks the call of init through a null pointer. */
  datatype GetChannelResult = Channel(index: nat) | NullChannel | Threw(e: JsonError) | NullDereference

  /** emplace of each id: an id already present keeps its container. */
  function Emplace(m: map<ChannelId, nat>, ids: seq<ChannelId>, v: nat): (r: map<ChannelId, nat>)
    ensures forall id :: id in r <==> id in m || id in ids
    ensures forall id :: id in m ==> r[id] == m[id]
    ensures forall id :: id in ids && id !in m ==> r[id] == v
  {
    m + map id | id in ids && id !in m :: v
  }

  /** The numbers 0 .. n-1 in order. */
  function Range(n: nat): (r: seq<nat>)
    ensures |r| == n && forall i :: 0 <= i < n ==> r[i] == i
  {
    seq(n, i => i)
  }

  /**
   * Every loaded container is non-null, every cached channel points at one,
   * and init has been called exactly once on each, in load order.
   */
  ghost predicate StateValid(s: LoaderState) {
    && (forall i :: 0 <= i < |s.loaded| ==> s.loaded[i].Some?)
    && (forall ch :: ch in s.channelMap ==> s.channelMap[ch] < |s.loaded|)
    && s.inits == Range(|s.loaded|)
  }

  /**
   * getChannel for `ch`, given what loading its plugin would produce. A
   * cached channel is returned as it is; a channel without a loader gives
   * null; an exception from the load leaves everything as it was. After a
   * successful load the container is kept, all of the plugin's channels not
   * yet cached point at it, and init is called on it.
   * As written (asWritten), a load that yields null is cached too and init
   * is then called through the null pointer; otherwise null is returned and
   * nothing changes.
   */
  function GetChannelStep(s: LoaderState, loaderMap: map<ChannelId, Loadable>, ch: ChannelId,
                          outcome: LoadOutcome, asWritten: bool): (GetChannelResult, LoaderState)
  {
    if ch in s.channelMap then (Channel(s.channelMap[ch]), s)
    else if ch !in loaderMap then (NullChannel, s)
    else
      var idx := |s.loaded|;
      var ids := ChannelIdsFor(loaderMap[ch]);
      match outcome
      case LoadThrew(e) => (Threw(e), s)
      case NullContainer =>
        if asWritten then (NullDereference, LoaderState(Emplace(s.channelMap, ids, idx), s.loaded + [None], s.inits))
        else (NullChannel, s)
      case LoadedContainer(c) =>
        (Channel(idx), LoaderState(Emplace(s.channelMap, ids, idx), s.loaded + [Some(c)], s.inits + [idx]))
  }

  /** A cached channel is handed back without loading anything. */
  lemma CachedChannelReused(s: LoaderState, loaderMap: map<ChannelId, Loadable>, ch: ChannelId,
                            outcome: LoadOutcome, asWritten: bool)
    requires ch in s.channelMap
    ensures GetChannelStep(s, loaderMap, ch, outcome, asWritten) == (Channel(s.channelMap[ch]), s)
  {
  }

  /** A channel no manifest names gives null and changes nothing. */
  lemma UnknownChannelIsNull(s: LoaderState, loaderMap: map<ChannelId, Loadable>, ch: ChannelId,
                             outcome: LoadOutcome, asWritten: bool)
    requires ch !in s.channelMap && ch !in loaderMap
    ensures GetChannelStep(s, loaderMap, ch, outcome, asWritten) == (NullChannel, s)
  {
  }

  /**
   * After a load, the requested channel and every other channel of the same
   * plugin not cached before map to the new container; the cache is
   * otherwise unchanged; asking again returns the same container.
   */
  lemma LoadCachesPluginChannels(s: LoaderState, loaderMap: map<ChannelId, Loadable>, ch: ChannelId,
                                 c: Container, asWritten: bool, again: LoadOutcome)
    requires ch !in s.channelMap && ch in loaderMap && LoaderMapValid(loaderMap)
    ensures var (r, s') := GetChannelStep(s, loaderMap, ch, LoadedContainer(c), asWritten);
      && r == Channel(|s.loaded|)
      && s'.loaded[r.index] == Some(c)
      && (forall id :: id in ChannelIdsFor(loaderMap[ch]) && id !in s.channelMap ==> s'.channelMap[id] == r.index)
      && s'.channelMap[ch] == r.index
      && (forall id :: id in s.channelMap ==> s'.channelMap[id] == s.channelMap[id])
      && GetChannelStep(s', loaderMap, ch, again, asWritten) == (r, s')
  {
  }

  /** Corrected getChannel keeps the bookkeeping valid: in particular, init once per loaded container. */
  lemma GetChannelKeepsStateValid(s: LoaderState, loaderMap: map<ChannelId, Loadable>, ch: ChannelId, outcome: LoadOutcome)
    requires StateValid(s)
    ensures StateValid(GetChannelStep(s, loaderMap, ch, outcome, false).1)
    ensures GetChannelStep(s, loaderMap, ch, outcome, false).0 != NullDereference
  {
    var s' := GetChannelStep(s, loaderMap, ch, outcome, false).1;
    if ch !in s.channelMap && ch in loaderMap && outcome.LoadedContainer? {
      assert s'.inits == Range(|s.loaded|) + [|s.loaded|];
    }
  }

  /** Corrected: a plugin that fails to load leaves the loader as it was, so a later call tries again. */
  lemma FailedLoadChangesNothing(s: LoaderState, loaderMap: map<ChannelId, Loadable>, ch: ChannelId)
    requires ch !in s.channelMap && ch in loaderMap
    ensures GetChannelStep(s, loaderMap, ch, NullContainer, false) == (NullChannel, s)
  {
  }

  /**
   * As written: when the plugin fails to load, getChannel caches the null
   * container and calls init through it; every later call for that channel
   * returns the cached null.
   */
  lemma FailedLoadDereferencesNull(s: LoaderState, loaderMap: map<ChannelId, Loadable>, ch: ChannelId, later: LoadOutcome)
    requires ch !in s.channelMap && ch in loaderMap && LoaderMapValid(loaderMap)
    ensures var (r, s') := GetChannelStep(s, loaderMap, ch, NullContainer, true);
      && r == NullDereference
      && !StateValid(s')
      && var (r2, _) := GetChannelStep(s', loaderMap, ch, later, true);
         r2 == Channel(|s.loaded|) && s'.loaded[r2.index] == None
  {
    var s' := GetChannelStep(s, loaderMap, ch, NullContainer, true).1;
    assert s'.loaded[|s.loaded|] == None;
  }

  /** The directories handed to a plugin's init: etc, logging, aux data and tmp under the root, and its install directory. */
  datatype PluginDirectories = PluginDirectories(
    etcDirectory: PluginFiles.Path,
    loggingDirectory: PluginFiles.Path,
    auxDataDirectory: PluginFiles.Path,
    pluginDirectory: PluginFiles.Path,
    tmpDirectory: PluginFiles.Path)

  /** getPluginConfig for a container id. */
  function GetPluginConfig(root: PluginFiles.Path, host: PluginFiles.Host, id: string): PluginDirectories {
    PluginDirectories(
      PluginFiles.MakeRaceDir(root, "etc", id),
      PluginFiles.MakeRaceDir(root, "logging", id),
      PluginFiles.MakeRaceDir(root, "aux", id),
      PluginFiles.MakePluginInstallPath(root, host, "", id),
      PluginFiles.MakeRaceDir(root, "tmp", id))
  }

  /** Each plugin gets its own directories, named after its id. */
  lemma PluginConfigSpelledOut(root: PluginFiles.Path, host: PluginFiles.Host, id: string)
    requires PluginFiles.HasFilename(root) && PluginFiles.IsName(id)
    requires PluginFiles.IsName(host.os) && PluginFiles.IsName(host.arch)
    ensures var dirs := GetPluginConfig(root, host, id);
      && dirs.etcDirectory == root + "/" + "etc" + "/" + id
      && dirs.loggingDirectory == root + "/" + "logging" + "/" + id
      && dirs.auxDataDirectory == root + "/" + "aux" + "/" + id
      && dirs.tmpDirectory == root + "/" + "tmp" + "/" + id
      && dirs.pluginDirectory == root + "/plugins/" + host.os + "/" + host.arch + "/" + id
  {
    RaceDirSpelledOut(root, "etc", id);
    RaceDirSpelledOut(root, "logging", id);
    RaceDirSpelledOut(root, "aux", id);
    RaceDirSpelledOut(root, "tmp", id);
    PluginFiles.PluginInstallPathSpelledOut(root, host, "", id);
  }

  lemma RaceDirSpelledOut(root: PluginFiles.Path, prefix: string, id: string)
    requires PluginFiles.HasFilename(root) && PluginFiles.IsName(id) && PluginFiles.IsName(prefix)
    ensures PluginFiles.MakeRaceDir(root, prefix, id) == root + "/" + prefix + "/" + id
  {
    PluginFiles.OtherDirsSpelledOut(root, prefix, prefix, id);
  }

  /** The channels of one unified definition, each pointed at the definition's shared loader. */
  method AddChannels(m0: map<ChannelId, Loadable>, def: PluginDef) returns (m: map<ChannelId, Loadable>)
    ensures m == WithChannels(m0, def)
  {
    m := m0;
    var k := 0;
    while k < |def.channels|
      invariant 0 <= k <= |def.channels|
      invariant m == m0 + map ch | ch in def.channels[..k] :: Unified(def)
    {
      m := m[def.channels[k] := Unified(def)];
      assert def.channels[..k + 1] == def.channels[..k] + [def.channels[k]];
      k := k + 1;
    }
    assert def.channels[..k] == def.channels;
  }

  /** The constructor's loop over the unified definitions. */
  method UnifiedLoaders(unified: seq<PluginDef>) returns (m: map<ChannelId, Loadable>)
    ensures m == WithUnified(map[], unified)
  {
    m := map[];
    var i := 0;
    while i < |unified|
      invariant 0 <= i <= |unified|
      invariant m == WithUnified(map[], unified[..i])
    {
      m := AddChannels(m, unified[i]);
      assert unified[..i + 1][..i] == unified[..i];
      i := i + 1;
    }
    assert unified[..i] == unified;
  }

  /** The constructor's loop over the compositions, each overwriting its id. */
  method CompositionLoaders(m0: map<ChannelId, Loadable>, compositions: seq<Composition>) returns (m: map<ChannelId, Loadable>)
    ensures m == WithCompositions(m0, compositions)
  {
    m := m0;
    var j := 0;
    while j < |compositions|
      invariant 0 <= j <= |compositions|
      invariant m == WithCompositions(m0, compositions[..j])
    {
      m := m[compositions[j].id := Composed(compositions[j])];
      assert compositions[..j + 1][..j] == compositions[..j];
      j := j + 1;
    }
    assert compositions[..j] == compositions;
  }

  class PluginLoader {
    const decomposed: DecomposedPluginLoader
    /** Whether a unified plugin's library loads (LoaderWrapper or PythonLoaderWrapper constructs). */
    const libraryLoads: PluginDef -> bool
    var loaderMap: map<ChannelId, Loadable>
    var channelMap: map<ChannelId, nat>
    var loaded: seq<Option<Container>>
    var inits: seq<nat>

    function State(): LoaderState
      reads this
    {
      LoaderState(channelMap, loaded, inits)
    }

    /**
     * The constructor: every unified definition's channels map to one
     * shared loader for it, then every composition id to a composition
     * loader; the decomposed loader has already loaded its components.
     */
    constructor(manifests: seq<PluginManifest>, d: DecomposedPluginLoader, loads: PluginDef -> bool)
      ensures decomposed == d && libraryLoads == loads
      ensures loaderMap == LoaderMapOf(manifests)
      ensures State() == LoaderState(map[], [], [])
    {
      decomposed := d;
      libraryLoads := loads;
      channelMap := map[];
      loaded := [];
      inits := [];
      var m := UnifiedLoaders(UnifiedOnly(AllPlugins(manifests)));
      m := CompositionLoaders(m, AllCompositions(manifests));
      loaderMap := m;
    }

    /** What loading the plugin behind `ch` produces. */
    function OutcomeFor(ch: ChannelId): LoadOutcome
      reads this, decomposed
      requires ch in loaderMap
    {
      match loaderMap[ch]
      case Unified(def) => if libraryLoads(def) then LoadedContainer(UnifiedContainer(def.filePath, def)) else NullContainer
      case Composed(c) =>
        match decomposed.Compose(c)
        case Success(k) => LoadedContainer(CompositeContainer(k))
        case Failure(e) => LoadThrew(e)
    }

    /** getChannel (with init through a null container modelled as the NullDereference outcome when asWritten). */
    method GetChannel(ch: ChannelId, asWritten: bool) returns (r: GetChannelResult)
      modifies this
      ensures loaderMap == old(loaderMap)
      ensures ch in old(loaderMap) ==>
        (r, State()) == GetChannelStep(old(State()), loaderMap, ch, old(OutcomeFor(ch)), asWritten)
      ensures ch !in old(loaderMap) ==> (r, State()) == GetChannelStep(old(State()), loaderMap, ch, NullContainer, asWritten)
    {
      if ch in channelMap {
        return Channel(channelMap[ch]);
      }
      if ch !in loaderMap {
        return NullChannel;
      }
      var outcome := OutcomeFor(ch);
      match outcome {
        case LoadThrew(e) =>
          return Threw(e);
        case NullContainer =>
          if !asWritten {
            return NullChannel;
          }
          var idx := |loaded|;
          loaded := loaded + [None];
          channelMap := Emplace(channelMap, ChannelIdsFor(loaderMap[ch]), idx);
          return NullDereference;
        case LoadedContainer(c) =>
          var idx := |loaded|;
          loaded := loaded + [Some(c)];
          channelMap := Emplace(channelMap, ChannelIdsFor(loaderMap[ch]), idx);
          inits := inits + [idx];
          return Channel(idx);
      }
    }
  }

  /**
   * Building a loader: the decomposed plugins' components are loaded first
   * (a duplicate name makes construction fail), then the channel map.
   */
  method NewPluginLoader(manifests: seq<PluginManifest>, loads: PluginDef -> bool) returns (r: Result<PluginLoader, string>)
    ensures r.Success? ==> fresh(r.value) && r.value.loaderMap == LoaderMapOf(manifests)
    ensures r.Success? ==> r.value.State() == LoaderState(map[], [], [])
    ensures r.Success? ==> r.value.decomposed.plugins == DecomposedOnly(AllPlugins(manifests))
  {
    var d := new DecomposedPluginLoader();
    var duplicate := d.LoadComponents(DecomposedOnly(AllPlugins(manifests)));
    if duplicate.Some? {
      return Failure("Multiple definitions of " + duplicate.value);
    }
    var l := new PluginLoader(manifests, d, loads);
    return Success(l);
  }
}

=== FILE: pluginwrapper.dfy ===
// The plugin wrapper (source/PluginWrapper.cpp): every call into a comms
// plugin is checked for malformed arguments, then posted to a work queue of
// the wrapper's handler thread. sendPackage goes to the queue named by its
// connection id, every other call to the default queue "". A connection's
// queue exists from CONNECTION_OPEN until any other status. The handler
// itself (its threads, its capacity rule) is not part of this model: what
// it answers to a post is passed in as a PostOutcome.

module PluginWrapping {
  import opened Common

  /** The calls the wrapper forwards to IRacePluginComms, with the arguments the wrapper validates. */
  datatype PluginCall =
    | SendPackage(handle: RaceHandle, connId: ConnectionId, pkg: Bytes, batchId: nat)
    | OpenConnection(handle: RaceHandle, linkType: LinkType, linkId: LinkId, linkHints: string, sendTimeout: int)
    | CloseConnection(handle: RaceHandle, connId: ConnectionId)
    | DeactivateChannel(handle: RaceHandle, channelGid: ChannelId)
    | ActivateChannel(handle: RaceHandle, channelGid: ChannelId, roleName: string)
    | DestroyLink(handle: RaceHandle, linkId: LinkId)
    | CreateLink(handle: RaceHandle, channelGid: ChannelId)
    | CreateBootstrapLink(handle: RaceHandle, channelGid: ChannelId, passphrase: string)
    | LoadLinkAddress(handle: RaceHandle, channelGid: ChannelId, linkAddress: LinkAddress)
    | LoadLinkAddresses(handle: RaceHandle, channelGid: ChannelId, linkAddresses: seq<LinkAddress>)
    | CreateLinkFromAddress(handle: RaceHandle, channelGid: ChannelId, linkAddress: LinkAddress)
    | ServeFiles(linkId: LinkId, path: string)
    | FlushChannel(handle: RaceHandle, channelGid: ChannelId, batchId: nat)
    | OnUserInputReceived(handle: RaceHandle, answered: bool, userResponse: string)
    | OnUserAcknowledgementReceived(handle: RaceHandle)

  /** The handle a call carries; serveFiles is the one call without one. */
  function HandleOf(call: PluginCall): Option<RaceHandle> {
    if call.ServeFiles? then None else Some(call.handle)
  }

  /** The string arguments a call refuses when empty, in the order the wrapper tests them. */
  function RequiredStrings(call: PluginCall): seq<string> {
    match call
    case SendPackage(_, connId, _, _) => [connId]
    case OpenConnection(_, _, linkId, _, _) => [linkId]
    case CloseConnection(_, connId) => [connId]
    case DeactivateChannel(_, channelGid) => [channelGid]
    case ActivateChannel(_, channelGid, roleName) => [channelGid, roleName]
    case DestroyLink(_, linkId) => [linkId]
    case CreateLink(_, channelGid) => [channelGid]
    case CreateBootstrapLink(_, channelGid, _) => [channelGid]
    case LoadLinkAddress(_, channelGid, linkAddress) => [channelGid, linkAddress]
    case LoadLinkAddresses(_, channelGid, _) => [channelGid]
    case CreateLinkFromAddress(_, channelGid, linkAddress) => [channelGid, linkAddress]
    case ServeFiles(linkId, path) => [linkId, path]
    case FlushChannel(_, channelGid, _) => [channelGid]
    case OnUserInputReceived(_, _, _) => []
    case OnUserAcknowledgementReceived(_) => []
  }

  /**
   * The argument checks at the head of each wrapper method: no NULL handle,
   * none of the required strings empty, and besides those a link type of
   * openConnection among BIDI/SEND/RECV and a non-empty address list for
   * loadLinkAddresses. Every failing check answers SDK_INVALID_ARGUMENT.
   */
  predicate ArgumentsValid(call: PluginCall) {
    && HandleOf(call) != Some(NULL_RACE_HANDLE)
    && "" !in RequiredStrings(call)
    && (call.OpenConnection? ==> call.linkType in {LT_BIDI, LT_SEND, LT_RECV})
    && (call.LoadLinkAddresses? ==> call.linkAddresses != [])
  }

  /** The queue a call is posted to: the connection's own queue for sendPackage, the default queue otherwise. */
  function QueueFor(call: PluginCall): string {
    if call.SendPackage? then call.connId else ""
  }

  /** The queues the wrapper's constructor leaves in place: the handler's default queue and the two it creates. */
  const InitialQueues: set<string> := {"", "lifecycle", "wait queue"}

  /** What the handler answers to a post: whether it took the work, and the queue's size. */
  datatype PostOutcome = PostOutcome(accepted: bool, queueSize: nat)

  /**
   * queueSize / max_queue_size as a double: a finite ratio, or the infinity
   * or NaN that a division by a zero maximum gives.
   */
  datatype Utilization = Ratio(value: real) | NotFinite

  datatype SdkResponse = SdkResponse(status: SdkStatus, queueUtilization: Utilization, handle: RaceHandle)

  /** SdkResponse(status): utilization 0 and no handle. */
  function StatusOnly(status: SdkStatus): SdkResponse {
    SdkResponse(status, Ratio(0.0), NULL_RACE_HANDLE)
  }

  function QueueUtilization(queueSize: nat, maxQueueSize: nat): (u: Utilization)
    ensures u == Ratio(0.0) <==> queueSize == 0 && maxQueueSize > 0
    ensures maxQueueSize > 0 ==> u.Ratio? && u.value * (maxQueueSize as real) == queueSize as real
  {
    if maxQueueSize == 0 then NotFinite else Ratio((queueSize as real) / (maxQueueSize as real))
  }

  /**
   * makeResponse: SDK_OK when the post succeeded; a failed post on an
   * empty queue is SDK_INVALID_ARGUMENT and on a non-empty one
   * SDK_QUEUE_FULL. A zero maximum never gives utilization 0, so every
   * failure is then SDK_QUEUE_FULL.
   */
  function MakeResponse(success: bool, queueSize: nat, maxQueueSize: nat, handle: RaceHandle): (r: SdkResponse)
    ensures r.handle == handle && r.queueUtilization == QueueUtilization(queueSize, maxQueueSize)
    ensures success ==> r.status == SDK_OK
    ensures !success && queueSize == 0 && maxQueueSize > 0 ==> r.status == SDK_INVALID_ARGUMENT
    ensures !success && (queueSize > 0 || maxQueueSize == 0) ==> r.status == SDK_QUEUE_FULL
  {
    var u := QueueUtilization(queueSize, maxQueueSize);
    var status := if success then SDK_OK else if u == Ratio(0.0) then SDK_INVALID_ARGUMENT else SDK_QUEUE_FULL;
    SdkResponse(status, u, handle)
  }

  /** A call that reached the handler, with the queue it was posted to and its post id. */
  datatype Posted = Posted(postId: nat, queue: string, call: PluginCall)

  class PluginWrapper {
    /** The handler's queues by name. */
    var queues: set<string>
    /** The work the handler accepted, in posting order. */
    var posted: seq<Posted>
    var nextPostId: nat
    /** The handler's max_queue_size. */
    const maxQueueSize: nat

    constructor(maxQueueSize: nat)
      ensures this.maxQueueSize == maxQueueSize
      ensures queues == InitialQueues && posted == [] && nextPostId == 0
    {
      this.maxQueueSize := maxQueueSize;
      queues := InitialQueues;
      posted := [];
      nextPostId := 0;
    }

    /**
     * post: take a post id; a queue that does not exist answers
     * SDK_INVALID_ARGUMENT; otherwise the handler's outcome decides
     * whether the work is queued and what makeResponse answers.
     */
    method Post(queue: string, call: PluginCall, outcome: PostOutcome) returns (r: SdkResponse)
      modifies this
      ensures nextPostId == old(nextPostId) + 1 && queues == old(queues)
      ensures queue !in queues ==> r == StatusOnly(SDK_INVALID_ARGUMENT) && posted == old(posted)
      ensures queue in queues ==>
                && r == MakeResponse(outcome.accepted, outcome.queueSize, maxQueueSize, NULL_RACE_HANDLE)
                && posted == old(posted) + (if outcome.accepted then [Posted(old(nextPostId), queue, call)] else [])
    {
      var postId := nextPostId;
      nextPostId := nextPostId + 1;
      if queue !in queues {
        return StatusOnly(SDK_INVALID_ARGUMENT);
      }
      if outcome.accepted {
        posted := posted + [Posted(postId, queue, call)];
      }
      r := MakeResponse(outcome.accepted, outcome.queueSize, maxQueueSize, NULL_RACE_HANDLE);
    }

    /**
     * One of the wrapper's plugin calls: malformed arguments answer
     * SDK_INVALID_ARGUMENT and post nothing; a well-formed call is posted
     * to QueueFor(call).
     */
    method Call(call: PluginCall, outcome: PostOutcome) returns (r: SdkResponse)
      modifies this
      ensures !ArgumentsValid(call) ==>
                r == StatusOnly(SDK_INVALID_ARGUMENT) && posted == old(posted) && nextPostId == old(nextPostId)
      ensures ArgumentsValid(call) ==> nextPostId == old(nextPostId) + 1
      ensures ArgumentsValid(call) && QueueFor(call) !in old(queues) ==>
                r == StatusOnly(SDK_INVALID_ARGUMENT) && posted == old(posted)
      ensures ArgumentsValid(call) && QueueFor(call) in old(queues) ==>
                && r == MakeResponse(outcome.accepted, outcome.queueSize, maxQueueSize, NULL_RACE_HANDLE)
                && posted == old(posted) + (if outcome.accepted then [Posted(old(nextPostId), QueueFor(call), call)] else [])
      ensures queues == old(queues)
    {
      if !ArgumentsValid(call) {
        return StatusOnly(SDK_INVALID_ARGUMENT);
      }
      r := Post(QueueFor(call), call, outcome);
    }

    /** onConnectionStatusChanged: CONNECTION_OPEN creates the connection's queue, any other status removes it. */
    method OnConnectionStatusChanged(connId: ConnectionId, status: ConnectionStatus)
      modifies this
      ensures status == CONNECTION_OPEN ==> queues == old(queues) + {connId}
      ensures status != CONNECTION_OPEN ==> queues == old(queues) - {connId}
      ensures posted == old(posted) && nextPostId == old(nextPostId)
    {
      if status == CONNECTION_OPEN {
        queues := queues + {connId};
      } else {
        queues := queues - {connId};
      }
    }

    /** unblockQueue always answers SDK_OK. */
    method UnblockQueue(connId: ConnectionId) returns (r: SdkResponse)
      ensures r == StatusOnly(SDK_OK)
    {
      r := StatusOnly(SDK_OK);
    }
  }

  // ---------------------------------------------------------------------
  // Properties of the argument checks and the queue choice
  // ---------------------------------------------------------------------

  /** No call carrying NULL_RACE_HANDLE gets past the argument checks. */
  lemma NullHandleRejected(call: PluginCall)
    requires HandleOf(call) == Some(NULL_RACE_HANDLE)
    ensures !ArgumentsValid(call)
  {
  }

  /** sendPackage is well-formed exactly when its handle is set and its connection id non-empty. */
  lemma SendPackageChecks(handle: RaceHandle, connId: ConnectionId, pkg: Bytes, batchId: nat)
    ensures ArgumentsValid(SendPackage(handle, connId, pkg, batchId)) <==> handle != NULL_RACE_HANDLE && connId != ""
  {
    var call := SendPackage(handle, connId, pkg, batchId);
    if handle != NULL_RACE_HANDLE && connId != "" {
      assert RequiredStrings(call) == [connId];
    }
  }

  /** openConnection refuses LT_UNDEF and an empty link id, whatever its handle. */
  lemma OpenConnectionChecks(handle: RaceHandle, linkType: LinkType, linkId: LinkId, hints: string, timeout: int)
    ensures ArgumentsValid(OpenConnection(handle, linkType, linkId, hints, timeout))
            <==> handle != NULL_RACE_HANDLE && linkType != LT_UNDEF && linkId != ""
  {
    var call := OpenConnection(handle, linkType, linkId, hints, timeout);
    assert RequiredStrings(call) == [linkId];
  }

  /** activateChannel needs a handle, a channel id and a role name. */
  lemma ActivateChannelChecks(handle: RaceHandle, channelGid: ChannelId, roleName: string)
    ensures ArgumentsValid(ActivateChannel(handle, channelGid, roleName))
            <==> handle != NULL_RACE_HANDLE && channelGid != "" && roleName != ""
  {
    var call := ActivateChannel(handle, channelGid, roleName);
    assert RequiredStrings(call) == [channelGid, roleName];
  }

  /** loadLinkAddresses refuses an empty address list. */
  lemma LoadLinkAddressesChecks(handle: RaceHandle, channelGid: ChannelId, addresses: seq<LinkAddress>)
    ensures ArgumentsValid(LoadLinkAddresses(handle, channelGid, addresses))
            <==> handle != NULL_RACE_HANDLE && channelGid != "" && addresses != []
  {
    var call := LoadLinkAddresses(handle, channelGid, addresses);
    assert RequiredStrings(call) == [channelGid];
  }

  /**
   * A well-formed sendPackage never lands on the default queue, and every
   * other call does: the connection queues carry only that connection's
   * packages.
   */
  lemma OnlySendPackageUsesConnectionQueues(call: PluginCall)
    requires ArgumentsValid(call)
    ensures QueueFor(call) == "" <==> !call.SendPackage?
    ensures call.SendPackage? ==> QueueFor(call) == call.connId
  {
    if call.SendPackage? {
      assert RequiredStrings(call) == [call.connId];
    }
  }

  /**
   * A package for a connection whose queue was never opened, or already
   * closed, is answered SDK_INVALID_ARGUMENT and reaches no plugin.
   */
  method SendOnClosedConnection(w: PluginWrapper, handle: RaceHandle, connId: ConnectionId, pkg: Bytes,
                                outcome: PostOutcome) returns (r: SdkResponse)
    requires connId != ""
    modifies w
    ensures r.status == SDK_INVALID_ARGUMENT && w.posted == old(w.posted)
  {
    w.OnConnectionStatusChanged(connId, CONNECTION_CLOSED);
    r := w.Call(SendPackage(handle, connId, pkg, 0), outcome);
  }
}

=== FILE: preconduit.dfy ===
// The pre-conduit state machine (source/state-machine/PreConduitStateMachine.cpp):
// what a listener keeps for one dialer between the dialer's hello and the
// application's accept call. It buffers the dialer's packages, opens a
// sending connection back once accepted, and then turns itself into a
// conduit that inherits the buffered packages.

module PreConduitMachine {
  import opened Common
  import opened Engine
  import opened ApiContext

  const STATE_PRE_CONN_OBJ_INITIAL: StateType := 3
  const STATE_PRE_CONN_OBJ_ACCEPTED: StateType := 4
  const STATE_PRE_CONN_OBJ_OPENING: StateType := 5
  const STATE_PRE_CONN_OBJ_FINISHED: StateType := 6
  const STATE_PRE_CONN_OBJ_FAILED: StateType := 7

  /** PreConduitContext; `recvQueue` holds the packages received so far, oldest first. */
  datatype PreConduitCtx = PreConduitCtx(
    handle: RaceHandle,
    parentHandle: RaceHandle,
    recvConnSMHandle: RaceHandle,
    recvConnId: ConnectionId,
    recvChannel: ChannelId,
    sendChannel: ChannelId,
    sendRole: string,
    sendLinkAddress: LinkAddress,
    packageId: string,
    recvQueue: seq<Bytes>,
    sendConnSMHandle: RaceHandle,
    sendConnId: ConnectionId,
    acceptCb: Option<Callback>,
    env: Env)

  /**
   * The hooks PreConduitContext overrides: the start copies what the
   * listener knows about the dialer, packages queue up at the back, the
   * sending connection's report records its id, and accept stores the
   * application's callback.
   */
  function Apply(c: PreConduitCtx, u: Update): (r: PreConduitCtx)
    ensures u.UPreConduitStart? ==>
              r == c.(parentHandle := u.handle, recvConnSMHandle := u.recvHandle, recvConnId := u.recvConnId,
                      sendChannel := u.sendChannel, sendRole := u.sendRole, sendLinkAddress := u.sendLinkAddress,
                      recvChannel := u.recvChannel, packageId := u.packageId, recvQueue := u.messages)
    ensures u.UReceiveEncPkg? ==> r == c.(recvQueue := c.recvQueue + [u.data])
    ensures u.UConnStateMachineConnected? ==> r == c.(sendConnId := u.connId)
    ensures u.UListenAccept? ==> r == c.(acceptCb := Some(u.cb))
    ensures (!u.UPreConduitStart? && !u.UReceiveEncPkg? && !u.UConnStateMachineConnected? && !u.UListenAccept?)
            ==> r == c
  {
    match u
    case UPreConduitStart(parent, recvHandle, recvConnId, recvChannel, sendChannel, sendRole, sendAddress,
                          packageId, messages) =>
      c.(parentHandle := parent, recvConnSMHandle := recvHandle, recvConnId := recvConnId,
         sendChannel := sendChannel, sendRole := sendRole, sendLinkAddress := sendAddress,
         recvChannel := recvChannel, packageId := packageId, recvQueue := messages)
    case UReceiveEncPkg(_, pkg) => c.(recvQueue := c.recvQueue + [pkg])
    case UConnStateMachineConnected(_, connId, _) => c.(sendConnId := connId)
    case UListenAccept(cb) => c.(acceptCb := Some(cb))
    case _ => c
  }

  /**
   * The pre-conduit a listener's StartPreConduit call asks for holds the
   * dialer's reply address, the package id and the hello's message, and
   * nothing is accepted yet.
   */
  lemma StartCopiesListenerView(c: PreConduitCtx, req: Request)
    requires req.StartPreConduit? && c.acceptCb.None?
    ensures var r := Apply(c, UPreConduitStart(req.context, req.recvHandle, req.recvConnId, req.recvChannel,
                                               req.sendChannel, req.sendRole, req.sendLinkAddress,
                                               req.packageId, req.messages));
            && r.parentHandle == req.context && r.recvConnSMHandle == req.recvHandle
            && r.recvConnId == req.recvConnId && r.sendLinkAddress == req.sendLinkAddress
            && r.packageId == req.packageId && r.recvQueue == req.messages
            && r.sendChannel == req.sendChannel && r.recvChannel == req.recvChannel && r.sendRole == req.sendRole
            && r.acceptCb.None? && r.handle == c.handle && r.env == c.env
  {
  }

  /**
   * StatePreConduitInitial (entered again for every package): route the
   * dialer's package id on the receiving connection, and the parent
   * listener's handle, to this context.
   */
  function Initial(c: PreConduitCtx): (o: Outcome<PreConduitCtx>)
    ensures o == Returned(SUCCESS, c.(env := Tell(Tell(c.env, RegisterPackageId(c.handle, c.recvConnId, c.packageId)),
                                                  RegisterHandle(c.handle, c.parentHandle))), [])
  {
    var env1 := Tell(c.env, RegisterPackageId(c.handle, c.recvConnId, c.packageId));
    Returned(SUCCESS, c.(env := Tell(env1, RegisterHandle(c.handle, c.parentHandle))), [])
  }

  /** StatePreConduitAccepted: open a sending connection to the dialer's reply address. */
  function Accepted(w: World, c: PreConduitCtx): (o: Outcome<PreConduitCtx>)
    ensures var n := |c.env.requests|;
            var sm := w.answer(n).handle;
            var start := StartConnStateMachine(c.handle, c.sendChannel, c.sendRole, c.sendLinkAddress, false, true);
            && o.Returned?
            && o.data == c.(sendConnSMHandle := sm, env := o.data.env)
            && o.data.env.fired == c.env.fired
            && (sm == NULL_RACE_HANDLE ==> o.result == NOT_SUPPORTED && o.data.env.requests == c.env.requests + [start])
            && (sm != NULL_RACE_HANDLE ==>
                  && o.result == SUCCESS && o.pushed == [EVENT_ALWAYS]
                  && o.data.env.requests == c.env.requests + [start, RegisterHandle(c.handle, sm)])
  {
    var (env1, a) := Ask(w, c.env, StartConnStateMachine(c.handle, c.sendChannel, c.sendRole, c.sendLinkAddress,
                                                         false, true));
    var c1 := c.(sendConnSMHandle := a.handle, env := env1);
    if a.handle == NULL_RACE_HANDLE then Returned(NOT_SUPPORTED, c1, [])
    else Returned(SUCCESS, c1.(env := Tell(env1, RegisterHandle(c.handle, a.handle))), [EVENT_ALWAYS])
  }

  /**
   * StatePreConduitOpen: start a conduit that inherits every buffered
   * package, give the sending connection to it, and hand the application
   * the conduit's handle.
   */
  function Finished(w: World, c: PreConduitCtx): (o: Outcome<PreConduitCtx>)
    ensures var n := |c.env.requests|;
            var api := w.answer(n).handle;
            var start := StartConduit(c.handle, c.recvConnSMHandle, c.recvConnId, c.sendConnSMHandle, c.sendConnId,
                                      c.sendChannel, c.recvChannel, c.packageId, c.recvQueue, api);
            && o.data.recvQueue == []
            && |o.data.env.requests| >= n + 2
            && o.data.env.requests[..n + 2] == c.env.requests + [GenerateHandle, start]
            && (w.answer(n + 1).handle == NULL_RACE_HANDLE ==> o.Returned? && o.result == NOT_SUPPORTED)
            && (w.answer(n + 1).handle != NULL_RACE_HANDLE && !w.answer(n + 3).ok ==>
                  o.Returned? && o.result == NOT_SUPPORTED && o.data.env.fired == c.env.fired)
            && (w.answer(n + 1).handle != NULL_RACE_HANDLE && w.answer(n + 3).ok ==>
                  && (c.acceptCb.None? ==> o.Threw?)
                  && (c.acceptCb.Some? ==>
                        && o.Returned? && o.result == SUCCESS && o.data.acceptCb.None?
                        && o.data.env.fired == c.env.fired + [Fired(c.acceptCb.value, OK, PHandle(api))]
                        && o.data.env.requests == c.env.requests + [GenerateHandle, start,
                             UnregisterHandle(c.handle, c.sendConnSMHandle), DetachConnSM(c.handle, c.sendConnSMHandle),
                             StateMachineFinished(c.handle)]))
    ensures o.pushed == []
  {
    var (env1, api) := Ask(w, c.env, GenerateHandle);
    var (env2, conduit) := Ask(w, env1, StartConduit(c.handle, c.recvConnSMHandle, c.recvConnId, c.sendConnSMHandle,
                                                      c.sendConnId, c.sendChannel, c.recvChannel, c.packageId,
                                                      c.recvQueue, api.handle));
    var c1 := c.(recvQueue := [], env := env2);
    if conduit.handle == NULL_RACE_HANDLE then Returned(NOT_SUPPORTED, c1, [])
    else
      var env3 := Tell(env2, UnregisterHandle(c.handle, c.sendConnSMHandle));
      var (env4, detached) := Ask(w, env3, DetachConnSM(c.handle, c.sendConnSMHandle));
      if !detached.ok then Returned(NOT_SUPPORTED, c1.(env := env4), [])
      else
        match Invoke(env4, c.acceptCb, OK, PHandle(api.handle))
        case None => Threw(c1.(env := env4), [])
        case Some(env5) =>
          Returned(SUCCESS, c1.(acceptCb := None, env := Tell(env5, StateMachineFinished(c.handle))), [])
  }

  /** StatePreConduitFailed: INTERNAL_ERROR only if the accept callback is still set. */
  function Failed(c: PreConduitCtx): (o: Outcome<PreConduitCtx>)
    ensures o.Returned? && o.result == SUCCESS && o.pushed == [] && o.data.acceptCb.None?
    ensures o.data.env.fired == InvokeIfSet(c.env, c.acceptCb, INTERNAL_ERROR, PHandle(NULL_RACE_HANDLE)).fired
    ensures o.data.env.requests == c.env.requests + [StateMachineFailed(c.handle)]
  {
    var env := InvokeIfSet(c.env, c.acceptCb, INTERNAL_ERROR, PHandle(NULL_RACE_HANDLE));
    Returned(SUCCESS, c.(acceptCb := None, env := Tell(env, StateMachineFailed(c.handle))), [])
  }

  // ---------------------------------------------------------------------
  // The engine
  // ---------------------------------------------------------------------

  function PreConduitStates(w: World): map<StateType, StateDef<PreConduitCtx>> {
    map[STATE_PRE_CONN_OBJ_INITIAL := PlainState((cur: StateType, c: PreConduitCtx) => Initial(c)),
        STATE_PRE_CONN_OBJ_ACCEPTED := PlainState((cur: StateType, c: PreConduitCtx) => Accepted(w, c)),
        STATE_PRE_CONN_OBJ_OPENING := PlainState((cur: StateType, c: PreConduitCtx) => DefaultEnter(cur, c)),
        STATE_PRE_CONN_OBJ_FINISHED := FinalState((cur: StateType, c: PreConduitCtx) => Finished(w, c)),
        STATE_PRE_CONN_OBJ_FAILED := PlainState((cur: StateType, c: PreConduitCtx) => Failed(c))]
  }

  /** The declarations of PreConduitStateEngine's constructor, in order. */
  function PreConduitDecls(): seq<Decl> {
    [Decl(STATE_PRE_CONN_OBJ_INITIAL, EVENT_RECEIVE_PACKAGE, STATE_PRE_CONN_OBJ_INITIAL),
     Decl(STATE_PRE_CONN_OBJ_INITIAL, EVENT_LISTEN_ACCEPTED, STATE_PRE_CONN_OBJ_ACCEPTED),
     Decl(STATE_PRE_CONN_OBJ_ACCEPTED, EVENT_ALWAYS, STATE_PRE_CONN_OBJ_OPENING),
     Decl(STATE_PRE_CONN_OBJ_OPENING, EVENT_RECEIVE_PACKAGE, STATE_PRE_CONN_OBJ_OPENING),
     Decl(STATE_PRE_CONN_OBJ_OPENING, EVENT_CONN_STATE_MACHINE_CONNECTED, STATE_PRE_CONN_OBJ_FINISHED)]
  }

  /** The pre-conduit lifecycle: packages keep INITIAL and OPENING where they are. */
  function PreConduitNext(s: StateType, e: EventType): Option<StateType> {
    if s == STATE_PRE_CONN_OBJ_INITIAL && e == EVENT_RECEIVE_PACKAGE then Some(STATE_PRE_CONN_OBJ_INITIAL)
    else if s == STATE_PRE_CONN_OBJ_INITIAL && e == EVENT_LISTEN_ACCEPTED then Some(STATE_PRE_CONN_OBJ_ACCEPTED)
    else if s == STATE_PRE_CONN_OBJ_ACCEPTED && e == EVENT_ALWAYS then Some(STATE_PRE_CONN_OBJ_OPENING)
    else if s == STATE_PRE_CONN_OBJ_OPENING && e == EVENT_RECEIVE_PACKAGE then Some(STATE_PRE_CONN_OBJ_OPENING)
    else if s == STATE_PRE_CONN_OBJ_OPENING && e == EVENT_CONN_STATE_MACHINE_CONNECTED then Some(STATE_PRE_CONN_OBJ_FINISHED)
    else None
  }

  lemma PreConduitDeclTargets(s: StateType, e: EventType)
    ensures DeclTargets(PreConduitDecls(), s, e) == TargetSet(PreConduitNext(s, e))
  {
  }

  /** The declared table is the pre-conduit lifecycle. */
  lemma PreConduitDeclsFollow()
    ensures Follows(DeclareAll(map[], PreConduitDecls()), PreConduitNext)
  {
    forall s, e
      ensures Declares(DeclareAll(map[], PreConduitDecls()), s, e) <==> PreConduitNext(s, e).Some?
      ensures Targets(DeclareAll(map[], PreConduitDecls()), s, e) == TargetSet(PreConduitNext(s, e))
    {
      PreConduitDeclTargets(s, e);
      DeclaredTable(PreConduitDecls(), s, e, PreConduitNext(s, e));
    }
  }

  /** What PreConduitStateEngine's constructor builds. */
  ghost predicate IsPreConduitTable(w: World, t: Table<PreConduitCtx>) {
    && t.states == PreConduitStates(w)
    && Follows(t.transitions, PreConduitNext)
    && t.initStateId == STATE_PRE_CONN_OBJ_INITIAL && t.failedStateId == STATE_PRE_CONN_OBJ_FAILED
  }

  /** PreConduitStateEngine's constructor. */
  method NewPreConduitStateEngine(w: World) returns (e: StateEngine<PreConduitCtx>)
    ensures IsPreConduitTable(w, e.Spec())
  {
    e := new StateEngine();
    e.AddInitialState(STATE_PRE_CONN_OBJ_INITIAL, PlainState((cur: StateType, c: PreConduitCtx) => Initial(c)));
    e.AddState(STATE_PRE_CONN_OBJ_ACCEPTED, PlainState((cur: StateType, c: PreConduitCtx) => Accepted(w, c)));
    e.AddState(STATE_PRE_CONN_OBJ_OPENING, PlainState((cur: StateType, c: PreConduitCtx) => DefaultEnter(cur, c)));
    e.AddState(STATE_PRE_CONN_OBJ_FINISHED, FinalState((cur: StateType, c: PreConduitCtx) => Finished(w, c)));
    e.AddFailedState(STATE_PRE_CONN_OBJ_FAILED, PlainState((cur: StateType, c: PreConduitCtx) => Failed(c)));
    e.DeclareTransitions(PreConduitDecls());
    PreConduitDeclsFollow();
  }

  // ---------------------------------------------------------------------
  // Properties
  // ---------------------------------------------------------------------

  /**
   * Accepting moves the pre-conduit through ACCEPTED to OPENING in one
   * call, exactly when the sending connection machine starts; otherwise it
   * fails.
   */
  lemma AcceptOpensSendConnection(w: World, t: Table<PreConduitCtx>, c: Config<PreConduitCtx>, cb: Callback, fuel: nat)
    requires IsPreConduitTable(w, t)
    requires c.currentStateId == STATE_PRE_CONN_OBJ_INITIAL && c.pendingEvents == [] && fuel >= 2
    ensures var d := Apply(c.data, UListenAccept(cb));
            var r := HandleEventSpec(t, c.(data := d), EVENT_LISTEN_ACCEPTED, fuel);
            var sm := w.answer(|d.env.requests|).handle;
            && (r.result == SUCCESS <==> sm != NULL_RACE_HANDLE)
            && (r.result == SUCCESS ==>
                  && r.config.currentStateId == STATE_PRE_CONN_OBJ_OPENING
                  && r.handled == [EVENT_LISTEN_ACCEPTED, EVENT_ALWAYS]
                  && r.config.data == Accepted(w, d).data)
            && (r.result != SUCCESS ==> r.config.currentStateId == STATE_PRE_CONN_OBJ_FAILED)
  {
    var d := Apply(c.data, UListenAccept(cb));
    InitialTakesAccept(w, t, d, fuel);
    if Accepted(w, d).result == SUCCESS {
      AcceptedMovesToOpening(w, t, Accepted(w, d).data, fuel - 1);
    }
    AcceptThenOpen(w, t, c, d, fuel);
  }

  /** The accept step and the ALWAYS step read together as the outcome of handleEvent on the accept. */
  lemma AcceptThenOpen(w: World, t: Table<PreConduitCtx>, c: Config<PreConduitCtx>, d: PreConduitCtx, fuel: nat)
    requires HasFailedState(t) && STATE_PRE_CONN_OBJ_INITIAL in t.states && fuel >= 2
    requires c.currentStateId == STATE_PRE_CONN_OBJ_INITIAL && c.pendingEvents == []
    requires var r := Drain(t, Config(STATE_PRE_CONN_OBJ_INITIAL, [EVENT_LISTEN_ACCEPTED], d), fuel);
             var o := Accepted(w, d);
             && (o.result == SUCCESS ==>
                   r == Prepend([EVENT_LISTEN_ACCEPTED],
                                Drain(t, Config(STATE_PRE_CONN_OBJ_ACCEPTED, [EVENT_ALWAYS], o.data), fuel - 1)))
             && (o.result != SUCCESS ==> r.result != SUCCESS && r.config.currentStateId == STATE_PRE_CONN_OBJ_FAILED)
    requires Accepted(w, d).result == SUCCESS ==>
             Drain(t, Config(STATE_PRE_CONN_OBJ_ACCEPTED, [EVENT_ALWAYS], Accepted(w, d).data), fuel - 1)
             == Drained(SUCCESS, Config(STATE_PRE_CONN_OBJ_OPENING, [], Accepted(w, d).data), [EVENT_ALWAYS])
    ensures var r := HandleEventSpec(t, c.(data := d), EVENT_LISTEN_ACCEPTED, fuel);
            var sm := w.answer(|d.env.requests|).handle;
            && (r.result == SUCCESS <==> sm != NULL_RACE_HANDLE)
            && (r.result == SUCCESS ==>
                  && r.config.currentStateId == STATE_PRE_CONN_OBJ_OPENING
                  && r.handled == [EVENT_LISTEN_ACCEPTED, EVENT_ALWAYS]
                  && r.config.data == Accepted(w, d).data)
            && (r.result != SUCCESS ==> r.config.currentStateId == STATE_PRE_CONN_OBJ_FAILED)
  {
    assert c.(data := d).(pendingEvents := [] + [EVENT_LISTEN_ACCEPTED])
        == Config(STATE_PRE_CONN_OBJ_INITIAL, [EVENT_LISTEN_ACCEPTED], d);
  }

  /** From INITIAL, the accept event runs StatePreConduitAccepted and, when that succeeds, queues ALWAYS. */
  lemma InitialTakesAccept(w: World, t: Table<PreConduitCtx>, d: PreConduitCtx, fuel: nat)
    requires IsPreConduitTable(w, t) && fuel >= 1
    ensures HasFailedState(t) && STATE_PRE_CONN_OBJ_INITIAL in t.states
    ensures var r := Drain(t, Config(STATE_PRE_CONN_OBJ_INITIAL, [EVENT_LISTEN_ACCEPTED], d), fuel);
            var o := Accepted(w, d);
            && (o.result == SUCCESS ==>
                  r == Prepend([EVENT_LISTEN_ACCEPTED],
                               Drain(t, Config(STATE_PRE_CONN_OBJ_ACCEPTED, [EVENT_ALWAYS], o.data), fuel - 1)))
            && (o.result != SUCCESS ==> r.result != SUCCESS && r.config.currentStateId == STATE_PRE_CONN_OBJ_FAILED)
  {
    var c0 := Config(STATE_PRE_CONN_OBJ_INITIAL, [], d);
    assert Targets(t.transitions, STATE_PRE_CONN_OBJ_INITIAL, EVENT_LISTEN_ACCEPTED)
           == TargetSet(PreConduitNext(STATE_PRE_CONN_OBJ_INITIAL, EVENT_LISTEN_ACCEPTED));
    HandleOneMoves(t, c0, EVENT_LISTEN_ACCEPTED, STATE_PRE_CONN_OBJ_ACCEPTED);
    assert t.states[STATE_PRE_CONN_OBJ_INITIAL].exit(STATE_PRE_CONN_OBJ_INITIAL, d) == Returned(SUCCESS, d, []);
    assert t.states[STATE_PRE_CONN_OBJ_ACCEPTED].enter(STATE_PRE_CONN_OBJ_INITIAL, d) == Accepted(w, d);
    TransitionByEnter(t, c0, STATE_PRE_CONN_OBJ_ACCEPTED);
    var (res, c2) := HandleOne(t, c0, EVENT_LISTEN_ACCEPTED);
    assert res == Accepted(w, d).result;
    if res == SUCCESS {
      assert c2 == Config(STATE_PRE_CONN_OBJ_ACCEPTED, [EVENT_ALWAYS], Accepted(w, d).data);
    }
  }

  /** From ACCEPTED, the queued ALWAYS event moves to OPENING with the data unchanged. */
  lemma AcceptedMovesToOpening(w: World, t: Table<PreConduitCtx>, d1: PreConduitCtx, fuel: nat)
    requires IsPreConduitTable(w, t) && fuel >= 1
    ensures Drain(t, Config(STATE_PRE_CONN_OBJ_ACCEPTED, [EVENT_ALWAYS], d1), fuel)
            == Drained(SUCCESS, Config(STATE_PRE_CONN_OBJ_OPENING, [], d1), [EVENT_ALWAYS])
  {
    var c3 := Config(STATE_PRE_CONN_OBJ_ACCEPTED, [], d1);
    assert Targets(t.transitions, STATE_PRE_CONN_OBJ_ACCEPTED, EVENT_ALWAYS)
           == TargetSet(PreConduitNext(STATE_PRE_CONN_OBJ_ACCEPTED, EVENT_ALWAYS));
    HandleOneMoves(t, c3, EVENT_ALWAYS, STATE_PRE_CONN_OBJ_OPENING);
    assert t.states[STATE_PRE_CONN_OBJ_ACCEPTED].exit(STATE_PRE_CONN_OBJ_ACCEPTED, d1) == Returned(SUCCESS, d1, []);
    assert t.states[STATE_PRE_CONN_OBJ_OPENING].enter(STATE_PRE_CONN_OBJ_ACCEPTED, d1) == Returned(SUCCESS, d1, []);
    TransitionByEnter(t, c3, STATE_PRE_CONN_OBJ_OPENING);
    var (res2, c4) := HandleOne(t, c3, EVENT_ALWAYS);
    assert res2 == SUCCESS && c4 == Config(STATE_PRE_CONN_OBJ_OPENING, [], d1);
  }

  /** A package that arrives while the sending connection opens only joins the queue. */
  lemma PackageWhileOpeningQueues(w: World, t: Table<PreConduitCtx>, c: Config<PreConduitCtx>, pkg: Bytes, fuel: nat)
    requires IsPreConduitTable(w, t)
    requires c.currentStateId == STATE_PRE_CONN_OBJ_OPENING && c.pendingEvents == [] && fuel > 0
    ensures var c' := c.(data := Apply(c.data, UReceiveEncPkg("", pkg)));
            var r := HandleEventSpec(t, c', EVENT_RECEIVE_PACKAGE, fuel);
            && r.result == SUCCESS
            && r.config.currentStateId == STATE_PRE_CONN_OBJ_OPENING
            && r.config.data == c.data.(recvQueue := c.data.recvQueue + [pkg])
  {
    var c' := c.(data := Apply(c.data, UReceiveEncPkg("", pkg)));
    var c1 := c'.(pendingEvents := [EVENT_RECEIVE_PACKAGE]);
    assert Drain(t, c1, fuel) == Prepend([EVENT_RECEIVE_PACKAGE], Drain(t, c'.(pendingEvents := []), fuel - 1));
  }

  /** The accept callback cb is one-shot. */
  ghost predicate AcceptCbOnce(c: PreConduitCtx, cb: Callback) {
    OneShot(c.acceptCb, c.env.fired, cb)
  }

  lemma FinishedKeepsAcceptCbOnce(w: World, c: PreConduitCtx, cb: Callback)
    requires AcceptCbOnce(c, cb)
    ensures AcceptCbOnce(Finished(w, c).data, cb)
  {
    var n := |c.env.requests|;
    var api := w.answer(n).handle;
    var start := StartConduit(c.handle, c.recvConnSMHandle, c.recvConnId, c.sendConnSMHandle, c.sendConnId,
                              c.sendChannel, c.recvChannel, c.packageId, c.recvQueue, api);
    var env4 := Tell(Tell(Tell(c.env, GenerateHandle), start), UnregisterHandle(c.handle, c.sendConnSMHandle));
    FireAndClear(c.acceptCb, Tell(env4, DetachConnSM(c.handle, c.sendConnSMHandle)), cb, OK, PHandle(api));
  }

  /** Every state keeps the accept callback one-shot. */
  lemma StatesKeepAcceptCbOnce(w: World, t: Table<PreConduitCtx>, cb: Callback)
    requires IsPreConduitTable(w, t)
    ensures Keeps(t, (c: PreConduitCtx) => AcceptCbOnce(c, cb))
  {
    forall s, cur, c | s in t.states && AcceptCbOnce(c, cb)
      ensures AcceptCbOnce(t.states[s].enter(cur, c).data, cb)
      ensures AcceptCbOnce(t.states[s].exit(cur, c).data, cb)
    {
      if s == STATE_PRE_CONN_OBJ_FINISHED {
        FinishedKeepsAcceptCbOnce(w, c, cb);
      } else if s == STATE_PRE_CONN_OBJ_FAILED {
        FireAndClear(c.acceptCb, c.env, cb, INTERNAL_ERROR, PHandle(NULL_RACE_HANDLE));
      }
    }
  }

  /** Once accept has set cb and nothing has fired it, every later event leaves it fired at most once. */
  lemma HandleEventKeepsAcceptCbOnce(w: World, t: Table<PreConduitCtx>, c: Config<PreConduitCtx>, e: EventType,
                                     fuel: nat, cb: Callback)
    requires IsPreConduitTable(w, t)
    requires AcceptCbOnce(c.data, cb)
    ensures Count(HandleEventSpec(t, c, e, fuel).config.data.env.fired, cb) <= 1
  {
    StatesKeepAcceptCbOnce(w, t, cb);
    HandleEventKeeps(t, c, e, fuel, (d: PreConduitCtx) => AcceptCbOnce(d, cb));
  }
}

=== FILE: race.dfy ===
// The public facade (source/Race.cpp): status names, the channel-parameter
// store, and the conduit, receive and accept objects, each of which posts a
// request to the API manager and waits for its callback. The waiting is not
// modelled: a `Post` says how the manager took the request and what its
// callback later delivered, if anything.

module RaceApi {
  import opened Common

  /** apiStatusToString: each status by its name; CANCELLED falls to the default branch. */
  function ApiStatusToString(s: ApiStatus): (name: string)
    ensures name == "UNKNOWN" <==> s == CANCELLED
  {
    match s
    case INVALID => "INVALID"
    case OK => "OK"
    case CLOSING => "CLOSING"
    case CHANNEL_INVALID => "CHANNEL_INVALID"
    case INVALID_ARGUMENT => "INVALID_ARGUMENT"
    case PLUGIN_ERROR => "PLUGIN_ERROR"
    case INTERNAL_ERROR => "INTERNAL_ERROR"
    case CANCELLED => "UNKNOWN"
  }

  /** The status a printed name stands for, if any. */
  function StatusNamed(name: string): (s: Option<ApiStatus>)
    ensures s.Some? ==> s.value != CANCELLED
  {
    if name == "INVALID" then Some(INVALID)
    else if name == "OK" then Some(OK)
    else if name == "CLOSING" then Some(CLOSING)
    else if name == "CHANNEL_INVALID" then Some(CHANNEL_INVALID)
    else if name == "INVALID_ARGUMENT" then Some(INVALID_ARGUMENT)
    else if name == "PLUGIN_ERROR" then Some(PLUGIN_ERROR)
    else if name == "INTERNAL_ERROR" then Some(INTERNAL_ERROR)
    else None
  }

  /** Every status but CANCELLED is named distinctly, so its name tells it apart; CANCELLED reads as unknown. */
  lemma StatusNamesRoundTrip(s: ApiStatus)
    ensures s != CANCELLED ==> StatusNamed(ApiStatusToString(s)) == Some(s)
    ensures s == CANCELLED ==> StatusNamed(ApiStatusToString(s)) == None
  {
  }

  /** The name the read timeout is printed with (the TIMEOUT branch of apiStatusToString). */
  const TIMEOUT_NAME: string := "TIMEOUT"

  /** ChannelParamStore: channel parameters by key. */
  class ChannelParamStore {
    var params: map<string, string>

    constructor()
      ensures params == map[]
    {
      params := map[];
    }

    /** setChannelParam: sets or overwrites the value for a key. */
    method SetChannelParam(key: string, value: string)
      modifies this
      ensures params == old(params)[key := value]
    {
      params := params[key := value];
    }
  }

  /** The store after setting each (key, value) pair in order. */
  function ParamsAfter(m: map<string, string>, pairs: seq<(string, string)>): map<string, string>
    decreases |pairs|
  {
    if pairs == [] then m else ParamsAfter(m, pairs[..|pairs| - 1])[pairs[|pairs| - 1].0 := pairs[|pairs| - 1].1]
  }

  /**
   * The last value set for a key wins; a key never set keeps what the
   * store held.
   */
  lemma {:induction false} LastSetWins(m: map<string, string>, pairs: seq<(string, string)>, key: string)
    ensures (exists i :: 0 <= i < |pairs| && pairs[i].0 == key) ==>
      var i := LastIndexOf(pairs, key); key in ParamsAfter(m, pairs) && ParamsAfter(m, pairs)[key] == pairs[i].1
    ensures (forall i :: 0 <= i < |pairs| ==> pairs[i].0 != key) ==>
      (key in ParamsAfter(m, pairs) <==> key in m) && (key in m ==> ParamsAfter(m, pairs)[key] == m[key])
    decreases |pairs|
  {
    if pairs != [] {
      var init := pairs[..|pairs| - 1];
      LastSetWins(m, init, key);
      if pairs[|pairs| - 1].0 != key {
        if exists i :: 0 <= i < |pairs| && pairs[i].0 == key {
          var i :| 0 <= i < |pairs| && pairs[i].0 == key;
          assert init[i].0 == key;
        }
        assert forall i :: 0 <= i < |init| ==> init[i] == pairs[i];
      }
    }
  }

  /** The position of the last pair for `key`. */
  function LastIndexOf(pairs: seq<(string, string)>, key: string): (i: nat)
    requires exists i :: 0 <= i < |pairs| && pairs[i].0 == key
    ensures i < |pairs| && pairs[i].0 == key
    ensures forall j :: i < j < |pairs| ==> pairs[j].0 != key
    decreases |pairs|
  {
    if pairs[|pairs| - 1].0 == key then |pairs| - 1
    else
      var init := pairs[..|pairs| - 1];
      assert exists i :: 0 <= i < |init| && init[i].0 == key by {
        var i :| 0 <= i < |pairs| && pairs[i].0 == key;
        assert init[i].0 == key;
      }
      LastIndexOf(init, key)
  }

  /**
   * How the API manager took a request: the SdkResponse status of the post,
   * then what its callback delivered, if it delivered anything.
   */
  datatype Post<T> = Post(sdk: SdkStatus, answer: Option<T>)

  /** A Conduit, ReceiveObject or AcceptObject: a core pointer (possibly null) and a handle. */
  datatype ApiObject = ApiObject(hasCore: bool, handle: RaceHandle)

  /** Conduit::read's timeout argument meaning "wait until answered". */
  const BLOCKING_READ: int := 0

  /** What a read gives back: a status and bytes, a timeout, or nothing ever (blocked). */
  datatype ReadOutcome = ReadDone(status: ApiStatus, bytes: Bytes) | ReadTimedOut | ReadBlocks

  /**
   * Conduit::read: a null core gives (INVALID, []), a rejected post
   * (INVALID_ARGUMENT, []); otherwise the callback's answer, or a timeout if
   * it has not come within a non-blocking timeout.
   */
  function ConduitRead(c: ApiObject, timeoutSeconds: int, post: Post<(ApiStatus, Bytes)>): (r: ReadOutcome)
    ensures !c.hasCore ==> r == ReadDone(INVALID, [])
    ensures c.hasCore && post.sdk != SDK_OK ==> r == ReadDone(INVALID_ARGUMENT, [])
  {
    if !c.hasCore then ReadDone(INVALID, [])
    else if post.sdk != SDK_OK then ReadDone(INVALID_ARGUMENT, [])
    else match post.answer
      case Some((status, bytes)) => ReadDone(status, bytes)
      case None => if timeoutSeconds != BLOCKING_READ then ReadTimedOut else ReadBlocks
  }

  /**
   * The wrapper never reports success on its own: an OK read carries exactly
   * what the manager delivered, on an accepted post; and without a core the
   * manager's behaviour does not matter.
   */
  lemma ReadOkOnlyFromManager(c: ApiObject, t: int, post: Post<(ApiStatus, Bytes)>, other: Post<(ApiStatus, Bytes)>)
    ensures var r := ConduitRead(c, t, post);
      r.ReadDone? && r.status == OK ==> c.hasCore && post.sdk == SDK_OK && post.answer == Some((OK, r.bytes))
    ensures !c.hasCore ==> ConduitRead(c, t, post) == ConduitRead(c, t, other)
    ensures ConduitRead(c, t, post) == ReadTimedOut ==> t != BLOCKING_READ
  {
  }

  /**
   * Conduit::write: a null core gives INVALID and posts nothing, a rejected
   * post INVALID_ARGUMENT; otherwise the status the callback delivers. The
   * second component is what was posted to the manager.
   */
  function ConduitWrite(c: ApiObject, bytes: Bytes, post: Post<ApiStatus>): (r: (Option<ApiStatus>, Option<Bytes>))
    ensures !c.hasCore ==> r == (Some(INVALID), None)
    ensures c.hasCore ==> r.1 == Some(bytes)
    ensures c.hasCore && post.sdk != SDK_OK ==> r.0 == Some(INVALID_ARGUMENT)
    ensures c.hasCore && post.sdk == SDK_OK ==> r.0 == post.answer
  {
    if !c.hasCore then (Some(INVALID), None)
    else if post.sdk != SDK_OK then (Some(INVALID_ARGUMENT), Some(bytes))
    else (post.answer, Some(bytes))
  }

  /**
   * close() of a Conduit, ReceiveObject or ReceiveRespondObject: a null core
   * gives INVALID_ARGUMENT, a rejected post INTERNAL_ERROR; otherwise the
   * callback's status (None: it never comes).
   */
  function Close(c: ApiObject, post: Post<ApiStatus>): (r: Option<ApiStatus>)
    ensures !c.hasCore ==> r == Some(INVALID_ARGUMENT)
    ensures c.hasCore && post.sdk != SDK_OK ==> r == Some(INTERNAL_ERROR)
  {
    if !c.hasCore then Some(INVALID_ARGUMENT)
    else if post.sdk != SDK_OK then Some(INTERNAL_ERROR)
    else post.answer
  }

  /** The three wrappers disagree on a null core: read INVALID, write INVALID, close INVALID_ARGUMENT; a rejected close is an internal error. */
  lemma NullCoreStatuses(c: ApiObject, t: int, bytes: Bytes, pr: Post<(ApiStatus, Bytes)>, pw: Post<ApiStatus>, pc: Post<ApiStatus>)
    requires !c.hasCore
    ensures ConduitRead(c, t, pr).status == INVALID
    ensures ConduitWrite(c, bytes, pw).0 == Some(INVALID)
    ensures Close(c, pc) == Some(INVALID_ARGUMENT)
    ensures Close(c.(hasCore := true), pc.(sdk := SDK_INVALID)) == Some(INTERNAL_ERROR)
  {
  }

  /** read_str: a blocking read whose bytes become text. */
  function ConduitReadStr(c: ApiObject, post: Post<(ApiStatus, Bytes)>): (r: Option<(ApiStatus, string)>)
    ensures r.Some? <==> ConduitRead(c, BLOCKING_READ, post).ReadDone?
  {
    match ConduitRead(c, BLOCKING_READ, post)
    case ReadDone(status, bytes) => Some((status, BytesToStr(bytes)))
    case _ => None
  }

  /** write_str: the text's bytes written. */
  function ConduitWriteStr(c: ApiObject, message: string, post: Post<ApiStatus>): (r: (Option<ApiStatus>, Option<Bytes>))
    ensures r.1.Some? ==> |r.1.value| == |message|
  {
    ConduitWrite(c, StrToBytes(message), post)
  }

  /**
   * Text written with write_str and delivered to the peer's read_str comes
   * out unchanged: neither side alters the content.
   */
  lemma WriteStrReadStrRoundTrip(sender: ApiObject, receiver: ApiObject, message: string,
                                 pw: Post<ApiStatus>, sdk: SdkStatus)
    requires IsByteString(message) && sender.hasCore && receiver.hasCore
    ensures var sent := ConduitWriteStr(sender, message, pw).1;
      sent.Some? && ConduitReadStr(receiver, Post(SDK_OK, Some((OK, sent.value)))) == Some((OK, message))
  {
    StrBytesRoundTrip(message);
  }

  /** A responder: a core pointer (null after a failed receive) and where to send the reply. */
  datatype Responder = Responder(hasCore: bool, sendOptions: SendOptions)

  const NullResponder := Responder(false, SendOptions("", "", "", "", "", "", 0))

  /** What ReceiveRespondObject::receive gives back, when it returns. */
  datatype ReceiveRespondResult = ReceiveRespondResult(status: ApiStatus, data: Bytes, responder: Responder)

  /**
   * ReceiveRespondObject::receive: a null core or a rejected post give
   * (INVALID / INVALID_ARGUMENT, [], null responder); a non-OK answer comes
   * back with its data and a null responder; an OK answer gets a responder
   * that sends on the receive options' send channel and role to the
   * address the package came from.
   */
  function ReceiveRespond(c: ApiObject, recvOptions: ReceiveOptions, post: Post<(ApiStatus, Bytes, LinkAddress)>):
    (r: Option<ReceiveRespondResult>)
    ensures !c.hasCore ==> r == Some(ReceiveRespondResult(INVALID, [], NullResponder))
    ensures c.hasCore && post.sdk != SDK_OK ==> r == Some(ReceiveRespondResult(INVALID_ARGUMENT, [], NullResponder))
    ensures r.Some? && r.value.responder.hasCore ==> r.value.status == OK
  {
    if !c.hasCore then Some(ReceiveRespondResult(INVALID, [], NullResponder))
    else if post.sdk != SDK_OK then Some(ReceiveRespondResult(INVALID_ARGUMENT, [], NullResponder))
    else match post.answer
      case None => None
      case Some((status, data, address)) =>
        if status != OK then Some(ReceiveRespondResult(status, data, NullResponder))
        else
          var options := SendOptions("", recvOptions.send_channel, "", address, recvOptions.send_role, "", 0);
          Some(ReceiveRespondResult(status, data, Responder(true, options)))
  }

  /** A successful receive-respond replies on the receive options' send channel and role, to the sender's address. */
  lemma ResponderAddressesSender(c: ApiObject, recvOptions: ReceiveOptions, data: Bytes, address: LinkAddress)
    requires c.hasCore
    ensures var r := ReceiveRespond(c, recvOptions, Post(SDK_OK, Some((OK, data, address))));
      && r.Some? && r.value.status == OK && r.value.data == data && r.value.responder.hasCore
      && r.value.responder.sendOptions.send_channel == recvOptions.send_channel
      && r.value.responder.sendOptions.send_role == recvOptions.send_role
      && r.value.responder.sendOptions.send_address == address
  {
  }

  /** AcceptObject::accept: null core INVALID_ARGUMENT, rejected post INTERNAL_ERROR, both with a null conduit; else the answer's conduit. */
  function Accept(a: ApiObject, post: Post<(ApiStatus, RaceHandle)>): (r: Option<(ApiStatus, ApiObject)>)
    ensures !a.hasCore ==> r == Some((INVALID_ARGUMENT, ApiObject(false, NULL_RACE_HANDLE)))
    ensures a.hasCore && post.sdk != SDK_OK ==> r == Some((INTERNAL_ERROR, ApiObject(false, NULL_RACE_HANDLE)))
    ensures a.hasCore && post.sdk == SDK_OK && post.answer.Some? ==>
      r == Some((post.answer.value.0, ApiObject(true, post.answer.value.1)))
  {
    if !a.hasCore then Some((INVALID_ARGUMENT, ApiObject(false, NULL_RACE_HANDLE)))
    else if post.sdk != SDK_OK then Some((INTERNAL_ERROR, ApiObject(false, NULL_RACE_HANDLE)))
    else match post.answer
      case None => None
      case Some((status, handle)) => Some((status, ApiObject(true, handle)))
  }

  /** An accepted conduit shares the acceptor's core, so reading it reaches the manager with the new handle. */
  lemma AcceptedConduitUsable(a: ApiObject, status: ApiStatus, handle: RaceHandle, rp: Post<(ApiStatus, Bytes)>)
    requires a.hasCore && rp.sdk == SDK_OK && rp.answer.Some?
    ensures var r := Accept(a, Post(SDK_OK, Some((status, handle))));
      r.Some? && r.value.1.handle == handle && ConduitRead(r.value.1, BLOCKING_READ, rp) == ReadDone(rp.answer.value.0, rp.answer.value.1)
  {
  }
}

=== FILE: racecli.dfy ===
// The race-cli tool's option parsing and local-port override
// (app/race-cli/main.cpp). getopt_long itself is not modelled: the loop
// consumes what it returned, one result per call.

module RaceCli {
  import opened Common
  import opened CommandLine
  import RaceApi

  datatype CliOptions = CliOptions(
    params: seq<(string, string)>,
    pluginPath: string,
    initRecvChannel: string,
    initRecvRole: string,
    initSendChannel: string,
    initSendRole: string,
    altChannel: string,
    altRole: string,
    initSendAddress: string,
    initRecvAddress: string,
    finalRecvChannel: string,
    finalRecvRole: string,
    finalSendChannel: string,
    finalSendRole: string,
    timeoutMs: int,
    multiChannel: bool,
    numPackages: int)

  /** CmdOptions as default-constructed: roles "default", plugins under /etc/race, no timeout, unlimited packages. */
  const Defaults := CliOptions([], "/etc/race", "", "default", "", "default", "", "default", "", "", "", "default", "", "default",
                               0, false, -1)

  /**
   * One pass of the switch in parseOpts. `timeoutOf` is the -w conversion
   * (seconds as a floating-point number to whole milliseconds), None when
   * std::stod throws. The short option string "R:r:S:s:T:t:a:e:p:mdhwn:"
   * gives `d` and `w` no argument, so `-d` and `-w` hand a NULL optarg to
   * a std::string.
   */
  function ApplyOption(timeoutOf: string -> Option<int>, o: CliOptions, r: GetoptResult): (out: ParseOutcome<CliOptions>)
    ensures r.Opt? && r.code == 'p' ==> (out.Parsed? <==> SplitParam(r.arg).Success?)
    ensures r.Opt? && r.code == 'p' && out.Parsed? ==> out.options.params == o.params + [SplitParam(r.arg).value]
    ensures !(r.Opt? && r.code == 'p') && out.Parsed? ==> out.options.params == o.params
    ensures r.BareOpt? ==> (out == NullOptarg <==> r.code == 'd' || r.code == 'w')
    ensures r.BareOpt? && r.code == 'm' ==> out == Parsed(o.(multiChannel := true))
  {
    match r
    case FlagSet => Parsed(o)
    case Unrecognised => Rejected
    case BareOpt(c) =>
      if c == 'd' || c == 'w' then NullOptarg
      else if c == 'm' then Parsed(o.(multiChannel := true))
      else if c == 'h' then Rejected
      else Aborted
    case Opt(c, arg) =>
      if c == 'R' then Parsed(o.(initRecvChannel := arg))
      else if c == 'r' then Parsed(o.(initRecvRole := arg))
      else if c == 'S' then Parsed(o.(initSendChannel := arg))
      else if c == 's' then Parsed(o.(initSendRole := arg))
      else if c == 'K' then Parsed(o.(finalRecvChannel := arg))
      else if c == 'k' then Parsed(o.(finalRecvRole := arg))
      else if c == 'L' then Parsed(o.(finalSendChannel := arg))
      else if c == 'l' then Parsed(o.(finalSendRole := arg))
      else if c == 'T' then Parsed(o.(altChannel := arg))
      else if c == 't' then Parsed(o.(altRole := arg))
      else if c == 'a' then Parsed(o.(initSendAddress := arg))
      else if c == 'e' then Parsed(o.(initRecvAddress := arg))
      else if c == 'd' then Parsed(o.(pluginPath := arg))
      else if c == 'p' then
        match SplitParam(arg)
        case Success(kv) => Parsed(o.(params := o.params + [kv]))
        case Failure(_) => Rejected
      else if c == 'm' then Parsed(o.(multiChannel := true))
      else if c == 'w' then
        match timeoutOf(arg)
        case Some(ms) => Parsed(o.(timeoutMs := ms))
        case None => Rejected
      else if c == 'n' then
        match Stoi(arg)
        case Some(n) => Parsed(o.(numPackages := n))
        case None => Rejected
      else if c == 'h' then Rejected
      else Aborted
  }

  function Step(timeoutOf: string -> Option<int>): (CliOptions, GetoptResult) -> ParseOutcome<CliOptions> {
    (o, r) => ApplyOption(timeoutOf, o, r)
  }

  /** parseOpts: the option loop, then the test for a leftover positional argument. */
  method ParseOpts(timeoutOf: string -> Option<int>, args: seq<GetoptResult>, positional: seq<string>)
    returns (r: ParseOutcome<CliOptions>)
    ensures r == CheckPositional(FoldOpts(Defaults, Step(timeoutOf), args), positional)
    ensures positional != [] ==> !r.Parsed?
  {
    r := OptionLoop(Defaults, Step(timeoutOf), args);
    r := CheckPositional(r, positional);
  }

  /** The pairs the `-p` arguments give, in order, while every one of them splits. */
  function ParamArgs(args: seq<GetoptResult>): (r: Option<seq<(string, string)>>)
    decreases |args|
  {
    if args == [] then Some([])
    else
      var last := args[|args| - 1];
      match ParamArgs(args[..|args| - 1])
      case None => None
      case Some(ps) =>
        if last.Opt? && last.code == 'p' then
          match SplitParam(last.arg)
          case Success(kv) => Some(ps + [kv])
          case Failure(_) => None
        else Some(ps)
  }

  /**
   * Parsing succeeds only if every `-p` argument splits, and then the
   * params are those pairs in command-line order (duplicates kept).
   */
  lemma {:induction false} ParamsInCommandLineOrder(timeoutOf: string -> Option<int>, args: seq<GetoptResult>)
    ensures FoldOpts(Defaults, Step(timeoutOf), args).Parsed? ==>
      ParamArgs(args).Some? && FoldOpts(Defaults, Step(timeoutOf), args).options.params == ParamArgs(args).value
    decreases |args|
  {
    if args != [] {
      ParamsInCommandLineOrder(timeoutOf, args[..|args| - 1]);
    }
  }

  /** A short `-d` or `-w` leaves the outcome undefined, whatever the options before it. */
  lemma BareDirOrTimeoutUndefined(timeoutOf: string -> Option<int>, args: seq<GetoptResult>, c: char)
    requires FoldOpts(Defaults, Step(timeoutOf), args).Parsed?
    requires c == 'd' || c == 'w'
    ensures FoldOpts(Defaults, Step(timeoutOf), args + [BareOpt(c)]) == NullOptarg
  {
    assert (args + [BareOpt(c)])[..|args|] == args;
  }

  /** A `-p` argument with an empty key or an empty value makes parsing fail, wherever it appears. */
  lemma BadParamRejected(timeoutOf: string -> Option<int>, args: seq<GetoptResult>, i: nat)
    requires i < |args| && args[i].Opt? && args[i].code == 'p' && SplitParam(args[i].arg).Failure?
    ensures !FoldOpts(Defaults, Step(timeoutOf), args).Parsed?
  {
    ParamsInCommandLineOrder(timeoutOf, args);
    BadParamSpoilsParamArgs(args, i);
  }

  lemma {:induction false} BadParamSpoilsParamArgs(args: seq<GetoptResult>, i: nat)
    requires i < |args| && args[i].Opt? && args[i].code == 'p' && SplitParam(args[i].arg).Failure?
    ensures ParamArgs(args).None?
    decreases |args|
  {
    if i < |args| - 1 {
      BadParamSpoilsParamArgs(args[..|args| - 1], i);
    }
  }

  // ---- check_for_local_port_override ----

  /** The local port a client listens on, and the one a server connects to, unless overridden. */
  const CLIENT_LOCAL_PORT: int := 9999
  const SERVER_LOCAL_PORT: int := 7777

  /**
   * The port after the override: the first "localPort" param, read with
   * std::stoi (None: stoi threw, which nothing catches), else the default.
   */
  function LocalPortAfter(params: seq<(string, string)>, default: int): Option<int>
    decreases |params|
  {
    if params == [] then Some(default)
    else if params[0].0 == "localPort" then Stoi(params[0].1)
    else LocalPortAfter(params[1..], default)
  }

  /** check_for_local_port_override: the loop stops at the first "localPort". */
  method CheckForLocalPortOverride(params: seq<(string, string)>, localPort: int) returns (port: Option<int>)
    ensures port == LocalPortAfter(params, localPort)
  {
    port := Some(localPort);
    var i := 0;
    while i < |params|
      invariant 0 <= i <= |params|
      invariant LocalPortAfter(params, localPort) == LocalPortAfter(params[i..], localPort)
    {
      if params[i].0 == "localPort" {
        port := Stoi(params[i].1);
        return;
      }
      assert params[i..][1..] == params[i + 1..];
      i := i + 1;
    }
  }

  /** The first "localPort" decides; any later one is ignored. */
  lemma {:induction false} FirstLocalPortWins(params: seq<(string, string)>, i: nat, default: int)
    requires i < |params| && params[i].0 == "localPort"
    requires forall j :: 0 <= j < i ==> params[j].0 != "localPort"
    ensures LocalPortAfter(params, default) == Stoi(params[i].1)
    decreases i
  {
    if i > 0 {
      FirstLocalPortWins(params[1..], i - 1, default);
    }
  }

  /** Without a "localPort" param the default stands: 9999 for the client, 7777 for the server. */
  lemma {:induction false} NoOverrideKeepsDefault(params: seq<(string, string)>, default: int)
    requires forall j :: 0 <= j < |params| ==> params[j].0 != "localPort"
    ensures LocalPortAfter(params, default) == Some(default)
    decreases |params|
  {
    if params != [] {
      NoOverrideKeepsDefault(params[1..], default);
    }
  }

  /**
   * The channel-parameter store keeps the last value given for a key, but
   * the local port takes the first: with two "localPort" params the two
   * disagree.
   */
  lemma LocalPortAndStoreDisagree()
    ensures var params := [("localPort", "1"), ("localPort", "2")];
      && LocalPortAfter(params, CLIENT_LOCAL_PORT) == Some(1)
      && RaceApi.ParamsAfter(map[], params)["localPort"] == "2"
  {
    var params := [("localPort", "1"), ("localPort", "2")];
    assert params[..1] == [("localPort", "1")] && params[..1][..0] == [];
    assert Stoi("1") == Some(1) by {
      assert SkipSpace("1") == "1";
      assert DigitRun("1") == "1" by {
        assert "1"[1..] == [];
      }
      assert DecimalValue("1") == 1 by {
        assert "1"[..0] == [];
      }
    }
  }
}

=== FILE: raceenums.dfy ===
// Plugin file types and their names (source/common/RaceEnums.cpp): the
// manifest names a file type in any letter case, and the library prints it
// under its enumerator name.

module RaceEnumNames {
  import opened Common
  import CoreModel

  /** enum PluginFileType { PFT_SHARED_LIB, PFT_PYTHON }. */
  datatype PluginFileType = PFT_SHARED_LIB | PFT_PYTHON

  /** The enumerator's integer value. */
  function Ordinal(t: PluginFileType): int {
    match t
    case PFT_SHARED_LIB => 0
    case PFT_PYTHON => 1
  }

  /** std::tolower of one byte in the "C" locale: only 'A'..'Z' change. */
  function LowerChar(c: char): (l: char)
    ensures 'A' <= c <= 'Z' ==> (l as int) == (c as int) + 32
    ensures !('A' <= c <= 'Z') ==> l == c
    ensures !('A' <= l <= 'Z')
  {
    if 'A' <= c <= 'Z' then ((c as int) + 32) as char else c
  }

  /** stringToLowerCase: the input with every character lower-cased, nothing added or dropped. */
  function StringToLowerCase(s: string): (r: string)
    ensures |r| == |s|
    ensures forall i :: 0 <= i < |s| ==> r[i] == LowerChar(s[i])
  {
    seq(|s|, i requires 0 <= i < |s| => LowerChar(s[i]))
  }

  /** A string with no upper-case letter. */
  predicate IsLowerCase(s: string) {
    forall i :: 0 <= i < |s| ==> !('A' <= s[i] <= 'Z')
  }

  /** Lower-casing leaves no upper-case letter, and leaves lower-case text as it is. */
  lemma LowerCaseIdempotent(s: string)
    ensures IsLowerCase(StringToLowerCase(s))
    ensures IsLowerCase(s) ==> StringToLowerCase(s) == s
    ensures StringToLowerCase(StringToLowerCase(s)) == StringToLowerCase(s)
  {
    var l := StringToLowerCase(s);
    var ll := StringToLowerCase(l);
    assert forall i :: 0 <= i < |s| ==> ll[i] == l[i];
  }

  /**
   * pluginFileTypeToString for the enumerator value `code`: the two
   * enumerators by name, anything else (a value cast into the enum) as an
   * error text carrying the number.
   */
  function PluginFileTypeCodeToString(code: int): (s: string)
    ensures code == 0 ==> s == "PFT_SHARED_LIB"
    ensures code == 1 ==> s == "PFT_PYTHON"
    ensures code != 0 && code != 1 ==>
      s == "ERROR: INVALID PLUGIN FILE TYPE: " + CoreModel.IntToString(code)
  {
    if code == 0 then "PFT_SHARED_LIB"
    else if code == 1 then "PFT_PYTHON"
    else "ERROR: INVALID PLUGIN FILE TYPE: " + CoreModel.IntToString(code)
  }

  function PluginFileTypeToString(t: PluginFileType): string {
    PluginFileTypeCodeToString(Ordinal(t))
  }

  /** The two enumerators print differently, and neither prints as an error. */
  lemma PluginFileTypeNamesDistinct(t: PluginFileType, u: PluginFileType)
    ensures PluginFileTypeToString(t) == PluginFileTypeToString(u) <==> t == u
    ensures PluginFileTypeToString(t)[..3] == "PFT"
  {
  }

  /** Distinct invalid codes give distinct error texts. */
  lemma InvalidCodesNamedApart(m: int, n: int)
    requires m != 0 && m != 1 && n != 0 && n != 1
    requires PluginFileTypeCodeToString(m) == PluginFileTypeCodeToString(n)
    ensures m == n
  {
    var prefix := "ERROR: INVALID PLUGIN FILE TYPE: ";
    assert PluginFileTypeCodeToString(m)[|prefix|..] == CoreModel.IntToString(m);
    assert PluginFileTypeCodeToString(n)[|prefix|..] == CoreModel.IntToString(n);
    CoreModel.IntToStringInjective(m, n);
  }

  /**
   * stringToPluginFileType: "shared_library" or "python" in any letter
   * case; every other text is refused (invalid_argument in the source).
   */
  function StringToPluginFileType(s: string): (r: Result<PluginFileType, string>)
    ensures r == Success(PFT_SHARED_LIB) <==> StringToLowerCase(s) == "shared_library"
    ensures r == Success(PFT_PYTHON) <==> StringToLowerCase(s) == "python"
    ensures r.Failure? <==> StringToLowerCase(s) !in {"shared_library", "python"}
  {
    var lower := StringToLowerCase(s);
    if lower == "shared_library" then Success(PFT_SHARED_LIB)
    else if lower == "python" then Success(PFT_PYTHON)
    else Failure("RaceEnums::stringToPluginFileType: invalid plugin file type " + s)
  }

  /** The name a manifest uses for a file type. */
  function ManifestName(t: PluginFileType): string {
    match t
    case PFT_SHARED_LIB => "shared_library"
    case PFT_PYTHON => "python"
  }

  /** Parsing a manifest name gives the type back, whatever the letter case. */
  lemma ManifestNameRoundTrip(t: PluginFileType, s: string)
    requires StringToLowerCase(s) == ManifestName(t)
    ensures StringToPluginFileType(s) == Success(t)
  {
  }

  /**
   * The parse ignores letter case: a text and its lower-case form are both
   * refused or both give the same type (only the error text differs).
   */
  lemma ParseIgnoresCase(s: string)
    ensures StringToPluginFileType(StringToLowerCase(s)).Success? == StringToPluginFileType(s).Success?
    ensures StringToPluginFileType(s).Success? ==>
      StringToPluginFileType(StringToLowerCase(s)) == StringToPluginFileType(s)
  {
    LowerCaseIdempotent(s);
  }

  /** The printed enumerator name is not a manifest name: printing and parsing are not inverses. */
  lemma PrintedNameDoesNotParse(t: PluginFileType)
    ensures StringToPluginFileType(PluginFileTypeToString(t)).Failure?
  {
    var l := StringToLowerCase(PluginFileTypeToString(t));
    assert l[0] == 'p' && l[1] == 'f';
  }
}

=== FILE: racept3.dfy ===
// The Go adapter that puts the raceboat API behind the pluggable-transport
// interfaces (pluggable-transport/source/pkg/race_pt3/race_pt3.go): client
// and server construction, dialling and listening, and the net.Conn-like
// RaceConn and the RaceListener. The core calls it makes through SWIG
// (Dial_strSwig, ReadSwig, Write, AcceptSwig, Close) are parameters: the
// model takes what each returned.

module RacePt3 {
  import opened Common
  import RaceApi

  /** Log levels handed to the core's file logger. */
  const DEBUG: int := 0
  const INFO: int := 1
  const WARNING: int := 2
  const ERROR: int := 3

  const DEFAULT_PLUGIN_PATH := "/etc/race/plugins"

  /** The plugin directory used: the one given, or the default when it is empty. */
  function PluginPathOr(pluginPath: string): (r: string)
    ensures r != ""
    ensures pluginPath != "" ==> r == pluginPath
    ensures pluginPath == "" ==> r == DEFAULT_PLUGIN_PATH
  {
    if pluginPath == "" then DEFAULT_PLUGIN_PATH else pluginPath
  }

  /** Why NewRaceClient gives nil, if it does: neither a send nor a receive channel. */
  function ClientRefusal(sendChannelId: ChannelId, recvChannelId: ChannelId): (r: Option<string>)
    ensures r.Some? <==> sendChannelId == "" && recvChannelId == ""
  {
    if sendChannelId == "" && recvChannelId == "" then Some("empty send and receive channel IDs") else None
  }

  /** Why NewRaceServer gives nil, if it does: the receive address is checked before the channels. */
  function ServerRefusal(receiveLinkAddress: LinkAddress, sendChannelId: ChannelId, recvChannelId: ChannelId): (r: Option<string>)
    ensures r.Some? <==> receiveLinkAddress == "" || ClientRefusal(sendChannelId, recvChannelId).Some?
    ensures receiveLinkAddress == "" ==> r == Some("null receive link addresses")
  {
    if receiveLinkAddress == "" then Some("null receive link addresses")
    else if sendChannelId == "" && recvChannelId == "" then Some("null send and receive channel IDs")
    else None
  }

  /**
   * The `range userParams` loop of both constructors: every user parameter
   * set on a new store. Go visits a map in no fixed order; every order
   * gives the same store.
   */
  method CopyUserParams(userParams: map<string, string>) returns (store: RaceApi.ChannelParamStore)
    ensures fresh(store)
    ensures store.params == userParams
  {
    store := new RaceApi.ChannelParamStore();
    var todo := userParams.Keys;
    while todo != {}
      invariant todo <= userParams.Keys
      invariant store.params == map k | k in userParams.Keys - todo :: userParams[k]
      decreases todo
    {
      var key :| key in todo;
      store.SetChannelParam(key, userParams[key]);
      todo := todo - {key};
    }
  }

  // ---- the client ----

  class RaceClient {
    const pluginPath: string
    const sendChannelId: ChannelId
    const sendChannelRole: string
    const recvChannelId: ChannelId
    const recvChannelRole: string
    const altChannelId: ChannelId
    const altChannelRole: string
    const timeoutMs: int
    const introduction: string
    /** Whether the core.RaceSwig instance is still there (DestroyRaceClient deletes it). */
    var raceLive: bool
    /** The parameter store; null once deleted. */
    var params: RaceApi.ChannelParamStore?

    constructor(pluginPath: string, sendChannelId: ChannelId, sendChannelRole: string,
                recvChannelId: ChannelId, recvChannelRole: string,
                altChannelId: ChannelId, altChannelRole: string,
                timeoutMs: int, introduction: string, params: RaceApi.ChannelParamStore)
      ensures this.pluginPath == pluginPath && this.timeoutMs == timeoutMs && this.introduction == introduction
      ensures this.sendChannelId == sendChannelId && this.sendChannelRole == sendChannelRole
      ensures this.recvChannelId == recvChannelId && this.recvChannelRole == recvChannelRole
      ensures this.altChannelId == altChannelId && this.altChannelRole == altChannelRole
      ensures raceLive && this.params == params
    {
      this.pluginPath := pluginPath;
      this.sendChannelId := sendChannelId;
      this.sendChannelRole := sendChannelRole;
      this.recvChannelId := recvChannelId;
      this.recvChannelRole := recvChannelRole;
      this.altChannelId := altChannelId;
      this.altChannelRole := altChannelRole;
      this.timeoutMs := timeoutMs;
      this.introduction := introduction;
      raceLive := true;
      this.params := params;
    }

    /**
     * RaceClient.Dial: the send options are the client's channels and roles
     * with the address given; the conduit comes back only on OK.
     */
    function Dial(sendAddress: LinkAddress, answer: (ApiStatus, RaceApi.ApiObject)): (r: (SendOptions, Result<RaceConn, string>))
      ensures r.0.send_address == sendAddress && r.0.timeout_ms == timeoutMs
      ensures r.0.send_channel == sendChannelId && r.0.recv_channel == recvChannelId && r.0.alt_channel == altChannelId
      ensures r.0.send_role == sendChannelRole && r.0.recv_role == recvChannelRole
      ensures r.1.Success? <==> answer.0 == OK
      ensures r.1.Success? ==> r.1.value == RaceConn(Some(answer.1))
      ensures r.1.Failure? ==> r.1.error == "race_pt3 Dial error"
    {
      var opts := SendOptions(recvChannelId, sendChannelId, altChannelId, sendAddress, sendChannelRole, recvChannelRole, timeoutMs);
      if answer.0 != OK then (opts, Failure("race_pt3 Dial error"))
      else (opts, Success(RaceConn(Some(answer.1))))
    }
  }

  /**
   * NewRaceClient: nil without a channel; otherwise a client over a new
   * store holding the user parameters, with the default plugin path when
   * none is given. The log settings are not modelled.
   */
  method NewRaceClient(sendChannelId: ChannelId, sendChannelRole: string,
                       recvChannelId: ChannelId, recvChannelRole: string,
                       altChannelId: ChannelId, altChannelRole: string,
                       pluginPath: string, timeoutMs: int, logLevel: int,
                       introduction: string, redirectPath: string,
                       userParams: map<string, string>)
    returns (c: RaceClient?)
    ensures c == null <==> ClientRefusal(sendChannelId, recvChannelId).Some?
    ensures c != null ==> fresh(c) && fresh(c.params) && c.raceLive
    ensures c != null ==> c.params != null && c.params.params == userParams
    ensures c != null ==> c.pluginPath == PluginPathOr(pluginPath) && c.introduction == introduction && c.timeoutMs == timeoutMs
    ensures c != null ==> c.sendChannelId == sendChannelId && c.sendChannelRole == sendChannelRole
    ensures c != null ==> c.recvChannelId == recvChannelId && c.recvChannelRole == recvChannelRole
    ensures c != null ==> c.altChannelId == altChannelId && c.altChannelRole == altChannelRole
  {
    var path := PluginPathOr(pluginPath);
    if ClientRefusal(sendChannelId, recvChannelId).Some? {
      return null;
    }
    var store := CopyUserParams(userParams);
    c := new RaceClient(path, sendChannelId, sendChannelRole, recvChannelId, recvChannelRole,
                        altChannelId, altChannelRole, timeoutMs, introduction, store);
  }

  /** DestroyRaceClient: deletes the core instance and the store, each at most once. */
  method DestroyRaceClient(c: RaceClient)
    modifies c
    ensures !c.raceLive && c.params == null
  {
    if c.raceLive {
      c.raceLive := false;
    }
    if c.params != null {
      c.params := null;
    }
  }

  // ---- the connection ----

  /** A RaceConn: the core's conduit, or none (the zero value a failed Dial or Accept returns). */
  datatype RaceConn = RaceConn(conduit: Option<RaceApi.ApiObject>)

  /** What one ReadSwig call gave: a status and the bytes of the package. */
  datatype ReadAnswer = ReadAnswer(status: ApiStatus, data: Bytes)

  /** How Read ends: a count and an error text, a panic, or still calling ReadSwig when the answers ran out. */
  datatype ReadResult = Returned(n: int, err: Option<string>) | Panicked | StillReading

  /** An answer that ends Read's loop: an error status, or at least one byte. */
  predicate Decisive(a: ReadAnswer) {
    a.status != OK || a.data != []
  }

  /** The first answer that ends Read's loop. */
  function FirstDecisive(answers: seq<ReadAnswer>): (r: Option<nat>)
    ensures r.Some? ==> r.value < |answers| && Decisive(answers[r.value])
    ensures r.Some? ==> forall j :: 0 <= j < r.value ==> !Decisive(answers[j])
    ensures r.None? ==> forall j :: 0 <= j < |answers| ==> !Decisive(answers[j])
    decreases |answers|
  {
    if answers == [] then None
    else if Decisive(answers[0]) then Some(0)
    else match FirstDecisive(answers[1..])
      case None => None
      case Some(i) => Some(i + 1)
  }

  /**
   * RaceConn.Read as written: ReadSwig until an error status (the size of
   * what came back, and an error) or a non-empty package, whose bytes are
   * copied to the front of the buffer one by one; a package longer than
   * the buffer runs off its end, which panics.
   */
  function ReadOutcome(bufLen: nat, answers: seq<ReadAnswer>): ReadResult {
    match FirstDecisive(answers)
    case None => StillReading
    case Some(i) =>
      if answers[i].status != OK then Returned(|answers[i].data|, Some("race_pt3 Read error"))
      else if |answers[i].data| <= bufLen then Returned(|answers[i].data|, None)
      else Panicked
  }

  /**
   * The loop of RaceConn.Read, over the answers ReadSwig gives in turn. A
   * conn without a conduit panics on its first ReadSwig, before the buffer
   * is touched.
   */
  method Read(conn: RaceConn, buffer: array<byte>, answers: seq<ReadAnswer>) returns (r: ReadResult)
    modifies buffer
    ensures conn.conduit.None? ==> r == Panicked && buffer[..] == old(buffer[..])
    ensures conn.conduit.Some? ==> r == ReadOutcome(buffer.Length, answers)
    ensures r.Returned? && r.err.None? ==> buffer[..r.n] == answers[FirstDecisive(answers).value].data
    ensures r.Returned? && r.err.None? ==> buffer[r.n..] == old(buffer[r.n..])
    ensures conn.conduit.Some? && r.Panicked? ==>
              buffer[..] == answers[FirstDecisive(answers).value].data[..buffer.Length]
    ensures !(r.Returned? && r.err.None?) && !r.Panicked? ==> buffer[..] == old(buffer[..])
  {
    if conn.conduit.None? {
      return Panicked;
    }
    var k := 0;
    while k < |answers|
      invariant 0 <= k <= |answers|
      invariant forall j :: 0 <= j < k ==> !Decisive(answers[j])
      invariant buffer[..] == old(buffer[..])
    {
      var a := answers[k];
      if a.status != OK {
        return Returned(|a.data|, Some("race_pt3 Read error"));
      }
      if |a.data| > 0 {
        var idx := 0;
        while idx < |a.data|
          invariant 0 <= idx <= |a.data| && idx <= buffer.Length
          invariant buffer[..idx] == a.data[..idx]
          invariant buffer[idx..] == old(buffer[idx..])
        {
          if idx == buffer.Length {
            return Panicked;
          }
          buffer[idx] := a.data[idx];
          idx := idx + 1;
        }
        return Returned(|a.data|, None);
      }
      k := k + 1;
    }
    return StillReading;
  }

  /** Read never reports success with nothing read, and what it reports fits the buffer. */
  lemma ReadNeverEmptySuccess(bufLen: nat, answers: seq<ReadAnswer>)
    ensures var r := ReadOutcome(bufLen, answers);
      r.Returned? && r.err.None? ==> 0 < r.n <= bufLen
    ensures var r := ReadOutcome(bufLen, answers);
      r.Returned? ==> FirstDecisive(answers).Some? && r.n == |answers[FirstDecisive(answers).value].data|
  {
  }

  /** An empty OK package is skipped: the answers after it decide. */
  lemma {:induction false} EmptyPackagesSkipped(bufLen: nat, empties: nat, answers: seq<ReadAnswer>)
    ensures ReadOutcome(bufLen, seq(empties, _ => ReadAnswer(OK, [])) + answers) == ReadOutcome(bufLen, answers)
    decreases empties
  {
    var s := seq(empties, _ => ReadAnswer(OK, [])) + answers;
    if empties > 0 {
      var rest := seq(empties - 1, _ => ReadAnswer(OK, [])) + answers;
      assert s[1..] == rest;
      EmptyPackagesSkipped(bufLen, empties - 1, answers);
      assert !Decisive(s[0]);
      match FirstDecisive(rest)
      case None =>
      case Some(i) => assert s[i + 1] == rest[i];
    } else {
      assert s == answers;
    }
  }

  /** A two-byte package read into a one-byte buffer panics. */
  lemma ReadPanicsOnLongPackage()
    ensures ReadOutcome(1, [ReadAnswer(OK, [1, 2])]) == Panicked
  {
    assert FirstDecisive([ReadAnswer(OK, [1, 2])]) == Some(0);
  }

  /**
   * Read as io.Reader asks for it: at most as many bytes as the buffer
   * holds, the rest kept for the next call, which serves them before
   * calling ReadSwig again. The result, the bytes delivered and the bytes
   * left over.
   */
  function BufferedRead(pending: Bytes, bufLen: nat, answers: seq<ReadAnswer>): (ReadResult, Bytes, Bytes) {
    if bufLen == 0 then (Returned(0, None), [], pending)
    else if pending != [] then
      var n := if |pending| <= bufLen then |pending| else bufLen;
      (Returned(n, None), pending[..n], pending[n..])
    else match FirstDecisive(answers)
      case None => (StillReading, [], [])
      case Some(i) =>
        var data := answers[i].data;
        if answers[i].status != OK then (Returned(0, Some("race_pt3 Read error")), [], [])
        else
          var n := if |data| <= bufLen then |data| else bufLen;
          (Returned(n, None), data[..n], data[n..])
  }

  /**
   * Nothing is lost or reordered: what is delivered followed by what is
   * kept is what was pending, or else the package that ended the loop; at
   * most a buffer's worth is delivered, and something is whenever the
   * buffer is not empty.
   */
  lemma BufferedReadLosesNothing(pending: Bytes, bufLen: nat, answers: seq<ReadAnswer>)
    ensures var (r, delivered, kept) := BufferedRead(pending, bufLen, answers);
      r.Returned? && r.err.None? ==> r.n == |delivered| <= bufLen && (bufLen > 0 ==> r.n > 0)
    ensures var (r, delivered, kept) := BufferedRead(pending, bufLen, answers);
      r.Returned? && r.err.None? && pending != [] ==> delivered + kept == pending
    ensures var (r, delivered, kept) := BufferedRead(pending, bufLen, answers);
      r.Returned? && r.err.None? && pending == [] && bufLen > 0 ==>
        delivered + kept == answers[FirstDecisive(answers).value].data
    ensures !BufferedRead(pending, bufLen, answers).0.Panicked?
  {
    var (r, delivered, kept) := BufferedRead(pending, bufLen, answers);
    if bufLen > 0 && pending != [] {
      var n := if |pending| <= bufLen then |pending| else bufLen;
      assert pending[..n] + pending[n..] == pending;
    } else if bufLen > 0 && FirstDecisive(answers).Some? {
      var data := answers[FirstDecisive(answers).value].data;
      var n := if |data| <= bufLen then |data| else bufLen;
      assert data[..n] + data[n..] == data;
    }
  }

  /** Whether a buffered read has to call ReadSwig: nothing is pending and the buffer has room. */
  predicate NeedsReadSwig(pending: Bytes, bufLen: nat) {
    pending == [] && bufLen > 0
  }

  /** Read with a remainder: the connection keeps the bytes the last buffer could not take. */
  class ConnReader {
    const conn: RaceConn
    var pending: Bytes

    constructor(conn: RaceConn)
      ensures this.conn == conn && pending == []
    {
      this.conn := conn;
      pending := [];
    }

    method Read(buffer: array<byte>, answers: seq<ReadAnswer>) returns (r: ReadResult)
      modifies this, buffer
      ensures NeedsReadSwig(old(pending), buffer.Length) && conn.conduit.None? ==>
                r == Panicked && pending == old(pending) && buffer[..] == old(buffer[..])
      ensures !NeedsReadSwig(old(pending), buffer.Length) || conn.conduit.Some? ==>
                var (res, delivered, kept) := BufferedRead(old(pending), buffer.Length, answers);
                r == res && pending == kept && (r.Returned? ==> buffer[..r.n] == delivered)
      ensures r.Returned? ==> buffer[r.n..] == old(buffer[r.n..])
      ensures r.StillReading? ==> buffer[..] == old(buffer[..])
    {
      if buffer.Length == 0 {
        return Returned(0, None);
      }
      var data := pending;
      if data == [] {
        if conn.conduit.None? {
          return Panicked;
        }
        var k := 0;
        while k < |answers| && !Decisive(answers[k])
          invariant 0 <= k <= |answers|
          invariant forall j :: 0 <= j < k ==> !Decisive(answers[j])
        {
          k := k + 1;
        }
        if k == |answers| {
          return StillReading;
        }
        assert FirstDecisive(answers) == Some(k) by {
          FirstDecisiveIs(answers, k);
        }
        if answers[k].status != OK {
          pending := [];
          return Returned(0, Some("race_pt3 Read error"));
        }
        data := answers[k].data;
      }
      var n := if |data| <= buffer.Length then |data| else buffer.Length;
      CopyPrefix(buffer, data, n);
      pending := data[n..];
      return Returned(n, None);
    }
  }

  /** The first n bytes of data copied to the front of the buffer, the rest of it untouched. */
  method CopyPrefix(buffer: array<byte>, data: Bytes, n: nat)
    requires n <= |data| && n <= buffer.Length
    modifies buffer
    ensures buffer[..n] == data[..n]
    ensures buffer[n..] == old(buffer[n..])
  {
    var idx := 0;
    while idx < n
      invariant 0 <= idx <= n
      invariant buffer[..idx] == data[..idx]
      invariant buffer[idx..] == old(buffer[idx..])
    {
      buffer[idx] := data[idx];
      idx := idx + 1;
    }
  }

  lemma {:induction false} FirstDecisiveIs(answers: seq<ReadAnswer>, k: nat)
    requires k < |answers| && Decisive(answers[k])
    requires forall j :: 0 <= j < k ==> !Decisive(answers[j])
    ensures FirstDecisive(answers) == Some(k)
    decreases k
  {
    if k > 0 {
      FirstDecisiveIs(answers[1..], k - 1);
    }
  }

  /** How Write ends: a count and an error text, or a panic. */
  datatype WriteResult = Wrote(n: int, err: Option<string>) | WritePanicked

  /**
   * RaceConn.Write: the buffer copied byte by byte into a new vector and
   * written to the conduit; the whole length on OK, else nothing and an
   * error. `status` is what the conduit's write gave. A conn without a
   * conduit panics at the write, after the copy.
   */
  method Write(conn: RaceConn, buffer: array<byte>, status: ApiStatus) returns (r: WriteResult, written: Bytes)
    ensures written == buffer[..]
    ensures conn.conduit.None? ==> r == WritePanicked
    ensures conn.conduit.Some? && status == OK ==> r == Wrote(buffer.Length, None)
    ensures conn.conduit.Some? && status != OK ==> r == Wrote(0, Some("race_pt3 Write error"))
  {
    written := [];
    for i := 0 to buffer.Length
      invariant written == buffer[..i]
    {
      written := written + [buffer[i]];
    }
    if conn.conduit.None? {
      return WritePanicked, written;
    }
    if status == OK {
      return Wrote(buffer.Length, None), written;
    }
    return Wrote(0, Some("race_pt3 Write error")), written;
  }

  /** RaceConn.Close: closes the conduit and reports no error whatever the close gave. */
  method Close(conn: RaceConn, closeStatus: Option<ApiStatus>) returns (err: Option<string>)
    requires conn.conduit.Some?
    ensures err.None?
  {
    return None;
  }

  // ---- the server ----

  class RaceServer {
    const pluginPath: string
    const sendChannelId: ChannelId
    const sendChannelRole: string
    const recvChannelId: ChannelId
    const recvChannelRole: string
    const altChannelId: ChannelId
    const altChannelRole: string
    const receiveLinkAddress: LinkAddress
    const timeoutMs: int
    var raceLive: bool
    var params: RaceApi.ChannelParamStore?

    constructor(pluginPath: string, sendChannelId: ChannelId, sendChannelRole: string,
                recvChannelId: ChannelId, recvChannelRole: string,
                altChannelId: ChannelId, altChannelRole: string,
                receiveLinkAddress: LinkAddress, timeoutMs: int, params: RaceApi.ChannelParamStore)
      ensures this.pluginPath == pluginPath && this.timeoutMs == timeoutMs && this.receiveLinkAddress == receiveLinkAddress
      ensures this.sendChannelId == sendChannelId && this.sendChannelRole == sendChannelRole
      ensures this.recvChannelId == recvChannelId && this.recvChannelRole == recvChannelRole
      ensures this.altChannelId == altChannelId && this.altChannelRole == altChannelRole
      ensures raceLive && this.params == params
    {
      this.pluginPath := pluginPath;
      this.sendChannelId := sendChannelId;
      this.sendChannelRole := sendChannelRole;
      this.recvChannelId := recvChannelId;
      this.recvChannelRole := recvChannelRole;
      this.altChannelId := altChannelId;
      this.altChannelRole := altChannelRole;
      this.receiveLinkAddress := receiveLinkAddress;
      this.timeoutMs := timeoutMs;
      raceLive := true;
      this.params := params;
    }

    /**
     * RaceServer.Listen: the receive options are the server's channels,
     * roles and address; on OK a listener over the accept object with an
     * empty connection vector, else the zero listener and an error.
     */
    method Listen(status: ApiStatus, linkAddress: LinkAddress, acceptObject: RaceApi.ApiObject)
      returns (opts: ReceiveOptions, l: RaceListener, err: Option<string>)
      ensures fresh(l)
      ensures opts == ReceiveOptions(recvChannelId, sendChannelId, altChannelId, receiveLinkAddress,
                                     sendChannelRole, recvChannelRole, timeoutMs, false)
      ensures status == OK ==> err.None? && l.linkAddress == linkAddress && l.acceptObject == Some(acceptObject)
      ensures status == OK ==> l.hasConnVector && l.conns == [] && !l.vectorDeleted
      ensures status != OK ==> err == Some("race_pt3 Listen error") && l.acceptObject.None? && !l.hasConnVector
    {
      opts := ReceiveOptions(recvChannelId, sendChannelId, altChannelId, receiveLinkAddress,
                             sendChannelRole, recvChannelRole, timeoutMs, false);
      if status != OK {
        l := new RaceListener("", None, false);
        err := Some("race_pt3 Listen error");
      } else {
        l := new RaceListener(linkAddress, Some(acceptObject), true);
        err := None;
      }
    }
  }

  /**
   * NewRaceServer: nil without a receive address (checked first) or
   * without a channel; otherwise a server over a new store holding the
   * user parameters, with the default plugin path when none is given.
   */
  method NewRaceServer(sendChannelId: ChannelId, sendChannelRole: string,
                       recvChannelId: ChannelId, recvChannelRole: string,
                       altChannelId: ChannelId, altChannelRole: string,
                       receiveLinkAddress: LinkAddress, pluginPath: string,
                       timeoutMs: int, logLevel: int, introduction: string,
                       redirectPath: string, userParams: map<string, string>)
    returns (s: RaceServer?)
    ensures s == null <==> ServerRefusal(receiveLinkAddress, sendChannelId, recvChannelId).Some?
    ensures s != null ==> fresh(s) && fresh(s.params) && s.raceLive
    ensures s != null ==> s.params != null && s.params.params == userParams
    ensures s != null ==> s.pluginPath == PluginPathOr(pluginPath) && s.receiveLinkAddress == receiveLinkAddress
    ensures s != null ==> s.sendChannelId == sendChannelId && s.sendChannelRole == sendChannelRole
    ensures s != null ==> s.recvChannelId == recvChannelId && s.recvChannelRole == recvChannelRole
    ensures s != null ==> s.altChannelId == altChannelId && s.altChannelRole == altChannelRole
    ensures s != null ==> s.timeoutMs == timeoutMs
  {
    var path := PluginPathOr(pluginPath);
    if ServerRefusal(receiveLinkAddress, sendChannelId, recvChannelId).Some? {
      return null;
    }
    var store := CopyUserParams(userParams);
    s := new RaceServer(path, sendChannelId, sendChannelRole, recvChannelId, recvChannelRole,
                        altChannelId, altChannelRole, receiveLinkAddress, timeoutMs, store);
  }

  /** DestroyRaceServer: deletes the core instance and the store, each at most once. */
  method DestroyRaceServer(s: RaceServer)
    modifies s
    ensures !s.raceLive && s.params == null
  {
    if s.raceLive {
      s.raceLive := false;
    }
    if s.params != null {
      s.params := null;
    }
  }

  // ---- the listener ----

  /**
   * A RaceListener: its address, the core's accept object (none in the
   * zero listener a failed Listen returns) and the vector of the conduits
   * it accepted, which Go shares between copies of the listener value.
   */
  class RaceListener {
    const linkAddress: LinkAddress
    const acceptObject: Option<RaceApi.ApiObject>
    /** Whether the listener has a connection vector at all (the zero listener has none). */
    const hasConnVector: bool
    var conns: seq<RaceApi.ApiObject>
    /** Set once Close has deleted the vector. */
    var vectorDeleted: bool

    constructor(linkAddress: LinkAddress, acceptObject: Option<RaceApi.ApiObject>, hasConnVector: bool)
      ensures this.linkAddress == linkAddress && this.acceptObject == acceptObject
      ensures this.hasConnVector == hasConnVector && conns == [] && !vectorDeleted
    {
      this.linkAddress := linkAddress;
      this.acceptObject := acceptObject;
      this.hasConnVector := hasConnVector;
      conns := [];
      vectorDeleted := false;
    }

    /**
     * RaceListener.Accept: without an accept object, an error; an AcceptSwig
     * status other than OK, an error; otherwise the conduit is added to the
     * vector and returned as a connection.
     */
    method Accept(status: ApiStatus, conduit: RaceApi.ApiObject) returns (c: RaceConn, err: Option<string>)
      requires acceptObject.Some? ==> hasConnVector && !vectorDeleted
      modifies this
      ensures acceptObject.None? ==> c == RaceConn(None) && err == Some("race_pt3 nil listener") && conns == old(conns)
      ensures acceptObject.Some? && status != OK ==> c == RaceConn(None) && err == Some("race_pt3 Accept error") && conns == old(conns)
      ensures acceptObject.Some? && status == OK ==> c == RaceConn(Some(conduit)) && err.None? && conns == old(conns) + [conduit]
      ensures vectorDeleted == old(vectorDeleted)
    {
      if acceptObject.Some? {
        if status != OK {
          return RaceConn(None), Some("race_pt3 Accept error");
        }
        conns := conns + [conduit];
        return RaceConn(Some(conduit)), None;
      }
      return RaceConn(None), Some("race_pt3 nil listener");
    }

    /**
     * RaceListener.Close: every accepted conduit closed in order (a failed
     * close is only logged), then the vector cleared and deleted; no error
     * ever. The vector must not have been deleted already.
     */
    method Close() returns (closed: seq<RaceApi.ApiObject>, err: Option<string>)
      requires hasConnVector ==> !vectorDeleted
      modifies this
      ensures err.None?
      ensures hasConnVector ==> closed == old(conns) && conns == [] && vectorDeleted
      ensures !hasConnVector ==> closed == [] && conns == old(conns) && vectorDeleted == old(vectorDeleted)
    {
      closed := [];
      if hasConnVector {
        var count := |conns|;
        var ix := 0;
        while ix < count
          invariant 0 <= ix <= count == |conns|
          invariant closed == conns[..ix]
        {
          closed := closed + [conns[ix]];
          ix := ix + 1;
        }
        conns := [];
        vectorDeleted := true;
      }
      err := None;
    }
  }

  /** Every accepted conduit is closed when the listener closes, in the order accepted. */
  method AcceptThenClose(l: RaceListener, statuses: seq<ApiStatus>, conduits: seq<RaceApi.ApiObject>)
    returns (closed: seq<RaceApi.ApiObject>)
    requires |statuses| == |conduits|
    requires l.acceptObject.Some? && l.hasConnVector && !l.vectorDeleted && l.conns == []
    modifies l
    ensures closed == AcceptedConduits(statuses, conduits)
    ensures l.conns == [] && l.vectorDeleted
  {
    var i := 0;
    while i < |statuses|
      invariant 0 <= i <= |statuses|
      invariant !l.vectorDeleted
      invariant l.conns == AcceptedConduits(statuses[..i], conduits[..i])
    {
      var c, err := l.Accept(statuses[i], conduits[i]);
      assert statuses[..i + 1][..i] == statuses[..i] && conduits[..i + 1][..i] == conduits[..i];
      i := i + 1;
    }
    assert statuses[..i] == statuses && conduits[..i] == conduits;
    var err;
    closed, err := l.Close();
  }

  /** The conduits of the accepts that succeeded, in order. */
  function AcceptedConduits(statuses: seq<ApiStatus>, conduits: seq<RaceApi.ApiObject>): (r: seq<RaceApi.ApiObject>)
    requires |statuses| == |conduits|
    ensures |r| <= |statuses|
    ensures forall c :: c in r ==> c in conduits
    decreases |statuses|
  {
    if statuses == [] then []
    else
      var n := |statuses| - 1;
      AcceptedConduits(statuses[..n], conduits[..n]) + (if statuses[n] == OK then [conduits[n]] else [])
  }
}

=== FILE: receivepackage.dfy ===
// Package reassembly on the receive side of a decomposed channel
// (source/decomposed/ComponentReceivePackageManager.cpp): bounds-checked
// reads of a length-prefixed buffer, batch splitting, in-order reassembly of
// fragments driven by two continuation flags, and skipping over fragments
// that never arrived.

module ReceivePackages {
  import opened Common

  const U32_LIMIT: nat := 0x1_0000_0000
  type u32 = n: nat | n < 0x1_0000_0000

  /** Length of the producer id that prefixes a multiple-producer fragment message. */
  const PRODUCER_ID_LEN: nat := 16

  /**
   * The two fragment flags, read with `flags & BIT`. Their values are
   * defined next to ProducerQueue, which is not part of this model; the
   * low two bits are assumed.
   */
  const CONTINUE_LAST_PACKAGE: nat := 1
  const CONTINUE_NEXT_PACKAGE: nat := 2

  predicate ContinuesLast(flags: byte) {
    (flags / CONTINUE_LAST_PACKAGE) % 2 == 1
  }

  predicate ContinuesNext(flags: byte) {
    (flags / CONTINUE_NEXT_PACKAGE) % 2 == 1
  }

  datatype CmStatus = CM_OK | CM_ERROR

  datatype EncodingMode = SINGLE | BATCH | FRAGMENT_SINGLE_PRODUCER | FRAGMENT_MULTIPLE_PRODUCER | UNDEF_MODE

  // ---------------------------------------------------------------------
  // Reads from a buffer. An offset passed by reference becomes the second
  // half of the result; a thrown out_of_range becomes None.
  // ---------------------------------------------------------------------

  /** readFromBuffer<T> with sizeof(T) == size. */
  function ReadFromBuffer(buffer: Bytes, offset: nat, size: nat): (r: Option<(Bytes, nat)>)
    ensures r.None? <==> offset + size > |buffer|
    ensures r.Some? ==> r.value.1 == offset + size && r.value.0 == buffer[offset..offset + size]
  {
    if offset + size > |buffer| then None else Some((buffer[offset..offset + size], offset + size))
  }

  /** Host byte order of a four-byte integer copied out with memcpy (little-endian assumed). */
  function LittleEndian32(b: Bytes): u32
    requires |b| == 4
  {
    var b0: int, b1: int, b2: int, b3: int := b[0], b[1], b[2], b[3];
    b0 + 0x100 * (b1 + 0x100 * (b2 + 0x100 * b3))
  }

  function EncodeU32(n: u32): (b: Bytes)
    ensures |b| == 4 && LittleEndian32(b) == n
  {
    var q1 := n / 0x100;
    var q2 := q1 / 0x100;
    assert q2 < 0x1_0000;
    [n % 0x100, q1 % 0x100, q2 % 0x100, q2 / 0x100]
  }

  /** The four bytes of an integer are the integer's only encoding. */
  lemma LittleEndian32Inverse(b: Bytes)
    requires |b| == 4
    ensures EncodeU32(LittleEndian32(b)) == b
  {
    var b0: int, b1: int, b2: int, b3: int := b[0], b[1], b[2], b[3];
    var n := LittleEndian32(b);
    var q2 := b2 + 0x100 * b3;
    var q1 := b1 + 0x100 * q2;
    assert n == b0 + 0x100 * q1;
    assert n % 0x100 == b0 && n / 0x100 == q1;
    assert q1 % 0x100 == b1 && q1 / 0x100 == q2;
    assert q2 % 0x100 == b2 && q2 / 0x100 == b3;
  }

  function ReadU32(buffer: Bytes, offset: nat): (r: Option<(u32, nat)>)
    ensures r.None? <==> offset + 4 > |buffer|
    ensures r.Some? ==> r.value.1 == offset + 4
  {
    match ReadFromBuffer(buffer, offset, 4)
    case None => None
    case Some((b, next)) => Some((LittleEndian32(b), next))
  }

  function ReadU8(buffer: Bytes, offset: nat): (r: Option<(byte, nat)>)
    ensures r.None? <==> offset >= |buffer|
    ensures r.Some? ==> r.value == (buffer[offset], offset + 1)
  {
    match ReadFromBuffer(buffer, offset, 1)
    case None => None
    case Some((b, next)) => Some((b[0], next))
  }

  /** readFragment: a u32 length, then exactly that many bytes. */
  function ReadFragment(buffer: Bytes, offset: nat): (r: Option<(Bytes, nat)>)
    ensures r.Some? ==> offset + 4 <= r.value.1 <= |buffer|
                        && r.value.0 == buffer[offset + 4..r.value.1]
                        && |r.value.0| == LittleEndian32(buffer[offset..offset + 4])
    ensures r.None? <==> offset + 4 > |buffer| || offset + 4 + LittleEndian32(buffer[offset..offset + 4]) > |buffer|
  {
    match ReadU32(buffer, offset)
    case None => None
    case Some((len, start)) =>
      if start + len > |buffer| then None else Some((buffer[start..start + len], start + len))
  }

  /** A package framed as readFragment expects it. */
  function EncodeFragment(p: Bytes): Bytes
    requires |p| < U32_LIMIT
  {
    EncodeU32(|p|) + p
  }

  /** Whatever surrounds a framed package, reading at its start yields the package and the offset after it. */
  lemma ReadFragmentRoundTrip(pre: Bytes, p: Bytes, post: Bytes)
    requires |p| < U32_LIMIT
    ensures ReadFragment(pre + EncodeFragment(p) + post, |pre|) == Some((p, |pre| + 4 + |p|))
  {
    var buffer := pre + EncodeFragment(p) + post;
    assert buffer == pre + EncodeU32(|p|) + p + post;
    assert buffer[|pre|..|pre| + 4] == EncodeU32(|p|);
    assert buffer[|pre| + 4..|pre| + 4 + |p|] == p;
  }

  // ---------------------------------------------------------------------
  // Batch mode
  // ---------------------------------------------------------------------

  /** The packages a read loop delivers from `offset` on, and whether it reached the end without throwing. */
  datatype Split = Split(packages: seq<Bytes>, complete: bool)

  function SplitBatch(buffer: Bytes, offset: nat): (r: Split)
    requires offset <= |buffer|
    decreases |buffer| - offset
  {
    if offset >= |buffer| then Split([], true)
    else match ReadFragment(buffer, offset)
      case None => Split([], false)
      case Some((p, next)) =>
        var rest := SplitBatch(buffer, next);
        Split([p] + rest.packages, rest.complete)
  }

  predicate Framable(pkgs: seq<Bytes>) {
    forall i | 0 <= i < |pkgs| :: |pkgs[i]| < U32_LIMIT
  }

  function EncodeBatch(pkgs: seq<Bytes>): Bytes
    requires Framable(pkgs)
  {
    if pkgs == [] then [] else EncodeFragment(pkgs[0]) + EncodeBatch(pkgs[1..])
  }

  /** Splitting a batch gives back exactly the packages framed into it, in order. */
  lemma {:induction false} BatchRoundTrip(pre: Bytes, pkgs: seq<Bytes>)
    requires Framable(pkgs)
    ensures SplitBatch(pre + EncodeBatch(pkgs), |pre|) == Split(pkgs, true)
    decreases |pkgs|
  {
    if pkgs != [] {
      var p := pkgs[0];
      var tail := EncodeBatch(pkgs[1..]);
      assert pre + EncodeBatch(pkgs) == pre + EncodeFragment(p) + tail;
      ReadFragmentRoundTrip(pre, p, tail);
      BatchRoundTrip(pre + EncodeFragment(p), pkgs[1..]);
      assert pre + EncodeFragment(p) + tail == (pre + EncodeFragment(p)) + tail;
      assert [p] + pkgs[1..] == pkgs;
    }
  }

  /** One turn of the batch loop: the package read at `offset` joins those delivered so far. */
  lemma SplitBatchStep(bytes: Bytes, offset: nat, delivered: seq<Bytes>)
    requires offset < |bytes| && ReadFragment(bytes, offset).Some?
    ensures var (pkg, next) := ReadFragment(bytes, offset).value;
      && delivered + [pkg] + SplitBatch(bytes, next).packages == delivered + SplitBatch(bytes, offset).packages
      && SplitBatch(bytes, next).complete == SplitBatch(bytes, offset).complete
  {
    var (pkg, next) := ReadFragment(bytes, offset).value;
    assert SplitBatch(bytes, offset).packages == [pkg] + SplitBatch(bytes, next).packages;
  }

  /** receiveBatch: one package per length-prefixed fragment, in buffer order, until the buffer is used up. */
  method ReceiveBatch(bytes: Bytes) returns (delivered: seq<Bytes>, status: CmStatus)
    ensures delivered == SplitBatch(bytes, 0).packages
    ensures status == CM_OK <==> SplitBatch(bytes, 0).complete
  {
    delivered := [];
    var offset := 0;
    while offset < |bytes|
      invariant offset <= |bytes|
      invariant delivered + SplitBatch(bytes, offset).packages == SplitBatch(bytes, 0).packages
      invariant SplitBatch(bytes, offset).complete == SplitBatch(bytes, 0).complete
      decreases |bytes| - offset
    {
      var read := ReadFragment(bytes, offset);
      if read.None? {
        return delivered, CM_ERROR;
      }
      var (pkg, next) := read.value;
      SplitBatchStep(bytes, offset, delivered);
      delivered := delivered + [pkg];
      offset := next;
    }
    status := CM_OK;
  }

  // ---------------------------------------------------------------------
  // Fragment messages
  // ---------------------------------------------------------------------

  /** The u32 fragment id and u8 flags that open a fragment message, and the offset of its first piece. */
  function ReadFragmentHeader(buffer: Bytes, offset: nat): (r: Option<(u32, byte, nat)>)
    ensures r.None? <==> offset + 5 > |buffer|
    ensures r.Some? ==> r.value.1 == buffer[offset + 4] && r.value.2 == offset + 5
                        && r.value.0 == LittleEndian32(buffer[offset..offset + 4])
  {
    match ReadU32(buffer, offset)
    case None => None
    case Some((id, next)) =>
      match ReadU8(buffer, next)
      case None => None
      case Some((flags, start)) => Some((id, flags, start))
  }

  function EncodeFragmentMessage(id: u32, flags: byte, pieces: seq<Bytes>): Bytes
    requires Framable(pieces)
  {
    EncodeU32(id) + [flags] + EncodeBatch(pieces)
  }

  lemma ReadFragmentHeaderRoundTrip(pre: Bytes, id: u32, flags: byte, rest: Bytes)
    ensures ReadFragmentHeader(pre + EncodeU32(id) + [flags] + rest, |pre|) == Some((id, flags, |pre| + 5))
  {
    var buffer := pre + EncodeU32(id) + [flags] + rest;
    assert buffer[|pre|..|pre| + 4] == EncodeU32(id);
    assert buffer[|pre| + 4] == flags;
  }

  lemma FragmentMessageLayout(pre: Bytes, id: u32, flags: byte, pieces: seq<Bytes>)
    requires Framable(pieces)
    ensures pre + EncodeFragmentMessage(id, flags, pieces) == (pre + EncodeU32(id) + [flags]) + EncodeBatch(pieces)
  {
  }

  /** A fragment message reads back as its id, its flags and its pieces. */
  lemma FragmentMessageRoundTrip(pre: Bytes, id: u32, flags: byte, pieces: seq<Bytes>)
    requires Framable(pieces)
    ensures ReadFragmentHeader(pre + EncodeFragmentMessage(id, flags, pieces), |pre|) == Some((id, flags, |pre| + 5))
    ensures SplitBatch(pre + EncodeFragmentMessage(id, flags, pieces), |pre| + 5) == Split(pieces, true)
  {
    FragmentMessageLayout(pre, id, flags, pieces);
    ReadFragmentHeaderRoundTrip(pre, id, flags, EncodeBatch(pieces));
    BatchRoundTrip(pre + EncodeU32(id) + [flags], pieces);
  }

  // ---------------------------------------------------------------------
  // Reassembly
  // ---------------------------------------------------------------------

  datatype StoredFragment = StoredFragment(data: Bytes, flags: byte, timestamp: nat)

  /** Pieces received per fragment id. */
  type FragmentStore = map<u32, seq<StoredFragment>>

  /** lastFragmentReceived + 1 in uint32_t arithmetic. */
  function NextId(last: u32): u32 {
    (last + 1) % U32_LIMIT
  }

  function PiecesAt(m: FragmentStore, id: u32): seq<StoredFragment> {
    if id in m then m[id] else []
  }

  /** Every piece of one message, stamped with the message's flags and the time of receipt. */
  function Stamped(ps: seq<Bytes>, flags: byte, now: nat): (r: seq<StoredFragment>)
    ensures |r| == |ps|
    ensures forall i | 0 <= i < |ps| :: r[i] == StoredFragment(ps[i], flags, now)
  {
    if ps == [] then [] else [StoredFragment(ps[0], flags, now)] + Stamped(ps[1..], flags, now)
  }

  /** storedFragments[id].push_back for each piece; no entry is created when there is none. */
  function Appended(m: FragmentStore, id: u32, pieces: seq<StoredFragment>): (r: FragmentStore)
    ensures pieces == [] ==> r == m
    ensures pieces != [] ==> r.Keys == m.Keys + {id} && r[id] == PiecesAt(m, id) + pieces
    ensures forall k | k in m && k != id :: k in r && r[k] == m[k]
  {
    if pieces == [] then m else m[id := PiecesAt(m, id) + pieces]
  }

  lemma AppendedTwice(m: FragmentStore, id: u32, a: seq<StoredFragment>, b: seq<StoredFragment>)
    ensures Appended(Appended(m, id, a), id, b) == Appended(m, id, a + b)
  {
    if a == [] {
      assert a + b == b;
    } else if b != [] {
      var once := Appended(m, id, a);
      assert PiecesAt(once, id) == PiecesAt(m, id) + a;
      assert PiecesAt(m, id) + a + b == PiecesAt(m, id) + (a + b);
      assert Appended(once, id, b) == once[id := PiecesAt(m, id) + (a + b)];
    } else {
      assert a + b == a;
    }
  }

  datatype Fed = Fed(pending: Bytes, delivered: seq<Bytes>)

  /**
   * One piece: partial bytes are dropped unless the piece continues the
   * last package; its data is appended; at a package end the pending bytes
   * are delivered if there are any, and cleared.
   */
  function Feed(pending: Bytes, f: StoredFragment): (r: Fed)
    ensures forall i | 0 <= i < |r.delivered| :: r.delivered[i] != []
    ensures |r.delivered| <= 1
    ensures !ContinuesNext(f.flags) ==> r.pending == []
    ensures ContinuesNext(f.flags) ==> r.delivered == []
  {
    var kept := if !ContinuesLast(f.flags) && pending != [] then [] else pending;
    var joined := kept + f.data;
    if ContinuesNext(f.flags) then Fed(joined, [])
    else if joined != [] then Fed([], [joined])
    else Fed(joined, [])
  }

  function FeedAll(pending: Bytes, fs: seq<StoredFragment>): (r: Fed)
    ensures forall i | 0 <= i < |r.delivered| :: r.delivered[i] != []
    decreases |fs|
  {
    if fs == [] then Fed(pending, [])
    else
      var first := Feed(pending, fs[0]);
      var rest := FeedAll(first.pending, fs[1..]);
      Fed(rest.pending, first.delivered + rest.delivered)
  }

  /** One turn of the feeding loop: piece i is fed, then the pieces after it. */
  lemma FeedAllStep(pending: Bytes, fs: seq<StoredFragment>, i: nat, delivered: seq<Bytes>)
    requires i < |fs|
    ensures var step := Feed(pending, fs[i]);
            var rest := FeedAll(step.pending, fs[i + 1..]);
            var all := FeedAll(pending, fs[i..]);
            all.pending == rest.pending && delivered + all.delivered == delivered + step.delivered + rest.delivered
  {
    assert fs[i..][1..] == fs[i + 1..];
  }

  /** Pieces that neither continue nor are continued are each a package of their own. */
  lemma {:induction false} StandalonePiecesDelivered(pending: Bytes, ps: seq<Bytes>, now: nat)
    ensures FeedAll(pending, Stamped(ps, 0, now)) == Fed(if ps == [] then pending else [], NonEmpty(ps))
    decreases |ps|
  {
    if ps != [] {
      assert !ContinuesLast(0) && !ContinuesNext(0);
      var fs := Stamped(ps, 0, now);
      assert fs[0] == StoredFragment(ps[0], 0, now);
      assert [] + ps[0] == ps[0];
      assert Feed(pending, fs[0]) == Fed([], if ps[0] != [] then [ps[0]] else []);
      assert fs[1..] == Stamped(ps[1..], 0, now);
      StandalonePiecesDelivered([], ps[1..], now);
    }
  }

  function NonEmpty(ps: seq<Bytes>): (r: seq<Bytes>)
    ensures forall i | 0 <= i < |r| :: r[i] != [] && r[i] in ps
    ensures forall p | p in ps && p != [] :: p in r
  {
    if ps == [] then [] else (if ps[0] != [] then [ps[0]] else []) + NonEmpty(ps[1..])
  }

  datatype Assembly = Assembly(stored: FragmentStore, pending: Bytes, last: u32, delivered: seq<Bytes>)

  /**
   * processCompleteSequences: consume the ids after lastFragmentReceived one
   * by one, feeding each id's pieces in arrival order and deleting the id,
   * until the next id has not arrived.
   */
  function Assemble(stored: FragmentStore, pending: Bytes, last: u32): (r: Assembly)
    ensures NextId(r.last) !in r.stored
    ensures r.stored.Keys <= stored.Keys
    ensures forall k | k in r.stored :: r.stored[k] == stored[k]
    ensures NextId(last) in stored ==> NextId(last) !in r.stored
    ensures NextId(last) !in stored ==> r == Assembly(stored, pending, last, [])
    ensures forall i | 0 <= i < |r.delivered| :: r.delivered[i] != []
    decreases stored.Keys
  {
    var next := NextId(last);
    if next !in stored then Assembly(stored, pending, last, [])
    else
      var fed := FeedAll(pending, stored[next]);
      var rest := Assemble(stored - {next}, fed.pending, next);
      Assembly(rest.stored, rest.pending, rest.last, fed.delivered + rest.delivered)
  }

  /** One round of processCompleteSequences when the next id is present. */
  lemma AssembleStep(stored: FragmentStore, pending: Bytes, last: u32, fs: seq<StoredFragment>, after: FragmentStore)
    requires NextId(last) in stored && stored[NextId(last)] == fs && after == stored - {NextId(last)}
    ensures var fed := FeedAll(pending, fs);
            var rest := Assemble(after, fed.pending, NextId(last));
            Assemble(stored, pending, last) == Assembly(rest.stored, rest.pending, rest.last, fed.delivered + rest.delivered)
  {
  }

  /** One round of the processCompleteSequences loop keeps what is delivered so far a prefix of the whole assembly. */
  lemma AssembledSoFar(goal: Assembly, delivered: seq<Bytes>, stored: FragmentStore, pending: Bytes, last: u32, out: seq<Bytes>)
    requires NextId(last) in stored
    requires out == FeedAll(pending, stored[NextId(last)]).delivered
    requires var a := Assemble(stored, pending, last);
             goal == Assembly(a.stored, a.pending, a.last, delivered + a.delivered)
    ensures var a := Assemble(stored - {NextId(last)}, FeedAll(pending, stored[NextId(last)]).pending, NextId(last));
            goal == Assembly(a.stored, a.pending, a.last, (delivered + out) + a.delivered)
  {
    var fed := FeedAll(pending, stored[NextId(last)]);
    AssembleStep(stored, pending, last, stored[NextId(last)], stored - {NextId(last)});
    var rest := Assemble(stored - {NextId(last)}, fed.pending, NextId(last));
    assert delivered + (out + rest.delivered) == (delivered + out) + rest.delivered;
  }

  /** The flags a sender gives the i-th of n pieces of one package. */
  function ChainFlags(i: nat, n: nat): byte {
    (if i > 0 then CONTINUE_LAST_PACKAGE else 0) + (if i + 1 < n then CONTINUE_NEXT_PACKAGE else 0)
  }

  function Concat(ps: seq<Bytes>): Bytes {
    if ps == [] then [] else ps[0] + Concat(ps[1..])
  }

  lemma ConcatSnoc(ps: seq<Bytes>, i: nat)
    requires i < |ps|
    ensures Concat(ps[..i + 1]) == Concat(ps[..i]) + ps[i]
    decreases i
  {
    if i > 0 {
      assert ps[..i + 1][1..] == ps[1..][..i];
      assert ps[..i][1..] == ps[1..][..i - 1];
      ConcatSnoc(ps[1..], i - 1);
    } else {
      assert ps[..1] == [ps[0]];
    }
  }

  /** The ids base+i .. base+|ps|-1, each holding piece i of one package under its chain flags. */
  function ChainFrom(ps: seq<Bytes>, base: nat, i: nat, t: nat): FragmentStore
    requires base + |ps| <= U32_LIMIT
    decreases |ps| - i
  {
    if i >= |ps| then map[]
    else ChainFrom(ps, base, i + 1, t)[base + i := [StoredFragment(ps[i], ChainFlags(i, |ps|), t)]]
  }

  lemma {:induction false} ChainFromKeys(ps: seq<Bytes>, base: nat, i: nat, t: nat, k: u32)
    requires base + |ps| <= U32_LIMIT && k in ChainFrom(ps, base, i, t)
    ensures base + i <= k
    decreases |ps| - i
  {
    if i < |ps| && k != base + i {
      ChainFromKeys(ps, base, i + 1, t, k);
    }
  }

  /** Taking the first id off a chain leaves the rest of the chain. */
  lemma ChainFromStep(ps: seq<Bytes>, base: nat, i: nat, t: nat)
    requires base + |ps| <= U32_LIMIT && i < |ps|
    ensures var c := ChainFrom(ps, base, i, t);
            base + i in c && c[base + i] == [StoredFragment(ps[i], ChainFlags(i, |ps|), t)]
            && c - {base + i} == ChainFrom(ps, base, i + 1, t)
  {
    var rest := ChainFrom(ps, base, i + 1, t);
    if base + i in rest {
      ChainFromKeys(ps, base, i + 1, t, base + i);
    }
  }

  /** Feeding piece i of a chain to the bytes of the pieces before it. */
  lemma FeedChainPiece(ps: seq<Bytes>, i: nat, t: nat, pending: Bytes)
    requires i < |ps|
    requires i > 0 ==> pending == Concat(ps[..i])
    ensures var joined := Concat(ps[..i + 1]);
            FeedAll(pending, [StoredFragment(ps[i], ChainFlags(i, |ps|), t)])
            == if i + 1 < |ps| then Fed(joined, []) else Fed([], if joined == [] then [] else [joined])
  {
    var f := StoredFragment(ps[i], ChainFlags(i, |ps|), t);
    assert ContinuesLast(f.flags) <==> i > 0;
    assert ContinuesNext(f.flags) <==> i + 1 < |ps|;
    assert ps[..0] == [];
    ConcatSnoc(ps, i);
    assert FeedAll(pending, [f]) == Feed(pending, f);
  }

  /** The first id of a chain: its piece is fed, then the rest of the chain is assembled. */
  lemma ChainAssembleStep(ps: seq<Bytes>, base: nat, i: nat, t: nat, pending: Bytes, last: u32)
    requires base + |ps| <= U32_LIMIT && i < |ps| && last + 1 == base + i
    requires i > 0 ==> pending == Concat(ps[..i])
    ensures var joined := Concat(ps[..i + 1]);
            var fed := if i + 1 < |ps| then Fed(joined, []) else Fed([], if joined == [] then [] else [joined]);
            var rest := Assemble(ChainFrom(ps, base, i + 1, t), fed.pending, base + i);
            Assemble(ChainFrom(ps, base, i, t), pending, last)
            == Assembly(rest.stored, rest.pending, rest.last, fed.delivered + rest.delivered)
  {
    var f := StoredFragment(ps[i], ChainFlags(i, |ps|), t);
    assert NextId(last) == base + i;
    ChainFromStep(ps, base, i, t);
    FeedChainPiece(ps, i, t, pending);
    AssembleStep(ChainFrom(ps, base, i, t), pending, last, [f], ChainFrom(ps, base, i + 1, t));
  }

  lemma {:induction false} ChainAssembles(ps: seq<Bytes>, base: nat, i: nat, t: nat, pending: Bytes, last: u32)
    requires base + |ps| <= U32_LIMIT && i < |ps| && last + 1 == base + i
    requires i > 0 ==> pending == Concat(ps[..i])
    ensures var r := Assemble(ChainFrom(ps, base, i, t), pending, last);
            r.stored == map[] && r.pending == [] && r.last == base + |ps| - 1
            && r.delivered == (if Concat(ps) == [] then [] else [Concat(ps)])
    decreases |ps| - i
  {
    ChainAssembleStep(ps, base, i, t, pending, last);
    var joined := Concat(ps[..i + 1]);
    if i + 1 < |ps| {
      ChainAssembles(ps, base, i + 1, t, joined, base + i);
    } else {
      assert ps[..i + 1] == ps;
      assert ChainFrom(ps, base, i + 1, t) == map[];
    }
  }

  /**
   * A package sent as consecutive fragments under chain flags, right after
   * the last id consumed, comes out whole, whatever partial bytes were
   * pending, and every one of its ids is consumed.
   */
  lemma PackageReassembles(ps: seq<Bytes>, last: u32, t: nat, pending: Bytes)
    requires ps != [] && last + |ps| < U32_LIMIT
    ensures var r := Assemble(ChainFrom(ps, last + 1, 0, t), pending, last);
            r.stored == map[] && r.pending == [] && r.last == last + |ps|
            && r.delivered == (if Concat(ps) == [] then [] else [Concat(ps)])
  {
    ChainAssembles(ps, last + 1, 0, t, pending, last);
  }

  // ---------------------------------------------------------------------
  // Gap skipping and the cleanup test (pure specifications)
  // ---------------------------------------------------------------------

  ghost function MinOf(s: set<nat>): (m: nat)
    requires s != {}
    ensures m in s && forall x | x in s :: m <= x
    decreases s
  {
    var x :| x in s;
    if s == {x} then x
    else
      var y := MinOf(s - {x});
      assert forall z | z in s :: z == x || z in s - {x};
      if x <= y then x else y
  }

  lemma MinOfIs(s: set<nat>, m: nat)
    requires m in s && forall x | x in s :: m <= x
    ensures MinOf(s) == m
  {
  }

  /**
   * Ids at or after `next` that still hold pieces, among `ids`. Id 0 is left
   * out: the source uses 0 as "none found", and in ascending order a
   * stored id 0 is seen before any other id, so it never wins.
   */
  ghost function CandidatesAmong(stored: FragmentStore, ids: set<u32>, next: u32): set<nat> {
    set k | k in ids && k in stored && k >= next && stored[k] != [] && k != 0
  }

  /** The firstAvailable of skipMissingFragmentsUntilAvailable; 0 when there is none. */
  ghost function FirstAvailable(stored: FragmentStore, next: u32): (r: u32)
    ensures r != 0 ==> r in stored && r >= next && stored[r] != []
  {
    var c := CandidatesAmong(stored, stored.Keys, next);
    if c == {} then 0 else MinOf(c)
  }

  predicate HasContinueLast(fs: seq<StoredFragment>) {
    exists i | 0 <= i < |fs| :: ContinuesLast(fs[i].flags)
  }

  /** The store with the ids in [from, to) removed. */
  function WithoutRange(stored: FragmentStore, from: nat, to: nat): (r: FragmentStore)
    ensures forall k :: k in r <==> k in stored && !(from <= k < to)
    ensures forall k | k in r :: r[k] == stored[k]
  {
    map k | k in stored && !(from <= k < to) :: stored[k]
  }

  /**
   * skipMissingFragmentsUntilAvailable (pending bytes are cleared as well):
   * jump to just before the first stored id at or after the expected one,
   * dropping the ids passed over; a first available id whose pieces
   * continue an earlier package is dropped too and the search goes on.
   */
  ghost function Skip(stored: FragmentStore, last: u32): (r: (FragmentStore, u32))
    ensures r.0.Keys <= stored.Keys
    ensures forall k | k in r.0 :: r.0[k] == stored[k]
    decreases stored.Keys
  {
    var next := NextId(last);
    var first := FirstAvailable(stored, next);
    if first == 0 then (stored, last)
    else
      var kept := WithoutRange(stored, next, first);
      if HasContinueLast(kept[first]) then Skip(kept - {first}, first)
      else (kept, first - 1)
  }

  /**
   * After a skip, either nothing is left to skip to, or the next expected id
   * is present and opens a package: none of its pieces continues an earlier
   * one, so reassembly resumes on a package boundary.
   */
  lemma {:induction false} SkipLandsOnPackageStart(stored: FragmentStore, last: u32)
    ensures var (s, l) := Skip(stored, last);
            FirstAvailable(s, NextId(l)) == 0
            || (NextId(l) in s && s[NextId(l)] != [] && !HasContinueLast(s[NextId(l)]))
    decreases stored.Keys
  {
    var next := NextId(last);
    var first := FirstAvailable(stored, next);
    if first != 0 {
      var kept := WithoutRange(stored, next, first);
      if HasContinueLast(kept[first]) {
        SkipLandsOnPackageStart(kept - {first}, first);
      } else {
        assert NextId(first - 1) == first;
      }
    }
  }

  /** Timestamps of the first piece of every id, among `ids`, that holds pieces. */
  ghost function FirstStamps(stored: FragmentStore, ids: set<u32>): set<nat> {
    set k | k in ids && k in stored && stored[k] != [] :: stored[k][0].timestamp
  }

  /** findOldestFragmentTime: the oldest first-piece time, or the epoch (0) when no id holds pieces. */
  ghost function OldestTime(stored: FragmentStore): nat {
    var stamps := FirstStamps(stored, stored.Keys);
    if stamps == {} then 0 else MinOf(stamps)
  }

  /**
   * shouldRunCleanup: some id lies beyond the expected one, some piece has
   * a time other than the epoch, and the oldest is more than `timeout` old.
   */
  ghost predicate CleanupDue(stored: FragmentStore, last: u32, now: int, timeout: int) {
    && (exists k | k in stored :: k > NextId(last))
    && OldestTime(stored) != 0
    && now - OldestTime(stored) > timeout
  }

  /** Nothing waiting past the expected id means no cleanup, however old the pieces. */
  lemma NoLaterFragmentsNoCleanup(stored: FragmentStore, last: u32, now: int, timeout: int)
    requires forall k | k in stored :: k <= NextId(last)
    ensures !CleanupDue(stored, last, now, timeout)
  {
  }

  /**
   * A cleanup that finds a fragment to skip to resumes reassembly at once:
   * the fragment it lands on is consumed.
   */
  lemma CleanupResumesReassembly(stored: FragmentStore, last: u32)
    ensures var (s, l) := Skip(stored, last);
            FirstAvailable(s, NextId(l)) != 0 ==> NextId(l) !in Assemble(s, [], l).stored
  {
    SkipLandsOnPackageStart(stored, last);
  }

  datatype QueueState = QueueState(stored: FragmentStore, pending: Bytes, last: u32)

  const EmptyQueue := QueueState(map[], [], 0)

  // ---------------------------------------------------------------------
  // A producer's fragment queue
  // ---------------------------------------------------------------------

  /** The search for a piece flagged CONTINUE_LAST_PACKAGE, stopping at the first. */
  method AnyContinuesLast(fs: seq<StoredFragment>) returns (found: bool)
    ensures found <==> HasContinueLast(fs)
  {
    found := false;
    var i := 0;
    while i < |fs|
      invariant 0 <= i <= |fs|
      invariant forall j | 0 <= j < i :: !ContinuesLast(fs[j].flags)
    {
      if ContinuesLast(fs[i].flags) {
        found := true;
        return;
      }
      i := i + 1;
    }
  }

  class ProducerQueue {
    var storedFragments: FragmentStore
    var pendingBytes: Bytes
    var lastFragmentReceived: u32
    var lastActivity: nat
    /** The link whose producerQueues map holds this queue. */
    ghost const owner: Link

    /** A fresh queue expects fragment id 1 (lastFragmentReceived starts at 0). */
    constructor(ghost owner: Link)
      ensures this.owner == owner
      ensures storedFragments == map[] && pendingBytes == [] && lastFragmentReceived == 0 && lastActivity == 0
    {
      this.owner := owner;
      storedFragments := map[];
      pendingBytes := [];
      lastFragmentReceived := 0;
      lastActivity := 0;
    }

    /**
     * The read loop of receiveFragmentProducer: every piece from `offset` on
     * is stored under `fragmentId` with the message's flags. A piece that
     * overruns the buffer stops the loop; the pieces before it stay stored.
     */
    method StorePieces(bytes: Bytes, offset: nat, fragmentId: u32, flags: byte, now: nat) returns (complete: bool)
      requires offset <= |bytes|
      modifies this
      ensures complete == SplitBatch(bytes, offset).complete
      ensures storedFragments == Appended(old(storedFragments), fragmentId, Stamped(SplitBatch(bytes, offset).packages, flags, now))
      ensures pendingBytes == old(pendingBytes) && lastFragmentReceived == old(lastFragmentReceived)
      ensures lastActivity == old(lastActivity)
    {
      var off := offset;
      ghost var read: seq<Bytes> := [];
      while off < |bytes|
        invariant offset <= off <= |bytes|
        invariant read + SplitBatch(bytes, off).packages == SplitBatch(bytes, offset).packages
        invariant SplitBatch(bytes, off).complete == SplitBatch(bytes, offset).complete
        invariant storedFragments == Appended(old(storedFragments), fragmentId, Stamped(read, flags, now))
        invariant pendingBytes == old(pendingBytes) && lastFragmentReceived == old(lastFragmentReceived)
        invariant lastActivity == old(lastActivity)
        decreases |bytes| - off
      {
        var piece := ReadFragment(bytes, off);
        if piece.None? {
          assert read == SplitBatch(bytes, offset).packages;
          return false;
        }
        var (data, next) := piece.value;
        assert SplitBatch(bytes, off).packages == [data] + SplitBatch(bytes, next).packages;
        assert read + [data] + SplitBatch(bytes, next).packages == read + SplitBatch(bytes, off).packages;
        AppendedTwice(old(storedFragments), fragmentId, Stamped(read, flags, now), [StoredFragment(data, flags, now)]);
        StampedSnoc(read, data, flags, now);
        storedFragments := Appended(storedFragments, fragmentId, [StoredFragment(data, flags, now)]);
        read := read + [data];
        off := next;
      }
      assert read == SplitBatch(bytes, offset).packages;
      complete := true;
    }

    /** The inner loop of processCompleteSequences: feed one id's pieces in arrival order. */
    method FeedPieces(fs: seq<StoredFragment>) returns (delivered: seq<Bytes>)
      modifies this
      ensures Fed(pendingBytes, delivered) == FeedAll(old(pendingBytes), fs)
      ensures storedFragments == old(storedFragments) && lastFragmentReceived == old(lastFragmentReceived)
      ensures lastActivity == old(lastActivity)
    {
      delivered := [];
      var pending := pendingBytes;
      var i := 0;
      while i < |fs|
        invariant 0 <= i <= |fs|
        invariant var rest := FeedAll(pending, fs[i..]);
                  FeedAll(old(pendingBytes), fs) == Fed(rest.pending, delivered + rest.delivered)
        modifies {}
      {
        var f := fs[i];
        FeedAllStep(pending, fs, i, delivered);
        ghost var step := Feed(pending, f);
        ghost var before := delivered;
        if !ContinuesLast(f.flags) && pending != [] {
          pending := [];
        }
        pending := pending + f.data;
        if !ContinuesNext(f.flags) {
          if pending != [] {
            delivered := delivered + [pending];
            pending := [];
          }
        }
        assert pending == step.pending && delivered == before + step.delivered;
        i := i + 1;
      }
      assert fs[|fs|..] == [];
      assert FeedAll(pending, fs[|fs|..]) == Fed(pending, []);
      pendingBytes := pending;
    }

    /** processCompleteSequences: consume consecutive ids until the next one has not arrived. */
    method ProcessCompleteSequences() returns (delivered: seq<Bytes>)
      modifies this
      ensures Assemble(old(storedFragments), old(pendingBytes), old(lastFragmentReceived))
              == Assembly(storedFragments, pendingBytes, lastFragmentReceived, delivered)
      ensures lastActivity == old(lastActivity)
    {
      delivered := [];
      ghost var goal := Assemble(storedFragments, pendingBytes, lastFragmentReceived);
      while true
        invariant var a := Assemble(storedFragments, pendingBytes, lastFragmentReceived);
                  goal == Assembly(a.stored, a.pending, a.last, delivered + a.delivered)
        invariant lastActivity == old(lastActivity)
        decreases storedFragments.Keys
      {
        var nextExpected := NextId(lastFragmentReceived);
        if nextExpected !in storedFragments {
          assert delivered + [] == delivered;
          break;
        }
        var fs := storedFragments[nextExpected];
        ghost var stored, pending := storedFragments, pendingBytes;
        var out := FeedPieces(fs);
        AssembledSoFar(goal, delivered, stored, pending, lastFragmentReceived, out);
        lastFragmentReceived := nextExpected;
        storedFragments := storedFragments - {nextExpected};
        delivered := delivered + out;
      }
    }

    function State(): QueueState
      reads this
    {
      QueueState(storedFragments, pendingBytes, lastFragmentReceived)
    }

    /** The search loop of skipMissingFragmentsUntilAvailable, visiting ids in ascending order. */
    method FindFirstAvailable(nextExpected: u32) returns (firstAvailable: u32)
      ensures firstAvailable == FirstAvailable(storedFragments, nextExpected)
    {
      firstAvailable := 0;
      var todo := storedFragments.Keys;
      while todo != {}
        invariant todo <= storedFragments.Keys
        invariant firstAvailable != 0 ==> forall t | t in todo :: firstAvailable < t
        invariant var c := CandidatesAmong(storedFragments, storedFragments.Keys - todo, nextExpected);
                  if c == {} then firstAvailable == 0 else firstAvailable == MinOf(c)
        decreases todo
      {
        ghost var least := MinOf(todo);
        var fragmentId :| fragmentId in todo && forall t | t in todo :: fragmentId <= t;
        ghost var done := storedFragments.Keys - todo;
        ghost var c := CandidatesAmong(storedFragments, done, nextExpected);
        ghost var isCandidate := fragmentId >= nextExpected && storedFragments[fragmentId] != [] && fragmentId != 0;
        assert storedFragments.Keys - (todo - {fragmentId}) == done + {fragmentId};
        assert CandidatesAmong(storedFragments, done + {fragmentId}, nextExpected)
               == c + (if isCandidate then {fragmentId} else {});
        if fragmentId >= nextExpected && storedFragments[fragmentId] != [] {
          if firstAvailable == 0 || fragmentId < firstAvailable {
            firstAvailable := fragmentId;
          }
        }
        if isCandidate {
          MinOfIs(c + {fragmentId}, firstAvailable);
        }
        todo := todo - {fragmentId};
      }
      assert storedFragments.Keys - todo == storedFragments.Keys;
    }

    /** The first loop of skipMissingFragmentsUntilAvailable: erase the ids in [from, to). */
    method EraseRange(from: u32, to: u32)
      requires from <= to
      modifies this
      ensures storedFragments == WithoutRange(old(storedFragments), from, to)
      ensures pendingBytes == old(pendingBytes) && lastFragmentReceived == old(lastFragmentReceived)
      ensures lastActivity == old(lastActivity)
    {
      var fragmentId: nat := from;
      assert storedFragments == WithoutRange(old(storedFragments), from, fragmentId);
      while fragmentId < to
        invariant from <= fragmentId <= to
        invariant storedFragments == WithoutRange(old(storedFragments), from, fragmentId)
        invariant pendingBytes == old(pendingBytes) && lastFragmentReceived == old(lastFragmentReceived)
        invariant lastActivity == old(lastActivity)
        decreases (to as int) - fragmentId
      {
        if fragmentId in storedFragments {
          storedFragments := storedFragments - {fragmentId};
        }
        assert storedFragments == WithoutRange(old(storedFragments), from, fragmentId + 1);
        fragmentId := fragmentId + 1;
      }
    }

    /** skipMissingFragmentsUntilAvailable, recursion included. */
    method SkipMissingFragmentsUntilAvailable()
      modifies this
      ensures (storedFragments, lastFragmentReceived) == Skip(old(storedFragments), old(lastFragmentReceived))
      ensures pendingBytes == [] && lastActivity == old(lastActivity)
      decreases storedFragments.Keys
    {
      var nextExpected := NextId(lastFragmentReceived);
      if pendingBytes != [] {
        pendingBytes := [];
      }
      var firstAvailable := FindFirstAvailable(nextExpected);
      if firstAvailable == 0 {
        return;
      }
      EraseRange(nextExpected, firstAvailable);
      if firstAvailable in storedFragments && storedFragments[firstAvailable] != [] {
        var hasContinueLastPackage := AnyContinuesLast(storedFragments[firstAvailable]);
        if hasContinueLastPackage {
          storedFragments := storedFragments - {firstAvailable};
          lastFragmentReceived := firstAvailable;
          SkipMissingFragmentsUntilAvailable();
          return;
        }
      }
      lastFragmentReceived := firstAvailable - 1;
    }

    /** cleanupExpiredFragments. */
    method CleanupExpiredFragments()
      modifies this
      ensures (storedFragments, lastFragmentReceived) == Skip(old(storedFragments), old(lastFragmentReceived))
      ensures pendingBytes == [] && lastActivity == old(lastActivity)
    {
      SkipMissingFragmentsUntilAvailable();
    }

    /**
     * findOldestFragmentTime. The source starts from the largest time point
     * and keeps any earlier one; with unbounded times the first one seen
     * plays that part.
     */
    method FindOldestFragmentTime() returns (t: nat)
      ensures t == OldestTime(storedFragments)
    {
      var oldest := 0;
      var foundAny := false;
      var todo := storedFragments.Keys;
      while todo != {}
        invariant todo <= storedFragments.Keys
        invariant var s := FirstStamps(storedFragments, storedFragments.Keys - todo);
                  (foundAny <==> s != {}) && (foundAny ==> oldest == MinOf(s))
        decreases todo
      {
        var fragmentId :| fragmentId in todo;
        ghost var done := storedFragments.Keys - todo;
        ghost var s := FirstStamps(storedFragments, done);
        var fragmentList := storedFragments[fragmentId];
        assert storedFragments.Keys - (todo - {fragmentId}) == done + {fragmentId};
        assert FirstStamps(storedFragments, done + {fragmentId})
               == s + (if fragmentList != [] then {fragmentList[0].timestamp} else {});
        if fragmentList != [] {
          var fragmentTime := fragmentList[0].timestamp;
          if !foundAny || fragmentTime < oldest {
            oldest := fragmentTime;
            foundAny := true;
          }
          MinOfIs(s + {fragmentTime}, oldest);
        }
        todo := todo - {fragmentId};
      }
      assert storedFragments.Keys - todo == storedFragments.Keys;
      t := if foundAny then oldest else 0;
    }

    /** shouldRunCleanup at time `now`. */
    method ShouldRunCleanup(now: int, timeout: int) returns (r: bool)
      ensures r == CleanupDue(storedFragments, lastFragmentReceived, now, timeout)
    {
      var nextExpected := NextId(lastFragmentReceived);
      var hasLaterFragments := false;
      var todo := storedFragments.Keys;
      while todo != {}
        invariant todo <= storedFragments.Keys
        invariant !hasLaterFragments
        invariant forall k | k in storedFragments && k !in todo :: k <= nextExpected
        decreases todo
      {
        var fragmentId :| fragmentId in todo;
        if fragmentId > nextExpected {
          hasLaterFragments := true;
          break;
        }
        todo := todo - {fragmentId};
      }
      if !hasLaterFragments {
        return false;
      }
      var oldestFragmentTime := FindOldestFragmentTime();
      if oldestFragmentTime == 0 {
        return false;
      }
      r := now - oldestFragmentTime > timeout;
    }

    /** What runCleanupOnAllQueues does for one queue. */
    method RunCleanup(now: int, timeout: int) returns (delivered: seq<Bytes>)
      modifies this
      ensures !CleanupDue(old(storedFragments), old(lastFragmentReceived), now, timeout) ==>
                delivered == [] && State() == old(State())
      ensures CleanupDue(old(storedFragments), old(lastFragmentReceived), now, timeout) ==>
                var (s, l) := Skip(old(storedFragments), old(lastFragmentReceived));
                Assemble(s, [], l) == Assembly(storedFragments, pendingBytes, lastFragmentReceived, delivered)
      ensures lastActivity == old(lastActivity)
    {
      var due := ShouldRunCleanup(now, timeout);
      if due {
        CleanupExpiredFragments();
        delivered := ProcessCompleteSequences();
      } else {
        delivered := [];
      }
    }
  }

  lemma StampedSnoc(read: seq<Bytes>, data: Bytes, flags: byte, now: nat)
    ensures Stamped(read + [data], flags, now) == Stamped(read, flags, now) + [StoredFragment(data, flags, now)]
  {
    var a := Stamped(read + [data], flags, now);
    var b := Stamped(read, flags, now) + [StoredFragment(data, flags, now)];
    assert |a| == |b|;
    assert forall i | 0 <= i < |a| :: a[i] == b[i];
  }

  // ---------------------------------------------------------------------
  // A message for one producer, and the links that hold the queues
  // ---------------------------------------------------------------------

  datatype Received = Received(status: CmStatus, delivered: seq<Bytes>, queue: QueueState)

  /**
   * receiveFragmentProducer on a queue in state `was`: None when the header
   * cannot be read (nothing is touched); a piece that overruns the buffer
   * keeps the pieces before it and reports ERROR without reassembling.
   */
  function FragmentReceipt(was: QueueState, bytes: Bytes, offset: nat, now: nat): (r: Option<Received>)
    requires offset <= |bytes|
    ensures r.None? <==> offset + 5 > |bytes|
    ensures r.Some? && r.value.status == CM_ERROR ==> r.value.delivered == [] && r.value.queue.last == was.last
    ensures r.Some? ==> forall i | 0 <= i < |r.value.delivered| :: r.value.delivered[i] != []
  {
    match ReadFragmentHeader(bytes, offset)
    case None => None
    case Some((id, flags, start)) =>
      var split := SplitBatch(bytes, start);
      var stored := Appended(was.stored, id, Stamped(split.packages, flags, now));
      if !split.complete then Some(Received(CM_ERROR, [], QueueState(stored, was.pending, was.last)))
      else
        var a := Assemble(stored, was.pending, was.last);
        Some(Received(CM_OK, a.delivered, QueueState(a.stored, a.pending, a.last)))
  }

  /**
   * The expected fragment, sent as one message of standalone pieces, is
   * delivered piece by piece (empty pieces dropped) and consumed, and the
   * queue then expects the id after it.
   */
  lemma ExpectedMessageDelivered(was: QueueState, id: u32, pieces: seq<Bytes>, now: nat)
    requires Framable(pieces) && pieces != []
    requires id == NextId(was.last) && id !in was.stored && NextId(id) !in was.stored
    ensures FragmentReceipt(was, EncodeFragmentMessage(id, 0, pieces), 0, now)
            == Some(Received(CM_OK, NonEmpty(pieces), QueueState(was.stored, [], id)))
  {
    var msg := EncodeFragmentMessage(id, 0, pieces);
    FragmentMessageRoundTrip([], id, 0, pieces);
    assert [] + msg == msg;
    assert ReadFragmentHeader(msg, 0) == Some((id, 0, 5));
    assert SplitBatch(msg, 5) == Split(pieces, true);
    StandaloneIdAssembled(was, id, pieces, now);
  }

  /** Storing the expected id's standalone pieces and assembling delivers them and consumes the id. */
  lemma StandaloneIdAssembled(was: QueueState, id: u32, pieces: seq<Bytes>, now: nat)
    requires pieces != []
    requires id == NextId(was.last) && id !in was.stored && NextId(id) !in was.stored
    ensures Assemble(Appended(was.stored, id, Stamped(pieces, 0, now)), was.pending, was.last)
            == Assembly(was.stored, [], id, NonEmpty(pieces))
  {
    var fs := Stamped(pieces, 0, now);
    assert |fs| == |pieces| && fs != [];
    assert PiecesAt(was.stored, id) + fs == fs;
    var stored := Appended(was.stored, id, fs);
    assert stored == was.stored[id := fs];
    assert stored - {id} == was.stored;
    StandalonePiecesDelivered(was.pending, pieces, now);
    AssembleStep(stored, was.pending, was.last, fs, was.stored);
    assert Assemble(was.stored, [], id) == Assembly(was.stored, [], id, []);
    assert NonEmpty(pieces) + [] == NonEmpty(pieces);
  }

  function QueueOf(queues: map<string, ProducerQueue>, producer: string): QueueState
    reads queues.Values
  {
    if producer in queues then queues[producer].State() else EmptyQueue
  }

  class Link {
    const linkId: LinkId
    var producerQueues: map<string, ProducerQueue>

    /**
     * Each producer's queue is its own object, held in place by this link's
     * std::map: it belongs to this link and to no other producer.
     */
    ghost predicate Valid()
      reads this
    {
      && (forall p | p in producerQueues :: producerQueues[p].owner == this)
      && (forall p, p' | p in producerQueues && p' in producerQueues && p != p' :: producerQueues[p] != producerQueues[p'])
    }

    /** Nothing about the link or any of its queues changed. */
    twostate predicate Untouched()
      reads this, producerQueues.Values
    {
      producerQueues == old(producerQueues) && unchanged(producerQueues.Values)
    }

    /** Every producer other than `producer` keeps its queue object and that queue's state. */
    twostate predicate OthersKept(producer: string)
      reads this, producerQueues.Values
    {
      forall p | p in old(producerQueues) && p != producer ::
        p in producerQueues && producerQueues[p] == old(producerQueues[p]) && unchanged(producerQueues[p])
    }

    /** The queues held now were held before or are new. */
    twostate predicate QueuesOldOrFresh()
      reads this
    {
      forall q | q in producerQueues.Values :: q in old(producerQueues.Values) || fresh(q)
    }

    constructor(linkId: LinkId)
      ensures this.linkId == linkId && producerQueues == map[] && Valid()
    {
      this.linkId := linkId;
      producerQueues := map[];
    }

    /** &producerQueues[producer]: the producer's queue, created empty on first use. */
    method QueueFor(producer: string) returns (q: ProducerQueue)
      requires Valid()
      modifies this
      ensures Valid()
      ensures producerQueues == old(producerQueues)[producer := q]
      ensures producer in old(producerQueues) ==> q == old(producerQueues[producer])
      ensures producer !in old(producerQueues) ==> fresh(q) && q.State() == EmptyQueue
    {
      if producer in producerQueues {
        q := producerQueues[producer];
      } else {
        q := new ProducerQueue(this);
        producerQueues := producerQueues[producer := q];
      }
    }

    /** The outcome of receiveFragmentProducer for `producer`, against the state before the call. */
    twostate predicate FragmentsReceived(producer: string, offset: nat, bytes: Bytes, now: nat,
                                         status: CmStatus, delivered: seq<Bytes>)
      requires offset <= |bytes|
      reads this, producerQueues.Values
    {
      var r := FragmentReceipt(old(QueueOf(producerQueues, producer)), bytes, offset, now);
      && (r.None? ==> status == CM_ERROR && delivered == [] && Untouched())
      && (r.Some? ==>
            && OthersKept(producer)
            && status == r.value.status && delivered == r.value.delivered
            && producerQueues.Keys == old(producerQueues).Keys + {producer}
            && producer in producerQueues
            && producerQueues[producer].State() == r.value.queue
            && producerQueues[producer].lastActivity == now)
    }

    /** receiveFragmentProducer: read the header, store every piece, then reassemble. */
    method ReceiveFragmentProducer(producer: string, offset: nat, bytes: Bytes, now: nat)
      returns (status: CmStatus, delivered: seq<Bytes>)
      requires offset <= |bytes|
      requires Valid()
      modifies this, producerQueues.Values
      ensures Valid() && QueuesOldOrFresh()
      ensures FragmentsReceived(producer, offset, bytes, now, status, delivered)
    {
      var header := ReadFragmentHeader(bytes, offset);
      if header.None? {
        return CM_ERROR, [];
      }
      var (fragmentId, flags, start) := header.value;
      ghost var was := QueueOf(producerQueues, producer);
      var q := QueueFor(producer);
      assert q.State() == was;
      q.lastActivity := now;
      var complete := q.StorePieces(bytes, start, fragmentId, flags, now);
      if !complete {
        return CM_ERROR, [];
      }
      delivered := q.ProcessCompleteSequences();
      status := CM_OK;
    }

    /** The dispatch of onBytesDecoded on the manager's encoding mode, once the link is known. */
    twostate predicate ReceivedAs(mode: EncodingMode, bytes: Bytes, now: nat, status: CmStatus, delivered: seq<Bytes>)
      reads this, producerQueues.Values
    {
      match mode
      case SINGLE => status == CM_OK && delivered == [bytes] && Untouched()
      case BATCH =>
        && delivered == SplitBatch(bytes, 0).packages
        && (status == CM_OK <==> SplitBatch(bytes, 0).complete)
        && Untouched()
      case FRAGMENT_SINGLE_PRODUCER => FragmentsReceived("", 0, bytes, now, status, delivered)
      case FRAGMENT_MULTIPLE_PRODUCER =>
        if |bytes| < PRODUCER_ID_LEN then status == CM_ERROR && delivered == [] && Untouched()
        else FragmentsReceived(BytesToStr(bytes[..PRODUCER_ID_LEN]), PRODUCER_ID_LEN, bytes, now, status, delivered)
      case UNDEF_MODE => status == CM_ERROR && delivered == [] && Untouched()
    }

    method Receive(mode: EncodingMode, bytes: Bytes, now: nat) returns (status: CmStatus, delivered: seq<Bytes>)
      requires Valid()
      modifies this, producerQueues.Values
      ensures Valid() && QueuesOldOrFresh()
      ensures ReceivedAs(mode, bytes, now, status, delivered)
    {
      match mode
      case SINGLE =>
        status, delivered := CM_OK, [bytes];
      case BATCH =>
        delivered, status := ReceiveBatch(bytes);
      case FRAGMENT_SINGLE_PRODUCER =>
        status, delivered := ReceiveFragmentProducer("", 0, bytes, now);
      case FRAGMENT_MULTIPLE_PRODUCER =>
        var producer := ReadFromBuffer(bytes, 0, PRODUCER_ID_LEN);
        if producer.None? {
          return CM_ERROR, [];
        }
        var (producerId, offset) := producer.value;
        status, delivered := ReceiveFragmentProducer(BytesToStr(producerId), offset, bytes, now);
      case UNDEF_MODE =>
        status, delivered := CM_ERROR, [];
    }
  }

  // ---------------------------------------------------------------------
  // Decoding requests
  // ---------------------------------------------------------------------

  /** The links the manager owns are valid, so no queue is shared between two links. */
  ghost predicate LinksValid(links: map<LinkId, Link>)
    reads links.Values
  {
    forall id | id in links :: links[id].Valid()
  }

  /**
   * manager.getLink and the dispatch on the encoding mode: an unknown link
   * throws, which is an ERROR that touches nothing; a known link receives
   * the bytes, and every other link keeps its queues as they were.
   */
  method ReceiveOnLink(links: map<LinkId, Link>, linkId: LinkId, mode: EncodingMode, bytes: Bytes, now: nat)
    returns (status: CmStatus, delivered: seq<Bytes>)
    requires LinksValid(links)
    modifies links.Values, set l, q | l in links.Values && q in l.producerQueues.Values :: q
    ensures LinksValid(links)
    ensures linkId !in links ==> status == CM_ERROR && delivered == [] && forall l | l in links.Values :: l.Untouched()
    ensures linkId in links ==> links[linkId].ReceivedAs(mode, bytes, now, status, delivered)
    ensures linkId in links ==> forall l | l in links.Values && l != links[linkId] :: l.Untouched()
  {
    if linkId !in links {
      return CM_ERROR, [];
    }
    var link := links[linkId];
    status, delivered := link.Receive(mode, bytes, now);
    forall l | l in links.Values && l != link
      ensures l.Untouched()
    {
      forall q | q in l.producerQueues.Values
        ensures unchanged(q)
      {
        assert q.owner == l;
        assert q !in old(link.producerQueues.Values);
      }
    }
  }

  class ReceivePackageManager {
    var nextDecodingHandle: nat
    var pendingDecodings: map<nat, LinkId>

    /** Every pending decoding holds a handle already issued, and 0 is never issued. */
    ghost predicate Valid()
      reads this
    {
      forall h | h in pendingDecodings :: 0 < h <= nextDecodingHandle
    }

    constructor()
      ensures Valid() && nextDecodingHandle == 0 && pendingDecodings == map[]
    {
      nextDecodingHandle := 0;
      pendingDecodings := map[];
    }

    /**
     * onReceive: ERROR when no encoding matches the parameters; otherwise a
     * pre-incremented handle records the link and is passed to the decoder.
     */
    method OnReceive(linkId: LinkId, encodingFound: bool) returns (status: CmStatus, handle: Option<nat>)
      requires Valid()
      modifies this
      ensures Valid()
      ensures !encodingFound ==> status == CM_ERROR && handle.None? && unchanged(this)
      ensures encodingFound ==>
                && status == CM_OK && nextDecodingHandle == old(nextDecodingHandle) + 1
                && handle == Some(nextDecodingHandle)
                && handle.value !in old(pendingDecodings)
                && pendingDecodings == old(pendingDecodings)[handle.value := linkId]
    {
      if !encodingFound {
        return CM_ERROR, None;
      }
      nextDecodingHandle := nextDecodingHandle + 1;
      pendingDecodings := pendingDecodings[nextDecodingHandle := linkId];
      status, handle := CM_OK, Some(nextDecodingHandle);
    }

    /**
     * onBytesDecoded: empty bytes (decoded cover traffic) are OK and deliver
     * nothing; an unknown handle or link is an ERROR; otherwise the handle is
     * retired and the link receives the bytes under the encoding mode.
     */
    method OnBytesDecoded(handle: nat, bytes: Bytes, mode: EncodingMode, links: map<LinkId, Link>, now: nat)
      returns (status: CmStatus, delivered: seq<Bytes>)
      requires Valid() && LinksValid(links)
      modifies this, links.Values, set l, q | l in links.Values && q in l.producerQueues.Values :: q
      ensures Valid() && nextDecodingHandle == old(nextDecodingHandle) && LinksValid(links)
      ensures (bytes == [] || handle !in old(pendingDecodings) || old(pendingDecodings[handle]) !in links) ==>
                forall l | l in links.Values :: l.Untouched()
      ensures (bytes != [] && handle in old(pendingDecodings) && old(pendingDecodings[handle]) in links) ==>
                forall l | l in links.Values && l != links[old(pendingDecodings[handle])] :: l.Untouched()
      ensures bytes == [] ==> status == CM_OK && delivered == [] && pendingDecodings == old(pendingDecodings)
      ensures bytes != [] && handle !in old(pendingDecodings) ==>
                status == CM_ERROR && delivered == [] && pendingDecodings == old(pendingDecodings)
      ensures bytes != [] && handle in old(pendingDecodings) ==>
                && pendingDecodings == old(pendingDecodings) - {handle}
                && (old(pendingDecodings[handle]) !in links ==> status == CM_ERROR && delivered == [])
                && (old(pendingDecodings[handle]) in links ==>
                      links[old(pendingDecodings[handle])].ReceivedAs(mode, bytes, now, status, delivered))
    {
      if bytes == [] {
        return CM_OK, [];
      }
      if handle !in pendingDecodings {
        return CM_ERROR, [];
      }
      var linkId := pendingDecodings[handle];
      // The receive never reads pendingDecodings, so retiring the handle after it is the same.
      status, delivered := ReceiveOnLink(links, linkId, mode, bytes, now);
      pendingDecodings := pendingDecodings - {handle};
    }
  }
}

=== FILE: recv.dfy ===
// The receive state machine (source/state-machine/ReceiveStateMachine.cpp):
// open a receiving connection, hand the application a receiver, then pass
// it the packages that arrive, oldest first, one per receive call.

module RecvMachine {
  import opened Common
  import opened Engine
  import opened ApiContext

  const STATE_RECV_INITIAL: StateType := 3
  const STATE_RECV_CONNECTION_OPEN: StateType := 4
  const STATE_RECV_WAITING_FOR_APP_AND_PLUGIN: StateType := 5
  const STATE_RECV_WAITING_FOR_APP: StateType := 6
  const STATE_RECV_WAITING_FOR_PLUGIN: StateType := 7
  const STATE_RECV_RECEIVED: StateType := 8
  const STATE_RECV_FINISHED: StateType := 9
  const STATE_RECV_FAILED: StateType := 10

  /** ApiRecvContext; `data` is the queue of received packages, front first. */
  datatype RecvCtx = RecvCtx(
    handle: RaceHandle,
    opts: ReceiveOptions,
    data: seq<Bytes>,
    getReceiverCb: Option<Callback>,
    receiveCb: Option<Callback>,
    closeCb: Option<Callback>,
    connId: ConnectionId,
    linkAddress: LinkAddress,
    env: Env)

  /** The hooks ApiRecvContext overrides; a received package joins the back of the queue. */
  function Apply(c: RecvCtx, u: Update): (r: RecvCtx)
    ensures u.UGetReceiver? ==> r == c.(opts := u.recvOpts, getReceiverCb := Some(u.cb))
    ensures u.UReceive? ==> r == c.(receiveCb := Some(u.cb))
    ensures u.UClose? ==> r == c.(closeCb := Some(u.cb))
    ensures u.UReceiveEncPkg? ==> r == c.(data := c.data + [u.data])
    ensures u.UConnStateMachineConnected? ==> r == c.(connId := u.connId, linkAddress := u.linkAddress)
    ensures (!u.UGetReceiver? && !u.UReceive? && !u.UClose? && !u.UReceiveEncPkg?
             && !u.UConnStateMachineConnected?) ==> r == c
  {
    match u
    case UGetReceiver(opts, cb) => c.(opts := opts, getReceiverCb := Some(cb))
    case UReceive(_, cb) => c.(receiveCb := Some(cb))
    case UClose(_, cb) => c.(closeCb := Some(cb))
    case UReceiveEncPkg(_, pkg) => c.(data := c.data + [pkg])
    case UConnStateMachineConnected(_, connId, address) => c.(connId := connId, linkAddress := address)
    case _ => c
  }

  /** StateRecvInitial's checks: the receive-side checks on its options. */
  function RecvCheck(w: World, opts: ReceiveOptions): Option<ApiStatus> {
    ReceiveSideCheck(w, opts.recv_channel, opts.recv_role)
  }

  /** StateRecvInitial: reject bad options, otherwise start a receiving connection. */
  function Initial(w: World, c: RecvCtx): (o: Outcome<RecvCtx>)
    ensures RecvCheck(w, c.opts).Some? && c.getReceiverCb.Some? ==>
              o == Returned(NOT_SUPPORTED, c.(getReceiverCb := None,
                     env := InvokeIfSet(c.env, c.getReceiverCb, RecvCheck(w, c.opts).value, PAddress("", NULL_RACE_HANDLE))), [])
    ensures RecvCheck(w, c.opts).Some? && c.getReceiverCb.None? ==> o.Threw?
    ensures RecvCheck(w, c.opts).None? ==>
              && o.Returned? && o.data.getReceiverCb == c.getReceiverCb && o.data.env.fired == c.env.fired
              && |o.data.env.requests| > |c.env.requests|
              && o.data.env.requests[|c.env.requests|]
                 == StartConnStateMachine(c.handle, c.opts.recv_channel, c.opts.recv_role, c.opts.recv_address, false, false)
              && (o.result == SUCCESS <==> w.answer(|c.env.requests|).handle != NULL_RACE_HANDLE)
    ensures o.pushed == []
  {
    match RecvCheck(w, c.opts)
    case Some(status) =>
      (match Invoke(c.env, c.getReceiverCb, status, PAddress("", NULL_RACE_HANDLE))
       case None => Threw(c, [])
       case Some(env) => Returned(NOT_SUPPORTED, c.(getReceiverCb := None, env := env), []))
    case None =>
      var (env1, a) := Ask(w, c.env, StartConnStateMachine(c.handle, c.opts.recv_channel, c.opts.recv_role,
                                                             c.opts.recv_address, false, false));
      if a.handle == NULL_RACE_HANDLE then Returned(NOT_SUPPORTED, c.(env := env1), [])
      else Returned(SUCCESS, c.(env := Tell(env1, RegisterHandle(c.handle, a.handle))), [])
  }

  /** StateRecvConnectionOpen: give the application a receiver handle and the link address. */
  function ConnectionOpen(w: World, c: RecvCtx): (o: Outcome<RecvCtx>)
    ensures c.getReceiverCb.None? ==> o.Threw?
    ensures c.getReceiverCb.Some? ==>
              && o.Returned? && o.result == SUCCESS && o.pushed == [EVENT_ALWAYS]
              && o.data.getReceiverCb.None?
              && o.data.env.fired == c.env.fired + [Fired(c.getReceiverCb.value, OK,
                                                          PAddress(c.linkAddress, w.answer(|c.env.requests|).handle))]
              && o.data.env.requests == c.env.requests + [GenerateHandle,
                   RegisterHandle(c.handle, w.answer(|c.env.requests|).handle), RegisterId(c.handle, c.connId)]
  {
    var (env1, a) := Ask(w, c.env, GenerateHandle);
    match Invoke(env1, c.getReceiverCb, OK, PAddress(c.linkAddress, a.handle))
    case None => Threw(c.(env := env1), [])
    case Some(env2) =>
      var env3 := Tell(Tell(env2, RegisterHandle(c.handle, a.handle)), RegisterId(c.handle, c.connId));
      Returned(SUCCESS, c.(getReceiverCb := None, env := env3), [EVENT_ALWAYS])
  }

  /** The three waiting states only wait. */
  function Waiting(c: RecvCtx): (o: Outcome<RecvCtx>)
    ensures o == Returned(SUCCESS, c, [])
  {
    Returned(SUCCESS, c, [])
  }

  /**
   * StateRecvReceived: pop the oldest package, deliver it with OK, and say
   * whether more are queued. Popping an empty queue is undefined in the
   * source; the model reports it as a failure.
   */
  function Received(c: RecvCtx): (o: Outcome<RecvCtx>)
    ensures c.data == [] || c.receiveCb.None? ==> o.Threw?
    ensures c.data != [] && c.receiveCb.Some? ==>
              && o.Returned? && o.result == SUCCESS
              && o.data.data == c.data[1..] && o.data.receiveCb.None?
              && o.data.env.fired == c.env.fired + [Fired(c.receiveCb.value, OK, PBytes(c.data[0]))]
              && o.pushed == (if |c.data| == 1 then [EVENT_RECV_NO_PACKAGES_REMAINING] else [EVENT_RECV_PACKAGES_REMAINING])
  {
    if c.data == [] then Threw(c, [])
    else
      var pkg := c.data[0];
      var c1 := c.(data := c.data[1..]);
      match Invoke(c1.env, c1.receiveCb, OK, PBytes(pkg))
      case None => Threw(c1, [])
      case Some(env) =>
        var pushed := if c1.data == [] then [EVENT_RECV_NO_PACKAGES_REMAINING] else [EVENT_RECV_PACKAGES_REMAINING];
        Returned(SUCCESS, c1.(receiveCb := None, env := env), pushed)
  }

  /**
   * StateRecvFinished: an outstanding receive gets CLOSING, the manager is
   * told, and the close callback gets OK.
   */
  function Finished(c: RecvCtx): (o: Outcome<RecvCtx>)
    ensures c.closeCb.None? ==> o.Threw?
    ensures c.closeCb.Some? ==>
              && o.Returned? && o.result == SUCCESS
              && o.data.receiveCb.None? && o.data.closeCb.None?
              && o.data.env.fired == InvokeIfSet(c.env, c.receiveCb, CLOSING, PBytes([])).fired
                                     + [Fired(c.closeCb.value, OK, NoPayload)]
              && o.data.env.requests == c.env.requests + [StateMachineFinished(c.handle)]
  {
    var env1 := InvokeIfSet(c.env, c.receiveCb, CLOSING, PBytes([]));
    var c1 := c.(receiveCb := None, env := Tell(env1, StateMachineFinished(c.handle)));
    match Invoke(c1.env, c1.closeCb, OK, NoPayload)
    case None => Threw(c1, [])
    case Some(env2) => Returned(SUCCESS, c1.(closeCb := None, env := env2), [])
  }

  /** StateRecvFailed: each callback still set gets INTERNAL_ERROR once and is cleared. */
  function Failed(c: RecvCtx): (o: Outcome<RecvCtx>)
    ensures o.Returned? && o.result == SUCCESS
    ensures o.data.getReceiverCb.None? && o.data.receiveCb.None? && o.data.closeCb.None?
    ensures o.data.env.fired ==
              InvokeIfSet(InvokeIfSet(InvokeIfSet(c.env, c.getReceiverCb, INTERNAL_ERROR, PAddress("", NULL_RACE_HANDLE)),
                                      c.receiveCb, INTERNAL_ERROR, PBytes([])),
                          c.closeCb, INTERNAL_ERROR, NoPayload).fired
    ensures o.data.env.requests == c.env.requests + [StateMachineFailed(c.handle)]
  {
    var env1 := InvokeIfSet(c.env, c.getReceiverCb, INTERNAL_ERROR, PAddress("", NULL_RACE_HANDLE));
    var env2 := InvokeIfSet(env1, c.receiveCb, INTERNAL_ERROR, PBytes([]));
    var env3 := InvokeIfSet(env2, c.closeCb, INTERNAL_ERROR, NoPayload);
    Returned(SUCCESS, c.(getReceiverCb := None, receiveCb := None, closeCb := None,
                         env := Tell(env3, StateMachineFailed(c.handle))), [])
  }

  // ---------------------------------------------------------------------
  // The engine
  // ---------------------------------------------------------------------

  function RecvStates(w: World): map<StateType, StateDef<RecvCtx>> {
    map[STATE_RECV_INITIAL := PlainState((cur: StateType, c: RecvCtx) => Initial(w, c)),
        STATE_RECV_CONNECTION_OPEN := PlainState((cur: StateType, c: RecvCtx) => ConnectionOpen(w, c)),
        STATE_RECV_WAITING_FOR_APP_AND_PLUGIN := PlainState((cur: StateType, c: RecvCtx) => Waiting(c)),
        STATE_RECV_WAITING_FOR_APP := PlainState((cur: StateType, c: RecvCtx) => Waiting(c)),
        STATE_RECV_WAITING_FOR_PLUGIN := PlainState((cur: StateType, c: RecvCtx) => Waiting(c)),
        STATE_RECV_RECEIVED := PlainState((cur: StateType, c: RecvCtx) => Received(c)),
        STATE_RECV_FINISHED := FinalState((cur: StateType, c: RecvCtx) => Finished(c)),
        STATE_RECV_FAILED := PlainState((cur: StateType, c: RecvCtx) => Failed(c))]
  }

  /** The declarations of RecvStateEngine's constructor, in order. */
  function RecvDecls(): seq<Decl> {
    [Decl(STATE_RECV_INITIAL, EVENT_CONN_STATE_MACHINE_CONNECTED, STATE_RECV_CONNECTION_OPEN),
     Decl(STATE_RECV_CONNECTION_OPEN, EVENT_ALWAYS, STATE_RECV_WAITING_FOR_APP_AND_PLUGIN),
     Decl(STATE_RECV_WAITING_FOR_APP_AND_PLUGIN, EVENT_RECEIVE_REQUEST, STATE_RECV_WAITING_FOR_PLUGIN),
     Decl(STATE_RECV_WAITING_FOR_APP_AND_PLUGIN, EVENT_RECEIVE_PACKAGE, STATE_RECV_WAITING_FOR_APP),
     Decl(STATE_RECV_WAITING_FOR_APP, EVENT_RECEIVE_REQUEST, STATE_RECV_RECEIVED),
     Decl(STATE_RECV_WAITING_FOR_APP, EVENT_RECEIVE_PACKAGE, STATE_RECV_WAITING_FOR_APP),
     Decl(STATE_RECV_WAITING_FOR_PLUGIN, EVENT_RECEIVE_PACKAGE, STATE_RECV_RECEIVED),
     Decl(STATE_RECV_RECEIVED, EVENT_RECV_NO_PACKAGES_REMAINING, STATE_RECV_WAITING_FOR_APP_AND_PLUGIN),
     Decl(STATE_RECV_RECEIVED, EVENT_RECV_PACKAGES_REMAINING, STATE_RECV_WAITING_FOR_APP),
     Decl(STATE_RECV_WAITING_FOR_APP_AND_PLUGIN, EVENT_CLOSE, STATE_RECV_FINISHED),
     Decl(STATE_RECV_WAITING_FOR_PLUGIN, EVENT_CLOSE, STATE_RECV_FINISHED),
     Decl(STATE_RECV_WAITING_FOR_APP, EVENT_CLOSE, STATE_RECV_FINISHED)]
  }

  /**
   * The receive lifecycle: a receive request and a package meet in
   * RECEIVED, whichever comes first; close ends any waiting state.
   */
  function RecvNext(s: StateType, e: EventType): Option<StateType> {
    if s == STATE_RECV_INITIAL && e == EVENT_CONN_STATE_MACHINE_CONNECTED then Some(STATE_RECV_CONNECTION_OPEN)
    else if s == STATE_RECV_CONNECTION_OPEN && e == EVENT_ALWAYS then Some(STATE_RECV_WAITING_FOR_APP_AND_PLUGIN)
    else if s == STATE_RECV_WAITING_FOR_APP_AND_PLUGIN && e == EVENT_RECEIVE_REQUEST then Some(STATE_RECV_WAITING_FOR_PLUGIN)
    else if s == STATE_RECV_WAITING_FOR_APP_AND_PLUGIN && e == EVENT_RECEIVE_PACKAGE then Some(STATE_RECV_WAITING_FOR_APP)
    else if s == STATE_RECV_WAITING_FOR_APP && e == EVENT_RECEIVE_REQUEST then Some(STATE_RECV_RECEIVED)
    else if s == STATE_RECV_WAITING_FOR_APP && e == EVENT_RECEIVE_PACKAGE then Some(STATE_RECV_WAITING_FOR_APP)
    else if s == STATE_RECV_WAITING_FOR_PLUGIN && e == EVENT_RECEIVE_PACKAGE then Some(STATE_RECV_RECEIVED)
    else if s == STATE_RECV_RECEIVED && e == EVENT_RECV_NO_PACKAGES_REMAINING then Some(STATE_RECV_WAITING_FOR_APP_AND_PLUGIN)
    else if s == STATE_RECV_RECEIVED && e == EVENT_RECV_PACKAGES_REMAINING then Some(STATE_RECV_WAITING_FOR_APP)
    else if s in {STATE_RECV_WAITING_FOR_APP_AND_PLUGIN, STATE_RECV_WAITING_FOR_PLUGIN, STATE_RECV_WAITING_FOR_APP}
            && e == EVENT_CLOSE then Some(STATE_RECV_FINISHED)
    else None
  }

  lemma RecvDeclTargets(s: StateType, e: EventType)
    ensures DeclTargets(RecvDecls(), s, e) == TargetSet(RecvNext(s, e))
  {
  }

  /** The declared table is the receive lifecycle, one target per declared event. */
  lemma RecvDeclsFollow()
    ensures Follows(DeclareAll(map[], RecvDecls()), RecvNext)
  {
    forall s, e
      ensures Declares(DeclareAll(map[], RecvDecls()), s, e) <==> RecvNext(s, e).Some?
      ensures Targets(DeclareAll(map[], RecvDecls()), s, e) == TargetSet(RecvNext(s, e))
    {
      RecvDeclTargets(s, e);
      DeclaredTable(RecvDecls(), s, e, RecvNext(s, e));
    }
  }

  /** What RecvStateEngine's constructor builds. */
  ghost predicate IsRecvTable(w: World, t: Table<RecvCtx>) {
    && t.states == RecvStates(w)
    && Follows(t.transitions, RecvNext)
    && t.initStateId == STATE_RECV_INITIAL && t.failedStateId == STATE_RECV_FAILED
  }

  /** RecvStateEngine's constructor. */
  method NewRecvStateEngine(w: World) returns (e: StateEngine<RecvCtx>)
    ensures IsRecvTable(w, e.Spec())
  {
    e := new StateEngine();
    e.AddInitialState(STATE_RECV_INITIAL, PlainState((cur: StateType, c: RecvCtx) => Initial(w, c)));
    e.AddState(STATE_RECV_CONNECTION_OPEN, PlainState((cur: StateType, c: RecvCtx) => ConnectionOpen(w, c)));
    e.AddState(STATE_RECV_WAITING_FOR_APP_AND_PLUGIN, PlainState((cur: StateType, c: RecvCtx) => Waiting(c)));
    e.AddState(STATE_RECV_WAITING_FOR_APP, PlainState((cur: StateType, c: RecvCtx) => Waiting(c)));
    e.AddState(STATE_RECV_WAITING_FOR_PLUGIN, PlainState((cur: StateType, c: RecvCtx) => Waiting(c)));
    e.AddState(STATE_RECV_RECEIVED, PlainState((cur: StateType, c: RecvCtx) => Received(c)));
    e.AddState(STATE_RECV_FINISHED, FinalState((cur: StateType, c: RecvCtx) => Finished(c)));
    e.AddFailedState(STATE_RECV_FAILED, PlainState((cur: StateType, c: RecvCtx) => Failed(c)));
    e.DeclareTransitions(RecvDecls());
    RecvDeclsFollow();
  }

  // ---------------------------------------------------------------------
  // Properties
  // ---------------------------------------------------------------------

  /**
   * Packages reach the application in arrival order: after packages p are
   * queued behind q, the next delivery is q's front, or p's front when q is
   * empty.
   */
  lemma DeliveryIsFifo(c: RecvCtx, pkgs: seq<Bytes>)
    requires c.receiveCb.Some? && c.data + pkgs != []
    ensures var o := Received(c.(data := c.data + pkgs));
            && o.Returned?
            && o.data.env.fired[|c.env.fired|].payload == PBytes((c.data + pkgs)[0])
            && o.data.data == (c.data + pkgs)[1..]
            && (c.data != [] ==> o.data.env.fired[|c.env.fired|].payload == PBytes(c.data[0]))
  {
  }

  /** A package that arrives while the application has not asked only joins the queue. */
  lemma PackageWhileWaitingForAppQueues(w: World, t: Table<RecvCtx>, c: Config<RecvCtx>, pkg: Bytes, fuel: nat)
    requires IsRecvTable(w, t)
    requires c.currentStateId == STATE_RECV_WAITING_FOR_APP && c.pendingEvents == [] && fuel > 0
    ensures var c' := c.(data := Apply(c.data, UReceiveEncPkg("", pkg)));
            var r := HandleEventSpec(t, c', EVENT_RECEIVE_PACKAGE, fuel);
            && r.result == SUCCESS
            && r.config.currentStateId == STATE_RECV_WAITING_FOR_APP
            && r.config.data == c.data.(data := c.data.data + [pkg])
  {
    var c' := c.(data := Apply(c.data, UReceiveEncPkg("", pkg)));
    var c1 := c'.(pendingEvents := [EVENT_RECEIVE_PACKAGE]);
    assert Drain(t, c1, fuel) == Prepend([EVENT_RECEIVE_PACKAGE], Drain(t, c'.(pendingEvents := []), fuel - 1));
  }

  /** A second receive request while the first still waits for a package fails the machine. */
  lemma SecondReceiveFails(w: World, t: Table<RecvCtx>, c: Config<RecvCtx>, fuel: nat)
    requires IsRecvTable(w, t)
    requires c.currentStateId == STATE_RECV_WAITING_FOR_PLUGIN && c.pendingEvents == [] && fuel > 0
    ensures var r := HandleEventSpec(t, c, EVENT_RECEIVE_REQUEST, fuel);
            r.result == NOT_SUPPORTED && r.config.currentStateId == STATE_RECV_FAILED
  {
    assert RecvNext(STATE_RECV_WAITING_FOR_PLUGIN, EVENT_RECEIVE_REQUEST).None?;
  }

  /**
   * The getReceiver callback cb is one-shot; the receive and close callbacks
   * are other functions.
   */
  ghost predicate ReceiverCbOnce(c: RecvCtx, cb: Callback) {
    OneShot(c.getReceiverCb, c.env.fired, cb) && c.receiveCb != Some(cb) && c.closeCb != Some(cb)
  }

  /** The getReceiver callback is fired at most once by any state. */
  lemma StatesKeepReceiverCbOnce(w: World, t: Table<RecvCtx>, cb: Callback)
    requires IsRecvTable(w, t)
    ensures Keeps(t, (c: RecvCtx) => ReceiverCbOnce(c, cb))
  {
    forall s, cur, c | s in t.states && ReceiverCbOnce(c, cb)
      ensures ReceiverCbOnce(t.states[s].enter(cur, c).data, cb)
      ensures ReceiverCbOnce(t.states[s].exit(cur, c).data, cb)
    {
      if s == STATE_RECV_INITIAL {
        InitialKeepsReceiverCbOnce(w, c, cb);
      } else if s == STATE_RECV_CONNECTION_OPEN {
        ConnectionOpenKeepsReceiverCbOnce(w, c, cb);
      } else if s == STATE_RECV_RECEIVED {
        ReceivedKeepsReceiverCbOnce(c, cb);
      } else if s == STATE_RECV_FINISHED {
        FinishedKeepsReceiverCbOnce(c, cb);
      } else if s == STATE_RECV_FAILED {
        FailedKeepsReceiverCbOnce(c, cb);
      }
    }
  }

  lemma InitialKeepsReceiverCbOnce(w: World, c: RecvCtx, cb: Callback)
    requires ReceiverCbOnce(c, cb)
    ensures ReceiverCbOnce(Initial(w, c).data, cb)
  {
    if RecvCheck(w, c.opts).Some? && c.getReceiverCb.Some? {
      FireAndClear(c.getReceiverCb, c.env, cb, RecvCheck(w, c.opts).value, PAddress("", NULL_RACE_HANDLE));
    }
  }

  lemma ConnectionOpenKeepsReceiverCbOnce(w: World, c: RecvCtx, cb: Callback)
    requires ReceiverCbOnce(c, cb)
    ensures ReceiverCbOnce(ConnectionOpen(w, c).data, cb)
  {
    var a := w.answer(|c.env.requests|);
    FireAndClear(c.getReceiverCb, c.env.(requests := c.env.requests + [GenerateHandle]), cb, OK,
                 PAddress(c.linkAddress, a.handle));
  }

  lemma ReceivedKeepsReceiverCbOnce(c: RecvCtx, cb: Callback)
    requires ReceiverCbOnce(c, cb)
    ensures ReceiverCbOnce(Received(c).data, cb)
  {
    if c.data != [] {
      FireOther(c.receiveCb, c.env, cb, OK, PBytes(c.data[0]));
    }
  }

  lemma FinishedKeepsReceiverCbOnce(c: RecvCtx, cb: Callback)
    requires ReceiverCbOnce(c, cb)
    ensures ReceiverCbOnce(Finished(c).data, cb)
  {
    var env1 := InvokeIfSet(c.env, c.receiveCb, CLOSING, PBytes([]));
    FireOther(c.receiveCb, c.env, cb, CLOSING, PBytes([]));
    FireOther(c.closeCb, Tell(env1, StateMachineFinished(c.handle)), cb, OK, NoPayload);
  }

  lemma FailedKeepsReceiverCbOnce(c: RecvCtx, cb: Callback)
    requires ReceiverCbOnce(c, cb)
    ensures ReceiverCbOnce(Failed(c).data, cb)
  {
    var env1 := InvokeIfSet(c.env, c.getReceiverCb, INTERNAL_ERROR, PAddress("", NULL_RACE_HANDLE));
    FireAndClear(c.getReceiverCb, c.env, cb, INTERNAL_ERROR, PAddress("", NULL_RACE_HANDLE));
    FireOther(c.receiveCb, env1, cb, INTERNAL_ERROR, PBytes([]));
    FireOther(c.closeCb, InvokeIfSet(env1, c.receiveCb, INTERNAL_ERROR, PBytes([])), cb, INTERNAL_ERROR, NoPayload);
  }

  /** A context that getReceiver has just given cb fires cb at most once when the engine starts it. */
  lemma StartFiresReceiverCbAtMostOnce(w: World, t: Table<RecvCtx>, c: Config<RecvCtx>, fuel: nat, cb: Callback)
    requires IsRecvTable(w, t)
    requires c.data.getReceiverCb == Some(cb) && c.data.env.fired == []
    requires c.data.receiveCb.None? && c.data.closeCb.None?
    ensures Count(StartSpec(t, c, fuel).config.data.env.fired, cb) <= 1
  {
    StatesKeepReceiverCbOnce(w, t, cb);
    StartKeeps(t, c, fuel, (d: RecvCtx) => ReceiverCbOnce(d, cb));
  }
}

=== FILE: resume.dfy ===
// The resume state machine (source/state-machine/ResumeStateMachine.cpp):
// reopen both connections of an existing conduit from its saved
// properties, and hand the application a conduit once both are up.

module ResumeMachine {
  import opened Common
  import opened Engine
  import opened ApiContext

  const STATE_RESUME_INITIAL: StateType := 3
  const STATE_RESUME_WAITING_FOR_SECOND_CONNECTION: StateType := 4
  const STATE_RESUME_FINISHED: StateType := 5
  const STATE_RESUME_FAILED: StateType := 6

  /** ApiResumeContext. */
  datatype ResumeCtx = ResumeCtx(
    handle: RaceHandle,
    opts: ResumeOptions,
    resumeCallback: Option<Callback>,
    sendConnSMHandle: RaceHandle,
    sendConnId: ConnectionId,
    recvConnSMHandle: RaceHandle,
    recvConnId: ConnectionId,
    recvLinkAddress: LinkAddress,
    packageId: string,
    env: Env)

  const NoConduit := PProps(NULL_RACE_HANDLE, EmptyProperties)

  /** The hooks ApiResumeContext overrides; connection news is told apart by handle. */
  function Apply(c: ResumeCtx, u: Update): (r: ResumeCtx)
    ensures u.UResume? ==> r == c.(opts := u.resumeOpts, resumeCallback := Some(u.cb))
    ensures u.UConnStateMachineConnected? && u.handle == c.recvConnSMHandle ==>
              r == c.(recvConnId := u.connId, recvLinkAddress := u.linkAddress)
    ensures u.UConnStateMachineConnected? && u.handle != c.recvConnSMHandle && u.handle == c.sendConnSMHandle ==>
              r == c.(sendConnId := u.connId)
    ensures (u.UConnStateMachineConnected? && u.handle != c.recvConnSMHandle && u.handle != c.sendConnSMHandle) ==>
              r == c
    ensures (!u.UResume? && !u.UConnStateMachineConnected?) ==> r == c
  {
    match u
    case UResume(opts, cb) => c.(opts := opts, resumeCallback := Some(cb))
    case UConnStateMachineConnected(h, connId, address) =>
      if c.recvConnSMHandle == h then c.(recvConnId := connId, recvLinkAddress := address)
      else if c.sendConnSMHandle == h then c.(sendConnId := connId)
      else c
    case _ => c
  }

  /**
   * StateResumeInitial's checks, in order: the seven options must be
   * non-empty (the first empty one decides), then both channels must be
   * known to the core, send channel first.
   */
  function ResumeCheck(w: World, o: ResumeOptions): (r: Option<ApiStatus>)
    ensures o.send_channel == "" ==> r == Some(CHANNEL_INVALID)
    ensures o.send_channel != "" && o.recv_channel == "" ==> r == Some(CHANNEL_INVALID)
    ensures (o.send_channel != "" && o.recv_channel != ""
             && (o.send_role == "" || o.recv_role == "" || o.send_address == "" || o.recv_address == ""
                 || o.package_id == "")) ==> r == Some(INVALID_ARGUMENT)
    ensures (&& o.send_channel != "" && o.recv_channel != "" && o.send_role != "" && o.recv_role != ""
             && o.send_address != "" && o.recv_address != "" && o.package_id != ""
             && (o.send_channel !in w.containers || o.recv_channel !in w.containers)) ==> r == Some(CHANNEL_INVALID)
    ensures r.None? <==> && o.send_channel != "" && o.recv_channel != "" && o.send_role != "" && o.recv_role != ""
                         && o.send_address != "" && o.recv_address != "" && o.package_id != ""
                         && o.send_channel in w.containers && o.recv_channel in w.containers
    ensures r.Some? ==> r.value == INVALID_ARGUMENT || r.value == CHANNEL_INVALID
  {
    if o.send_channel == "" then Some(CHANNEL_INVALID)
    else if o.recv_channel == "" then Some(CHANNEL_INVALID)
    else if o.send_role == "" then Some(INVALID_ARGUMENT)
    else if o.recv_role == "" then Some(INVALID_ARGUMENT)
    else if o.send_address == "" then Some(INVALID_ARGUMENT)
    else if o.recv_address == "" then Some(INVALID_ARGUMENT)
    else if o.package_id == "" then Some(INVALID_ARGUMENT)
    else if o.send_channel !in w.containers then Some(CHANNEL_INVALID)
    else if o.recv_channel !in w.containers then Some(CHANNEL_INVALID)
    else None
  }

  /**
   * The package id to resume with: the base64 decoding of the given one, or
   * the given text itself when it does not decode.
   */
  function DecodePackageId(codecs: Codecs, given: string): (id: string)
    ensures codecs.b64decode(given).None? ==> id == given
    ensures codecs.b64decode(given).Some? ==> id == BytesToStr(codecs.b64decode(given).value)
  {
    match codecs.b64decode(given)
    case None => given
    case Some(bytes) => BytesToStr(bytes)
  }

  /** A package id a dial reported in base64 resumes as the original bytes. */
  lemma ReportedPackageIdResumes(codecs: Codecs, packageId: Bytes)
    requires Lawful(codecs)
    ensures DecodePackageId(codecs, codecs.b64encode(packageId)) == BytesToStr(packageId)
    ensures StrToBytes(DecodePackageId(codecs, codecs.b64encode(packageId))) == packageId
  {
    BytesStrRoundTrip(packageId);
  }

  /** Report status with no conduit, clear the callback and fail; an empty callback throws. */
  function Reject(c: ResumeCtx, status: ApiStatus): (o: Outcome<ResumeCtx>)
    ensures c.resumeCallback.None? ==> o.Threw? && o.data == c
    ensures c.resumeCallback.Some? ==> o == Returned(NOT_SUPPORTED,
              c.(resumeCallback := None, env := InvokeIfSet(c.env, c.resumeCallback, status, NoConduit)), [])
  {
    match Invoke(c.env, c.resumeCallback, status, NoConduit)
    case None => Threw(c, [])
    case Some(env) => Returned(NOT_SUPPORTED, c.(resumeCallback := None, env := env), [])
  }

  /**
   * StateResumeInitial: check the options, decode the package id, then
   * start a sending connection to the saved send address and a receiving
   * one on the saved receive address; both are registered only when both
   * started.
   */
  function Initial(w: World, c: ResumeCtx): (o: Outcome<ResumeCtx>)
    ensures ResumeCheck(w, c.opts).Some? ==> o == Reject(c, ResumeCheck(w, c.opts).value)
    ensures ResumeCheck(w, c.opts).None? ==>
              var n := |c.env.requests|;
              var send := w.answer(n).handle;
              var recv := w.answer(n + 1).handle;
              && o.Returned? && o.data.resumeCallback == c.resumeCallback && o.data.env.fired == c.env.fired
              && o.data.packageId == DecodePackageId(w.codecs, c.opts.package_id)
              && |o.data.env.requests| > n
              && o.data.env.requests[n] == StartConnStateMachine(c.handle, c.opts.send_channel, c.opts.send_role,
                                                                 c.opts.send_address, false, true)
              && (o.result == SUCCESS <==> send != NULL_RACE_HANDLE && recv != NULL_RACE_HANDLE)
              && (o.result == SUCCESS ==>
                    o.data.env.requests == c.env.requests + [
                      o.data.env.requests[n],
                      StartConnStateMachine(c.handle, c.opts.recv_channel, c.opts.recv_role,
                                            c.opts.recv_address, true, false),
                      RegisterHandle(c.handle, send), RegisterHandle(c.handle, recv)])
    ensures o.pushed == []
  {
    match ResumeCheck(w, c.opts)
    case Some(status) => Reject(c, status)
    case None =>
      var c1 := c.(packageId := DecodePackageId(w.codecs, c.opts.package_id));
      var (env1, send) := Ask(w, c1.env, StartConnStateMachine(c.handle, c.opts.send_channel, c.opts.send_role,
                                                                c.opts.send_address, false, true));
      var c2 := c1.(sendConnSMHandle := send.handle, env := env1);
      if send.handle == NULL_RACE_HANDLE then Returned(NOT_SUPPORTED, c2, [])
      else
        var (env2, recv) := Ask(w, env1, StartConnStateMachine(c.handle, c.opts.recv_channel, c.opts.recv_role,
                                                                c.opts.recv_address, true, false));
        var c3 := c2.(recvConnSMHandle := recv.handle, env := env2);
        if recv.handle == NULL_RACE_HANDLE then Returned(NOT_SUPPORTED, c3, [])
        else
          Returned(SUCCESS, c3.(env := Tell(Tell(env2, RegisterHandle(c.handle, send.handle)),
                                            RegisterHandle(c.handle, recv.handle))), [])
  }

  /** StateResumeFinished: start a conduit on both connections and report it. */
  function Finished(w: World, c: ResumeCtx): (o: Outcome<ResumeCtx>)
    ensures var n := |c.env.requests|;
            var api := w.answer(n).handle;
            var start := StartConduit(c.handle, c.recvConnSMHandle, c.recvConnId, c.sendConnSMHandle, c.sendConnId,
                                      c.opts.send_channel, c.opts.recv_channel, c.packageId, [], api);
            && (w.answer(n + 1).handle == NULL_RACE_HANDLE ==>
                  o == Returned(NOT_SUPPORTED, c.(env := Tell(Tell(c.env, GenerateHandle), start)), []))
            && (w.answer(n + 1).handle != NULL_RACE_HANDLE && c.resumeCallback.None? ==> o.Threw?)
            && (w.answer(n + 1).handle != NULL_RACE_HANDLE && c.resumeCallback.Some? ==>
                  && o.Returned? && o.result == SUCCESS && o.data.resumeCallback.None?
                  && o.data.env.fired == c.env.fired + [Fired(c.resumeCallback.value, OK, PProps(api, EmptyProperties))]
                  && o.data.env.requests == c.env.requests + [GenerateHandle, start, StateMachineFinished(c.handle)])
    ensures o.pushed == []
  {
    var (env1, api) := Ask(w, c.env, GenerateHandle);
    var (env2, conduit) := Ask(w, env1, StartConduit(c.handle, c.recvConnSMHandle, c.recvConnId, c.sendConnSMHandle,
                                                      c.sendConnId, c.opts.send_channel, c.opts.recv_channel,
                                                      c.packageId, [], api.handle));
    if conduit.handle == NULL_RACE_HANDLE then Returned(NOT_SUPPORTED, c.(env := env2), [])
    else
      match Invoke(env2, c.resumeCallback, OK, PProps(api.handle, EmptyProperties))
      case None => Threw(c.(env := env2), [])
      case Some(env3) =>
        Returned(SUCCESS, c.(resumeCallback := None, env := Tell(env3, StateMachineFinished(c.handle))), [])
  }

  /** StateResumeFailed: INTERNAL_ERROR only if the callback is still set; tell the manager. */
  function Failed(c: ResumeCtx): (o: Outcome<ResumeCtx>)
    ensures o.Returned? && o.result == SUCCESS && o.data.resumeCallback.None?
    ensures o.data.env.fired == InvokeIfSet(c.env, c.resumeCallback, INTERNAL_ERROR, NoConduit).fired
    ensures o.data.env.requests == c.env.requests + [StateMachineFailed(c.handle)]
  {
    var env := InvokeIfSet(c.env, c.resumeCallback, INTERNAL_ERROR, NoConduit);
    Returned(SUCCESS, c.(resumeCallback := None, env := Tell(env, StateMachineFailed(c.handle))), [])
  }

  // ---------------------------------------------------------------------
  // The engine
  // ---------------------------------------------------------------------

  function ResumeStates(w: World): map<StateType, StateDef<ResumeCtx>> {
    map[STATE_RESUME_INITIAL := PlainState((cur: StateType, c: ResumeCtx) => Initial(w, c)),
        STATE_RESUME_WAITING_FOR_SECOND_CONNECTION := PlainState((cur: StateType, c: ResumeCtx) => DefaultEnter(cur, c)),
        STATE_RESUME_FINISHED := FinalState((cur: StateType, c: ResumeCtx) => Finished(w, c)),
        STATE_RESUME_FAILED := PlainState((cur: StateType, c: ResumeCtx) => Failed(c))]
  }

  /** The declarations of ResumeStateEngine's constructor, in order. */
  function ResumeDecls(): seq<Decl> {
    [Decl(STATE_RESUME_INITIAL, EVENT_CONN_STATE_MACHINE_CONNECTED, STATE_RESUME_WAITING_FOR_SECOND_CONNECTION),
     Decl(STATE_RESUME_WAITING_FOR_SECOND_CONNECTION, EVENT_CONN_STATE_MACHINE_CONNECTED, STATE_RESUME_FINISHED)]
  }

  /** The resume lifecycle: one connection report, then the other. */
  function ResumeNext(s: StateType, e: EventType): Option<StateType> {
    if s == STATE_RESUME_INITIAL && e == EVENT_CONN_STATE_MACHINE_CONNECTED then
      Some(STATE_RESUME_WAITING_FOR_SECOND_CONNECTION)
    else if s == STATE_RESUME_WAITING_FOR_SECOND_CONNECTION && e == EVENT_CONN_STATE_MACHINE_CONNECTED then
      Some(STATE_RESUME_FINISHED)
    else None
  }

  lemma ResumeDeclTargets(s: StateType, e: EventType)
    ensures DeclTargets(ResumeDecls(), s, e) == TargetSet(ResumeNext(s, e))
  {
  }

  /** The declared table is the resume lifecycle. */
  lemma ResumeDeclsFollow()
    ensures Follows(DeclareAll(map[], ResumeDecls()), ResumeNext)
  {
    forall s, e
      ensures Declares(DeclareAll(map[], ResumeDecls()), s, e) <==> ResumeNext(s, e).Some?
      ensures Targets(DeclareAll(map[], ResumeDecls()), s, e) == TargetSet(ResumeNext(s, e))
    {
      ResumeDeclTargets(s, e);
      DeclaredTable(ResumeDecls(), s, e, ResumeNext(s, e));
    }
  }

  /** What ResumeStateEngine's constructor builds. */
  ghost predicate IsResumeTable(w: World, t: Table<ResumeCtx>) {
    && t.states == ResumeStates(w)
    && Follows(t.transitions, ResumeNext)
    && t.initStateId == STATE_RESUME_INITIAL && t.failedStateId == STATE_RESUME_FAILED
  }

  /** ResumeStateEngine's constructor. */
  method NewResumeStateEngine(w: World) returns (e: StateEngine<ResumeCtx>)
    ensures IsResumeTable(w, e.Spec())
  {
    e := new StateEngine();
    e.AddInitialState(STATE_RESUME_INITIAL, PlainState((cur: StateType, c: ResumeCtx) => Initial(w, c)));
    e.AddState(STATE_RESUME_WAITING_FOR_SECOND_CONNECTION,
               PlainState((cur: StateType, c: ResumeCtx) => DefaultEnter(cur, c)));
    e.AddState(STATE_RESUME_FINISHED, FinalState((cur: StateType, c: ResumeCtx) => Finished(w, c)));
    e.AddFailedState(STATE_RESUME_FAILED, PlainState((cur: StateType, c: ResumeCtx) => Failed(c)));
    e.DeclareTransitions(ResumeDecls());
    ResumeDeclsFollow();
  }

  // ---------------------------------------------------------------------
  // Properties
  // ---------------------------------------------------------------------

  /** The first connection report only moves the machine to waiting for the second. */
  lemma FirstConnectionWaits(w: World, t: Table<ResumeCtx>, c: Config<ResumeCtx>, fuel: nat)
    requires IsResumeTable(w, t)
    requires c.currentStateId == STATE_RESUME_INITIAL && c.pendingEvents == [] && fuel > 0
    ensures var r := HandleEventSpec(t, c, EVENT_CONN_STATE_MACHINE_CONNECTED, fuel);
            r == Drained(SUCCESS, c.(currentStateId := STATE_RESUME_WAITING_FOR_SECOND_CONNECTION), [EVENT_CONN_STATE_MACHINE_CONNECTED])
  {
    assert Targets(t.transitions, STATE_RESUME_INITIAL, EVENT_CONN_STATE_MACHINE_CONNECTED)
           == TargetSet(ResumeNext(STATE_RESUME_INITIAL, EVENT_CONN_STATE_MACHINE_CONNECTED));
    HandleOneMoves(t, c, EVENT_CONN_STATE_MACHINE_CONNECTED, STATE_RESUME_WAITING_FOR_SECOND_CONNECTION);
    assert t.states[STATE_RESUME_INITIAL].exit(STATE_RESUME_INITIAL, c.data) == Returned(SUCCESS, c.data, []);
    TransitionByEnter(t, c, STATE_RESUME_WAITING_FOR_SECOND_CONNECTION);
    var c1 := c.(pendingEvents := [EVENT_CONN_STATE_MACHINE_CONNECTED]);
    assert Drain(t, c1, fuel) == Prepend([EVENT_CONN_STATE_MACHINE_CONNECTED],
                                         Drain(t, c.(currentStateId := STATE_RESUME_WAITING_FOR_SECOND_CONNECTION), fuel - 1));
  }

  /** The second connection report finishes the machine exactly when the finished state succeeds. */
  lemma SecondConnectionFinishes(w: World, t: Table<ResumeCtx>, c: Config<ResumeCtx>, fuel: nat)
    requires IsResumeTable(w, t)
    requires c.currentStateId == STATE_RESUME_WAITING_FOR_SECOND_CONNECTION && c.pendingEvents == [] && fuel > 0
    ensures var r := HandleEventSpec(t, c, EVENT_CONN_STATE_MACHINE_CONNECTED, fuel);
            var o := Finished(w, c.data);
            && (r.result == SUCCESS <==> o.Returned? && o.result == SUCCESS)
            && r.config.currentStateId == (if r.result == SUCCESS then STATE_RESUME_FINISHED else STATE_RESUME_FAILED)
            && (r.result == SUCCESS ==> r.config.data == o.data)
  {
    assert Targets(t.transitions, STATE_RESUME_WAITING_FOR_SECOND_CONNECTION, EVENT_CONN_STATE_MACHINE_CONNECTED)
           == TargetSet(ResumeNext(STATE_RESUME_WAITING_FOR_SECOND_CONNECTION, EVENT_CONN_STATE_MACHINE_CONNECTED));
    HandleOneMoves(t, c, EVENT_CONN_STATE_MACHINE_CONNECTED, STATE_RESUME_FINISHED);
    assert t.states[STATE_RESUME_WAITING_FOR_SECOND_CONNECTION].exit(STATE_RESUME_WAITING_FOR_SECOND_CONNECTION, c.data)
           == Returned(SUCCESS, c.data, []);
    assert t.states[STATE_RESUME_FINISHED].enter(STATE_RESUME_WAITING_FOR_SECOND_CONNECTION, c.data) == Finished(w, c.data);
    TransitionByEnter(t, c, STATE_RESUME_FINISHED);
    var c1 := c.(pendingEvents := [EVENT_CONN_STATE_MACHINE_CONNECTED]);
    var (res, c2) := HandleOne(t, c, EVENT_CONN_STATE_MACHINE_CONNECTED);
    assert Drain(t, c1, fuel) == if res != SUCCESS then Drained(res, FailSpec(t, c2), [EVENT_CONN_STATE_MACHINE_CONNECTED])
                                 else Prepend([EVENT_CONN_STATE_MACHINE_CONNECTED], Drain(t, c2, fuel - 1));
  }

  ghost predicate CallbackOnce(c: ResumeCtx, cb: Callback) {
    OneShot(c.resumeCallback, c.env.fired, cb)
  }

  /** Every state that fires the resume callback clears it, and none fires anything else. */
  lemma StatesKeepCallbackOnce(w: World, t: Table<ResumeCtx>, cb: Callback)
    requires IsResumeTable(w, t)
    ensures Keeps(t, (c: ResumeCtx) => CallbackOnce(c, cb))
  {
    forall s, cur, c | s in t.states && CallbackOnce(c, cb)
      ensures CallbackOnce(t.states[s].enter(cur, c).data, cb)
      ensures CallbackOnce(t.states[s].exit(cur, c).data, cb)
    {
      if s == STATE_RESUME_INITIAL {
        if ResumeCheck(w, c.opts).Some? {
          FireAndClear(c.resumeCallback, c.env, cb, ResumeCheck(w, c.opts).value, NoConduit);
        }
      } else if s == STATE_RESUME_FINISHED {
        var n := |c.env.requests|;
        var api := w.answer(n).handle;
        var start := StartConduit(c.handle, c.recvConnSMHandle, c.recvConnId, c.sendConnSMHandle, c.sendConnId,
                                  c.opts.send_channel, c.opts.recv_channel, c.packageId, [], api);
        FireAndClear(c.resumeCallback, Tell(Tell(c.env, GenerateHandle), start), cb, OK, PProps(api, EmptyProperties));
      } else if s == STATE_RESUME_FAILED {
        FireAndClear(c.resumeCallback, c.env, cb, INTERNAL_ERROR, NoConduit);
      }
    }
  }

  /** A resume started with cb set and nothing fired fires cb at most once. */
  lemma StartFiresCallbackAtMostOnce(w: World, t: Table<ResumeCtx>, c: Config<ResumeCtx>, fuel: nat, cb: Callback)
    requires IsResumeTable(w, t)
    requires c.data.resumeCallback == Some(cb) && c.data.env.fired == []
    ensures Count(StartSpec(t, c, fuel).config.data.env.fired, cb) <= 1
  {
    StatesKeepCallbackOnce(w, t, cb);
    StartKeeps(t, c, fuel, (d: ResumeCtx) => CallbackOnce(d, cb));
  }

  /** ... and keeps firing it at most once on every later event. */
  lemma HandleEventKeepsCallbackOnce(w: World, t: Table<ResumeCtx>, c: Config<ResumeCtx>, e: EventType,
                                     fuel: nat, cb: Callback)
    requires IsResumeTable(w, t)
    requires CallbackOnce(c.data, cb)
    ensures Count(HandleEventSpec(t, c, e, fuel).config.data.env.fired, cb) <= 1
  {
    StatesKeepCallbackOnce(w, t, cb);
    HandleEventKeeps(t, c, e, fuel, (d: ResumeCtx) => CallbackOnce(d, cb));
  }
}

=== FILE: send.dfy ===
// The send state machine (source/state-machine/SendStateMachine.cpp):
// check the arguments, start a sending connection, send one package on it,
// and report the outcome to the application's callback exactly once.

module SendMachine {
  import opened Common
  import opened Engine
  import opened ApiContext

  const STATE_SEND_INITIAL: StateType := 3
  const STATE_SEND_CONNECTION_OPEN: StateType := 4
  const STATE_SEND_FINISHED: StateType := 5
  const STATE_SEND_FAILED: StateType := 6

  /** ApiSendContext. */
  datatype SendCtx = SendCtx(
    handle: RaceHandle,
    opts: SendOptions,
    data: Bytes,
    callback: Option<Callback>,
    connId: ConnectionId,
    env: Env)

  /** The hooks ApiSendContext overrides: updateSend and updateConnStateMachineConnected. */
  function Apply(c: SendCtx, u: Update): (r: SendCtx)
    ensures u.USend? ==> r == c.(opts := u.sendOpts, data := u.data, callback := Some(u.cb))
    ensures u.UConnStateMachineConnected? ==> r == c.(connId := u.connId)
    ensures !u.USend? && !u.UConnStateMachineConnected? ==> r == c
  {
    match u
    case USend(opts, data, cb) => c.(opts := opts, data := data, callback := Some(cb))
    case UConnStateMachineConnected(_, connId, _) => c.(connId := connId)
    case _ => c
  }

  /**
   * StateSendInitial's argument checks, in order: data, send channel, role,
   * send address, then whether the core knows the channel. The status the
   * first failing check reports, or None when all pass.
   */
  function SendCheck(w: World, opts: SendOptions, data: Bytes): (r: Option<ApiStatus>)
    ensures data == [] ==> r == Some(INVALID_ARGUMENT)
    ensures data != [] && opts.send_channel == "" ==> r == Some(CHANNEL_INVALID)
    ensures data != [] && opts.send_channel != "" && (opts.send_role == "" || opts.send_address == "") ==>
              r == Some(INVALID_ARGUMENT)
    ensures (data != [] && opts.send_channel != "" && opts.send_role != "" && opts.send_address != ""
             && opts.send_channel !in w.containers) ==> r == Some(CHANNEL_INVALID)
    ensures r.None? <==> data != [] && opts.send_channel != "" && opts.send_role != ""
                         && opts.send_address != "" && opts.send_channel in w.containers
    ensures r.Some? ==> r.value == INVALID_ARGUMENT || r.value == CHANNEL_INVALID
  {
    if data == [] then Some(INVALID_ARGUMENT)
    else if opts.send_channel == "" then Some(CHANNEL_INVALID)
    else if opts.send_role == "" then Some(INVALID_ARGUMENT)
    else if opts.send_address == "" then Some(INVALID_ARGUMENT)
    else if opts.send_channel !in w.containers then Some(CHANNEL_INVALID)
    else None
  }

  /** Report status to the callback, clear it and fail; an empty callback throws. */
  function Reject(c: SendCtx, status: ApiStatus): (o: Outcome<SendCtx>)
    ensures c.callback.None? ==> o.Threw? && o.data == c
    ensures c.callback.Some? ==> o == Returned(NOT_SUPPORTED,
              c.(callback := None, env := InvokeIfSet(c.env, c.callback, status, NoPayload)), [])
  {
    match Invoke(c.env, c.callback, status, NoPayload)
    case None => Threw(c, [])
    case Some(env) => Returned(NOT_SUPPORTED, c.(callback := None, env := env), [])
  }

  /**
   * StateSendInitial: reject bad arguments through the callback, otherwise
   * start a sending connection on the channel and listen to it.
   */
  function Initial(w: World, c: SendCtx): (o: Outcome<SendCtx>)
    ensures SendCheck(w, c.opts, c.data).Some? && c.callback.Some? ==>
              o == Returned(NOT_SUPPORTED, c.(callback := None,
                     env := InvokeIfSet(c.env, c.callback, SendCheck(w, c.opts, c.data).value, NoPayload)), [])
    ensures SendCheck(w, c.opts, c.data).None? ==>
              o.Returned? && o.data.callback == c.callback && o.data.env.fired == c.env.fired
              && |o.data.env.requests| > |c.env.requests|
              && o.data.env.requests[|c.env.requests|]
                 == StartConnStateMachine(c.handle, c.opts.send_channel, c.opts.send_role, c.opts.send_address, false, true)
              && (o.result == SUCCESS <==> w.answer(|c.env.requests|).handle != NULL_RACE_HANDLE)
    ensures o.pushed == []
  {
    match SendCheck(w, c.opts, c.data)
    case Some(status) => Reject(c, status)
    case None =>
      var (env1, a) := Ask(w, c.env, StartConnStateMachine(c.handle, c.opts.send_channel, c.opts.send_role,
                                                             c.opts.send_address, false, true));
      if a.handle == NULL_RACE_HANDLE then Returned(NOT_SUPPORTED, c.(env := env1), [])
      else Returned(SUCCESS, c.(env := Tell(env1, RegisterHandle(c.handle, a.handle))), [])
  }

  /**
   * StateSendConnectionOpen: hand the data to the plugin as one package on
   * the connection; the context's data is moved out either way.
   */
  function ConnectionOpen(w: World, c: SendCtx): (o: Outcome<SendCtx>)
    ensures GetPlugin(w, c.opts.send_channel).Some? ==> o == Threw(c, [])
    ensures GetPlugin(w, c.opts.send_channel).None? ==>
              o.Returned? && o.data.data == [] && o.data.callback == c.callback && o.data.env.fired == c.env.fired
              && |o.data.env.requests| > |c.env.requests| + 1
              && o.data.env.requests[|c.env.requests| + 1]
                 == SendPackage(c.opts.send_channel, w.answer(|c.env.requests|).handle, c.connId, c.data)
              && (o.result == SUCCESS <==> w.answer(|c.env.requests| + 1).ok)
    ensures o.pushed == []
  {
    if GetPlugin(w, c.opts.send_channel).Some? then Threw(c, [])
    else
      var (env1, a) := Ask(w, c.env, GenerateHandle);
      var (env2, b) := Ask(w, env1, SendPackage(c.opts.send_channel, a.handle, c.connId, c.data));
      if !b.ok then Returned(NOT_SUPPORTED, c.(data := [], env := env2), [])
      else Returned(SUCCESS, c.(data := [], env := Tell(env2, RegisterHandle(c.handle, a.handle))), [])
  }

  /** StateSendFinished: report OK, clear the callback, tell the manager. */
  function Finished(c: SendCtx): (o: Outcome<SendCtx>)
    ensures c.callback.None? ==> o.Threw?
    ensures c.callback.Some? ==>
              && o.Returned? && o.result == SUCCESS && o.data.callback.None?
              && o.data.env.fired == c.env.fired + [Fired(c.callback.value, OK, NoPayload)]
              && o.data.env.requests == c.env.requests + [StateMachineFinished(c.handle)]
  {
    match Invoke(c.env, c.callback, OK, NoPayload)
    case None => Threw(c, [])
    case Some(env) => Returned(SUCCESS, c.(callback := None, env := Tell(env, StateMachineFinished(c.handle))), [])
  }

  /** StateSendFailed: report INTERNAL_ERROR only if the callback is still set; tell the manager. */
  function Failed(c: SendCtx): (o: Outcome<SendCtx>)
    ensures o.Returned? && o.result == SUCCESS && o.data.callback.None?
    ensures c.callback.None? ==> o.data.env.fired == c.env.fired
    ensures c.callback.Some? ==> o.data.env.fired == c.env.fired + [Fired(c.callback.value, INTERNAL_ERROR, NoPayload)]
    ensures o.data.env.requests == c.env.requests + [StateMachineFailed(c.handle)]
  {
    var env := InvokeIfSet(c.env, c.callback, INTERNAL_ERROR, NoPayload);
    Returned(SUCCESS, c.(callback := None, env := Tell(env, StateMachineFailed(c.handle))), [])
  }

  // ---------------------------------------------------------------------
  // The engine
  // ---------------------------------------------------------------------

  function SendStates(w: World): map<StateType, StateDef<SendCtx>> {
    map[STATE_SEND_INITIAL := PlainState((cur: StateType, c: SendCtx) => Initial(w, c)),
        STATE_SEND_CONNECTION_OPEN := PlainState((cur: StateType, c: SendCtx) => ConnectionOpen(w, c)),
        STATE_SEND_FINISHED := FinalState((cur: StateType, c: SendCtx) => Finished(c)),
        STATE_SEND_FAILED := PlainState((cur: StateType, c: SendCtx) => Failed(c))]
  }

  /** The declarations of SendStateEngine's constructor, in order. */
  function SendDecls(): seq<Decl> {
    [Decl(STATE_SEND_INITIAL, EVENT_CONN_STATE_MACHINE_CONNECTED, STATE_SEND_CONNECTION_OPEN),
     Decl(STATE_SEND_CONNECTION_OPEN, EVENT_PACKAGE_SENT, STATE_SEND_FINISHED)]
  }

  /** The send lifecycle: connected, then package sent. */
  function SendNext(s: StateType, e: EventType): Option<StateType> {
    if s == STATE_SEND_INITIAL && e == EVENT_CONN_STATE_MACHINE_CONNECTED then Some(STATE_SEND_CONNECTION_OPEN)
    else if s == STATE_SEND_CONNECTION_OPEN && e == EVENT_PACKAGE_SENT then Some(STATE_SEND_FINISHED)
    else None
  }

  lemma SendDeclTargets(s: StateType, e: EventType)
    ensures DeclTargets(SendDecls(), s, e) == TargetSet(SendNext(s, e))
  {
  }

  /**
   * Only the two transitions of the send lifecycle are declared; any other
   * event fails the machine.
   */
  lemma SendDeclsFollow()
    ensures Follows(DeclareAll(map[], SendDecls()), SendNext)
  {
    forall s, e
      ensures Declares(DeclareAll(map[], SendDecls()), s, e) <==> SendNext(s, e).Some?
      ensures Targets(DeclareAll(map[], SendDecls()), s, e) == TargetSet(SendNext(s, e))
    {
      SendDeclTargets(s, e);
      DeclaredTable(SendDecls(), s, e, SendNext(s, e));
    }
  }

  /** What SendStateEngine's constructor builds. */
  ghost predicate IsSendTable(w: World, t: Table<SendCtx>) {
    && t.states == SendStates(w)
    && Follows(t.transitions, SendNext)
    && t.initStateId == STATE_SEND_INITIAL && t.failedStateId == STATE_SEND_FAILED
  }

  /** SendStateEngine's constructor. */
  method NewSendStateEngine(w: World) returns (e: StateEngine<SendCtx>)
    ensures IsSendTable(w, e.Spec())
  {
    e := new StateEngine();
    e.AddInitialState(STATE_SEND_INITIAL, PlainState((cur: StateType, c: SendCtx) => Initial(w, c)));
    e.AddState(STATE_SEND_CONNECTION_OPEN, PlainState((cur: StateType, c: SendCtx) => ConnectionOpen(w, c)));
    e.AddState(STATE_SEND_FINISHED, FinalState((cur: StateType, c: SendCtx) => Finished(c)));
    e.AddFailedState(STATE_SEND_FAILED, PlainState((cur: StateType, c: SendCtx) => Failed(c)));
    e.DeclareTransitions(SendDecls());
    SendDeclsFollow();
  }

  // ---------------------------------------------------------------------
  // The callback fires at most once
  // ---------------------------------------------------------------------

  ghost predicate CallbackOnce(c: SendCtx, cb: Callback) {
    OneShot(c.callback, c.env.fired, cb)
  }

  /** Each state clears the callback whenever it fires it, and fires nothing else. */
  lemma StatesKeepCallbackOnce(w: World, t: Table<SendCtx>, cb: Callback)
    requires IsSendTable(w, t)
    ensures Keeps(t, (c: SendCtx) => CallbackOnce(c, cb))
  {
    forall s, cur, c | s in t.states && CallbackOnce(c, cb)
      ensures CallbackOnce(t.states[s].enter(cur, c).data, cb)
      ensures CallbackOnce(t.states[s].exit(cur, c).data, cb)
    {
      if s == STATE_SEND_INITIAL {
        if SendCheck(w, c.opts, c.data).Some? && c.callback.Some? {
          FireAndClear(c.callback, c.env, cb, SendCheck(w, c.opts, c.data).value, NoPayload);
        }
      } else if s == STATE_SEND_FINISHED {
        FireAndClear(c.callback, c.env, cb, OK, NoPayload);
      } else if s == STATE_SEND_FAILED {
        FireAndClear(c.callback, c.env, cb, INTERNAL_ERROR, NoPayload);
      }
    }
  }

  /**
   * Once updateSend has stored cb in a context that has fired nothing, cb
   * fires at most once when the engine starts the machine, and while the
   * machine handles events.
   */
  lemma StartFiresCallbackAtMostOnce(w: World, t: Table<SendCtx>, c: Config<SendCtx>, fuel: nat, cb: Callback)
    requires IsSendTable(w, t)
    requires c.data.callback == Some(cb) && c.data.env.fired == []
    ensures CallbackOnce(StartSpec(t, c, fuel).config.data, cb)
    ensures Count(StartSpec(t, c, fuel).config.data.env.fired, cb) <= 1
  {
    StatesKeepCallbackOnce(w, t, cb);
    StartKeeps(t, c, fuel, (d: SendCtx) => CallbackOnce(d, cb));
  }

  lemma HandleEventKeepsCallbackOnce(w: World, t: Table<SendCtx>, c: Config<SendCtx>, e: EventType, fuel: nat, cb: Callback)
    requires IsSendTable(w, t)
    requires CallbackOnce(c.data, cb)
    ensures CallbackOnce(HandleEventSpec(t, c, e, fuel).config.data, cb)
    ensures Count(HandleEventSpec(t, c, e, fuel).config.data.env.fired, cb) <= 1
  {
    StatesKeepCallbackOnce(w, t, cb);
    HandleEventKeeps(t, c, e, fuel, (d: SendCtx) => CallbackOnce(d, cb));
  }

  /** The manager's other updates neither fire nor replace the callback. */
  lemma UpdatesKeepCallbackOnce(c: SendCtx, u: Update, cb: Callback)
    requires !u.USend? && CallbackOnce(c, cb)
    ensures CallbackOnce(Apply(c, u), cb)
  {
  }
}

=== FILE: sendreceive.dfy ===
// The send-receive state machine (source/state-machine/SendReceiveStateMachine.cpp):
// open a receiving connection, then a sending one, send one JSON message
// that names the receive link as the reply address, and hand the first
// reply to the application's callback.

module SendReceiveMachine {
  import opened Common
  import opened Engine
  import opened ApiContext

  const STATE_SEND_RECEIVE_INITIAL: StateType := 3
  const STATE_SEND_RECEIVE_WAITING_FOR_SEND_CONNECTION: StateType := 4
  const STATE_SEND_RECEIVE_SEND_OPEN: StateType := 5
  const STATE_SEND_RECEIVE_PACKAGE_SENT: StateType := 6
  const STATE_SEND_RECEIVE_FINISHED: StateType := 7
  const STATE_SEND_RECEIVE_FAILED: StateType := 8

  /** ApiSendReceiveContext; receivedMsg is None while the shared_ptr is null. */
  datatype SendReceiveCtx = SendReceiveCtx(
    handle: RaceHandle,
    opts: SendOptions,
    data: Bytes,
    callback: Option<Callback>,
    sendConnSMHandle: RaceHandle,
    sendConnId: ConnectionId,
    recvConnId: ConnectionId,
    recvConnSMHandle: RaceHandle,
    recvLinkAddress: LinkAddress,
    receivedMsg: Option<Bytes>,
    env: Env)

  /**
   * The hooks ApiSendReceiveContext overrides. Connection news is told
   * apart by the connection machine's handle: the receive machine's sets
   * the receive id and address, the send machine's the send id, any other
   * is ignored. A received package replaces the one held before.
   */
  function Apply(c: SendReceiveCtx, u: Update): (r: SendReceiveCtx)
    ensures u.USendReceive? ==> r == c.(opts := u.sendOpts, data := u.data, callback := Some(u.cb))
    ensures u.UConnStateMachineLinkEstablished? && u.handle == c.recvConnSMHandle ==>
              r == c.(recvLinkAddress := u.linkAddress)
    ensures u.UConnStateMachineConnected? && u.handle == c.recvConnSMHandle ==>
              r == c.(recvConnId := u.connId, recvLinkAddress := u.linkAddress)
    ensures u.UConnStateMachineConnected? && u.handle != c.recvConnSMHandle && u.handle == c.sendConnSMHandle ==>
              r == c.(sendConnId := u.connId)
    ensures ((u.UConnStateMachineConnected? || u.UConnStateMachineLinkEstablished?)
             && u.handle != c.recvConnSMHandle && u.handle != c.sendConnSMHandle) ==> r == c
    ensures u.UReceiveEncPkg? ==> r == c.(receivedMsg := Some(u.data))
    ensures (!u.USendReceive? && !u.UConnStateMachineLinkEstablished? && !u.UConnStateMachineConnected?
             && !u.UReceiveEncPkg?) ==> r == c
  {
    match u
    case USendReceive(opts, data, cb) => c.(opts := opts, data := data, callback := Some(cb))
    case UConnStateMachineLinkEstablished(h, _, address) =>
      if c.recvConnSMHandle == h then c.(recvLinkAddress := address) else c
    case UConnStateMachineConnected(h, connId, address) =>
      if c.recvConnSMHandle == h then c.(recvConnId := connId, recvLinkAddress := address)
      else if c.sendConnSMHandle == h then c.(sendConnId := connId)
      else c
    case UReceiveEncPkg(_, pkg) => c.(receivedMsg := Some(pkg))
    case _ => c
  }

  /** StateSendReceiveInitial's checks: the receive-side checks on its receive options. */
  function RecvCheck(w: World, opts: SendOptions): Option<ApiStatus> {
    ReceiveSideCheck(w, opts.recv_channel, opts.recv_role)
  }

  /**
   * The send-side checks StateSendReceiveWaitingForSendConnection makes, in
   * order: send channel, send role, send address, known channel.
   */
  function SendCheck(w: World, opts: SendOptions): (r: Option<ApiStatus>)
    ensures opts.send_channel == "" ==> r == Some(CHANNEL_INVALID)
    ensures opts.send_channel != "" && (opts.send_role == "" || opts.send_address == "") ==>
              r == Some(INVALID_ARGUMENT)
    ensures (opts.send_channel != "" && opts.send_role != "" && opts.send_address != ""
             && opts.send_channel !in w.containers) ==> r == Some(CHANNEL_INVALID)
    ensures r.None? <==> opts.send_channel != "" && opts.send_role != "" && opts.send_address != ""
                         && opts.send_channel in w.containers
    ensures r.Some? ==> r.value == INVALID_ARGUMENT || r.value == CHANNEL_INVALID
  {
    if opts.send_channel == "" then Some(CHANNEL_INVALID)
    else if opts.send_role == "" then Some(INVALID_ARGUMENT)
    else if opts.send_address == "" then Some(INVALID_ARGUMENT)
    else if opts.send_channel !in w.containers then Some(CHANNEL_INVALID)
    else None
  }

  /** Report status with no bytes, clear the callback and fail; an empty callback throws. */
  function Reject(c: SendReceiveCtx, status: ApiStatus): (o: Outcome<SendReceiveCtx>)
    ensures c.callback.None? ==> o.Threw? && o.data == c
    ensures c.callback.Some? ==> o == Returned(NOT_SUPPORTED,
              c.(callback := None, env := InvokeIfSet(c.env, c.callback, status, PBytes([]))), [])
  {
    match Invoke(c.env, c.callback, status, PBytes([]))
    case None => Threw(c, [])
    case Some(env) => Returned(NOT_SUPPORTED, c.(callback := None, env := env), [])
  }

  /**
   * StateSendReceiveInitial: check the receive side, then start a receiving
   * connection that creates its own link.
   */
  function Initial(w: World, c: SendReceiveCtx): (o: Outcome<SendReceiveCtx>)
    ensures RecvCheck(w, c.opts).Some? ==> o == Reject(c, RecvCheck(w, c.opts).value)
    ensures RecvCheck(w, c.opts).None? ==>
              && o.Returned? && o.data.callback == c.callback && o.data.env.fired == c.env.fired
              && |o.data.env.requests| > |c.env.requests|
              && o.data.env.requests[|c.env.requests|]
                 == StartConnStateMachine(c.handle, c.opts.recv_channel, c.opts.recv_role, "", true, false)
              && o.data.recvConnSMHandle == w.answer(|c.env.requests|).handle
              && (o.result == SUCCESS <==> o.data.recvConnSMHandle != NULL_RACE_HANDLE)
    ensures o.pushed == []
  {
    match RecvCheck(w, c.opts)
    case Some(status) => Reject(c, status)
    case None =>
      var (env1, a) := Ask(w, c.env, StartConnStateMachine(c.handle, c.opts.recv_channel, c.opts.recv_role,
                                                             "", true, false));
      var c1 := c.(recvConnSMHandle := a.handle, env := env1);
      if a.handle == NULL_RACE_HANDLE then Returned(NOT_SUPPORTED, c1, [])
      else Returned(SUCCESS, c1.(env := Tell(env1, RegisterHandle(c.handle, a.handle))), [])
  }

  /**
   * StateSendReceiveWaitingForSendConnection: once the send connection id is
   * known, move on; otherwise check the send side and start a sending
   * connection to the given address.
   */
  function WaitingForSendConnection(w: World, c: SendReceiveCtx): (o: Outcome<SendReceiveCtx>)
    ensures c.sendConnId != "" ==> o == Returned(SUCCESS, c, [EVENT_SATISFIED])
    ensures c.sendConnId == "" ==> o.pushed == []
    ensures c.sendConnId == "" && SendCheck(w, c.opts).Some? ==> o == Reject(c, SendCheck(w, c.opts).value)
    ensures c.sendConnId == "" && SendCheck(w, c.opts).None? ==>
              && o.Returned? && o.data.callback == c.callback && o.data.env.fired == c.env.fired
              && |o.data.env.requests| > |c.env.requests|
              && o.data.env.requests[|c.env.requests|]
                 == StartConnStateMachine(c.handle, c.opts.send_channel, c.opts.send_role, c.opts.send_address, false, true)
              && o.data.sendConnSMHandle == w.answer(|c.env.requests|).handle
              && (o.result == SUCCESS <==> o.data.sendConnSMHandle != NULL_RACE_HANDLE)
  {
    if c.sendConnId != "" then Returned(SUCCESS, c, [EVENT_SATISFIED])
    else
      match SendCheck(w, c.opts)
      case Some(status) => Reject(c, status)
      case None =>
        var (env1, a) := Ask(w, c.env, StartConnStateMachine(c.handle, c.opts.send_channel, c.opts.send_role,
                                                               c.opts.send_address, false, true));
        var c1 := c.(sendConnSMHandle := a.handle, env := env1);
        if a.handle == NULL_RACE_HANDLE then Returned(NOT_SUPPORTED, c1, [])
        else Returned(SUCCESS, c1.(env := Tell(env1, RegisterHandle(c.handle, a.handle))), [])
  }

  /** The JSON object of the outgoing message. */
  function MessageJson(codecs: Codecs, linkAddress: LinkAddress, replyChannel: ChannelId, data: Bytes): Json {
    Object(map["linkAddress" := linkAddress, "replyChannel" := replyChannel, "message" := codecs.b64encode(data)])
  }

  /** The outgoing package: the JSON text as bytes, with no package-id prefix. */
  function Message(codecs: Codecs, linkAddress: LinkAddress, replyChannel: ChannelId, data: Bytes): (m: Bytes)
    ensures |m| == |codecs.dump(MessageJson(codecs, linkAddress, replyChannel, data))|
  {
    StrToBytes(codecs.dump(MessageJson(codecs, linkAddress, replyChannel, data)))
  }

  /**
   * Whoever reads the package back gets the reply address, the reply
   * channel and the data, when the codecs keep their round-trip laws and
   * the JSON text is byte-sized.
   */
  lemma MessageRoundTrip(codecs: Codecs, linkAddress: LinkAddress, replyChannel: ChannelId, data: Bytes)
    requires Lawful(codecs)
    requires IsByteString(codecs.dump(MessageJson(codecs, linkAddress, replyChannel, data)))
    ensures var j := codecs.parse(BytesToStr(Message(codecs, linkAddress, replyChannel, data)));
            && j.Some?
            && AtString(j.value, "linkAddress") == Some(linkAddress)
            && AtString(j.value, "replyChannel") == Some(replyChannel)
            && AtString(j.value, "message").Some?
            && codecs.b64decode(AtString(j.value, "message").value) == Some(data)
  {
    var j := MessageJson(codecs, linkAddress, replyChannel, data);
    StrBytesRoundTrip(codecs.dump(j));
    assert codecs.parse(codecs.dump(j)) == Some(j);
  }

  /**
   * StateSendReceiveSendOpen: send the message on the send connection; the
   * data is moved out either way.
   */
  function SendOpen(w: World, c: SendReceiveCtx): (o: Outcome<SendReceiveCtx>)
    ensures GetPlugin(w, c.opts.send_channel).Some? ==> o == Threw(c, [])
    ensures GetPlugin(w, c.opts.send_channel).None? ==>
              && o.Returned? && o.data.data == [] && o.data.callback == c.callback && o.data.env.fired == c.env.fired
              && |o.data.env.requests| > |c.env.requests| + 1
              && o.data.env.requests[|c.env.requests| + 1]
                 == SendPackage(c.opts.send_channel, w.answer(|c.env.requests|).handle, c.sendConnId,
                                Message(w.codecs, c.recvLinkAddress, c.opts.recv_channel, c.data))
              && (o.result == SUCCESS <==> w.answer(|c.env.requests| + 1).ok)
    ensures o.pushed == []
  {
    if GetPlugin(w, c.opts.send_channel).Some? then Threw(c, [])
    else
      var (env1, a) := Ask(w, c.env, GenerateHandle);
      var pkg := Message(w.codecs, c.recvLinkAddress, c.opts.recv_channel, c.data);
      var (env2, b) := Ask(w, env1, SendPackage(c.opts.send_channel, a.handle, c.sendConnId, pkg));
      if !b.ok then Returned(NOT_SUPPORTED, c.(data := [], env := env2), [])
      else Returned(SUCCESS, c.(data := [], env := Tell(env2, RegisterHandle(c.handle, a.handle))), [])
  }

  /** StateSendReceivePackageSent: listen on the receive connection once its id is known. */
  function PackageSent(c: SendReceiveCtx): (o: Outcome<SendReceiveCtx>)
    ensures o.Returned? && o.result == SUCCESS && o.pushed == []
    ensures c.recvConnId == "" ==> o.data == c
    ensures c.recvConnId != "" ==> o.data == c.(env := Tell(c.env, RegisterId(c.handle, c.recvConnId)))
  {
    if c.recvConnId != "" then Returned(SUCCESS, c.(env := Tell(c.env, RegisterId(c.handle, c.recvConnId))), [])
    else Returned(SUCCESS, c, [])
  }

  /** StateSendReceiveFinished: hand the reply to the callback, or fail when none arrived. */
  function Finished(c: SendReceiveCtx): (o: Outcome<SendReceiveCtx>)
    ensures c.receivedMsg.None? ==> o == Returned(NOT_SUPPORTED, c, [])
    ensures c.receivedMsg.Some? && c.callback.None? ==> o.Threw?
    ensures c.receivedMsg.Some? && c.callback.Some? ==>
              && o.Returned? && o.result == SUCCESS && o.data.callback.None?
              && o.data.env.fired == c.env.fired + [Fired(c.callback.value, OK, PBytes(c.receivedMsg.value))]
              && o.data.env.requests == c.env.requests + [StateMachineFinished(c.handle)]
  {
    match c.receivedMsg
    case None => Returned(NOT_SUPPORTED, c, [])
    case Some(msg) =>
      (match Invoke(c.env, c.callback, OK, PBytes(msg))
       case None => Threw(c, [])
       case Some(env) => Returned(SUCCESS, c.(callback := None, env := Tell(env, StateMachineFinished(c.handle))), []))
  }

  /** StateSendReceiveFailed: INTERNAL_ERROR only if the callback is still set; tell the manager. */
  function Failed(c: SendReceiveCtx): (o: Outcome<SendReceiveCtx>)
    ensures o.Returned? && o.result == SUCCESS && o.data.callback.None?
    ensures o.data.env.fired == InvokeIfSet(c.env, c.callback, INTERNAL_ERROR, PBytes([])).fired
    ensures o.data.env.requests == c.env.requests + [StateMachineFailed(c.handle)]
  {
    var env := InvokeIfSet(c.env, c.callback, INTERNAL_ERROR, PBytes([]));
    Returned(SUCCESS, c.(callback := None, env := Tell(env, StateMachineFailed(c.handle))), [])
  }

  // ---------------------------------------------------------------------
  // The engine
  // ---------------------------------------------------------------------

  function SendReceiveStates(w: World): map<StateType, StateDef<SendReceiveCtx>> {
    map[STATE_SEND_RECEIVE_INITIAL := PlainState((cur: StateType, c: SendReceiveCtx) => Initial(w, c)),
        STATE_SEND_RECEIVE_WAITING_FOR_SEND_CONNECTION :=
          PlainState((cur: StateType, c: SendReceiveCtx) => WaitingForSendConnection(w, c)),
        STATE_SEND_RECEIVE_SEND_OPEN := PlainState((cur: StateType, c: SendReceiveCtx) => SendOpen(w, c)),
        STATE_SEND_RECEIVE_PACKAGE_SENT := PlainState((cur: StateType, c: SendReceiveCtx) => PackageSent(c)),
        STATE_SEND_RECEIVE_FINISHED := FinalState((cur: StateType, c: SendReceiveCtx) => Finished(c)),
        STATE_SEND_RECEIVE_FAILED := PlainState((cur: StateType, c: SendReceiveCtx) => Failed(c))]
  }

  /** The declarations of SendReceiveStateEngine's constructor, in order. */
  function SendReceiveDecls(): seq<Decl> {
    [Decl(STATE_SEND_RECEIVE_INITIAL, EVENT_CONN_STATE_MACHINE_LINK_ESTABLISHED,
          STATE_SEND_RECEIVE_WAITING_FOR_SEND_CONNECTION),
     Decl(STATE_SEND_RECEIVE_WAITING_FOR_SEND_CONNECTION, EVENT_CONN_STATE_MACHINE_CONNECTED,
          STATE_SEND_RECEIVE_WAITING_FOR_SEND_CONNECTION),
     Decl(STATE_SEND_RECEIVE_WAITING_FOR_SEND_CONNECTION, EVENT_SATISFIED, STATE_SEND_RECEIVE_SEND_OPEN),
     Decl(STATE_SEND_RECEIVE_SEND_OPEN, EVENT_PACKAGE_SENT, STATE_SEND_RECEIVE_PACKAGE_SENT),
     Decl(STATE_SEND_RECEIVE_PACKAGE_SENT, EVENT_CONN_STATE_MACHINE_CONNECTED, STATE_SEND_RECEIVE_PACKAGE_SENT),
     Decl(STATE_SEND_RECEIVE_PACKAGE_SENT, EVENT_RECEIVE_PACKAGE, STATE_SEND_RECEIVE_FINISHED)]
  }

  /**
   * The send-receive lifecycle: receive link up, send connection up (each
   * connection report re-enters the waiting state), package sent, reply.
   */
  function SendReceiveNext(s: StateType, e: EventType): Option<StateType> {
    if s == STATE_SEND_RECEIVE_INITIAL && e == EVENT_CONN_STATE_MACHINE_LINK_ESTABLISHED then
      Some(STATE_SEND_RECEIVE_WAITING_FOR_SEND_CONNECTION)
    else if s == STATE_SEND_RECEIVE_WAITING_FOR_SEND_CONNECTION && e == EVENT_CONN_STATE_MACHINE_CONNECTED then
      Some(STATE_SEND_RECEIVE_WAITING_FOR_SEND_CONNECTION)
    else if s == STATE_SEND_RECEIVE_WAITING_FOR_SEND_CONNECTION && e == EVENT_SATISFIED then
      Some(STATE_SEND_RECEIVE_SEND_OPEN)
    else if s == STATE_SEND_RECEIVE_SEND_OPEN && e == EVENT_PACKAGE_SENT then Some(STATE_SEND_RECEIVE_PACKAGE_SENT)
    else if s == STATE_SEND_RECEIVE_PACKAGE_SENT && e == EVENT_CONN_STATE_MACHINE_CONNECTED then
      Some(STATE_SEND_RECEIVE_PACKAGE_SENT)
    else if s == STATE_SEND_RECEIVE_PACKAGE_SENT && e == EVENT_RECEIVE_PACKAGE then Some(STATE_SEND_RECEIVE_FINISHED)
    else None
  }

  lemma SendReceiveDeclTargets(s: StateType, e: EventType)
    ensures DeclTargets(SendReceiveDecls(), s, e) == TargetSet(SendReceiveNext(s, e))
  {
  }

  /** The declared table is the send-receive lifecycle. */
  lemma SendReceiveDeclsFollow()
    ensures Follows(DeclareAll(map[], SendReceiveDecls()), SendReceiveNext)
  {
    forall s, e
      ensures Declares(DeclareAll(map[], SendReceiveDecls()), s, e) <==> SendReceiveNext(s, e).Some?
      ensures Targets(DeclareAll(map[], SendReceiveDecls()), s, e) == TargetSet(SendReceiveNext(s, e))
    {
      SendReceiveDeclTargets(s, e);
      DeclaredTable(SendReceiveDecls(), s, e, SendReceiveNext(s, e));
    }
  }

  /** What SendReceiveStateEngine's constructor builds. */
  ghost predicate IsSendReceiveTable(w: World, t: Table<SendReceiveCtx>) {
    && t.states == SendReceiveStates(w)
    && Follows(t.transitions, SendReceiveNext)
    && t.initStateId == STATE_SEND_RECEIVE_INITIAL && t.failedStateId == STATE_SEND_RECEIVE_FAILED
  }

  /** SendReceiveStateEngine's constructor. */
  method NewSendReceiveStateEngine(w: World) returns (e: StateEngine<SendReceiveCtx>)
    ensures IsSendReceiveTable(w, e.Spec())
  {
    e := new StateEngine();
    e.AddInitialState(STATE_SEND_RECEIVE_INITIAL, PlainState((cur: StateType, c: SendReceiveCtx) => Initial(w, c)));
    e.AddState(STATE_SEND_RECEIVE_WAITING_FOR_SEND_CONNECTION,
               PlainState((cur: StateType, c: SendReceiveCtx) => WaitingForSendConnection(w, c)));
    e.AddState(STATE_SEND_RECEIVE_SEND_OPEN, PlainState((cur: StateType, c: SendReceiveCtx) => SendOpen(w, c)));
    e.AddState(STATE_SEND_RECEIVE_PACKAGE_SENT, PlainState((cur: StateType, c: SendReceiveCtx) => PackageSent(c)));
    e.AddState(STATE_SEND_RECEIVE_FINISHED, FinalState((cur: StateType, c: SendReceiveCtx) => Finished(c)));
    e.AddFailedState(STATE_SEND_RECEIVE_FAILED, PlainState((cur: StateType, c: SendReceiveCtx) => Failed(c)));
    e.DeclareTransitions(SendReceiveDecls());
    SendReceiveDeclsFollow();
  }

  // ---------------------------------------------------------------------
  // Properties
  // ---------------------------------------------------------------------

  /**
   * The send connection's report moves the waiting machine on to sending:
   * the report records the send id, the re-entered waiting state emits
   * SATISFIED, and the machine ends in SEND_OPEN when sending succeeds.
   */
  lemma SendConnectedLeadsToSendOpen(w: World, t: Table<SendReceiveCtx>, c: Config<SendReceiveCtx>,
                                     connId: ConnectionId, address: LinkAddress, fuel: nat)
    requires IsSendReceiveTable(w, t)
    requires c.currentStateId == STATE_SEND_RECEIVE_WAITING_FOR_SEND_CONNECTION && c.pendingEvents == []
    requires c.data.sendConnSMHandle != c.data.recvConnSMHandle && connId != "" && fuel >= 2
    ensures var d := Apply(c.data, UConnStateMachineConnected(c.data.sendConnSMHandle, connId, address));
            var r := HandleEventSpec(t, c.(data := d), EVENT_CONN_STATE_MACHINE_CONNECTED, fuel);
            && d.sendConnId == connId
            && |r.handled| >= 2 && r.handled[..2] == [EVENT_CONN_STATE_MACHINE_CONNECTED, EVENT_SATISFIED]
            && (r.result == SUCCESS <==> SendOpen(w, d).Returned? && SendOpen(w, d).result == SUCCESS)
            && (r.result == SUCCESS ==> r.config.currentStateId == STATE_SEND_RECEIVE_SEND_OPEN)
  {
    var d := Apply(c.data, UConnStateMachineConnected(c.data.sendConnSMHandle, connId, address));
    var c0 := c.(data := d);
    var c1 := c0.(pendingEvents := [EVENT_CONN_STATE_MACHINE_CONNECTED]);
    var c2 := c0.(pendingEvents := [EVENT_SATISFIED]);
    assert Targets(t.transitions, STATE_SEND_RECEIVE_WAITING_FOR_SEND_CONNECTION, EVENT_CONN_STATE_MACHINE_CONNECTED)
           == TargetSet(SendReceiveNext(STATE_SEND_RECEIVE_WAITING_FOR_SEND_CONNECTION, EVENT_CONN_STATE_MACHINE_CONNECTED));
    HandleOneMoves(t, c0, EVENT_CONN_STATE_MACHINE_CONNECTED, STATE_SEND_RECEIVE_WAITING_FOR_SEND_CONNECTION);
    assert t.states[STATE_SEND_RECEIVE_WAITING_FOR_SEND_CONNECTION].exit(STATE_SEND_RECEIVE_WAITING_FOR_SEND_CONNECTION, d)
           == Returned(SUCCESS, d, []);
    assert t.states[STATE_SEND_RECEIVE_WAITING_FOR_SEND_CONNECTION].enter(STATE_SEND_RECEIVE_WAITING_FOR_SEND_CONNECTION, d)
           == WaitingForSendConnection(w, d);
    TransitionByEnter(t, c0, STATE_SEND_RECEIVE_WAITING_FOR_SEND_CONNECTION);
    assert d.sendConnId != "";
    assert WaitingForSendConnection(w, d) == Returned(SUCCESS, d, [EVENT_SATISFIED]);
    assert c0.currentStateId == STATE_SEND_RECEIVE_WAITING_FOR_SEND_CONNECTION;
    assert c0.pendingEvents + [EVENT_SATISFIED] == [EVENT_SATISFIED];
    assert Config(STATE_SEND_RECEIVE_WAITING_FOR_SEND_CONNECTION, c0.pendingEvents + [EVENT_SATISFIED], d) == c2;
    assert TransitionSpec(t, c0, STATE_SEND_RECEIVE_WAITING_FOR_SEND_CONNECTION) == (SUCCESS, c2);
    assert HandleOne(t, c0, EVENT_CONN_STATE_MACHINE_CONNECTED) == (SUCCESS, c2);
    assert Drain(t, c1, fuel) == Prepend([EVENT_CONN_STATE_MACHINE_CONNECTED], Drain(t, c2, fuel - 1));
    assert Targets(t.transitions, STATE_SEND_RECEIVE_WAITING_FOR_SEND_CONNECTION, EVENT_SATISFIED)
           == TargetSet(SendReceiveNext(STATE_SEND_RECEIVE_WAITING_FOR_SEND_CONNECTION, EVENT_SATISFIED));
    HandleOneMoves(t, c0, EVENT_SATISFIED, STATE_SEND_RECEIVE_SEND_OPEN);
    TransitionByEnter(t, c0, STATE_SEND_RECEIVE_SEND_OPEN);
    var (res, c3) := HandleOne(t, c0, EVENT_SATISFIED);
    assert Drain(t, c2, fuel - 1) == if res != SUCCESS then Drained(res, FailSpec(t, c3), [EVENT_SATISFIED])
                                     else Prepend([EVENT_SATISFIED], Drain(t, c3, fuel - 2));
  }

  /** Without a reply the finished state fails, so the machine cannot finish. */
  lemma NoReplyNoFinish(c: SendReceiveCtx)
    requires c.receivedMsg.None?
    ensures Finished(c).Returned? && Finished(c).result == NOT_SUPPORTED
    ensures Finished(c).data.env == c.env
  {
  }

  ghost predicate CallbackOnce(c: SendReceiveCtx, cb: Callback) {
    OneShot(c.callback, c.env.fired, cb)
  }

  /** Every state that fires the callback clears it, and none fires anything else. */
  lemma StatesKeepCallbackOnce(w: World, t: Table<SendReceiveCtx>, cb: Callback)
    requires IsSendReceiveTable(w, t)
    ensures Keeps(t, (c: SendReceiveCtx) => CallbackOnce(c, cb))
  {
    forall s, cur, c | s in t.states && CallbackOnce(c, cb)
      ensures CallbackOnce(t.states[s].enter(cur, c).data, cb)
      ensures CallbackOnce(t.states[s].exit(cur, c).data, cb)
    {
      if s == STATE_SEND_RECEIVE_INITIAL {
        if RecvCheck(w, c.opts).Some? {
          FireAndClear(c.callback, c.env, cb, RecvCheck(w, c.opts).value, PBytes([]));
        }
      } else if s == STATE_SEND_RECEIVE_WAITING_FOR_SEND_CONNECTION {
        if c.sendConnId == "" && SendCheck(w, c.opts).Some? {
          FireAndClear(c.callback, c.env, cb, SendCheck(w, c.opts).value, PBytes([]));
        }
      } else if s == STATE_SEND_RECEIVE_FINISHED {
        if c.receivedMsg.Some? {
          FireAndClear(c.callback, c.env, cb, OK, PBytes(c.receivedMsg.value));
        }
      } else if s == STATE_SEND_RECEIVE_FAILED {
        FireAndClear(c.callback, c.env, cb, INTERNAL_ERROR, PBytes([]));
      }
    }
  }

  /** A machine started with cb set and nothing fired fires cb at most once. */
  lemma StartFiresCallbackAtMostOnce(w: World, t: Table<SendReceiveCtx>, c: Config<SendReceiveCtx>, fuel: nat,
                                     cb: Callback)
    requires IsSendReceiveTable(w, t)
    requires c.data.callback == Some(cb) && c.data.env.fired == []
    ensures Count(StartSpec(t, c, fuel).config.data.env.fired, cb) <= 1
  {
    StatesKeepCallbackOnce(w, t, cb);
    StartKeeps(t, c, fuel, (d: SendReceiveCtx) => CallbackOnce(d, cb));
  }

  /** ... and keeps firing it at most once on every later event. */
  lemma HandleEventKeepsCallbackOnce(w: World, t: Table<SendReceiveCtx>, c: Config<SendReceiveCtx>, e: EventType,
                                     fuel: nat, cb: Callback)
    requires IsSendReceiveTable(w, t)
    requires CallbackOnce(c.data, cb)
    ensures Count(HandleEventSpec(t, c, e, fuel).config.data.env.fired, cb) <= 1
  {
    StatesKeepCallbackOnce(w, t, cb);
    HandleEventKeeps(t, c, e, fuel, (d: SendReceiveCtx) => CallbackOnce(d, cb));
  }
}

=== FILE: states.dfy ===
// The link-establishment analysis of states-analysis/states.py: two nodes
// (a client and a server) each hold links over channels with a
// directionality; they trade link addresses, load each other's links and
// create new ones until every requirement is covered by a ready link, or
// give up after six rounds. The module-level counter that numbers links is
// the LinkCounter object both nodes share.

module LinkStates {
  import opened Common

  /** Who may send on a channel's links: both ends, the loader to the creator, or the creator to the loader. */
  datatype Directionality = BIDI | L2C | C2L

  datatype Channel = Channel(name: string, directionality: Directionality)

  /** A link as one node sees it; a requirement is a Link too. */
  datatype Link = Link(link: string, channel: Channel, send: bool, recv: bool, isolated: bool, ready: bool)

  /** is_send: whether this end may send, by directionality and by whether this end loaded the link. */
  function IsSend(channel: Channel, loaded: bool): bool {
    match channel.directionality
    case BIDI => true
    case L2C => loaded
    case C2L => !loaded
  }

  /** is_recv: this end receives exactly when the other end would send. */
  function IsRecv(channel: Channel, loaded: bool): bool {
    IsSend(channel, !loaded)
  }

  /**
   * A non-BIDI link is one-way at each end: exactly one of send and
   * receive; a BIDI link is both. The creator sends where the loader
   * receives.
   */
  lemma OneWayUnlessBidi(channel: Channel, loaded: bool)
    ensures channel.directionality != BIDI <==> IsSend(channel, loaded) != IsRecv(channel, loaded)
    ensures channel.directionality == BIDI ==> IsSend(channel, loaded) && IsRecv(channel, loaded)
    ensures IsSend(channel, false) == IsRecv(channel, true) && IsRecv(channel, false) == IsSend(channel, true)
  {
  }

  /** Link.__gt__: a ready link on the same channel with at least the isolation, sending and receiving asked for. */
  predicate Covers(l: Link, req: Link) {
    && l.ready
    && l.channel.name == req.channel.name
    && (!req.isolated || l.isolated)
    && (!req.send || l.send)
    && (!req.recv || l.recv)
  }

  /** Covering passes through a ready link in between. */
  lemma CoversTransitive(a: Link, b: Link, c: Link)
    requires Covers(a, b) && Covers(b, c)
    ensures Covers(a, c)
  {
  }

  type Links = map<string, Link>

  /** Some link covers the requirement. */
  predicate AnyCovers(links: Links, req: Link) {
    exists k :: k in links && Covers(links[k], req)
  }

  /** NodeState.satisfies: every requirement is covered by some link. */
  predicate Satisfies(links: Links, reqs: seq<Link>) {
    forall i :: 0 <= i < |reqs| ==> AnyCovers(links, reqs[i])
  }

  /** NodeState.can_send: some ready link can send. */
  predicate CanSend(links: Links) {
    exists k :: k in links && links[k].ready && links[k].send
  }

  /** Without a ready link nothing is covered, so only an empty list of requirements is met. */
  lemma NothingReadySatisfiesNothing(links: Links, reqs: seq<Link>)
    requires forall k :: k in links ==> !links[k].ready
    ensures Satisfies(links, reqs) <==> reqs == []
    ensures !CanSend(links)
  {
    if reqs != [] {
      assert !AnyCovers(links, reqs[0]);
    }
  }

  /** Adding a link under a new name keeps every requirement that was met. */
  lemma SatisfiesGrows(links: Links, name: string, l: Link, reqs: seq<Link>)
    requires name !in links && Satisfies(links, reqs)
    ensures Satisfies(links[name := l], reqs)
  {
    forall i | 0 <= i < |reqs|
      ensures AnyCovers(links[name := l], reqs[i])
    {
      assert AnyCovers(links, reqs[i]);
      var k :| k in links && Covers(links[k], reqs[i]);
      assert links[name := l][k] == links[k];
    }
  }

  // ---- creating and loading links ----

  /** The name create_link gives: "{channel}-link-{n}". */
  function LinkName(channel: Channel, n: nat): string {
    channel.name + "-link-" + Decimal(n)
  }

  /** The counter makes names on one channel distinct. */
  lemma LinkNamesDistinct(channel: Channel, m: nat, n: nat)
    requires m != n
    ensures LinkName(channel, m) != LinkName(channel, n)
  {
    var prefix := channel.name + "-link-";
    if LinkName(channel, m) == LinkName(channel, n) {
      assert Decimal(m) == LinkName(channel, m)[|prefix|..];
      assert Decimal(n) == LinkName(channel, n)[|prefix|..];
      DecimalInjective(m, n);
    }
  }

  /** The link create_link makes: not yet ready, sending and receiving as its creator may. */
  function NewLink(channel: Channel, isolated: bool, n: nat): Link {
    Link(LinkName(channel, n), channel, IsSend(channel, false), IsRecv(channel, false), isolated, false)
  }

  /** The link load_link makes of an address: ready, sending and receiving as its loader may. */
  function Loaded(addr: Link): Link {
    Link(addr.link, addr.channel, IsSend(addr.channel, true), IsRecv(addr.channel, true), addr.isolated, true)
  }

  /** The same requirement seen from the other end: sending and receiving swapped. */
  function Mirror(req: Link): Link {
    req.(send := req.recv, recv := req.send)
  }

  /** The requirements step will create a link for: on a BIDI channel, or where the creator has the direction asked for. */
  predicate Creatable(req: Link) {
    || req.channel.directionality == BIDI
    || (req.channel.directionality == L2C && req.recv)
    || (req.channel.directionality == C2L && req.send)
  }

  /**
   * Why those are the ones: once the other end has loaded it, a link
   * created for a one-way requirement covers it at the creator, and the
   * loader's copy covers the mirrored requirement; for a requirement that
   * is not creatable, a link of one's own never covers it.
   */
  lemma CreatedLinkServesBothEnds(req: Link, n: nat)
    requires req.send != req.recv
    ensures Creatable(req) ==> Covers(NewLink(req.channel, true, n).(ready := true), req)
    ensures Creatable(req) ==> Covers(Loaded(NewLink(req.channel, true, n)), Mirror(req))
    ensures !Creatable(req) ==> !Covers(NewLink(req.channel, true, n).(ready := true), req)
  {
  }

  /** The other node's links after load_link marked each address it loaded ready. */
  function MarkReady(links: Links, msgs: seq<Link>): (r: Links)
    ensures r.Keys == links.Keys
    decreases |msgs|
  {
    if msgs == [] then links
    else
      var prev := MarkReady(links, msgs[..|msgs| - 1]);
      var name := msgs[|msgs| - 1].link;
      if name in prev then prev[name := prev[name].(ready := true)] else prev
  }

  /** This node's links after loading each address in turn. */
  function LoadAll(links: Links, msgs: seq<Link>): (r: Links)
    ensures r.Keys == links.Keys + set i | 0 <= i < |msgs| :: msgs[i].link
    ensures forall i :: 0 <= i < |msgs| ==> r[msgs[i].link].ready
    decreases |msgs|
  {
    if msgs == [] then links
    else
      var prev := LoadAll(links, msgs[..|msgs| - 1]);
      var m := msgs[|msgs| - 1];
      assert forall i :: 0 <= i < |msgs| - 1 ==> msgs[..|msgs| - 1][i] == msgs[i];
      prev[m.link := Loaded(m)]
  }

  /** What step's creation loop leaves: the links, and the new links in the order created. */
  datatype Created = Created(links: Links, out: seq<Link>)

  /**
   * The creation loop of step over the requirements: for each one no
   * link covers and that is creatable, an isolated link numbered from
   * `next` on.
   */
  function CreateMissing(links: Links, reqs: seq<Link>, next: nat): (r: Created)
    ensures |r.out| <= |reqs|
    ensures links.Keys <= r.links.Keys
    decreases |reqs|
  {
    if reqs == [] then Created(links, [])
    else
      var prev := CreateMissing(links, reqs[..|reqs| - 1], next);
      CreateIfMissing(prev, reqs[|reqs| - 1], next + |prev.out|)
  }

  /** One iteration of that loop: a link numbered n for the requirement if none covers it and it is creatable. */
  function CreateIfMissing(prev: Created, req: Link, n: nat): Created {
    if !AnyCovers(prev.links, req) && Creatable(req) then
      var l := NewLink(req.channel, true, n);
      Created(prev.links[l.link := l], prev.out + [l])
    else prev
  }

  /** Each of the links created is kept under its name, unready and isolated, numbered from `next` in creation order. */
  predicate CreatedKept(r: Created, next: nat) {
    forall i :: 0 <= i < |r.out| ==>
      && r.out[i].link in r.links
      && r.out[i].link == LinkName(r.out[i].channel, next + i)
      && !r.out[i].ready && r.out[i].isolated
  }

  /** Each link created is kept under its name, unready and isolated, and numbered in creation order. */
  lemma {:induction false} CreatedLinksKept(links: Links, reqs: seq<Link>, next: nat)
    ensures CreatedKept(CreateMissing(links, reqs, next), next)
    decreases |reqs|
  {
    if reqs != [] {
      CreatedLinksKept(links, reqs[..|reqs| - 1], next);
      var prev := CreateMissing(links, reqs[..|reqs| - 1], next);
      var r := CreateMissing(links, reqs, next);
      var req := reqs[|reqs| - 1];
      if !AnyCovers(prev.links, req) && Creatable(req) {
        var l := NewLink(req.channel, true, next + |prev.out|);
        assert r.out == prev.out + [l] && r.links == prev.links[l.link := l];
        forall i | 0 <= i < |r.out|
          ensures r.out[i].link in r.links
        {
          if i < |prev.out| {
            assert r.out[i] == prev.out[i];
          }
        }
      }
    }
  }

  /** One more requirement: the creation loop's next iteration. */
  lemma CreateMissingStep(links: Links, reqs: seq<Link>, j: nat, next: nat)
    requires j < |reqs|
    ensures var prev := CreateMissing(links, reqs[..j], next);
      CreateMissing(links, reqs[..j + 1], next) == CreateIfMissing(prev, reqs[j], next + |prev.out|)
  {
    assert reqs[..j + 1][..j] == reqs[..j];
  }

  /**
   * Every link created answers a requirement that was creatable and not
   * covered when its turn came, and on that requirement's channel.
   */
  lemma {:induction false} CreatedForUncovered(links: Links, reqs: seq<Link>, next: nat, i: nat)
    requires i < |CreateMissing(links, reqs, next).out|
    ensures exists j ::
      && 0 <= j < |reqs| && Creatable(reqs[j])
      && CreateMissing(links, reqs, next).out[i] == NewLink(reqs[j].channel, true, next + i)
    decreases |reqs|
  {
    var prev := CreateMissing(links, reqs[..|reqs| - 1], next);
    var req := reqs[|reqs| - 1];
    if i < |prev.out| {
      CreatedForUncovered(links, reqs[..|reqs| - 1], next, i);
      var j :| 0 <= j < |reqs| - 1 && Creatable(reqs[..|reqs| - 1][j])
        && prev.out[i] == NewLink(reqs[..|reqs| - 1][j].channel, true, next + i);
      assert reqs[..|reqs| - 1][j] == reqs[j];
      assert CreateMissing(links, reqs, next).out[i] == prev.out[i];
    } else {
      assert CreateMissing(links, reqs, next).out[i] == NewLink(req.channel, true, next + i);
    }
  }

  /** finished_or: "FINISHED" once the node's requirements are met, else the status given. */
  function FinishedOr(finished: bool, status: string): (r: string)
    requires status != "FINISHED"
    ensures finished <==> r == "FINISHED"
  {
    if finished then "FINISHED" else status
  }

  // ---- the nodes ----

  /** The module-level link_idx, which starts at 1 and numbers every link either node creates. */
  class LinkCounter {
    var linkIdx: nat

    constructor()
      ensures linkIdx == 1
    {
      linkIdx := 1;
    }
  }

  datatype Role = ClientNode | ServerNode

  /** The channels a node's arguments name. */
  datatype NodeArgs = NodeArgs(initSend: Channel, initRecv: Channel, finalSend: Channel, finalRecv: Channel)

  /**
   * The links start creates, in order. The server offers its initial
   * receive channel when that is L2C or BIDI, then its initial send
   * channel when that is C2L; the client its initial send channel when
   * C2L, then its initial receive channel when L2C.
   */
  function StartChannels(role: Role, args: NodeArgs): seq<Channel> {
    var (first, takeFirst, second, takeSecond) := StartPlan(role, args);
    (if takeFirst then [first] else []) + (if takeSecond then [second] else [])
  }

  /** The two channels start considers, in order, and whether it creates a link on each. */
  function StartPlan(role: Role, args: NodeArgs): (Channel, bool, Channel, bool) {
    match role
    case ServerNode =>
      (args.initRecv, args.initRecv.directionality == L2C || args.initRecv.directionality == BIDI,
       args.initSend, args.initSend.directionality == C2L)
    case ClientNode =>
      (args.initSend, args.initSend.directionality == C2L,
       args.initRecv, args.initRecv.directionality == L2C)
  }

  /** The links create_link makes for these channels, numbered from n on. */
  function Numbered(chs: seq<Channel>, n: nat): (r: seq<Link>)
    ensures |r| == |chs|
    ensures forall i :: 0 <= i < |r| ==> !r[i].ready && r[i].channel == chs[i] && r[i].link == LinkName(chs[i], n + i)
  {
    seq(|chs|, i requires 0 <= i < |chs| => NewLink(chs[i], false, n + i))
  }

  lemma NumberedAppend(a: seq<Channel>, b: seq<Channel>, n: nat)
    ensures Numbered(a + b, n) == Numbered(a, n) + Numbered(b, n + |a|)
  {
  }

  lemma StartNumbered(role: Role, args: NodeArgs, n: nat, a: seq<Link>, b: seq<Link>)
    requires a == Numbered(if StartPlan(role, args).1 then [StartPlan(role, args).0] else [], n)
    requires b == Numbered(if StartPlan(role, args).3 then [StartPlan(role, args).2] else [], n + |a|)
    ensures a + b == Numbered(StartChannels(role, args), n)
  {
    var (first, takeFirst, second, takeSecond) := StartPlan(role, args);
    NumberedAppend(if takeFirst then [first] else [], if takeSecond then [second] else [], n);
  }

  /** Links added under their own names, in order. */
  function AddLinks(links: Links, ls: seq<Link>): (r: Links)
    ensures r.Keys == links.Keys + set i | 0 <= i < |ls| :: ls[i].link
    decreases |ls|
  {
    if ls == [] then links
    else
      assert forall i :: 0 <= i < |ls| - 1 ==> ls[..|ls| - 1][i] == ls[i];
      AddLinks(links, ls[..|ls| - 1])[ls[|ls| - 1].link := ls[|ls| - 1]]
  }

  lemma {:induction false} AddLinksAppend(links: Links, a: seq<Link>, b: seq<Link>)
    ensures AddLinks(links, a + b) == AddLinks(AddLinks(links, a), b)
    decreases |b|
  {
    if b != [] {
      assert (a + b)[..|a + b| - 1] == a + b[..|b| - 1];
      AddLinksAppend(links, a, b[..|b| - 1]);
    } else {
      assert a + b == a;
    }
  }

  class NodeState {
    const role: Role
    const requirements: seq<Link>
    var links: Links
    var otherNode: NodeState?

    constructor(role: Role, requirements: seq<Link>)
      ensures this.role == role && this.requirements == requirements
      ensures links == map[] && otherNode == null
    {
      this.role := role;
      this.requirements := requirements;
      links := map[];
      otherNode := null;
    }

    /** create_link: a new link under the next number, kept in this node's links. */
    method CreateLink(channel: Channel, isolated: bool, counter: LinkCounter) returns (addr: Link)
      modifies this, counter
      ensures addr == NewLink(channel, isolated, old(counter.linkIdx))
      ensures counter.linkIdx == old(counter.linkIdx) + 1
      ensures links == old(links)[addr.link := addr]
      ensures otherNode == old(otherNode)
    {
      addr := NewLink(channel, isolated, counter.linkIdx);
      counter.linkIdx := counter.linkIdx + 1;
      links := links[addr.link := addr];
    }

    /**
     * load_link: this node's own, ready copy of the address, and the
     * other node's link of that name made ready. The other node must hold
     * it: otherwise the lookup fails with a KeyError.
     */
    method LoadLink(addr: Link)
      requires otherNode != null && otherNode != this && addr.link in otherNode.links
      modifies this, otherNode
      ensures links == old(links)[addr.link := Loaded(addr)]
      ensures otherNode == old(otherNode) && otherNode.otherNode == old(otherNode.otherNode)
      ensures otherNode.links == old(otherNode.links)[addr.link := old(otherNode.links)[addr.link].(ready := true)]
    {
      links := links[addr.link := Loaded(addr)];
      var other := otherNode;
      other.links := other.links[addr.link := other.links[addr.link].(ready := true)];
    }

    /** Client.start and Server.start: the links offered out of band, each created unisolated. */
    method Start(args: NodeArgs, counter: LinkCounter) returns (addrs: seq<Link>)
      modifies this, counter
      ensures addrs == Numbered(StartChannels(role, args), old(counter.linkIdx))
      ensures counter.linkIdx == old(counter.linkIdx) + |addrs|
      ensures links == AddLinks(old(links), addrs)
      ensures otherNode == old(otherNode)
    {
      var (first, takeFirst, second, takeSecond) := StartPlan(role, args);
      var firstAddrs := OfferIf(takeFirst, first, counter);
      var secondAddrs := OfferIf(takeSecond, second, counter);
      addrs := firstAddrs + secondAddrs;
      AddLinksAppend(old(links), firstAddrs, secondAddrs);
      StartNumbered(role, args, old(counter.linkIdx), firstAddrs, secondAddrs);
    }

    /** One branch of start: create an unisolated link on the channel if asked to. */
    method OfferIf(take: bool, channel: Channel, counter: LinkCounter) returns (addrs: seq<Link>)
      modifies this, counter
      ensures addrs == Numbered(if take then [channel] else [], old(counter.linkIdx))
      ensures counter.linkIdx == old(counter.linkIdx) + |addrs|
      ensures links == AddLinks(old(links), addrs)
      ensures otherNode == old(otherNode)
    {
      addrs := [];
      if take {
        var a := CreateLink(channel, false, counter);
        addrs := [a];
        assert [a][..0] == [];
      }
    }

    /**
     * step: load the addresses received; then, if some ready link can
     * send, create a link for each requirement still uncovered that this
     * end can create. The status is "FINISHED" once the requirements are
     * met, else "CREATED NEW LINKS" or "STUCK".
     */
    method Step(msgs: seq<Link>, counter: LinkCounter) returns (status: string, out: seq<Link>)
      requires otherNode != null && otherNode != this
      requires forall i :: 0 <= i < |msgs| ==> msgs[i].link in otherNode.links
      modifies this, otherNode, counter
      ensures otherNode == old(otherNode) && otherNode.otherNode == old(otherNode.otherNode)
      ensures otherNode.links == MarkReady(old(otherNode.links), msgs)
      ensures var loaded := LoadAll(old(links), msgs);
        if CanSend(loaded)
        then Created(links, out) == CreateMissing(loaded, requirements, old(counter.linkIdx))
        else links == loaded && out == []
      ensures counter.linkIdx == old(counter.linkIdx) + |out|
      ensures old(links).Keys <= links.Keys
      ensures forall i :: 0 <= i < |out| ==> out[i].link in links
      ensures status == FinishedOr(Satisfies(links, requirements), if out != [] then "CREATED NEW LINKS" else "STUCK")
    {
      LoadAddresses(msgs);
      out := [];
      if CanSend(links) {
        ghost var loaded := links;
        out := CreateForRequirements(counter);
        CreatedLinksKept(loaded, requirements, old(counter.linkIdx));
      }
      var finished := Satisfies(links, requirements);
      status := FinishedOr(finished, if out != [] then "CREATED NEW LINKS" else "STUCK");
    }

    /** The body of step's creation loop for one requirement; `out` holds the links created so far. */
    method CreateIfUncovered(req: Link, out: seq<Link>, counter: LinkCounter) returns (out': seq<Link>)
      modifies this, counter
      ensures Created(links, out') == CreateIfMissing(Created(old(links), out), req, old(counter.linkIdx))
      ensures counter.linkIdx == old(counter.linkIdx) + |out'| - |out|
      ensures otherNode == old(otherNode)
    {
      out' := out;
      if !AnyCovers(links, req) && Creatable(req) {
        var addr := CreateLink(req.channel, true, counter);
        out' := out + [addr];
      }
    }

    /** The loading loop of step. */
    method LoadAddresses(msgs: seq<Link>)
      requires otherNode != null && otherNode != this
      requires forall i :: 0 <= i < |msgs| ==> msgs[i].link in otherNode.links
      modifies this, otherNode
      ensures otherNode == old(otherNode) && otherNode.otherNode == old(otherNode.otherNode)
      ensures otherNode.links == MarkReady(old(otherNode.links), msgs)
      ensures links == LoadAll(old(links), msgs)
    {
      var i := 0;
      while i < |msgs|
        invariant 0 <= i <= |msgs|
        invariant links == LoadAll(old(links), msgs[..i])
        invariant otherNode == old(otherNode) && otherNode.otherNode == old(otherNode.otherNode)
        invariant otherNode.links == MarkReady(old(otherNode.links), msgs[..i])
      {
        LoadLink(msgs[i]);
        assert msgs[..i + 1][..i] == msgs[..i];
        i := i + 1;
      }
      assert msgs[..i] == msgs;
    }

    /** The creation loop of step. */
    method CreateForRequirements(counter: LinkCounter) returns (out: seq<Link>)
      modifies this, counter
      ensures Created(links, out) == CreateMissing(old(links), requirements, old(counter.linkIdx))
      ensures counter.linkIdx == old(counter.linkIdx) + |out|
      ensures otherNode == old(otherNode)
    {
      out := [];
      var j := 0;
      while j < |requirements|
        invariant 0 <= j <= |requirements|
        invariant Created(links, out) == CreateMissing(old(links), requirements[..j], old(counter.linkIdx))
        invariant counter.linkIdx == old(counter.linkIdx) + |out|
        invariant otherNode == old(otherNode)
      {
        CreateMissingStep(old(links), requirements, j, old(counter.linkIdx));
        out := CreateIfUncovered(requirements[j], out, counter);
        j := j + 1;
      }
      assert requirements[..j] == requirements;
    }
  }

  // ---- the scenarios ----

  /** run stops after at most this many rounds. */
  const MAX_ROUNDS: nat := 6

  /**
   * One round of run's loop: the server steps on what the client sent,
   * then the client on what the server had queued and just created; the
   * client's new links are queued for the next round.
   */
  method Round(server: NodeState, client: NodeState, clientMsgs: seq<Link>, serverMsgs: seq<Link>, counter: LinkCounter)
    returns (clientMsgs': seq<Link>, serverMsgs': seq<Link>)
    requires server != client && server.otherNode == client && client.otherNode == server
    requires forall i :: 0 <= i < |clientMsgs| ==> clientMsgs[i].link in client.links
    requires forall i :: 0 <= i < |serverMsgs| ==> serverMsgs[i].link in server.links
    modifies server, client, counter
    ensures server.otherNode == client && client.otherNode == server
    ensures forall i :: 0 <= i < |clientMsgs'| ==> clientMsgs'[i].link in client.links
    ensures serverMsgs' == []
  {
    var status, msgs := server.Step(clientMsgs, counter);
    var queued := serverMsgs + msgs;
    assert forall i :: 0 <= i < |queued| ==> queued[i].link in server.links by {
      forall i | 0 <= i < |queued|
        ensures queued[i].link in server.links
      {
        if i >= |serverMsgs| {
          assert queued[i] == msgs[i - |serverMsgs|];
        }
      }
    }
    status, clientMsgs' := client.Step(queued, counter);
    serverMsgs' := [];
  }

  /**
   * run: both nodes start; their out-of-band addresses are exchanged (the
   * client's only with client_oob); then server and client step in turn,
   * each loading what the other created, until both are satisfied or six
   * rounds have passed. The result is whether both are satisfied.
   */
  method Run(serverArgs: NodeArgs, clientArgs: NodeArgs, serverReqs: seq<Link>, clientReqs: seq<Link>,
             clientOob: bool, counter: LinkCounter)
    returns (ok: bool, rounds: nat, server: NodeState, client: NodeState)
    modifies counter
    ensures fresh(server) && fresh(client)
    ensures rounds <= MAX_ROUNDS
    ensures ok <==> Satisfies(server.links, serverReqs) && Satisfies(client.links, clientReqs)
    ensures !ok ==> rounds == MAX_ROUNDS
  {
    server := new NodeState(ServerNode, serverReqs);
    client := new NodeState(ClientNode, clientReqs);
    server.otherNode := client;
    client.otherNode := server;
    var serverMsgs := server.Start(serverArgs, counter);
    var clientMsgs := client.Start(clientArgs, counter);
    if !clientOob {
      clientMsgs := [];
    }
    rounds := 0;
    while !(Satisfies(client.links, clientReqs) && Satisfies(server.links, serverReqs))
      invariant rounds < MAX_ROUNDS
      invariant server.otherNode == client && client.otherNode == server
      invariant forall i :: 0 <= i < |clientMsgs| ==> clientMsgs[i].link in client.links
      invariant forall i :: 0 <= i < |serverMsgs| ==> serverMsgs[i].link in server.links
      decreases MAX_ROUNDS - rounds
    {
      clientMsgs, serverMsgs := Round(server, client, clientMsgs, serverMsgs, counter);
      rounds := rounds + 1;
      if rounds > 5 {
        break;
      }
    }
    ok := Satisfies(server.links, serverReqs) && Satisfies(client.links, clientReqs);
  }

  /**
   * scenario1: on a BIDI channel, one link the server creates and the
   * client loads covers a send-only and a receive-only requirement at
   * both ends. (As written the nodes are built without the requirements
   * argument their constructor takes; here they get none to meet.)
   */
  method Scenario1(counter: LinkCounter) returns (serverFinal: bool, clientFinal: bool)
    modifies counter
    ensures serverFinal && clientFinal
  {
    var channel := Channel("chanA", BIDI);
    var server := new NodeState(ServerNode, []);
    var client := new NodeState(ClientNode, []);
    server.otherNode := client;
    client.otherNode := server;
    var requirements := [Link("0", channel, true, false, false, true), Link("0", channel, false, true, false, true)];
    var addr := server.CreateLink(channel, false, counter);
    client.LoadLink(addr);
    assert Covers(server.links[addr.link], requirements[0]) && Covers(server.links[addr.link], requirements[1]);
    assert Covers(client.links[addr.link], requirements[0]) && Covers(client.links[addr.link], requirements[1]);
    serverFinal := Satisfies(server.links, requirements);
    clientFinal := Satisfies(client.links, requirements);
  }

  // ---- the parameter space ----

  /** One combination of directionalities for the four channels, and whether the client may share addresses out of band. */
  datatype ParamSet = ParamSet(initC2s: Directionality, initS2c: Directionality, finalC2s: Directionality,
                               finalS2c: Directionality, clientOob: bool)

  /**
   * The combination prune_invalid_params keeps: not a creator-to-loader
   * initial client-to-server channel without client out-of-band sharing,
   * since the client has no way to hand the server that first address.
   */
  predicate Plausible(p: ParamSet) {
    !(p.initC2s == C2L && !p.clientOob)
  }

  /** prune_invalid_params: the combinations kept, in their original order. */
  function PruneInvalidParams(ps: seq<ParamSet>): (r: seq<ParamSet>)
    ensures forall p :: p in r <==> p in ps && Plausible(p)
    ensures |r| <= |ps|
    decreases |ps|
  {
    if ps == [] then []
    else if Plausible(ps[0]) then [ps[0]] + PruneInvalidParams(ps[1..])
    else PruneInvalidParams(ps[1..])
  }

  /** Pruning twice removes nothing more. */
  lemma {:induction false} PruneIdempotent(ps: seq<ParamSet>)
    ensures PruneInvalidParams(PruneInvalidParams(ps)) == PruneInvalidParams(ps)
    decreases |ps|
  {
    if ps != [] {
      PruneIdempotent(ps[1..]);
      if Plausible(ps[0]) {
        assert ([ps[0]] + PruneInvalidParams(ps[1..]))[1..] == PruneInvalidParams(ps[1..]);
      }
    }
  }

  function DirectionalityName(d: Directionality): string {
    match d
    case BIDI => "BIDI"
    case L2C => "L2C"
    case C2L => "C2L"
  }

  /** The four channels run_params builds: "^" marks the initial channels, "$" the final ones. */
  function ChannelsOf(p: ParamSet): (Channel, Channel, Channel, Channel) {
    (Channel("^c2s" + DirectionalityName(p.initC2s), p.initC2s),
     Channel("^s2c" + DirectionalityName(p.initS2c), p.initS2c),
     Channel("$c2s" + DirectionalityName(p.finalC2s), p.finalC2s),
     Channel("$s2c" + DirectionalityName(p.finalS2c), p.finalS2c))
  }

  /**
   * make_args: the server sends on the server-to-client channels and
   * receives on the client-to-server ones, the client the other way
   * round. The client's final receive channel is final_c2s as written;
   * start reads only the initial channels, so nothing depends on it.
   */
  function MakeArgs(initC2s: Channel, initS2c: Channel, finalC2s: Channel, finalS2c: Channel): (r: (NodeArgs, NodeArgs))
    ensures r.0.initSend == r.1.initRecv && r.0.initRecv == r.1.initSend
    ensures r.0.finalSend == finalS2c && r.1.finalSend == r.0.finalRecv
  {
    (NodeArgs(initS2c, initC2s, finalS2c, finalC2s), NodeArgs(initC2s, initS2c, finalC2s, finalC2s))
  }

  /**
   * make_requirements: each node needs a ready send link on the channels
   * it sends on and a ready receive link on the ones it receives on; only
   * the final ones must be isolated (when asked).
   */
  function MakeRequirements(initC2s: Channel, initS2c: Channel, finalC2s: Channel, finalS2c: Channel, isolated: bool)
    : (r: (seq<Link>, seq<Link>))
    ensures |r.0| == 4 && |r.1| == 4
    ensures forall i :: 0 <= i < 4 ==> r.0[i].ready && r.1[i].ready && r.0[i].send != r.0[i].recv
  {
    ([Link(initS2c.name, initS2c, true, false, false, true),
      Link(initC2s.name, initC2s, false, true, false, true),
      Link(finalS2c.name, finalS2c, true, false, isolated, true),
      Link(finalC2s.name, finalC2s, false, true, isolated, true)],
     [Link(initC2s.name, initC2s, true, false, false, true),
      Link(initS2c.name, initS2c, false, true, false, true),
      Link(finalC2s.name, finalC2s, true, false, isolated, true),
      Link(finalS2c.name, finalS2c, false, true, isolated, true)])
  }

  /**
   * The two nodes' requirements mirror each other, so a link one node
   * creates for its requirement, once loaded, also meets the other's
   * matching requirement.
   */
  lemma RequirementsMirror(initC2s: Channel, initS2c: Channel, finalC2s: Channel, finalS2c: Channel, isolated: bool, n: nat)
    ensures var (server, client) := MakeRequirements(initC2s, initS2c, finalC2s, finalS2c, isolated);
      && client[1] == Mirror(server[0]) && client[0] == Mirror(server[1])
      && client[3] == Mirror(server[2]) && client[2] == Mirror(server[3])
      && forall i :: 0 <= i < 4 && Creatable(server[i]) ==>
           Covers(Loaded(NewLink(server[i].channel, true, n)), client[[1, 0, 3, 2][i]])
  {
    var (server, client) := MakeRequirements(initC2s, initS2c, finalC2s, finalS2c, isolated);
    forall i | 0 <= i < 4 && Creatable(server[i])
      ensures Covers(Loaded(NewLink(server[i].channel, true, n)), client[[1, 0, 3, 2][i]])
    {
      CreatedLinkServesBothEnds(server[i], n);
    }
  }

  /** run_params: the channels of one combination, the arguments and requirements, and run. */
  method RunParams(p: ParamSet, counter: LinkCounter) returns (success: bool, rounds: nat)
    modifies counter
    ensures rounds <= MAX_ROUNDS && (!success ==> rounds == MAX_ROUNDS)
  {
    var (initC2s, initS2c, finalC2s, finalS2c) := ChannelsOf(p);
    var (serverArgs, clientArgs) := MakeArgs(initC2s, initS2c, finalC2s, finalS2c);
    var (serverReqs, clientReqs) := MakeRequirements(initC2s, initS2c, finalC2s, finalS2c, true);
    var server, client;
    success, rounds, server, client := Run(serverArgs, clientArgs, serverReqs, clientReqs, p.clientOob, counter);
  }
}
